=== FILE: README.md ===
# Joypad firmware core, modelled in Dafny

This project models the core of the Joypad (USBRetro) controller-adapter
firmware and of its host-side test tool, and proves properties of the model.

- **Binary CDC link.** Frames are `0xAA | length (LE16) | type | seq |
  payload | CRC (LE16)`. The CRC is CRC-16/CCITT-FALSE over type, seq and
  payload. The model covers:
  - the host tool's frame builder, parser and stream pass;
  - the firmware's byte-at-a-time receiver and its transmitter;
  - the text console that hands the data port over to the receiver.
- **Settings journal.** Two 4 KB flash sectors hold 32 slots of 256 bytes.
  Each save writes the next empty slot with the next sequence number; the
  newest live slot is the current settings; when both sectors are full, the
  sector not holding the newest entry is erased. The same file remaps buttons
  through a custom profile and cycles the active profile.
- **WiFi controllers (JOCP).** Controllers send 76-byte INPUT packets over
  UDP. The model covers:
  - validation of the 12-byte header;
  - four controller slots found by IP address, with packet-loss counting and
    a 5-second timeout;
  - conversion to a JP gamepad event;
  - rumble and LED feedback sent back over TCP, at most every 50 ms per
    controller.
  The button conversion, like those of the other drivers, is a table of
  moves from source bits to JP bits whose common properties are proved once.
- **Dreamcast controller (Maple bus).** The adapter answers the console as a
  controller at address 0x20 with a vibration pack (Puru Puru) at 0x02. The
  model covers:
  - the packet checksum `CalcCRC`;
  - the decoder `ConsumePacket`, which checks the framing, picks the reply and
    stores vibration settings and the auto-stop table;
  - the 300 ms rumble auto-stop and the rumble level read back;
  - the active-low button word and the two trigger bytes sent to the console.
- **Maple bus receive tables.** The receiving PIO pushes the two bus lines as
  2-bit transitions, four to a byte. A 40-state graph (start sequence, eight
  data bits, end sequence) says which transition each state expects. The
  model covers the graph builder, and the table that gives, for every state
  and every pushed byte, the state after the byte, the Push, Error, Reset
  and End flags and the index of the data-byte pair received.
- **USB device output modes.** Each mode turns the router's JP button word
  and the profile's analog values into its host's report, and hands the
  host's rumble and LED output back as feedback. The model covers:
  - generic HID (`hid_mode`), PS4 (DS4 layout), XInput (Xbox 360),
    original Xbox (XID), Xbox One, SInput, the GameCube adapter (WUP-028),
    the Xbox Adaptive Controller and the keyboard/mouse mode;
  - the shared conversions: d-pad to hat switch, 8-bit axis to signed
    16-bit (plain and Y-inverted), and the digital trigger fallback;
  - the keyboard/mouse converter: the default key map, WASD and mouse-stick
    movement, and the per-report key, modifier and mouse-button slots.
- **TinyUSB class drivers.** The XInput driver (endpoint claiming, the
  vendor control requests of the Xbox 360 security handshake, the IN and
  OUT transfers) and the GameCube adapter driver (endpoint opening, the
  rumble command, the 37-byte input report), over a descriptor walk shared
  with the configuration descriptors.
- **BLE beacon.** The advertising payload that names the adapter over
  Bluetooth LE, and the beacon's start, stop and stack-state handling.
- **Host drivers.** Each turns a controller's report into a JP gamepad
  event and drives its rumble and LEDs:
  - the raphnet PC Engine adapter (USB HID);
  - the native N64 controller ports (joybus), with rumble-pak commands;
  - the Microsoft SideWinder Strategic Commander and Dual Strike (USB HID),
    whose reports are read as bit fields;
  - the Nintendo Switch 2 Pro and GameCube controllers (USB HID and a bulk
    endpoint), with stick calibration, HD haptics and the 18-command
    initialisation sequence;
  - the Wiimote over Bluetooth with its Nunchuk and Classic Controller
    extensions, with the initialisation state machine, the extension
    detection and the feedback pass.

## Model

| member | source | states |
|---|---|---|
| CdcHost.Crc16Ccitt | tools/cdc_test.py:37-48 | the tool's byte loop and eight-clock loop return the CRC-16/CCITT-FALSE reference value (initial 0xFFFF, polynomial 0x1021, MSB first), a 16-bit value |
| Crc16.ClockStep | tools/cdc_test.py:43-47 | shift left, XOR 0x1021 when bit 15 was set, keep 16 bits: exactly one clock of the reference register |
| Crc16.DetectsSingleByteError | tools/cdc_test.py:37-48 | changing any one byte of a message changes its CRC |
| Crc16.RegisterNext | tools/cdc_test.py:40-47 | each byte moves the register by XOR into the high byte followed by eight clocks |
| CdcHost.BuildPacket | tools/cdc_test.py:51-58 | a built frame is 7 bytes longer than its payload |
| CdcHost.BuildPacketLayout | tools/cdc_test.py:51-58 | byte by byte: 0xAA, the length low then high, type, seq, the payload, then the CRC of type, seq and payload (never of sync or length), low byte first |
| CdcHost.ParsePacket | tools/cdc_test.py:61-91 | None for fewer than 7 bytes, a first byte other than 0xAA, a declared length running past the buffer, or a CRC mismatch; otherwise type, seq, the declared payload and raw length 7 + length |
| CdcHost.ParseOfFrame | tools/cdc_test.py:61-91 | a built frame followed by anything parses back to its type, seq and payload with raw length 7 + payload length |
| CdcHost.ParseBuildRoundTrip | tools/cdc_test.py:51-91 | parse_packet(build_packet(t, s, p)) gives t, s, p and raw length 7 + len(p) |
| CdcHost.CorruptedFrameRejected | tools/cdc_test.py:78-84 | a built frame with one byte of its type, seq or payload changed is rejected |
| CdcHost.FindSync | tools/cdc_test.py:123 | the position of the first 0xAA, or none when there is no 0xAA |
| CdcHost.DrainShort | tools/cdc_test.py:121 | a buffer under 7 bytes is left as it is |
| CdcHost.DrainWithoutSync | tools/cdc_test.py:123-126 | a buffer without 0xAA is cleared entirely |
| CdcHost.DrainStopsAt | tools/cdc_test.py:127-132 | the bytes before the first 0xAA are dropped, and a failed parse ends the pass with the rest kept |
| CdcHost.DrainTakes | tools/cdc_test.py:127-135 | a decoded packet is handled and exactly its raw length is removed before the pass goes on |
| CdcHost.DrainFrames | tools/cdc_test.py:119-135 | a buffer of built frames is handled frame by frame and emptied |
| CdcHost.NoiseSkipped | tools/cdc_test.py:122-128 | noise without 0xAA in front of built frames is dropped and the frames are all handled |
| CdcHost.DrainFrom | tools/cdc_test.py:122-128 | a pass begins at the first 0xAA: the bytes before it make no difference |
| CdcHost.BadFrameStaysBad | tools/cdc_test.py:130-132 | a complete frame with a bad CRC keeps failing to parse whatever bytes arrive after it |
| CdcHost.DrainStallsOnBadFrame | tools/cdc_test.py:130-132 | with such a frame at the head, every pass handles nothing and keeps the whole buffer |
| CdcHost.CorruptedFrameStalls | tools/cdc_test.py:130-132 | a frame damaged in its type, seq or payload blocks all the frames behind it |
| CdcHost.DrainResyncStep | tools/cdc_test.py:119-135 | each pass of the corrected loop either stops at a buffer that may still become a frame or goes on with a shorter buffer |
| CdcHost.DrainResyncLeavesOnlyWaiting | tools/cdc_test.py:119-135 | the corrected loop keeps only a buffer that can still grow into a frame |
| CdcHost.DrainResyncFrames | tools/cdc_test.py:119-135 | the corrected loop handles a buffer of built frames exactly as the original does |
| CdcHost.ResyncRecovers | tools/cdc_test.py:119-135 | the corrected loop skips a bad frame at the head and handles every frame behind it |
| CdcHost.NextSeq | tools/cdc_test.py:157 | the command seq counts up by one and wraps from 255 to 0 |
| CdcHost.CdcProtocolHost.constructor | tools/cdc_test.py:95-100 | seq 0 and an empty receive buffer |
| CdcHost.CdcProtocolHost.ProcessBuffer | tools/cdc_test.py:119-135 | the loop handles exactly the packets of the stream pass and keeps its rest |
| CdcHost.CdcProtocolHost.OnRead | tools/cdc_test.py:106-113 | new bytes are appended to the buffer and then one pass runs |
| CdcHost.CdcProtocolHost.SendCmd | tools/cdc_test.py:149-160 | writes the CMD frame with the current seq, then moves seq on by one modulo 256 |
| CdcProtocol.CdcCrc16 | src/usb/usbd/cdc/cdc_protocol.c:14-28 | the firmware's loop over a buffer prefix computes the same CRC as the host tool |
| CdcProtocol.Clock | src/usb/usbd/cdc/cdc_protocol.c:19-25 | one inner iteration, computed in `int` and stored back in 16 bits, is exactly one clock of the reference register |
| CdcProtocol.Step | src/usb/usbd/cdc/cdc_protocol.c:51-136 | one byte through the receiver keeps its invariant: a length of at most 512 outside LEN_HI, and a payload position within the length |
| CdcProtocol.EndOfFrame | src/usb/usbd/cdc/cdc_protocol.c:106-131 | the CRC high byte always returns the receiver to SYNC with its invariant kept |
| CdcProtocol.SyncIgnoresNoise | src/usb/usbd/cdc/cdc_protocol.c:56-61 | in SYNC, any byte other than 0xAA changes nothing |
| CdcProtocol.OversizeResyncs | src/usb/usbd/cdc/cdc_protocol.c:69-77 | the length is low byte + 256 × high byte; over 512 the receiver returns to SYNC, otherwise it goes to TYPE |
| CdcProtocol.PayloadStored | src/usb/usbd/cdc/cdc_protocol.c:94-99 | a payload byte is stored at the position, the position moves by one and never passes the length, and CRC_LO follows exactly when it reaches it |
| CdcProtocol.CrcHiOutcome | src/usb/usbd/cdc/cdc_protocol.c:106-131 | after the CRC high byte the state is SYNC; the message is delivered iff the recomputed CRC matches, and a mismatch NAKs the frame's seq |
| CdcProtocol.OnlyCrcHiActs | src/usb/usbd/cdc/cdc_protocol.c:51-136 | no byte other than the CRC high byte delivers or NAKs |
| CdcProtocol.RunAppend | src/usb/usbd/cdc/cdc_protocol.c:51-136 | feeding two streams in turn is feeding their concatenation, effects included |
| CdcProtocol.SummariesAppend | src/usb/usbd/cdc/cdc_protocol.c:117-131 | the handled messages, the NAK frames and the last CMD seq of two runs combine run by run |
| CdcProtocol.RunHeader | src/usb/usbd/cdc/cdc_protocol.c:56-92 | sync, length, type and seq take the receiver from SYNC to PAYLOAD, or straight to CRC_LO for a zero length, with the fields stored |
| CdcProtocol.RunPayload | src/usb/usbd/cdc/cdc_protocol.c:94-99 | the rest of a payload is stored in order and leads to CRC_LO, quietly |
| CdcProtocol.RunCrc | src/usb/usbd/cdc/cdc_protocol.c:101-131 | the two CRC bytes end the frame in SYNC with one delivery or one NAK |
| CdcProtocol.RunFrame | src/usb/usbd/cdc/cdc_protocol.c:51-136 | from SYNC, any frame of at most 512 payload bytes returns the receiver to SYNC with one effect: the message if its CRC field matches, else a NAK of its seq |
| CdcProtocol.ReceivesBuiltFrame | src/usb/usbd/cdc/cdc_protocol.c:51-136 | a frame the host tool builds is delivered unchanged |
| CdcProtocol.ReceivesStream | src/usb/usbd/cdc/cdc_protocol.c:51-136 | consecutive built frames are delivered one by one, in order |
| CdcProtocol.DamagedFrame | src/usb/usbd/cdc/cdc_protocol.c:110-117 | a frame damaged in its type, seq or payload keeps its length and its now wrong CRC field |
| CdcProtocol.CorruptedFrameNaked | src/usb/usbd/cdc/cdc_protocol.c:106-131 | such a frame costs one NAK and leaves the receiver in SYNC for the next frame |
| CdcProtocol.DataPort.Write | src/usb/usbd/cdc/cdc.c:209-217 | nothing is written and 0 returned while the port is closed; otherwise the bytes are written and their count returned |
| CdcProtocol.Protocol.constructor | src/usb/usbd/cdc/cdc_protocol.c:34-39 | everything zero, the handler set, the receiver in SYNC |
| CdcProtocol.Protocol.RxReset | src/usb/usbd/cdc/cdc_protocol.c:41-45 | back to SYNC with position 0, nothing else touched |
| CdcProtocol.Protocol.RxByte | src/usb/usbd/cdc/cdc_protocol.c:51-136 | the receiver moves by `Step`; true iff a frame was delivered; the CMD seq is saved, the handler called or the NAK sent as the step says |
| CdcProtocol.Protocol.Advance | src/usb/usbd/cdc/cdc_protocol.c:55-104 | every state but CRC_HI moves the receiver by `Step` and touches nothing else |
| CdcProtocol.Protocol.Length | src/usb/usbd/cdc/cdc_protocol.c:56-77 | SYNC, LEN_LO and LEN_HI move the receiver by `Step`: the sync byte starts a frame, the two length bytes are stored, an oversize length resyncs |
| CdcProtocol.Protocol.TypeAndSeq | src/usb/usbd/cdc/cdc_protocol.c:79-92 | TYPE and SEQ store their byte and move by `Step`, skipping PAYLOAD for a zero length |
| CdcProtocol.Protocol.StoreByte | src/usb/usbd/cdc/cdc_protocol.c:94-99 | the byte goes into the payload buffer at the position |
| CdcProtocol.Protocol.EndFrame | src/usb/usbd/cdc/cdc_protocol.c:106-132 | the CRC high byte: back to SYNC, then delivery with the seq saved for a CMD, or a NAK |
| CdcProtocol.Protocol.Accept | src/usb/usbd/cdc/cdc_protocol.c:117-126 | a matching frame saves its seq when it is a CMD and reaches the handler when there is one; the receiver is untouched |
| CdcProtocol.Protocol.FrameCrc | src/usb/usbd/cdc/cdc_protocol.c:110-115 | the CRC of type, seq and payload copied into the work buffer |
| CdcProtocol.Protocol.Send | src/usb/usbd/cdc/cdc_protocol.c:142-179 | over 512 bytes returns 0 and writes nothing; otherwise writes exactly the host tool's frame and returns its length |
| CdcProtocol.Protocol.Encode | src/usb/usbd/cdc/cdc_protocol.c:149-176 | the packet buffer holds exactly the host tool's frame for type, seq and payload, and `pos` is its length |
| CdcProtocol.Protocol.Fill | src/usb/usbd/cdc/cdc_protocol.c:152-164 | the header fields in order, then the payload copied behind them |
| CdcProtocol.Protocol.SendResponse | src/usb/usbd/cdc/cdc_protocol.c:181-185 | an RSP frame with the seq of the last CMD |
| CdcProtocol.Protocol.SendEvent | src/usb/usbd/cdc/cdc_protocol.c:187-192 | an EVT frame with the transmit seq, which then moves on by one modulo 256 |
| CdcProtocol.Protocol.SendNak | src/usb/usbd/cdc/cdc_protocol.c:194-197 | an empty NAK frame with the given seq |
| CdcConsole.CString | src/usb/usbd/cdc/cdc.c:162-163 | the C string of a buffer is its prefix up to the first NUL |
| CdcConsole.CStringAtTerminator | src/usb/usbd/cdc/cdc.c:162-163 | writing the NUL after the line makes the line (up to any NUL typed into it) the string interpreted |
| CdcConsole.DigitPrefix | src/usb/usbd/cdc/cdc.c:55-57 | the longest run of digits at the front, which `atoi` reads |
| CdcConsole.DecimalRoundTrip | src/usb/usbd/cdc/cdc.c:45-56 | reading back, as `atoi` does, a number printed with `%d` gives the number |
| CdcConsole.ModeNames | src/usb/usbd/cdc/cdc.c:59-68 | HID/DINPUT, XOG/XBOX_OG/XBOX and XAC/ADAPTIVE select modes 0, 1 and 8 in any letter case |
| CdcConsole.ModeNumber | src/usb/usbd/cdc/cdc.c:52-68 | -1 or a mode number: a leading digit always gives a number, and otherwise only the HID, Xbox and XAC names give one |
| CdcConsole.Respond | src/usb/usbd/cdc/cdc.c:38-134 | a mode switch happens only for `MODE=` with a mode in range other than the current one; every non-empty command gets a reply and the empty one none |
| CdcConsole.InvalidModeRejected | src/usb/usbd/cdc/cdc.c:84-87 | a mode outside [0, mode count) is answered with the error and changes nothing |
| CdcConsole.ModeCommandRoundTrip | src/usb/usbd/cdc/cdc.c:43-87 | `MODE=` followed by a printed number selects that number: a switch, "already", or the error when out of range |
| CdcConsole.EditLine | src/usb/usbd/cdc/cdc.c:158-177 | the line never reaches 64 characters |
| CdcConsole.FeedByte | src/usb/usbd/cdc/cdc.c:148-177 | in binary mode the line stays empty |
| CdcConsole.FeedAll | src/usb/usbd/cdc/cdc.c:144-178 | the same holds after any stream |
| CdcConsole.FirstSync | src/usb/usbd/cdc/cdc.c:149 | the first 0xAA of a stream, or its length when there is none |
| CdcConsole.SyncSwitchesForGood | src/usb/usbd/cdc/cdc.c:148-156 | the first 0xAA switches to binary mode for good; the receiver gets every byte from it on, itself included, and none before |
| CdcConsole.FeedAllFilters | src/usb/usbd/cdc/cdc.c:148-156 | the console's mode and forwarded bytes after a stream depend only on where 0xAA bytes occur: binary from the first one on, and each byte forwarded exactly when binary mode holds or it is 0xAA |
| CdcConsole.FilterFromText | src/usb/usbd/cdc/cdc.c:148-156 | starting in text mode, the console turns binary iff the stream has an 0xAA, and forwards exactly the bytes from the first one on |
| CdcConsole.TypingKeepsFirst63 | src/usb/usbd/cdc/cdc.c:173-176 | printable text keeps its first 63 characters, drops the rest and dispatches nothing |
| CdcConsole.TypedCommand | src/usb/usbd/cdc/cdc.c:158-165 | 1 to 63 printable characters and CR dispatch exactly that line and empty the buffer |
| CdcConsole.ConverseAppend | src/usb/usbd/cdc/cdc.c:38-134 | the interpreter over two lists of lines in turn is the interpreter over their concatenation |
| CdcConsole.Serve | src/usb/usbd/cdc/cdc.c:145-177 | one data-port byte keeps the console and the receiver valid |
| CdcConsole.ServeAllConsole | src/usb/usbd/cdc/cdc.c:136-179 | the text side of a stream: the console filters it, and the interpreter answers exactly the completed lines, in order |
| CdcConsole.ServeAllReceiver | src/usb/usbd/cdc/cdc.c:136-179 | the binary side of a stream: the receiver runs over exactly the forwarded bytes, with their deliveries, NAKs and CMD seq |
| CdcConsole.Console.constructor | src/usb/usbd/cdc/cdc.c:29-35 | text mode with an empty line |
| CdcConsole.Console.ProcessCommand | src/usb/usbd/cdc/cdc.c:38-134 | the reply and mode change of `Respond` on the buffer's C string |
| CdcConsole.Console.ReceiveByte | src/usb/usbd/cdc/cdc.c:145-177 | the loop body moves the whole port state (line, mode, replies, receiver, CMD seq, handled messages, NAKs written) by `Serve`, and keeps the console and receiver valid |
| CdcConsole.Console.Forward | src/usb/usbd/cdc/cdc.c:149-156 | 0xAA, or binary mode, sends the byte to the receiver with the line dropped |
| CdcConsole.Console.EndLine | src/usb/usbd/cdc/cdc.c:160-165 | a non-empty line is NUL-terminated, interpreted and cleared |
| CdcConsole.Console.Edit | src/usb/usbd/cdc/cdc.c:158-177 | text mode edits the line as `EditLine` says and interprets the line it completes |
| CdcConsole.Console.Task | src/usb/usbd/cdc/cdc.c:136-179 | the bytes waiting on the data port move the port state by `ServeAll`, whose text and binary sides `ServeAllConsole` and `ServeAllReceiver` describe |
| Flash.SlotOffset | src/core/services/storage/flash.c:82-89 | slots 0-15 lie in sector A and 16-31 in sector B (just below A), each a whole 256-byte page inside its sector, aligned like the sector |
| Flash.SlotsDisjoint | src/core/services/storage/flash.c:80-89 | two different slots never share a byte of flash |
| Flash.NewestSpec | src/core/services/storage/flash.c:104-124 | -1 exactly when no slot has the magic and a non-erased sequence; otherwise the first such slot with the highest sequence number |
| Flash.NewestIsUniqueMaximum | src/core/services/storage/flash.c:104-124 | a live entry whose sequence number is above every other live entry is the one chosen |
| Flash.FirstEmptySpec | src/core/services/storage/flash.c:138-147 | one scan returns the first slot of its range whose sequence is 0xFFFFFFFF, and -1 only when there is none |
| Flash.EmptySlotSpec | src/core/services/storage/flash.c:126-165 | -1 only when all 32 slots are used; otherwise an empty slot that is the first empty one of its sector, taken from the sector holding the newest entry (sector A when there is none) whenever that sector still has one |
| Flash.Stamped | src/core/services/storage/flash.c:309-312 | the entry written is the settings with the magic and the previous sequence number plus one, wrapping as a uint32_t |
| Flash.SaveKeepsNewest | src/core/services/storage/flash.c:317-329 | a save never overwrites or erases the newest entry: the erased sector is always the other one |
| Flash.SaveChangesOnly | src/core/services/storage/flash.c:315-335 | a save changes only the slot it writes and, when both sectors were full, the slots of the erased sector |
| Flash.SaveIsLoaded | src/core/services/storage/flash.c:307-335 | an entry newer than every live entry is the newest after it is written, so the next load returns it |
| Flash.SaveNowLoads | src/core/services/storage/flash.c:307-345 | while the sequence number stays below the erased value, the saved entry becomes the newest, the previous newest survives, and no live entry is newer than the new sequence number |
| Flash.NameField | src/core/services/storage/flash.c:392-396 | at most 11 characters of the name are copied and the rest of the 12-byte field is NUL |
| Flash.ProfileInit | src/core/services/storage/flash.c:386-407 | a fresh profile has the name NUL-terminated, every button on passthrough, both sensitivities 100 and no flags |
| Flash.Route | src/core/services/storage/flash.c:419-431 | the bit one pressed input button adds: its own bit for 0x00, nothing for 0xFF, bit m-1 for 1..18, nothing otherwise or when released |
| Flash.RemapBits | src/core/services/storage/flash.c:409-435 | output bit j is set exactly when some pressed input button among the first n is mapped onto j |
| Flash.RemapBelow18 | src/core/services/storage/flash.c:417-431 | no output bit above 17 is ever set |
| Flash.ApplyButtons | src/core/services/storage/flash.c:409-435 | without a profile the buttons pass unchanged; with one, the loop computes the remap that `RemapBits` characterises |
| Flash.GetCustomProfile | src/core/services/storage/flash.c:437-445 | the stored profile exactly when the index is below both the custom count and 4, otherwise none |
| Flash.NextIndex | src/core/services/storage/flash.c:528 | the next index stays below the total |
| Flash.CycleInverse | src/core/services/storage/flash.c:515-547 | on indices below the total, previous undoes next and next undoes previous |
| Flash.CycleRoundTrip | src/core/services/storage/flash.c:515-547 | with the active index in range, cycling is never cut by the clamp, and forward then back returns to the same profile |
| Flash.Store.constructor | src/core/services/storage/flash.c:70-78 | the statics start at zero: nothing pending, not loaded, sequence 0 |
| Flash.Store.FindNewestSlot | src/core/services/storage/flash.c:104-124 | the loop returns `Newest` over all 32 slots |
| Flash.Store.SearchSector | src/core/services/storage/flash.c:136-147 | the loop returns the first empty slot of the range, as `FirstEmpty` says |
| Flash.Store.FindEmptySlot | src/core/services/storage/flash.c:126-165 | returns `EmptySlot`, the search order `EmptySlotSpec` describes |
| Flash.Store.Load | src/core/services/storage/flash.c:201-216 | found exactly when a live slot exists; then the newest entry is returned and its sequence adopted, which leaves no live entry newer than the current sequence |
| Flash.Store.Init | src/core/services/storage/flash.c:173-199 | nothing pending, loaded, and the runtime settings and sequence come from the newest entry, or are the defaults (magic set, everything else zero) and 0 |
| Flash.Store.Save | src/core/services/storage/flash.c:218-226 | the settings are kept with the magic, marked pending and timestamped; the flash is not touched |
| Flash.Store.GetSettings | src/core/services/storage/flash.c:452-458 | the runtime settings exactly when they are loaded; nothing (NULL) before |
| Flash.Store.EraseSector | src/core/services/storage/flash.c:279-303 | every slot of the chosen sector reads as erased and no other slot changes |
| Flash.Store.WritePage | src/core/services/storage/flash.c:253-277 | the slot holds the entry afterwards and no other slot changes |
| Flash.Store.ChooseSlot | src/core/services/storage/flash.c:314-329 | the slot written is an empty one, or, with no slot empty, the first slot of the sector not holding the newest entry after that sector is erased |
| Flash.Store.SaveNow | src/core/services/storage/flash.c:305-345 | the sequence number steps by one, the journal becomes `AfterSave` of the stamped entry, the pending flag is cleared, and while the sequence stays below the erased value the invariant holds and the new entry is the newest |
| Flash.Store.Task | src/core/services/storage/flash.c:354-366 | a pending save is written once at least 5000 ms have passed since the last change; otherwise nothing changes |
| Flash.Store.ActiveProfileIndex | src/core/services/storage/flash.c:460-467 | 0 before the settings are loaded |
| Flash.Store.TotalProfileCount | src/core/services/storage/flash.c:490-497 | 1 before loading, else one more than the custom count (as a uint8_t) |
| Flash.Store.ActiveCustomProfile | src/core/services/storage/flash.c:499-513 | a profile exactly when loaded and the active index is 1..count (and at most 4); index i gives stored profile i-1 |
| Flash.Store.SetActiveProfileIndex | src/core/services/storage/flash.c:469-488 | the index is clamped to the custom count, and a debounced save is scheduled only when the active index changes |
| Flash.Store.CycleNext | src/core/services/storage/flash.c:515-530 | with custom profiles, the active index becomes (index + 1) mod total, clamped; otherwise nothing changes |
| Flash.Store.CyclePrev | src/core/services/storage/flash.c:532-547 | with custom profiles, the active index steps back, from 0 to total - 1, clamped; otherwise nothing changes |
| CdcCommands.Find | src/usb/usbd/cdc/cdc_commands.c:61 | a position found is at or after the start and the pattern occurs there |
| CdcCommands.FindSpec | src/usb/usbd/cdc/cdc_commands.c:61 | like `strstr`, the position is the first occurrence, and none means no occurrence from the start on |
| CdcCommands.IndexOf | src/usb/usbd/cdc/cdc_commands.c:65 | like `strchr`, the first position holding the character, or none when no position does |
| CdcCommands.QuotedAfter | src/usb/usbd/cdc/cdc_commands.c:64-68 | the text up to the first quote, which follows it; none exactly when there is no quote |
| CdcCommands.JsonGetString | src/usb/usbd/cdc/cdc_commands.c:55-71 | the value holds no quote (and no NUL in a C string); no `"key":"` means no value |
| CdcCommands.StringRoundTrip | src/usb/usbd/cdc/cdc_commands.c:55-71 | `"key":"value"` after a quote-free prefix reads back as exactly the value |
| CdcCommands.SkipBlanks | src/usb/usbd/cdc/cdc_commands.c:83 | the rest starts with neither space nor tab |
| CdcCommands.SkipBlanksOver | src/usb/usbd/cdc/cdc_commands.c:83 | spaces and tabs in front of a non-blank are all skipped, and nothing more |
| CdcCommands.BlankEndSuffix | src/usb/usbd/cdc/cdc_commands.c:83 | the scanning loop stops where the suffix without blanks starts |
| CdcCommands.AtoiOfShow | src/usb/usbd/cdc/cdc_commands.c:86 | `atoi` reads a printed integer followed by a non-digit back as that integer |
| CdcCommands.AtoiOfDecimal | src/usb/usbd/cdc/cdc_commands.c:86 | a printed natural number reads back as itself, through the signed reader and the console's `atoi` alike |
| CdcCommands.IntAfter | src/usb/usbd/cdc/cdc_commands.c:82-90 | a value exactly when the first non-blank character is `-` or a digit |
| CdcCommands.IntRoundTrip | src/usb/usbd/cdc/cdc_commands.c:73-91 | `"key":`, blanks and a printed integer read back as that integer |
| CdcCommands.IntRejects | src/usb/usbd/cdc/cdc_commands.c:73-91 | after `"key":` and blanks, anything but `-` or a digit gives no value |
| CdcCommands.SkipBlanksFrom | src/usb/usbd/cdc/cdc_commands.c:83 | the loop stops at the start of `SkipBlanks` of the text |
| CdcCommands.JsonGetInt | src/usb/usbd/cdc/cdc_commands.c:73-91 | the search, the blank loop and `atoi` compute `IntField` |
| CdcCommands.BoolAfter | src/usb/usbd/cdc/cdc_commands.c:102-111 | true exactly when the text after blanks starts with `true`, false exactly when it starts with `false` |
| CdcCommands.BoolRoundTrip | src/usb/usbd/cdc/cdc_commands.c:93-112 | `"key":`, blanks and `true` or `false` read back as that value |
| CdcCommands.JsonGetBool | src/usb/usbd/cdc/cdc_commands.c:93-112 | the search, the blank loop and the two comparisons compute `BoolField` |
| CdcCommands.NumberRun | src/usb/usbd/cdc/cdc_commands.c:520 | the number skip stops at a character that is neither `-` nor a digit |
| CdcCommands.NumberRunOf | src/usb/usbd/cdc/cdc_commands.c:520 | a run of digits is skipped exactly |
| CdcCommands.StallAsWritten | src/usb/usbd/cdc/cdc_commands.c:510-526 | at a character that is not blank, `]`, `,`, `-`, a digit or NUL, one pass moves nothing and stores nothing, so the loop never ends |
| CdcCommands.StallExample | src/usb/usbd/cdc/cdc_commands.c:510-526 | `[1.5]` stores 1 and then stalls at `.` |
| CdcCommands.StepAgrees | src/usb/usbd/cdc/cdc_commands.c:510-526 | wherever the loop as written makes progress or stops at `]`, the corrected pass does the same |
| CdcCommands.StepNumberAt | src/usb/usbd/cdc/cdc_commands.c:517-525 | a number is stored as `atoi` modulo 256 (the `uint8_t` cast), then the number, blanks and one comma are skipped |
| CdcCommands.StepOverNumber | src/usb/usbd/cdc/cdc_commands.c:517-525 | a printed byte followed by `,` or `]` is read back as itself, the comma skipped |
| CdcCommands.ArrayValues | src/usb/usbd/cdc/cdc_commands.c:510 | never more than `max_count` values in all |
| CdcCommands.ArrayField | src/usb/usbd/cdc/cdc_commands.c:498-529 | at most `max_count` values |
| CdcCommands.ArrayRoundTrip | src/usb/usbd/cdc/cdc_commands.c:498-529 | a button map printed as `d,d,...,d]` reads back as its first `max_count` values |
| CdcCommands.SkipNumberFrom | src/usb/usbd/cdc/cdc_commands.c:520 | the loop stops after `NumberRun` characters |
| CdcCommands.ArrayItemFrom | src/usb/usbd/cdc/cdc_commands.c:511-525 | one pass of the loop body moves the cursor as `Step` says and stores its value |
| CdcCommands.ReadArrayFrom | src/usb/usbd/cdc/cdc_commands.c:509-528 | the loop stores exactly `ArrayValues` of the text after `[` |
| CdcCommands.JsonGetIntArray | src/usb/usbd/cdc/cdc_commands.c:498-529 | returns `ArrayField`, at most `max_count` values |
| CdcCommands.JsonGetCmd | src/usb/usbd/cdc/cdc_commands.c:115-124 | a name is the `cmd` string, non-empty, shorter than the buffer and quote-free |
| CdcCommands.CmdRoundTrip | src/usb/usbd/cdc/cdc_commands.c:115-124 | `{"cmd":"NAME"` yields NAME exactly when it is non-empty and shorter than the buffer |
| CdcProfiles.CustomStart | src/usb/usbd/cdc/cdc_commands.c:291-299 | custom profiles start after the built-in ones, or at 1 after the virtual Default |
| CdcProfiles.TotalCount | src/usb/usbd/cdc/cdc_commands.c:282-288 | the start of the custom profiles plus their count, in a `uint8_t` |
| CdcProfiles.UnifiedToCustom | src/usb/usbd/cdc/cdc_commands.c:291-300 | a custom index exactly for unified indices from the custom start on, otherwise -1 |
| CdcProfiles.CustomToUnified | src/usb/usbd/cdc/cdc_commands.c:302-307 | custom indices land at or after the custom start |
| CdcProfiles.IndexRoundTrip | src/usb/usbd/cdc/cdc_commands.c:291-307 | the two conversions undo each other on custom indices |
| CdcProfiles.BuiltinOrCustom | src/usb/usbd/cdc/cdc_commands.c:291-317 | below the total, an index is built-in exactly when it is not custom, and a custom one is below the custom count |
| CdcProfiles.NegativeIndex | src/usb/usbd/cdc/cdc_commands.c:291-317 | a negative index is never custom, and counts as built-in exactly when the app has built-in profiles |
| CdcProfiles.PutName | src/usb/usbd/cdc/cdc_commands.c:579-583 | at most 11 characters are copied and NUL-terminated; the rest of the field is kept |
| CdcProfiles.EditOf | src/usb/usbd/cdc/cdc_commands.c:577-615 | the fields of a request: a name without NUL and at most 18 map values |
| CdcProfiles.EditedSens | src/usb/usbd/cdc/cdc_commands.c:598-608 | a sensitivity given is clamped to 0..200; without one, 100 for a new profile, unchanged otherwise |
| CdcProfiles.EditedFlags | src/usb/usbd/cdc/cdc_commands.c:611-615 | flags given are kept modulo 256; otherwise unchanged |
| CdcProfiles.EditHonoured | src/usb/usbd/cdc/cdc_commands.c:577-615 | a name given is stored cut to 11 characters, a new profile without one gets `Custom n`; a full 18-value map replaces the map, a new profile without one gets passthrough; otherwise name and map are kept |
| CdcProfiles.SaveOutcome | src/usb/usbd/cdc/cdc_commands.c:533-624 | a save that succeeds answers with an index and a name, and needs loaded settings |
| CdcProfiles.SaveChangesOne | src/usb/usbd/cdc/cdc_commands.c:533-624 | a save edits exactly one profile (a new one appended when the index is 255) and changes no other profile and no other setting |
| CdcProfiles.SaveKeepsRange | src/usb/usbd/cdc/cdc_commands.c:556-573 | the custom count stays at most 4 |
| CdcProfiles.GetReply | src/usb/usbd/cdc/cdc_commands.c:374-439 | an error, the built-in info or the custom profile info |
| CdcProfiles.SaveThenGet | src/usb/usbd/cdc/cdc_commands.c:374-624 | PROFILE.GET of the index a save answers returns the saved profile |
| CdcProfiles.SetTarget | src/usb/usbd/cdc/cdc_commands.c:442-470 | refused exactly when the index is missing or outside the total; a built-in choice is the index itself |
| CdcProfiles.SelectCustom | src/usb/usbd/cdc/cdc_commands.c:458-470 | selecting the unified index of custom profile c makes flash index c + 1 active, which is profile c |
| CdcProfiles.DeleteOutcome | src/usb/usbd/cdc/cdc_commands.c:627-673 | a delete that succeeds answers ok and needs loaded settings |
| CdcProfiles.DeleteRemovesOne | src/usb/usbd/cdc/cdc_commands.c:654-661 | the profile is removed, the later ones move down one place in order, the freed last slot is zeroed and the slots past the count are kept |
| CdcProfiles.DeleteFollowsActive | src/usb/usbd/cdc/cdc_commands.c:663-669 | the active profile stays the same profile, or becomes Default when it was the one deleted |
| CdcProfiles.DeleteKeepsRange | src/usb/usbd/cdc/cdc_commands.c:627-673 | the custom count stays at most 4 |
| CdcProfiles.ShiftDown | src/usb/usbd/cdc/cdc_commands.c:654-661 | the copy loop and the clearing of the last slot compute `Shifted` |
| CdcProfiles.CloneLabelCut | src/usb/usbd/cdc/cdc_commands.c:720-725 | the label as written loses the `y` of ` Copy` for any source of 7 or more characters: `Default` gives `Default Cop` |
| CdcProfiles.CloneLabel | src/usb/usbd/cdc/cdc_commands.c:720-725 | the corrected label fits the 11 characters of a name |
| CdcProfiles.CloneLabelEnds | src/usb/usbd/cdc/cdc_commands.c:720-725 | the corrected label is a prefix of the source followed by the whole ` Copy`, and equals the label as written for sources of at most 6 characters |
| CdcProfiles.CloneSource | src/usb/usbd/cdc/cdc_commands.c:729-745 | a custom source to copy from is an existing, non-built-in profile |
| CdcProfiles.CloneName | src/usb/usbd/cdc/cdc_commands.c:718-736 | the name chosen holds no NUL |
| CdcProfiles.CloneOutcome | src/usb/usbd/cdc/cdc_commands.c:677-755 | a clone that succeeds answers with an index and a name, and needs loaded settings; an unnamed clone gets the corrected `CloneLabel` name, while `CloneLabelAsWritten` is the code |
| CdcProfiles.CloneAppends | src/usb/usbd/cdc/cdc_commands.c:677-755 | a clone appends one profile at the end, answered with its unified index, copying map, sensitivities and flags of a custom source and passthrough for a built-in one; nothing else changes; an unnamed clone gets the corrected `CloneLabel` name, while `CloneLabelAsWritten` is the code |
| CdcProfiles.CloneNamedAsAsked | src/usb/usbd/cdc/cdc_commands.c:718-723 | a name given is used, cut to 11 characters |
| CdcProfiles.CloneNamedAfterSource | src/usb/usbd/cdc/cdc_commands.c:724-736 | without a name, the corrected label (the source's name cut to 6 characters with the whole ` Copy`, so `Default` gives `Defaul Copy`), or `Custom n`; the label as written is `CloneLabelAsWritten`, which gives `Default Cop` |
| CdcProfiles.CloneKeepsRange | src/usb/usbd/cdc/cdc_commands.c:692-700 | the custom count stays at most 4 and the active profile is kept |
| CdcProfiles.EditNameField | src/usb/usbd/cdc/cdc_commands.c:577-586 | the name step computes `EditedName` |
| CdcProfiles.EditMapField | src/usb/usbd/cdc/cdc_commands.c:588-595 | the map step computes `EditedMap` |
| CdcProfiles.EditSensField | src/usb/usbd/cdc/cdc_commands.c:598-608 | a sensitivity step computes `EditedSens` |
| CdcProfiles.EditFields | src/usb/usbd/cdc/cdc_commands.c:577-615 | the field steps compute `EditProfile` |
| CdcProfiles.ProfileSave | src/usb/usbd/cdc/cdc_commands.c:533-624 | a refusal answers the error and changes nothing; otherwise the runtime settings become the outcome and a debounced save of them is scheduled |
| CdcProfiles.ProfileDelete | src/usb/usbd/cdc/cdc_commands.c:627-673 | the same for a delete |
| CdcProfiles.ProfileClone | src/usb/usbd/cdc/cdc_commands.c:677-755 | the same for a clone, whose default name is the corrected `CloneLabel`; `CloneLabelAsWritten` is the code |
| CdcProfiles.ProfileSet | src/usb/usbd/cdc/cdc_commands.c:442-480 | refused or built-in choices leave the store alone (a built-in one is returned for `profile_set_active`); a custom or Default choice sets the active flash index, clamped, and answers its name |
| CdcDispatch.Commands | src/usb/usbd/cdc/cdc_commands.c:932-965 | 26 entries with Bluetooth, 22 without |
| CdcDispatch.LookupIn | src/usb/usbd/cdc/cdc_commands.c:991-996 | a handler found belongs to an entry with that name; none exactly when no entry has the name |
| CdcDispatch.LookupEntry | src/usb/usbd/cdc/cdc_commands.c:991-996 | with distinct names, every entry's name finds that entry's handler |
| CdcDispatch.SameHandler | src/usb/usbd/cdc/cdc_commands.c:991-996 | two entries with one handler run it under either name |
| CdcDispatch.NameNotRepeated | src/usb/usbd/cdc/cdc_commands.c:932-965 | no name of the table comes back later in it |
| CdcDispatch.CommandsDistinct | src/usb/usbd/cdc/cdc_commands.c:932-965 | the names of either build are distinct |
| CdcDispatch.LegacyAliasList | src/usb/usbd/cdc/cdc_commands.c:765-770 | CPROFILE.LIST runs what PROFILE.LIST runs |
| CdcDispatch.LegacyAliasGet | src/usb/usbd/cdc/cdc_commands.c:772-777 | CPROFILE.GET runs what PROFILE.GET runs |
| CdcDispatch.LegacyAliasSet | src/usb/usbd/cdc/cdc_commands.c:779-784 | CPROFILE.SET runs what PROFILE.SAVE runs |
| CdcDispatch.LegacyAliasDelete | src/usb/usbd/cdc/cdc_commands.c:786-790 | CPROFILE.DELETE runs what PROFILE.DELETE runs |
| CdcDispatch.LegacyAliasSelect | src/usb/usbd/cdc/cdc_commands.c:758-763 | CPROFILE.SELECT runs what PROFILE.SET runs |
| CdcDispatch.Lookup | src/usb/usbd/cdc/cdc_commands.c:991-998 | the search loop finds `LookupIn` |
| CdcDispatch.Route | src/usb/usbd/cdc/cdc_commands.c:971-1001 | a handler runs on the payload as a C string |
| CdcDispatch.HandlePacket | src/usb/usbd/cdc/cdc_commands.c:971-1001 | the type check, the name extraction and the search compute `Route` |
| CdcDispatch.RequestName | src/usb/usbd/cdc/cdc_commands.c:979-988 | a request payload without NUL is read whole and its name extracted |
| CdcDispatch.RouteCommand | src/usb/usbd/cdc/cdc_commands.c:971-1001 | a CMD packet requesting a table command runs that command's handler on its payload |
| CdcDispatch.RouteLegacySave | src/usb/usbd/cdc/cdc_commands.c:779-784 | a CPROFILE.SET request runs the PROFILE.SAVE handler |
| CdcDispatch.ModeSetReply | src/usb/usbd/cdc/cdc_commands.c:206-238 | mode info exactly for a mode below the mode count, with a reboot exactly when it differs from the current mode |
| CdcDispatch.SetInputStream | src/usb/usbd/cdc/cdc_commands.c:484-494 | without `enable` an error and no change; otherwise streaming is set to it; nothing else in the protocol changes |
| CdcDispatch.OrientSetReply | src/usb/usbd/cdc/cdc_commands.c:857-867 | orientation info exactly for modes 0..2 |
| CdcDispatch.SetWiimoteOrient | src/usb/usbd/cdc/cdc_commands.c:857-880 | a valid mode is applied, and when the journal has an entry, that entry with the new mode is scheduled for saving |
| ButtonRemap.RemapBit | src/wifi/jocp/jocp_input.c:44-81 | a JP bit is set exactly when some `if (raw & FROM) buttons \|= TO` line targeting it finds its source bit set |
| ButtonRemap.MovedBit | src/wifi/jocp/jocp_input.c:44-81 | with each JP bit targeted once, every line copies its source bit to its JP bit, both ways |
| ButtonRemap.Untargeted | src/wifi/jocp/jocp_input.c:44-81 | a JP bit no line targets stays clear |
| ButtonRemap.OnlySourcesRead | src/wifi/jocp/jocp_input.c:44-81 | raw bits no line reads make no difference to any JP bit |
| ButtonRemap.AscendingDistinct | src/wifi/jocp/jocp_input.c:44-81 | a table listed in JP bit order targets each JP bit once |
| JocpInput.ConvertMove | src/wifi/jocp/jocp_input.c:44-81 | each of the 20 JOCP buttons sets its JP button exactly when pressed |
| JocpInput.ConvertFaceAndDpad | src/wifi/jocp/jocp_input.c:49-58 | South, East, West, North are B1-B4 and the d-pad maps to the d-pad |
| JocpInput.ConvertShoulders | src/wifi/jocp/jocp_input.c:61-68 | L1, R1, L2, R2, L3, R3 keep their names |
| JocpInput.ConvertSystem | src/wifi/jocp/jocp_input.c:71-78 | Start is S2, Back S1, Guide A1, Capture A2, the first paddles L4 and R4 |
| JocpInput.ConvertOnlyListed | src/wifi/jocp/jocp_input.c:44-81 | A3, A4 and every bit above R4 are never set |
| JocpInput.ConvertIgnoresHighBits | src/wifi/jocp/jocp_input.c:44-81 | JOCP bits 20-31 (second paddles, touchpad, power, misc) make no difference |
| JocpInput.AxisBucket | src/wifi/jocp/jocp_input.c:84-91 | `(v + 32768) >> 8` never needs the clamps: each output byte stands for a run of 256 inputs |
| JocpInput.AxisShape | src/wifi/jocp/jocp_input.c:84-91 | the stick map is monotone, with -32768 to 0, 0 to 128 and 32767 to 255 |
| JocpInput.TriggerToU8 | src/wifi/jocp/jocp_input.c:94-98 | the trigger byte is the high byte: `r * 256 <= v < (r + 1) * 256` |
| JocpInput.S16At | src/wifi/jocp/jocp.h:119-130 | a little-endian `int16_t` field lies in -32768..32767 |
| JocpInput.U16AtLe16 | src/wifi/jocp/jocp.h:54-61 | a 16-bit field written little-endian reads back |
| JocpInput.U32AtLe32 | src/wifi/jocp/jocp.h:54-61 | a 32-bit field written little-endian reads back |
| JocpInput.HeaderFields | src/wifi/jocp/jocp.h:54-61 | a 12-byte header written field by field reads back as magic, version, type, sequence, flags, timestamp |
| JocpInput.Validate | src/wifi/jocp/jocp_input.c:190-223 | a packet passes exactly when it has 76 bytes or more, magic 0x4A50 (bytes 0x50, 0x4A), version 1 and type INPUT; the refusals come in the order of the checks |
| JocpInput.InputPacketAccepted | src/wifi/jocp/jocp_input.c:190-223 | a packet laid out as the controller sends it passes and reads back with its own sequence number, flags and timestamp |
| JocpInput.FindByIp | src/wifi/jocp/jocp_input.c:104-112 | the first active slot with the address, the port ignored, or -1 when none |
| JocpInput.FirstFree | src/wifi/jocp/jocp_input.c:114-120 | the first inactive slot, or -1 when all four are active |
| JocpInput.ActiveCountUpdate | src/wifi/jocp/jocp_input.c:33-34 | changing one slot changes the connected count by that slot's change alone |
| JocpInput.NoneActive | src/wifi/jocp/jocp_input.c:171-176 | a table with no active slot counts no connected controller |
| JocpInput.Admit | src/wifi/jocp/jocp_input.c:122-149 | the table keeps its size and the slot is -1 or a slot index |
| JocpInput.NewController | src/wifi/jocp/jocp_input.c:133-139 | a new slot is active with the sender's address and port, seen now, with sequence, packet and drop counts at 0 |
| JocpInput.AdmitKnown | src/wifi/jocp/jocp_input.c:122-127 | a known address keeps its slot whatever its port, and the table is unchanged |
| JocpInput.AdmitNew | src/wifi/jocp/jocp_input.c:129-148 | a new address takes the first free slot, which alone changes, and the connected count grows by one |
| JocpInput.AdmitFull | src/wifi/jocp/jocp_input.c:130-134 | with four other addresses connected the packet gets no slot and nothing changes |
| JocpInput.Tracked | src/wifi/jocp/jocp_input.c:229-243 | an accepted packet sets the last sequence number and time and adds one to the packet count (mod 2^32), leaving address and port |
| JocpInput.DropCounting | src/wifi/jocp/jocp_input.c:229-240 | no loss counted for a slot's first packet or for the expected next number; otherwise the gap, modulo 2^16, is added |
| JocpInput.Expire | src/wifi/jocp/jocp_input.c:151-165 | a slot stays active exactly when it was active and heard from within 5000 ms on the wrapping clock; nothing else changes |
| JocpInput.AfterTimeouts | src/wifi/jocp/jocp_input.c:151-165 | the sweep expires each slot on its own |
| JocpInput.TimeoutCount | src/wifi/jocp/jocp_input.c:151-165 | no more slots time out than are active |
| JocpInput.TimeoutsCounted | src/wifi/jocp/jocp_input.c:151-165 | the sweep removes one connected controller per expired slot and leaves no slot that would still time out |
| JocpInput.Swept | src/wifi/jocp/jocp_input.c:182-187 | the packet handler's periodic sweep keeps the table size |
| JocpInput.EventOf | src/wifi/jocp/jocp_input.c:245-267 | the event comes from device address 0xE0 + slot, instance 0, with six analog bytes |
| JocpInput.InputInRange | src/wifi/jocp/jocp.h:119-130 | the four stick fields of a packet are in the `int16_t` range the stick map needs |
| JocpInput.RumblePacket | src/wifi/jocp/jocp_input.c:318-345 | the rumble command is 19 bytes: header, command 1, left, brake 0, right, brake 0, duration 0 |
| JocpInput.RgbPacket | src/wifi/jocp/jocp_input.c:347-371 | the LED command is 16 bytes: header, command 3, red, green, blue |
| JocpInput.FeedbackHeaders | src/wifi/jocp/jocp_input.c:320-328 | both commands read back as OUTPUT_CMD headers of version 1 with sequence 0, flags 0 and the packet's timestamp |
| JocpInput.FeedbackPackets | src/wifi/jocp/jocp_input.c:318-371 | the rumble command is always sent first; the LED command follows exactly when a colour is non-zero |
| JocpInput.ToClient | src/wifi/jocp/jocp_input.c:310-371 | every packet goes, in order, to the controller's TCP client |
| JocpInput.RateLimited | src/wifi/jocp/jocp_input.c:304-309 | after feedback at t, nothing is sent before t + 50 ms, and something is sent at or after it when a connection exists |
| JocpInput.AllSendsOnlyActive | src/wifi/jocp/jocp_input.c:284-291 | the broadcast only reaches connected controllers that have a TCP client |
| JocpInput.Jocp.constructor | src/wifi/jocp/jocp_input.c:33-34 | four free slots, a zero count and zero feedback stamps |
| JocpInput.Jocp.Init | src/wifi/jocp/jocp_input.c:171-176 | every slot cleared and the count zeroed, the count matching the table |
| JocpInput.Jocp.FindControllerByIp | src/wifi/jocp/jocp_input.c:104-112 | the search loop returns `FindByIp` |
| JocpInput.Jocp.FindFreeSlot | src/wifi/jocp/jocp_input.c:114-120 | the search loop returns `FirstFree` |
| JocpInput.Jocp.FindOrCreate | src/wifi/jocp/jocp_input.c:122-149 | the table and slot are those of `Admit`, keeping the count equal to the active slots |
| JocpInput.Jocp.CheckTimeouts | src/wifi/jocp/jocp_input.c:151-165 | the table becomes `AfterTimeouts` and the count drops by `TimeoutCount` |
| JocpInput.Jocp.ProcessInputPacket | src/wifi/jocp/jocp_input.c:178-273 | the sweep when more than 1000 ms have passed; then a refused packet changes nothing more, a packet without a slot is refused, and an accepted one updates its slot by `Tracked` and yields `EventOf` |
| JocpInput.Jocp.GetConnectedCount | src/wifi/jocp/jocp_input.c:275-278 | the count of active slots |
| JocpInput.Jocp.SendFeedback | src/wifi/jocp/jocp_input.c:297-372 | nothing for an id of 4 or more or a missing record; otherwise `SlotSends`, with the stamp moved by `Stamp` even without a TCP client |
| JocpInput.Jocp.SendFeedbackAll | src/wifi/jocp/jocp_input.c:284-291 | the sends of all slots in slot order, each stamp moved by `Stamp` |
| ButtonRemap.CopyBitIsMove | src/native/device/dreamcast/dreamcast_device.c:709-742 | the branch-free `((raw >> from) & 1) << to` sets the same bit as the `if (raw & FROM) buttons \|= TO` line |
| Dreamcast.CalcCRC | src/native/device/dreamcast/dreamcast_device.c:290-299 | the loop XORs all the words and then folds the result with `<< 16` and `<< 8`, giving `Crc` |
| Dreamcast.UnfoldFold | src/native/device/dreamcast/dreamcast_device.c:296-297 | the fold loses nothing: the XOR of the words can be recovered from the checksum word |
| Dreamcast.ByteXorOfXor | src/native/device/dreamcast/dreamcast_device.c:290-299 | the XOR of a word's four bytes is linear in the word |
| Dreamcast.CrcIsByteChecksum | src/native/device/dreamcast/dreamcast_device.c:290-299 | the checksum's top byte, the byte sent, is the XOR of the four bytes of the XOR of all words, so the receiver's XOR over every byte of the packet comes to zero |
| Dreamcast.XorPrefixSame | src/native/device/dreamcast/dreamcast_device.c:292-295 | the XOR of the first n words depends on those words alone |
| Dreamcast.XorUpdate | src/native/device/dreamcast/dreamcast_device.c:292-295 | replacing one word changes the XOR by the old word XOR the new one |
| Dreamcast.CrcDetectsWordChange | src/native/device/dreamcast/dreamcast_device.c:290-299 | changing any one word changes the checksum |
| Dreamcast.AstCopyLen | src/native/device/dreamcast/dreamcast_device.c:686-689 | the corrected block-write count is at most 4 and at most the data bytes, and equals one of the two; `AstCopyLenAsWritten` is the code, which narrows to `uint8_t` and gives 0 for 66, 130 and 194 words |
| Dreamcast.Decode | src/native/device/dreamcast/dreamcast_device.c:545-703 | a handled packet passes the three size checks; a block write copies the corrected `AstCopyLen` count, at most 4 bytes (`AstCopyLenAsWritten` is the code) |
| Dreamcast.ControllerRequest | src/native/device/dreamcast/dreamcast_device.c:567-600 | the controller only answers with an info or status reply, or acknowledges a reset from 0x22 |
| Dreamcast.PuruPuruRequest | src/native/device/dreamcast/dreamcast_device.c:602-700 | the vibration pack acknowledges only from 0x02, and a block write copies the corrected `AstCopyLen` count, at most 4 bytes (`AstCopyLenAsWritten` is the code) |
| Dreamcast.RumbleStamp | src/native/device/dreamcast/dreamcast_device.c:657-664 | a non-zero stamp is stored only when vibration is enabled with a frequency of 0x07 to 0x3B |
| Dreamcast.Apply | src/native/device/dreamcast/dreamcast_device.c:545-703 | each decision keeps one stamp per port and a four-byte auto-stop table |
| Dreamcast.PortBitsIgnored | src/native/device/dreamcast/dreamcast_device.c:563-564 | the port bits of the destination (the top two) never change the decision |
| Dreamcast.StatusOnlyForController | src/native/device/dreamcast/dreamcast_device.c:586-596 | a controller status reply is sent exactly for a framed GET_CONDITION to 0x20 with at least one word, naming the controller function |
| Dreamcast.AckOrigins | src/native/device/dreamcast/dreamcast_device.c:567-608 | an acknowledged packet (without a write) is a RESET; the origin is 0x22 exactly for the controller and 0x02 exactly for the pack |
| Dreamcast.BlockWriteAlwaysAcked | src/native/device/dreamcast/dreamcast_device.c:680-697 | a block write to the pack is always accepted: with the corrected count, no bytes with 2 words or fewer, else the 4 bytes from offset 12; the code (`AstCopyLenAsWritten`) copies none for 66, 130 and 194 words |
| Dreamcast.Refused | src/native/device/dreamcast/dreamcast_device.c:545-703 | other addresses, SHUTDOWN, COMPLETE_WRITE, command 0, and media or block commands sent to the controller are refused |
| Dreamcast.Request | src/native/device/dreamcast/dreamcast_device.c:547-561 | a packet framed as the console sends it passes the three size checks |
| Dreamcast.SetConditionStored | src/native/device/dreamcast/dreamcast_device.c:644-654 | a SET_CONDITION to the pack on any port stores the four condition bytes as sent |
| Dreamcast.ConditionRoundTrip | src/native/device/dreamcast/dreamcast_device.c:626-673 | a GET_CONDITION after a SET_CONDITION reports exactly the settings stored |
| Dreamcast.WritesAcknowledged | src/native/device/dreamcast/dreamcast_device.c:644-697 | both writes to the pack are acknowledged from 0x02 and come only to the pack |
| Dreamcast.RefusedChangesNothing | src/native/device/dreamcast/dreamcast_device.c:702 | a refused packet leaves the whole state as it was |
| Dreamcast.AstWrite | src/native/device/dreamcast/dreamcast_device.c:680-697 | with the corrected count, a block write with data replaces the whole table with bytes 12-15; without data it keeps the table; the code (`AstCopyLenAsWritten`) also keeps it for 66, 130 and 194 words |
| Dreamcast.AstCopyLenTruncated | src/native/device/dreamcast/dreamcast_device.c:686 | with 66 words the `uint8_t` count wraps to 0 where 4 bytes were meant |
| Dreamcast.AstCopyLenIntended | src/native/device/dreamcast/dreamcast_device.c:686-689 | the intended count is 4 whenever there is a data word, and agrees with the code below 66 words |
| Dreamcast.RumbleLevel | src/native/device/dreamcast/dreamcast_device.c:1200-1219 | rumble is non-zero exactly when port 0's timer runs, vibration is enabled in range and power is non-zero; it is then `min(power * 36, 255)` |
| Dreamcast.DcGetRumble | src/native/device/dreamcast/dreamcast_device.c:1200-1219 | 0 while port 0's timer is stopped or vibration is off or out of range; any rumble is at least 36 and at most `power * 36` |
| Dreamcast.RumbleMonotone | src/native/device/dreamcast/dreamcast_device.c:1217-1218 | more power never gives less rumble |
| Dreamcast.StoredRumble | src/native/device/dreamcast/dreamcast_device.c:657-664 | right after a SET_CONDITION the level follows the settings, except that a stamp of 0 ms reads as stopped |
| Dreamcast.AfterTimeout | src/native/device/dreamcast/dreamcast_device.c:1161-1175 | the sweep keeps one stamp per port |
| Dreamcast.TimeoutStops | src/native/device/dreamcast/dreamcast_device.c:1161-1175 | a stamp is cleared exactly when it is timed out (or already 0), and a cleared port reports no rumble |
| Dreamcast.RecentKept | src/native/device/dreamcast/dreamcast_device.c:1166-1170 | a stamp at most 300 ms old, with no clock wrap in between, survives |
| Dreamcast.MapleDevice.constructor | src/native/device/dreamcast/dreamcast_device.c:243-256 | no reply queued, the ACK from 0x20, zero settings and stamps, and the auto-stop table 5, 0, 0, 0 |
| Dreamcast.MapleDevice.ConsumePacket | src/native/device/dreamcast/dreamcast_device.c:545-703 | the device answers exactly the packets `Decode` handles, and its new state is `Apply` of that decision |
| Dreamcast.MapleDevice.RumbleTimeout | src/native/device/dreamcast/dreamcast_device.c:1161-1175 | the stamps become `AfterTimeout` of the old stamps at the current millisecond |
| Dreamcast.MapButtonsToDc | src/native/device/dreamcast/dreamcast_device.c:709-742 | the word is 16 bits wide |
| Dreamcast.DcFaceAndDpad | src/native/device/dreamcast/dreamcast_device.c:714-735 | B1-B4 press A, B, X, Y and the d-pad presses the d-pad, each exactly when held |
| Dreamcast.DcExtraButtons | src/native/device/dreamcast/dreamcast_device.c:721-738 | Z is L3, C is R3, D is L2 or S1, and Start is S2 or A1 |
| Dreamcast.DcReleased | src/native/device/dreamcast/dreamcast_device.c:740-741 | with nothing held every bit reads released (active low), and bits 12-15 are always 1 |
| Dreamcast.DcIgnoresUnmapped | src/native/device/dreamcast/dreamcast_device.c:709-742 | JP bits the map does not read (L1, R1, R2, A2 and above) make no difference |
| Dreamcast.LeftTrigger | src/native/device/dreamcast/dreamcast_device.c:765-771 | the left trigger is at least the analog value, and full exactly when L1 is held or the analog value is 255 |
| Dreamcast.RightTrigger | src/native/device/dreamcast/dreamcast_device.c:773-777 | the right trigger is at least the analog value, and full exactly when R1 or R2 is held or the analog value is 255 |
| MapleStateMachine.Tables.NewState | src/native/device/dreamcast/maple_state_machine.c:41-48 | the next state is taken: every transition -1 except the expected one, which loops to the state itself, and status NONE; nothing else changes |
| MapleStateMachine.Tables.Expect | src/native/device/dreamcast/maple_state_machine.c:50-71 | a new state expecting `expected`, with the given status, that both parents now reach on `expected` (`Linked`); `ExpectState` and `ExpectStateWithStatus` are the calls with both parents equal |
| MapleStateMachine.Tables.BuildBasicStates | src/native/device/dreamcast/maple_state_machine.c:73-128 | after the start sequence, the four data-byte pairs with the loop back and the end sequence, exactly 40 states are made and the graph is `Built`: every state goes where `NextOf` says and carries `StatusOf` |
| MapleStateMachine.Tables.StartSequence | src/native/device/dreamcast/maple_state_machine.c:80-91 | idle state 0 and ten states alternating on 0b10 and 0b00, ending on 0b11 with START: the first 11 states are the staged graph |
| MapleStateMachine.Tables.StartSequenceTail | src/native/device/dreamcast/maple_state_machine.c:87-91 | states 6-10 of the start sequence extend the staged graph from 6 to 11 states |
| MapleStateMachine.Tables.DataBit | src/native/device/dreamcast/maple_state_machine.c:99-108 | one data bit: an entry state reached from both outcome states of the previous bit, then a state for a 1 (status PUSHBIT\|BITSET) and one for a 0; the staged graph grows by three states |
| MapleStateMachine.Tables.EndSequence | src/native/device/dreamcast/maple_state_machine.c:117-125 | five states from state 12 alternating on 0b01 and 0b00, END on the third, the last one leading back to idle on 0b11: the graph is complete and `Built` |
| MapleStateMachine.StartHeadGrows | src/native/device/dreamcast/maple_state_machine.c:81-86 | the idle state and the next five `ExpectState` calls give the staged graph of six states |
| MapleStateMachine.StartTailGrows | src/native/device/dreamcast/maple_state_machine.c:87-91 | the last five calls of the start sequence give the staged graph of eleven states |
| MapleStateMachine.DataBitGrows | src/native/device/dreamcast/maple_state_machine.c:99-108 | the three states of one data bit extend the staged graph by three |
| MapleStateMachine.EndGrows | src/native/device/dreamcast/maple_state_machine.c:117-124 | the five states of the end sequence complete the staged graph, with the data loop-back already in place |
| MapleStateMachine.JoinStep | src/native/device/dreamcast/maple_state_machine.c:50-71 | making state `n` from its parents with its expected transition and status turns the staged graph of `n` states into that of `n + 1` |
| MapleStateMachine.LoopBackStep | src/native/device/dreamcast/maple_state_machine.c:110-114 | `States[Option].Next[0b01] = StartByte` and the same for `Prev` add exactly the loop back from the last data bit to the first |
| MapleStateMachine.IdleBackStep | src/native/device/dreamcast/maple_state_machine.c:125 | `States[Prev].Next[0b11] = 0` adds exactly the return to idle |
| MapleStateMachine.StagedComplete | src/native/device/dreamcast/maple_state_machine.c:127 | with all 40 states made and both back links patched, the staged graph is the built graph |
| MapleStateMachine.AllJoin | src/native/device/dreamcast/maple_state_machine.c:65-71 | a state links to a newly made one exactly from its parents on the transition the new state expects |
| MapleStateMachine.Incoming | src/native/device/dreamcast/maple_state_machine.c:93-125 | every forward link of the graph is a parent link of its target, on the transition the target expects |
| MapleStateMachine.OnlyBackLinks | src/native/device/dreamcast/maple_state_machine.c:41-48 | a state links to itself exactly on its expected transition, and links back only from the last data states on 0b01 and from the last state on 0b11 |
| MapleStateMachine.SelfLoops | src/native/device/dreamcast/maple_state_machine.c:41-48 | every state loops on the transition it expects: no later call overwrites the link `NewState` makes |
| MapleStateMachine.IdleEnteredOnlyAtEnd | src/native/device/dreamcast/maple_state_machine.c:117-125 | only the last state of the end sequence leads back to idle, on 0b11 |
| MapleStateMachine.BuiltIsGraph | src/native/device/dreamcast/maple_state_machine.c:28-31 | in the built graph every status fits and every transition is -1 or one of the 40 states |
| MapleStateMachine.Tables.FindOrAddSetBits | src/native/device/dreamcast/maple_state_machine.c:130-142 | the index of the data-byte pair: found where it is, or appended at the end when new; the pairs stay distinct |
| MapleStateMachine.Tables.ScanByte | src/native/device/dreamcast/maple_state_machine.c:151-186 | the four transitions of a byte, top two bits first, give `Run` of the byte from the starting state |
| MapleStateMachine.Tables.Transition | src/native/device/dreamcast/maple_state_machine.c:159-184 | one pass of the inner loop is `Step`: follow the transition, restart from 0 with Error on -1, act on a state entered |
| MapleStateMachine.Step | src/native/device/dreamcast/maple_state_machine.c:159-184 | one transition: the state follows its link on the two bits; a -1 link restarts from state 0 and sets Error, which is set only that way |
| MapleStateMachine.Tables.Accumulate | src/native/device/dreamcast/maple_state_machine.c:165-183 | entering a state is `Enter` of its status |
| MapleStateMachine.Tables.FillEntry | src/native/device/dreamcast/maple_state_machine.c:150-191 | after the cell for (`start`, `byte`) every cell before it in fill order holds `EntryFor` its byte, and the pairs stay distinct |
| MapleStateMachine.Tables.BuildTables | src/native/device/dreamcast/maple_state_machine.c:144-193 | the graph is `Built`, and every cell of the 40 x 256 table holds the outcome of its byte: new state, Push, Error, Reset, End, and the index of its data-byte pair |
| MapleStateMachine.KeptEntries | src/native/device/dreamcast/maple_state_machine.c:140-141 | appending a new pair leaves the pair every filled cell names unchanged |
| MapleStateMachine.TopBitsFirst | src/native/device/dreamcast/maple_state_machine.c:158-186 | an entry is exactly four transitions, bits 7-6 first and bits 1-0 last |
| MapleStateMachine.ErrorResets | src/native/device/dreamcast/maple_state_machine.c:159-163 | a -1 transition sets Error and restarts from state 0, and Error is set only that way |
| MapleStateMachine.StayingKeeps | src/native/device/dreamcast/maple_state_machine.c:165 | a transition that stays in the same state changes nothing but Error |
| MapleStateMachine.EnteringActs | src/native/device/dreamcast/maple_state_machine.c:165-183 | entering a new state: START sets Reset, END sets End, push bit 7 sets Push and moves to the second byte, a bit-carrying status sets its bit in the current byte, and nothing else changes |
| MapleStateMachine.MsbFirst | src/native/device/dreamcast/maple_state_machine.c:166-169 | push bit k sets bit 7 - k: the first bit received is the most significant |
| MapleStateMachine.CarriesBitIntended | src/native/device/dreamcast/maple_state_machine.c:166-170 | the bit-carrying statuses are exactly those with BITSET other than NONE, they belong exactly to the 1-states of the data bits, and their shifts are 0-7 |
| MapleStateMachine.NoneStatusShift | src/native/device/dreamcast/maple_state_machine.c:13-14 | state 1 has status NONE (-1), which passes the `Status & STATUS_BITSET` test and asks for a shift by 138 |
| Common.CDiv | src/native/host/n64/n64_host.c:78 | C's signed division truncates toward zero: the quotient of the magnitudes, negated for a negative dividend |
| Common.ToInt16 | src/usb/usbd/modes/xbone_mode.c:94 | a conversion to `int16_t` keeps the value modulo 65536 and lands in -32768..32767 |
| Common.ToInt8 | src/native/host/n64/n64_host.c:186 | a conversion to `int8_t` keeps the value modulo 256 and lands in -128..127 |
| Common.Clamp | src/native/host/n64/n64_host.c:80-82 | the clamp lies within its bounds and leaves a value already inside them unchanged |
| BleBeacon.AdvDataOverflowsAsWritten | src/wifi/ble_beacon.c:40-66 | as written, the data is 9 + min(SSID length, 24) bytes, which passes the 31-byte `adv_data` exactly when the SSID has 23 bytes or more |
| BleBeacon.NameLen | src/wifi/ble_beacon.c:45-46 | the name keeps at most 22 bytes of the SSID, all of it when it fits, and agrees with the 24-byte cut for every SSID of up to 22 bytes |
| BleBeacon.AdvData | src/wifi/ble_beacon.c:40-66 | the corrected advertising data is 9 + `NameLen` bytes, never over 31 |
| BleBeacon.AdvDataAgreesWhenShort | src/wifi/ble_beacon.c:40-66 | for an SSID of up to 22 bytes the corrected data is the data as written |
| BleBeacon.ParseCons | src/wifi/ble_beacon.c:49-61 | an AD structure (length counting the type, type, data) in front of more data reads back as that structure in front of what the rest reads as |
| BleBeacon.AdvDataParses | src/wifi/ble_beacon.c:40-66 | the advertising data reads back as exactly three AD structures: flags 0x06, the 16-bit service UUID 0xFF10 (low byte first) and the SSID's first `NameLen` bytes as the complete local name |
| BleBeacon.StoredSsid | src/wifi/ble_beacon.c:118-119 | the 32-byte `beacon_ssid` holds the SSID's first 31 bytes and NUL everywhere after them |
| BleBeacon.StrLen | src/wifi/ble_beacon.c:43 | `strlen` counts the bytes before the first NUL, or the whole buffer when there is none |
| BleBeacon.StoredSsidReadsBack | src/wifi/ble_beacon.c:118-124 | the stored SSID reads back through `strlen` as the SSID's first 31 bytes |
| BleBeacon.Beacon.constructor | src/wifi/ble_beacon.c:24-30 | not initialised, not advertising, no advertising data |
| BleBeacon.Beacon.BuildAdvData | src/wifi/ble_beacon.c:40-66 | the writes through the moving position leave `adv_data` holding exactly the corrected `AdvData` of the SSID, with its length recorded |
| BleBeacon.Beacon.Init | src/wifi/ble_beacon.c:105-148 | a second call succeeds and changes nothing; a missing or empty SSID fails and changes nothing; otherwise the SSID's first 31 bytes are stored NUL-terminated, the advertising data is built from the stored copy, and the result and the initialised flag are those of the Bluetooth stack's start-up |
| BleBeacon.Beacon.Start | src/wifi/ble_beacon.c:150-183 | nothing before init; after init advertising is marked wanted, and the stored advertising data is handed over exactly when the stack is working |
| BleBeacon.Beacon.OnStackWorking | src/wifi/ble_beacon.c:82-89 | when the stack becomes ready, advertising asked for earlier is started with the stored data, and nothing else happens |
| BleBeacon.Beacon.Stop | src/wifi/ble_beacon.c:185-193 | an initialised beacon stops advertising; before init nothing changes |
| BleBeacon.Beacon.IsActive | src/wifi/ble_beacon.c:195-198 | active exactly when advertising and the stack is working |
| BleBeacon.Beacon.Deinit | src/wifi/ble_beacon.c:209-222 | the beacon is no longer initialised, and an initialised one has stopped advertising |
| GcAdapterMode.PortFromInput | src/usb/usbd/modes/gc_adapter_mode.c:67-102 | the player's port is marked as a wired standard controller |
| GcAdapterMode.SticksFlipY | src/usb/usbd/modes/gc_adapter_mode.c:89-92 | X axes are copied, Y axes are flipped (255 - v), so the flip undoes itself and reverses the order of Y positions |
| GcAdapterMode.TriggersFollowButtons | src/usb/usbd/modes/gc_adapter_mode.c:95-102 | a held L or R never reports a zero analog trigger, and the trigger reads 0 exactly when the analog value is 0 and the button is up |
| GcAdapterMode.PortIndex | src/usb/usbd/modes/gc_adapter_mode.c:63-65 | players 0-3 use their own port, every other player port 0 |
| GcAdapterMode.RumbleCommand | src/usb/usbd/modes/gc_adapter_mode.c:109-124 | a rumble command is report 0x11 with at least 4 bytes, the id given or, when 0, taken from the first data byte; its 4 bytes are those after the id |
| GcAdapterMode.GcAdapterDevice.constructor | src/usb/usbd/modes/gc_adapter_mode.c:24-26 | zeroed buffers, no rumble command received |
| GcAdapterMode.GcAdapterDevice.Init | src/usb/usbd/modes/gc_adapter_mode.c:32-49 | every port disconnected with centred sticks and released buttons; rumble off and no command received |
| GcAdapterMode.GcAdapterDevice.SendReport | src/usb/usbd/modes/gc_adapter_mode.c:56-107 | the player's port is rewritten from the input and the other three ports keep their last input |
| GcAdapterMode.GcAdapterDevice.HandleOutput | src/usb/usbd/modes/gc_adapter_mode.c:109-131 | a rumble command latches its four per-port bytes and marks rumble available; anything else (the init report included) changes nothing |
| GcAdapterMode.GcAdapterDevice.GetRumble | src/usb/usbd/modes/gc_adapter_mode.c:133-140 | 0xFF when some port's rumble byte is non-zero, else 0 |
| GcAdapterMode.GcAdapterDevice.GetPortRumble | src/usb/usbd/modes/gc_adapter_mode.c:143-147 | 0xFF exactly for a port below 4 whose rumble byte is non-zero, else 0 |
| GcAdapterMode.GcAdapterDevice.GetFeedback | src/usb/usbd/modes/gc_adapter_mode.c:149-170 | both motors at the combined rumble, all lights off, and dirty and the result both equal to whether a rumble command has come |
| GcAdapterMode.CombinedIsAnyPort | src/usb/usbd/modes/gc_adapter_mode.c:133-147 | the combined rumble is on exactly when some port's own rumble reads 0xFF |
| HidMode.HidMovesDistinct | src/usb/usbd/modes/hid_mode.c:23-47 | the 18 `if (buttons & JP) hid \|= MASK` lines target 18 distinct HID bits |
| HidMode.ConvertMove | src/usb/usbd/modes/hid_mode.c:27-44 | each listed JP button sets its own HID button, and exactly when it is pressed |
| HidMode.ConvertOnlyListed | src/usb/usbd/modes/hid_mode.c:23-47 | HID buttons 18 and up are never set |
| HidMode.ConvertIgnoresDpad | src/usb/usbd/modes/hid_mode.c:23-47 | the d-pad bits and the bits above R4 make no difference to the button field |
| HidMode.ConvertFits | src/usb/usbd/modes/hid_mode.c:98-101 | the converted word fits in 18 bits, so `& 0x03` on the high byte loses nothing |
| HidMode.Init | src/usb/usbd/modes/hid_mode.c:73-82 | the report starts with the sticks at 128 and the hat centred |
| HidMode.SendReport | src/usb/usbd/modes/hid_mode.c:89-129 | the high button byte keeps two bits; sticks and triggers pass through unchanged; each d-pad pressure axis is 0xFF exactly while its direction is held |
| HidMode.SplitJoin | src/usb/usbd/modes/hid_mode.c:99-101 | an 18-bit word is rebuilt exactly from its low, middle and two-bit high bytes |
| HidMode.ButtonsSplitLossless | src/usb/usbd/modes/hid_mode.c:98-101 | the three button bytes of a sent report put back together give the converted buttons |
| HidMode.PressureFollowsButtons | src/usb/usbd/modes/hid_mode.c:119-126 | the cross, circle, square, triangle, L1 and R1 pressure axes are 0xFF exactly while B1, B2, B3, B4, L1, R1 are held, and the L2/R2 pressures equal the analog triggers |
| HidMode.HatCentredIffIdle | src/usb/usbd/modes/hid_mode.c:50-67 | the hat is centred exactly when no d-pad direction is held, and otherwise reads back as the held direction |
| HidMode.InitIsIdleReport | src/usb/usbd/modes/hid_mode.c:73-129 | the report `init` sets up is the one sent for a neutral controller with nothing pressed |
| KbMouse.Wasd | src/usb/usbd/kbmouse/kbmouse.c:223-242 | the left stick asks for W, S, A, D exactly when it is more than 40 past the centre in that direction, at most two of them at once |
| KbMouse.Take | src/usb/usbd/kbmouse/kbmouse.c:190-193 | at most `n` keys, a prefix of those given |
| KbMouse.PushAllTakes | src/usb/usbd/kbmouse/kbmouse.c:190-193 | pushing keys one by one with `if (keycode_index < 6)` keeps exactly the first six, in order |
| KbMouse.PushAllSnoc | src/usb/usbd/kbmouse/kbmouse.c:190-193 | pushing one more key is one more guarded push |
| KbMouse.PushAllAppend | src/usb/usbd/kbmouse/kbmouse.c:190-242 | pushing the table's keys and then the WASD keys is pushing their concatenation |
| KbMouse.Padded | src/usb/usbd/kbmouse/kbmouse.c:178 | six keycode bytes: the keys pressed, then the zeros of the cleared report |
| KbMouse.MouseDelta | src/usb/usbd/kbmouse/kbmouse.c:84-92 | a mouse axis moves by 0 exactly inside the deadzone, `abs(analog - 128) < deadzone` |
| KbMouse.FiredSnoc | src/usb/usbd/kbmouse/kbmouse.c:182-205 | one more table entry adds its action exactly when its button is pressed |
| KbMouse.KeySnoc | src/usb/usbd/kbmouse/kbmouse.c:188-193 | a key action adds its code and leaves modifiers and mouse buttons alone |
| KbMouse.ModifierSnoc | src/usb/usbd/kbmouse/kbmouse.c:195-198 | a modifier action ORs in its bits and leaves keys and mouse buttons alone |
| KbMouse.MouseButtonSnoc | src/usb/usbd/kbmouse/kbmouse.c:200-203 | a mouse-button action ORs in its bits and leaves keys and modifiers alone |
| KbMouse.ApplyMap | src/usb/usbd/kbmouse/kbmouse.c:182-205 | the table loop gives the keys of the pressed entries (first six), the OR of their modifiers and the OR of their mouse buttons |
| KbMouse.Converter.constructor | src/usb/usbd/kbmouse/kbmouse.c:17-25 | the default deadzone 15, sensitivity 5, scroll deadzone 30 and scroll speed 3; empty accumulators; LEDs off |
| KbMouse.Converter.Reset | src/usb/usbd/kbmouse/kbmouse.c:154-164 | back to the default settings, both accumulators emptied, LEDs off |
| KbMouse.Converter.SetConfig | src/usb/usbd/kbmouse/kbmouse.c:245-255 | a given configuration replaces all four settings, read back by `Config`; a missing one changes nothing |
| KbMouse.Converter.SetLedState | src/usb/usbd/kbmouse/kbmouse.c:262-265 | the LED state becomes the byte given |
| KbMouse.Converter.Accumulate | src/usb/usbd/kbmouse/kbmouse.c:84-111 | each axis's accumulator is emptied exactly when that axis is inside the deadzone, and carries a fraction otherwise |
| KbMouse.Converter.Convert | src/usb/usbd/kbmouse/kbmouse.c:166-243 | both reports start cleared; the keycodes are the first six of the table's pressed keys followed by W, S, A, D, padded with zeros; modifiers and mouse buttons are the OR of the pressed entries; each mouse axis is 0 inside the deadzone, with its accumulator emptied exactly then; wheel and pan stay 0 |
| KbMouse.WasdPushed | src/usb/usbd/kbmouse/kbmouse.c:227-242 | the four guarded appends push exactly the `Wasd` keys in order |
| KbMouse.IdleIsEmpty | src/usb/usbd/kbmouse/kbmouse.c:166-243 | nothing pressed with the sticks centred gives no keys, no modifiers, no mouse buttons and no mouse movement |
| KbMouse.NothingFires | src/usb/usbd/kbmouse/kbmouse.c:182-185 | with no button pressed no table entry fires |
| KbMouse.SpaceKeyCollides | src/usb/usbd/kbmouse/kbmouse.c:35 | as written, A/Cross sends key 0x20, the same key as d-pad down |
| KbMouse.AsWrittenB1 | src/usb/usbd/kbmouse/kbmouse.c:35 | with the table as written, B1 alone sends only the 3 key |
| KbMouse.AsWrittenDD | src/usb/usbd/kbmouse/kbmouse.c:58 | d-pad down alone sends only the 3 key |
| KbMouse.B1SendsSpace | src/usb/usbd/kbmouse/kbmouse.c:35 | with the space bar bound as the comment says, B1 alone sends only space (0x2C) |
| KbMouse.DefaultKeysDistinct | src/usb/usbd/kbmouse/kbmouse.c:33-64 | with space bound, no two key bindings share a code; as written two do |
| KbMouse.Single | src/usb/usbd/kbmouse/kbmouse.c:188-193 | a single action contributes its key code, if it is a key |
| KbMouse.SingleFires | src/usb/usbd/kbmouse/kbmouse.c:182-205 | a button word matching exactly one entry fires exactly that entry's action |
| KbMouseMode.KbMouseDevice.constructor | src/usb/usbd/modes/kbmouse_mode.c:17-19 | empty reports, keyboard first, a converter with the default settings, empty accumulators and LEDs off |
| KbMouseMode.KbMouseDevice.Init | src/usb/usbd/modes/kbmouse_mode.c:25-31 | the converter back to its defaults with empty accumulators; empty reports; keyboard first |
| KbMouseMode.KbMouseDevice.SendReport | src/usb/usbd/modes/kbmouse_mode.c:38-64 | both reports are rebuilt by the conversion; the one whose turn it is is sent and the turn passes to the other; the mouse axes and accumulators are those of the conversion |
| KbMouseMode.KbMouseDevice.SendIdleMouse | src/usb/usbd/modes/kbmouse_mode.c:67-81 | the last mouse report is re-sent exactly when the USB stack is ready and it is the mouse's turn, and then the turn passes to the keyboard; otherwise nothing changes |
| KbMouseMode.KbMouseDevice.HandleOutput | src/usb/usbd/modes/kbmouse_mode.c:83-90 | an output report to the keyboard id with at least one byte sets the LED state to that byte; anything else changes nothing |
| KbMouseMode.Turns | src/usb/usbd/modes/kbmouse_mode.c:49-63 | the n-th report of a run is a keyboard report exactly when n has the parity of the first turn |
| KbMouseMode.SendRun | src/usb/usbd/modes/kbmouse_mode.c:38-64 | a run of sends alternates keyboard and mouse starting from the current turn, and leaves the turn flipped once per send |
| MsSidewinder.Word | src/usb/usbh/hid/devices/vendors/microsoft/ms_sidewinder_commander.c:91-107 | the report read as one little-endian number is below 2^(8·length), so every bit field named in the drivers is a slice of it |
| MsSidewinder.SignExtend10 | src/usb/usbh/hid/devices/vendors/microsoft/ms_sidewinder_commander.c:73-78 | a 10-bit field becomes a value in -512..511 that is negative exactly when bit 9 is set and is congruent to the field modulo 1024 |
| MsSidewinder.SignExtend4 | src/usb/usbh/hid/devices/vendors/microsoft/ms_sidewinder_dualstrike.c:55-59 | a 4-bit field becomes a value in -8..7 that is negative exactly when bit 3 is set and is congruent to the field modulo 16 |
| MsSidewinder.NonZero | src/usb/usbh/hid/devices/vendors/microsoft/ms_sidewinder_commander.c:127-130 | the result is never 0, and a non-zero input is kept |
| MsSidewinder.Scale10 | src/usb/usbh/hid/devices/vendors/microsoft/ms_sidewinder_commander.c:122-130 | a signed 10-bit axis scales into 1..255 |
| MsSidewinder.Scale10Monotone | src/usb/usbh/hid/devices/vendors/microsoft/ms_sidewinder_commander.c:122-130 | the scale keeps order and reaches 1 at -512 and 255 at 511 |
| MsSidewinder.Scale10Centre | src/usb/usbh/hid/devices/vendors/microsoft/ms_sidewinder_commander.c:122 | an axis at rest scales to 127, and an axis of 2 to 128 |
| MsSidewinder.RawX | src/usb/usbh/hid/devices/vendors/microsoft/ms_sidewinder_commander.c:92 | the X field is below 1024 |
| MsSidewinder.RawY | src/usb/usbh/hid/devices/vendors/microsoft/ms_sidewinder_commander.c:96 | the Y field is below 1024 |
| MsSidewinder.AxesAtOffsets | src/usb/usbh/hid/devices/vendors/microsoft/ms_sidewinder_commander.c:91-97 | the byte-and-mask reads of X and Y are exactly bits 0-9 and 10-19 of the report |
| MsSidewinderCommander.RawRz | src/usb/usbh/hid/devices/vendors/microsoft/ms_sidewinder_commander.c:100 | the twist field is below 1024 |
| MsSidewinderCommander.RawButtons | src/usb/usbh/hid/devices/vendors/microsoft/ms_sidewinder_commander.c:104 | the button field is below 4096 |
| MsSidewinderCommander.Toggle | src/usb/usbh/hid/devices/vendors/microsoft/ms_sidewinder_commander.c:107 | the toggle field is below 4 |
| MsSidewinderCommander.RzAtOffset | src/usb/usbh/hid/devices/vendors/microsoft/ms_sidewinder_commander.c:99-100 | the twist read is exactly bits 20-29 of the data |
| MsSidewinderCommander.ButtonsAtOffset | src/usb/usbh/hid/devices/vendors/microsoft/ms_sidewinder_commander.c:103-104 | the button read is exactly bits 32-43 of the data |
| MsSidewinderCommander.ToggleAtOffset | src/usb/usbh/hid/devices/vendors/microsoft/ms_sidewinder_commander.c:106-107 | the toggle read is exactly bits 44-45 of the data |
| MsSidewinderCommander.LowButtons | src/usb/usbh/hid/devices/vendors/microsoft/ms_sidewinder_commander.c:140-145 | buttons 1-6 press L1, B3, B4, L2, B1 and B2, each exactly when its bit is set, and nothing else |
| MsSidewinderCommander.HighButtons | src/usb/usbh/hid/devices/vendors/microsoft/ms_sidewinder_commander.c:146-151 | buttons 7-12 press R1, R2, S1, S2, A1 and A2, each exactly when its bit is set, and nothing else |
| MsSidewinderCommander.MapButtons | src/usb/usbh/hid/devices/vendors/microsoft/ms_sidewinder_commander.c:139-151 | the twelve buttons are the two groups on disjoint masks, with no other bit set |
| MsSidewinderCommander.Leds | src/usb/usbh/hid/devices/vendors/microsoft/ms_sidewinder_commander.c:111-118 | LEDs 1-6 light exactly when buttons 1-6 are held and LED 7 when button 12 is; every unused LED bit stays clear |
| MsSidewinderCommander.TiltDpad | src/usb/usbh/hid/devices/vendors/microsoft/ms_sidewinder_commander.c:159-170 | each d-pad direction is pressed exactly when the tilt passes ±128 on its side, and nothing else is pressed |
| MsSidewinderCommander.Sticks | src/usb/usbh/hid/devices/vendors/microsoft/ms_sidewinder_commander.c:161-184 | the toggle gives four stick bytes |
| MsSidewinderCommander.EventOf | src/usb/usbh/hid/devices/vendors/microsoft/ms_sidewinder_commander.c:186-195 | the event carries the device's address and instance and six analog entries: four sticks that are never 0 and two zero triggers |
| MsSidewinderCommander.ButtonsFor | src/usb/usbh/hid/devices/vendors/microsoft/ms_sidewinder_commander.c:139-171 | the event's buttons are the mapped twelve, plus the tilt d-pad in toggle position 2 only |
| MsSidewinderCommander.DisjointGroups | src/usb/usbh/hid/devices/vendors/microsoft/ms_sidewinder_commander.c:139-170 | button and d-pad bits ORed together can be read back separately |
| MsSidewinderCommander.DpadMode | src/usb/usbh/hid/devices/vendors/microsoft/ms_sidewinder_commander.c:162-171 | in toggle position 2 every stick is centred and the d-pad follows the tilt |
| MsSidewinderCommander.StickModesSwap | src/usb/usbh/hid/devices/vendors/microsoft/ms_sidewinder_commander.c:172-183 | positions 1 and 3 swap the tilt between the left and right sticks, with the twist on the other one and its unused Y centred |
| MsSidewinderCommander.CommanderHost.constructor | src/usb/usbh/hid/devices/vendors/microsoft/ms_sidewinder_commander.c:27-29 | the driver starts with no slot stored |
| MsSidewinderCommander.CommanderHost.Init | src/usb/usbh/hid/devices/vendors/microsoft/ms_sidewinder_commander.c:35-41 | mounting succeeds, zeroes the stored report and the desired LEDs, sets the sent LEDs to 0xFF so the first task sends, and changes no other slot |
| MsSidewinderCommander.CommanderHost.Unmount | src/usb/usbh/hid/devices/vendors/microsoft/ms_sidewinder_commander.c:43-47 | unmounting resets the desired and sent LEDs and keeps the stored report |
| MsSidewinderCommander.CommanderHost.Task | src/usb/usbh/hid/devices/vendors/microsoft/ms_sidewinder_commander.c:50-70 | the LED feature report [1, led0, led1] goes out exactly when the desired LEDs differ from the sent ones, which then match |
| MsSidewinderCommander.CommanderHost.Process | src/usb/usbh/hid/devices/vendors/microsoft/ms_sidewinder_commander.c:80-199 | a short report or unchanged data is ignored; otherwise the report ID byte is skipped, the event is that of the data, and the data and desired LEDs are stored |
| MsSidewinderCommander.TaskTwice | src/usb/usbh/hid/devices/vendors/microsoft/ms_sidewinder_commander.c:54-69 | two task passes in a row send the LEDs at most once |
| MsSidewinderDualstrike.RawTwist | src/usb/usbh/hid/devices/vendors/microsoft/ms_sidewinder_dualstrike.c:80 | the twist field is below 16 |
| MsSidewinderDualstrike.RawButtons | src/usb/usbh/hid/devices/vendors/microsoft/ms_sidewinder_dualstrike.c:84 | the button field is below 512 |
| MsSidewinderDualstrike.Hat | src/usb/usbh/hid/devices/vendors/microsoft/ms_sidewinder_dualstrike.c:87 | the hat field is below 16 |
| MsSidewinderDualstrike.TwistOverlapsY | src/usb/usbh/hid/devices/vendors/microsoft/ms_sidewinder_dualstrike.c:76-81 | the twist is the top four bits of the Y field, which both reads share |
| MsSidewinderDualstrike.TwistAtOffset | src/usb/usbh/hid/devices/vendors/microsoft/ms_sidewinder_dualstrike.c:79-80 | the twist read is exactly bits 16-19 of the report |
| MsSidewinderDualstrike.ButtonsAtOffset | src/usb/usbh/hid/devices/vendors/microsoft/ms_sidewinder_dualstrike.c:83-84 | the button read is exactly bits 24-32 of the report |
| MsSidewinderDualstrike.HatAtOffset | src/usb/usbh/hid/devices/vendors/microsoft/ms_sidewinder_dualstrike.c:86-87 | the hat read is exactly bits 36-39 of the report |
| MsSidewinderDualstrike.HatDirections | src/usb/usbh/hid/devices/vendors/microsoft/ms_sidewinder_dualstrike.c:90-93 | hat values 8 and above mean no direction, opposite directions never combine, and an odd hat value gives exactly two |
| MsSidewinderDualstrike.HatDpad | src/usb/usbh/hid/devices/vendors/microsoft/ms_sidewinder_dualstrike.c:135-140 | each d-pad direction is pressed exactly when the hat points that way, and nothing else is pressed |
| MsSidewinderDualstrike.HatStick | src/usb/usbh/hid/devices/vendors/microsoft/ms_sidewinder_dualstrike.c:128-141 | the hat stick is centred in d-pad mode; in analog mode X is 0 or 255 exactly for left or right, and Y exactly for up or down |
| MsSidewinderDualstrike.FaceButtons | src/usb/usbh/hid/devices/vendors/microsoft/ms_sidewinder_dualstrike.c:144-147 | buttons 1-4 press B4, B3, B2 and B1, each exactly when its bit is set, and nothing else |
| MsSidewinderDualstrike.ShoulderButtons | src/usb/usbh/hid/devices/vendors/microsoft/ms_sidewinder_dualstrike.c:150-156 | buttons 5-9 press L1, R1, L2, R2 and S2, each exactly when its bit is set, and nothing else |
| MsSidewinderDualstrike.ButtonsFor | src/usb/usbh/hid/devices/vendors/microsoft/ms_sidewinder_dualstrike.c:128-156 | the event's buttons are the face and shoulder groups plus the hat d-pad outside analog mode, with no other bit set |
| MsSidewinderDualstrike.Scale4 | src/usb/usbh/hid/devices/vendors/microsoft/ms_sidewinder_dualstrike.c:116-125 | a signed 4-bit twist scales into 1..255 |
| MsSidewinderDualstrike.Scale4Shape | src/usb/usbh/hid/devices/vendors/microsoft/ms_sidewinder_dualstrike.c:116-125 | the twist scale keeps order, reaching 1 at -8, 136 at rest and 255 at 7 |
| MsSidewinderDualstrike.ModeCommand | src/usb/usbh/hid/devices/vendors/microsoft/ms_sidewinder_dualstrike.c:97-113 | Start with the hat left asks for analog mode and Start with the hat right asks for d-pad mode, each exactly in that case |
| MsSidewinderDualstrike.EventOf | src/usb/usbh/hid/devices/vendors/microsoft/ms_sidewinder_dualstrike.c:158-168 | the event has seven analog entries: the hat stick, scaled X and Y, two zero triggers and the scaled twist; its buttons are those of ButtonsFor |
| MsSidewinderDualstrike.AxesNeverZero | src/usb/usbh/hid/devices/vendors/microsoft/ms_sidewinder_dualstrike.c:116-125 | the scaled tilt and twist are never 0 |
| MsSidewinderDualstrike.DualStrikeHost.constructor | src/usb/usbh/hid/devices/vendors/microsoft/ms_sidewinder_dualstrike.c:26-29 | the driver starts with no slot stored |
| MsSidewinderDualstrike.DualStrikeHost.Init | src/usb/usbh/hid/devices/vendors/microsoft/ms_sidewinder_dualstrike.c:35-40 | mounting succeeds, zeroes the stored report, puts the hat back in d-pad mode and changes no other slot |
| MsSidewinderDualstrike.DualStrikeHost.Unmount | src/usb/usbh/hid/devices/vendors/microsoft/ms_sidewinder_dualstrike.c:42-44 | unmounting changes no state |
| MsSidewinderDualstrike.DualStrikeHost.Process | src/usb/usbh/hid/devices/vendors/microsoft/ms_sidewinder_dualstrike.c:62-171 | a short or unchanged report is ignored; a mode command to the current mode is ignored without storing; one that changes the mode stores it with no event; any other report gives its event in the current mode and is stored |
| MsSidewinderDualstrike.EnterAnalogMode | src/usb/usbh/hid/devices/vendors/microsoft/ms_sidewinder_dualstrike.c:100-106 | Start plus left from d-pad mode is swallowed, switches to analog mode, and is silent when it comes again |
| MsSidewinderDualstrike.RepeatIgnored | src/usb/usbh/hid/devices/vendors/microsoft/ms_sidewinder_dualstrike.c:67-69 | a report that comes twice in a row is silent the second time |
| N64Host.FaceButtons | src/native/host/n64/n64_host.c:41-49 | A, C-Down, B and C-Left press B1-B4 and C-Up and C-Right press L3 and R3, each exactly when held, and nothing else is pressed |
| N64Host.ShoulderButtons | src/native/host/n64/n64_host.c:51-59 | L and R press L1 and R1, Z presses L2 and Start presses S2, each exactly when held, and nothing else is pressed |
| N64Host.DpadButtons | src/native/host/n64/n64_host.c:61-65 | each d-pad direction is pressed exactly when held, and nothing else is pressed |
| N64Host.MapButtons | src/native/host/n64/n64_host.c:37-68 | the button word is the three groups on disjoint masks, with no other bit set |
| N64Host.MapNeverAllOnes | src/native/host/n64/n64_host.c:200 | no poll maps to 0xFFFFFFFF, so the value init stores makes port 0's first good poll report |
| N64Host.ConvertStickAxis | src/native/host/n64/n64_host.c:73-86 | the output is 128 exactly for a centred stick and above 128 exactly for a positive one; beyond ±80 it clamps to 0 or 255 |
| N64Host.ConvertFullScale | src/native/host/n64/n64_host.c:71-78 | a deflection of 80 gives 255 and one of -80 gives 1 |
| N64Host.ConvertSymmetric | src/native/host/n64/n64_host.c:77-85 | within ±80 the scale is symmetric about 128 |
| N64Host.ConvertMonotone | src/native/host/n64/n64_host.c:75-86 | a further deflection never gives a lower output |
| N64Host.StickY | src/native/host/n64/n64_host.c:186 | the corrected inverted Y is 128 exactly at rest and below 128 exactly when the stick points up |
| N64Host.StickYWraps | src/native/host/n64/n64_host.c:186 | as written, a stick held fully down (-128) is negated and narrowed back to -128 and reads as fully up (0); the corrected Y gives 255 |
| N64Host.StickYAgreesElsewhere | src/native/host/n64/n64_host.c:186 | for every other stick value the as-written and corrected Y agree |
| N64Host.CStick | src/native/host/n64/n64_host.c:89-101 | C-Right gives X 255, C-Left alone gives 0 and neither gives 128; C-Down gives Y 255, C-Up alone gives 0 and neither gives 128 |
| N64Host.EventOf | src/native/host/n64/n64_host.c:185-226 | the event comes from address 0xE0 plus the port, instance 0, with the mapped buttons, six analog entries, L2 and R2 at 255 exactly when L and R are held, and LX at 128 exactly when the stick is centred; LY is the corrected `StickY` (255 for -128), while `StickYAsWritten` is the code |
| N64Host.PortStep | src/native/host/n64/n64_host.c:172-212 | a port reports exactly when the poll succeeded and its buttons, stick or L/R differ from the stored copy, which it then replaces; otherwise the copy is kept; the event is `EventOf`, with the corrected `StickY` |
| N64Host.RepeatIsSilent | src/native/host/n64/n64_host.c:199-206 | polling the same report twice in a row reports at most once |
| N64Host.TaskEvents | src/native/host/n64/n64_host.c:167-230 | a task pass over n ports gives at most n events, each from one of those ports' addresses |
| N64Host.CountTrue | src/native/host/n64/n64_host.c:300-309 | the count is at most the number of ports, and 0 exactly when no port is connected |
| N64Host.N64HostDriver.constructor | src/native/host/n64/n64_host.c:21-30 | the driver starts uninitialised with every copy zeroed and every rumble off |
| N64Host.N64HostDriver.InitPin | src/native/host/n64/n64_host.c:117-158 | init sets port 0's copy to all-ones buttons and a centred stick, turns its rumble off, marks the driver initialised and changes nothing else |
| N64Host.N64HostDriver.Init | src/native/host/n64/n64_host.c:107-115 | a second init changes nothing; the first one is InitPin |
| N64Host.N64HostDriver.InitPins | src/native/host/n64/n64_host.c:277-284 | with a pin given the driver is initialised on it, otherwise through Init |
| N64Host.N64HostDriver.Task | src/native/host/n64/n64_host.c:160-231 | before init nothing happens; after it every port's copy follows PortStep and the events are those of TaskEvents, in port order, with the corrected `StickY` of `EventOf` |
| N64Host.N64HostDriver.SetRumble | src/native/host/n64/n64_host.c:261-266 | a valid port's rumble flag is set and nothing else changes; a port past the last is ignored |
| N64Host.N64HostDriver.GetDeviceType | src/native/host/n64/n64_host.c:245-259 | -1 exactly before init, for a port past the last, or with no controller; otherwise the low two bits of the status byte |
| N64Host.N64HostDriver.DeviceCount | src/native/host/n64/n64_host.c:300-309 | the number of connected ports |
| N64Host.N64HostDriver.IsConnected | src/native/host/n64/n64_host.c:233-243 | true exactly when initialised and some port is connected |
| RaphnetPce.Encode | src/usb/usbh/hid/devices/vendors/raphnet/raphnet_pce.c:31-38 | a report lays out as exactly nine bytes |
| RaphnetPce.EncodeParse | src/usb/usbh/hid/devices/vendors/raphnet/raphnet_pce.c:31-38 | the packed little-endian read of nine bytes gives those nine bytes back when laid out again |
| RaphnetPce.ParseEncode | src/usb/usbh/hid/devices/vendors/raphnet/raphnet_pce.c:31-38 | every report is read back from its own nine bytes |
| RaphnetPce.SameBytesSameReport | src/usb/usbh/hid/devices/vendors/raphnet/raphnet_pce.c:57-60 | comparing the stored report field by field is the same as comparing the nine bytes |
| RaphnetPce.DpadButtons | src/usb/usbh/hid/devices/vendors/raphnet/raphnet_pce.c:67-71 | each d-pad direction is pressed exactly when its axis is more than 8000 from the 16000 centre on that side, and nothing else is pressed |
| RaphnetPce.DpadNeverOpposite | src/usb/usbh/hid/devices/vendors/raphnet/raphnet_pce.c:67-71 | opposite directions are never pressed together, and centred axes press nothing |
| RaphnetPce.BaseButtons | src/usb/usbh/hid/devices/vendors/raphnet/raphnet_pce.c:79-82 | I, II, Select and Run in bits 0-3 press B2, B1, S1 and S2, each exactly when its bit is set, and nothing else |
| RaphnetPce.ExtraButtons | src/usb/usbh/hid/devices/vendors/raphnet/raphnet_pce.c:84-87 | III, IV, V and VI in bits 4-7 press B3, B4, L1 and R1, each exactly when its bit is set, and nothing else |
| RaphnetPce.FaceButtons | src/usb/usbh/hid/devices/vendors/raphnet/raphnet_pce.c:79-110 | the eight button bits are the two groups on disjoint masks, with no other bit set |
| RaphnetPce.FaceButtonsInvertible | src/usb/usbh/hid/devices/vendors/raphnet/raphnet_pce.c:89-110 | no two button bits map to the same output, so the button byte is recovered from the buttons pressed |
| RaphnetPce.MapReport | src/usb/usbh/hid/devices/vendors/raphnet/raphnet_pce.c:98-110 | the d-pad bits come from the axes and the face bits from the button byte |
| RaphnetPce.EventOf | src/usb/usbh/hid/devices/vendors/raphnet/raphnet_pce.c:117-126 | the event carries the address and instance, with both sticks centred and both triggers at 0 |
| RaphnetPce.SlotOutOfRange | src/usb/usbh/hid/devices/vendors/raphnet/raphnet_pce.c:58-61 | as written, the table index dev_addr-1 leaves the five-entry table exactly for address 0 and for addresses above 5; address 6 indexes slot 5 |
| RaphnetPce.PceHost.constructor | src/usb/usbh/hid/devices/vendors/raphnet/raphnet_pce.c:41 | the table of last reports starts zeroed |
| RaphnetPce.PceHost.Process | src/usb/usbh/hid/devices/vendors/raphnet/raphnet_pce.c:49-128 | a short report, or an address without a slot, is ignored; otherwise an event is produced exactly when the report differs from the stored copy, and the copy becomes the report |
| RaphnetPce.PceHost.Unmount | src/usb/usbh/hid/devices/vendors/raphnet/raphnet_pce.c:131-137 | the stored copy of addresses 1-5 is zeroed, and any other address changes nothing |
| RaphnetPce.RepeatIgnored | src/usb/usbh/hid/devices/vendors/raphnet/raphnet_pce.c:57-61 | a report repeated is ignored the second time, and the first time it reports exactly when it differs from the stored copy |
| Ps4Mode.HatNibble | src/usb/usbd/modes/ps4_mode.c:85-100 | the d-pad becomes a hat code in the low nibble |
| Ps4Mode.ReportHead | src/usb/usbd/modes/ps4_mode.c:76-131 | send_report writes the ten header bytes |
| Ps4Mode.InitReport | src/usb/usbd/modes/ps4_mode.c:30-43 | init leaves a 64-byte buffer |
| Ps4Mode.Byte5Fields | src/usb/usbd/modes/ps4_mode.c:85-108 | byte 5 splits back into the hat, which decodes to the pressed d-pad direction, and Square, Cross, Circle and Triangle, each exactly when pressed |
| Ps4Mode.Byte6Fields | src/usb/usbd/modes/ps4_mode.c:110-120 | byte 6 holds L1, R1, L2, R2, Share, Options, L3 and R3 in bits 0-7, each exactly when pressed |
| Ps4Mode.Byte7Fields | src/usb/usbd/modes/ps4_mode.c:122-127 | byte 7 holds PS and touchpad click in bits 0-1 and the counter modulo 64 in bits 2-7, which reads one more, modulo 64, on the next send, also across the 8-bit wrap |
| Ps4Mode.InitIsIdleReport | src/usb/usbd/modes/ps4_mode.c:30-43 | the buffer init leaves starts with the header a neutral, idle controller gives with counter 0 |
| Ps4Mode.GetReport | src/usb/usbd/modes/ps4_mode.c:179-241 | non-feature requests and unknown ids get no reply; feature 0x03 and 0xF3 get a prefix of their tables cut to the request; 0xF0 and 0xF1 get up to 64 zeros; 0xF2 gets up to 16 bytes that are zero except byte 1, 0x10; no reply is longer than requested |
| Ps4Mode.Ps4Device.constructor | src/usb/usbd/modes/ps4_mode.c:21-46 | the mode starts with the init buffer, no output latched and counter 0 |
| Ps4Mode.Ps4Device.Init | src/usb/usbd/modes/ps4_mode.c:30-46 | the buffer becomes the init report, the output is cleared and the counter reset |
| Ps4Mode.Ps4Device.SendReport | src/usb/usbd/modes/ps4_mode.c:68-139 | bytes 0-9 become the header for the current counter, bytes 10-63 are kept, and the counter steps by one, wrapping at 256 |
| Ps4Mode.Ps4Device.HandleOutput | src/usb/usbd/modes/ps4_mode.c:141-154 | an output report of id 5 at least as long as the output struct is latched and flagged; anything else changes nothing |
| Ps4Mode.Ps4Device.GetRumble | src/usb/usbd/modes/ps4_mode.c:156-161 | the rumble is the stronger of the two motors |
| Ps4Mode.Ps4Device.GetFeedback | src/usb/usbd/modes/ps4_mode.c:163-177 | a latched output is handed over once, motors and lightbar, marked dirty; without one the feedback is unchanged and false is returned |
| SinputMode.SinputMovesDistinct | src/usb/usbd/modes/sinput_mode.c:40-77 | no two listed JP buttons set the same SInput button |
| SinputMode.ConvertMove | src/usb/usbd/modes/sinput_mode.c:44-74 | each of the twenty listed JP buttons sets its own SInput button exactly when pressed |
| SinputMode.ConvertOnlyListed | src/usb/usbd/modes/sinput_mode.c:40-77 | SInput buttons 20 and up are never set |
| SinputMode.ConvertIgnoresUnlisted | src/usb/usbd/modes/sinput_mode.c:40-77 | A3, A4 and the JP bits above R4 do not affect the converted word |
| SinputMode.ConvertFits | src/usb/usbd/modes/sinput_mode.c:40-77 | the converted word fits in 20 bits |
| SinputMode.TriggerToS16 | src/usb/usbd/modes/sinput_mode.c:33-37 | the trigger scales into 0..32767, reaching 0 exactly at 0 and 32767 exactly at 255 |
| SinputMode.TriggerStrictlyMonotone | src/usb/usbd/modes/sinput_mode.c:33-37 | a further-pulled trigger reads at least 128 higher, so no two positions collapse |
| SinputMode.Report | src/usb/usbd/modes/sinput_mode.c:116-134 | send_report keeps the report id and stamps the clock value it reads |
| SinputMode.SplitJoin | src/usb/usbd/modes/sinput_mode.c:118-121 | the four little-endian button bytes put back together give the 32-bit word |
| SinputMode.ButtonsSplitLossless | src/usb/usbd/modes/sinput_mode.c:116-121 | the report's four button bytes give back the converted word, with byte 3 zero and byte 2 below 0x10 |
| SinputMode.SticksInRange | src/usb/usbd/modes/sinput_mode.c:123-127 | each stick is (v-128)·256, the value the clamped conversion gives, and it converts back to the 8-bit axis |
| SinputMode.SinputDevice.constructor | src/usb/usbd/modes/sinput_mode.c:83-101 | the report starts as the input report id with every field 0, and both motors off |
| SinputMode.SinputDevice.SendReport | src/usb/usbd/modes/sinput_mode.c:108-148 | the report becomes the one Report builds from the previous report, the profile output, the buttons and the clock |
| SinputMode.SinputDevice.HandleOutput | src/usb/usbd/modes/sinput_mode.c:150-186 | only a haptic command of type 2, six bytes or longer, on the output id sets the motors, to bytes 2 and 4; any other output changes nothing |
| SinputMode.SinputDevice.GetRumble | src/usb/usbd/modes/sinput_mode.c:188-192 | the rumble is the stronger of the two motors |
| SinputMode.SinputDevice.GetFeedback | src/usb/usbd/modes/sinput_mode.c:194-207 | feedback is reported exactly when a motor runs, with both motors, the RGB LED off and the dirty flag set; it consumes nothing |
| TudGcAdapter.OpenResult | src/usb/usbd/drivers/tud_gc_adapter.c:78-116 | open claims a non-zero length exactly for a vendor interface that fits in max_len and whose announced endpoints all follow; that length is the interface plus its endpoints |
| TudGcAdapter.GcAdapterDriver.constructor | src/usb/usbd/drivers/tud_gc_adapter.c:21-38 | the static state starts with no rumble latched |
| TudGcAdapter.GcAdapterDriver.Init | src/usb/usbd/drivers/tud_gc_adapter.c:44-65 | nothing is open, the input report id is 0x21, every port is disconnected with sticks at 128 and triggers at 0, and no rumble is latched |
| TudGcAdapter.GcAdapterDriver.Open | src/usb/usbd/drivers/tud_gc_adapter.c:78-116 | the result is OpenResult; once the class and length pass, the interface number is recorded and the IN and OUT endpoints are the last of each direction among the endpoints taken before a missing one; otherwise nothing changes |
| TudGcAdapter.GcAdapterDriver.ControlTransfer | src/usb/usbd/drivers/tud_gc_adapter.c:118-132 | every control request is stalled |
| TudGcAdapter.GcAdapterDriver.TransferDone | src/usb/usbd/drivers/tud_gc_adapter.c:134-152 | an OUT transfer of at least five bytes starting with 0x11 latches those five bytes and flags them; anything else changes nothing |
| TudGcAdapter.GcAdapterDriver.GetRumble | src/usb/usbd/drivers/tud_gc_adapter.c:208-219 | the latched command is handed over exactly once, and the flag is cleared |
| TudGcAdapter.GcAdapterDriver.SendReport | src/usb/usbd/drivers/tud_gc_adapter.c:182-206 | the report is taken exactly when the stack is ready, the IN endpoint is open and not busy; otherwise nothing changes |
| TudGcAdapter.LatchedIsRumbleCommand | src/usb/usbd/drivers/tud_gc_adapter.c:134-145 | a latched command is a rumble command of the output mode, with the four port bytes passed through |
| TudXinput.FirstEndpoint | src/usb/usbd/drivers/tud_xinput.c:102-106 | the endpoints start right after the interface, or one descriptor later when a class-specific descriptor is skipped |
| TudXinput.ClaimOnlyKnown | src/usb/usbd/drivers/tud_xinput.c:88-192 | open claims only the gamepad, audio, plugin and security interfaces of the vendor class, never an unknown subclass, and never more than max_len or less than the interface descriptor |
| TudXinput.GamepadNeedsEndpoints | src/usb/usbd/drivers/tud_xinput.c:96-131 | the gamepad is claimed exactly when every endpoint it announces is present; the audio and plugin stubs are always claimed |
| TudXinput.InReply | src/usb/usbd/drivers/tud_xinput.c:213-260 | RESPOND stalls exactly until a response is ready and then sends it; STATE sends 2 when ready and 1 otherwise; unknown requests stall |
| TudXinput.StateAgreesWithRespond | src/usb/usbd/drivers/tud_xinput.c:227-255 | STATE says 2 exactly when RESPOND would answer, so the console never polls into a stall |
| TudXinput.SetupReceiveOverflows | src/usb/usbd/drivers/tud_xinput.c:263-266 | as written, the data stage takes the host's wLength into the 48-byte auth buffer, so wLength 49 already overflows it |
| TudXinput.SetupReceiveLen | src/usb/usbd/drivers/tud_xinput.c:263-266 | the corrected data stage never exceeds the 48-byte buffer or wLength, and takes wLength whole up to 48 |
| TudXinput.XinputDriver.constructor | src/usb/usbd/drivers/tud_xinput.c:42-75 | nothing is open, no output is latched and the handshake is idle with no response |
| TudXinput.XinputDriver.Open | src/usb/usbd/drivers/tud_xinput.c:88-192 | the result is OpenResult; the gamepad records its interface number and the last IN and OUT endpoint taken, the security interface its number, and anything else changes nothing |
| TudXinput.XinputDriver.VendorControl | src/usb/usbd/drivers/tud_xinput.c:211-292 | device-to-host requests are answered at SETUP by InReply and acked later; host-to-device SETUP opens a data stage of SetupReceiveLen bytes; at DATA, INIT and VERIFY record their challenge and any other request stalls; only a received challenge changes the state, which stays consistent |
| TudXinput.XinputDriver.Xsm3Init | src/usb/usbd/drivers/tud_xinput.c:383-391 | the handshake starts over: idle, no request pending, no response |
| TudXinput.XinputDriver.Xsm3Process | src/usb/usbd/drivers/tud_xinput.c:393-421 | a pending init challenge becomes a 46-byte response and a pending verify challenge a 22-byte one, both copied from the library's output; in any other state nothing changes |
| TudXinput.XinputDriver.TransferDone | src/usb/usbd/drivers/tud_xinput.c:294-310 | an OUT transfer of at least 8 bytes latches those 8 bytes and flags them; anything else changes nothing |
| TudXinput.XinputDriver.GetOutput | src/usb/usbd/drivers/tud_xinput.c:366-377 | the latched report is handed over exactly once, and the flag is cleared |
| TudXinput.XinputDriver.SendReport | src/usb/usbd/drivers/tud_xinput.c:340-364 | the report is taken exactly when the stack is ready, the IN endpoint is open and not busy; otherwise nothing changes |
| TudXinput.Handshake | src/usb/usbd/drivers/tud_xinput.c:393-421 | the console's INIT, process, VERIFY, process sequence ends authenticated, with RESPOND sending the 22-byte verify response and STATE reporting 2 |
| UsbDescriptor.DescAt | src/usb/usbd/drivers/tud_gc_adapter.c:90-104 | a descriptor past the end of the configuration reads as one with no type |
| UsbDescriptor.LeadingEndpoints | src/usb/usbd/drivers/tud_gc_adapter.c:93-105 | the count of endpoint descriptors before the first that is not one is at most n; all counted are endpoints, and the one after them, if any, is not |
| UsbDescriptor.LeadingAll | src/usb/usbd/drivers/tud_gc_adapter.c:93-105 | the walk takes all n endpoints exactly when every one of the n descriptors is an endpoint |
| UsbdMode.DpadDirection | src/usb/usbd/modes/hid_mode.c:50-67 | the hat is centred exactly when no direction is held, and every direction it shows is held |
| UsbdMode.DirectionExact | src/usb/usbd/modes/hid_mode.c:50-67 | with no opposing pair held, the hat shows exactly the held directions |
| UsbdMode.DirectionOpposing | src/usb/usbd/modes/hid_mode.c:57-64 | up wins over down; with left and right both held, right wins on a diagonal and left wins alone |
| UsbdMode.HatCode | src/usb/usbd/modes/hid_mode.c:57-66 | the eight directions code as 0..7 clockwise from up, and the centre as the mode's own centre code |
| UsbdMode.HatDirection | src/usb/usbd/modes/ps4_mode.c:85-100 | a hat code of 8 or more reads as centred, and only such a code |
| UsbdMode.HatRoundTrip | src/usb/usbd/modes/ps4_mode.c:85-100 | with a centre code of 8 or more, reading the hat code back gives the direction |
| UsbdMode.AxisToS16 | src/usb/usbd/modes/xinput_mode.c:27-34 | the 16-bit axis is (v-128)·256, inside the int16 range, so the clamp never acts |
| UsbdMode.AxisRoundTrip | src/usb/usbd/modes/xinput_mode.c:27-34 | the high byte of the 16-bit axis, re-centred, gives the 8-bit axis back, and only 128 maps to 0 |
| UsbdMode.AxisMonotone | src/usb/usbd/modes/xinput_mode.c:27-34 | the conversion keeps the order of positions |
| UsbdMode.AxisToS16Inverted | src/usb/usbd/modes/xinput_mode.c:36-43 | the inverted axis is the negated conversion, except that full up (0) clamps to 32767; it stays inside int16 |
| UsbdMode.InvertedAntitone | src/usb/usbd/modes/xinput_mode.c:36-43 | the inverted conversion reverses the order of positions and keeps 128 at 0 |
| UsbdMode.TriggerWithFallback | src/usb/usbd/modes/xinput_mode.c:95-99 | the trigger is 0 exactly when the analog value is 0 and the button is up; a non-zero analog value is kept; a held button with no analog value gives 0xFF |
| XboneMode.Trigger | src/usb/usbd/modes/xbone_mode.c:80-89 | a 10-bit trigger: 1023 exactly for a digital press with no analog value, otherwise the 8-bit value times 4, at most 1020 |
| XboneMode.SendReport | src/usb/usbd/modes/xbone_mode.c:46-99 | triggers are 10-bit; sticks are in int16 range; with the corrected Y, a stick above centre reads positive and one below reads negative |
| XboneMode.StickYAsWritten | src/usb/usbd/modes/xbone_mode.c:94-96 | as written, the negated axis is stored in an int16 |
| XboneMode.StickYAsWrittenFlips | src/usb/usbd/modes/xbone_mode.c:94-96 | as written, full up (0) wraps to -32768, full down, while 1 gives 32512 and 255 gives -32512 |
| XboneMode.StickYAsWrittenElsewhere | src/usb/usbd/modes/xbone_mode.c:94-96 | for every axis value but 0, the as-written Y agrees with the clamped inversion |
| XboneMode.AsWrittenAgrees | src/usb/usbd/modes/xbone_mode.c:94-96 | for every axis value but 0, the as-written Y agrees with the corrected Y |
| XboneMode.StickY | src/usb/usbd/modes/xbone_mode.c:91-96 | the corrected Y stays in int16 and gives 32767 for full up |
| XboneMode.StickYAntitone | src/usb/usbd/modes/xbone_mode.c:91-96 | the corrected Y never reverses: a stick further down never reads higher |
| XboneMode.SendReportAsWritten | src/usb/usbd/modes/xbone_mode.c:46-99 | the report as written equals the corrected one when both Y axes are above 0, and differs in LY when LY is 0 |
| XboneMode.IdleReportIsZero | src/usb/usbd/modes/xbone_mode.c:54-96 | every send starts from a cleared report, so an idle, centred controller gives all zeros |
| XboneMode.SticksPointUp | src/usb/usbd/modes/xbone_mode.c:91-96 | up on the left stick reads positive and centre reads zero, X keeps its direction, and the 8-bit X comes back from the report |
| XacMode.XacMovesDistinct | src/usb/usbd/modes/xac_mode.c:73-86 | no two listed JP buttons set the same XAC button |
| XacMode.ConvertMove | src/usb/usbd/modes/xac_mode.c:75-86 | each of the twelve listed JP buttons sets its own XAC button exactly when pressed |
| XacMode.ConvertOnlyListed | src/usb/usbd/modes/xac_mode.c:73-86 | no other JP button sets anything: bits 12 and up stay clear |
| XacMode.ConvertFits | src/usb/usbd/modes/xac_mode.c:73-86 | the button word fits in twelve bits |
| XacMode.SendReport | src/usb/usbd/modes/xac_mode.c:64-68 | the four stick bytes pass through unchanged |
| XacMode.SplitJoin | src/usb/usbd/modes/xac_mode.c:88-89 | a twelve-bit word survives the split into a low nibble and a high byte |
| XacMode.ButtonsSplitLossless | src/usb/usbd/modes/xac_mode.c:73-89 | the twelve buttons come back from the report's nibble and byte, and the nibble stays below 16 |
| XacMode.HatFollowsDpad | src/usb/usbd/modes/xac_mode.c:22-40 | the hat is centred exactly when no d-pad direction is held, and otherwise reads back the direction |
| XidMode.DigitalOnlyListed | src/usb/usbd/modes/xid_mode.c:26-40 | only d-pad, Start, Back, L3 and R3 reach the digital byte, and it is zero exactly when none of them is held |
| XidMode.SendReport | src/usb/usbd/modes/xid_mode.c:70-103 | A, B, X, Y, Black and White are 0xFF exactly while B1-B4, L1, R1 are held and 0 otherwise; a trigger is 0 exactly when its analog value is 0 and its button is up; the sticks are in int16 range |
| XidMode.SticksNotInverted | src/usb/usbd/modes/xid_mode.c:96-100 | every stick comes back to its 8-bit value and Y is not inverted: up reads negative |
| XidMode.GetRumble | src/usb/usbd/modes/xid_mode.c:113-119 | the high byte of one motor, at least that of each |
| XidMode.GetFeedback | src/usb/usbd/modes/xid_mode.c:121-128 | both motors' high bytes are handed over and marked dirty; the LED fields are kept |
| XidMode.RumbleIsStrongerFeedback | src/usb/usbd/modes/xid_mode.c:113-128 | the 8-bit rumble is the larger of the two feedback bytes |
| XidMode.XidDevice.constructor | src/usb/usbd/modes/xid_mode.c:55-63 | motors off and nothing latched |
| XidMode.XidDevice.Task | src/usb/usbd/modes/xid_mode.c:105-111 | a rumble from the driver is stored and latched; without one nothing changes |
| XinputMode.Buttons0Fields | src/usb/usbd/modes/xinput_mode.c:74-83 | each bit of the first button byte is exactly its listed button |
| XinputMode.Buttons1Fields | src/usb/usbd/modes/xinput_mode.c:85-93 | each used bit of the second button byte is exactly its listed button, and bit 3 stays clear |
| XinputMode.Report | src/usb/usbd/modes/xinput_mode.c:66-109 | the report id and size bytes are kept by every send |
| XinputMode.ReportSticks | src/usb/usbd/modes/xinput_mode.c:101-106 | X comes back to its 8-bit value, Y is inverted so centre reads 0 and full up reads 32767, and Y comes back from its negation |
| XinputMode.XinputDevice.constructor | src/usb/usbd/modes/xinput_mode.c:49-56 | a report holding only its size, no output and nothing latched |
| XinputMode.XinputDevice.SendReport | src/usb/usbd/modes/xinput_mode.c:66-109 | the report becomes the converted report |
| XinputMode.XinputDevice.Task | src/usb/usbd/modes/xinput_mode.c:111-120 | an output report from the driver is stored and latched; without one nothing changes |
| XinputMode.XinputDevice.GetRumble | src/usb/usbd/modes/xinput_mode.c:122-127 | the stronger of the two motors |
| XinputMode.XinputDevice.GetFeedback | src/usb/usbd/modes/xinput_mode.c:129-138 | hands over the motors once per latched output report and clears the latch; otherwise leaves the feedback alone |
| Switch2Pro.Zeros | src/usb/usbh/hid/devices/vendors/nintendo/switch2_pro.c:197 | a run of n zero bytes, the padding of the LED command and of the rumble buffer |
| Switch2Pro.LedPattern | src/usb/usbh/hid/devices/vendors/nintendo/switch2_pro.c:558 | players 0-3 light the first one to four LEDs (pattern 2^(n+1)-1), any other index lights only the first |
| Switch2Pro.PlayerLedCommand | src/usb/usbh/hid/devices/vendors/nintendo/switch2_pro.c:548-559 | a 16-byte command 09 91 00 07 with the pattern at byte 8 and seven zero bytes after it |
| Switch2Pro.InitCommand | src/usb/usbh/hid/devices/vendors/nintendo/switch2_pro.c:167-206 | commands exist exactly for indices 0-17, each 7 to 32 bytes of the form cmd 91 00; indices 8 and 17 enable haptics and 16 is the player LED command |
| Switch2Pro.Unpack | src/usb/usbh/hid/devices/vendors/nintendo/switch2_pro.c:320-324 | each stick's two values are 12 bits |
| Switch2Pro.UnpackPack | src/usb/usbh/hid/devices/vendors/nintendo/switch2_pro.c:320-324 | unpacking reads back two packed 12-bit values |
| Switch2Pro.PackUnpack | src/usb/usbh/hid/devices/vendors/nintendo/switch2_pro.c:320-324 | unpacking loses no bit of the three stick bytes |
| Switch2Pro.ScaleCalibrated | src/usb/usbh/hid/devices/vendors/nintendo/switch2_pro.c:118-135 | the centre reads 128, a deflection above the centre reads at least 128 and one below at most 128 |
| Switch2Pro.ScaleMonotone | src/usb/usbh/hid/devices/vendors/nintendo/switch2_pro.c:123-135 | a further deflection never reads lower |
| Switch2Pro.ScaleFull | src/usb/usbh/hid/devices/vendors/nintendo/switch2_pro.c:123-135 | a deflection by the full range reads 255 upwards and at most 1 downwards |
| Switch2Pro.InvertY | src/usb/usbh/hid/devices/vendors/nintendo/switch2_pro.c:361-365 | the vertical axes are mirrored: value and result add up to 255 |
| Switch2Pro.Average | src/usb/usbh/hid/devices/vendors/nintendo/switch2_pro.c:336-339 | the averaged centre lies between the old centre and the new sample |
| Switch2Pro.Calibrate | src/usb/usbh/hid/devices/vendors/nintendo/switch2_pro.c:326-341 | the first sample sets all four centres; each later one moves every centre to between its old value and the sample |
| Switch2Pro.FaceBits | src/usb/usbh/hid/devices/vendors/nintendo/switch2_pro.c:368-371 | B, A, Y, X press exactly B1-B4 and nothing else |
| Switch2Pro.ShoulderBits | src/usb/usbh/hid/devices/vendors/nintendo/switch2_pro.c:372-383 | the four shoulder flags press exactly L1, R1, L2, R2 |
| Switch2Pro.SystemBits | src/usb/usbh/hid/devices/vendors/nintendo/switch2_pro.c:385-393 | Minus, Plus, the stick clicks and Home press exactly S1, S2, L3, R3, A1 |
| Switch2Pro.ExtraBits | src/usb/usbh/hid/devices/vendors/nintendo/switch2_pro.c:394-397 | Capture, the square button and the paddles press exactly A2, A3, L4, R4 |
| Switch2Pro.DpadBits | src/usb/usbh/hid/devices/vendors/nintendo/switch2_pro.c:389-392 | the d-pad presses exactly DU, DD, DL, DR |
| Switch2Pro.ShoulderButtons | src/usb/usbh/hid/devices/vendors/nintendo/switch2_pro.c:372-383 | the Pro controller maps L, R, ZL, ZR to L1, R1, L2, R2; the GameCube controller maps L and R to L2 and R2 and ZL and ZR to L1 and R1 |
| Switch2Pro.FrontButtons | src/usb/usbh/hid/devices/vendors/nintendo/switch2_pro.c:367-383 | the face and shoulder groups, nothing outside them |
| Switch2Pro.BackButtons | src/usb/usbh/hid/devices/vendors/nintendo/switch2_pro.c:385-397 | the system, extra and d-pad groups, nothing outside them |
| Switch2Pro.MapButtons | src/usb/usbh/hid/devices/vendors/nintendo/switch2_pro.c:367-397 | each of the five button groups holds exactly its flags, and no other bit (A4 and above R4) is set |
| Switch2Pro.GameCubeSwapsShoulders | src/usb/usbh/hid/devices/vendors/nintendo/switch2_pro.c:372-383 | the GameCube map is the Pro map with L/ZL and R/ZR exchanged |
| Switch2Pro.EventOf | src/usb/usbh/hid/devices/vendors/nintendo/switch2_pro.c:352-409 | the event carries the device, the mapped buttons and six analog values with no triggers; a stick at its calibrated centre reads 128 across and 127 vertically |
| Switch2Pro.MinIntensity | src/usb/usbh/hid/devices/vendors/nintendo/switch2_pro.c:453-461 | a non-zero intensity is raised to at least 64, zero stays zero, and 64 or more is kept |
| Switch2Pro.EncodeHaptic | src/usb/usbh/hid/devices/vendors/nintendo/switch2_pro.c:137-164 | five bytes: zeros when off, otherwise both bands at amplitude 0x40 + intensity * 0xBF / 255 and frequency 0x60 |
| Switch2Pro.HapticMonotone | src/usb/usbh/hid/devices/vendors/nintendo/switch2_pro.c:145-164 | the amplitude grows with the intensity, from 0x40 at 1 to 0xFF at 255 |
| Switch2Pro.HapticReport | src/usb/usbh/hid/devices/vendors/nintendo/switch2_pro.c:444-493 | a 63-byte report: id 3 and an on/off byte for the GameCube controller, id 2 with two encoded motors for the Pro; the counter byte is 0x50 plus the counter once advanced |
| Switch2Pro.CounterByte | src/usb/usbh/hid/devices/vendors/nintendo/switch2_pro.c:449-487 | every rumble report's counter byte is 0x50-0x5F, and Pro reports repeat it at byte 17 |
| Switch2Pro.Elapsed | src/usb/usbh/hid/devices/vendors/nintendo/switch2_pro.c:590 | the elapsed time on the wrapping millisecond clock is the plain difference when the clock has not wrapped |
| Switch2Pro.RumbleStep | src/usb/usbh/hid/devices/vendors/nintendo/switch2_pro.c:420-494 | a report goes out exactly when an intensity changed or 50 ms passed with a motor running; otherwise nothing changes; a send stores the intensities and time and advances the counter by two |
| Switch2Pro.LedStep | src/usb/usbh/hid/devices/vendors/nintendo/switch2_pro.c:496-567 | the first assignment of player 0-3 restarts the initialisation (when the endpoint is open) and sends nothing; afterwards the LED command goes out exactly for a new player with an open endpoint and no pending transfer |
| Switch2Pro.EndpointStep | src/usb/usbh/hid/devices/vendors/nintendo/switch2_pro.c:586-624 | nothing happens for 100 ms after mount; then the sequence starts when an endpoint was found and opened, and otherwise the controller becomes ready without rumble and LEDs |
| Switch2Pro.InitStep | src/usb/usbh/hid/devices/vendors/nintendo/switch2_pro.c:626-668 | nothing while a transfer is pending; otherwise the index moves past a sent command, the sequence ends after 18 commands and asks for reports again, and only an accepted transfer marks the next command sent |
| Switch2Pro.PlayerByte | src/usb/usbh/hid/devices/vendors/nintendo/switch2_pro.c:582 | a non-negative player index is passed unchanged |
| Switch2Pro.InitPlayerLed | src/usb/usbh/hid/devices/vendors/nintendo/switch2_pro.c:656 | the LED during initialisation is the player 0-3, any other index counting as 0 |
| Switch2Pro.Switch2Host.constructor | src/usb/usbh/hid/devices/vendors/nintendo/switch2_pro.c:96-104 | no instances and the haptic counter at 0 |
| Switch2Pro.Switch2Host.Init | src/usb/usbh/hid/devices/vendors/nintendo/switch2_pro.c:671-696 | the instance is zeroed with rumble and LED at 0xFF and the endpoint search deferred from the mount time; nothing else changes |
| Switch2Pro.Switch2Host.Unmount | src/usb/usbh/hid/devices/vendors/nintendo/switch2_pro.c:699-713 | the instance is zeroed, so its endpoint is closed and its state idle |
| Switch2Pro.Switch2Host.BulkComplete | src/usb/usbh/hid/devices/vendors/nintendo/switch2_pro.c:268-286 | a successful transfer to a live instance is no longer pending; anything else changes nothing |
| Switch2Pro.Switch2Host.Input | src/usb/usbh/hid/devices/vendors/nintendo/switch2_pro.c:305-410 | short reports and unknown ids are dropped; the first four calibrate and produce no event; later ones produce the event and change nothing |
| Switch2Pro.Switch2Host.OutputRumble | src/usb/usbh/hid/devices/vendors/nintendo/switch2_pro.c:422-494 | performs one rumble step on the instance and the shared counter |
| Switch2Pro.Switch2Host.OutputPlayerLed | src/usb/usbh/hid/devices/vendors/nintendo/switch2_pro.c:498-567 | performs one LED step on the instance |
| Switch2Pro.Switch2Host.Task | src/usb/usbh/hid/devices/vendors/nintendo/switch2_pro.c:570-668 | a ready instance does rumble then LEDs, one waiting for its endpoint does the endpoint step, one in the sequence does one init step, an idle one does nothing; other instances are untouched |
| Switch2Pro.CycleSendsNext | src/usb/usbh/hid/devices/vendors/nintendo/switch2_pro.c:636-664 | an accepted and completed step sends the next command and moves past it |
| Switch2Pro.SentInOrder | src/usb/usbh/hid/devices/vendors/nintendo/switch2_pro.c:636-664 | with every transfer accepted and completed, the commands go out once each and in index order |
| Switch2Pro.FullSequence | src/usb/usbh/hid/devices/vendors/nintendo/switch2_pro.c:642-650 | from the start all eighteen commands go out in order, and the next step makes the controller ready |
| WiimoteBt.Zeros | src/bt/bthid/devices/vendors/nintendo/wiimote_bt.c:162 | a run of n zero bytes, the padding of the write request |
| WiimoteBt.CoreRaw | src/bt/bthid/devices/vendors/nintendo/wiimote_bt.c:267-270 | the core button word keeps bits 0-4 of byte 1 and bits 0-4 and 7 of byte 2, and nothing else |
| WiimoteBt.DpadBits | src/bt/bthid/devices/vendors/nintendo/wiimote_bt.c:274-278 | the four directions press exactly DU, DD, DL, DR |
| WiimoteBt.FaceBits | src/bt/bthid/devices/vendors/nintendo/wiimote_bt.c:280-284 | the four face flags press exactly B1-B4 |
| WiimoteBt.SystemBits | src/bt/bthid/devices/vendors/nintendo/wiimote_bt.c:286-289 | Minus, Plus and Home press exactly S1, S2, A1 |
| WiimoteBt.ShoulderBits | src/bt/bthid/devices/vendors/nintendo/wiimote_bt.c:346-349 | the four shoulder flags press exactly L1, R1, L2, R2 |
| WiimoteBt.CoreButtons | src/bt/bthid/devices/vendors/nintendo/wiimote_bt.c:272-289 | held sideways: the d-pad is the d-pad, B, A, 1, 2 press B1-B4, Minus, Plus, Home press S1, S2, A1, and nothing else is set |
| WiimoteBt.NunchukButtons | src/bt/bthid/devices/vendors/nintendo/wiimote_bt.c:302-305 | Z and C, active low in extension byte 5, press L2 and L1, and nothing else |
| WiimoteBt.ClassicRaw | src/bt/bthid/devices/vendors/nintendo/wiimote_bt.c:340 | the Classic Controller button word is the complement of bytes 4 and 5, low byte first |
| WiimoteBt.ClassicFrontButtons | src/bt/bthid/devices/vendors/nintendo/wiimote_bt.c:342-349 | B, A, Y, X press B1-B4 and LT, RT, ZL, ZR press L1, R1, L2, R2 |
| WiimoteBt.ClassicBackButtons | src/bt/bthid/devices/vendors/nintendo/wiimote_bt.c:350-357 | Minus, Plus, Home press S1, S2, A1 and the d-pad presses the d-pad |
| WiimoteBt.ClassicButtons | src/bt/bthid/devices/vendors/nintendo/wiimote_bt.c:340-379 | the Classic button map is the front and back groups together, and sets nothing else |
| WiimoteBt.Widen6 | src/bt/bthid/devices/vendors/nintendo/wiimote_bt.c:330-331 | a 6-bit stick widened to 8 bits keeps its value in the top six bits, from 0 to 255 |
| WiimoteBt.Widen5 | src/bt/bthid/devices/vendors/nintendo/wiimote_bt.c:333-337 | a 5-bit value widened to 8 bits keeps its value in the top five bits, from 0 to 255 |
| WiimoteBt.WidenMonotone | src/bt/bthid/devices/vendors/nintendo/wiimote_bt.c:330-337 | widening keeps order |
| WiimoteBt.EncodeClassic | src/bt/bthid/devices/vendors/nintendo/wiimote_bt.c:311-315 | the controller's layout of the six analog fields takes four bytes |
| WiimoteBt.ClassicRx | src/bt/bthid/devices/vendors/nintendo/wiimote_bt.c:319-322 | RX reassembled from bytes 0-2 is five bits |
| WiimoteBt.ClassicLtAsWritten | src/bt/bthid/devices/vendors/nintendo/wiimote_bt.c:326 | the left trigger as the driver reassembles it is five bits |
| WiimoteBt.ClassicLt | src/bt/bthid/devices/vendors/nintendo/wiimote_bt.c:326 | the left trigger as the layout places it is five bits |
| WiimoteBt.DecodeClassic | src/bt/bthid/devices/vendors/nintendo/wiimote_bt.c:317-327 | the six decoded fields are within their widths |
| WiimoteBt.DecodeEncodeClassic | src/bt/bthid/devices/vendors/nintendo/wiimote_bt.c:311-327 | decoding recovers every field the controller encoded |
| WiimoteBt.EncodeDecodeClassic | src/bt/bthid/devices/vendors/nintendo/wiimote_bt.c:311-327 | the four bytes hold nothing but the six fields |
| WiimoteBt.ClassicRxRoundTrip | src/bt/bthid/devices/vendors/nintendo/wiimote_bt.c:319-322 | the driver's RX reassembly agrees with the layout |
| WiimoteBt.ClassicLtAsWrittenOfEncoded | src/bt/bthid/devices/vendors/nintendo/wiimote_bt.c:326 | from an encoded report the driver's left trigger holds LT bits 4:3 in bits 1:0, LT bits 1:0 in bits 4:3 and RT bit 4 in bit 2 |
| WiimoteBt.ClassicLtAsWrittenMisreads | src/bt/bthid/devices/vendors/nintendo/wiimote_bt.c:326 | a released LT with RT fully on reads 4 (33 once widened), and a full LT with RT released reads 27 |
| WiimoteBt.ClassicAnalog | src/bt/bthid/devices/vendors/nintendo/wiimote_bt.c:317-337 | the six analogs are the decoded fields widened to 8 bits, with both Y axes inverted |
| WiimoteBt.ClassicAnalogAsWritten | src/bt/bthid/devices/vendors/nintendo/wiimote_bt.c:317-337 | the driver's analogs differ from the corrected ones only in the left trigger |
| WiimoteBt.ClassicAnalogAsWrittenMisreads | src/bt/bthid/devices/vendors/nintendo/wiimote_bt.c:326-336 | with RT fully on and LT released, the driver reports the left trigger at 33 where 0 was sent |
| WiimoteBt.IdentifyExt | src/bt/bthid/devices/vendors/nintendo/wiimote_bt.c:470-515 | with the A4 20 signature: 00 00 is the Nunchuk, 01 01 a Classic Controller whose first byte tells the NES/SNES Classic (2 and above), 01 20 the Wii U Pro, left alone, and anything else is taken for a Nunchuk |
| WiimoteBt.LedRequest | src/bt/bthid/devices/vendors/nintendo/wiimote_bt.c:137-142 | the LED output report is A2 11 and the pattern |
| WiimoteBt.PlayerLedPattern | src/bt/bthid/devices/vendors/nintendo/wiimote_bt.c:144-151 | player 1-4 lights LED 1-4 (bit 4-7); any other player lights none |
| WiimoteBt.WriteRequest | src/bt/bthid/devices/vendors/nintendo/wiimote_bt.c:159-172 | a 23-byte request A2 16 04 with the big-endian address, size 1, the data byte and zero padding |
| WiimoteBt.ReadRequest | src/bt/bthid/devices/vendors/nintendo/wiimote_bt.c:174-186 | an 8-byte request A2 17 04 with the big-endian address and size |
| WiimoteBt.ReportModeRequest | src/bt/bthid/devices/vendors/nintendo/wiimote_bt.c:188-196 | A2 12 00 and mode 0x32 with an extension, 0x30 without |
| WiimoteBt.RumbleRequest | src/bt/bthid/devices/vendors/nintendo/wiimote_bt.c:198-204 | A2 10 and 1 for on, 0 for off |
| WiimoteBt.SignedDiff | src/bt/bthid/devices/vendors/nintendo/wiimote_bt.c:544 | the signed 32-bit difference is congruent to the plain one and lies in int32 range |
| WiimoteBt.ReachedAfter | src/bt/bthid/devices/vendors/nintendo/wiimote_bt.c:544 | a deadline counts as reached from the moment itself until 2^31 microseconds after, across a clock wrap too |
| WiimoteBt.NotReachedBefore | src/bt/bthid/devices/vendors/nintendo/wiimote_bt.c:544 | a deadline does not count as reached in the 2^31 microseconds before it |
| WiimoteBt.WithExtension | src/bt/bthid/devices/vendors/nintendo/wiimote_bt.c:292-390 | without an extension only the core buttons; the Nunchuk adds Z and C and sets X and inverted Y; the Classic adds its buttons and sets all six analogs; the NES/SNES Classic adds its buttons only |
| WiimoteBt.ButtonReport | src/bt/bthid/devices/vendors/nintendo/wiimote_bt.c:265-397 | the buttons are rebuilt from the core bits, and from the extension for a long enough report 0x32; an event goes out exactly when the device is ready, and it is the updated one |
| WiimoteBt.StatusReport | src/bt/bthid/devices/vendors/nintendo/wiimote_bt.c:402-439 | while waiting, the extension flag picks extension start-up or the report mode; once ready, a new extension restarts its start-up, and a removed one recentres the analogs, tells the router at once and resets the report mode; otherwise nothing changes |
| WiimoteBt.AckNext | src/bt/bthid/devices/vendors/nintendo/wiimote_bt.c:441-461 | the state moves only for an error-free acknowledgement of the waiting state's own request, and then to that request's next state |
| WiimoteBt.ReadDataReport | src/bt/bthid/devices/vendors/nintendo/wiimote_bt.c:463-520 | only the wait for the extension type reacts, always ending in setting the report mode; a good answer with the A4 20 signature and a known identifier sets the type, and any other answer (an error, a short answer, no signature, the Wii U Pro) only sets the report mode; no other answer changes the type |
| WiimoteBt.FeedbackLed | src/bt/bthid/devices/vendors/nintendo/wiimote_bt.c:646-655 | the feedback pattern, or the player's default pattern when it is 0, moves to LED bits 4-7 |
| WiimoteBt.RumbleOut | src/bt/bthid/devices/vendors/nintendo/wiimote_bt.c:635-644 | a changed rumble wish is sent exactly when the feedback marked it and the link is free, and then recorded; otherwise nothing changes |
| WiimoteBt.LedOut | src/bt/bthid/devices/vendors/nintendo/wiimote_bt.c:657-662 | the LED pattern is sent exactly when it changed or the feedback marked it and the link is free, and then recorded |
| WiimoteBt.KeepaliveOut | src/bt/bthid/devices/vendors/nintendo/wiimote_bt.c:671-677 | a status request goes out exactly when 30 s have passed since the last and the link is free, and the time is recorded |
| WiimoteBt.ReadyStep | src/bt/bthid/devices/vendors/nintendo/wiimote_bt.c:628-678 | rumble, LEDs and keep-alive in that order, each sent only when the link is free at its own `can_send` check, so one may go out while another waits; at most three reports, nothing when all three checks fail; the dirty flags are cleared exactly when either was set |
| WiimoteBt.LedRetried | src/bt/bthid/devices/vendors/nintendo/wiimote_bt.c:651-663 | an LED change that found the link busy is not recorded, so a later pass with the link free sends it even without the dirty flag |
| WiimoteBt.SendStep | src/bt/bthid/devices/vendors/nintendo/wiimote_bt.c:555-618 | with the link free the request goes out and the answer is awaited for one second; otherwise nothing changes |
| WiimoteBt.TimeoutStep | src/bt/bthid/devices/vendors/nintendo/wiimote_bt.c:563-626 | once the deadline passes without an answer the state moves on; before, nothing changes |
| WiimoteBt.StatusTimeout | src/bt/bthid/devices/vendors/nintendo/wiimote_bt.c:543-553 | an unanswered status request is retried while fewer than five attempts have failed; then the report mode is set without the extension check and the count reset |
| WiimoteBt.TaskStep | src/bt/bthid/devices/vendors/nintendo/wiimote_bt.c:521-683 | an idle device does nothing, the status wait does the status timeout, the ready state does the ready pass with its three separate link checks, and any other state sends at most one request, none when the link is busy, and moves at most one step on |
| WiimoteBt.FiveStatusAttempts | src/bt/bthid/devices/vendors/nintendo/wiimote_bt.c:535-553 | with no answer at all, the status request goes out five times in all and then the report mode is set with the retry count reset |
| WiimoteBt.Matches | src/bt/bthid/devices/vendors/nintendo/wiimote_bt.c:210-227 | a device matches exactly when it has the Nintendo Wiimote ids, or a name containing "Nintendo RVL-CNT-01" but not the Wii U Pro's "-UC" |
| WiimoteBt.MatchesByName | src/bt/bthid/devices/vendors/nintendo/wiimote_bt.c:219-224 | the Wiimote's name matches and the Wii U Pro's name does not |
| WiimoteBt.WiimoteDriver.constructor | src/bt/bthid/devices/vendors/nintendo/wiimote_bt.c:131 | the table starts with every slot zeroed |
| WiimoteBt.WiimoteDriver.Init | src/bt/bthid/devices/vendors/nintendo/wiimote_bt.c:229-256 | the first free slot is taken, its event cleared and the first status request deferred by 100 ms; with every slot taken the device is refused and nothing changes |
| WiimoteBt.WiimoteDriver.ProcessReport | src/bt/bthid/devices/vendors/nintendo/wiimote_bt.c:257-519 | by report id: button reports, status, acknowledgements (recording the time when the LED acknowledgement makes the device ready) and read answers; an empty or unknown report changes nothing; other slots are untouched |
| WiimoteBt.WiimoteDriver.Task | src/bt/bthid/devices/vendors/nintendo/wiimote_bt.c:521-683 | performs one task step on the device's slot |
| WiimoteBt.WiimoteDriver.Disconnect | src/bt/bthid/devices/vendors/nintendo/wiimote_bt.c:685-697 | the event is cleared and the slot freed and idle |

## Findings

| source | as written | input that shows it | evidently intended | confidence | as-written member | corrected member |
|---|---|---|---|---|---|---|
| tools/cdc_test.py:130-132 | when no packet parses at the first 0xAA, the pass stops and keeps the buffer from there | a built frame with one payload byte changed, followed by any number of good frames: every later pass parses the same bad frame first and hands nothing on | skip that sync byte and look for the next frame, keeping the buffer only while a frame may still be arriving | not executed | CdcHost.CorruptedFrameStalls | CdcHost.ResyncRecovers |
| src/usb/usbd/cdc/cdc_commands.c:510-526 | the loop skips only blanks, one number and one comma per pass, so a character outside those leaves the cursor in place | `{"cmd":"PROFILE.SAVE","index":255,"button_map":[1.5]}`: after storing 1 the loop stops moving at `.` and the handler never returns | stop reading the array at any character the loop has no rule for | not executed | CdcCommands.StallExample | CdcCommands.ArrayRoundTrip |
| src/usb/usbd/cdc/cdc_commands.c:720-725 | `"%.7s Copy"` into a 12-byte buffer: 7 + 5 characters leave no room for the NUL, so `snprintf` drops the final `y` | cloning the virtual Default without a name gives `Default Cop` | keep at most 6 characters of the source so the whole ` Copy` fits | not executed | CdcProfiles.CloneLabelCut | CdcProfiles.CloneLabelEnds |
| src/native/device/dreamcast/dreamcast_device.c:686 | `uint8_t bytes_to_copy = (NumWords - 2) * 4` narrows to 8 bits before the cap to 4 | a BLOCK_WRITE to the vibration pack with 66 body words: the count is 256, which wraps to 0, so nothing is copied | copy the 4 table bytes whenever a data word is present | not executed | Dreamcast.AstCopyLenTruncated | Dreamcast.AstCopyLenIntended |
| src/native/device/dreamcast/maple_state_machine.c:166-170 | `Status & STATUS_BITSET` is true for STATUS_NONE (-1), so entering a status-less state ORs in `1 << (7 - ((-1 & ~0x80) - 2))`, a shift by 138 | the byte 0b10xxxxxx from the idle state enters state 1, whose status is NONE | set a data bit only for the PUSHBIT statuses with BITSET | not executed | MapleStateMachine.NoneStatusShift | MapleStateMachine.CarriesBitIntended |
| src/wifi/ble_beacon.c:45-46 | the SSID is cut to 24 bytes, counting only the flags and UUID structures against the 31-byte limit | an SSID of 23 or 24 bytes: the name structure adds its own 2 header bytes, so `build_adv_data` writes 32 or 33 bytes into the 31-byte `adv_data` | cut the SSID to 22 bytes so all 9 + n bytes fit | not executed | BleBeacon.AdvDataOverflowsAsWritten | BleBeacon.Beacon.BuildAdvData |
| src/usb/usbd/modes/xbone_mode.c:94,96 | the Y axes are `-convert_axis_to_s16(y)` stored in an `int16_t` | a stick held fully up (y = 0): the conversion gives -32768, its negation 32768 wraps to -32768, so full up reads as full down | clamp the negation to 32767, as the XInput mode's inverted conversion does | not executed | XboneMode.StickYAsWrittenFlips | XboneMode.SticksPointUp |
| src/usb/usbd/kbmouse/kbmouse.h:94 | `HID_KEY_SPACE` is 0x20, the usage of the 3 key; 0x2C, the space bar, is `HID_KEY_SPACE_REAL` | pressing A/Cross with the default table (src/usb/usbd/kbmouse/kbmouse.c:35) sends key 0x20, the same key d-pad down sends | bind A/Cross to the space bar, 0x2C | not executed | KbMouse.SpaceKeyCollides | KbMouse.B1SendsSpace |
| src/native/host/n64/n64_host.c:186 | `-report.stick_y` is passed to `convert_stick_axis(int8_t)`, so the negation is narrowed back to 8 bits | stick_y = -128: the negation 128 wraps to -128, and the stick held fully down reads 0, fully up | negate after widening, so -128 reads 255 | not executed | N64Host.StickYWraps | N64Host.StickY |
| src/usb/usbh/hid/devices/vendors/raphnet/raphnet_pce.c:58,61 | `prev_report[dev_addr-1]` is read and written with no bound on `dev_addr` | a report from device address 6 (or 0) indexes one past the end (or one before the start) of the five-entry table | process only addresses 1..5, the range `unmount` checks at line 134 | not executed | RaphnetPce.SlotOutOfRange | RaphnetPce.PceHost.Process |
| src/usb/usbd/drivers/tud_xinput.c:263-266 | the host-to-device SETUP stage accepts `wLength` bytes into the 48-byte `_auth_buffer` | a vendor OUT request with wLength = 49 | accept at most the 48 bytes of the buffer; both challenges (34 and 22 bytes) still fit | not executed | TudXinput.SetupReceiveOverflows | TudXinput.SetupReceiveLen |
| src/bt/bthid/devices/vendors/nintendo/wiimote_bt.c:326 | the Classic LT is taken from bits 6:5 of byte 2 and bits 4:2 of byte 3, which hold the low LT bits and the top RT bits | extension bytes 00 00 00 1F (LT released, RT full): LT reads 4 and is reported as 33 | LT[4:3] from bits 6:5 of byte 2 and LT[2:0] from bits 7:5 of byte 3 | not executed | WiimoteBt.ClassicAnalogAsWrittenMisreads | WiimoteBt.ClassicAnalog |

## Left out

- Serial I/O, the host tool's reader thread, its CLI and printing: the bytes read are parameters.
- USB transfers and `printf`: a data-port write is an entry in a log; a partial write by the USB stack is not modelled.
- CdcHost.BuildPacket: requires a payload of at most 65535 bytes, where `struct.pack` would raise.
- No concrete CRC value (such as the check value of "123456789") is evaluated; the CRC is specified by its register definition.
- Mode switching in `cdc.c`: the mode names printed and the device reset after `usbd_set_mode` are not modelled; the mode count is a parameter because `usbd.h` is not part of this model.
- `atoi` on more digits than an `int` holds, in the console and in the JSON readers: the value is read as an unbounded number.
- The replies are symbolic; their text, and the flash contents `FLASH?` reports, are not modelled.
- `cdc_commands_task`, called at the top of `cdc_task`, is not part of the console model.
- Flash hardware: erasing and programming go through `flash_safe_execute` with interrupts masked, and slots are read through the XIP window. Slots are an array of decoded entries. Programming a slot replaces its contents; the bitwise-AND effect of programming a non-erased page is not modelled. The reserved bytes of `flash_t` and `custom_profile_t` are not modelled.
- Flash.Store.SaveNow: the journal invariant and the load-after-save property are proved only while the sequence number stays below 0xFFFFFFFE. Reaching 0xFFFFFFFF would make the written entry read as empty, but that takes about four billion saves.
- `flash_save_force` is `flash_save_now`; `flash_on_bt_disconnect` does nothing; `flash_has_pending_write` returns a field. None of them is modelled separately.
- Flash.ProfileInit: the NULL-profile guard is not modelled, because the profile is a returned value.
- The JSON readers search the request for the key text only; a key text over 63 characters, which `snprintf` would cut, does not occur in the handlers and is not modelled.
- CdcCommands.ReadArrayFrom: models the corrected loop, which stops at a character it has no rule for; the loop as written is `StepAsWritten`.
- CdcProfiles.CloneName: the model uses the corrected ` Copy` label; the label as written is `CloneLabelAsWritten`. The corrected label is also the name `CdcProfiles.CloneOutcome`, `CdcProfiles.CloneAppends`, `CdcProfiles.CloneNamedAfterSource` and `CdcProfiles.ProfileClone` give an unnamed clone.
- The reply JSON texts and `printf` logging are not modelled; replies are symbolic (`Reply`).
- PROFILE.LIST, MODE.GET, MODE.LIST, PLAYERS.LIST, INFO, SETTINGS.GET, SETTINGS.RESET, REBOOT, BOOTSEL, BT.STATUS, BT.BONDS.CLEAR and WIIMOTE.ORIENT.GET only format device state or reset the device; their bodies are not modelled, only their table entries. PING answers ok.
- `profile_set_active`, `usbd_set_mode`, `wiimote_set_orient_mode` and the built-in profile table are outside this model: the built-in profile names are a parameter, a built-in choice is returned, and the mode count is a parameter.
- CdcProfiles.ProfileSave, CdcProfiles.ProfileDelete, CdcProfiles.ProfileClone, CdcProfiles.ProfileSet: require a loaded custom count of at most 4, which `flash_init` and these handlers keep but a corrupted journal entry could break.
- CdcProfiles.SaveThenGet, CdcProfiles.SelectCustom: require fewer than 252 built-in profiles, so the unified indices fit the `uint8_t` total.
- CdcDispatch.RouteCommand: requires the command name to be extractable (non-empty, under 32 characters, without quote or NUL); every name of the table is, but that fact about the literal table is not proved.
- JOCP I/O: the boot clock, the microsecond clock and the lookup of a controller's TCP client are parameters; `router_submit_input` becomes the returned event and `wifi_transport_send_tcp` a list of sent packets; `printf` is not modelled.
- JocpInput.Jocp.SendFeedbackAll: all slots read the same clocks, where the firmware reads them again for each slot.
- The IMU, touch and battery fields of a JOCP INPUT packet, which the conversion does not read, are not modelled.
- Maple bus I/O: the PIO programs, DMA, the run-time walk through the receive tables and its byte XOR check, the word swap of received packets and the port fix-ups when a reply is sent are not modelled; `ConsumePacket` takes the received bytes and the microsecond clock as parameters.
- Dreamcast replies: the prebuilt info, status, media and block-read packets are not modelled; the decoder's choice of reply is. The ACK and condition replies keep their checksums in the packet buffers; the model keeps the fields these checksums cover (the ACK origin and the reported settings) and not the cached checksums.
- Dreamcast.CrcIsByteChecksum: states the top byte as the byte-XOR of the words' XOR; the step to the XOR of every byte of a packet is `ByteXorOfXor` applied word by word and is not stated as a lemma.
- The Dreamcast debug counters, `purupuru_updated`, the `feedback_set_rumble_internal` call of the timeout sweep and the condition arrays of ports 1-3 (never written) are not modelled; `dreamcast_get_purupuru_state` only reads those arrays.
- `dreamcast_update_output`: the router lookup and the stick bytes copied unchanged are not modelled; the button word and the triggers are.
- Dreamcast.MapleDevice.ConsumePacket: models the corrected block-write count; the count as written is `AstCopyLenAsWritten`. The corrected count is also the one `Dreamcast.AstCopyLen`, `Dreamcast.Decode`, `Dreamcast.PuruPuruRequest`, `Dreamcast.BlockWriteAlwaysAcked` and `Dreamcast.AstWrite` state.
- MapleStateMachine: the bit-field widths of a table entry (6-bit new state and set-bits index, 1-bit flags) are not modelled; entries hold unbounded numbers.
- MapleStateMachine.Tables.FindOrAddSetBits: `assert(NewEntry < MAPLE_NUM_SETBITS)` is not modelled; the pairs are a growing sequence and the bound of 64 distinct pairs over the whole table is not proved.
- MapleStateMachine.Tables.Accumulate: models the corrected bit test `CarriesBit`; the test as written is `BitsetAsWritten`, whose shift by 138 the C standard leaves undefined, so no value is given to it.
- MapleStateMachine: the start sequence is split into `StartSequence` and `StartSequenceTail` and each half data-bit iteration into `DataBit`; the calls and their order are those of `BuildBasicStates`.
- MapleStateMachine.Step: applies to graphs whose statuses lie in -0x80..0xFF (`Graph`), which every status `BuildBasicStates` assigns does.
- Host drivers and device modes: the TinyUSB, BTstack and router calls they make are not modelled. A report sent, a transfer started or an event submitted is a returned value. The clock, the USB stack's readiness and a Bluetooth link's `can_send` are parameters. `printf` and `TU_LOG` output is not modelled.
- The `*_mode_is_ready` functions, `tud_xinput_ready` and `tud_gc_adapter_ready` only ask the USB stack or the Xbox power state; they are not modelled. Send results are returned unchanged.
- The JP button masks, the `USB_GAMEPAD_MASK_*` bits, the HID and XAC hat codes and the original-Xbox button layout come from headers that are not part of this model. Their values are the model's own, in the order the conversion code tests them.
- `xac_init_report`, which `xac_mode_init` calls, lives in a header that is not part of this model. The XAC report is built whole on every send, so nothing reads the initial report.
- XboneMode: the Xbox One class driver (`tud_xbone_*`: the GIP handshake, power state and transfers) is not part of this model. `xbone_mode_task` and `xbone_mode_is_ready` only call it. `xbone_mode_init` only clears the report, which `SendReport` rebuilds from nothing (`IdleReportIsZero`).
- XboneMode.SendReport: models the Y axes as evidently intended, clamped to 32767. The source's wrap-around is `SendReportAsWritten` / `StickYAsWritten`.
- Ps4Mode: the DualShock 4 authentication passthrough (`ds4_auth_*`) and `ps4_mode_set_feature_report`, which only forwards to it, are not modelled. The feature replies are those of a build without a USB host or without a DS4 attached.
- KbMouse: the floating-point mouse curve outside the deadzone is not modelled (`MouseDelta` is `None` there). `process_analog_to_scroll` is not modelled either, for the same reason. `kbmouse_get_led_state` returns the stored `ledState`.
- KbMouse.Fired: the default table binds A/Cross to the space bar (0x2C). The table as written, which sends 0x20 (the 3 key), is `DEFAULT_MAP_AS_WRITTEN`; `SpaceKeyCollides` states the clash. The corrected table is also the one `KbMouse.Converter.Convert` and `KbMouseMode.KbMouseDevice.SendReport` use.
- TudXinput: the XSM3 cryptography (`xsm3_initialise_state`, `xsm3_do_challenge_*`) is a library call whose responses are parameters. `xinput_control_xfer_cb`, `xinput_deinit` and the failure of `usbd_edpt_open` are not modelled. A transfer start is a returned flag.
- TudXinput.SetupReceiveLen: the data stage is bounded by the 48-byte `_auth_buffer`. The unbounded `wLength` of the source is `SetupReceiveLenAsWritten`; `VendorControl` uses the bounded length.
- TudGcAdapter: `gc_adapter_deinit` returns true and `gc_adapter_reset` calls `gc_adapter_init`, so neither is modelled separately. Endpoint transfers are returned flags.
- TudGcAdapter and TudXinput `Open`: `usbd_edpt_open` is taken to succeed. Its failure, which makes the driver return 0, is not modelled. The descriptor walk, the endpoint-type check and the length check are modelled.
- BleBeacon: the BTstack calls (power, advertising parameters, the HCI state) are not modelled; the HCI state is a parameter. `ble_beacon_task` does nothing and is not modelled.
- BleBeacon.Beacon.BuildAdvData: cuts the SSID to 22 bytes, which keeps the data inside the 31-byte `adv_data`. The 24-byte cut as written is `AdvDataAsWritten`; `AdvDataOverflowsAsWritten` states its overflow. The corrected data is also what `BleBeacon.Beacon.Init` builds.
- RaphnetPce.PceHost.Process: the slot guard `HasSlot` (addresses 1..5) is the model's own. The source indexes `prev_report[dev_addr-1]` unchecked, which `SlotOutOfRange` states; the guard is the one `unmount` applies.
- The `is_*` device matchers (`is_raphnet_pce`, `is_ms_sidewinder_commander`, `is_ms_sidewinder_dualstrike`, `is_switch2_pro`) compare vendor and product IDs against constants and are not modelled.
- N64Host: the joybus polling and the controller detection are not modelled. Each port's poll is a parameter of `Task`: an `Option`, where `None` is a failed poll. `N64_MAX_PORTS` is the constructor parameter, and `n64_host_get_port_count` returns it.
- N64Host.StickY: negates the Y axis before narrowing it, so -128 reads 255. The wrap-around as written is `StickYAsWritten`; `StickYWraps` states it. The corrected Y is also the LY that `N64Host.EventOf`, `N64Host.PortStep` and `N64Host.N64HostDriver.Task` report.
- MsSidewinder.Scale10: the resting position scales to 127, not the 128 the drivers' comments announce (`Scale10Centre`). The model keeps the code's value.
- MsSidewinderDualstrike: `unmount` only prints, so `Unmount` changes nothing. The Commander's LED output report is a returned value of its `Task`.
- Gamepad events carry the fields the drivers set: address, instance, buttons and analogs. The `type`, `transport`, `button_count` and `keys` fields are not modelled.
- Switch2Pro: `switch2_pro.h` is not part of this model. A report arrives decoded (`Switch2Report`) with its length. The driver copies only `len` bytes into an uninitialised stack structure, so a report shorter than that structure leaves the remaining fields unspecified; in the model they are whatever the parameter holds. `find_bulk_endpoint` walks the configuration descriptor; the bulk endpoint it finds is a parameter. `instance_count` and the debug output are not modelled.
- WiimoteBt: `input_event.h` and the Bluetooth HID layer are not part of this model. The feedback service is a parameter. `PLAYER_LEDS` is not part of this model; the default LED pattern is a field. Outside the ready state the task sends at most one request per pass, when `can_send` holds; the ready pass asks `can_send` separately before its rumble, LED and keep-alive sends (`LinkFree`).
- WiimoteBt: `router_device_disconnected` and `remove_players_by_address` are not modelled; `Disconnect` resets the slot's event, marks it uninitialised and returns it to idle. `BTHID_MAX_DEVICES` is the constructor parameter. `wiimote_bt_register` and the debug branch for unknown extensions are not modelled.
- WiimoteBt.ClassicAnalog: reads the Classic Controller's left trigger from bits 6:5 of byte 2 and bits 7:5 of byte 3, as the Classic Controller layout defines it. The driver's reading is `ClassicLtAsWritten`; `ClassicAnalogAsWrittenMisreads` states the difference. The corrected value is also the one `WiimoteBt.WithExtension`, `WiimoteBt.ButtonReport` and `WiimoteBt.WiimoteDriver.ProcessReport` report.
- BleBeacon.Beacon.Init: builds the corrected 22-byte-cut data of `BleBeacon.Beacon.BuildAdvData`.
- KbMouse.Converter.Convert: uses the corrected table in which B1 sends the space bar (see `KbMouse.Fired`).
- KbMouseMode.KbMouseDevice.SendReport: sends the keyboard report of the corrected table (see `KbMouse.Fired`).
- WiimoteBt.WithExtension: uses the corrected Classic left trigger (see `WiimoteBt.ClassicAnalog`).
- WiimoteBt.ButtonReport: uses the corrected Classic left trigger (see `WiimoteBt.ClassicAnalog`).
- WiimoteBt.WiimoteDriver.ProcessReport: reports the corrected Classic left trigger (see `WiimoteBt.ClassicAnalog`).
- CdcProfiles.CloneOutcome: names an unnamed clone with the corrected label (see `CdcProfiles.CloneName`).
- CdcProfiles.CloneAppends: the appended clone carries the corrected label (see `CdcProfiles.CloneName`).
- CdcProfiles.CloneNamedAfterSource: states the corrected label, `Defaul Copy` for `Default`, where the code gives `Default Cop` (see `CdcProfiles.CloneName`).
- CdcProfiles.ProfileClone: stores and answers the corrected label (see `CdcProfiles.CloneName`).
- Dreamcast.AstCopyLen: is the corrected count; the code's `uint8_t` count is `AstCopyLenAsWritten` (see `Dreamcast.MapleDevice.ConsumePacket`).
- Dreamcast.Decode: a block write carries the corrected count (see `Dreamcast.MapleDevice.ConsumePacket`).
- Dreamcast.PuruPuruRequest: a block write carries the corrected count (see `Dreamcast.MapleDevice.ConsumePacket`).
- Dreamcast.BlockWriteAlwaysAcked: states 4 bytes for every block write with data, which the code does not copy for 66, 130 and 194 words (see `Dreamcast.MapleDevice.ConsumePacket`).
- Dreamcast.AstWrite: states the table is replaced for every block write with data, which the code leaves unchanged for 66, 130 and 194 words (see `Dreamcast.MapleDevice.ConsumePacket`).
- N64Host.EventOf: LY is the corrected `StickY`, 255 for -128 where the code gives 0 (see `N64Host.StickY`).
- N64Host.PortStep: its event is `EventOf`, with the corrected Y (see `N64Host.StickY`).
- N64Host.N64HostDriver.Task: its events carry the corrected Y (see `N64Host.StickY`).

=== FILE: ble_beacon.dfy ===
// The BLE beacon that advertises the dongle's WiFi SSID: the advertising
// data it builds (flags, the 16-bit service UUID, the SSID as the complete
// local name, in the AD-structure format of the Bluetooth Core
// Specification, Vol 3 Part C, section 11), the stored SSID, and the
// init/start/stop state.

module BleBeacon {
  import opened Common

  const JOYPAD_BLE_SERVICE_UUID: u16 := 0xFF10
  /** The size of the legacy advertising payload, and of `adv_data`. */
  const ADV_DATA_MAX: nat := 31
  /** `beacon_ssid` holds 31 characters and a terminating NUL. */
  const BEACON_SSID_SIZE: nat := 32

  const AD_TYPE_FLAGS: byte := 0x01
  const AD_TYPE_UUID16_COMPLETE: byte := 0x03
  const AD_TYPE_COMPLETE_LOCAL_NAME: byte := 0x09
  /** LE General Discoverable, BR/EDR not supported. */
  const AD_FLAGS: byte := 0x06

  /** The bytes of a C string before its terminator: none of them is NUL. */
  predicate CString(s: seq<byte>) {
    forall i :: 0 <= i < |s| ==> s[i] != 0
  }

  /** The flags and UUID structures that precede the name. */
  const ADV_HEADER: seq<byte> := [
    2, AD_TYPE_FLAGS, AD_FLAGS,
    3, AD_TYPE_UUID16_COMPLETE, LoByte(JOYPAD_BLE_SERVICE_UUID), HiByte(JOYPAD_BLE_SERVICE_UUID)
  ]

  // ---------------------------------------------------------------------
  // The advertising data
  // ---------------------------------------------------------------------

  /** How much of the SSID `build_adv_data` keeps, as written: at most 24 bytes. */
  function NameLenAsWritten(ssidLen: nat): nat {
    Min(ssidLen, 24)
  }

  /** The advertising data as written: header, name header, the first 24 SSID bytes. */
  function AdvDataAsWritten(ssid: seq<byte>): seq<byte>
    requires |ssid| < 256
  {
    var n := NameLenAsWritten(|ssid|);
    ADV_HEADER + [n + 1, AD_TYPE_COMPLETE_LOCAL_NAME] + ssid[..n]
  }

  /**
   * The 24-byte limit leaves out the name's own two header bytes: an SSID
   * of 23 or more bytes makes `build_adv_data` write 32 or 33 bytes into
   * the 31-byte `adv_data`.
   */
  lemma AdvDataOverflowsAsWritten(ssid: seq<byte>)
    requires |ssid| < 256
    ensures |AdvDataAsWritten(ssid)| == 9 + Min(|ssid|, 24)
    ensures |AdvDataAsWritten(ssid)| > ADV_DATA_MAX <==> |ssid| >= 23
  {
  }

  /** How much of the SSID fits: 31 bytes less the 7 header bytes and the name's own 2. */
  function NameLen(ssidLen: nat): (n: nat)
    ensures n <= 22 && n <= ssidLen
    ensures n == ssidLen || n == 22
    ensures ssidLen <= 22 ==> n == NameLenAsWritten(ssidLen)
  {
    Min(ssidLen, 22)
  }

  /** The advertising data, with the name cut to what fits. */
  function AdvData(ssid: seq<byte>): (data: seq<byte>)
    requires |ssid| < 256
    ensures |data| == 9 + NameLen(|ssid|) <= ADV_DATA_MAX
  {
    var n := NameLen(|ssid|);
    ADV_HEADER + [n + 1, AD_TYPE_COMPLETE_LOCAL_NAME] + ssid[..n]
  }

  /** Up to 22 bytes both agree; the fitted data never passes the 31-byte limit. */
  lemma AdvDataAgreesWhenShort(ssid: seq<byte>)
    requires |ssid| < 256
    ensures |ssid| <= 22 ==> AdvData(ssid) == AdvDataAsWritten(ssid)
    ensures |AdvData(ssid)| <= ADV_DATA_MAX
  {
  }

  /** One AD structure: its type and its data. */
  datatype AdStructure = AdStructure(kind: byte, data: seq<byte>)

  /**
   * Reads advertising data back as its AD structures: each is a length
   * byte (counting the type), a type byte and the data; a zero length ends
   * the data early; a structure running past the end is an error.
   */
  function ParseAd(data: seq<byte>): Option<seq<AdStructure>>
    decreases |data|
  {
    if |data| == 0 || data[0] == 0 then Some([])
    else if 1 + data[0] > |data| then None
    else
      match ParseAd(data[1 + data[0]..]) {
        case None => None
        case Some(rest) => Some([AdStructure(data[1], data[2..1 + data[0]])] + rest)
      }
  }

  /** One structure in front of more data reads back as that structure in front of the rest. */
  lemma ParseCons(kind: byte, d: seq<byte>, rest: seq<byte>)
    requires |d| + 1 < 256
    ensures ParseAd(rest).None? ==> ParseAd([|d| + 1, kind] + d + rest).None?
    ensures ParseAd(rest).Some? ==>
      ParseAd([|d| + 1, kind] + d + rest) == Some([AdStructure(kind, d)] + ParseAd(rest).value)
  {
    var s := [|d| + 1, kind] + d + rest;
    assert s[1 + s[0]..] == rest;
    assert s[2..1 + s[0]] == d;
  }

  /** The advertising data reads back as flags, the service UUID, and the SSID's first `NameLen` bytes. */
  lemma AdvDataParses(ssid: seq<byte>)
    requires |ssid| < 256
    ensures ParseAd(AdvData(ssid)) == Some([
      AdStructure(AD_TYPE_FLAGS, [AD_FLAGS]),
      AdStructure(AD_TYPE_UUID16_COMPLETE, [0x10, 0xFF]),
      AdStructure(AD_TYPE_COMPLETE_LOCAL_NAME, ssid[..NameLen(|ssid|)])])
  {
    var n := NameLen(|ssid|);
    assert ADV_HEADER == [2, AD_TYPE_FLAGS, AD_FLAGS, 3, AD_TYPE_UUID16_COMPLETE, 0x10, 0xFF];
    var none: seq<byte> := [];
    var name: seq<byte> := [n + 1, AD_TYPE_COMPLETE_LOCAL_NAME] + ssid[..n] + none;
    var uuid: seq<byte> := [3, AD_TYPE_UUID16_COMPLETE] + [0x10, 0xFF] + name;
    assert AdvData(ssid) == [2, AD_TYPE_FLAGS] + [AD_FLAGS] + uuid;
    var sName := AdStructure(AD_TYPE_COMPLETE_LOCAL_NAME, ssid[..n]);
    var sUuid := AdStructure(AD_TYPE_UUID16_COMPLETE, [0x10, 0xFF]);
    ParseCons(AD_TYPE_COMPLETE_LOCAL_NAME, ssid[..n], none);
    assert ParseAd(none) == Some([]);
    assert [|ssid[..n]| + 1, AD_TYPE_COMPLETE_LOCAL_NAME] + ssid[..n] + none == name;
    assert ParseAd(name) == Some([sName] + ParseAd(none).value);
    assert [sName] + ParseAd(none).value == [sName];
    assert ParseAd(name) == Some([sName]);
    ParseCons(AD_TYPE_UUID16_COMPLETE, [0x10, 0xFF], name);
    assert [|[0x10, 0xFF]| + 1, AD_TYPE_UUID16_COMPLETE] + [0x10, 0xFF] + name == uuid;
    assert [sUuid] + [sName] == [sUuid, sName];
    assert ParseAd(uuid) == Some([sUuid, sName]);
    ParseCons(AD_TYPE_FLAGS, [AD_FLAGS], uuid);
    assert [|[AD_FLAGS]| + 1, AD_TYPE_FLAGS] + [AD_FLAGS] + uuid == AdvData(ssid);
    assert [AdStructure(AD_TYPE_FLAGS, [AD_FLAGS])] + [sUuid, sName] ==
      [AdStructure(AD_TYPE_FLAGS, [AD_FLAGS]), sUuid, sName];
  }

  // ---------------------------------------------------------------------
  // The beacon state
  // ---------------------------------------------------------------------

  /** What `strncpy(beacon_ssid, ssid, 31)` followed by the final NUL stores. */
  function StoredSsid(ssid: seq<byte>): (stored: seq<byte>)
    ensures |stored| == BEACON_SSID_SIZE && stored[BEACON_SSID_SIZE - 1] == 0
    ensures stored[..Min(|ssid|, 31)] == ssid[..Min(|ssid|, 31)]
    ensures forall i :: Min(|ssid|, 31) <= i < BEACON_SSID_SIZE ==> stored[i] == 0
  {
    var n := Min(|ssid|, 31);
    ssid[..n] + seq(BEACON_SSID_SIZE - n, _ => 0)
  }

  /** `strlen` of a NUL-terminated buffer: the bytes before the first NUL. */
  function StrLen(s: seq<byte>): (n: nat)
    ensures n <= |s| && CString(s[..n])
    ensures n < |s| ==> s[n] == 0
  {
    if |s| == 0 || s[0] == 0 then 0
    else
      var k := StrLen(s[1..]);
      assert s[1..][..k] == s[1..k + 1];
      1 + k
  }

  /** The stored SSID reads back as the SSID's first 31 bytes. */
  lemma StoredSsidReadsBack(ssid: seq<byte>)
    requires CString(ssid)
    ensures StrLen(StoredSsid(ssid)) == Min(|ssid|, 31)
    ensures StoredSsid(ssid)[..StrLen(StoredSsid(ssid))] == ssid[..Min(|ssid|, 31)]
  {
    var n := Min(|ssid|, 31);
    StrLenStopsAtNul(ssid[..n], seq(BEACON_SSID_SIZE - n, _ => 0));
  }

  /** A C string followed by a NUL has the string's length. */
  lemma {:induction false} StrLenStopsAtNul(s: seq<byte>, rest: seq<byte>)
    requires CString(s) && |rest| > 0 && rest[0] == 0
    ensures StrLen(s + rest) == |s|
    decreases |s|
  {
    if |s| > 0 {
      assert (s + rest)[1..] == s[1..] + rest;
      StrLenStopsAtNul(s[1..], rest);
    }
  }

  /** `initialized`, `advertising`, `beacon_ssid` and `adv_data`/`adv_data_len`. */
  class Beacon {
    var initialized: bool
    var advertising: bool
    const beaconSsid: array<byte>
    const advData: array<byte>
    var advDataLen: nat

    predicate Valid()
      reads this
    {
      beaconSsid.Length == BEACON_SSID_SIZE && advData.Length == ADV_DATA_MAX &&
      advDataLen <= ADV_DATA_MAX && beaconSsid != advData
    }

    /** The zeroed static state. */
    constructor ()
      ensures Valid() && fresh(beaconSsid) && fresh(advData)
      ensures !initialized && !advertising && advDataLen == 0
    {
      initialized := false;
      advertising := false;
      beaconSsid := new byte[BEACON_SSID_SIZE](_ => 0);
      advData := new byte[ADV_DATA_MAX](_ => 0);
      advDataLen := 0;
    }

    /**
     * `build_adv_data`: writes the header, the name header and the name
     * into `adv_data` through a moving position, and records the length.
     */
    method BuildAdvData(ssid: seq<byte>)
      requires Valid() && |ssid| < BEACON_SSID_SIZE
      modifies this`advDataLen, advData
      ensures Valid()
      ensures advDataLen == |AdvData(ssid)| && advData[..advDataLen] == AdvData(ssid)
    {
      var n := NameLen(|ssid|);
      var p := 0;
      while p < |ADV_HEADER|
        invariant 0 <= p <= |ADV_HEADER|
        invariant advData[..p] == ADV_HEADER[..p]
      {
        advData[p] := ADV_HEADER[p];
        p := p + 1;
      }
      advData[p] := n + 1;
      advData[p + 1] := AD_TYPE_COMPLETE_LOCAL_NAME;
      p := p + 2;
      assert advData[..p] == advData[..p - 2] + [n + 1, AD_TYPE_COMPLETE_LOCAL_NAME];
      assert ADV_HEADER[..p - 2] == ADV_HEADER;
      ghost var prefix := ADV_HEADER + [n + 1, AD_TYPE_COMPLETE_LOCAL_NAME];
      assert advData[..p] == prefix;
      for i := 0 to n
        invariant advData[..p + i] == prefix + ssid[..i]
      {
        advData[p + i] := ssid[i];
        assert ssid[..i + 1] == ssid[..i] + [ssid[i]];
      }
      advDataLen := p + n;
    }

    /**
     * `ble_beacon_init`: a second call changes nothing and succeeds; a
     * missing or empty SSID fails; otherwise the SSID is stored (31 bytes
     * at most, NUL-terminated) and advertised as built from the stored
     * copy. The Bluetooth stack's start-up (`stackOk`) decides the result.
     */
    method Init(ssid: Option<seq<byte>>, stackOk: bool) returns (ok: bool)
      requires Valid() && (ssid.Some? ==> CString(ssid.value))
      modifies this`initialized, this`advDataLen, beaconSsid, advData
      ensures Valid()
      ensures old(initialized) ==>
        ok && initialized && advDataLen == old(advDataLen) &&
        beaconSsid[..] == old(beaconSsid[..]) && advData[..] == old(advData[..])
      ensures !old(initialized) && (ssid.None? || |ssid.value| == 0) ==>
        !ok && !initialized && advDataLen == old(advDataLen) &&
        beaconSsid[..] == old(beaconSsid[..]) && advData[..] == old(advData[..])
      ensures !old(initialized) && ssid.Some? && |ssid.value| > 0 ==>
        ok == stackOk && initialized == stackOk &&
        beaconSsid[..] == StoredSsid(ssid.value) &&
        advData[..advDataLen] == AdvData(ssid.value[..Min(|ssid.value|, 31)])
    {
      if initialized {
        return true;
      }
      if ssid.None? || |ssid.value| == 0 {
        return false;
      }
      var s := ssid.value;
      var stored := StoredSsid(s);
      forall i | 0 <= i < BEACON_SSID_SIZE {
        beaconSsid[i] := stored[i];
      }
      assert beaconSsid[..] == stored;
      StoredSsidReadsBack(s);
      var len := StrLen(beaconSsid[..]);
      BuildAdvData(beaconSsid[..len]);
      if !stackOk {
        return false;
      }
      initialized := true;
      return true;
    }

    /**
     * `ble_beacon_start`: nothing before init; with the stack not yet
     * working the wish to advertise is recorded; otherwise the stored
     * advertising data is handed to the stack and advertising starts.
     */
    method Start(stackWorking: bool) returns (advertised: Option<seq<byte>>)
      requires Valid()
      modifies this`advertising
      ensures !old(initialized) ==> advertised.None? && advertising == old(advertising)
      ensures old(initialized) ==> advertising
      ensures advertised.Some? <==> old(initialized) && stackWorking
      ensures advertised.Some? ==> advertised.value == advData[..advDataLen]
    {
      if !initialized {
        return None;
      }
      if !stackWorking {
        advertising := true;
        return None;
      }
      advertising := true;
      return Some(advData[..advDataLen]);
    }

    /** The stack became ready: advertising asked for earlier is started now. */
    method OnStackWorking() returns (advertised: Option<seq<byte>>)
      requires Valid()
      modifies this`advertising
      ensures advertised.Some? <==> old(advertising) && initialized
      ensures advertised.Some? ==> advertised.value == advData[..advDataLen]
      ensures advertising == old(advertising)
    {
      advertised := None;
      if advertising {
        advertised := Start(true);
      }
    }

    /** `ble_beacon_stop`. */
    method Stop()
      modifies this`advertising
      ensures initialized ==> !advertising
      ensures !initialized ==> advertising == old(advertising)
    {
      if !initialized || !advertising {
        return;
      }
      advertising := false;
    }

    /** `ble_beacon_is_active`. */
    function IsActive(stackWorking: bool): (active: bool)
      reads this
      ensures active <==> advertising && stackWorking
    {
      advertising && stackWorking
    }

    /** `ble_beacon_deinit`: stops advertising and forgets the init. */
    method Deinit()
      modifies this`advertising, this`initialized
      ensures !initialized
      ensures old(initialized) ==> !advertising
      ensures !old(initialized) ==> advertising == old(advertising)
    {
      if !initialized {
        return;
      }
      Stop();
      initialized := false;
    }
  }
}

=== FILE: button_remap.dfy ===
/**
 * Button conversions throughout the firmware are chains of
 * `if (raw & FROM) buttons |= JP_TO;`. Such a chain is modelled as a table of
 * moves from a source bit position to a JP bit position; the properties every
 * chain has are proved here once, by induction over the table.
 */
module ButtonRemap {
  import opened Common

  /** A bit position in a 32-bit word. */
  type BitPos = b: bv8 | b < 32

  /** `if (raw & (1u << from)) buttons |= (1u << to);` */
  datatype Move = Move(from: BitPos, to: BitPos)

  /** No two moves set the same JP bit. */
  predicate TargetsDistinct(ms: seq<Move>) {
    forall i, j :: 0 <= i < j < |ms| ==> ms[i].to != ms[j].to
  }

  /** The moves are listed in the order of the JP bits they set. */
  predicate TargetsAscending(ms: seq<Move>) {
    forall i :: 0 < i < |ms| ==> ms[i - 1].to < ms[i].to
  }

  lemma {:induction false} AscendingBetween(ms: seq<Move>, i: nat, j: nat)
    requires TargetsAscending(ms) && i < j < |ms|
    ensures ms[i].to < ms[j].to
    decreases j - i
  {
    if i + 1 < j {
      AscendingBetween(ms, i + 1, j);
    }
  }

  /** Two tables in JP bit order, the second starting above the first, make one. */
  lemma AscendingAppend(a: seq<Move>, b: seq<Move>)
    requires TargetsAscending(a) && TargetsAscending(b)
    requires |a| > 0 && |b| > 0 && a[|a| - 1].to < b[0].to
    ensures TargetsAscending(a + b)
  {
    forall i | 0 < i < |a + b|
      ensures (a + b)[i - 1].to < (a + b)[i].to
    {
      if i == |a| {
        assert (a + b)[i - 1] == a[|a| - 1] && (a + b)[i] == b[0];
      }
    }
  }

  /** A table listed in JP bit order sets each JP bit from one move at most. */
  lemma AscendingDistinct(ms: seq<Move>)
    requires TargetsAscending(ms)
    ensures TargetsDistinct(ms)
  {
    forall i, j | 0 <= i < j < |ms| {
      AscendingBetween(ms, i, j);
    }
  }

  /** What one move contributes. */
  function MoveOf(m: Move, raw: bv32): Buttons
  {
    if BitSet(raw, m.from) then Bit(m.to) else 0
  }

  /** The JP word the whole chain builds from `raw`, starting from zero. */
  function Remap(ms: seq<Move>, raw: bv32): Buttons
  {
    if |ms| == 0 then 0 else MoveOf(ms[0], raw) | Remap(ms[1..], raw)
  }

  /** Bit `k` of one move's contribution. */
  lemma MoveOfBit(m: Move, raw: bv32, k: BitPos)
    ensures BitSet(MoveOf(m, raw), k) <==> m.to == k && BitSet(raw, m.from)
  {
    if BitSet(raw, m.from) {
      SingleBit(m.to, k);
    } else {
      NoBitsOfZero(k);
    }
  }

  /** Some move sets JP bit `k` from a bit that is set in `raw`. */
  predicate Lit(ms: seq<Move>, raw: bv32, k: BitPos)
  {
    exists i :: 0 <= i < |ms| && ms[i].to == k && BitSet(raw, ms[i].from)
  }

  /** A JP bit is set exactly when a move targeting it finds its source bit set. */
  lemma {:induction false} RemapBit(ms: seq<Move>, raw: bv32, k: BitPos)
    ensures BitSet(Remap(ms, raw), k) <==> Lit(ms, raw, k)
  {
    if |ms| == 0 {
      NoBitsOfZero(k);
    } else {
      RemapBit(ms[1..], raw, k);
      BitOfOr(MoveOf(ms[0], raw), Remap(ms[1..], raw), k);
      MoveOfBit(ms[0], raw, k);
      if Lit(ms[1..], raw, k) {
        var i :| 0 <= i < |ms[1..]| && ms[1..][i].to == k && BitSet(raw, ms[1..][i].from);
        assert ms[i + 1] == ms[1..][i];
      }
      if Lit(ms, raw, k) {
        var i :| 0 <= i < |ms| && ms[i].to == k && BitSet(raw, ms[i].from);
        if i > 0 {
          assert ms[1..][i - 1] == ms[i];
        }
      }
    }
  }

  /** With distinct targets, each move copies its source bit to its JP bit, both ways. */
  lemma MovedBit(ms: seq<Move>, raw: bv32, i: nat)
    requires TargetsDistinct(ms) && i < |ms|
    ensures BitSet(Remap(ms, raw), ms[i].to) <==> BitSet(raw, ms[i].from)
  {
    RemapBit(ms, raw, ms[i].to);
    if Lit(ms, raw, ms[i].to) {
      var j :| 0 <= j < |ms| && ms[j].to == ms[i].to && BitSet(raw, ms[j].from);
      assert j == i;
    }
  }

  /** A JP bit that no move targets is never set. */
  lemma Untargeted(ms: seq<Move>, raw: bv32, k: BitPos)
    requires forall i :: 0 <= i < |ms| ==> ms[i].to != k
    ensures !BitSet(Remap(ms, raw), k)
  {
    RemapBit(ms, raw, k);
  }

  /** Source bits that no move reads make no difference to any JP bit. */
  lemma OnlySourcesRead(ms: seq<Move>, a: bv32, b: bv32, k: BitPos)
    requires forall i :: 0 <= i < |ms| ==> (BitSet(a, ms[i].from) <==> BitSet(b, ms[i].from))
    ensures BitSet(Remap(ms, a), k) <==> BitSet(Remap(ms, b), k)
  {
    RemapBit(ms, a, k);
    RemapBit(ms, b, k);
  }

  /**
   * `((raw >> from) & 1) << to`: the same move without a branch, for chains
   * written out move by move.
   */
  function CopyBit(raw: bv32, from: BitPos, to: BitPos): Buttons
  {
    ((raw >> from) & 1) << to
  }

  /** The branch-free form of a move is the move. */
  lemma CopyBitIsMove(raw: bv32, from: BitPos, to: BitPos)
    ensures CopyBit(raw, from, to) == MoveOf(Move(from, to), raw)
  {
  }

  /** Nothing pressed, nothing set. */
  lemma {:induction false} RemapOfZero(ms: seq<Move>)
    ensures Remap(ms, 0) == 0
  {
    if |ms| > 0 {
      RemapOfZero(ms[1..]);
      NoBitsOfZero(ms[0].from);
    }
  }
}

=== FILE: cdc_commands.dfy ===
/**
 * The JSON command layer of the binary CDC protocol (`cdc_commands.c`):
 * naive extractors that look for `"key":` in the request text, the unified
 * profile index (built-in profiles first, then the custom profiles kept in
 * the settings journal), the profile editing commands and the dispatch of
 * a request to its handler.
 */
module CdcCommands {
  import opened Common
  import CdcConsole
  import CdcProtocol
  import Flash

  /** A NUL-terminated C string, as the characters before its terminator. */
  type CString = s: seq<char> | '\0' !in s

  /**
   * What the command handlers reply, by content; the JSON text of a reply
   * (`send_ok`, `send_error` and the `snprintf` formats) is not modelled.
   */
  datatype Reply =
    | Ok
    | Error(message: string)
    /** `{"ok":true,"index":...,"name":"..."}` */
    | Named(index: int, name: seq<char>)
    | BuiltinInfo(index: int, name: seq<char>)
    | CustomInfo(index: int, profile: Flash.Profile)
    | ModeInfo(mode: int, reboot: bool)
    | OrientInfo(mode: int)
    /** A reply of a command whose reply is made of state outside this model. */
    | Report(command: seq<char>)

  // ---------------------------------------------------------------------------
  // String search (`strstr`, `strchr`)
  // ---------------------------------------------------------------------------

  predicate Occurs(s: seq<char>, pat: seq<char>, i: nat) {
    i + |pat| <= |s| && s[i..i + |pat|] == pat
  }

  /** `strstr(s + from, pat)`: the first occurrence of `pat` at or after `from`. */
  function Find(s: seq<char>, pat: seq<char>, from: nat): (r: Option<nat>)
    ensures r.Some? ==> from <= r.value && Occurs(s, pat, r.value)
    decreases |s| - from
  {
    if from + |pat| > |s| then None
    else if s[from..from + |pat|] == pat then Some(from)
    else Find(s, pat, from + 1)
  }

  /** `strstr` finds the first occurrence, and fails only when there is none. */
  lemma {:induction false} FindSpec(s: seq<char>, pat: seq<char>, from: nat)
    ensures Find(s, pat, from).Some? ==>
      forall i :: from <= i < Find(s, pat, from).value ==> !Occurs(s, pat, i)
    ensures Find(s, pat, from).None? ==> forall i :: from <= i ==> !Occurs(s, pat, i)
    decreases |s| - from
  {
    if from + |pat| <= |s| && s[from..from + |pat|] != pat {
      FindSpec(s, pat, from + 1);
    }
  }

  /**
   * A pattern that starts with a quote is found right after a prefix holding
   * no quote.
   */
  lemma {:induction false} FindAfterPrefix(prefix: seq<char>, pat: seq<char>, rest: seq<char>, from: nat)
    requires |pat| > 0 && pat[0] == '"' && '"' !in prefix && from <= |prefix|
    ensures Find(prefix + pat + rest, pat, from) == Some(|prefix|)
    decreases |prefix| - from
  {
    var s := prefix + pat + rest;
    assert s[|prefix|..|prefix| + |pat|] == pat;
    if from < |prefix| {
      assert s[from..from + |pat|][0] == prefix[from];
      FindAfterPrefix(prefix, pat, rest, from + 1);
    }
  }

  /** `strchr(s + from, c)` for a character other than NUL. */
  function IndexOf(s: seq<char>, c: char, from: nat): (r: Option<nat>)
    ensures r.Some? ==> from <= r.value < |s| && s[r.value] == c
    ensures r.Some? ==> forall i :: from <= i < r.value ==> s[i] != c
    ensures r.None? ==> forall i :: from <= i < |s| ==> s[i] != c
    decreases |s| - from
  {
    if from >= |s| then None
    else if s[from] == c then Some(from)
    else IndexOf(s, c, from + 1)
  }

  // ---------------------------------------------------------------------------
  // Field extractors
  // ---------------------------------------------------------------------------

  /** The text `json_get_string` searches for: `"key":"`. */
  function StringKey(key: seq<char>): seq<char> { "\"" + key + "\":\"" }

  /** The text `json_get_int` and `json_get_bool` search for: `"key":`. */
  function FieldKey(key: seq<char>): seq<char> { "\"" + key + "\":" }

  /** The text `json_get_int_array` searches for: `"key":[`. */
  function ArrayKey(key: seq<char>): seq<char> { "\"" + key + "\":[" }

  /** A pattern that starts with a quote, placed after a quote-free prefix, is found there. */
  lemma KeyAfterPrefix(prefix: seq<char>, pat: seq<char>, value: seq<char>)
    requires |pat| > 0 && pat[0] == '"' && '"' !in prefix
    ensures Find(prefix + pat + value, pat, 0) == Some(|prefix|)
    ensures (prefix + pat + value)[|prefix| + |pat|..] == value
  {
    FindAfterPrefix(prefix, pat, value, 0);
  }

  /** The text before the first quote, or nothing when there is none (`strchr` for the closing quote). */
  function QuotedAfter(t: seq<char>): (r: Option<seq<char>>)
    ensures r.Some? ==> '"' !in r.value && r.value < t && t[|r.value|] == '"'
    ensures r.None? <==> '"' !in t
  {
    match IndexOf(t, '"', 0)
    case None => None
    case Some(end) => Some(t[..end])
  }

  /**
   * `json_get_string`: the text between the first `"key":"` and the next
   * quote, or nothing when either is missing.
   */
  function JsonGetString(json: seq<char>, key: seq<char>): (r: Option<seq<char>>)
    ensures r.Some? ==> '"' !in r.value
    ensures '\0' !in json && r.Some? ==> '\0' !in r.value
    ensures Find(json, StringKey(key), 0).None? ==> r.None?
  {
    match Find(json, StringKey(key), 0)
    case None => None
    case Some(i) => QuotedAfter(json[i + |StringKey(key)|..])
  }

  /** A quote-free value followed by a quote is read up to that quote. */
  lemma QuotedValue(value: seq<char>, rest: seq<char>)
    requires '"' !in value
    ensures QuotedAfter(value + "\"" + rest) == Some(value)
  {
    var t := value + "\"" + rest;
    assert t[|value|] == '"';
    assert t[..|value|] == value;
  }

  /** A quoted value after a quote-free prefix reads back as itself. */
  lemma StringRoundTrip(prefix: seq<char>, key: seq<char>, value: seq<char>, rest: seq<char>)
    requires '"' !in prefix && '"' !in value
    ensures JsonGetString(prefix + StringKey(key) + (value + "\"" + rest), key) == Some(value)
  {
    KeyAfterPrefix(prefix, StringKey(key), value + "\"" + rest);
    QuotedValue(value, rest);
  }

  /** Blanks `json_get_int` and `json_get_bool` skip before the value. */
  predicate IsBlank(c: char) { c == ' ' || c == '\t' }

  /** The text after its leading spaces and tabs. */
  function SkipBlanks(t: seq<char>): (u: seq<char>)
    ensures |u| <= |t| && (|u| > 0 ==> !IsBlank(u[0]))
  {
    if |t| > 0 && IsBlank(t[0]) then SkipBlanks(t[1..]) else t
  }

  lemma {:induction false} SkipBlanksOver(blanks: seq<char>, t: seq<char>)
    requires forall i :: 0 <= i < |blanks| ==> IsBlank(blanks[i])
    requires |t| == 0 || !IsBlank(t[0])
    ensures SkipBlanks(blanks + t) == t
    decreases |blanks|
  {
    if |blanks| > 0 {
      assert (blanks + t)[1..] == blanks[1..] + t;
      SkipBlanksOver(blanks[1..], t);
    }
  }

  /** Where the run of spaces and tabs starting at p ends. */
  function BlankEnd(s: seq<char>, p: nat): (q: nat)
    requires p <= |s|
    ensures p <= q <= |s|
    decreases |s| - p
  {
    if p < |s| && IsBlank(s[p]) then BlankEnd(s, p + 1) else p
  }

  /** Skipping by position and by suffix agree. */
  lemma {:induction false} BlankEndSuffix(s: seq<char>, p: nat)
    requires p <= |s|
    ensures s[BlankEnd(s, p)..] == SkipBlanks(s[p..])
    decreases |s| - p
  {
    if p < |s| && IsBlank(s[p]) {
      assert s[p..][1..] == s[p + 1..];
      BlankEndSuffix(s, p + 1);
    }
  }

  /** `atoi` on text that starts with a minus sign or a digit. */
  function SignedAtoi(u: seq<char>): int
    requires |u| > 0
  {
    if u[0] == '-' then -(CdcConsole.Atoi(u[1..]) as int) else CdcConsole.Atoi(u)
  }

  /** `%d`. */
  function Show(n: int): (d: seq<char>)
    ensures |d| > 0 && (d[0] == '-' || CdcConsole.IsDigit(d[0]))
  {
    if n < 0 then "-" + CdcConsole.Decimal(-n) else CdcConsole.Decimal(n)
  }

  /** A number printed in front of a non-digit reads back as itself. */
  lemma AtoiOfShow(n: int, rest: seq<char>)
    requires |rest| == 0 || !CdcConsole.IsDigit(rest[0])
    ensures SignedAtoi(Show(n) + rest) == n
  {
    if n < 0 {
      ShowNegative(n, rest);
      AtoiOfNegative(Show(n) + rest, CdcConsole.Decimal(-n), rest);
      CdcConsole.DecimalRoundTrip(-n);
    } else {
      AtoiOfDecimal(n, rest);
    }
  }

  lemma ShowNegative(n: int, rest: seq<char>)
    requires n < 0
    ensures var t := Show(n) + rest; |t| > 0 && t[0] == '-' && t[1..] == CdcConsole.Decimal(-n) + rest
  {
    var t := Show(n) + rest;
    assert t[1..] == CdcConsole.Decimal(-n) + rest;
  }

  lemma AtoiOfNegative(u: seq<char>, d: seq<char>, rest: seq<char>)
    requires |u| > 0 && u[0] == '-' && u[1..] == d + rest
    requires forall i :: 0 <= i < |d| ==> CdcConsole.IsDigit(d[i])
    requires |rest| == 0 || !CdcConsole.IsDigit(rest[0])
    ensures SignedAtoi(u) == -(CdcConsole.DecimalValue(d) as int)
  {
    PrefixThenStop(d, rest);
  }

  lemma AtoiOfDecimal(m: nat, rest: seq<char>)
    requires |rest| == 0 || !CdcConsole.IsDigit(rest[0])
    ensures SignedAtoi(CdcConsole.Decimal(m) + rest) == CdcConsole.Atoi(CdcConsole.Decimal(m) + rest) == m
  {
    PrefixThenStop(CdcConsole.Decimal(m), rest);
    CdcConsole.DecimalRoundTrip(m);
  }

  /** The digit run of a string of digits followed by a non-digit is that string. */
  lemma {:induction false} PrefixThenStop(d: seq<char>, rest: seq<char>)
    requires forall i :: 0 <= i < |d| ==> CdcConsole.IsDigit(d[i])
    requires |rest| == 0 || !CdcConsole.IsDigit(rest[0])
    ensures CdcConsole.DigitPrefix(d + rest) == d
    decreases |d|
  {
    if |d| > 0 {
      assert (d + rest)[1..] == d[1..] + rest;
      PrefixThenStop(d[1..], rest);
    }
  }

  predicate StartsNumber(c: char) { c == '-' || CdcConsole.IsDigit(c) }

  /** What `json_get_int` reads after `"key":`: blanks, then a number or nothing. */
  function IntAfter(t: seq<char>): (r: Option<int>)
    ensures r.Some? <==> |SkipBlanks(t)| > 0 && StartsNumber(SkipBlanks(t)[0])
  {
    var u := SkipBlanks(t);
    if |u| > 0 && StartsNumber(u[0]) then Some(SignedAtoi(u)) else None
  }

  /** `json_get_int` as a function of the request. */
  function IntField(json: seq<char>, key: seq<char>): Option<int> {
    match Find(json, FieldKey(key), 0)
    case None => None
    case Some(i) => IntAfter(json[i + |FieldKey(key)|..])
  }

  /** A printed number after a quote-free prefix, the key and blanks reads back as itself. */
  lemma IntRoundTrip(prefix: seq<char>, key: seq<char>, blanks: seq<char>, n: int, rest: seq<char>)
    requires '"' !in prefix && forall i :: 0 <= i < |blanks| ==> IsBlank(blanks[i])
    requires |rest| == 0 || !CdcConsole.IsDigit(rest[0])
    ensures IntField(prefix + FieldKey(key) + (blanks + (Show(n) + rest)), key) == Some(n)
  {
    KeyAfterPrefix(prefix, FieldKey(key), blanks + (Show(n) + rest));
    SkipBlanksOver(blanks, Show(n) + rest);
    AtoiOfShow(n, rest);
  }

  /** Anything but a minus sign or a digit after the key and blanks is not a number. */
  lemma IntRejects(prefix: seq<char>, key: seq<char>, blanks: seq<char>, rest: seq<char>)
    requires '"' !in prefix && forall i :: 0 <= i < |blanks| ==> IsBlank(blanks[i])
    requires |rest| == 0 || (!IsBlank(rest[0]) && !StartsNumber(rest[0]))
    ensures IntField(prefix + FieldKey(key) + (blanks + rest), key) == None
  {
    KeyAfterPrefix(prefix, FieldKey(key), blanks + rest);
    SkipBlanksOver(blanks, rest);
  }

  /** Skips the blanks from `start`, as the `while` loops of the extractors do. */
  method SkipBlanksFrom(json: CString, start: nat) returns (p: nat)
    requires start <= |json|
    ensures start <= p <= |json| && json[p..] == SkipBlanks(json[start..])
  {
    p := start;
    while p < |json| && IsBlank(json[p])
      invariant start <= p <= |json|
      invariant BlankEnd(json, p) == BlankEnd(json, start)
      decreases |json| - p
    {
      p := p + 1;
    }
    BlankEndSuffix(json, start);
  }

  /**
   * `json_get_int`: skips spaces and tabs after `"key":` and reads a number
   * only when a minus sign or a digit follows.
   */
  method JsonGetInt(json: CString, key: seq<char>) returns (r: Option<int>)
    ensures r == IntField(json, key)
  {
    var found := Find(json, FieldKey(key), 0);
    if found.None? {
      return None;
    }
    var p := SkipBlanksFrom(json, found.value + |FieldKey(key)|);
    if p < |json| && StartsNumber(json[p]) {
      r := Some(SignedAtoi(json[p..]));
    } else {
      r := None;
    }
  }

  /** What `json_get_bool` reads after `"key":`: blanks, then only the literals count. */
  function BoolAfter(t: seq<char>): (r: Option<bool>)
    ensures r == Some(true) <==> "true" <= SkipBlanks(t)
    ensures r == Some(false) <==> "false" <= SkipBlanks(t)
  {
    var u := SkipBlanks(t);
    if "true" <= u then Some(true) else if "false" <= u then Some(false) else None
  }

  /** `json_get_bool` as a function of the request. */
  function BoolField(json: seq<char>, key: seq<char>): Option<bool> {
    match Find(json, FieldKey(key), 0)
    case None => None
    case Some(i) => BoolAfter(json[i + |FieldKey(key)|..])
  }

  function BoolText(b: bool): seq<char> { if b then "true" else "false" }

  /** A literal after a quote-free prefix, the key and blanks reads back as itself. */
  lemma BoolRoundTrip(prefix: seq<char>, key: seq<char>, blanks: seq<char>, b: bool, rest: seq<char>)
    requires '"' !in prefix && forall i :: 0 <= i < |blanks| ==> IsBlank(blanks[i])
    ensures BoolField(prefix + FieldKey(key) + (blanks + (BoolText(b) + rest)), key) == Some(b)
  {
    KeyAfterPrefix(prefix, FieldKey(key), blanks + (BoolText(b) + rest));
    SkipBlanksOver(blanks, BoolText(b) + rest);
    assert BoolText(b) <= BoolText(b) + rest;
  }

  /** `json_get_bool`: the literals `true` and `false` after `"key":` and blanks. */
  method JsonGetBool(json: CString, key: seq<char>) returns (r: Option<bool>)
    ensures r == BoolField(json, key)
  {
    var found := Find(json, FieldKey(key), 0);
    if found.None? {
      return None;
    }
    var p := SkipBlanksFrom(json, found.value + |FieldKey(key)|);
    if "true" <= json[p..] {
      r := Some(true);
    } else if "false" <= json[p..] {
      r := Some(false);
    } else {
      r := None;
    }
  }

  // ---------------------------------------------------------------------------
  // json_get_int_array
  // ---------------------------------------------------------------------------

  /** Length of the run of minus signs and digits the array parser skips after a number. */
  function NumberRun(u: seq<char>): (k: nat)
    ensures k <= |u| && (k < |u| ==> !StartsNumber(u[k]))
  {
    if |u| > 0 && StartsNumber(u[0]) then 1 + NumberRun(u[1..]) else 0
  }

  lemma {:induction false} NumberRunOf(d: seq<char>, rest: seq<char>)
    requires forall i :: 0 <= i < |d| ==> CdcConsole.IsDigit(d[i])
    requires |rest| == 0 || !StartsNumber(rest[0])
    ensures NumberRun(d + rest) == |d|
    decreases |d|
  {
    if |d| > 0 {
      assert (d + rest)[1..] == d[1..] + rest;
      NumberRunOf(d[1..], rest);
    }
  }

  /** One pass of the parsing loop: it ends the array, or moves on, having read a value or not. */
  datatype ArrayStep = Stop | Next(rest: seq<char>, value: Option<byte>)

  /** What follows a value or a stray comma: blanks, then one comma, are skipped. */
  function AfterItem(v: seq<char>): (next: seq<char>)
    ensures |next| <= |v|
  {
    var w := SkipBlanks(v);
    if |w| > 0 && w[0] == ',' then w[1..] else w
  }

  /**
   * The body of the `json_get_int_array` loop as written, from the text at
   * the cursor: `]` ends the array, a number is stored as a `uint8_t`, and
   * only blanks and one comma are skipped otherwise.
   */
  function StepAsWritten(t: seq<char>): ArrayStep {
    var u := SkipBlanks(t);
    if |u| > 0 && u[0] == ']' then Stop
    else if |u| > 0 && StartsNumber(u[0]) then
      Next(AfterItem(u[NumberRun(u)..]), Some((SignedAtoi(u) % 256) as byte))
    else Next(AfterItem(u), None)
  }

  /** A character the loop has no rule for. */
  predicate Unexpected(c: char) {
    c != '\0' && !IsBlank(c) && c != ']' && c != ',' && !StartsNumber(c)
  }

  /**
   * At a character the loop has no rule for, the cursor and the count stay
   * where they are, and the loop condition (a character other than NUL, count
   * below the maximum) stays true: `json_get_int_array` never returns.
   */
  lemma StallAsWritten(t: seq<char>)
    requires |t| > 0 && Unexpected(t[0])
    ensures StepAsWritten(t) == Next(t, None)
  {
  }

  /** After a number, the first stray character stalls the loop: `[1.5]` is such an input. */
  lemma StallExample()
    ensures StepAsWritten("1.5]") == Next(".5]", Some(1))
    ensures StepAsWritten(".5]") == Next(".5]", None)
  {
    var t: seq<char> := "1.5]";
    assert t == ['1'] + ".5]";
    NumberRunOf("1", ".5]");
    AtoiOfDecimal(1, ".5]");
    assert t[1..] == ".5]";
    StallAsWritten(".5]");
  }

  /**
   * The loop body with a stop at a character it has no rule for (the case
   * the version as written spins on); everything else is unchanged.
   */
  function Step(t: seq<char>): (s: ArrayStep)
    ensures s.Next? ==> |s.rest| < |t|
  {
    StepAtItem(SkipBlanks(t))
  }

  /** The same step from the first character after the blanks. */
  function StepAtItem(u: seq<char>): (s: ArrayStep)
    ensures s.Next? ==> |s.rest| < |u|
  {
    if |u| > 0 && StartsNumber(u[0]) then
      Next(AfterItem(u[NumberRun(u)..]), Some((SignedAtoi(u) % 256) as byte))
    else if |u| > 0 && u[0] == ',' then Next(u[1..], None)
    else Stop
  }

  /** Wherever the version as written makes progress or stops at `]`, the two agree. */
  lemma StepAgrees(t: seq<char>)
    requires '\0' !in t && |SkipBlanks(t)| > 0 && !Unexpected(SkipBlanks(t)[0])
    ensures Step(t) == StepAsWritten(t)
  {
    var u := SkipBlanks(t);
    assert SkipBlanks(u) == u;
  }

  /** The values the loop stores from the cursor on, having stored `count` of at most `maxCount`. */
  function ArrayValues(t: seq<char>, count: nat, maxCount: nat): (vs: seq<byte>)
    ensures count <= maxCount ==> |vs| <= maxCount - count
    ensures count >= maxCount ==> vs == []
    decreases |t|
  {
    if |t| == 0 || count >= maxCount then []
    else
      match Step(t)
      case Stop => []
      case Next(rest, None) => ArrayValues(rest, count, maxCount)
      case Next(rest, Some(v)) => [v] + ArrayValues(rest, count + 1, maxCount)
  }

  /** The text after the first occurrence of `pat`, as `strstr` and a step over the pattern find it. */
  function AfterKey(json: seq<char>, pat: seq<char>): (r: Option<seq<char>>)
    ensures r.Some? ==> |r.value| <= |json| && r.value == json[|json| - |r.value|..]
  {
    match Find(json, pat, 0)
    case None => None
    case Some(i) => Some(json[i + |pat|..])
  }

  /** `json_get_int_array` as a function of the request: the values after the first `"key":[`. */
  function ArrayField(json: seq<char>, key: seq<char>, maxCount: nat): (vs: seq<byte>)
    ensures |vs| <= maxCount
  {
    match AfterKey(json, ArrayKey(key))
    case None => []
    case Some(t) => ArrayValues(t, 0, maxCount)
  }

  /** `%d,%d,...,%d`, the way the device prints a button map. */
  function Join(vs: seq<byte>): seq<char> {
    if |vs| == 0 then []
    else if |vs| == 1 then CdcConsole.Decimal(vs[0])
    else CdcConsole.Decimal(vs[0]) + "," + Join(vs[1..])
  }

  /** The parts of a printed byte followed by a comma or the closing bracket. */
  lemma NumberFront(v: byte, tail: seq<char>)
    requires |tail| > 0 && (tail[0] == ',' || tail[0] == ']')
    ensures var t := CdcConsole.Decimal(v) + tail;
      && |t| > 0 && StartsNumber(t[0]) && SkipBlanks(t) == t
      && NumberRun(t) == |CdcConsole.Decimal(v)| && t[NumberRun(t)..] == tail
  {
    var d := CdcConsole.Decimal(v);
    NumberRunOf(d, tail);
    assert (d + tail)[|d|..] == tail;
  }

  /** A step at a number reads it and passes over what follows it. */
  lemma StepAtNumber(t: seq<char>, tail: seq<char>, v: byte)
    requires |t| > 0 && StartsNumber(t[0]) && SkipBlanks(t) == t && t[NumberRun(t)..] == tail
    requires SignedAtoi(t) == v as int
    ensures Step(t) == Next(AfterItem(tail), Some(v))
  {
  }

  /** A comma after a value is passed over; the closing bracket is kept. */
  lemma AfterSeparator(tail: seq<char>)
    requires |tail| > 0 && (tail[0] == ',' || tail[0] == ']')
    ensures AfterItem(tail) == if tail[0] == ',' then tail[1..] else tail
  {
    assert SkipBlanks(tail) == tail;
  }

  /** A byte printed in front of a comma or the closing bracket is read back and passed over. */
  lemma StepOverNumber(v: byte, tail: seq<char>)
    requires |tail| > 0 && (tail[0] == ',' || tail[0] == ']')
    ensures Step(CdcConsole.Decimal(v) + tail) ==
      Next(if tail[0] == ',' then tail[1..] else tail, Some(v))
  {
    var t := CdcConsole.Decimal(v) + tail;
    NumberFront(v, tail);
    AtoiOfDecimal(v, tail);
    StepAtNumber(t, tail, v);
    AfterSeparator(tail);
  }

  /** A step that reads a value puts it in front of the values read after it. */
  lemma ArrayValuesAtValue(t: seq<char>, count: nat, maxCount: nat, rest: seq<char>, v: byte)
    requires count < maxCount && |t| > 0 && Step(t) == Next(rest, Some(v))
    ensures ArrayValues(t, count, maxCount) == [v] + ArrayValues(rest, count + 1, maxCount)
  {
  }

  /** A printed list of one value. */
  lemma JoinOne(vs: seq<byte>, rest: seq<char>)
    requires |vs| == 1
    ensures Join(vs) + "]" + rest == CdcConsole.Decimal(vs[0]) + ("]" + rest)
  {
    var d := Join(vs);
    assert d + "]" + rest == d + ("]" + rest);
  }

  /** Regrouping a text of five parts after its first two. */
  lemma Regroup(a: seq<char>, b: seq<char>, c: seq<char>, e: seq<char>, f: seq<char>)
    ensures a + b + c + e + f == a + (b + (c + e + f))
  {
  }

  /** A printed list of several values, split after the first. */
  lemma JoinMore(vs: seq<byte>, rest: seq<char>)
    requires |vs| > 1
    ensures Join(vs) + "]" + rest == CdcConsole.Decimal(vs[0]) + ("," + (Join(vs[1..]) + "]" + rest))
  {
    Regroup(CdcConsole.Decimal(vs[0]), ",", Join(vs[1..]), "]", rest);
  }

  /** Cutting a list at `k > 0` keeps its head and cuts its tail at `k - 1`. */
  lemma TakeFront(vs: seq<byte>, k: nat)
    requires |vs| > 0 && k > 0
    ensures vs[..Min(|vs|, k)] == [vs[0]] + vs[1..][..Min(|vs| - 1, k - 1)]
  {
  }

  /** The closing bracket ends the array. */
  lemma ArrayAtBracket(rest: seq<char>, count: nat, maxCount: nat)
    ensures ArrayValues("]" + rest, count, maxCount) == []
  {
    assert SkipBlanks("]" + rest) == "]" + rest;
  }

  /** The first printed value is read back, and the reading goes on after it. */
  lemma ArrayFirstValue(vs: seq<byte>, rest: seq<char>, count: nat, maxCount: nat)
    requires |vs| > 0 && count < maxCount
    ensures ArrayValues(Join(vs) + "]" + rest, count, maxCount)
      == [vs[0]] + ArrayValues(Join(vs[1..]) + "]" + rest, count + 1, maxCount)
  {
    var more := Join(vs[1..]) + "]" + rest;
    if |vs| == 1 {
      JoinOne(vs, rest);
      assert more == "]" + rest;
      StepOverNumber(vs[0], "]" + rest);
      ArrayValuesAtValue(CdcConsole.Decimal(vs[0]) + ("]" + rest), count, maxCount, "]" + rest, vs[0]);
    } else {
      JoinMore(vs, rest);
      StepOverNumber(vs[0], "," + more);
      assert ("," + more)[1..] == more;
      ArrayValuesAtValue(CdcConsole.Decimal(vs[0]) + ("," + more), count, maxCount, more, vs[0]);
    }
  }

  /** Reading back a printed list of bytes gives the list, cut at the maximum count. */
  lemma {:induction false} ArrayRoundTrip(vs: seq<byte>, rest: seq<char>, count: nat, maxCount: nat)
    requires count <= maxCount
    ensures ArrayValues(Join(vs) + "]" + rest, count, maxCount) == vs[..Min(|vs|, maxCount - count)]
    decreases |vs|
  {
    if |vs| == 0 {
      assert Join(vs) + "]" + rest == "]" + rest;
      ArrayAtBracket(rest, count, maxCount);
    } else if count < maxCount {
      TakeFront(vs, maxCount - count);
      ArrayFirstValue(vs, rest, count, maxCount);
      ArrayRoundTrip(vs[1..], rest, count + 1, maxCount);
    }
  }

  /** Skips the run of minus signs and digits from `start`. */
  method SkipNumberFrom(json: CString, start: nat) returns (p: nat)
    requires start <= |json|
    ensures start <= p <= |json| && json[p..] == json[start..][NumberRun(json[start..])..]
  {
    p := start;
    while p < |json| && StartsNumber(json[p])
      invariant start <= p <= |json|
      invariant json[p..][NumberRun(json[p..])..] == json[start..][NumberRun(json[start..])..]
      decreases |json| - p
    {
      assert json[p..][1..] == json[p + 1..];
      p := p + 1;
    }
  }

  /** A step from a number, as the loop takes it: the value and the text after the separator. */
  lemma StepNumberAt(t: seq<char>, u: seq<char>, tail: seq<char>, next: seq<char>)
    requires u == SkipBlanks(t) && |u| > 0 && StartsNumber(u[0])
    requires tail == u[NumberRun(u)..] && next == AfterItem(tail)
    ensures Step(t) == Next(next, Some((SignedAtoi(u) % 256) as byte))
  {
  }

  /** A stray comma is passed over without a value. */
  lemma StepCommaAt(t: seq<char>, u: seq<char>)
    requires u == SkipBlanks(t) && |u| > 0 && u[0] == ','
    ensures Step(t) == Next(u[1..], None)
  {
  }

  /** Anything else ends the array. */
  lemma StepStopAt(t: seq<char>, u: seq<char>)
    requires u == SkipBlanks(t) && !(|u| > 0 && (StartsNumber(u[0]) || u[0] == ','))
    ensures Step(t) == Stop
  {
  }

  /** A step without a value leaves the values read after it unchanged. */
  lemma ArrayValuesAtSkip(t: seq<char>, count: nat, maxCount: nat, rest: seq<char>)
    requires count < maxCount && |t| > 0 && Step(t) == Next(rest, None)
    ensures ArrayValues(t, count, maxCount) == ArrayValues(rest, count, maxCount)
  {
  }

  /** A stopping step reads nothing more. */
  lemma ArrayValuesAtStop(t: seq<char>, count: nat, maxCount: nat)
    requires |t| > 0 && Step(t) == Stop
    ensures ArrayValues(t, count, maxCount) == []
  {
  }

  /**
   * One pass of the `json_get_int_array` loop from `p`, stopping at a
   * character it has no rule for: where the cursor goes next and the value read.
   */
  method ArrayItemFrom(json: CString, p: nat) returns (stop: bool, next: nat, value: Option<byte>)
    requires p <= |json|
    ensures stop ==> Step(json[p..]) == Stop
    ensures !stop ==> next <= |json| && Step(json[p..]) == Next(json[next..], value)
  {
    var q := SkipBlanksFrom(json, p);
    if q < |json| && StartsNumber(json[q]) {
      value := Some((SignedAtoi(json[q..]) % 256) as byte);
      var r := SkipNumberFrom(json, q);
      next := SkipBlanksFrom(json, r);
      if next < |json| && json[next] == ',' {
        assert json[next..][1..] == json[next + 1..];
        next := next + 1;
      }
      assert json[next..] == AfterItem(json[r..]);
      StepNumberAt(json[p..], json[q..], json[r..], json[next..]);
      stop := false;
    } else if q < |json| && json[q] == ',' {
      assert json[q..][1..] == json[q + 1..];
      StepCommaAt(json[p..], json[q..]);
      stop, next, value := false, q + 1, None;
    } else {
      StepStopAt(json[p..], json[q..]);
      stop, next, value := true, p, None;
    }
  }

  /**
   * The `json_get_int_array` loop from `start`, stopping at a character it
   * has no rule for: at most `maxCount` values, each read with `atoi` and
   * stored as a `uint8_t`.
   */
  method ReadArrayFrom(json: CString, start: nat, maxCount: nat) returns (values: seq<byte>)
    requires start <= |json|
    ensures values == ArrayValues(json[start..], 0, maxCount)
  {
    var p := start;
    values := [];
    while p < |json| && |values| < maxCount
      invariant start <= p <= |json| && |values| <= maxCount
      invariant values + ArrayValues(json[p..], |values|, maxCount) == ArrayValues(json[start..], 0, maxCount)
      decreases |json| - p
    {
      var stop, next, value := ArrayItemFrom(json, p);
      if stop {
        ArrayValuesAtStop(json[p..], |values|, maxCount);
        break;
      }
      if value.Some? {
        ArrayValuesAtValue(json[p..], |values|, maxCount, json[next..], value.value);
        AppendTwice(values, [value.value], ArrayValues(json[next..], |values| + 1, maxCount));
        values := values + [value.value];
      } else {
        ArrayValuesAtSkip(json[p..], |values|, maxCount, json[next..]);
      }
      p := next;
    }
    if p == |json| {
      assert json[p..] == [];
    }
    assert ArrayValues(json[p..], |values|, maxCount) == [];
    assert values + [] == values;
  }

  /** `json_get_int_array`: the values after the first `"key":[`, none when the key is absent. */
  method JsonGetIntArray(json: CString, key: seq<char>, maxCount: nat) returns (values: seq<byte>)
    ensures values == ArrayField(json, key, maxCount) && |values| <= maxCount
  {
    var text := AfterKey(json, ArrayKey(key));
    if text.None? {
      return [];
    }
    assert '\0' !in text.value;
    values := ReadArrayFrom(text.value, 0, maxCount);
    assert text.value[0..] == text.value;
  }

  /** Size of the command name buffer in `packet_handler`. */
  const CMD_NAME_SIZE: nat := 32

  /** `json_get_cmd`: the `cmd` string, when it is non-empty and fits the buffer with its NUL. */
  function JsonGetCmd(json: seq<char>, bufSize: nat): (r: Option<seq<char>>)
    ensures r.Some? ==> 0 < |r.value| < bufSize && '"' !in r.value
    ensures r.Some? ==> JsonGetString(json, "cmd") == r
  {
    match JsonGetString(json, "cmd")
    case None => None
    case Some(name) => if |name| == 0 || |name| >= bufSize then None else Some(name)
  }

  /** A request `{"cmd":"NAME"...` yields NAME exactly when it is non-empty and shorter than the buffer. */
  lemma CmdRoundTrip(name: seq<char>, rest: seq<char>, bufSize: nat)
    requires '"' !in name
    ensures JsonGetCmd("{" + StringKey("cmd") + (name + "\"" + rest), bufSize) ==
      if 0 < |name| < bufSize then Some(name) else None
  {
    StringRoundTrip("{", "cmd", name, rest);
  }
}

=== FILE: cdc_console.dfy ===
/**
 * The CDC data port's console (`cdc.c`): a line-based text command
 * interpreter that hands the port over, for good, to the binary frame
 * receiver as soon as the first 0xAA sync byte arrives.
 */
module CdcConsole {
  import opened Common
  import CdcHost
  import CdcProtocol

  /** Size of the text line buffer; a line keeps at most 63 characters and the terminating NUL. */
  const CMD_BUFFER_SIZE: nat := 64

  // Mode numbers as the MODES listing gives them (usbd.h is not part of this model).
  const MODE_HID: int := 0
  const MODE_XBOX_ORIGINAL: int := 1
  const MODE_XAC: int := 8

  const CR: byte := 0x0D
  const LF: byte := 0x0A
  const BS: byte := 0x08
  const DEL: byte := 0x7F

  /** The C string held by a char buffer: everything before the first NUL. */
  function CString(buf: seq<char>): (s: seq<char>)
    ensures s <= buf && '\0' !in s
    ensures |s| < |buf| ==> buf[|s|] == '\0'
  {
    if |buf| == 0 || buf[0] == '\0' then [] else [buf[0]] + CString(buf[1..])
  }

  /** Writing the terminator right after a line makes the buffer's C string that line, up to any NUL inside it. */
  lemma {:induction false} CStringAtTerminator(buf: seq<char>, k: nat)
    requires k < |buf| && buf[k] == '\0'
    ensures CString(buf) == CString(buf[..k])
    decreases k
  {
    if k > 0 && buf[0] != '\0' {
      assert buf[..k][1..] == buf[1..][..k - 1];
      CStringAtTerminator(buf[1..], k - 1);
    }
  }

  predicate IsDigit(c: char) { '0' <= c <= '9' }

  /** The longest run of decimal digits at the front of a string. */
  function DigitPrefix(s: seq<char>): (d: seq<char>)
    ensures d <= s && forall i :: 0 <= i < |d| ==> IsDigit(d[i])
    ensures |d| < |s| ==> !IsDigit(s[|d|])
  {
    if |s| == 0 || !IsDigit(s[0]) then [] else [s[0]] + DigitPrefix(s[1..])
  }

  /** The value of a string of decimal digits, most significant first. */
  function DecimalValue(d: seq<char>): nat
    requires forall i :: 0 <= i < |d| ==> IsDigit(d[i])
    decreases |d|
  {
    if |d| == 0 then 0
    else
      assert IsDigit(d[|d| - 1]);
      DecimalValue(d[..|d| - 1]) * 10 + (d[|d| - 1] as int - '0' as int)
  }

  /** `atoi` on a string that starts with a digit: the value of its leading digits. */
  function Atoi(s: seq<char>): nat {
    DecimalValue(DigitPrefix(s))
  }

  /** `%d` of a non-negative number. */
  function Decimal(n: nat): (d: seq<char>)
    ensures |d| > 0 && forall i :: 0 <= i < |d| ==> IsDigit(d[i])
  {
    var digit := ('0' as int + n % 10) as char;
    if n < 10 then [digit] else Decimal(n / 10) + [digit]
  }

  /** Reading a printed number back gives the number. */
  lemma {:induction false} DecimalRoundTrip(n: nat)
    ensures DecimalValue(Decimal(n)) == n
    decreases n
  {
    var d := Decimal(n);
    if n >= 10 {
      assert d[..|d| - 1] == Decimal(n / 10);
      DecimalRoundTrip(n / 10);
    } else {
      assert d[..0] == [];
    }
  }

  /** A string made only of digits is its own digit prefix. */
  lemma {:induction false} AllDigitsPrefix(d: seq<char>)
    requires forall i :: 0 <= i < |d| ==> IsDigit(d[i])
    ensures DigitPrefix(d) == d
    decreases |d|
  {
    if |d| > 0 {
      AllDigitsPrefix(d[1..]);
    }
  }

  /** `tolower` on ASCII. */
  function Lower(c: char): char {
    if 'A' <= c <= 'Z' then (c as int + 32) as char else c
  }

  /** `strcasecmp(a, b) == 0`. */
  predicate SameIgnoringCase(a: seq<char>, b: seq<char>) {
    |a| == |b| && forall i :: 0 <= i < |a| ==> Lower(a[i]) == Lower(b[i])
  }

  /** The mode a `MODE=` value names, or -1: a leading digit is read as a number, else one of the names. */
  function ModeNumber(value: seq<char>): (m: int)
    ensures m >= -1
    ensures |value| > 0 && IsDigit(value[0]) ==> m >= 0
    ensures m == -1 || m == MODE_HID || m == MODE_XBOX_ORIGINAL || m == MODE_XAC || (|value| > 0 && IsDigit(value[0]))
  {
    if |value| > 0 && IsDigit(value[0]) then Atoi(value)
    else if SameIgnoringCase(value, "HID") || SameIgnoringCase(value, "DINPUT") then MODE_HID
    else if SameIgnoringCase(value, "XOG") || SameIgnoringCase(value, "XBOX_OG")
      || SameIgnoringCase(value, "XBOX") then MODE_XBOX_ORIGINAL
    else if SameIgnoringCase(value, "XAC") || SameIgnoringCase(value, "ADAPTIVE") then MODE_XAC
    else -1
  }

  /** The names are accepted in any letter case. */
  lemma ModeNames(value: seq<char>)
    ensures SameIgnoringCase(value, "HID") || SameIgnoringCase(value, "DINPUT") ==> ModeNumber(value) == MODE_HID
    ensures SameIgnoringCase(value, "XOG") || SameIgnoringCase(value, "XBOX_OG") || SameIgnoringCase(value, "XBOX")
      ==> ModeNumber(value) == MODE_XBOX_ORIGINAL
    ensures SameIgnoringCase(value, "XAC") || SameIgnoringCase(value, "ADAPTIVE") ==> ModeNumber(value) == MODE_XAC
  {
    if |value| > 0 && IsDigit(value[0]) {
      // Every name starts with a letter, and no letter folds to a digit.
      NotALetterName(value, "HID");
      NotALetterName(value, "DINPUT");
      NotALetterName(value, "XOG");
      NotALetterName(value, "XBOX_OG");
      NotALetterName(value, "XBOX");
      NotALetterName(value, "XAC");
      NotALetterName(value, "ADAPTIVE");
    }
    // The three-letter names part at their first or second letter.
    NamesPart(value, "HID", "XOG", 0);
    NamesPart(value, "HID", "XAC", 0);
    NamesPart(value, "XOG", "XAC", 1);
  }

  lemma NamesPart(value: seq<char>, a: seq<char>, b: seq<char>, i: nat)
    requires i < |a| && i < |b| && Lower(a[i]) != Lower(b[i])
    ensures !(SameIgnoringCase(value, a) && SameIgnoringCase(value, b))
  {
  }

  lemma NotALetterName(value: seq<char>, name: seq<char>)
    requires |value| > 0 && IsDigit(value[0])
    requires |name| > 0 && 'A' <= name[0] <= 'Z'
    ensures !SameIgnoringCase(value, name)
  {
  }

  /** What `cdc_process_command` writes back. */
  datatype Reply =
    | CurrentMode(mode: int)
    | AlreadyInMode(mode: int)
    | SwitchingTo(mode: int)
    | InvalidMode(value: seq<char>)
    | ModeList
    | VersionInfo
    | FlashInfo
    | HelpText
    | UnknownCommand(cmd: seq<char>)

  /** A command's reply, if any, and the mode it switches to, if any. */
  datatype Outcome = Outcome(reply: Option<Reply>, newMode: Option<int>)

  predicate IsModeSet(cmd: seq<char>) { |cmd| >= 5 && cmd[..5] == "MODE=" }

  /** `cdc_process_command` given the current mode and the number of modes. */
  function Respond(cmd: seq<char>, current: int, modeCount: nat): (o: Outcome)
    ensures o.newMode.Some? ==> IsModeSet(cmd) && 0 <= o.newMode.value < modeCount && o.newMode.value != current
    ensures o.reply.None? <==> |cmd| == 0
  {
    if cmd == "MODE?" then Outcome(Some(CurrentMode(current)), None)
    else if IsModeSet(cmd) then
      var value := cmd[5..];
      var m := ModeNumber(value);
      if 0 <= m < modeCount then
        if m == current then Outcome(Some(AlreadyInMode(m)), None)
        else Outcome(Some(SwitchingTo(m)), Some(m))
      else Outcome(Some(InvalidMode(value)), None)
    else if cmd == "MODES" || cmd == "MODES?" then Outcome(Some(ModeList), None)
    else if cmd == "VERSION" || cmd == "VER?" then Outcome(Some(VersionInfo), None)
    else if cmd == "FLASH?" then Outcome(Some(FlashInfo), None)
    else if cmd == "HELP" || cmd == "?" then Outcome(Some(HelpText), None)
    else if |cmd| > 0 then Outcome(Some(UnknownCommand(cmd)), None)
    else Outcome(None, None)
  }

  /** A `MODE=` value outside [0, modeCount) is answered with an error and changes nothing. */
  lemma InvalidModeRejected(cmd: seq<char>, current: int, modeCount: nat)
    requires IsModeSet(cmd)
    requires !(0 <= ModeNumber(cmd[5..]) < modeCount)
    ensures Respond(cmd, current, modeCount) == Outcome(Some(InvalidMode(cmd[5..])), None)
  {
    assert cmd != "MODE?" by {
      assert cmd[4] == '=';
    }
  }

  /** The number `MODE?` reports, sent back as `MODE=N`, selects that mode. */
  lemma ModeCommandRoundTrip(n: nat, current: int, modeCount: nat)
    ensures var o := Respond("MODE=" + Decimal(n), current, modeCount);
      && (n < modeCount && n != current ==> o == Outcome(Some(SwitchingTo(n)), Some(n)))
      && (n < modeCount && n == current ==> o == Outcome(Some(AlreadyInMode(n)), None))
      && (n >= modeCount ==> o.newMode.None? && o.reply == Some(InvalidMode(Decimal(n))))
  {
    var cmd := "MODE=" + Decimal(n);
    assert cmd[..5] == "MODE=" && cmd[5..] == Decimal(n);
    assert cmd != "MODE?" by {
      assert cmd[4] == '=';
    }
    AllDigitsPrefix(Decimal(n));
    DecimalRoundTrip(n);
    assert ModeNumber(cmd[5..]) == n;
  }

  /** What happens to the text line on one byte in text mode. */
  datatype Edited = Edited(line: seq<char>, command: Option<seq<char>>)

  /** The text branch of `cdc_task` for one byte: end of line, backspace, or a character to keep. */
  function EditLine(line: seq<char>, ch: byte): (e: Edited)
    requires |line| < CMD_BUFFER_SIZE
    ensures |e.line| < CMD_BUFFER_SIZE
  {
    if ch == CR || ch == LF then
      if |line| > 0 then Edited([], Some(CString(line))) else Edited(line, None)
    else if ch == BS || ch == DEL then
      Edited(if |line| > 0 then line[..|line| - 1] else line, None)
    else if |line| < CMD_BUFFER_SIZE - 1 then Edited(line + [ch as char], None)
    else Edited(line, None)
  }

  /** The console seen from outside: text or binary mode, and the line typed so far. */
  datatype ConsoleView = ConsoleView(binary: bool, line: seq<char>)

  predicate Consistent(v: ConsoleView) {
    |v.line| < CMD_BUFFER_SIZE && (v.binary ==> v.line == [])
  }

  /** One byte: the new console, the command line it completes (if any), and whether the receiver gets it. */
  datatype Fed = Fed(view: ConsoleView, command: Option<seq<char>>, forward: bool)

  /** The loop body of `cdc_task`. */
  function FeedByte(v: ConsoleView, ch: byte): (f: Fed)
    requires Consistent(v)
    ensures Consistent(f.view)
  {
    if v.binary then Fed(v, None, true)
    else if ch == CdcHost.CDC_SYNC then Fed(ConsoleView(true, []), None, true)
    else
      var e := EditLine(v.line, ch);
      Fed(ConsoleView(false, e.line), e.command, false)
  }

  /** A stream of bytes through the console: the final console, the command lines, and the receiver's bytes. */
  datatype Session = Session(view: ConsoleView, commands: seq<seq<char>>, forwarded: seq<byte>)

  function FeedAll(v: ConsoleView, bytes: seq<byte>): (s: Session)
    requires Consistent(v)
    ensures Consistent(s.view)
    decreases |bytes|
  {
    if |bytes| == 0 then Session(v, [], [])
    else
      var before := FeedAll(v, bytes[..|bytes| - 1]);
      var f := FeedByte(before.view, bytes[|bytes| - 1]);
      Session(f.view, before.commands + (if f.command.Some? then [f.command.value] else []),
              before.forwarded + (if f.forward then [bytes[|bytes| - 1]] else []))
  }

  /** Where the first sync byte is, or the length when there is none. */
  function FirstSync(bytes: seq<byte>): (k: nat)
    ensures k <= |bytes|
    ensures k < |bytes| ==> bytes[k] == CdcHost.CDC_SYNC
    ensures forall j :: 0 <= j < k ==> bytes[j] != CdcHost.CDC_SYNC
  {
    if |bytes| == 0 then 0
    else if bytes[0] == CdcHost.CDC_SYNC then 0
    else 1 + FirstSync(bytes[1..])
  }

  /**
   * In text mode, the first 0xAA switches to binary mode for good: the
   * receiver gets every byte from that one on, the sync byte included, and
   * nothing before it.
   */
  lemma SyncSwitchesForGood(v: ConsoleView, bytes: seq<byte>)
    requires Consistent(v)
    ensures var s := FeedAll(v, bytes);
      var k := FirstSync(bytes);
      && (v.binary ==> s.view.binary && s.forwarded == bytes)
      && (!v.binary ==> s.view.binary == (k < |bytes|) && s.forwarded == bytes[k..])
  {
    if v.binary {
      BinaryForwardsAll(v, bytes);
    } else {
      TextUntilSync(v, bytes);
    }
  }

  lemma {:induction false} BinaryForwardsAll(v: ConsoleView, bytes: seq<byte>)
    requires Consistent(v) && v.binary
    ensures FeedAll(v, bytes).view == v && FeedAll(v, bytes).forwarded == bytes
    decreases |bytes|
  {
    if |bytes| > 0 {
      var init := bytes[..|bytes| - 1];
      BinaryForwardsAll(v, init);
      assert init + [bytes[|bytes| - 1]] == bytes;
    }
  }

  lemma TextUntilSync(v: ConsoleView, bytes: seq<byte>)
    requires Consistent(v) && !v.binary
    ensures var s := FeedAll(v, bytes);
      var k := FirstSync(bytes);
      s.view.binary == (k < |bytes|) && s.forwarded == bytes[k..]
  {
    FeedAllFilters(v, bytes);
    FilterFromText(bytes);
  }

  /** Binary mode after a stream: on before it, or switched on by an 0xAA in it. */
  function BinaryAfter(binary: bool, bytes: seq<byte>): bool
    decreases |bytes|
  {
    if |bytes| == 0 then binary
    else BinaryAfter(binary, bytes[..|bytes| - 1]) || bytes[|bytes| - 1] == CdcHost.CDC_SYNC
  }

  /** The bytes of a stream the receiver gets: each one that finds binary mode on or is 0xAA. */
  function ForwardedOf(binary: bool, bytes: seq<byte>): seq<byte>
    decreases |bytes|
  {
    if |bytes| == 0 then []
    else
      var init := bytes[..|bytes| - 1];
      var last := bytes[|bytes| - 1];
      ForwardedOf(binary, init) + (if BinaryAfter(binary, init) || last == CdcHost.CDC_SYNC then [last] else [])
  }

  /** The console's mode and forwarding depend on nothing but the mode it starts in and the bytes. */
  lemma {:induction false} FeedAllFilters(v: ConsoleView, bytes: seq<byte>)
    requires Consistent(v)
    ensures FeedAll(v, bytes).view.binary == BinaryAfter(v.binary, bytes)
    ensures FeedAll(v, bytes).forwarded == ForwardedOf(v.binary, bytes)
    decreases |bytes|
  {
    if |bytes| > 0 {
      var init := bytes[..|bytes| - 1];
      FeedAllFilters(v, init);
      SwitchesOnSync(FeedAll(v, init).view, bytes[|bytes| - 1]);
    }
  }

  /** From text mode: binary after the first 0xAA, and everything from it on forwarded. */
  lemma {:induction false} FilterFromText(bytes: seq<byte>)
    ensures BinaryAfter(false, bytes) == (FirstSync(bytes) < |bytes|)
    ensures ForwardedOf(false, bytes) == bytes[FirstSync(bytes)..]
    decreases |bytes|
  {
    if |bytes| > 0 {
      var init := bytes[..|bytes| - 1];
      var last := bytes[|bytes| - 1];
      FilterFromText(init);
      FirstSyncOfPrefix(bytes);
      if FirstSync(init) < |init| {
        DropOfSnoc(init, last, FirstSync(init));
        assert init + [last] == bytes;
      }
    }
  }

  /** A byte is forwarded, and leaves the console in binary mode, exactly when it is 0xAA or binary mode was on. */
  lemma SwitchesOnSync(v: ConsoleView, ch: byte)
    requires Consistent(v)
    ensures FeedByte(v, ch).forward == FeedByte(v, ch).view.binary == (v.binary || ch == CdcHost.CDC_SYNC)
  {
  }

  /** The first sync of a stream is that of the stream without its last byte, unless only the last byte is one. */
  lemma FirstSyncOfPrefix(bytes: seq<byte>)
    requires |bytes| > 0
    ensures var init := bytes[..|bytes| - 1];
      && (FirstSync(init) < |init| ==> FirstSync(bytes) == FirstSync(init))
      && (FirstSync(init) == |init| ==> FirstSync(bytes) == (if bytes[|bytes| - 1] == CdcHost.CDC_SYNC then |init| else |bytes|))
  {
    var init := bytes[..|bytes| - 1];
    var k := FirstSync(init);
    if k < |init| {
      assert bytes[k] == CdcHost.CDC_SYNC;
    }
  }

  /** Printable ASCII: none of these is an end of line, a backspace, a NUL or the sync byte. */
  predicate Printable(ch: byte) { 0x20 <= ch < 0x7F }

  function Chars(bytes: seq<byte>): (s: seq<char>)
    ensures |s| == |bytes| && forall i :: 0 <= i < |bytes| ==> s[i] == bytes[i] as char
  {
    seq(|bytes|, i requires 0 <= i < |bytes| => bytes[i] as char)
  }

  /** Typing printable text into an empty text line keeps its first 63 characters and dispatches nothing. */
  lemma {:induction false} TypingKeepsFirst63(text: seq<byte>)
    requires forall i :: 0 <= i < |text| ==> Printable(text[i])
    ensures var s := FeedAll(ConsoleView(false, []), text);
      && s.view == ConsoleView(false, Chars(text)[..Min(|text|, CMD_BUFFER_SIZE - 1)])
      && s.commands == [] && s.forwarded == []
    decreases |text|
  {
    if |text| > 0 {
      var init := text[..|text| - 1];
      TypingKeepsFirst63(init);
      var n := Min(|init|, CMD_BUFFER_SIZE - 1);
      assert Chars(init)[..n] == Chars(text)[..n];
      if |init| < CMD_BUFFER_SIZE - 1 {
        assert Chars(text)[..n + 1] == Chars(init)[..n] + [text[|text| - 1] as char];
      }
    }
  }

  /** A typed command line of 1 to 63 printable characters, ended by CR, reaches the interpreter intact. */
  lemma TypedCommand(text: seq<byte>)
    requires 0 < |text| < CMD_BUFFER_SIZE
    requires forall i :: 0 <= i < |text| ==> Printable(text[i])
    ensures FeedAll(ConsoleView(false, []), text + [CR]) == Session(ConsoleView(false, []), [Chars(text)], [])
  {
    TypedLine(text);
    CStringNoNul(Chars(text));
    FeedLast(ConsoleView(false, []), text, CR);
  }

  lemma TypedLine(text: seq<byte>)
    requires |text| < CMD_BUFFER_SIZE
    requires forall i :: 0 <= i < |text| ==> Printable(text[i])
    ensures FeedAll(ConsoleView(false, []), text) == Session(ConsoleView(false, Chars(text)), [], [])
    ensures '\0' !in Chars(text)
  {
    TypingKeepsFirst63(text);
    assert Chars(text)[..|text|] == Chars(text);
  }

  /** One more byte: one more `FeedByte` on the console the stream left. */
  lemma FeedLast(v: ConsoleView, bytes: seq<byte>, b: byte)
    requires Consistent(v)
    ensures var before := FeedAll(v, bytes);
      var f := FeedByte(before.view, b);
      FeedAll(v, bytes + [b]) == Session(f.view, before.commands + (if f.command.Some? then [f.command.value] else []),
                                         before.forwarded + (if f.forward then [b] else []))
  {
    assert (bytes + [b])[..|bytes|] == bytes;
  }

  lemma {:induction false} CStringNoNul(s: seq<char>)
    requires '\0' !in s
    ensures CString(s) == s
    decreases |s|
  {
    if |s| > 0 {
      CStringNoNul(s[1..]);
    }
  }

  /** The mode and the replies after a series of command lines. */
  datatype Dialogue = Dialogue(mode: int, replies: seq<Reply>)

  function Converse(mode: int, modeCount: nat, commands: seq<seq<char>>): (d: Dialogue)
    decreases |commands|
  {
    if |commands| == 0 then Dialogue(mode, [])
    else
      var before := Converse(mode, modeCount, commands[..|commands| - 1]);
      var o := Respond(commands[|commands| - 1], before.mode, modeCount);
      Dialogue(if o.newMode.Some? then o.newMode.value else before.mode,
               before.replies + (if o.reply.Some? then [o.reply.value] else []))
  }

  lemma {:induction false} ConverseAppend(mode: int, modeCount: nat, a: seq<seq<char>>, b: seq<seq<char>>)
    ensures var first := Converse(mode, modeCount, a);
      var second := Converse(first.mode, modeCount, b);
      Converse(mode, modeCount, a + b) == Dialogue(second.mode, first.replies + second.replies)
    decreases |b|
  {
    if |b| == 0 {
      assert a + b == a;
    } else {
      var init := b[..|b| - 1];
      assert (a + b)[..|a + b| - 1] == a + init;
      assert (a + b)[|a + b| - 1] == b[|b| - 1];
      ConverseAppend(mode, modeCount, a, init);
    }
  }

  /** Everything the data port's bytes can change: console, mode, replies, and the receiver's side. */
  datatype PortState = PortState(
    console: ConsoleView, mode: int, replies: seq<Reply>,
    rx: CdcProtocol.Receiver, cmdSeq: byte, handled: seq<CdcHost.Message>, written: seq<seq<byte>>)

  predicate PortValid(p: PortState) {
    Consistent(p.console) && CdcProtocol.RxValid(p.rx)
  }

  /**
   * One byte from the data port: through the console, then either to the
   * interpreter (a completed line) or to the receiver (binary mode). The
   * handler and the port's open state are fixed for the call.
   */
  function Serve(p: PortState, ch: byte, modeCount: nat, hasHandler: bool, connected: bool): (q: PortState)
    requires PortValid(p)
    ensures PortValid(q)
  {
    var f := FeedByte(p.console, ch);
    var d := Converse(p.mode, modeCount, if f.command.Some? then [f.command.value] else []);
    var run := CdcProtocol.Run(p.rx, if f.forward then [ch] else []);
    PortState(f.view, d.mode, p.replies + d.replies,
              run.0, CdcProtocol.LastCmdSeq(p.cmdSeq, run.1),
              p.handled + (if hasHandler then CdcProtocol.Messages(run.1) else []),
              p.written + (if connected then CdcProtocol.NakFrames(run.1) else []))
  }

  /** A stream of bytes from the data port, one `Serve` after another. */
  function ServeAll(p: PortState, bytes: seq<byte>, modeCount: nat, hasHandler: bool, connected: bool): (q: PortState)
    requires PortValid(p)
    ensures PortValid(q)
    decreases |bytes|
  {
    if |bytes| == 0 then p
    else Serve(ServeAll(p, bytes[..|bytes| - 1], modeCount, hasHandler, connected), bytes[|bytes| - 1],
               modeCount, hasHandler, connected)
  }

  /**
   * Serving a stream splits into its three independent parts: the console
   * filters it, the interpreter answers the completed lines, and the
   * receiver runs over exactly the forwarded bytes.
   */
  lemma {:induction false} ServeAllConsole(p: PortState, bytes: seq<byte>, modeCount: nat, hasHandler: bool, connected: bool)
    requires PortValid(p)
    ensures var q := ServeAll(p, bytes, modeCount, hasHandler, connected);
      var s := FeedAll(p.console, bytes);
      var d := Converse(p.mode, modeCount, s.commands);
      q.console == s.view && q.mode == d.mode && q.replies == p.replies + d.replies
    decreases |bytes|
  {
    if |bytes| > 0 {
      var init := bytes[..|bytes| - 1];
      ServeAllConsole(p, init, modeCount, hasHandler, connected);
      var s := FeedAll(p.console, init);
      var q0 := ServeAll(p, init, modeCount, hasHandler, connected);
      var f := FeedByte(s.view, bytes[|bytes| - 1]);
      var cmd := if f.command.Some? then [f.command.value] else [];
      assert FeedAll(p.console, bytes).commands == s.commands + cmd;
      ConverseAppend(p.mode, modeCount, s.commands, cmd);
      var d0 := Converse(p.mode, modeCount, s.commands);
      var d1 := Converse(d0.mode, modeCount, cmd);
      assert ServeAll(p, bytes, modeCount, hasHandler, connected).replies == q0.replies + d1.replies;
      AppendTwice(p.replies, d0.replies, d1.replies);
    }
  }

  lemma {:induction false} ServeAllReceiver(p: PortState, bytes: seq<byte>, modeCount: nat, hasHandler: bool, connected: bool)
    requires PortValid(p)
    ensures var q := ServeAll(p, bytes, modeCount, hasHandler, connected);
      var run := CdcProtocol.Run(p.rx, FeedAll(p.console, bytes).forwarded);
      && q.rx == run.0
      && q.cmdSeq == CdcProtocol.LastCmdSeq(p.cmdSeq, run.1)
      && q.handled == p.handled + (if hasHandler then CdcProtocol.Messages(run.1) else [])
      && q.written == p.written + (if connected then CdcProtocol.NakFrames(run.1) else [])
    decreases |bytes|
  {
    if |bytes| > 0 {
      var init := bytes[..|bytes| - 1];
      ServeAllReceiver(p, init, modeCount, hasHandler, connected);
      var s := FeedAll(p.console, init);
      ServeAllConsole(p, init, modeCount, hasHandler, connected);
      var f := FeedByte(s.view, bytes[|bytes| - 1]);
      var fwd := if f.forward then [bytes[|bytes| - 1]] else [];
      assert FeedAll(p.console, bytes).forwarded == s.forwarded + fwd;
      CdcProtocol.RunAppend(p.rx, s.forwarded, fwd);
      var first := CdcProtocol.Run(p.rx, s.forwarded);
      var second := CdcProtocol.Run(first.0, fwd);
      CdcProtocol.SummariesAppend(first.1, second.1, p.cmdSeq);
      var q0 := ServeAll(p, init, modeCount, hasHandler, connected);
      var q := ServeAll(p, bytes, modeCount, hasHandler, connected);
      assert q == Serve(q0, bytes[|bytes| - 1], modeCount, hasHandler, connected);
      assert q.rx == second.0;
      AppendTwice(p.handled, CdcProtocol.Messages(first.1), CdcProtocol.Messages(second.1));
      AppendTwice(p.written, CdcProtocol.NakFrames(first.1), CdcProtocol.NakFrames(second.1));
    }
  }

  /** The console of `cdc.c` over the binary receiver of `cdc_commands.c`. */
  class Console {
    var binaryMode: bool
    /** `cmd_buffer`. */
    const cmdBuffer: array<char>
    /** `cmd_pos`. */
    var cmdPos: nat
    /** The USB output mode (`usbd_get_mode`); a switch resets the device, which the model does not follow. */
    var mode: int
    /** USB_OUTPUT_MODE_COUNT. */
    const modeCount: nat
    /** The replies written to the data port, oldest first. */
    var replies: seq<Reply>
    const proto: CdcProtocol.Protocol

    ghost function View(): ConsoleView
      reads this, cmdBuffer
    {
      ConsoleView(binaryMode, if cmdPos <= cmdBuffer.Length then cmdBuffer[..cmdPos] else [])
    }

    /** The state `Serve` speaks of. */
    ghost function State(): PortState
      reads this, cmdBuffer, proto, proto.payload, proto.port
    {
      PortState(View(), mode, replies, proto.View(), proto.cmdSeq, proto.handled, proto.port.written)
    }

    ghost predicate Valid()
      reads this, cmdBuffer, proto, proto.payload
    {
      && cmdBuffer.Length == CMD_BUFFER_SIZE && cmdPos < CMD_BUFFER_SIZE
      && (binaryMode ==> cmdPos == 0)
      && proto.Valid()
    }

    /** `cdc_init`, with the protocol context that `cdc_commands_init` sets up. */
    constructor (proto: CdcProtocol.Protocol, mode: int, modeCount: nat)
      requires proto.Valid()
      ensures Valid() && View() == ConsoleView(false, [])
      ensures this.proto == proto && this.mode == mode && this.modeCount == modeCount && replies == []
    {
      binaryMode := false;
      cmdBuffer := new char[CMD_BUFFER_SIZE](_ => '\0');
      cmdPos := 0;
      this.mode := mode;
      this.modeCount := modeCount;
      replies := [];
      this.proto := proto;
    }

    /** `cdc_process_command` on the buffer's C string. */
    method ProcessCommand()
      modifies this
      ensures var o := Respond(CString(cmdBuffer[..]), old(mode), modeCount);
        && mode == (if o.newMode.Some? then o.newMode.value else old(mode))
        && replies == old(replies) + (if o.reply.Some? then [o.reply.value] else [])
      ensures binaryMode == old(binaryMode) && cmdPos == old(cmdPos)
    {
      var o := Respond(CString(cmdBuffer[..]), mode, modeCount);
      if o.reply.Some? {
        replies := replies + [o.reply.value];
      }
      if o.newMode.Some? {
        mode := o.newMode.value;
      }
    }

    /** One pass of the `cdc_task` loop body on byte `ch`. */
    method ReceiveByte(ch: byte)
      requires Valid()
      modifies this, cmdBuffer, proto, proto.payload, proto.port
      ensures Valid()
      ensures State() == Serve(old(State()), ch, modeCount, proto.hasHandler, proto.port.connected)
      ensures proto.hasHandler == old(proto.hasHandler) && proto.port.connected == old(proto.port.connected)
    {
      if ch == CdcHost.CDC_SYNC || binaryMode {
        Forward(ch);
      } else {
        Edit(ch);
        CdcProtocol.RunNone(proto.View(), proto.cmdSeq);
      }
    }

    /** Binary mode, entered on this byte if need be: the byte goes to the receiver. */
    method Forward(ch: byte)
      requires Valid() && (ch == CdcHost.CDC_SYNC || binaryMode)
      modifies this, proto, proto.payload, proto.port
      ensures Valid() && binaryMode && cmdPos == 0
      ensures mode == old(mode) && replies == old(replies)
      ensures var run := CdcProtocol.Run(old(proto.View()), [ch]);
        && proto.View() == run.0
        && proto.cmdSeq == CdcProtocol.LastCmdSeq(old(proto.cmdSeq), run.1)
        && proto.handled == old(proto.handled) + (if proto.hasHandler then CdcProtocol.Messages(run.1) else [])
        && proto.port.written == old(proto.port.written) + (if proto.port.connected then CdcProtocol.NakFrames(run.1) else [])
      ensures proto.hasHandler == old(proto.hasHandler) && proto.port.connected == old(proto.port.connected)
    {
      binaryMode := true;
      cmdPos := 0;
      ghost var r := proto.View();
      var _ := proto.RxByte(ch);
      CdcProtocol.RunOne(r, ch, old(proto.cmdSeq));
    }

    /** A non-empty line ended: NUL-terminate it, interpret its C string, start a new line. */
    method EndLine()
      requires Valid() && !binaryMode && cmdPos > 0
      modifies this, cmdBuffer
      ensures Valid() && !binaryMode && cmdPos == 0
      ensures var d := Converse(old(mode), modeCount, [CString(old(View()).line)]);
        mode == d.mode && replies == old(replies) + d.replies
    {
      ghost var line := cmdBuffer[..cmdPos];
      cmdBuffer[cmdPos] := '\0';
      assert cmdBuffer[..cmdPos] == line;
      CStringAtTerminator(cmdBuffer[..], cmdPos);
      ProcessCommand();
      cmdPos := 0;
      assert [CString(line)][..0] == [];
    }

    /** Text mode: the byte edits the line, and an end of line hands it to the interpreter. */
    method Edit(ch: byte)
      requires Valid() && !binaryMode && ch != CdcHost.CDC_SYNC
      modifies this, cmdBuffer
      ensures Valid() && !binaryMode
      ensures var e := EditLine(old(View()).line, ch);
        && View().line == e.line
        && var d := Converse(old(mode), modeCount, if e.command.Some? then [e.command.value] else []);
        mode == d.mode && replies == old(replies) + d.replies
    {
      if ch == CR || ch == LF {
        if cmdPos > 0 {
          EndLine();
        }
      } else if ch == BS || ch == DEL {
        if cmdPos > 0 {
          cmdPos := cmdPos - 1;
        }
      } else if cmdPos < CMD_BUFFER_SIZE - 1 {
        cmdBuffer[cmdPos] := ch as char;
        cmdPos := cmdPos + 1;
      }
    }

    /**
     * `cdc_task`: the bytes waiting on the data port, in order, through the
     * console; reading them is the only I/O, so they are the parameter.
     */
    method Task(bytes: seq<byte>)
      requires Valid()
      modifies this, cmdBuffer, proto, proto.payload, proto.port
      ensures Valid()
      ensures State() == ServeAll(old(State()), bytes, modeCount, proto.hasHandler, proto.port.connected)
      ensures proto.hasHandler == old(proto.hasHandler) && proto.port.connected == old(proto.port.connected)
    {
      for i := 0 to |bytes|
        invariant Valid()
        invariant State() == ServeAll(old(State()), bytes[..i], modeCount, proto.hasHandler, proto.port.connected)
        invariant proto.hasHandler == old(proto.hasHandler) && proto.port.connected == old(proto.port.connected)
      {
        ReceiveByte(bytes[i]);
        assert bytes[..i + 1][..i] == bytes[..i];
      }
      assert bytes[..|bytes|] == bytes;
    }
  }
}

=== FILE: cdc_dispatch.dfy ===
/**
 * Command dispatch of `cdc_commands.c`: a CMD packet's payload is read as a
 * NUL-terminated JSON text, its "cmd" name is looked up in the command table
 * (legacy CPROFILE.* names run the unified PROFILE.* handlers), and the
 * small handlers whose effect stays inside the device: MODE.SET,
 * INPUT.STREAM and WIIMOTE.ORIENT.SET.
 */
module CdcDispatch {
  import opened Common
  import CdcConsole
  import CdcHost
  import CdcProtocol
  import CdcCommands
  import Flash

  type CString = CdcCommands.CString
  type Reply = CdcCommands.Reply

  /** The command handlers; the legacy aliases are the handlers they forward to. */
  datatype Handler =
    | Info | Ping | Reboot | Bootsel
    | ModeGet | ModeSet | ModeList
    | ProfileList | ProfileGet | ProfileSet | ProfileSave | ProfileDelete | ProfileClone
    | InputStream | SettingsGet | SettingsReset | PlayersList
    | BtStatus | BtBondsClear | WiimoteOrientGet | WiimoteOrientSet

  datatype Entry = Entry(name: seq<char>, handler: Handler)

  /** The entries every build has, in table order. */
  const BASE_COMMANDS: seq<Entry> := [
    Entry("INFO", Info),
    Entry("PING", Ping),
    Entry("REBOOT", Reboot),
    Entry("BOOTSEL", Bootsel),
    Entry("MODE.GET", ModeGet),
    Entry("MODE.SET", ModeSet),
    Entry("MODE.LIST", ModeList),
    Entry("PROFILE.LIST", ProfileList),
    Entry("PROFILE.GET", ProfileGet),
    Entry("PROFILE.SET", ProfileSet),
    Entry("PROFILE.SAVE", ProfileSave),
    Entry("PROFILE.DELETE", ProfileDelete),
    Entry("PROFILE.CLONE", ProfileClone),
    Entry("CPROFILE.LIST", ProfileList),
    Entry("CPROFILE.GET", ProfileGet),
    Entry("CPROFILE.SET", ProfileSave),
    Entry("CPROFILE.DELETE", ProfileDelete),
    Entry("CPROFILE.SELECT", ProfileSet),
    Entry("INPUT.STREAM", InputStream),
    Entry("SETTINGS.GET", SettingsGet),
    Entry("SETTINGS.RESET", SettingsReset),
    Entry("PLAYERS.LIST", PlayersList)]

  /** The entries of a build with `ENABLE_BTSTACK`. */
  const BT_COMMANDS: seq<Entry> := [
    Entry("BT.STATUS", BtStatus),
    Entry("BT.BONDS.CLEAR", BtBondsClear),
    Entry("WIIMOTE.ORIENT.GET", WiimoteOrientGet),
    Entry("WIIMOTE.ORIENT.SET", WiimoteOrientSet)]

  /** The `commands[]` table of a build, without the terminating NULL entry. */
  function Commands(bluetooth: bool): (table: seq<Entry>)
    ensures |table| == if bluetooth then 26 else 22
  {
    if bluetooth then BASE_COMMANDS + BT_COMMANDS else BASE_COMMANDS
  }

  /** The handler of the first entry with this name. */
  function LookupIn(table: seq<Entry>, name: seq<char>): (h: Option<Handler>)
    ensures h.Some? ==> exists i :: 0 <= i < |table| && table[i] == Entry(name, h.value)
    ensures h.None? ==> forall i :: 0 <= i < |table| ==> table[i].name != name
  {
    if |table| == 0 then None
    else if table[0].name == name then Some(table[0].handler)
    else
      var h := LookupIn(table[1..], name);
      if h.Some? then
        var i :| 0 <= i < |table| - 1 && table[1..][i] == Entry(name, h.value);
        assert table[i + 1] == Entry(name, h.value);
        h
      else h
  }

  /** No two entries of a table share a name. */
  predicate NamesDistinct(table: seq<Entry>) {
    forall i, j :: 0 <= i < j < |table| ==> table[i].name != table[j].name
  }

  /** With distinct names, every entry's name finds that entry's handler. */
  lemma {:induction false} LookupEntry(table: seq<Entry>, i: nat)
    requires NamesDistinct(table) && i < |table|
    ensures LookupIn(table, table[i].name) == Some(table[i].handler)
  {
    if i > 0 {
      assert table[0].name != table[i].name;
      assert NamesDistinct(table[1..]) by {
        forall a, b | 0 <= a < b < |table| - 1
          ensures table[1..][a].name != table[1..][b].name
        {
          assert table[a + 1].name != table[b + 1].name;
        }
      }
      LookupEntry(table[1..], i - 1);
    }
  }

  /** Two entries with the same handler: either name runs it. */
  lemma SameHandler(table: seq<Entry>, i: nat, j: nat)
    requires NamesDistinct(table) && i < |table| && j < |table|
    requires table[i].handler == table[j].handler
    ensures LookupIn(table, table[i].name) == LookupIn(table, table[j].name) == Some(table[j].handler)
  {
    LookupEntry(table, i);
    LookupEntry(table, j);
  }

  /** No name of the full table comes back later in the table. */
  lemma NameNotRepeated(t: seq<Entry>, i: nat)
    requires t == Commands(true) && i < |t|
    ensures forall j :: i < j < |t| ==> t[i].name != t[j].name
  {
  }

  /** The command names of a build are distinct, so the table order never hides an entry. */
  lemma CommandsDistinct(bluetooth: bool)
    ensures NamesDistinct(Commands(bluetooth))
  {
    var t := Commands(true);
    forall i | 0 <= i < |t|
      ensures forall j :: i < j < |t| ==> t[i].name != t[j].name
    {
      NameNotRepeated(t, i);
    }
    assert Commands(false) == t[..22];
  }

  /** CPROFILE.LIST runs the handler of PROFILE.LIST. */
  lemma LegacyAliasList(bluetooth: bool)
    ensures LookupIn(Commands(bluetooth), "CPROFILE.LIST") == LookupIn(Commands(bluetooth), "PROFILE.LIST") == Some(ProfileList)
  {
    var t := Commands(bluetooth);
    assert t[13] == Entry("CPROFILE.LIST", ProfileList) && t[7] == Entry("PROFILE.LIST", ProfileList) by {
      assert t[13] == BASE_COMMANDS[13] && t[7] == BASE_COMMANDS[7];
    }
    CommandsDistinct(bluetooth);
    SameHandler(t, 13, 7);
  }

  /** CPROFILE.GET runs the handler of PROFILE.GET. */
  lemma LegacyAliasGet(bluetooth: bool)
    ensures LookupIn(Commands(bluetooth), "CPROFILE.GET") == LookupIn(Commands(bluetooth), "PROFILE.GET") == Some(ProfileGet)
  {
    var t := Commands(bluetooth);
    assert t[14] == Entry("CPROFILE.GET", ProfileGet) && t[8] == Entry("PROFILE.GET", ProfileGet) by {
      assert t[14] == BASE_COMMANDS[14] && t[8] == BASE_COMMANDS[8];
    }
    CommandsDistinct(bluetooth);
    SameHandler(t, 14, 8);
  }

  /** CPROFILE.SET runs the handler of PROFILE.SAVE. */
  lemma LegacyAliasSet(bluetooth: bool)
    ensures LookupIn(Commands(bluetooth), "CPROFILE.SET") == LookupIn(Commands(bluetooth), "PROFILE.SAVE") == Some(ProfileSave)
  {
    var t := Commands(bluetooth);
    assert t[15] == Entry("CPROFILE.SET", ProfileSave) && t[10] == Entry("PROFILE.SAVE", ProfileSave) by {
      assert t[15] == BASE_COMMANDS[15] && t[10] == BASE_COMMANDS[10];
    }
    CommandsDistinct(bluetooth);
    SameHandler(t, 15, 10);
  }

  /** CPROFILE.DELETE runs the handler of PROFILE.DELETE. */
  lemma LegacyAliasDelete(bluetooth: bool)
    ensures LookupIn(Commands(bluetooth), "CPROFILE.DELETE") == LookupIn(Commands(bluetooth), "PROFILE.DELETE") == Some(ProfileDelete)
  {
    var t := Commands(bluetooth);
    assert t[16] == Entry("CPROFILE.DELETE", ProfileDelete) && t[11] == Entry("PROFILE.DELETE", ProfileDelete) by {
      assert t[16] == BASE_COMMANDS[16] && t[11] == BASE_COMMANDS[11];
    }
    CommandsDistinct(bluetooth);
    SameHandler(t, 16, 11);
  }

  /** CPROFILE.SELECT runs the handler of PROFILE.SET. */
  lemma LegacyAliasSelect(bluetooth: bool)
    ensures LookupIn(Commands(bluetooth), "CPROFILE.SELECT") == LookupIn(Commands(bluetooth), "PROFILE.SET") == Some(ProfileSet)
  {
    var t := Commands(bluetooth);
    assert t[17] == Entry("CPROFILE.SELECT", ProfileSet) && t[9] == Entry("PROFILE.SET", ProfileSet) by {
      assert t[17] == BASE_COMMANDS[17] && t[9] == BASE_COMMANDS[9];
    }
    CommandsDistinct(bluetooth);
    SameHandler(t, 17, 9);
  }

  /** The search loop of `packet_handler` over the table. */
  method Lookup(table: seq<Entry>, name: seq<char>) returns (h: Option<Handler>)
    ensures h == LookupIn(table, name)
  {
    var i := 0;
    while i < |table|
      invariant 0 <= i <= |table|
      invariant LookupIn(table, name) == LookupIn(table[i..], name)
    {
      if table[i].name == name {
        return Some(table[i].handler);
      }
      assert table[i..][1..] == table[i + 1..];
      i := i + 1;
    }
    return None;
  }

  /** What `packet_handler` does with a packet. */
  datatype Dispatch = Ignored | Rejected(message: string) | Run(handler: Handler, json: CString)

  /** The payload as the handlers see it: copied and NUL-terminated, so it ends at its first NUL byte. */
  function PayloadText(payload: seq<byte>): CString {
    CdcConsole.CString(CdcConsole.Chars(payload))
  }

  /** `packet_handler`: only CMD packets are handled; the command name picks the handler. */
  function Route(msg: CdcHost.Message, bluetooth: bool): (d: Dispatch)
    ensures d.Run? ==> d.json == PayloadText(msg.payload)
  {
    if msg.msgType != CdcHost.MSG_CMD then Ignored
    else
      var json := PayloadText(msg.payload);
      match CdcCommands.JsonGetCmd(json, CdcCommands.CMD_NAME_SIZE)
      case None => Rejected("invalid command format")
      case Some(cmd) =>
        match LookupIn(Commands(bluetooth), cmd)
        case None => Rejected("unknown command")
        case Some(h) => Run(h, json)
  }

  /** `packet_handler` step by step: the type check, the command name, the table search. */
  method HandlePacket(msg: CdcHost.Message, bluetooth: bool) returns (d: Dispatch)
    ensures d == Route(msg, bluetooth)
  {
    if msg.msgType != CdcHost.MSG_CMD {
      return Ignored;
    }
    var json := PayloadText(msg.payload);
    var cmd := CdcCommands.JsonGetCmd(json, CdcCommands.CMD_NAME_SIZE);
    if cmd.None? {
      return Rejected("invalid command format");
    }
    var h := Lookup(Commands(bluetooth), cmd.value);
    if h.None? {
      return Rejected("unknown command");
    }
    return Run(h.value, json);
  }

  /** The text of a request for a command: `{"cmd":"NAME"` and whatever follows. */
  function Request(name: seq<char>, rest: seq<char>): seq<char> {
    "{" + CdcCommands.StringKey("cmd") + (name + "\"" + rest)
  }

  /** A name `json_get_cmd` can return whole: non-empty, shorter than the buffer, without quote or NUL. */
  predicate Extractable(name: seq<char>) {
    0 < |name| < CdcCommands.CMD_NAME_SIZE && '"' !in name && '\0' !in name
  }

  /** The payload of a request is read back whole, and its command name is found. */
  lemma RequestName(payload: seq<byte>, name: seq<char>, rest: seq<char>)
    requires Extractable(name) && '\0' !in rest
    requires CdcConsole.Chars(payload) == Request(name, rest)
    ensures PayloadText(payload) == CdcConsole.Chars(payload)
    ensures CdcCommands.JsonGetCmd(PayloadText(payload), CdcCommands.CMD_NAME_SIZE) == Some(name)
  {
    CdcConsole.CStringNoNul(CdcConsole.Chars(payload));
    CdcCommands.CmdRoundTrip(name, rest, CdcCommands.CMD_NAME_SIZE);
  }

  /**
   * A CMD packet whose payload is a request for a command of the table runs
   * that command's handler on the payload.
   */
  lemma RouteCommand(payload: seq<byte>, seqNo: byte, bluetooth: bool, i: nat, rest: seq<char>)
    requires i < |Commands(bluetooth)| && Extractable(Commands(bluetooth)[i].name) && '\0' !in rest
    requires CdcConsole.Chars(payload) == Request(Commands(bluetooth)[i].name, rest)
    ensures Route(CdcHost.Message(CdcHost.MSG_CMD, seqNo, payload), bluetooth) ==
      Run(Commands(bluetooth)[i].handler, PayloadText(payload))
  {
    RequestName(payload, Commands(bluetooth)[i].name, rest);
    CommandsDistinct(bluetooth);
    LookupEntry(Commands(bluetooth), i);
  }

  /** A request for the legacy CPROFILE.SET runs the save handler, like PROFILE.SAVE. */
  lemma RouteLegacySave(payload: seq<byte>, seqNo: byte, bluetooth: bool, rest: seq<char>)
    requires '\0' !in rest && CdcConsole.Chars(payload) == Request("CPROFILE.SET", rest)
    ensures Route(CdcHost.Message(CdcHost.MSG_CMD, seqNo, payload), bluetooth) == Run(ProfileSave, PayloadText(payload))
  {
    assert Extractable("CPROFILE.SET");
    RequestName(payload, "CPROFILE.SET", rest);
    LegacyAliasSet(bluetooth);
  }

  // ---------------------------------------------------------------------------
  // Handlers
  // ---------------------------------------------------------------------------

  /**
   * `cmd_mode_set`: a mode below `USB_OUTPUT_MODE_COUNT`; switching to a
   * different mode reboots (`usbd_set_mode` is not part of this model).
   */
  function ModeSetReply(mode: Option<int>, current: int, modeCount: nat): (r: Reply)
    ensures r.ModeInfo? <==> mode.Some? && 0 <= mode.value < modeCount
    ensures r.ModeInfo? ==> r.mode == mode.value && (r.reboot <==> mode.value != current)
  {
    if mode.None? then CdcCommands.Error("missing mode")
    else if mode.value < 0 || mode.value >= modeCount then CdcCommands.Error("invalid mode")
    else CdcCommands.ModeInfo(mode.value, mode.value != current)
  }

  /** `cmd_input_stream`: switches input streaming on or off. */
  method SetInputStream(protocol: CdcProtocol.Protocol, json: CString) returns (reply: Reply)
    modifies protocol
    ensures var enable := CdcCommands.BoolField(json, "enable");
      && (enable.None? ==> reply == CdcCommands.Error("missing enable") && unchanged(protocol))
      && (enable.Some? ==> reply == CdcCommands.Ok && protocol.inputStreaming == enable.value)
    ensures protocol.View() == old(protocol.View()) && protocol.txSeq == old(protocol.txSeq)
    ensures protocol.cmdSeq == old(protocol.cmdSeq) && protocol.handled == old(protocol.handled)
    ensures protocol.hasHandler == old(protocol.hasHandler)
  {
    var enable := CdcCommands.JsonGetBool(json, "enable");
    if enable.None? {
      return CdcCommands.Error("missing enable");
    }
    protocol.inputStreaming := enable.value;
    reply := CdcCommands.Ok;
  }

  /** The message `cmd_wiimote_orient_set` sends for a mode outside 0..2. */
  const ORIENT_RANGE_MESSAGE: string := "invalid mode (0=auto, 1=horizontal, 2=vertical)"

  /** `cmd_wiimote_orient_set`'s reply: the orientation mode 0 (auto), 1 (horizontal) or 2 (vertical). */
  function OrientSetReply(mode: Option<int>): (r: Reply)
    ensures r.OrientInfo? <==> mode.Some? && 0 <= mode.value <= 2
    ensures r.OrientInfo? ==> r.mode == mode.value
  {
    if mode.None? then CdcCommands.Error("missing mode")
    else if mode.value < 0 || mode.value > 2 then CdcCommands.Error(ORIENT_RANGE_MESSAGE)
    else CdcCommands.OrientInfo(mode.value)
  }

  /**
   * `cmd_wiimote_orient_set`: a valid mode is returned for
   * `wiimote_set_orient_mode` and written over the newest journal entry,
   * when there is one.
   */
  method SetWiimoteOrient(store: Flash.Store, json: CString, now: int) returns (reply: Reply, applied: Option<byte>)
    requires store.Valid()
    modifies store
    ensures var mode := CdcCommands.IntField(json, "mode");
      && reply == OrientSetReply(mode)
      && (reply.OrientInfo? <==> applied.Some?)
      && (applied.Some? ==> applied.value as int == mode.value)
      && (applied.None? ==> unchanged(store))
    ensures store.runtimeSettings == old(store.runtimeSettings) && store.runtimeLoaded == old(store.runtimeLoaded)
    ensures var newest := Flash.Newest(store.slots[..], Flash.TOTAL_SLOT_COUNT);
      && (applied.Some? && newest >= 0 ==>
            && store.savePending && store.lastChangeTime == now
            && store.pendingSettings == store.slots[newest].(wiimoteOrientMode := applied.value, magic := Flash.SETTINGS_MAGIC))
      && (applied.Some? && newest < 0 ==>
            && store.savePending == old(store.savePending) && store.pendingSettings == old(store.pendingSettings)
            && store.lastChangeTime == old(store.lastChangeTime))
  {
    var mode := CdcCommands.JsonGetInt(json, "mode");
    reply := OrientSetReply(mode);
    if !reply.OrientInfo? {
      return reply, None;
    }
    var orient := mode.value as byte;
    applied := Some(orient);
    var found, settings := store.Load();
    if found {
      store.Save(settings.(wiimoteOrientMode := orient), now);
    }
  }
}

=== FILE: cdc_host.dfy ===
/**
 * The host side of the binary CDC protocol (the Python test tool): frame
 * building, single-frame parsing, and the receive buffer that a reader thread
 * fills and `_process_buffer` drains.
 *
 * Wire format of one frame:
 *   0xAA | length (LE16) | type | seq | payload[length] | crc (LE16)
 * where the CRC is CRC-16/CCITT-FALSE over type, seq and payload only.
 */
module CdcHost {
  import opened Common
  import Crc16

  const CDC_SYNC: byte := 0xAA
  const MSG_CMD: byte := 0x01
  const MSG_RSP: byte := 0x02
  const MSG_EVT: byte := 0x03
  const MSG_ACK: byte := 0x04
  const MSG_NAK: byte := 0x05
  const MSG_DAT: byte := 0x10

  /** sync + length + type + seq + crc: a frame is this many bytes longer than its payload. */
  const FRAME_OVERHEAD: nat := 7

  /** The bytes the CRC covers. */
  function CrcInput(msgType: byte, seqNo: byte, payload: seq<byte>): seq<byte> {
    [msgType, seqNo] + payload
  }

  /** `crc16_ccitt`: the byte loop with its inner eight-clock loop, as the tool runs it. */
  method Crc16Ccitt(data: seq<byte>) returns (crc: u16)
    ensures crc == Crc16.Crc(data)
  {
    // Python's integer grows past 16 bits inside a clock until `&= 0xFFFF`.
    var reg: nat := 0xFFFF;
    for i := 0 to |data|
      invariant reg < 0x10000 && reg == Crc16.Register(data, i)
    {
      var b: nat := data[i];
      reg := Xor(reg, b * 256);
      assert reg == Crc16.Clocked(data, i, 0);
      for j := 0 to 8
        invariant reg < 0x10000 && reg == Crc16.Clocked(data, i, j)
      {
        ghost var prev: u16 := reg;
        if (reg / 0x8000) % 2 == 1 {
          reg := Xor(reg * 2, 0x1021);
        } else {
          reg := reg * 2;
        }
        reg := reg % 0x10000;
        Crc16.ClockStep(prev);
      }
    }
    crc := reg;
  }

  /**
   * `build_packet`. The length is packed as an unsigned 16-bit field, so the
   * payload must fit in it (the packing raises otherwise).
   */
  function BuildPacket(msgType: byte, seqNo: byte, payload: seq<byte>): (frame: seq<byte>)
    requires |payload| <= 0xFFFF
    ensures |frame| == FRAME_OVERHEAD + |payload|
  {
    var crc := Crc16.Crc(CrcInput(msgType, seqNo, payload));
    [CDC_SYNC, LoByte(|payload|), HiByte(|payload|), msgType, seqNo] + payload + [LoByte(crc), HiByte(crc)]
  }

  /** The fields of a built frame, position by position. */
  lemma BuildPacketLayout(msgType: byte, seqNo: byte, payload: seq<byte>)
    requires |payload| <= 0xFFFF
    ensures var f := BuildPacket(msgType, seqNo, payload);
      var n := |payload|;
      && f[0] == CDC_SYNC
      && U16(f[1], f[2]) == n
      && f[3] == msgType && f[4] == seqNo
      && f[5..5 + n] == payload
      && f[3..5 + n] == CrcInput(msgType, seqNo, payload)
      && U16(f[5 + n], f[6 + n]) == Crc16.Crc(CrcInput(msgType, seqNo, payload))
  {
    var f := BuildPacket(msgType, seqNo, payload);
    var n := |payload|;
    var crc := Crc16.Crc(CrcInput(msgType, seqNo, payload));
    var hdr := [CDC_SYNC, LoByte(n), HiByte(n), msgType, seqNo];
    var tl := [LoByte(crc), HiByte(crc)];
    FrameParts(hdr, payload, tl);
    U16OfBytes(n);
    U16OfBytes(crc);
  }

  /** Where the parts of a five-byte header, a body and a two-byte tail sit in their concatenation. */
  lemma FrameParts(hdr: seq<byte>, body: seq<byte>, tl: seq<byte>)
    requires |hdr| == 5 && |tl| == 2
    ensures var f := hdr + body + tl;
      var n := |body|;
      && f[..5] == hdr && f[0] == hdr[0] && f[1] == hdr[1] && f[2] == hdr[2] && f[3] == hdr[3] && f[4] == hdr[4]
      && f[5..5 + n] == body && f[3..5 + n] == [hdr[3], hdr[4]] + body
      && f[5 + n] == tl[0] && f[6 + n] == tl[1]
  {
    var f := hdr + body + tl;
    assert f[5..5 + |body|] == body;
    assert f[3..5 + |body|] == [hdr[3], hdr[4]] + f[5..5 + |body|];
  }

  datatype Packet = Packet(msgType: byte, seqNo: byte, payload: seq<byte>, rawLen: nat)

  function DeclaredLength(data: seq<byte>): nat
    requires |data| >= 3
  {
    U16(data[1], data[2])
  }

  /**
   * `parse_packet`. Whatever it accepts is exactly a frame `BuildPacket` makes,
   * sitting at the front of `data`; `ParseOfFrame` is the converse.
   */
  function ParsePacket(data: seq<byte>): (r: Option<Packet>)
    ensures r.Some? ==>
      && |r.value.payload| <= 0xFFFF
      && r.value.rawLen == FRAME_OVERHEAD + |r.value.payload| <= |data|
      && data[..r.value.rawLen] == BuildPacket(r.value.msgType, r.value.seqNo, r.value.payload)
  {
    if |data| < 7 then None
    else if data[0] != CDC_SYNC then None
    else
      var length := DeclaredLength(data);
      if |data| < 5 + length + 2 then None
      else
        var msgType := data[3];
        var seqNo := data[4];
        var payload := data[5..5 + length];
        var crcReceived := U16(data[5 + length], data[6 + length]);
        if crcReceived != Crc16.Crc(CrcInput(msgType, seqNo, payload)) then None
        else
          ghost var frame := BuildPacket(msgType, seqNo, payload);
          assert data[..5 + length + 2] == frame by {
            U16OfBytes(length);
            assert LoByte(length) == data[1] && HiByte(length) == data[2];
            assert data[..5 + length + 2] == [data[0], data[1], data[2], data[3], data[4]] + payload + [data[5 + length], data[6 + length]];
          }
          Some(Packet(msgType, seqNo, payload, 5 + length + 2))
  }

  /**
   * A well-formed frame at the front of the data is always recognised, with
   * its own type, seq and payload, whatever bytes follow it; with nothing
   * after it this is the round trip `parse_packet(build_packet(t, s, p))`.
   */
  lemma ParseOfFrame(msgType: byte, seqNo: byte, payload: seq<byte>, more: seq<byte>)
    requires |payload| <= 0xFFFF
    ensures ParsePacket(BuildPacket(msgType, seqNo, payload) + more)
         == Some(Packet(msgType, seqNo, payload, FRAME_OVERHEAD + |payload|))
  {
    var f := BuildPacket(msgType, seqNo, payload);
    var data := f + more;
    var n := |payload|;
    BuildPacketLayout(msgType, seqNo, payload);
    assert data[..|f|] == f;
    assert data[1] == f[1] && data[2] == f[2];
    assert DeclaredLength(data) == n;
    assert data[5..5 + n] == f[5..5 + n];
    assert data[5 + n] == f[5 + n] && data[6 + n] == f[6 + n];
  }

  /** Round trip: parsing a built frame gives back type, seq, payload and raw_len = 7 + len(payload). */
  lemma ParseBuildRoundTrip(msgType: byte, seqNo: byte, payload: seq<byte>)
    requires |payload| <= 0xFFFF
    ensures ParsePacket(BuildPacket(msgType, seqNo, payload))
         == Some(Packet(msgType, seqNo, payload, FRAME_OVERHEAD + |payload|))
  {
    ParseOfFrame(msgType, seqNo, payload, []);
    assert BuildPacket(msgType, seqNo, payload) + [] == BuildPacket(msgType, seqNo, payload);
  }

  /**
   * CRC integrity of the framing: changing any one byte of the type, seq or
   * payload of a frame makes the parser reject it.
   */
  lemma CorruptedFrameRejected(msgType: byte, seqNo: byte, payload: seq<byte>, k: nat, v: byte)
    requires |payload| <= 0xFFFF
    requires 3 <= k < 5 + |payload|
    requires BuildPacket(msgType, seqNo, payload)[k] != v
    ensures ParsePacket(BuildPacket(msgType, seqNo, payload)[k := v]) == None
  {
    var f := BuildPacket(msgType, seqNo, payload);
    var g := f[k := v];
    var n := |payload|;
    BuildPacketLayout(msgType, seqNo, payload);
    var r := ParsePacket(g);
    if r.Some? {
      var p := r.value;
      // The length bytes are untouched, so the parsed frame is all of `g`.
      BuildPacketLayout(p.msgType, p.seqNo, p.payload);
      var f2 := BuildPacket(p.msgType, p.seqNo, p.payload);
      assert f2[1] == g[1] == f[1] && f2[2] == g[2] == f[2];
      assert |p.payload| == n;
      assert g[..p.rawLen] == g;
      SliceOfUpdate(f, 3, 5 + n, k, v);
      CrcBytesDiffer(msgType, seqNo, payload, p.msgType, p.seqNo, p.payload, k - 3, v);
      // Yet `g` kept the CRC bytes of `f`.
      assert false;
    }
  }

  /** Frames whose CRC inputs differ in exactly one byte carry different CRC fields. */
  lemma CrcBytesDiffer(t1: byte, s1: byte, p1: seq<byte>, t2: byte, s2: byte, p2: seq<byte>, j: nat, v: byte)
    requires |p1| == |p2| <= 0xFFFF && j < |p1| + 2
    requires CrcInput(t1, s1, p1)[j] != v
    requires CrcInput(t2, s2, p2) == CrcInput(t1, s1, p1)[j := v]
    ensures var f1, f2, n := BuildPacket(t1, s1, p1), BuildPacket(t2, s2, p2), |p1|;
      f1[5 + n] != f2[5 + n] || f1[6 + n] != f2[6 + n]
  {
    BuildPacketLayout(t1, s1, p1);
    BuildPacketLayout(t2, s2, p2);
    Crc16.DetectsSingleByteError(CrcInput(t1, s1, p1), j, v);
  }

  lemma SliceOfUpdate(s: seq<byte>, lo: nat, hi: nat, k: nat, v: byte)
    requires lo <= k < hi <= |s|
    ensures s[k := v][lo..hi] == s[lo..hi][k - lo := v]
  {
  }

  /** Python's `bytes.find(b'\xaa')`: the first sync byte, or -1 (here `None`). */
  function FindSync(buf: seq<byte>): (r: Option<nat>)
    ensures r.Some? ==> r.value < |buf| && buf[r.value] == CDC_SYNC
                        && forall j :: 0 <= j < r.value ==> buf[j] != CDC_SYNC
    ensures r.None? ==> forall j :: 0 <= j < |buf| ==> buf[j] != CDC_SYNC
    decreases |buf|
  {
    if |buf| == 0 then None
    else if buf[0] == CDC_SYNC then Some(0)
    else match FindSync(buf[1..])
      case None => None
      case Some(k) => Some(k + 1)
  }

  /** What one call of `_process_buffer` delivers and what it leaves in the buffer. */
  datatype Pass = Pass(packets: seq<Packet>, rest: seq<byte>)

  /** `_process_buffer` as written. */
  function Drain(buf: seq<byte>): Pass
    decreases |buf|
  {
    if |buf| < 7 then Pass([], buf)
    else match FindSync(buf)
      case None => Pass([], [])
      case Some(k) =>
        var b := buf[k..];
        match ParsePacket(b)
          case None => Pass([], b)
          case Some(p) =>
            var next := Drain(b[p.rawLen..]);
            Pass([p] + next.packets, next.rest)
  }

  /** A pass over fewer bytes than a frame header delivers nothing and keeps them. */
  lemma DrainShort(buf: seq<byte>)
    requires |buf| < 7
    ensures Drain(buf) == Pass([], buf)
  {
  }

  /** Without a sync byte a pass delivers nothing and clears the buffer. */
  lemma DrainWithoutSync(buf: seq<byte>)
    requires |buf| >= 7 && FindSync(buf).None?
    ensures Drain(buf) == Pass([], [])
  {
  }

  /** When no packet parses at the first sync byte, a pass stops there. */
  lemma DrainStopsAt(buf: seq<byte>, k: nat)
    requires |buf| >= 7 && FindSync(buf) == Some(k)
    requires ParsePacket(buf[k..]).None?
    ensures Drain(buf) == Pass([], buf[k..])
  {
  }

  /** When a packet parses at the first sync byte, a pass delivers it and goes on behind it. */
  lemma DrainTakes(buf: seq<byte>, k: nat, p: Packet)
    requires |buf| >= 7 && FindSync(buf) == Some(k)
    requires ParsePacket(buf[k..]) == Some(p)
    ensures p.rawLen <= |buf| - k
    ensures Drain(buf) == Pass([p] + Drain(buf[k..][p.rawLen..]).packets, Drain(buf[k..][p.rawLen..]).rest)
  {
  }

  /** The frame a packet came from. */
  datatype Message = Message(msgType: byte, seqNo: byte, payload: seq<byte>)

  predicate Sendable(msgs: seq<Message>) {
    forall i :: 0 <= i < |msgs| ==> |msgs[i].payload| <= 0xFFFF
  }

  function Frames(msgs: seq<Message>): (s: seq<byte>)
    requires Sendable(msgs)
    decreases |msgs|
  {
    if |msgs| == 0 then []
    else BuildPacket(msgs[0].msgType, msgs[0].seqNo, msgs[0].payload) + Frames(msgs[1..])
  }

  function Delivered(msgs: seq<Message>): seq<Packet>
    decreases |msgs|
  {
    if |msgs| == 0 then []
    else [Packet(msgs[0].msgType, msgs[0].seqNo, msgs[0].payload, FRAME_OVERHEAD + |msgs[0].payload|)]
         + Delivered(msgs[1..])
  }

  /** A buffer holding whole well-formed frames is decoded completely and in order. */
  lemma {:induction false} DrainFrames(msgs: seq<Message>)
    requires Sendable(msgs)
    ensures Drain(Frames(msgs)) == Pass(Delivered(msgs), [])
    decreases |msgs|
  {
    if |msgs| > 0 {
      var m := msgs[0];
      var f := BuildPacket(m.msgType, m.seqNo, m.payload);
      var tail := Frames(msgs[1..]);
      ParseOfFrame(m.msgType, m.seqNo, m.payload, tail);
      BuildPacketLayout(m.msgType, m.seqNo, m.payload);
      assert Frames(msgs) == f + tail;
      assert FindSync(f + tail) == Some(0);
      assert (f + tail)[0..] == f + tail;
      assert (f + tail)[|f|..] == tail;
      DrainFrames(msgs[1..]);
    }
  }

  /** Bytes with no sync byte in front of frames are thrown away. */
  lemma NoiseSkipped(noise: seq<byte>, msgs: seq<Message>)
    requires Sendable(msgs) && |msgs| > 0
    requires forall j :: 0 <= j < |noise| ==> noise[j] != CDC_SYNC
    ensures Drain(noise + Frames(msgs)) == Pass(Delivered(msgs), [])
  {
    var m := msgs[0];
    var f := Frames(msgs);
    BuildPacketLayout(m.msgType, m.seqNo, m.payload);
    assert f == BuildPacket(m.msgType, m.seqNo, m.payload) + Frames(msgs[1..]);
    assert f[0] == CDC_SYNC;
    FindSyncSkips(noise, f);
    assert (noise + f)[|noise|..] == f;
    DrainFrom(noise + f, |noise|);
    DrainFrames(msgs);
  }

  /** A pass starts at the first sync byte: what lies before it makes no difference. */
  lemma DrainFrom(buf: seq<byte>, k: nat)
    requires FindSync(buf) == Some(k) && |buf| - k >= 7
    ensures Drain(buf) == Drain(buf[k..])
  {
    var b := buf[k..];
    assert b[0] == CDC_SYNC && b[0..] == b;
  }

  lemma {:induction false} FindSyncSkips(noise: seq<byte>, s: seq<byte>)
    requires forall j :: 0 <= j < |noise| ==> noise[j] != CDC_SYNC
    requires |s| > 0 && s[0] == CDC_SYNC
    ensures FindSync(noise + s) == Some(|noise|)
    decreases |noise|
  {
    if |noise| > 0 {
      assert (noise + s)[1..] == noise[1..] + s;
      FindSyncSkips(noise[1..], s);
    } else {
      assert noise + s == s;
    }
  }

  /** A frame whose bytes are all present but whose CRC does not match its contents. */
  predicate BadCompleteFrame(buf: seq<byte>) {
    && |buf| >= 7 && buf[0] == CDC_SYNC
    && 7 + DeclaredLength(buf) <= |buf|
    && U16(buf[5 + DeclaredLength(buf)], buf[6 + DeclaredLength(buf)])
       != Crc16.Crc(CrcInput(buf[3], buf[4], buf[5..5 + DeclaredLength(buf)]))
  }

  lemma BadFrameStaysBad(buf: seq<byte>, more: seq<byte>)
    requires BadCompleteFrame(buf)
    ensures BadCompleteFrame(buf + more) && ParsePacket(buf + more) == None
  {
    var n := DeclaredLength(buf);
    var b := buf + more;
    assert b[1] == buf[1] && b[2] == buf[2];
    assert b[5..5 + n] == buf[5..5 + n];
    assert b[3] == buf[3] && b[4] == buf[4] && b[5 + n] == buf[5 + n] && b[6 + n] == buf[6 + n];
  }

  /**
   * As written, a complete frame with a bad CRC at the front of the buffer
   * ends every pass before it is removed, so nothing received after it is
   * ever delivered.
   */
  lemma DrainStallsOnBadFrame(buf: seq<byte>, more: seq<byte>)
    requires BadCompleteFrame(buf)
    ensures Drain(buf + more) == Pass([], buf + more)
  {
    BadFrameStaysBad(buf, more);
    assert FindSync(buf + more) == Some(0);
    assert (buf + more)[0..] == buf + more;
  }

  /**
   * A frame damaged in transit in its type, seq or payload is such a frame:
   * behind it the buffer stalls, whatever arrives afterwards.
   */
  lemma CorruptedFrameStalls(msgType: byte, seqNo: byte, payload: seq<byte>, k: nat, v: byte, more: seq<byte>)
    requires |payload| <= 0xFFFF
    requires 3 <= k < 5 + |payload|
    requires BuildPacket(msgType, seqNo, payload)[k] != v
    ensures var bad := BuildPacket(msgType, seqNo, payload)[k := v];
      BadCompleteFrame(bad) && Drain(bad + more) == Pass([], bad + more)
  {
    var f := BuildPacket(msgType, seqNo, payload);
    var bad := f[k := v];
    BuildPacketLayout(msgType, seqNo, payload);
    CorruptedFrameRejected(msgType, seqNo, payload, k, v);
    assert bad[1] == f[1] && bad[2] == f[2];
    assert DeclaredLength(bad) == |payload|;
    DrainStallsOnBadFrame(bad, more);
  }

  /**
   * The evidently intended pass: a complete frame that fails its CRC loses its
   * sync byte and scanning goes on; only an incomplete frame waits for more.
   */
  function DrainResync(buf: seq<byte>): Pass
    decreases |buf|
  {
    if |buf| < 7 then Pass([], buf)
    else match FindSync(buf)
      case None => Pass([], [])
      case Some(k) =>
        var b := buf[k..];
        match ParsePacket(b)
          case None =>
            if |b| >= 7 && 7 + DeclaredLength(b) <= |b| then
              var next := DrainResync(b[1..]);
              Pass(next.packets, next.rest)
            else Pass([], b)
          case Some(p) =>
            var next := DrainResync(b[p.rawLen..]);
            Pass([p] + next.packets, next.rest)
  }

  /** A buffer that only waits for more bytes: too short, or an incomplete frame at the front. */
  predicate Waiting(rest: seq<byte>) {
    |rest| < 7 || (rest[0] == CDC_SYNC && 7 + DeclaredLength(rest) > |rest|)
  }

  /**
   * One step of a resyncing pass: it either stops on a buffer that only waits
   * for more bytes, or goes on with a strictly shorter buffer.
   */
  lemma DrainResyncStep(buf: seq<byte>) returns (next: Option<seq<byte>>)
    ensures next.None? ==> Waiting(DrainResync(buf).rest)
    ensures next.Some? ==> |next.value| < |buf| && DrainResync(buf).rest == DrainResync(next.value).rest
  {
    next := None;
    if |buf| >= 7 {
      match FindSync(buf)
      case None =>
      case Some(k) =>
        var b := buf[k..];
        match ParsePacket(b)
        case None =>
          if |b| >= 7 && 7 + DeclaredLength(b) <= |b| {
            next := Some(b[1..]);
          } else {
            assert b[0] == CDC_SYNC;
          }
        case Some(p) =>
          next := Some(b[p.rawLen..]);
    }
  }

  /** With resync, a pass never ends with a complete frame stuck at the front. */
  lemma {:induction false} DrainResyncLeavesOnlyWaiting(buf: seq<byte>)
    ensures Waiting(DrainResync(buf).rest)
    decreases |buf|
  {
    var next := DrainResyncStep(buf);
    if next.Some? {
      DrainResyncLeavesOnlyWaiting(next.value);
    }
  }

  lemma {:induction false} DrainResyncFrames(msgs: seq<Message>)
    requires Sendable(msgs)
    ensures DrainResync(Frames(msgs)) == Pass(Delivered(msgs), [])
    decreases |msgs|
  {
    if |msgs| > 0 {
      var m := msgs[0];
      var f := BuildPacket(m.msgType, m.seqNo, m.payload);
      var tail := Frames(msgs[1..]);
      ParseOfFrame(m.msgType, m.seqNo, m.payload, tail);
      BuildPacketLayout(m.msgType, m.seqNo, m.payload);
      assert Frames(msgs) == f + tail;
      assert FindSync(f + tail) == Some(0);
      assert (f + tail)[0..] == f + tail;
      assert (f + tail)[|f|..] == tail;
      DrainResyncFrames(msgs[1..]);
    }
  }

  /**
   * With resync, a damaged frame costs only itself: the frames behind it are
   * delivered (provided the damaged frame holds no other sync byte).
   */
  lemma ResyncRecovers(bad: seq<byte>, msgs: seq<Message>)
    requires BadCompleteFrame(bad)
    requires forall j :: 1 <= j < |bad| ==> bad[j] != CDC_SYNC
    requires Sendable(msgs) && |msgs| > 0
    ensures DrainResync(bad + Frames(msgs)) == Pass(Delivered(msgs), [])
  {
    var f := Frames(msgs);
    var buf := bad + f;
    var m := msgs[0];
    BuildPacketLayout(m.msgType, m.seqNo, m.payload);
    assert f == BuildPacket(m.msgType, m.seqNo, m.payload) + Frames(msgs[1..]);
    BadFrameStaysBad(bad, f);
    assert FindSync(buf) == Some(0);
    assert buf[0..] == buf;
    var noise := bad[1..];
    assert buf[1..] == noise + f;
    FindSyncSkips(noise, f);
    assert (noise + f)[|noise|..] == f;
    DrainResyncFrames(msgs);
    if |noise| > 0 {
      assert DrainResync(noise + f) == DrainResync(f);
    }
  }

  /** `(seq + 1) & 0xFF`: the command sequence number counts up and wraps after 255. */
  function NextSeq(s: byte): (r: byte)
    ensures s < 255 ==> r == s + 1
    ensures s == 255 ==> r == 0
  {
    (s + 1) % 256
  }

  /** The tool's connection object; the serial port becomes the log of written frames. */
  class CdcProtocolHost {
    var seqNo: byte
    var rxBuffer: seq<byte>
    /** Packets handed to `_handle_packet`, oldest first. */
    var handled: seq<Packet>
    /** Frames written to the serial port, oldest first. */
    var written: seq<seq<byte>>

    constructor ()
      ensures seqNo == 0 && rxBuffer == [] && handled == [] && written == []
    {
      seqNo := 0;
      rxBuffer := [];
      handled := [];
      written := [];
    }

    /** `_process_buffer`: the loop, proved to do what `Drain` says. */
    method ProcessBuffer()
      modifies this
      ensures handled == old(handled) + Drain(old(rxBuffer)).packets
      ensures rxBuffer == Drain(old(rxBuffer)).rest
      ensures seqNo == old(seqNo) && written == old(written)
    {
      // The loop works on locals; the fields take their final values at the end.
      var buf := rxBuffer;
      var got: seq<Packet> := [];
      while |buf| >= 7
        invariant got + Drain(buf).packets == Drain(old(rxBuffer)).packets
        invariant Drain(buf).rest == Drain(old(rxBuffer)).rest
        invariant unchanged(this)
        decreases |buf|
      {
        ghost var before := buf;
        var syncPos := FindSync(buf);
        if syncPos.None? {
          DrainWithoutSync(buf);
          buf := [];
          break;
        }
        var k := syncPos.value;
        buf := buf[k..];
        var packet := ParsePacket(buf);
        if packet.None? {
          DrainStopsAt(before, k);
          break;
        }
        DrainTakes(before, k, packet.value);
        buf := buf[packet.value.rawLen..];
        AppendTwice(got, [packet.value], Drain(buf).packets);
        got := got + [packet.value];
      }
      if |buf| < 7 {
        DrainShort(buf);
      }

      rxBuffer := buf;
      handled := handled + got;
    }

    /** One iteration of the reader thread: bytes arrive, then the buffer is drained. */
    method OnRead(data: seq<byte>)
      modifies this
      ensures handled == old(handled) + Drain(old(rxBuffer) + data).packets
      ensures rxBuffer == Drain(old(rxBuffer) + data).rest
      ensures seqNo == old(seqNo) && written == old(written)
    {
      rxBuffer := rxBuffer + data;
      ProcessBuffer();
    }

    /** `send_cmd`: frame the JSON bytes as a CMD with the current seq, then advance it. */
    method SendCmd(payload: seq<byte>)
      requires |payload| <= 0xFFFF
      modifies this
      ensures written == old(written) + [BuildPacket(MSG_CMD, old(seqNo), payload)]
      ensures seqNo == NextSeq(old(seqNo))
      ensures rxBuffer == old(rxBuffer) && handled == old(handled)
    {
      var packet := BuildPacket(MSG_CMD, seqNo, payload);
      seqNo := NextSeq(seqNo);
      written := written + [packet];
    }
  }
}

=== FILE: cdc_profiles.dfy ===
/**
 * The profile commands of `cdc_commands.c`: the unified profile index (the
 * built-in profiles first, or a virtual "Default", then the custom profiles
 * of the settings journal) and PROFILE.GET, PROFILE.SET, PROFILE.SAVE,
 * PROFILE.DELETE and PROFILE.CLONE on the runtime settings of the flash store.
 */
module CdcProfiles {
  import opened Common
  import CdcConsole
  import CdcCommands
  import Flash

  type CString = CdcCommands.CString
  type Reply = CdcCommands.Reply

  // ---------------------------------------------------------------------------
  // Unified index
  // ---------------------------------------------------------------------------

  /**
   * The names `profile_get_name` gives for the built-in profiles of the USB
   * output target (none for NULL); their number is `get_builtin_count`.
   */
  type BuiltinNames = s: seq<Option<CString>> | |s| < 256

  /** The first unified index of a custom profile: after the built-in ones, or after the virtual default. */
  function CustomStart(builtin: nat): (start: nat)
    ensures start >= 1 && (builtin > 0 ==> start == builtin)
  {
    if builtin > 0 then builtin else 1
  }

  /** `get_total_count`: the built-in profiles (at least the virtual default) and the custom ones, as a `uint8_t`. */
  function TotalCount(builtin: nat, custom: byte): (total: byte)
    requires builtin < 256
    ensures CustomStart(builtin) + custom < 256 ==> total == CustomStart(builtin) + custom
  {
    (CustomStart(builtin) + custom) % 256
  }

  /** `unified_to_custom_index`: the custom profile a unified index names, or -1. */
  function UnifiedToCustom(builtin: nat, index: int): (c: int)
    ensures c >= 0 <==> index >= CustomStart(builtin)
    ensures c < 0 ==> c == -1
  {
    if index >= CustomStart(builtin) then index - CustomStart(builtin) else -1
  }

  /** `custom_to_unified_index`. */
  function CustomToUnified(builtin: nat, c: int): (index: int)
    ensures c >= 0 ==> index >= CustomStart(builtin)
  {
    CustomStart(builtin) + c
  }

  /** `is_builtin_profile`: below the built-in count, or the virtual default at 0. */
  predicate IsBuiltin(builtin: nat, index: int) {
    if builtin > 0 then index < builtin else index == 0
  }

  /** The two index conversions are inverse to each other on the custom range. */
  lemma IndexRoundTrip(builtin: nat, c: nat, index: int)
    ensures UnifiedToCustom(builtin, CustomToUnified(builtin, c)) == c
    ensures index >= CustomStart(builtin) ==> CustomToUnified(builtin, UnifiedToCustom(builtin, index)) == index
  {
  }

  /**
   * Within the total, a unified index is a built-in profile exactly when it
   * names no custom profile, and a custom one names one of the stored profiles.
   */
  lemma BuiltinOrCustom(builtin: nat, custom: byte, index: int)
    requires builtin < 256 && CustomStart(builtin) + custom < 256
    requires 0 <= index < TotalCount(builtin, custom) as int
    ensures IsBuiltin(builtin, index) <==> UnifiedToCustom(builtin, index) < 0
    ensures !IsBuiltin(builtin, index) ==> UnifiedToCustom(builtin, index) < custom as int
  {
  }

  /**
   * A negative index names no custom profile; it counts as built-in only
   * when built-in profiles exist.
   */
  lemma NegativeIndex(builtin: nat, index: int)
    requires index < 0
    ensures UnifiedToCustom(builtin, index) == -1
    ensures IsBuiltin(builtin, index) <==> builtin > 0
  {
  }

  // ---------------------------------------------------------------------------
  // Names
  // ---------------------------------------------------------------------------

  /** `%.Ns`: at most the first n characters. */
  function Cut(s: seq<char>, n: nat): (r: seq<char>)
    ensures r <= s && |r| == Min(|s|, n)
  {
    s[..Min(|s|, n)]
  }

  /** A profile name as the replies print it: `%.11s` of the name buffer. */
  function Shown(buf: seq<char>): seq<char> {
    Cut(CdcConsole.CString(buf), 11)
  }

  /** A built-in profile's name, "Default" for NULL. */
  function NameOr(name: Option<CString>): CString {
    if name.Some? then name.value else "Default"
  }

  /**
   * A name written over a name buffer (`memcpy` of at most 11 characters and
   * a NUL, or `snprintf`): the buffer then holds that name, cut to 11
   * characters; the bytes after the NUL stay as they were.
   */
  function PutName(buf: Flash.NameBuffer, text: seq<char>): (r: Flash.NameBuffer)
    requires '\0' !in text
    ensures CdcConsole.CString(r) == Cut(text, 11)
    ensures r[Min(|text|, 11) + 1..] == buf[Min(|text|, 11) + 1..]
  {
    var k := Min(|text|, 11);
    var r := text[..k] + ['\0'] + buf[k + 1..];
    assert r[..k] == text[..k];
    CdcConsole.CStringAtTerminator(r, k);
    CdcConsole.CStringNoNul(text[..k]);
    r
  }

  /** The name `snprintf(..., "Custom %d", c + 1)` gives the c-th custom profile. */
  function DefaultName(c: nat): (name: seq<char>)
    ensures '\0' !in name && |name| > 7
  {
    var d := CdcConsole.Decimal(c + 1);
    assert forall i :: 0 <= i < |d| ==> CdcConsole.IsDigit(d[i]);
    "Custom " + d
  }

  /** A name given to `custom_profile_init` reads back as itself, cut to 11 characters. */
  lemma InitName(text: seq<char>)
    requires '\0' !in text
    ensures CdcConsole.CString(Flash.ProfileInit(Some(text)).name) == Cut(text, 11)
  {
    var buf := Flash.ProfileInit(Some(text)).name;
    var k := Min(|text|, 11);
    assert buf[k] == '\0';
    assert buf[..k] == text[..k];
    CdcConsole.CStringAtTerminator(buf, k);
    CdcConsole.CStringNoNul(text[..k]);
  }

  // ---------------------------------------------------------------------------
  // PROFILE.SAVE
  // ---------------------------------------------------------------------------

  /** The fields of a PROFILE.SAVE request besides the index. */
  datatype ProfileEdit = ProfileEdit(
    name: Option<seq<char>>,
    buttonMap: seq<byte>,
    leftStickSens: Option<int>,
    rightStickSens: Option<int>,
    flags: Option<int>)

  /** The edit a request asks for, read with the JSON extractors. */
  function EditOf(json: CString): (e: ProfileEdit)
    ensures e.name.Some? ==> '\0' !in e.name.value
    ensures |e.buttonMap| <= Flash.CUSTOM_PROFILE_BUTTON_COUNT
  {
    ProfileEdit(
      CdcCommands.JsonGetString(json, "name"),
      CdcCommands.ArrayField(json, "button_map", Flash.CUSTOM_PROFILE_BUTTON_COUNT),
      CdcCommands.IntField(json, "left_stick_sens"),
      CdcCommands.IntField(json, "right_stick_sens"),
      CdcCommands.IntField(json, "flags"))
  }

  /** The name after an edit: a non-empty given name, else "Custom N" for a new profile, else unchanged. */
  function EditedName(current: Flash.NameBuffer, name: Option<seq<char>>, isNew: bool, c: nat): Flash.NameBuffer
    requires name.Some? ==> '\0' !in name.value
  {
    if name.Some? && |name.value| > 0 then PutName(current, name.value)
    else if isNew then PutName(current, DefaultName(c))
    else current
  }

  /** The button map after an edit: all 18 values, else passthrough for a new profile without any, else unchanged. */
  function EditedMap(current: Flash.ButtonMap, values: seq<byte>, isNew: bool): Flash.ButtonMap {
    if |values| == Flash.CUSTOM_PROFILE_BUTTON_COUNT then values
    else if |values| == 0 && isNew then seq(18, _ => Flash.BUTTON_MAP_PASSTHROUGH)
    else current
  }

  /** A stick sensitivity after an edit: the given value clamped to 0..200, else 100 for a new profile. */
  function EditedSens(current: byte, sens: Option<int>, isNew: bool): (r: byte)
    ensures sens.Some? ==> r <= 200
    ensures sens.Some? && 0 <= sens.value <= 200 ==> r as int == sens.value
    ensures sens.None? ==> r == if isNew then 100 else current
  {
    if sens.Some? then Clamp(sens.value, 0, 200) as byte
    else if isNew then 100
    else current
  }

  /** The flags after an edit: the given value as a `uint8_t`. */
  function EditedFlags(current: byte, flags: Option<int>): (r: byte)
    ensures flags.Some? ==> r as int % 256 == flags.value % 256
    ensures flags.None? ==> r == current
  {
    if flags.Some? then (flags.value % 256) as byte else current
  }

  /** The stored profile after PROFILE.SAVE changes it field by field; the SOCD mode is kept. */
  function EditProfile(p: Flash.Profile, e: ProfileEdit, isNew: bool, c: nat): Flash.Profile
    requires e.name.Some? ==> '\0' !in e.name.value
  {
    Flash.Profile(
      EditedName(p.name, e.name, isNew, c),
      EditedMap(p.buttonMap, e.buttonMap, isNew),
      EditedSens(p.leftStickSens, e.leftStickSens, isNew),
      EditedSens(p.rightStickSens, e.rightStickSens, isNew),
      EditedFlags(p.flags, e.flags),
      p.socdMode)
  }

  /**
   * What an edit asks for is what the profile holds afterwards: the name
   * (cut to 11 characters), a complete button map, clamped sensitivities;
   * whatever the request leaves out of an existing profile stays.
   */
  lemma EditHonoured(p: Flash.Profile, e: ProfileEdit, isNew: bool, c: nat)
    requires e.name.Some? ==> '\0' !in e.name.value
    ensures var q := EditProfile(p, e, isNew, c);
      && (e.name.Some? && |e.name.value| > 0 ==> CdcConsole.CString(q.name) == Cut(e.name.value, 11))
      && (isNew && (e.name.None? || |e.name.value| == 0) ==> CdcConsole.CString(q.name) == Cut(DefaultName(c), 11))
      && (|e.buttonMap| == 18 ==> q.buttonMap == e.buttonMap)
      && (isNew && |e.buttonMap| == 0 ==> forall i :: 0 <= i < 18 ==> q.buttonMap[i] == Flash.BUTTON_MAP_PASSTHROUGH)
      && (!isNew ==> (e.name.None? || |e.name.value| == 0) ==> q.name == p.name)
      && (!isNew ==> |e.buttonMap| != 18 ==> q.buttonMap == p.buttonMap)
      && q.socdMode == p.socdMode
  {
  }

  /** What a profile command does: refused with the message it sends, or the new runtime settings and the reply. */
  datatype Outcome = Refused(message: string) | Done(settings: Flash.Settings, reply: Reply)

  /** The custom profile count stays within the table, as every writer of the settings keeps it. */
  predicate CountInRange(settings: Option<Flash.Settings>) {
    settings.Some? ==> settings.value.customProfileCount as nat <= Flash.CUSTOM_PROFILE_MAX_COUNT
  }

  /** The active flash index names the default or one of the stored profiles. */
  predicate InRange(s: Flash.Settings) {
    && s.customProfileCount as nat <= Flash.CUSTOM_PROFILE_MAX_COUNT
    && s.activeProfileIndex <= s.customProfileCount
  }

  /**
   * `cmd_profile_save`: index 255 appends a profile, another index edits
   * the custom profile it names; the checks come in the order of the source.
   */
  function SaveOutcome(settings: Option<Flash.Settings>, index: Option<int>, e: ProfileEdit, builtin: nat): (o: Outcome)
    requires CountInRange(settings) && (e.name.Some? ==> '\0' !in e.name.value)
    ensures o.Done? ==> o.reply.Named? && settings.Some?
  {
    if index.None? then Refused("missing index")
    else if index.value != 255 && IsBuiltin(builtin, index.value) then Refused("cannot modify built-in profile")
    else if settings.None? then Refused("flash not initialized")
    else
      var s := settings.value;
      if index.value == 255 then
        if s.customProfileCount as nat >= Flash.CUSTOM_PROFILE_MAX_COUNT then Refused("max profiles reached")
        else
          var c := s.customProfileCount as nat;
          var p := EditProfile(s.profiles[c], e, true, c);
          Done(s.(customProfileCount := s.customProfileCount + 1, profiles := s.profiles[c := p]),
               CdcCommands.Named(CustomToUnified(builtin, c), Shown(p.name)))
      else
        var c := UnifiedToCustom(builtin, index.value);
        if c < 0 || c >= s.customProfileCount as int then Refused("invalid index")
        else
          var p := EditProfile(s.profiles[c], e, false, c);
          Done(s.(profiles := s.profiles[c := p]), CdcCommands.Named(index.value, Shown(p.name)))
  }

  /**
   * A save changes one profile, the one the reply's index names, into the
   * edit of what was there; index 255 appends it as the last profile. Nothing
   * else in the settings changes, and the reply shows the stored name.
   */
  lemma SaveChangesOne(settings: Option<Flash.Settings>, index: Option<int>, e: ProfileEdit, builtin: nat)
    requires CountInRange(settings) && (e.name.Some? ==> '\0' !in e.name.value)
    requires SaveOutcome(settings, index, e, builtin).Done?
    ensures var o := SaveOutcome(settings, index, e, builtin);
      var s := settings.value;
      var c := UnifiedToCustom(builtin, o.reply.index);
      var isNew := index.value == 255;
      && 0 <= c < o.settings.customProfileCount as int
      && o.settings.customProfileCount == (if isNew then s.customProfileCount + 1 else s.customProfileCount)
      && (isNew ==> c == s.customProfileCount as int)
      && o.settings.profiles[c] == EditProfile(s.profiles[c], e, isNew, c)
      && o.reply.name == Shown(o.settings.profiles[c].name)
      && (forall j :: 0 <= j < Flash.CUSTOM_PROFILE_MAX_COUNT && j != c ==> o.settings.profiles[j] == s.profiles[j])
      && o.settings.(customProfileCount := s.customProfileCount, profiles := s.profiles) == s
  {
    var s := settings.value;
    if index.value == 255 {
      IndexRoundTrip(builtin, s.customProfileCount as nat, 0);
    } else {
      IndexRoundTrip(builtin, 0, index.value);
    }
  }

  /** A save keeps the count within the table and the active index on a stored profile. */
  lemma SaveKeepsRange(s: Flash.Settings, index: Option<int>, e: ProfileEdit, builtin: nat)
    requires InRange(s) && (e.name.Some? ==> '\0' !in e.name.value)
    requires SaveOutcome(Some(s), index, e, builtin).Done?
    ensures InRange(SaveOutcome(Some(s), index, e, builtin).settings)
  {
  }

  // ---------------------------------------------------------------------------
  // PROFILE.GET and PROFILE.SET
  // ---------------------------------------------------------------------------

  /** `get_custom_count`: the stored count, 0 before `flash_init`. */
  function CustomCount(settings: Option<Flash.Settings>): byte {
    if settings.Some? then settings.value.customProfileCount else 0
  }

  /**
   * The unified index of the active profile: the profile system's index when
   * built-in profiles exist, else the flash index (0 before `flash_init`).
   */
  function ActiveIndex(settings: Option<Flash.Settings>, builtin: nat, activeBuiltin: int): int {
    if builtin > 0 then activeBuiltin
    else if settings.Some? then settings.value.activeProfileIndex as int
    else 0
  }

  /**
   * `cmd_profile_get`: the profile at the requested index, or at the active
   * one when the request has none; `activeBuiltin` is
   * `profile_get_active_index` of the profile system.
   */
  function GetReply(settings: Option<Flash.Settings>, index: Option<int>, names: BuiltinNames, activeBuiltin: int): (r: Reply)
    requires CountInRange(settings)
    ensures r.Error? || r.BuiltinInfo? || r.CustomInfo?
  {
    var builtin := |names|;
    var i := if index.Some? then index.value else ActiveIndex(settings, builtin, activeBuiltin);
    var custom := CustomCount(settings);
    if i < 0 || i >= TotalCount(builtin, custom) as int then CdcCommands.Error("invalid index")
    else if IsBuiltin(builtin, i) then
      CdcCommands.BuiltinInfo(i, if builtin > 0 then NameOr(names[i]) else "Default")
    else
      var c := UnifiedToCustom(builtin, i);
      if c < 0 || c >= custom as int then CdcCommands.Error("invalid index")
      else CdcCommands.CustomInfo(i, settings.value.profiles[c])
  }

  /**
   * What PROFILE.SAVE stores, PROFILE.GET reads back at the index the save
   * replied with, as long as the unified indices do not wrap past 255.
   */
  lemma SaveThenGet(settings: Option<Flash.Settings>, index: Option<int>, e: ProfileEdit, names: BuiltinNames, activeBuiltin: int)
    requires CountInRange(settings) && (e.name.Some? ==> '\0' !in e.name.value)
    requires CustomStart(|names|) + Flash.CUSTOM_PROFILE_MAX_COUNT < 256
    requires SaveOutcome(settings, index, e, |names|).Done?
    ensures var o := SaveOutcome(settings, index, e, |names|);
      var c := UnifiedToCustom(|names|, o.reply.index);
      && 0 <= c < Flash.CUSTOM_PROFILE_MAX_COUNT
      && GetReply(Some(o.settings), Some(o.reply.index), names, activeBuiltin) == CdcCommands.CustomInfo(o.reply.index, o.settings.profiles[c])
  {
    SaveChangesOne(settings, index, e, |names|);
    var o := SaveOutcome(settings, index, e, |names|);
    BuiltinOrCustom(|names|, o.settings.customProfileCount, o.reply.index);
  }

  /**
   * What PROFILE.SET does: refuses, selects a built-in profile of the
   * profile system, or selects a flash index.
   */
  datatype Selection = NotSelected(message: string) | SelectBuiltin(index: nat) | SelectFlash(flashIndex: byte)

  /**
   * `cmd_profile_set`: a built-in index goes to `profile_set_active`; any
   * other index becomes a flash index (0 for the default, custom index + 1).
   */
  function SetTarget(custom: byte, index: Option<int>, builtin: nat): (r: Selection)
    requires builtin < 256
    ensures r.SelectBuiltin? ==> r.index < builtin && index == Some(r.index as int)
    ensures r.NotSelected? <==> index.None? || index.value < 0 || index.value >= TotalCount(builtin, custom) as int
  {
    if index.None? then NotSelected("missing index")
    else if index.value < 0 || index.value >= TotalCount(builtin, custom) as int then NotSelected("invalid index")
    else if builtin > 0 && index.value < builtin then SelectBuiltin(index.value)
    else
      var c := UnifiedToCustom(builtin, index.value);
      SelectFlash((if c < 0 then 0 else (c + 1) % 256) as byte)
  }

  /**
   * Selecting the unified index of a stored custom profile makes that
   * profile the active custom profile `custom_profile_apply_buttons` uses,
   * after `flash_set_active_profile_index` clamps the flash index.
   */
  lemma SelectCustom(s: Flash.Settings, builtin: nat, c: nat)
    requires builtin < 256 && CustomStart(builtin) + Flash.CUSTOM_PROFILE_MAX_COUNT < 256
    requires CountInRange(Some(s)) && c < s.customProfileCount as nat
    ensures var r := SetTarget(s.customProfileCount, Some(CustomToUnified(builtin, c)), builtin);
      && r.SelectFlash?
      && var chosen := Min(r.flashIndex as int, s.customProfileCount as int) as byte;
        Flash.GetCustomProfile(s, chosen - 1) == Some(s.profiles[c])
  {
    IndexRoundTrip(builtin, c, 0);
  }

  // ---------------------------------------------------------------------------
  // PROFILE.DELETE
  // ---------------------------------------------------------------------------

  /**
   * The table after removing the c-th of `count` profiles: the later ones
   * move down one slot and the freed slot is zeroed.
   */
  function Shifted(t: Flash.ProfileTable, count: nat, c: nat): (r: Flash.ProfileTable)
    requires c < count <= Flash.CUSTOM_PROFILE_MAX_COUNT
  {
    t[..c] + t[c + 1..count] + [Flash.ZERO_PROFILE] + t[count..]
  }

  /** The active flash index after deleting flash index `deleted`: later ones move down, the deleted one falls back to the default. */
  function ActiveAfterDelete(active: byte, deleted: byte): byte {
    if active > deleted then active - 1
    else if active == deleted then 0
    else active
  }

  /** `cmd_profile_delete`, with its checks in the order of the source. */
  function DeleteOutcome(settings: Option<Flash.Settings>, index: Option<int>, builtin: nat): (o: Outcome)
    requires CountInRange(settings)
    ensures o.Done? ==> o.reply == CdcCommands.Ok && settings.Some?
  {
    if index.None? then Refused("missing index")
    else if IsBuiltin(builtin, index.value) then Refused("cannot delete built-in profile")
    else if settings.None? then Refused("flash not initialized")
    else
      var s := settings.value;
      var c := UnifiedToCustom(builtin, index.value);
      if c < 0 || c >= s.customProfileCount as int then Refused("invalid index")
      else
        var count := s.customProfileCount as nat;
        Done(s.(customProfileCount := (count - 1) as byte,
                profiles := Shifted(s.profiles, count, c),
                activeProfileIndex := ActiveAfterDelete(s.activeProfileIndex, (c + 1) as byte)),
             CdcCommands.Ok)
  }

  /**
   * A delete removes exactly the profile the index names: the stored
   * profiles afterwards are the ones before without it, in the same order,
   * and the slot freed at the end is zeroed.
   */
  lemma DeleteRemovesOne(settings: Option<Flash.Settings>, index: Option<int>, builtin: nat)
    requires CountInRange(settings)
    requires DeleteOutcome(settings, index, builtin).Done?
    ensures var o := DeleteOutcome(settings, index, builtin);
      var s := settings.value;
      var c := UnifiedToCustom(builtin, index.value);
      var n := s.customProfileCount as nat;
      && 0 <= c < n
      && o.settings.customProfileCount as nat == n - 1
      && o.settings.profiles[..n - 1] == s.profiles[..c] + s.profiles[c + 1..n]
      && o.settings.profiles[n - 1] == Flash.ZERO_PROFILE
      && o.settings.profiles[n..] == s.profiles[n..]
  {
    var s := settings.value;
    var c := UnifiedToCustom(builtin, index.value);
    var n := s.customProfileCount as nat;
    var t := Shifted(s.profiles, n, c);
    assert t[..n - 1] == s.profiles[..c] + s.profiles[c + 1..n];
    assert t[n..] == s.profiles[n..];
  }

  /**
   * After a delete the active profile is the same profile as before, or the
   * default when the active one was deleted.
   */
  lemma {:induction false} DeleteFollowsActive(s: Flash.Settings, index: Option<int>, builtin: nat)
    requires InRange(s)
    requires DeleteOutcome(Some(s), index, builtin).Done?
    ensures var o := DeleteOutcome(Some(s), index, builtin);
      var c := UnifiedToCustom(builtin, index.value);
      var a := s.activeProfileIndex;
      var b := o.settings.activeProfileIndex;
      && (a == 0 || a as int == c + 1 ==> b == 0)
      && (a != 0 && a as int != c + 1 ==>
            b != 0 && Flash.GetCustomProfile(o.settings, b - 1) == Flash.GetCustomProfile(s, a - 1))
  {
    var o := DeleteOutcome(Some(s), index, builtin);
    var c := UnifiedToCustom(builtin, index.value);
    var a := s.activeProfileIndex;
    var n := s.customProfileCount as nat;
    DeleteRemovesOne(Some(s), index, builtin);
    if a != 0 && a as int != c + 1 {
      var b := o.settings.activeProfileIndex;
      if a as int < c + 1 {
        assert o.settings.profiles[..n - 1][a - 1] == s.profiles[a - 1];
      } else {
        assert o.settings.profiles[..n - 1][b - 1] == (s.profiles[..c] + s.profiles[c + 1..n])[b - 1];
      }
    }
  }

  /** A delete keeps the count within the table and the active index on a stored profile. */
  lemma DeleteKeepsRange(s: Flash.Settings, index: Option<int>, builtin: nat)
    requires InRange(s)
    requires DeleteOutcome(Some(s), index, builtin).Done?
    ensures InRange(DeleteOutcome(Some(s), index, builtin).settings)
  {
  }

  // ---------------------------------------------------------------------------
  // PROFILE.CLONE
  // ---------------------------------------------------------------------------

  /**
   * The generated clone name as `cmd_profile_clone` writes it:
   * `snprintf(new_name, 12, "%.7s Copy", src)`. Seven characters and " Copy"
   * are twelve, one more than the buffer holds before its NUL.
   */
  function CloneLabelAsWritten(src: seq<char>): seq<char> {
    Cut(Cut(src, 7) + " Copy", 11)
  }

  /** The generated clone name with the source cut to six characters, so that " Copy" always fits. */
  function CloneLabel(src: seq<char>): (r: seq<char>)
    ensures |r| <= Flash.CUSTOM_PROFILE_NAME_LEN - 1
  {
    Cut(src, 6) + " Copy"
  }

  /** As written, a source name of seven or more characters loses the final "y" of " Copy". */
  lemma CloneLabelCut(src: seq<char>)
    requires |src| >= 7
    ensures CloneLabelAsWritten(src) == src[..7] + " Cop"
    ensures CloneLabelAsWritten("Default") == "Default Cop"
  {
  }

  /** A generated clone name ends in " Copy" and fits the name buffer; for sources of at most six characters it is what the source writes. */
  lemma CloneLabelEnds(src: seq<char>)
    ensures var text := CloneLabel(src);
      |text| >= 5 && text[|text| - 5..] == " Copy" && text[..|text| - 5] <= src
    ensures |src| <= 6 ==> CloneLabel(src) == CloneLabelAsWritten(src)
  {
  }

  /** Does the clone copy the settings of a stored custom profile? The index of that profile, if so. */
  function CloneSource(s: Flash.Settings, index: int, builtin: nat): (sc: Option<nat>)
    ensures sc.Some? ==> sc.value < s.customProfileCount as nat && !IsBuiltin(builtin, index)
  {
    if IsBuiltin(builtin, index) then None
    else
      var c := UnifiedToCustom(builtin, index);
      if 0 <= c < s.customProfileCount as int then Some(c) else None
  }

  /**
   * The name of the clone: a non-empty JSON name (cut to 11 characters), else
   * the source's name followed by " Copy", else "Custom N".
   */
  function CloneName(s: Flash.Settings, index: int, name: Option<seq<char>>, names: BuiltinNames): (r: seq<char>)
    requires CountInRange(Some(s)) && (name.Some? ==> '\0' !in name.value)
    requires IsBuiltin(|names|, index) && |names| > 0 ==> 0 <= index < |names|
    ensures '\0' !in r
  {
    if name.Some? && |name.value| > 0 then Cut(name.value, 11)
    else if IsBuiltin(|names|, index) then
      CloneLabel(if |names| > 0 then NameOr(names[index]) else "Default")
    else
      match CloneSource(s, index, |names|)
      case Some(sc) => CloneLabel(CdcConsole.CString(s.profiles[sc].name))
      case None => DefaultName(s.customProfileCount as nat)
  }

  /** The new profile: initialised with the name, then given the button map, sensitivities and flags of a custom source. */
  function Cloned(s: Flash.Settings, index: int, name: Option<seq<char>>, names: BuiltinNames): Flash.Profile
    requires CountInRange(Some(s)) && (name.Some? ==> '\0' !in name.value)
    requires IsBuiltin(|names|, index) && |names| > 0 ==> 0 <= index < |names|
  {
    var p := Flash.ProfileInit(Some(CloneName(s, index, name, names)));
    match CloneSource(s, index, |names|)
    case Some(sc) =>
      var src := s.profiles[sc];
      p.(buttonMap := src.buttonMap, leftStickSens := src.leftStickSens,
         rightStickSens := src.rightStickSens, flags := src.flags)
    case None => p
  }

  /** `cmd_profile_clone`, with its checks in the order of the source. */
  function CloneOutcome(settings: Option<Flash.Settings>, index: Option<int>, name: Option<seq<char>>, names: BuiltinNames): (o: Outcome)
    requires CountInRange(settings) && (name.Some? ==> '\0' !in name.value)
    ensures o.Done? ==> o.reply.Named? && settings.Some?
  {
    var builtin := |names|;
    if index.None? then Refused("missing index")
    else if index.value < 0 || index.value >= TotalCount(builtin, CustomCount(settings)) as int then
      Refused("invalid source index")
    else if settings.None? then Refused("flash not initialized")
    else
      var s := settings.value;
      if s.customProfileCount as nat >= Flash.CUSTOM_PROFILE_MAX_COUNT then Refused("max profiles reached")
      else
        var n := s.customProfileCount as nat;
        var p := Cloned(s, index.value, name, names);
        Done(s.(customProfileCount := s.customProfileCount + 1, profiles := s.profiles[n := p]),
             CdcCommands.Named(CustomToUnified(builtin, n), Shown(p.name)))
  }

  /**
   * A clone appends one profile, at the index the reply names: a copy of
   * the button map, sensitivities and flags of a custom source, or the
   * defaults of `custom_profile_init` for a built-in one. Nothing else changes.
   */
  lemma CloneAppends(settings: Option<Flash.Settings>, index: Option<int>, name: Option<seq<char>>, names: BuiltinNames)
    requires CountInRange(settings) && (name.Some? ==> '\0' !in name.value)
    requires CloneOutcome(settings, index, name, names).Done?
    ensures var o := CloneOutcome(settings, index, name, names);
      var s := settings.value;
      var n := s.customProfileCount as nat;
      var p := o.settings.profiles[n];
      var c := UnifiedToCustom(|names|, index.value);
      && n < Flash.CUSTOM_PROFILE_MAX_COUNT
      && UnifiedToCustom(|names|, o.reply.index) == n
      && o.settings.customProfileCount as nat == n + 1
      && o.settings.profiles[..n] == s.profiles[..n]
      && o.settings.profiles[n + 1..] == s.profiles[n + 1..]
      && o.settings.(customProfileCount := s.customProfileCount, profiles := s.profiles) == s
      && p == Cloned(s, index.value, name, names)
      && o.reply.name == Shown(p.name)
      && (!IsBuiltin(|names|, index.value) && 0 <= c < n ==>
            && p.buttonMap == s.profiles[c].buttonMap
            && p.leftStickSens == s.profiles[c].leftStickSens
            && p.rightStickSens == s.profiles[c].rightStickSens
            && p.flags == s.profiles[c].flags)
      && (IsBuiltin(|names|, index.value) ==>
            && (forall i :: 0 <= i < Flash.CUSTOM_PROFILE_BUTTON_COUNT ==> p.buttonMap[i] == Flash.BUTTON_MAP_PASSTHROUGH)
            && p.leftStickSens == 100 && p.rightStickSens == 100 && p.flags == 0)
  {
    IndexRoundTrip(|names|, settings.value.customProfileCount as nat, 0);
  }

  /** A clone named in the request carries that name, cut to 11 characters. */
  lemma CloneNamedAsAsked(s: Flash.Settings, index: int, name: seq<char>, names: BuiltinNames)
    requires CountInRange(Some(s)) && '\0' !in name && |name| > 0
    requires IsBuiltin(|names|, index) && |names| > 0 ==> 0 <= index < |names|
    ensures CdcConsole.CString(Cloned(s, index, Some(name), names).name) == Cut(name, 11)
  {
    var text := CloneName(s, index, Some(name), names);
    InitName(text);
    assert text == Cut(name, 11);
  }

  /** A clone without a name in the request is named after its source with the corrected label `CloneLabel`. */
  lemma CloneNamedAfterSource(s: Flash.Settings, index: int, names: BuiltinNames)
    requires CountInRange(Some(s))
    requires IsBuiltin(|names|, index) && |names| > 0 ==> 0 <= index < |names|
    ensures var shown := CdcConsole.CString(Cloned(s, index, None, names).name);
      var c := UnifiedToCustom(|names|, index);
      && (IsBuiltin(|names|, index) && |names| == 0 ==> shown == "Defaul Copy")
      && (IsBuiltin(|names|, index) && |names| > 0 ==> shown == CloneLabel(NameOr(names[index])))
      && (!IsBuiltin(|names|, index) && 0 <= c < s.customProfileCount as int ==>
            shown == CloneLabel(CdcConsole.CString(s.profiles[c].name)))
  {
    var text := CloneName(s, index, None, names);
    InitName(text);
    if IsBuiltin(|names|, index) || CloneSource(s, index, |names|).Some? {
      assert |text| <= 11;
    }
  }

  /** A clone keeps the count within the table and leaves the active index alone. */
  lemma CloneKeepsRange(s: Flash.Settings, index: Option<int>, name: Option<seq<char>>, names: BuiltinNames)
    requires InRange(s) && (name.Some? ==> '\0' !in name.value)
    requires CloneOutcome(Some(s), index, name, names).Done?
    ensures InRange(CloneOutcome(Some(s), index, name, names).settings)
    ensures CloneOutcome(Some(s), index, name, names).settings.activeProfileIndex == s.activeProfileIndex
  {
  }

  // ---------------------------------------------------------------------------
  // The command handlers on the flash store
  // ---------------------------------------------------------------------------

  /** The custom profile count of a loaded store stays within the table. */
  predicate StoreInRange(store: Flash.Store)
    reads store
  {
    CountInRange(store.GetSettings())
  }

  /** The name step of `cmd_profile_save`. */
  method EditNameField(current: Flash.NameBuffer, json: CString, isNew: bool, c: nat) returns (name: Flash.NameBuffer)
    ensures name == EditedName(current, EditOf(json).name, isNew, c)
  {
    name := current;
    var given := CdcCommands.JsonGetString(json, "name");
    if given.Some? && |given.value| > 0 {
      name := PutName(name, given.value);
    } else if isNew {
      name := PutName(name, DefaultName(c));
    }
  }

  /** The button-map step of `cmd_profile_save`. */
  method EditMapField(current: Flash.ButtonMap, json: CString, isNew: bool) returns (buttonMap: Flash.ButtonMap)
    ensures buttonMap == EditedMap(current, EditOf(json).buttonMap, isNew)
  {
    buttonMap := current;
    var values := CdcCommands.JsonGetIntArray(json, "button_map", Flash.CUSTOM_PROFILE_BUTTON_COUNT);
    if |values| == Flash.CUSTOM_PROFILE_BUTTON_COUNT {
      buttonMap := values;
    } else if |values| == 0 && isNew {
      buttonMap := seq(18, _ => Flash.BUTTON_MAP_PASSTHROUGH);
    }
  }

  /** A stick-sensitivity step of `cmd_profile_save`. */
  method EditSensField(current: byte, json: CString, key: seq<char>, isNew: bool) returns (sens: byte)
    ensures sens == EditedSens(current, CdcCommands.IntField(json, key), isNew)
  {
    sens := current;
    var given := CdcCommands.JsonGetInt(json, key);
    if given.Some? {
      sens := Clamp(given.value, 0, 200) as byte;
    } else if isNew {
      sens := 100;
    }
  }

  /** The field-by-field edit of `cmd_profile_save` on the profile it saves into. */
  method EditFields(current: Flash.Profile, json: CString, isNew: bool, c: nat) returns (p: Flash.Profile)
    ensures p == EditProfile(current, EditOf(json), isNew, c)
  {
    var name := EditNameField(current.name, json, isNew, c);
    var buttonMap := EditMapField(current.buttonMap, json, isNew);
    var left := EditSensField(current.leftStickSens, json, "left_stick_sens", isNew);
    var right := EditSensField(current.rightStickSens, json, "right_stick_sens", isNew);
    var flags := current.flags;
    var given := CdcCommands.JsonGetInt(json, "flags");
    if given.Some? {
      flags := (given.value % 256) as byte;
    }
    p := Flash.Profile(name, buttonMap, left, right, flags, current.socdMode);
  }

  /**
   * `cmd_profile_save`: edits the runtime settings field by field and asks
   * `flash_save` to write them; a refused request changes nothing.
   */
  method ProfileSave(store: Flash.Store, json: CString, builtin: nat, now: int) returns (reply: Reply)
    requires StoreInRange(store)
    modifies store
    ensures var o := SaveOutcome(old(store.GetSettings()), CdcCommands.IntField(json, "index"), EditOf(json), builtin);
      && (o.Refused? ==> reply == CdcCommands.Error(o.message) && unchanged(store))
      && (o.Done? ==>
            && reply == o.reply && store.runtimeLoaded && store.runtimeSettings == o.settings
            && store.savePending && store.pendingSettings == o.settings.(magic := Flash.SETTINGS_MAGIC)
            && store.lastChangeTime == now && store.currentSequence == old(store.currentSequence))
  {
    var index := CdcCommands.JsonGetInt(json, "index");
    ghost var o := SaveOutcome(store.GetSettings(), index, EditOf(json), builtin);
    if index.None? {
      return CdcCommands.Error("missing index");
    }
    var i := index.value;
    if i != 255 && IsBuiltin(builtin, i) {
      return CdcCommands.Error("cannot modify built-in profile");
    }
    if !store.runtimeLoaded {
      return CdcCommands.Error("flash not initialized");
    }
    var settings := store.runtimeSettings;
    var c: nat;
    var isNew := false;
    if i == 255 {
      if settings.customProfileCount as nat >= Flash.CUSTOM_PROFILE_MAX_COUNT {
        return CdcCommands.Error("max profiles reached");
      }
      c := settings.customProfileCount as nat;
      settings := settings.(customProfileCount := settings.customProfileCount + 1);
      i := CustomToUnified(builtin, c);
      isNew := true;
    } else {
      var u := UnifiedToCustom(builtin, i);
      if u < 0 || u >= settings.customProfileCount as int {
        return CdcCommands.Error("invalid index");
      }
      c := u;
    }
    var p := EditFields(settings.profiles[c], json, isNew, c);
    settings := settings.(profiles := settings.profiles[c := p]);
    reply := CdcCommands.Named(i, Shown(p.name));
    assert o == Done(settings, reply);
    store.runtimeSettings := settings;
    store.Save(settings, now);
  }

  /** The slots of the shifted table, one by one. */
  lemma ShiftedAt(t: Flash.ProfileTable, count: nat, c: nat, j: nat)
    requires c < count <= Flash.CUSTOM_PROFILE_MAX_COUNT && j < Flash.CUSTOM_PROFILE_MAX_COUNT
    ensures Shifted(t, count, c)[j] ==
      if j < c then t[j] else if j < count - 1 then t[j + 1] else if j == count - 1 then Flash.ZERO_PROFILE else t[j]
  {
    var front := t[..c] + t[c + 1..count];
    assert Shifted(t, count, c) == front + [Flash.ZERO_PROFILE] + t[count..];
    if j < count - 1 {
      assert Shifted(t, count, c)[j] == front[j];
    }
  }

  /**
   * The loop of `cmd_profile_delete`: every profile after the c-th moves
   * down one slot, then the freed last slot is zeroed.
   */
  method ShiftDown(t: Flash.ProfileTable, count: nat, c: nat) returns (table: Flash.ProfileTable)
    requires c < count <= Flash.CUSTOM_PROFILE_MAX_COUNT
    ensures table == Shifted(t, count, c)
  {
    table := t;
    var i := c;
    while i < count - 1
      invariant c <= i <= count - 1
      invariant forall j {:trigger table[j]} :: 0 <= j < Flash.CUSTOM_PROFILE_MAX_COUNT ==>
        table[j] == (if j < c then t[j] else if j < i then t[j + 1] else t[j])
    {
      table := table[i := table[i + 1]];
      i := i + 1;
    }
    table := table[count - 1 := Flash.ZERO_PROFILE];
    forall j | 0 <= j < Flash.CUSTOM_PROFILE_MAX_COUNT
      ensures table[j] == Shifted(t, count, c)[j]
    {
      ShiftedAt(t, count, c, j);
    }
  }

  /**
   * `cmd_profile_delete`: removes the profile from the runtime settings,
   * moves the active index along and asks `flash_save` to write them.
   */
  method ProfileDelete(store: Flash.Store, json: CString, builtin: nat, now: int) returns (reply: Reply)
    requires StoreInRange(store)
    modifies store
    ensures var o := DeleteOutcome(old(store.GetSettings()), CdcCommands.IntField(json, "index"), builtin);
      && (o.Refused? ==> reply == CdcCommands.Error(o.message) && unchanged(store))
      && (o.Done? ==>
            && reply == o.reply && store.runtimeLoaded && store.runtimeSettings == o.settings
            && store.savePending && store.pendingSettings == o.settings.(magic := Flash.SETTINGS_MAGIC)
            && store.lastChangeTime == now && store.currentSequence == old(store.currentSequence))
  {
    var index := CdcCommands.JsonGetInt(json, "index");
    ghost var o := DeleteOutcome(store.GetSettings(), index, builtin);
    if index.None? {
      return CdcCommands.Error("missing index");
    }
    if IsBuiltin(builtin, index.value) {
      return CdcCommands.Error("cannot delete built-in profile");
    }
    if !store.runtimeLoaded {
      return CdcCommands.Error("flash not initialized");
    }
    var settings := store.runtimeSettings;
    var c := UnifiedToCustom(builtin, index.value);
    if c < 0 || c >= settings.customProfileCount as int {
      return CdcCommands.Error("invalid index");
    }
    var count := settings.customProfileCount as nat;
    var table := ShiftDown(settings.profiles, count, c);
    var flashIndex := (c + 1) as byte;
    var active := settings.activeProfileIndex;
    if active > flashIndex {
      active := active - 1;
    } else if active == flashIndex {
      active := 0;
    }
    settings := settings.(customProfileCount := (count - 1) as byte, profiles := table, activeProfileIndex := active);
    reply := CdcCommands.Ok;
    assert o == Done(settings, reply);
    store.runtimeSettings := settings;
    store.Save(settings, now);
  }

  /**
   * `cmd_profile_clone`: appends the clone to the runtime settings and asks
   * `flash_save` to write them.
   */
  method ProfileClone(store: Flash.Store, json: CString, names: BuiltinNames, now: int) returns (reply: Reply)
    requires StoreInRange(store)
    modifies store
    ensures var o := CloneOutcome(old(store.GetSettings()), CdcCommands.IntField(json, "index"), CdcCommands.JsonGetString(json, "name"), names);
      && (o.Refused? ==> reply == CdcCommands.Error(o.message) && unchanged(store))
      && (o.Done? ==>
            && reply == o.reply && store.runtimeLoaded && store.runtimeSettings == o.settings
            && store.savePending && store.pendingSettings == o.settings.(magic := Flash.SETTINGS_MAGIC)
            && store.lastChangeTime == now && store.currentSequence == old(store.currentSequence))
  {
    var builtin := |names|;
    var index := CdcCommands.JsonGetInt(json, "index");
    var name := CdcCommands.JsonGetString(json, "name");
    ghost var o := CloneOutcome(store.GetSettings(), index, name, names);
    if index.None? {
      return CdcCommands.Error("missing index");
    }
    var i := index.value;
    var total := TotalCount(builtin, CustomCount(store.GetSettings()));
    if i < 0 || i >= total as int {
      return CdcCommands.Error("invalid source index");
    }
    if !store.runtimeLoaded {
      return CdcCommands.Error("flash not initialized");
    }
    var settings := store.runtimeSettings;
    if settings.customProfileCount as nat >= Flash.CUSTOM_PROFILE_MAX_COUNT {
      return CdcCommands.Error("max profiles reached");
    }
    var n := settings.customProfileCount as nat;
    var p := Cloned(settings, i, name, names);
    settings := settings.(customProfileCount := settings.customProfileCount + 1, profiles := settings.profiles[n := p]);
    reply := CdcCommands.Named(CustomToUnified(builtin, n), Shown(p.name));
    assert o == Done(settings, reply);
    store.runtimeSettings := settings;
    store.Save(settings, now);
  }

  /** The name PROFILE.SET replies with for a flash selection: the custom profile's, else "Default". */
  function SelectedName(settings: Option<Flash.Settings>, c: int): seq<char>
    requires CountInRange(settings)
  {
    if c >= 0 && settings.Some? && c < settings.value.customProfileCount as int then Shown(settings.value.profiles[c].name)
    else "Default"
  }

  /**
   * `cmd_profile_set`: a built-in index is handed back for
   * `profile_set_active`; any other index becomes the active flash index.
   */
  method ProfileSet(store: Flash.Store, json: CString, names: BuiltinNames, now: int) returns (reply: Reply, builtinIndex: Option<nat>)
    requires StoreInRange(store)
    modifies store
    ensures var index := CdcCommands.IntField(json, "index");
      var t := SetTarget(old(CustomCount(store.GetSettings())), index, |names|);
      && (t.NotSelected? ==> reply == CdcCommands.Error(t.message) && builtinIndex.None? && unchanged(store))
      && (t.SelectBuiltin? ==>
            reply == CdcCommands.Named(t.index, NameOr(names[t.index])) && builtinIndex == Some(t.index) && unchanged(store))
      && (t.SelectFlash? ==>
            && builtinIndex.None?
            && reply == CdcCommands.Named(index.value, SelectedName(old(store.GetSettings()), UnifiedToCustom(|names|, index.value)))
            && var chosen := Min(t.flashIndex as int, old(store.runtimeSettings.customProfileCount) as int) as byte;
              && (old(store.runtimeLoaded) ==> store.runtimeSettings == old(store.runtimeSettings).(activeProfileIndex := chosen))
              && (!old(store.runtimeLoaded) ==> unchanged(store)))
  {
    var builtin := |names|;
    var index := CdcCommands.JsonGetInt(json, "index");
    ghost var t := SetTarget(CustomCount(store.GetSettings()), index, builtin);
    builtinIndex := None;
    if index.None? {
      return CdcCommands.Error("missing index"), None;
    }
    var i := index.value;
    var total := TotalCount(builtin, CustomCount(store.GetSettings()));
    if i < 0 || i >= total as int {
      return CdcCommands.Error("invalid index"), None;
    }
    if builtin > 0 && i < builtin {
      return CdcCommands.Named(i, NameOr(names[i])), Some(i);
    }
    var c := UnifiedToCustom(builtin, i);
    var flashIndex := if c < 0 then 0 else c + 1;
    assert t == SelectFlash((flashIndex % 256) as byte);
    ghost var before := store.GetSettings();
    store.SetActiveProfileIndex((flashIndex % 256) as byte, now);
    assert SelectedName(store.GetSettings(), c) == SelectedName(before, c);
    reply := CdcCommands.Named(i, SelectedName(store.GetSettings(), c));
  }
}

=== FILE: cdc_protocol.dfy ===
/**
 * The device side of the binary CDC protocol: the CRC loop, the receiver
 * state machine that takes one byte at a time, and the transmitter that
 * frames a payload into a packet buffer.
 *
 * The receiver is specified by `Step` on a value view of its fields
 * (`Receiver`); `Run` folds `Step` over a byte stream. Frames use the layout and
 * CRC of `CdcHost.BuildPacket`, which `Protocol.Send` is proved to emit.
 */
module CdcProtocol {
  import opened Common
  import Crc16
  import CdcHost

  const CDC_MAX_PAYLOAD: nat := 512
  const CDC_HEADER_SIZE: nat := 5
  const CDC_CRC_SIZE: nat := 2
  const CDC_MAX_PACKET: nat := CDC_HEADER_SIZE + CDC_MAX_PAYLOAD + CDC_CRC_SIZE

  /** `cdc_crc16`: the same two loops as the host tool, over `len` bytes of a buffer. */
  method CdcCrc16(data: array<byte>, len: nat) returns (crc: u16)
    requires len <= data.Length
    ensures crc == Crc16.Crc(data[..len])
  {
    ghost var msg := data[..len];
    var reg: nat := 0xFFFF;
    for i := 0 to len
      invariant reg < 0x10000 && reg == Crc16.Register(msg, i)
    {
      var b: nat := data[i];
      assert msg[i] == b;
      reg := Xor(reg, b * 256);
      assert reg == Crc16.Clocked(msg, i, 0);
      for j := 0 to 8
        invariant reg < 0x10000 && reg == Crc16.Clocked(msg, i, j)
      {
        reg := Clock(reg);
      }
    }
    crc := reg;
  }

  /** One pass of the inner loop of `cdc_crc16`: shift left, feeding the polynomial back on a carry. */
  method Clock(reg: u16) returns (next: u16)
    ensures next == Crc16.ShiftBit(reg)
  {
    // `crc << 1` is computed in int; the assignment keeps 16 bits.
    if (reg / 0x8000) % 2 == 1 {
      next := Xor(reg * 2, 0x1021) % 0x10000;
    } else {
      next := (reg * 2) % 0x10000;
    }
    Crc16.ClockStep(reg);
  }

  datatype RxState = RxSync | RxLenLo | RxLenHi | RxType | RxSeq | RxPayload | RxCrcLo | RxCrcHi

  /** The fields of `cdc_receiver_t`; `payload` is the whole 512-byte buffer. */
  datatype Receiver = Receiver(state: RxState, length: u16, msgType: byte, seqNo: byte,
                   payload: seq<byte>, payloadPos: u16, crcReceived: u16)

  /** What the receiver keeps true between bytes. */
  predicate RxValid(r: Receiver) {
    && |r.payload| == CDC_MAX_PAYLOAD
    && (r.state == RxLenHi ==> r.length < 256)
    && (r.state.RxLenLo? || r.state.RxLenHi? || r.state.RxType? || r.state.RxSeq? ==> r.payloadPos == 0)
    && (!r.state.RxSync? && !r.state.RxLenLo? && !r.state.RxLenHi? ==> r.length <= CDC_MAX_PAYLOAD)
    && (r.state == RxPayload ==> r.payloadPos < r.length)
    && (r.state.RxCrcLo? || r.state.RxCrcHi? ==> r.payloadPos == r.length)
    && (r.state == RxCrcHi ==> r.crcReceived < 256)
  }

  /** What a byte makes the receiver do besides changing its fields. */
  datatype Effect =
    | Quiet
    | Delivered(msg: CdcHost.Message)
    | Nak(seqNo: byte)

  /** The bytes the CRC of the frame being received covers. */
  function CrcInputOf(r: Receiver): seq<byte>
    requires |r.payload| == CDC_MAX_PAYLOAD && r.length <= CDC_MAX_PAYLOAD
  {
    CdcHost.CrcInput(r.msgType, r.seqNo, r.payload[..r.length])
  }

  /** `cdc_protocol_rx_byte` on the value view: the new fields and the effect. */
  function Step(r: Receiver, b: byte): (res: (Receiver, Effect))
    requires RxValid(r)
    ensures RxValid(res.0)
  {
    match r.state
    case RxSync =>
      if b == CdcHost.CDC_SYNC then (r.(state := RxLenLo, payloadPos := 0), Quiet) else (r, Quiet)
    case RxLenLo =>
      (r.(length := b, state := RxLenHi), Quiet)
    case RxLenHi =>
      // The low byte is below 256, so OR-ing in `byte << 8` adds it.
      var len := U16(r.length, b);
      (r.(length := len, state := if len > CDC_MAX_PAYLOAD then RxSync else RxType), Quiet)
    case RxType =>
      (r.(msgType := b, state := RxSeq), Quiet)
    case RxSeq =>
      (r.(seqNo := b, state := if r.length == 0 then RxCrcLo else RxPayload), Quiet)
    case RxPayload =>
      var pos := r.payloadPos + 1;
      (r.(payload := r.payload[r.payloadPos := b], payloadPos := pos,
          state := if pos >= r.length then RxCrcLo else RxPayload), Quiet)
    case RxCrcLo =>
      (r.(crcReceived := b, state := RxCrcHi), Quiet)
    case RxCrcHi =>
      EndOfFrame(r, b)
  }

  /** The CRC_HI case: back to SYNC, delivering the frame when its CRC matches and NAK-ing it otherwise. */
  function EndOfFrame(r: Receiver, b: byte): (res: (Receiver, Effect))
    requires RxValid(r) && r.state == RxCrcHi
    ensures RxValid(res.0) && res.0.state == RxSync
  {
    var received := U16(r.crcReceived, b);
    var next := r.(crcReceived := received, state := RxSync);
    if Crc16.Crc(CrcInputOf(r)) == received then
      (next, Delivered(CdcHost.Message(r.msgType, r.seqNo, r.payload[..r.length])))
    else (next, Nak(r.seqNo))
  }

  /** The receiver fed a stream of bytes: its final fields and the effects, in order, that were not quiet. */
  function Run(r: Receiver, bytes: seq<byte>): (res: (Receiver, seq<Effect>))
    requires RxValid(r)
    ensures RxValid(res.0)
    decreases |bytes|
  {
    if |bytes| == 0 then (r, [])
    else
      var first := Step(r, bytes[0]);
      var rest := Run(first.0, bytes[1..]);
      (rest.0, Noted(first.1) + rest.1)
  }

  /** The effect of one byte as a list: empty when it was quiet. */
  function Noted(e: Effect): seq<Effect> {
    if e.Quiet? then [] else [e]
  }

  lemma RunCons(r: Receiver, b: byte, rest: seq<byte>)
    requires RxValid(r)
    ensures Run(r, [b] + rest).0 == Run(Step(r, b).0, rest).0
    ensures Run(r, [b] + rest).1 == Noted(Step(r, b).1) + Run(Step(r, b).0, rest).1
  {
    assert ([b] + rest)[1..] == rest;
  }

  /** Feeding one more byte moves the receiver by one `Step` and adds that step's effect. */
  lemma RunSnoc(r: Receiver, a: seq<byte>, b: byte)
    requires RxValid(r)
    ensures Run(r, a + [b]).0 == Step(Run(r, a).0, b).0
    ensures Run(r, a + [b]).1 == Run(r, a).1 + Noted(Step(Run(r, a).0, b).1)
  {
    RunAppend(r, a, [b]);
    RunCons(Run(r, a).0, b, []);
    assert [b] + [] == [b];
    assert Noted(Step(Run(r, a).0, b).1) + [] == Noted(Step(Run(r, a).0, b).1);
  }

  /** The messages among some effects, in order. */
  function Messages(effects: seq<Effect>): (msgs: seq<CdcHost.Message>)
    ensures |msgs| <= |effects|
    decreases |effects|
  {
    if |effects| == 0 then []
    else
      var last := effects[|effects| - 1];
      Messages(effects[..|effects| - 1]) + (if last.Delivered? then [last.msg] else [])
  }

  /** The NAK frames sent for some effects, in order. */
  function NakFrames(effects: seq<Effect>): (frames: seq<seq<byte>>)
    ensures |frames| <= |effects|
    decreases |effects|
  {
    if |effects| == 0 then []
    else
      var last := effects[|effects| - 1];
      NakFrames(effects[..|effects| - 1]) + (if last.Nak? then [CdcHost.BuildPacket(CdcHost.MSG_NAK, last.seqNo, [])] else [])
  }

  /** `cmd_seq` after some effects: the seq of the last CMD delivered, if any. */
  function LastCmdSeq(cmdSeq: byte, effects: seq<Effect>): byte
    decreases |effects|
  {
    if |effects| == 0 then cmdSeq
    else
      var last := effects[|effects| - 1];
      if last.Delivered? && last.msg.msgType == CdcHost.MSG_CMD then last.msg.seqNo
      else LastCmdSeq(cmdSeq, effects[..|effects| - 1])
  }

  /** One more effect extends the three summaries by that effect alone. */
  lemma NotedSummaries(effects: seq<Effect>, e: Effect, cmdSeq: byte)
    ensures Messages(effects + Noted(e)) == Messages(effects) + (if e.Delivered? then [e.msg] else [])
    ensures NakFrames(effects + Noted(e)) == NakFrames(effects) + (if e.Nak? then [CdcHost.BuildPacket(CdcHost.MSG_NAK, e.seqNo, [])] else [])
    ensures LastCmdSeq(cmdSeq, effects + Noted(e))
      == if e.Delivered? && e.msg.msgType == CdcHost.MSG_CMD then e.msg.seqNo else LastCmdSeq(cmdSeq, effects)
  {
    if e.Quiet? {
      assert effects + Noted(e) == effects;
    } else {
      assert (effects + [e])[..|effects|] == effects;
    }
  }

  /** The summaries of two runs of effects, one after the other. */
  lemma {:induction false} SummariesAppend(a: seq<Effect>, b: seq<Effect>, cmdSeq: byte)
    ensures Messages(a + b) == Messages(a) + Messages(b)
    ensures NakFrames(a + b) == NakFrames(a) + NakFrames(b)
    ensures LastCmdSeq(cmdSeq, a + b) == LastCmdSeq(LastCmdSeq(cmdSeq, a), b)
    decreases |b|
  {
    if |b| == 0 {
      assert a + b == a;
    } else {
      var init := b[..|b| - 1];
      assert (a + b)[..|a + b| - 1] == a + init;
      SummariesAppend(a, init, cmdSeq);
    }
  }

  /** One byte fed to the receiver: its step, and its effect as summaries. */
  lemma RunOne(r: Receiver, b: byte, cmdSeq: byte)
    requires RxValid(r)
    ensures var e := Step(r, b).1;
      var run := Run(r, [b]);
      && run.0 == Step(r, b).0
      && Messages(run.1) == (if e.Delivered? then [e.msg] else [])
      && NakFrames(run.1) == (if e.Nak? then [CdcHost.BuildPacket(CdcHost.MSG_NAK, e.seqNo, [])] else [])
      && LastCmdSeq(cmdSeq, run.1) == (if e.Delivered? && e.msg.msgType == CdcHost.MSG_CMD then e.msg.seqNo else cmdSeq)
  {
    RunSnoc(r, [], b);
    assert [] + [b] == [b];
    NotedSummaries([], Step(r, b).1, cmdSeq);
  }

  /** No bytes, no change and no effects. */
  lemma RunNone(r: Receiver, cmdSeq: byte)
    requires RxValid(r)
    ensures Run(r, []).0 == r && Messages(Run(r, []).1) == [] && NakFrames(Run(r, []).1) == []
    ensures LastCmdSeq(cmdSeq, Run(r, []).1) == cmdSeq
  {
  }

  /** Feeding two streams one after the other is feeding their concatenation. */
  lemma {:induction false} RunAppend(r: Receiver, a: seq<byte>, b: seq<byte>)
    requires RxValid(r)
    ensures Run(r, a + b).0 == Run(Run(r, a).0, b).0
    ensures Run(r, a + b).1 == Run(r, a).1 + Run(Run(r, a).0, b).1
    decreases |a|
  {
    if |a| == 0 {
      assert a + b == b;
      assert Run(r, a) == (r, []);
      assert [] + Run(r, b).1 == Run(r, b).1;
    } else {
      var st := Step(r, a[0]);
      HeadTail(a, b);
      RunCons(r, a[0], a[1..] + b);
      RunCons(r, a[0], a[1..]);
      RunAppend(st.0, a[1..], b);
      var mid := Run(st.0, a[1..]);
      AppendTwice(Noted(st.1), mid.1, Run(mid.0, b).1);
    }
  }

  /** In SYNC, any byte other than 0xAA changes nothing. */
  lemma SyncIgnoresNoise(r: Receiver, b: byte)
    requires RxValid(r) && r.state == RxSync && b != CdcHost.CDC_SYNC
    ensures Step(r, b) == (r, Quiet)
  {
  }

  /** A declared length above 512 sends the receiver back to SYNC; otherwise it goes on to TYPE. */
  lemma OversizeResyncs(r: Receiver, b: byte)
    requires RxValid(r) && r.state == RxLenHi
    ensures var s := Step(r, b).0;
      s.length == r.length + 256 * b
      && (s.state == RxSync <==> r.length + 256 * b > CDC_MAX_PAYLOAD)
      && (s.state != RxSync ==> s.state == RxType)
  {
  }

  /**
   * After the CRC high byte the receiver is in SYNC whatever the outcome; it
   * delivers exactly when the CRC matches and otherwise NAKs the frame's seq.
   */
  lemma CrcHiOutcome(r: Receiver, b: byte)
    requires RxValid(r) && r.state == RxCrcHi
    ensures var (s, e) := Step(r, b);
      var matches := Crc16.Crc(CrcInputOf(r)) == U16(r.crcReceived, b);
      && s.state == RxSync
      && (e.Delivered? <==> matches)
      && (e.Delivered? ==> e.msg == CdcHost.Message(r.msgType, r.seqNo, r.payload[..r.length]))
      && (!matches ==> e == Nak(r.seqNo))
  {
  }

  /** Only the CRC high byte has an effect. */
  lemma OnlyCrcHiActs(r: Receiver, b: byte)
    requires RxValid(r) && r.state != RxCrcHi
    ensures Step(r, b).1 == Quiet
  {
  }

  /** In PAYLOAD, bytes are stored in order and the position never passes the length. */
  lemma PayloadStored(r: Receiver, b: byte)
    requires RxValid(r) && r.state == RxPayload
    ensures var s := Step(r, b).0;
      && s.payloadPos == r.payloadPos + 1 <= r.length
      && s.payload == r.payload[r.payloadPos := b]
      && (s.state == RxCrcLo <==> s.payloadPos == r.length)
      && (s.state != RxCrcLo ==> s.state == RxPayload)
  {
  }

  /** The receiver in PAYLOAD with the first `r.payloadPos` bytes of `p` stored. */
  predicate Receiving(r: Receiver, t: byte, s: byte, p: seq<byte>) {
    && RxValid(r) && r.state == RxPayload
    && r.length as int == |p| && r.msgType == t && r.seqNo == s
    && r.payload[..r.payloadPos] == p[..r.payloadPos]
  }

  /** The receiver after a whole payload `p`, waiting for the CRC. */
  predicate AwaitingCrc(r: Receiver, t: byte, s: byte, p: seq<byte>) {
    && RxValid(r) && r.state == RxCrcLo
    && r.length as int == |p| && r.msgType == t && r.seqNo == s
    && r.payload[..r.length] == p
  }

  /** The rest of a payload takes the receiver from `Receiving` to `AwaitingCrc`, quietly. */
  lemma {:induction false} RunPayload(r: Receiver, t: byte, s: byte, p: seq<byte>, tail: seq<byte>)
    requires Receiving(r, t, s, p)
    ensures var x := Run(r, p[r.payloadPos..]).0;
      AwaitingCrc(x, t, s, p) && Run(r, p[r.payloadPos..]).1 == []
    decreases |p| - r.payloadPos as int
  {
    var i := r.payloadPos as int;
    var rest := p[i..];
    assert rest == [p[i]] + p[i + 1..];
    RunCons(r, p[i], p[i + 1..]);
    var next := Step(r, p[i]).0;
    assert next.payload[..i + 1] == p[..i + 1] by {
      assert next.payload == r.payload[i := p[i]];
      assert r.payload[..i] == p[..i];
    }
    if i + 1 < |p| {
      RunPayload(next, t, s, p, tail);
    } else {
      assert p[i + 1..] == [];
      assert next.payload[..next.length] == p;
    }
  }

  /** Outside CRC_HI, the byte at the head of a stream only moves the receiver. */
  lemma RunQuiet(r: Receiver, bytes: seq<byte>)
    requires RxValid(r) && |bytes| > 0 && r.state != RxCrcHi
    ensures Run(r, bytes).0 == Run(Step(r, bytes[0]).0, bytes[1..]).0
    ensures Run(r, bytes).1 == Run(Step(r, bytes[0]).0, bytes[1..]).1
  {
    assert bytes == [bytes[0]] + bytes[1..];
    RunCons(r, bytes[0], bytes[1..]);
    assert Noted(Quiet) == [];
  }

  /** A header with length bytes `lo`, `hi` leaves the receiver with that length, type and seq. */
  lemma HeaderBytes(r: Receiver, lo: byte, hi: byte, t: byte, s: byte)
    requires RxValid(r) && r.state == RxSync && U16(lo, hi) <= CDC_MAX_PAYLOAD
    ensures Run(r, [CdcHost.CDC_SYNC, lo, hi, t, s]) ==
      (r.(state := if U16(lo, hi) == 0 then RxCrcLo else RxPayload, length := U16(lo, hi),
          msgType := t, seqNo := s, payloadPos := 0), [])
  {
    var hdr := [CdcHost.CDC_SYNC, lo, hi, t, s];
    var r1 := r.(state := RxLenLo, payloadPos := 0);
    var r2 := r1.(length := lo, state := RxLenHi);
    var r3 := r2.(length := U16(lo, hi), state := RxType);
    var r4 := r3.(msgType := t, state := RxSeq);
    RunQuiet(r, hdr);
    RunQuiet(r1, hdr[1..]);
    RunQuiet(r2, hdr[2..]);
    RunQuiet(r3, hdr[3..]);
    RunQuiet(r4, hdr[4..]);
  }

  /** The five header bytes take the receiver from SYNC to the payload (or, when empty, the CRC). */
  lemma RunHeader(r: Receiver, t: byte, s: byte, p: seq<byte>)
    requires RxValid(r) && r.state == RxSync && |p| <= CDC_MAX_PAYLOAD
    ensures var hdr := [CdcHost.CDC_SYNC, LoByte(|p|), HiByte(|p|), t, s];
      var x := Run(r, hdr).0;
      && Run(r, hdr).1 == []
      && (|p| == 0 ==> AwaitingCrc(x, t, s, p))
      && (|p| > 0 ==> Receiving(x, t, s, p) && x.payloadPos == 0)
  {
    U16OfBytes(|p|);
    HeaderBytes(r, LoByte(|p|), HiByte(|p|), t, s);
    if |p| == 0 {
      HeaderEmpty(r, t, s, p);
    } else {
      HeaderNonEmpty(r, t, s, p);
    }
  }

  lemma HeaderEmpty(r: Receiver, t: byte, s: byte, p: seq<byte>)
    requires RxValid(r) && |p| == 0
    ensures AwaitingCrc(r.(state := RxCrcLo, length := 0, msgType := t, seqNo := s, payloadPos := 0), t, s, p)
  {
  }

  lemma HeaderNonEmpty(r: Receiver, t: byte, s: byte, p: seq<byte>)
    requires RxValid(r) && 0 < |p| <= CDC_MAX_PAYLOAD
    ensures Receiving(r.(state := RxPayload, length := |p|, msgType := t, seqNo := s, payloadPos := 0), t, s, p)
  {
  }

  /** The bytes of a frame with the given fields and CRC field, whether or not the CRC is right. */
  function Frame(t: byte, s: byte, p: seq<byte>, crc: u16): (f: seq<byte>)
    requires |p| <= CDC_MAX_PAYLOAD
    ensures |f| == CdcHost.FRAME_OVERHEAD + |p|
  {
    [CdcHost.CDC_SYNC, LoByte(|p|), HiByte(|p|), t, s] + p + [LoByte(crc), HiByte(crc)]
  }

  /** What the CRC high byte of such a frame makes the receiver do. */
  function Verdict(t: byte, s: byte, p: seq<byte>, crc: u16): Effect {
    if Crc16.Crc(CdcHost.CrcInput(t, s, p)) == crc then Delivered(CdcHost.Message(t, s, p)) else Nak(s)
  }

  /** The two CRC bytes end the frame: deliver on a match, NAK otherwise, and back to SYNC either way. */
  lemma RunCrc(r: Receiver, t: byte, s: byte, p: seq<byte>, crc: u16)
    requires AwaitingCrc(r, t, s, p)
    ensures var res := Run(r, [LoByte(crc), HiByte(crc)]);
      res.0.state == RxSync && res.1 == [Verdict(t, s, p, crc)]
  {
    var tl := [LoByte(crc), HiByte(crc)];
    var r1 := Step(r, tl[0]).0;
    RunQuiet(r, tl);
    RunCons(r1, tl[1], tl[2..]);
    assert tl[2..] == [];
    U16OfBytes(crc);
    assert CrcInputOf(r1) == CdcHost.CrcInput(t, s, p);
  }

  /**
   * From SYNC, a whole frame makes the receiver return to SYNC with exactly
   * one effect: the message when its CRC field matches, a NAK of its seq
   * otherwise.
   */
  lemma RunFrame(r: Receiver, t: byte, s: byte, p: seq<byte>, crc: u16)
    requires RxValid(r) && r.state == RxSync && |p| <= CDC_MAX_PAYLOAD
    ensures var res := Run(r, Frame(t, s, p, crc));
      res.0.state == RxSync && res.1 == [Verdict(t, s, p, crc)]
  {
    var hdr := [CdcHost.CDC_SYNC, LoByte(|p|), HiByte(|p|), t, s];
    var tl := [LoByte(crc), HiByte(crc)];
    assert Frame(t, s, p, crc) == hdr + (p + tl);
    RunHeader(r, t, s, p);
    RunAppend(r, hdr, p + tl);
    var x := Run(r, hdr).0;
    RunAppend(x, p, tl);
    if |p| > 0 {
      RunPayload(x, t, s, p, tl);
      assert p[x.payloadPos..] == p;
    }
    RunCrc(Run(x, p).0, t, s, p, crc);
  }

  /**
   * Host and device agree: from SYNC, the bytes of a frame the host tool
   * builds make the receiver deliver exactly that message and return to SYNC.
   */
  lemma ReceivesBuiltFrame(r: Receiver, t: byte, s: byte, p: seq<byte>)
    requires RxValid(r) && r.state == RxSync && |p| <= CDC_MAX_PAYLOAD
    ensures var res := Run(r, CdcHost.BuildPacket(t, s, p));
      res.0.state == RxSync && res.1 == [Delivered(CdcHost.Message(t, s, p))]
  {
    RunFrame(r, t, s, p, Crc16.Crc(CdcHost.CrcInput(t, s, p)));
  }

  /** Consecutive built frames, as a byte stream. */
  function Stream(msgs: seq<CdcHost.Message>): (bytes: seq<byte>)
    requires forall i :: 0 <= i < |msgs| ==> |msgs[i].payload| <= CDC_MAX_PAYLOAD
    decreases |msgs|
  {
    if |msgs| == 0 then []
    else CdcHost.BuildPacket(msgs[0].msgType, msgs[0].seqNo, msgs[0].payload) + Stream(msgs[1..])
  }

  /** A stream of frames is delivered message by message, in order. */
  lemma {:induction false} ReceivesStream(r: Receiver, msgs: seq<CdcHost.Message>)
    requires RxValid(r) && r.state == RxSync
    requires forall i :: 0 <= i < |msgs| ==> |msgs[i].payload| <= CDC_MAX_PAYLOAD
    ensures var res := Run(r, Stream(msgs));
      res.0.state == RxSync
      && |res.1| == |msgs|
      && forall i :: 0 <= i < |msgs| ==> res.1[i] == Delivered(msgs[i])
    decreases |msgs|
  {
    if |msgs| > 0 {
      var m := msgs[0];
      var f := CdcHost.BuildPacket(m.msgType, m.seqNo, m.payload);
      ReceivesBuiltFrame(r, m.msgType, m.seqNo, m.payload);
      RunAppend(r, f, Stream(msgs[1..]));
      ReceivesStream(Run(r, f).0, msgs[1..]);
    }
  }

  /**
   * A frame damaged in one byte of its type, seq or payload still reads as a
   * frame of the same length with the original CRC field, and that field no
   * longer matches.
   */
  lemma DamagedFrame(t: byte, s: byte, p: seq<byte>, k: nat, v: byte)
    requires |p| <= CDC_MAX_PAYLOAD && 3 <= k < 5 + |p|
    requires CdcHost.BuildPacket(t, s, p)[k] != v
    ensures var bad := CdcHost.BuildPacket(t, s, p)[k := v];
      var crc := Crc16.Crc(CdcHost.CrcInput(t, s, p));
      && bad == Frame(bad[3], bad[4], bad[5..5 + |p|], crc)
      && Crc16.Crc(CdcHost.CrcInput(bad[3], bad[4], bad[5..5 + |p|])) != crc
  {
    var f := CdcHost.BuildPacket(t, s, p);
    var bad := f[k := v];
    CdcHost.BuildPacketLayout(t, s, p);
    var t2, s2, p2 := bad[3], bad[4], bad[5..5 + |p|];
    var crc := Crc16.Crc(CdcHost.CrcInput(t, s, p));
    var a := CdcHost.CrcInput(t, s, p);
    assert CdcHost.CrcInput(t2, s2, p2) == a[k - 3 := v] by {
      CdcHost.SliceOfUpdate(f, 3, 5 + |p|, k, v);
      assert bad[3..5 + |p|] == [t2, s2] + p2;
    }
    Crc16.DetectsSingleByteError(a, k - 3, v);
    assert bad == Frame(t2, s2, p2, crc);
  }

  /**
   * A frame damaged in its type, seq or payload is answered with one NAK and
   * costs nothing more: the receiver is back in SYNC at the end of it, so the
   * frames behind it are delivered (unlike the host tool's pass, which stalls).
   */
  lemma CorruptedFrameNaked(r: Receiver, t: byte, s: byte, p: seq<byte>, k: nat, v: byte)
    requires RxValid(r) && r.state == RxSync && |p| <= CDC_MAX_PAYLOAD
    requires 3 <= k < 5 + |p|
    requires CdcHost.BuildPacket(t, s, p)[k] != v
    ensures var bad := CdcHost.BuildPacket(t, s, p)[k := v];
      var res := Run(r, bad);
      && res.0.state == RxSync
      && res.1 == [Nak(bad[4])]
  {
    var bad := CdcHost.BuildPacket(t, s, p)[k := v];
    DamagedFrame(t, s, p, k, v);
    RunFrame(r, bad[3], bad[4], bad[5..5 + |p|], Crc16.Crc(CdcHost.CrcInput(t, s, p)));
  }

  /** The data port of the CDC interface (`cdc_data_write`); the USB stack is reduced to a log. */
  class DataPort {
    /** Whether the host has the port open. */
    var connected: bool
    /** Everything written to the port, one entry per write. */
    var written: seq<seq<byte>>

    constructor (connected: bool)
      ensures this.connected == connected && written == []
    {
      this.connected := connected;
      written := [];
    }

    /** Writes `len` bytes of `buffer` when the port is open; returns how many were written. */
    method Write(buffer: array<byte>, len: nat) returns (n: nat)
      requires len <= buffer.Length
      modifies this
      ensures connected == old(connected)
      ensures connected ==> n == len && written == old(written) + [buffer[..len]]
      ensures !connected ==> n == 0 && written == old(written)
    {
      if !connected {
        return 0;
      }
      written := written + [buffer[..len]];
      n := len;
    }
  }

  /** `cdc_protocol_t`: the receiver, the sequence numbers, the handler and the data port. */
  class Protocol {
    var state: RxState
    var length: u16
    var msgType: byte
    var seqNo: byte
    /** `packet.payload`, the 512-byte receive buffer. */
    const payload: array<byte>
    var payloadPos: u16
    var crcReceived: u16
    var txSeq: byte
    var cmdSeq: byte
    var inputStreaming: bool
    /** Whether a packet handler was registered. */
    var hasHandler: bool
    /** Messages passed to the handler, oldest first. */
    var handled: seq<CdcHost.Message>
    const port: DataPort

    function View(): Receiver
      reads this, payload
    {
      Receiver(state, length, msgType, seqNo, payload[..], payloadPos, crcReceived)
    }

    /** The fields outside the receiver. */
    function Others(): (byte, byte, bool, bool, seq<CdcHost.Message>)
      reads this
    {
      (txSeq, cmdSeq, inputStreaming, hasHandler, handled)
    }

    predicate Valid()
      reads this, payload
    {
      RxValid(View())
    }

    /** `cdc_protocol_init`: everything zero, the receiver in SYNC. */
    constructor (hasHandler: bool, port: DataPort)
      ensures Valid() && fresh(payload)
      ensures View() == Receiver(RxSync, 0, 0, 0, seq(CDC_MAX_PAYLOAD, _ => 0), 0, 0)
      ensures txSeq == 0 && cmdSeq == 0 && !inputStreaming
      ensures this.hasHandler == hasHandler && handled == [] && this.port == port
    {
      state := RxSync;
      length := 0;
      msgType := 0;
      seqNo := 0;
      payload := new byte[CDC_MAX_PAYLOAD](_ => 0);
      payloadPos := 0;
      crcReceived := 0;
      txSeq := 0;
      cmdSeq := 0;
      inputStreaming := false;
      this.hasHandler := hasHandler;
      handled := [];
      this.port := port;
    }

    /** `cdc_protocol_rx_reset`. */
    method RxReset()
      requires Valid()
      modifies this
      ensures Valid() && View() == old(View()).(state := RxSync, payloadPos := 0)
      ensures txSeq == old(txSeq) && cmdSeq == old(cmdSeq) && handled == old(handled)
    {
      state := RxSync;
      payloadPos := 0;
    }

    /**
     * `cdc_protocol_rx_byte`: one byte through the state machine. Returns true
     * exactly when it completed a frame whose CRC matches.
     */
    method RxByte(b: byte) returns (ok: bool)
      requires Valid()
      modifies this, payload, port
      ensures Valid()
      ensures View() == Step(old(View()), b).0
      ensures var e := Step(old(View()), b).1;
        && ok == e.Delivered?
        && cmdSeq == (if e.Delivered? && e.msg.msgType == CdcHost.MSG_CMD then e.msg.seqNo else old(cmdSeq))
        && handled == old(handled) + (if e.Delivered? && hasHandler then [e.msg] else [])
        && port.written == old(port.written)
             + (if e.Nak? && port.connected then [CdcHost.BuildPacket(CdcHost.MSG_NAK, e.seqNo, [])] else [])
      ensures txSeq == old(txSeq) && hasHandler == old(hasHandler) && inputStreaming == old(inputStreaming)
      ensures port.connected == old(port.connected)
    {
      if state == RxCrcHi {
        ok := EndFrame(b);
      } else {
        OnlyCrcHiActs(View(), b);
        Advance(b);
        ok := false;
      }
    }

    /** The cases of `cdc_protocol_rx_byte` before the last CRC byte: fields change, nothing else happens. */
    method Advance(b: byte)
      requires Valid() && state != RxCrcHi
      modifies this, payload
      ensures Valid()
      ensures View() == Step(old(View()), b).0
      ensures Others() == old(Others())
    {
      if state == RxPayload {
        StoreByte(b);
      } else if state == RxCrcLo {
        crcReceived := b;
        state := RxCrcHi;
      } else if state == RxSync || state == RxLenLo || state == RxLenHi {
        Length(b);
      } else {
        TypeAndSeq(b);
      }
    }

    /** SYNC, LEN_LO and LEN_HI: the sync byte and the declared length. */
    method Length(b: byte)
      requires Valid() && (state == RxSync || state == RxLenLo || state == RxLenHi)
      modifies this
      ensures Valid()
      ensures View() == Step(old(View()), b).0
      ensures Others() == old(Others())
    {
      match state
      case RxSync =>
        if b == CdcHost.CDC_SYNC {
          state := RxLenLo;
          payloadPos := 0;
        }
      case RxLenLo =>
        length := b;
        state := RxLenHi;
      case RxLenHi =>
        length := U16(length, b);
        if length > CDC_MAX_PAYLOAD {
          state := RxSync;
        } else {
          state := RxType;
        }
    }

    /** TYPE and SEQ; a zero length skips PAYLOAD. */
    method TypeAndSeq(b: byte)
      requires Valid() && (state == RxType || state == RxSeq)
      modifies this
      ensures Valid()
      ensures View() == Step(old(View()), b).0
      ensures Others() == old(Others())
    {
      if state == RxType {
        msgType := b;
        state := RxSeq;
      } else {
        seqNo := b;
        if length == 0 {
          state := RxCrcLo;
        } else {
          state := RxPayload;
        }
      }
    }

    /** The PAYLOAD case: the byte is stored and the position moves on, to CRC_LO at the end. */
    method StoreByte(b: byte)
      requires Valid() && state == RxPayload
      modifies this, payload
      ensures Valid()
      ensures View() == Step(old(View()), b).0
      ensures txSeq == old(txSeq) && cmdSeq == old(cmdSeq) && handled == old(handled)
      ensures hasHandler == old(hasHandler) && inputStreaming == old(inputStreaming)
    {
      payload[payloadPos] := b;
      payloadPos := payloadPos + 1;
      if payloadPos >= length {
        state := RxCrcLo;
      }
    }

    /**
     * The CRC_HI case: back to SYNC, then the CRC over the frame decides
     * between handing the message on and sending a NAK.
     */
    method EndFrame(b: byte) returns (ok: bool)
      requires Valid() && state == RxCrcHi
      modifies this, port
      ensures Valid()
      ensures View() == Step(old(View()), b).0
      ensures var e := Step(old(View()), b).1;
        && ok == e.Delivered?
        && cmdSeq == (if e.Delivered? && e.msg.msgType == CdcHost.MSG_CMD then e.msg.seqNo else old(cmdSeq))
        && handled == old(handled) + (if e.Delivered? && hasHandler then [e.msg] else [])
        && port.written == old(port.written)
             + (if e.Nak? && port.connected then [CdcHost.BuildPacket(CdcHost.MSG_NAK, e.seqNo, [])] else [])
      ensures txSeq == old(txSeq) && hasHandler == old(hasHandler) && inputStreaming == old(inputStreaming)
      ensures port.connected == old(port.connected)
    {
      ghost var r := View();
      CrcHiOutcome(r, b);
      crcReceived := U16(crcReceived, b);
      state := RxSync;
      var crcCalc := FrameCrc(msgType, seqNo, payload[..length]);
      assert crcCalc == Crc16.Crc(CrcInputOf(r));
      if crcCalc == crcReceived {
        Accept();
        ok := true;
      } else {
        var _ := SendNak(seqNo);
        ok := false;
      }
    }

    /** A frame whose CRC matches: a CMD's seq is remembered and the message goes to the handler. */
    method Accept()
      requires length <= CDC_MAX_PAYLOAD && payload.Length == CDC_MAX_PAYLOAD
      modifies this
      ensures View() == old(View())
      ensures var m := CdcHost.Message(msgType, seqNo, payload[..length]);
        && cmdSeq == (if msgType == CdcHost.MSG_CMD then seqNo else old(cmdSeq))
        && handled == old(handled) + (if hasHandler then [m] else [])
      ensures txSeq == old(txSeq) && hasHandler == old(hasHandler) && inputStreaming == old(inputStreaming)
    {
      if msgType == CdcHost.MSG_CMD {
        cmdSeq := seqNo;
      }
      if hasHandler {
        handled := handled + [CdcHost.Message(msgType, seqNo, payload[..length])];
      }
    }

    /** The CRC over type, seq and a payload, computed through a `crc_buf` copy as the firmware does. */
    static method FrameCrc(t: byte, s: byte, data: seq<byte>) returns (crc: u16)
      requires |data| <= CDC_MAX_PAYLOAD
      ensures crc == Crc16.Crc(CdcHost.CrcInput(t, s, data))
    {
      var crcBuf := new byte[2 + CDC_MAX_PAYLOAD];
      crcBuf[0] := t;
      crcBuf[1] := s;
      forall i | 0 <= i < |data| {
        crcBuf[2 + i] := data[i];
      }
      assert crcBuf[..2 + |data|] == CdcHost.CrcInput(t, s, data);
      crc := CdcCrc16(crcBuf, 2 + |data|);
    }

    /**
     * `cdc_protocol_send`: a payload over 512 bytes is refused with 0;
     * otherwise the frame written is the one the host tool builds.
     */
    method Send(t: byte, s: byte, data: seq<byte>) returns (n: u16)
      requires |data| <= 0xFFFF
      modifies port
      ensures port.connected == old(port.connected)
      ensures |data| > CDC_MAX_PAYLOAD ==> n == 0 && port.written == old(port.written)
      ensures |data| <= CDC_MAX_PAYLOAD && port.connected ==>
        n as int == CdcHost.FRAME_OVERHEAD + |data|
        && port.written == old(port.written) + [CdcHost.BuildPacket(t, s, data)]
      ensures |data| <= CDC_MAX_PAYLOAD && !port.connected ==> n == 0 && port.written == old(port.written)
    {
      if |data| > CDC_MAX_PAYLOAD {
        return 0;
      }
      var packet, pos := Encode(t, s, data);
      var written := port.Write(packet, pos);
      n := written;
    }

    /** The frame assembly of `cdc_protocol_send`, in a fresh buffer of `CDC_MAX_PACKET` bytes. */
    static method Encode(t: byte, s: byte, data: seq<byte>) returns (packet: array<byte>, pos: nat)
      requires |data| <= CDC_MAX_PAYLOAD
      ensures fresh(packet) && pos <= packet.Length
      ensures pos == CdcHost.FRAME_OVERHEAD + |data|
      ensures packet[..pos] == CdcHost.BuildPacket(t, s, data)
    {
      var len := |data|;
      packet := new byte[CDC_MAX_PACKET];
      Fill(packet, t, s, data);
      pos := 5 + len;
      var crc := FrameCrc(t, s, data);
      ghost var body := packet[..pos];
      packet[pos] := LoByte(crc);
      packet[pos + 1] := HiByte(crc);
      assert packet[..pos] == body;
      PrefixByTwo(packet[..], pos);
      pos := pos + 2;
    }

    /** The header fields and the payload, written from the start of `packet`. */
    static method Fill(packet: array<byte>, t: byte, s: byte, data: seq<byte>)
      requires |data| <= CDC_MAX_PAYLOAD && packet.Length == CDC_MAX_PACKET
      modifies packet
      ensures packet[..5 + |data|] == [CdcHost.CDC_SYNC, LoByte(|data|), HiByte(|data|), t, s] + data
    {
      var len := |data|;
      packet[0] := CdcHost.CDC_SYNC;
      packet[1] := LoByte(len);
      packet[2] := HiByte(len);
      packet[3] := t;
      packet[4] := s;
      ghost var header := packet[..5];
      assert header == [CdcHost.CDC_SYNC, LoByte(len), HiByte(len), t, s];
      forall i | 0 <= i < len {
        packet[5 + i] := data[i];
      }
      assert packet[..5 + len] == header + data by {
        assert packet[..5 + len][..5] == header;
        assert packet[..5 + len][5..] == data;
      }
    }

    /** `cdc_protocol_send_response`: a RSP carrying the seq of the last CMD received. */
    method SendResponse(json: seq<byte>) returns (n: u16)
      modifies port
      ensures port.connected == old(port.connected)
      ensures var len := |json| % 0x10000;
        len <= CDC_MAX_PAYLOAD && port.connected ==>
          port.written == old(port.written) + [CdcHost.BuildPacket(CdcHost.MSG_RSP, cmdSeq, json[..len])]
      ensures var len := |json| % 0x10000;
        !(len <= CDC_MAX_PAYLOAD && port.connected) ==> n == 0 && port.written == old(port.written)
    {
      // `strlen` is passed as the `uint16_t` length.
      var len := |json| % 0x10000;
      n := Send(CdcHost.MSG_RSP, cmdSeq, json[..len]);
    }

    /** `cdc_protocol_send_event`: an EVT with the next transmit seq, which wraps after 255. */
    method SendEvent(json: seq<byte>) returns (n: u16)
      modifies this, port
      ensures txSeq == CdcHost.NextSeq(old(txSeq))
      ensures port.connected == old(port.connected)
      ensures var len := |json| % 0x10000;
        len <= CDC_MAX_PAYLOAD && port.connected ==>
          port.written == old(port.written) + [CdcHost.BuildPacket(CdcHost.MSG_EVT, old(txSeq), json[..len])]
      ensures var len := |json| % 0x10000;
        !(len <= CDC_MAX_PAYLOAD && port.connected) ==> n == 0 && port.written == old(port.written)
      ensures View() == old(View()) && cmdSeq == old(cmdSeq) && handled == old(handled)
    {
      var s := txSeq;
      txSeq := (txSeq + 1) % 256;
      var len := |json| % 0x10000;
      n := Send(CdcHost.MSG_EVT, s, json[..len]);
    }

    /** `cdc_protocol_send_nak`: an empty NAK frame with the given seq. */
    method SendNak(s: byte) returns (n: u16)
      modifies port
      ensures port.connected == old(port.connected)
      ensures port.written == old(port.written) + (if port.connected then [CdcHost.BuildPacket(CdcHost.MSG_NAK, s, [])] else [])
    {
      n := Send(CdcHost.MSG_NAK, s, []);
    }
  }
}

=== FILE: common.dfy ===
/**
 * Shared vocabulary of the model: byte and word values, optional results,
 * the XOR that C and Python apply to non-negative integers, C integer
 * conversions, and the JP button masks every input driver and output mode
 * speaks.
 */
module Common {
  /** An unsigned 8-bit value (uint8_t, or an element of Python `bytes`). */
  type byte = x: int | 0 <= x < 256
  /** An unsigned 16-bit value (uint16_t). */
  type u16 = x: int | 0 <= x < 0x10000
  /** An unsigned 32-bit value (uint32_t). */
  type u32 = x: int | 0 <= x < 0x1_0000_0000
  /** A signed 8-bit value (int8_t). */
  type i8 = x: int | -0x80 <= x < 0x80

  datatype Option<T> = None | Some(value: T)

  function Pow2(k: nat): (p: nat)
    ensures p >= 1
  {
    if k == 0 then 1 else 2 * Pow2(k - 1)
  }

  /** The `^` operator on non-negative integers, one bit at a time from the bottom. */
  function Xor(a: nat, b: nat): nat
    decreases a + b
  {
    if a == 0 && b == 0 then 0
    else (if a % 2 == b % 2 then 0 else 1) + 2 * Xor(a / 2, b / 2)
  }

  lemma XorZero(a: nat)
    ensures Xor(a, 0) == a && Xor(0, a) == a
    decreases a
  {
    if a > 0 {
      XorZero(a / 2);
    }
  }

  lemma {:induction false} XorComm(a: nat, b: nat)
    ensures Xor(a, b) == Xor(b, a)
    decreases a + b
  {
    if a != 0 || b != 0 {
      XorComm(a / 2, b / 2);
    }
  }

  /** XOR with the same value can be undone: it is injective in its second argument. */
  lemma {:induction false} XorCancel(a: nat, b: nat, c: nat)
    requires Xor(a, b) == Xor(a, c)
    ensures b == c
    decreases b + c
  {
    var hb, hc := Xor(a / 2, b / 2), Xor(a / 2, c / 2);
    assert Xor(a, b) == (if a % 2 == b % 2 then 0 else 1) + 2 * hb;
    assert Xor(a, c) == (if a % 2 == c % 2 then 0 else 1) + 2 * hc;
    // The lowest bits agree, and so do the higher ones.
    assert b % 2 == c % 2 && hb == hc;
    if b + c > 0 {
      XorCancel(a / 2, b / 2, c / 2);
    }
  }

  /** Two k-bit values XOR to a k-bit value. */
  lemma {:induction false} XorBelow(a: nat, b: nat, k: nat)
    requires a < Pow2(k) && b < Pow2(k)
    ensures Xor(a, b) < Pow2(k)
    decreases k
  {
    if k > 0 {
      XorBelow(a / 2, b / 2, k - 1);
    }
  }

  /** Halving a number written as twice a half plus a low bit. */
  lemma HalfOf(x: nat, half: nat, low: nat)
    requires x == 2 * half + low && low < 2
    ensures x % 2 == low && x / 2 == half
  {
  }

  /** The arithmetic step of `XorHighBit`: the high bit doubles along with the rest. */
  lemma HighBitSum(whole: int, upper: int, rest: int, low: int, bit: int, q: int)
    requires whole == bit + 2 * upper && upper == q + rest && low == bit + 2 * rest
    ensures whole == 2 * q + low
  {
  }

  /** A bit above both operands passes through XOR unchanged. */
  lemma {:induction false} XorHighBit(a: nat, b: nat, k: nat)
    requires a < Pow2(k) && b < Pow2(k)
    ensures Xor(Pow2(k) + a, b) == Pow2(k) + Xor(a, b)
    decreases k
  {
    var p := Pow2(k);
    if k > 0 {
      var q := Pow2(k - 1);
      assert p == 2 * q;
      var half, low := a / 2, a % 2;
      HalfOf(p + a, q + half, low);
      XorHighBit(half, b / 2, k - 1);
      var bit := if low == b % 2 then 0 else 1;
      assert Xor(p + a, b) == bit + 2 * Xor(q + half, b / 2);
      assert Xor(a, b) == bit + 2 * Xor(half, b / 2);
      HighBitSum(Xor(p + a, b), Xor(q + half, b / 2), Xor(half, b / 2), Xor(a, b), bit, q);
    } else {
      assert p == 1 && a == 0 && b == 0;
      assert Xor(1, 0) == 1 + 2 * Xor(0, 0);
      assert Xor(p + a, b) == p + Xor(a, b);
    }
  }

  lemma Pow2Values()
    ensures Pow2(8) == 0x100 && Pow2(15) == 0x8000 && Pow2(16) == 0x10000
  {
    assert Pow2(1) == 2 && Pow2(2) == 4 && Pow2(3) == 8 && Pow2(4) == 16;
    assert Pow2(5) == 32 && Pow2(6) == 64 && Pow2(7) == 128 && Pow2(8) == 256;
    assert Pow2(9) == 512 && Pow2(10) == 1024 && Pow2(11) == 2048 && Pow2(12) == 4096;
    assert Pow2(13) == 8192 && Pow2(14) == 16384 && Pow2(15) == 32768;
  }

  /** Two 16-bit values XOR to a 16-bit value. */
  lemma Xor16(a: u16, b: u16)
    ensures Xor(a, b) < 0x10000
  {
    Pow2Values();
    XorBelow(a, b, 16);
  }

  /**
   * The two wire bytes of a little-endian 16-bit field (`n >> 8` and
   * `n & 0xFF`), defined by linear arithmetic only so that the solver never
   * has to reason about division.
   */
  function HiByte(n: u16): (h: byte)
    ensures h * 256 <= n < h * 256 + 256
    decreases n
  {
    if n < 256 then 0 else 1 + HiByte(n - 256)
  }

  function LoByte(n: u16): (l: byte)
    ensures n == HiByte(n) * 256 + l
  {
    n - HiByte(n) * 256
  }

  /** A little-endian 16-bit field read back from its two bytes. */
  function U16(lo: byte, hi: byte): (n: u16)
    ensures LoByte(n) == lo && HiByte(n) == hi
  {
    hi * 256 + lo
  }

  lemma ModSmall(x: int, m: int)
    requires 0 <= x < m
    ensures x % m == x
  {
  }

  lemma ModSelf(m: int)
    requires m > 0
    ensures m % m == 0
  {
  }

  /** A log extended twice is the log extended once by both additions. */
  lemma AppendTwice<T>(log: seq<T>, x: seq<T>, y: seq<T>)
    ensures log + x + y == log + (x + y)
  {
  }

  /** Dropping a prefix of a sequence extended by one element. */
  lemma DropOfSnoc<T>(init: seq<T>, last: T, k: nat)
    requires k <= |init|
    ensures (init + [last])[k..] == init[k..] + [last]
  {
  }

  /** A non-empty sequence is its first element and its tail, also when followed by more. */
  lemma HeadTail<T>(a: seq<T>, b: seq<T>)
    requires |a| > 0
    ensures a == [a[0]] + a[1..] && a + b == [a[0]] + (a[1..] + b)
  {
  }

  /** A prefix two elements longer is the shorter prefix and those two elements. */
  lemma PrefixByTwo<T>(s: seq<T>, p: nat)
    requires p + 2 <= |s|
    ensures s[..p + 2] == s[..p] + [s[p], s[p + 1]]
  {
  }

  lemma U16OfBytes(n: u16)
    ensures U16(LoByte(n), HiByte(n)) == n
  {
  }

  function Max(a: int, b: int): int { if a >= b then a else b }
  function Min(a: int, b: int): int { if a <= b then a else b }

  function Clamp(v: int, lo: int, hi: int): (r: int)
    requires lo <= hi
    ensures lo <= r <= hi
    ensures lo <= v <= hi ==> r == v
  {
    if v < lo then lo else if v > hi then hi else v
  }

  /** C's `/` on signed integers truncates toward zero. */
  function CDiv(a: int, b: int): (q: int)
    requires b > 0
    ensures a >= 0 ==> q == a / b
    ensures a < 0 ==> q == -((-a) / b)
  {
    if a >= 0 then a / b else -((-a) / b)
  }

  /** The value a C conversion to int16_t gives (two's complement wrap). */
  function ToInt16(v: int): (r: int)
    ensures -0x8000 <= r < 0x8000
    ensures (r - v) % 0x10000 == 0
  {
    var m := v % 0x10000;
    if m >= 0x8000 then m - 0x10000 else m
  }

  /** The value a C conversion to int8_t gives. */
  function ToInt8(v: int): (r: int)
    ensures -0x80 <= r < 0x80
    ensures (r - v) % 0x100 == 0
  {
    var m := v % 0x100;
    if m >= 0x80 then m - 0x100 else m
  }

  /** A 32-bit JP button word. */
  type Buttons = bv32

  // JP button masks: bit k is the k-th entry of the button-name list the
  // profile code uses (B1 .. A2), followed by A3, A4, L4 and R4.
  const JP_B1: Buttons := 0x0000_0001
  const JP_B2: Buttons := 0x0000_0002
  const JP_B3: Buttons := 0x0000_0004
  const JP_B4: Buttons := 0x0000_0008
  const JP_L1: Buttons := 0x0000_0010
  const JP_R1: Buttons := 0x0000_0020
  const JP_L2: Buttons := 0x0000_0040
  const JP_R2: Buttons := 0x0000_0080
  const JP_S1: Buttons := 0x0000_0100
  const JP_S2: Buttons := 0x0000_0200
  const JP_L3: Buttons := 0x0000_0400
  const JP_R3: Buttons := 0x0000_0800
  const JP_DU: Buttons := 0x0000_1000
  const JP_DD: Buttons := 0x0000_2000
  const JP_DL: Buttons := 0x0000_4000
  const JP_DR: Buttons := 0x0000_8000
  const JP_A1: Buttons := 0x0001_0000
  const JP_A2: Buttons := 0x0002_0000
  const JP_A3: Buttons := 0x0004_0000
  const JP_A4: Buttons := 0x0008_0000
  const JP_L4: Buttons := 0x0010_0000
  const JP_R4: Buttons := 0x0020_0000

  predicate Pressed(buttons: Buttons, mask: Buttons) { buttons & mask != 0 }

  /**
   * A gamepad event handed to the router (`input_event_t`, the fields the
   * drivers set): the source device, the JP button word and the six analog
   * bytes LX, LY, RX, RY, L2, R2.
   */
  datatype GamepadEvent = GamepadEvent(devAddr: byte, instance: byte, buttons: Buttons, analog: seq<byte>)

  /** `1u << i`; bit positions are `bv8` so that shifts stay bit-vector operations. */
  function Bit(i: bv8): Buttons
    requires i < 32
  {
    (1 as bv32) << i
  }

  /** `buttons & (1u << i)` is non-zero. */
  predicate BitSet(buttons: Buttons, i: bv8)
    requires i < 32
  {
    buttons & Bit(i) != 0
  }

  lemma SingleBit(t: bv8, j: bv8)
    requires t < 32 && j < 32
    ensures BitSet(Bit(t), j) <==> t == j
  {
  }

  lemma OrZero(x: Buttons)
    ensures x | 0 == x
  {
  }

  lemma NoBitsOfZero(j: bv8)
    requires j < 32
    ensures !BitSet(0, j)
  {
  }

  lemma OrDistributes(x: Buttons, y: Buttons, k: Buttons)
    ensures (x | y) & k == (x & k) | (y & k)
  {
  }

  lemma OrNonZero(x: Buttons, y: Buttons)
    ensures x | y != 0 <==> x != 0 || y != 0
  {
  }

  /** A bit of an OR is set iff it is set in either operand. */
  lemma BitOfOr(x: Buttons, y: Buttons, j: bv8)
    requires j < 32
    ensures BitSet(x | y, j) <==> BitSet(x, j) || BitSet(y, j)
  {
    OrDistributes(x, y, Bit(j));
    OrNonZero(x & Bit(j), y & Bit(j));
  }
}

=== FILE: crc16.dfy ===
/**
 * CRC-16/CCITT-FALSE as both ends of the binary CDC link compute it:
 * polynomial 0x1021 (ITU-T V.41), initial value 0xFFFF, bits taken most
 * significant first, no reflection and no final XOR.
 *
 * This module is the reference definition; the host tool's loop and the
 * firmware's loop are each proved equal to `Crc`.
 */
module Crc16 {
  import opened Common

  const POLY: u16 := 0x1021
  const INIT: u16 := 0xFFFF

  /**
   * One clock of the register: bit 15 is shifted out and, when it was set,
   * the polynomial is fed back into the low bits.
   */
  function ShiftBit(crc: u16): u16 {
    if crc < 0x8000 then crc * 2
    else
      Xor16(crc * 2 - 0x10000, POLY);
      Xor(crc * 2 - 0x10000, POLY)
  }

  function ShiftBits(crc: u16, n: nat): u16
    decreases n
  {
    if n == 0 then crc else ShiftBit(ShiftBits(crc, n - 1))
  }

  /** Folding one message byte in: XOR it into the high byte, then eight clocks. */
  function UpdateByte(crc: u16, b: byte): u16 {
    Xor16(crc, b * 256);
    ShiftBits(Xor(crc, b * 256), 8)
  }

  /**
   * The register after the first `n` bytes of a message. Defined together
   * with `Clocked`, clock by clock, in the shape of the byte loop and the
   * bit loop that both implementations run.
   */
  function Register(data: seq<byte>, n: nat): u16
    requires n <= |data|
    decreases n, 0, 0
  {
    if n == 0 then INIT else Clocked(data, n - 1, 8)
  }

  /** The register while byte `i` goes in: XORed into the high byte, then `k` clocks. */
  function Clocked(data: seq<byte>, i: nat, k: nat): u16
    requires i < |data| && k <= 8
    decreases i, 1, k
  {
    if k == 0 then
      Xor16(Register(data, i), data[i] as int * 256);
      Xor(Register(data, i), data[i] as int * 256)
    else ShiftBit(Clocked(data, i, k - 1))
  }

  function Crc(data: seq<byte>): u16 {
    Register(data, |data|)
  }

  lemma {:induction false} ClockedIsShiftBits(data: seq<byte>, i: nat, k: nat)
    requires i < |data| && k <= 8
    ensures Xor(Register(data, i), data[i] as int * 256) < 0x10000
    ensures Clocked(data, i, k) == ShiftBits(Xor(Register(data, i), data[i] as int * 256), k)
    decreases k
  {
    Xor16(Register(data, i), data[i] as int * 256);
    if k > 0 {
      ClockedIsShiftBits(data, i, k - 1);
    }
  }

  /** Each byte moves the register by `UpdateByte`. */
  lemma RegisterNext(data: seq<byte>, n: nat)
    requires n < |data|
    ensures Register(data, n + 1) == UpdateByte(Register(data, n), data[n])
  {
    ClockedIsShiftBits(data, n, 8);
  }

  /** The register depends only on the bytes already folded in. */
  lemma {:induction false} RegisterPrefix(a: seq<byte>, b: seq<byte>, n: nat)
    requires n <= |a| && n <= |b|
    requires forall i :: 0 <= i < n ==> a[i] == b[i]
    ensures Register(a, n) == Register(b, n)
    decreases n
  {
    if n > 0 {
      RegisterPrefix(a, b, n - 1);
      RegisterNext(a, n - 1);
      RegisterNext(b, n - 1);
    }
  }

  /** Two messages whose registers differ keep them different through a common byte. */
  lemma SameByteKeepsApart(a: seq<byte>, b: seq<byte>, n: nat)
    requires n < |a| && n < |b| && a[n] == b[n]
    requires Register(a, n) != Register(b, n)
    ensures Register(a, n + 1) != Register(b, n + 1)
  {
    RegisterNext(a, n);
    RegisterNext(b, n);
    if UpdateByte(Register(a, n), a[n]) == UpdateByte(Register(b, n), a[n]) {
      UpdateByteInjectiveInRegister(Register(a, n), Register(b, n), a[n]);
    }
  }

  /** Two messages with a common prefix part at the first byte where they differ. */
  lemma DifferentByteParts(a: seq<byte>, b: seq<byte>, n: nat)
    requires n < |a| && n < |b| && a[n] != b[n]
    requires forall i :: 0 <= i < n ==> a[i] == b[i]
    ensures Register(a, n + 1) != Register(b, n + 1)
  {
    RegisterPrefix(a, b, n);
    RegisterNext(a, n);
    RegisterNext(b, n);
    UpdateByteInjective(Register(a, n), a[n], b[n]);
  }

  /** Once two messages differ in byte `j`, their registers never meet again. */
  lemma {:induction false} RegistersStayApart(data: seq<byte>, j: nat, v: byte, n: nat)
    requires j < n <= |data| && data[j] != v
    ensures Register(data, n) != Register(data[j := v], n)
    decreases n
  {
    if n == j + 1 {
      DifferentByteParts(data, data[j := v], j);
    } else {
      RegistersStayApart(data, j, v, n - 1);
      SameByteKeepsApart(data, data[j := v], n - 1);
    }
  }

  /** Changing any one byte of a message changes its CRC. */
  lemma DetectsSingleByteError(data: seq<byte>, j: nat, v: byte)
    requires j < |data| && data[j] != v
    ensures Crc(data[j := v]) != Crc(data)
  {
    RegistersStayApart(data, j, v, |data|);
  }

  lemma ShiftBitsSucc(crc: u16, n: nat)
    ensures ShiftBits(crc, n + 1) == ShiftBit(ShiftBits(crc, n))
  {
  }

  lemma HighFeedback(low: nat)
    requires low < 0x10000
    ensures Xor(0x10000 + low, POLY) % 0x10000 == Xor(low, POLY)
  {
    Pow2Values();
    XorHighBit(low, POLY, 16);
    Xor16(low, POLY);
  }

  /** Feeding the polynomial into an even value sets bit 0. */
  lemma OddAfterFeedback(e: nat)
    requires e % 2 == 0
    ensures Xor(e, POLY) % 2 == 1
  {
    assert Xor(e, POLY) == 1 + 2 * Xor(e / 2, POLY / 2);
  }

  /**
   * The clock as both implementations write it: shift left, XOR the
   * polynomial in when `crc & 0x8000` was set, then keep 16 bits.
   */
  lemma ClockStep(crc: u16)
    ensures (if (crc / 0x8000) % 2 == 1 then Xor(crc * 2, POLY) else crc * 2) % 0x10000 == ShiftBit(crc)
  {
    if crc >= 0x8000 {
      assert (crc / 0x8000) % 2 == 1;
      var low := crc * 2 - 0x10000;
      HighFeedback(low);
      assert crc * 2 == 0x10000 + low;
    } else {
      assert (crc / 0x8000) % 2 == 0;
    }
  }

  /** A clock that fed the polynomial back leaves bit 0 set; one that did not leaves it clear. */
  lemma ShiftBitParity(crc: u16)
    ensures ShiftBit(crc) % 2 == (if crc < 0x8000 then 0 else 1)
  {
    if crc >= 0x8000 {
      OddAfterFeedback(crc * 2 - 0x10000);
    }
  }

  lemma FeedbackInjective(a: nat, b: nat)
    requires Xor(a, POLY) == Xor(b, POLY)
    ensures a == b
  {
    XorComm(a, POLY);
    XorComm(b, POLY);
    XorCancel(POLY, a, b);
  }

  /** Bit 0 after a clock tells whether the polynomial went in, so a clock loses nothing. */
  lemma ShiftBitInjective(x: u16, y: u16)
    requires ShiftBit(x) == ShiftBit(y)
    ensures x == y
  {
    ShiftBitParity(x);
    ShiftBitParity(y);
    if x >= 0x8000 && y >= 0x8000 {
      FeedbackInjective(x * 2 - 0x10000, y * 2 - 0x10000);
    }
  }

  lemma {:induction false} ShiftBitsInjective(x: u16, y: u16, n: nat)
    requires ShiftBits(x, n) == ShiftBits(y, n)
    ensures x == y
    decreases n
  {
    if n > 0 {
      ShiftBitInjective(ShiftBits(x, n - 1), ShiftBits(y, n - 1));
      ShiftBitsInjective(x, y, n - 1);
    }
  }

  /** Different bytes folded into the same register give different registers. */
  lemma UpdateByteInjective(crc: u16, x: byte, y: byte)
    requires x != y
    ensures UpdateByte(crc, x) != UpdateByte(crc, y)
  {
    Xor16(crc, x * 256);
    Xor16(crc, y * 256);
    if UpdateByte(crc, x) == UpdateByte(crc, y) {
      ShiftBitsInjective(Xor(crc, x * 256), Xor(crc, y * 256), 8);
      XorCancel(crc, x * 256, y * 256);
    }
  }

  /** The same byte folded into different registers gives different registers. */
  lemma UpdateByteInjectiveInRegister(x: u16, y: u16, b: byte)
    requires UpdateByte(x, b) == UpdateByte(y, b)
    ensures x == y
  {
    Xor16(x, b * 256);
    Xor16(y, b * 256);
    ShiftBitsInjective(Xor(x, b * 256), Xor(y, b * 256), 8);
    XorComm(x, b * 256);
    XorComm(y, b * 256);
    XorCancel(b * 256, x, y);
  }

}

=== FILE: dreamcast.dfy ===
/**
 * The Dreamcast output: the firmware answers the console on the Maple bus as
 * a controller (address 0x20) with a Puru Puru vibration pack in its first
 * sub-peripheral slot (address 0x02). Modelled here: the Maple checksum word,
 * the request dispatcher that decides which pre-built reply goes out next and
 * what vibration state it stores, the active-low button word, the trigger
 * override and the rumble level with its auto-stop timeout.
 */
module Dreamcast {
  import opened Common
  import opened ButtonRemap

  // ---------------------------------------------------------------------------
  // Checksum
  // ---------------------------------------------------------------------------

  /** The XOR of the first `n` words of a packet. */
  function XorUpTo(ws: seq<bv32>, n: nat): bv32
    requires n <= |ws|
  {
    if n == 0 then 0 else XorUpTo(ws, n - 1) ^ ws[n - 1]
  }

  /** `x ^= x << 16; x ^= x << 8;` */
  function Fold(x: bv32): bv32
  {
    (x ^ (x << 16)) ^ ((x ^ (x << 16)) << 8)
  }

  /** The checksum word `CalcCRC` computes over a packet's header and body words. */
  function Crc(ws: seq<bv32>): bv32
  {
    Fold(XorUpTo(ws, |ws|))
  }

  /** `CalcCRC(Words, NumWords)`. */
  method CalcCRC(words: seq<bv32>) returns (crc: bv32)
    ensures crc == Crc(words)
  {
    var x: bv32 := 0;
    var i := 0;
    while i < |words|
      invariant i <= |words|
      invariant x == XorUpTo(words, i)
    {
      x := x ^ words[i];
      i := i + 1;
    }
    crc := Fold(x);
  }

  /**
   * Undoes `Fold`. Read as polynomials over GF(2) in the byte shift t, `Fold`
   * multiplies by 1 + t + t^2 + t^3, whose inverse modulo t^4 is 1 + t.
   */
  function Unfold(z: bv32): bv32
  {
    z ^ (z << 8)
  }

  lemma FoldExpanded(x: bv32)
    ensures Fold(x) == x ^ (x << 8) ^ (x << 16) ^ (x << 24)
  {
  }

  lemma UnfoldExpanded(x: bv32)
    ensures (x ^ (x << 8) ^ (x << 16) ^ (x << 24)) ^ ((x ^ (x << 8) ^ (x << 16) ^ (x << 24)) << 8) == x
  {
  }

  /** The folding step loses nothing: distinct XORs give distinct checksums. */
  lemma UnfoldFold(x: bv32)
    ensures Unfold(Fold(x)) == x
  {
    FoldExpanded(x);
    UnfoldExpanded(x);
  }

  /** The XOR of a word's four bytes. */
  function ByteXor(w: bv32): bv32
  {
    (w ^ (w >> 8) ^ (w >> 16) ^ (w >> 24)) & 0xFF
  }

  /** Byte-wise XOR commutes with word-wise XOR. */
  lemma ByteXorOfXor(a: bv32, b: bv32)
    ensures ByteXor(a ^ b) == ByteXor(a) ^ ByteXor(b)
  {
  }

  /**
   * The byte of the checksum word that goes on the wire (its top byte) is the
   * XOR of the four bytes of the XOR of all words; by `ByteXorOfXor` that is
   * the XOR of every byte of the packet, which is what the receiver checks.
   */
  lemma CrcIsByteChecksum(ws: seq<bv32>)
    ensures Crc(ws) >> 24 == ByteXor(XorUpTo(ws, |ws|))
  {
  }

  lemma XorRotate(a: bv32, b: bv32, c: bv32, d: bv32)
    ensures (a ^ b ^ c) ^ d == (a ^ d) ^ b ^ c
  {
  }

  lemma {:induction false} XorPrefixSame(ws: seq<bv32>, vs: seq<bv32>, n: nat)
    requires n <= |ws| == |vs| && ws[..n] == vs[..n]
    ensures XorUpTo(ws, n) == XorUpTo(vs, n)
  {
    if n > 0 {
      assert ws[..n - 1] == vs[..n - 1];
      assert ws[n - 1] == ws[..n][n - 1];
      XorPrefixSame(ws, vs, n - 1);
    }
  }

  /** Replacing word `i` XORs the old and the new word into every later prefix XOR. */
  lemma {:induction false} XorUpdate(ws: seq<bv32>, i: nat, w: bv32, n: nat)
    requires i < n <= |ws|
    ensures XorUpTo(ws[i := w], n) == XorUpTo(ws, n) ^ ws[i] ^ w
  {
    var vs := ws[i := w];
    if n - 1 == i {
      assert XorUpTo(vs, i) == XorUpTo(ws, i) by {
        assert vs[..i] == ws[..i];
        XorPrefixSame(vs, ws, i);
      }
      XorRotate(XorUpTo(ws, i), w, w, w);
    } else {
      XorUpdate(ws, i, w, n - 1);
      XorRotate(XorUpTo(ws, n - 1), ws[i], w, ws[n - 1]);
    }
  }

  /** Changing any one word of a packet changes its checksum word. */
  lemma CrcDetectsWordChange(ws: seq<bv32>, i: nat, w: bv32)
    requires i < |ws| && w != ws[i]
    ensures Crc(ws[i := w]) != Crc(ws)
  {
    XorUpdate(ws, i, w, |ws|);
    UnfoldFold(XorUpTo(ws, |ws|));
    UnfoldFold(XorUpTo(ws[i := w], |ws|));
  }

  // ---------------------------------------------------------------------------
  // Maple requests
  // ---------------------------------------------------------------------------

  const ADDRESS_DREAMCAST: byte := 0x00
  const ADDRESS_CONTROLLER: byte := 0x20
  const ADDRESS_SUBPERIPHERAL1: byte := 0x02
  const ADDRESS_CONTROLLER_AND_SUBS: byte := 0x22

  const CMD_DEVICE_REQUEST: byte := 1
  const CMD_ALL_STATUS_REQUEST: byte := 2
  const CMD_RESET_DEVICE: byte := 3
  const CMD_SHUTDOWN_DEVICE: byte := 4
  const CMD_GET_CONDITION: byte := 9
  const CMD_GET_MEDIA_INFO: byte := 10
  const CMD_BLOCK_READ: byte := 11
  const CMD_BLOCK_WRITE: byte := 12
  const CMD_BLOCK_COMPLETE_WRITE: byte := 13
  const CMD_SET_CONDITION: byte := 14

  const FUNC_CONTROLLER: u32 := 1
  const FUNC_VIBRATION: u32 := 256

  const MAX_PLAYERS: nat := 4
  const RUMBLE_TIMEOUT_MS: nat := 300

  /** Which pre-built reply the transmitter sends next (`ESendState`). */
  datatype SendState =
    | SendNothing
    | SendControllerInfo
    | SendControllerAllInfo
    | SendControllerStatus
    | SendAck
    | SendPuruPuruInfo
    | SendPuruPuruAllInfo
    | SendPuruPuruMediaInfo
    | SendPuruPuruCondition
    | SendPuruPuruBlockRead

  /** The vibration settings the console last sent (`purupuru_ctrl/power/freq/inc`). */
  datatype PuruCondition = PuruCondition(ctrl: byte, power: byte, freq: byte, inc: byte)

  /**
   * A received packet is the byte buffer the receiver hands over after its
   * word swap: byte 0 the command, 1 the destination, 2 the origin, 3 the
   * number of body words, then the body, then the checksum byte.
   */
  predicate Framed(p: seq<byte>)
  {
    |p| % 4 == 1 && |p| - 1 != 0 && |p| - 1 == (p[3] as int + 1) * 4
  }

  /** The destination with the port bits masked off (`& ADDRESS_PERIPHERAL_MASK`, 0x3F). */
  function Peripheral(p: seq<byte>): byte
    requires |p| >= 2
  {
    p[1] % 64
  }

  /** `__builtin_bswap32(PacketData[0])`: the first body word, read big-endian. */
  function FuncCode(p: seq<byte>): u32
    requires |p| >= 8
  {
    p[4] as int * 0x100_0000 + p[5] as int * 0x1_0000 + p[6] as int * 0x100 + p[7] as int
  }

  /** Bytes of the AST the console's block write replaces, as intended. */
  function AstCopyLen(numWords: byte): (n: nat)
    requires numWords >= 2
    ensures n <= 4 && n <= (numWords - 2) * 4
    ensures n == 4 || n == (numWords - 2) * 4
  {
    Min((numWords - 2) * 4, 4)
  }

  /** What one request makes the device do. */
  datatype Action =
    | Unhandled
    | Respond(send: SendState)
    | Acknowledge(origin: byte)
    | ReportCondition
    | StoreCondition(cond: PuruCondition)
    | WriteAst(data: seq<byte>)

  /** The decision `ConsumePacket` takes for a packet. */
  function Decode(p: seq<byte>): (a: Action)
    ensures a != Unhandled ==> Framed(p)
    ensures a.WriteAst? ==> |a.data| <= 4
  {
    if !Framed(p) then Unhandled
    else if Peripheral(p) == ADDRESS_CONTROLLER then ControllerRequest(p)
    else if Peripheral(p) == ADDRESS_SUBPERIPHERAL1 then PuruPuruRequest(p)
    else Unhandled
  }

  /** A request addressed to the controller itself. */
  function ControllerRequest(p: seq<byte>): (a: Action)
    requires Framed(p)
    ensures a.Unhandled? || a.Respond? || a == Acknowledge(ADDRESS_CONTROLLER_AND_SUBS)
  {
    var cmd, nw := p[0], p[3];
    if cmd == CMD_RESET_DEVICE then Acknowledge(ADDRESS_CONTROLLER_AND_SUBS)
    else if cmd == CMD_DEVICE_REQUEST then Respond(SendControllerInfo)
    else if cmd == CMD_ALL_STATUS_REQUEST then Respond(SendControllerAllInfo)
    else if cmd == CMD_GET_CONDITION && nw >= 1 && FuncCode(p) == FUNC_CONTROLLER then
      Respond(SendControllerStatus)
    else Unhandled
  }

  /** A request addressed to the vibration pack in the first expansion slot. */
  function PuruPuruRequest(p: seq<byte>): (a: Action)
    requires Framed(p)
    ensures a.WriteAst? ==> |a.data| <= 4
    ensures a.Acknowledge? ==> a.origin == ADDRESS_SUBPERIPHERAL1
  {
    var cmd, nw := p[0], p[3];
    if cmd == CMD_RESET_DEVICE then Acknowledge(ADDRESS_SUBPERIPHERAL1)
    else if cmd == CMD_DEVICE_REQUEST then Respond(SendPuruPuruInfo)
    else if cmd == CMD_ALL_STATUS_REQUEST then Respond(SendPuruPuruAllInfo)
    else if cmd == CMD_GET_MEDIA_INFO then Respond(SendPuruPuruMediaInfo)
    else if cmd == CMD_GET_CONDITION && nw >= 1 && FuncCode(p) == FUNC_VIBRATION then
      ReportCondition
    else if cmd == CMD_SET_CONDITION && nw >= 2 && FuncCode(p) == FUNC_VIBRATION then
      StoreCondition(PuruCondition(p[8], p[9], p[10], p[11]))
    else if cmd == CMD_BLOCK_READ then Respond(SendPuruPuruBlockRead)
    else if cmd == CMD_BLOCK_WRITE then
      WriteAst(if nw >= 2 then p[12..12 + AstCopyLen(nw)] else [])
    else Unhandled
  }

  /** The vibration-enable bit is set and the frequency is in the supported range. */
  predicate RumbleOn(c: PuruCondition)
  {
    (c.ctrl / 16) % 2 == 1 && 0x07 <= c.freq <= 0x3B
  }

  /** `last_rumble_time[0]` after a SET_CONDITION at `nowUs` microseconds. */
  function RumbleStamp(c: PuruCondition, nowUs: u32): (t: u32)
    ensures t != 0 ==> RumbleOn(c)
  {
    if RumbleOn(c) then nowUs / 1000 else 0
  }

  /** The device state a request can change. */
  datatype DeviceState = DeviceState(
    nextSend: SendState,
    ackOrigin: byte,
    condition: PuruCondition,
    reported: PuruCondition,
    rumbleMs: seq<u32>,
    ast: seq<byte>)

  /** The state after carrying out `a` at `nowUs`. */
  function Apply(s: DeviceState, a: Action, nowUs: u32): (t: DeviceState)
    requires |s.rumbleMs| == MAX_PLAYERS && |s.ast| == 4
    requires a.WriteAst? ==> |a.data| <= 4
    ensures |t.rumbleMs| == MAX_PLAYERS && |t.ast| == 4
  {
    match a
    case Unhandled => s
    case Respond(send) => s.(nextSend := send)
    case Acknowledge(origin) => s.(nextSend := SendAck, ackOrigin := origin)
    case ReportCondition => s.(nextSend := SendPuruPuruCondition, reported := s.condition)
    case StoreCondition(c) =>
      s.(nextSend := SendAck, ackOrigin := ADDRESS_SUBPERIPHERAL1, condition := c,
         rumbleMs := s.rumbleMs[0 := RumbleStamp(c, nowUs)])
    case WriteAst(data) =>
      s.(nextSend := SendAck, ackOrigin := ADDRESS_SUBPERIPHERAL1, ast := data + s.ast[|data|..])
  }

  /** Only the peripheral bits of the destination matter; the port bits are ignored. */
  lemma PortBitsIgnored(p: seq<byte>, d: byte)
    requires |p| >= 2 && d % 64 == p[1] % 64
    ensures Decode(p[1 := d]) == Decode(p)
  {
    var q := p[1 := d];
    assert Peripheral(q) == Peripheral(p);
    if Framed(p) {
      assert q[0] == p[0] && q[3] == p[3];
      if |p| >= 8 {
        assert FuncCode(q) == FuncCode(p);
      }
      if |p| >= 12 {
        assert q[8..12] == p[8..12] && q[12..] == p[12..];
      }
    }
  }

  /** A controller status reply goes out exactly for a GET_CONDITION naming the controller function. */
  lemma StatusOnlyForController(p: seq<byte>)
    ensures Decode(p) == Respond(SendControllerStatus) <==>
      Framed(p) && Peripheral(p) == ADDRESS_CONTROLLER && p[0] == CMD_GET_CONDITION
      && p[3] >= 1 && FuncCode(p) == FUNC_CONTROLLER
  {
  }

  /** Every acknowledgement comes from the addressed unit, after a reset or a write. */
  lemma AckOrigins(p: seq<byte>)
    requires Decode(p).Acknowledge?
    ensures Framed(p) && p[0] == CMD_RESET_DEVICE
    ensures Decode(p).origin == ADDRESS_CONTROLLER_AND_SUBS <==> Peripheral(p) == ADDRESS_CONTROLLER
    ensures Decode(p).origin == ADDRESS_SUBPERIPHERAL1 <==> Peripheral(p) == ADDRESS_SUBPERIPHERAL1
  {
  }

  /** A block write to the vibration unit is always accepted, even with no data words. */
  lemma BlockWriteAlwaysAcked(p: seq<byte>)
    requires Framed(p) && Peripheral(p) == ADDRESS_SUBPERIPHERAL1 && p[0] == CMD_BLOCK_WRITE
    ensures Decode(p).WriteAst?
    ensures p[3] <= 2 ==> Decode(p).data == []
    ensures p[3] > 2 ==> Decode(p).data == p[12..16]
  {
  }

  /** Requests the firmware does not serve, and other addresses, are refused. */
  lemma Refused(p: seq<byte>)
    requires Framed(p)
    requires (Peripheral(p) != ADDRESS_CONTROLLER && Peripheral(p) != ADDRESS_SUBPERIPHERAL1)
      || p[0] == CMD_SHUTDOWN_DEVICE || p[0] == CMD_BLOCK_COMPLETE_WRITE || p[0] == 0
      || (Peripheral(p) == ADDRESS_CONTROLLER && p[0] >= CMD_GET_MEDIA_INFO)
    ensures Decode(p) == Unhandled
  {
  }

  /** A request packet as the console frames it: header, body words, checksum byte. */
  function Request(cmd: byte, dest: byte, body: seq<byte>, check: byte): (p: seq<byte>)
    requires |body| % 4 == 0 && |body| / 4 < 256
    ensures Framed(p)
  {
    [cmd, dest, ADDRESS_DREAMCAST, |body| / 4] + body + [check]
  }

  /** The big-endian bytes of the vibration function code. */
  const VIBRATION_FUNC: seq<byte> := [0, 0, 1, 0]

  /** A SET_CONDITION to the vibration unit on any port is stored as sent. */
  lemma SetConditionStored(port: byte, c: PuruCondition, check: byte)
    requires port % 64 == 0
    ensures var p := Request(CMD_SET_CONDITION, port + ADDRESS_SUBPERIPHERAL1,
                             VIBRATION_FUNC + [c.ctrl, c.power, c.freq, c.inc], check);
      Decode(p) == StoreCondition(c)
  {
    var p := Request(CMD_SET_CONDITION, port + ADDRESS_SUBPERIPHERAL1,
                     VIBRATION_FUNC + [c.ctrl, c.power, c.freq, c.inc], check);
    assert p[1] % 64 == 2;
    assert p[4..12] == VIBRATION_FUNC + [c.ctrl, c.power, c.freq, c.inc];
    assert FuncCode(p) == FUNC_VIBRATION;
  }

  /** After a SET_CONDITION, a GET_CONDITION reports exactly what was set. */
  lemma ConditionRoundTrip(s: DeviceState, c: PuruCondition, t0: u32, t1: u32)
    requires |s.rumbleMs| == MAX_PLAYERS && |s.ast| == 4
    ensures var s1 := Apply(s, StoreCondition(c), t0);
      var s2 := Apply(s1, ReportCondition, t1);
      s2.reported == c && s2.nextSend == SendPuruPuruCondition && s2.condition == c
  {
  }

  /** Writes to the vibration unit are acknowledged from its own address. */
  lemma WritesAcknowledged(s: DeviceState, p: seq<byte>, nowUs: u32)
    requires |s.rumbleMs| == MAX_PLAYERS && |s.ast| == 4
    requires Decode(p).StoreCondition? || Decode(p).WriteAst?
    ensures Apply(s, Decode(p), nowUs).nextSend == SendAck
    ensures Apply(s, Decode(p), nowUs).ackOrigin == ADDRESS_SUBPERIPHERAL1
    ensures Peripheral(p) == ADDRESS_SUBPERIPHERAL1
  {
  }

  /** A refused request leaves the whole state as it was. */
  lemma RefusedChangesNothing(s: DeviceState, p: seq<byte>, nowUs: u32)
    requires |s.rumbleMs| == MAX_PLAYERS && |s.ast| == 4
    requires Decode(p) == Unhandled
    ensures Apply(s, Decode(p), nowUs) == s
  {
  }

  /** A block write replaces the first bytes of the AST and keeps the rest. */
  lemma AstWrite(s: DeviceState, p: seq<byte>, nowUs: u32)
    requires |s.rumbleMs| == MAX_PLAYERS && |s.ast| == 4
    requires Framed(p) && Peripheral(p) == ADDRESS_SUBPERIPHERAL1 && p[0] == CMD_BLOCK_WRITE
    ensures var t := Apply(s, Decode(p), nowUs);
      (p[3] <= 2 ==> t.ast == s.ast) && (p[3] > 2 ==> t.ast == p[12..16])
  {
    BlockWriteAlwaysAcked(p);
  }

  // ---------------------------------------------------------------------------
  // The block-write length as written
  // ---------------------------------------------------------------------------

  /** `uint8_t bytes_to_copy = (NumWords - 2) * 4;` capped at 4, with the narrowing. */
  function AstCopyLenAsWritten(numWords: byte): nat
    requires numWords >= 2
  {
    Min(((numWords - 2) * 4) % 256, 4)
  }

  /** With 66 body words the narrowing makes the count 0, so the AST is left as it was. */
  lemma AstCopyLenTruncated()
    ensures AstCopyLenAsWritten(66) == 0 && AstCopyLen(66) == 4
  {
  }

  /** The intended count copies all four bytes whenever a data word is present. */
  lemma AstCopyLenIntended(numWords: byte)
    requires numWords >= 2
    ensures AstCopyLen(numWords) == (if numWords == 2 then 0 else 4)
    ensures numWords < 66 ==> AstCopyLenAsWritten(numWords) == AstCopyLen(numWords)
  {
  }

  // ---------------------------------------------------------------------------
  // Rumble
  // ---------------------------------------------------------------------------

  /** `dc_get_rumble`, from port 0's timestamp and vibration settings. */
  function DcGetRumble(lastMs: u32, c: PuruCondition): (r: byte)
    ensures lastMs == 0 || !RumbleOn(c) ==> r == 0
    ensures r != 0 ==> 36 <= r && r as int <= c.power * 36
  {
    if lastMs == 0 then 0
    else if !RumbleOn(c) then 0
    else Min(c.power * 36, 255)
  }

  /** Rumble is non-zero exactly when the timer runs, the settings enable it and power is non-zero. */
  lemma RumbleLevel(lastMs: u32, c: PuruCondition)
    ensures DcGetRumble(lastMs, c) != 0 <==> lastMs != 0 && RumbleOn(c) && c.power != 0
    ensures DcGetRumble(lastMs, c) != 0 ==> DcGetRumble(lastMs, c) == Min(c.power * 36, 255)
    ensures c.power >= 8 && lastMs != 0 && RumbleOn(c) ==> DcGetRumble(lastMs, c) == 255
  {
  }

  /** More power never means less rumble. */
  lemma RumbleMonotone(lastMs: u32, c: PuruCondition, power: byte)
    requires c.power <= power
    ensures DcGetRumble(lastMs, c) <= DcGetRumble(lastMs, c.(power := power))
  {
  }

  /**
   * Right after a SET_CONDITION the rumble level follows the settings; a
   * command that lands within the first millisecond of the microsecond clock
   * stamps 0, which reads as stopped.
   */
  lemma StoredRumble(c: PuruCondition, nowUs: u32)
    ensures DcGetRumble(RumbleStamp(c, nowUs), c) ==
      if RumbleOn(c) && nowUs >= 1000 then Min(c.power * 36, 255) else 0
  {
  }

  /** The auto-stop test for one port. */
  predicate Expired(lastMs: u32, nowMs: u32)
  {
    lastMs != 0 && (nowMs - lastMs) % 0x1_0000_0000 > RUMBLE_TIMEOUT_MS
  }

  /** The timestamps after the timeout sweep. */
  function AfterTimeout(ts: seq<u32>, nowMs: u32): (r: seq<u32>)
    ensures |r| == |ts|
  {
    seq(|ts|, i requires 0 <= i < |ts| => if Expired(ts[i], nowMs) then 0 else ts[i])
  }

  /** The sweep stops a port exactly when it is timed out, and stops its rumble. */
  lemma TimeoutStops(ts: seq<u32>, nowMs: u32, i: nat, c: PuruCondition)
    requires i < |ts|
    ensures AfterTimeout(ts, nowMs)[i] == 0 <==> ts[i] == 0 || Expired(ts[i], nowMs)
    ensures Expired(ts[i], nowMs) ==> DcGetRumble(AfterTimeout(ts, nowMs)[i], c) == 0
  {
  }

  /** A stamp at most 300 ms old (with no clock wrap in between) survives the sweep. */
  lemma RecentKept(ts: seq<u32>, nowMs: u32, i: nat)
    requires i < |ts| && ts[i] <= nowMs <= ts[i] + RUMBLE_TIMEOUT_MS
    ensures AfterTimeout(ts, nowMs)[i] == ts[i]
  {
  }

  // ---------------------------------------------------------------------------
  // The device
  // ---------------------------------------------------------------------------

  const NO_CONDITION := PuruCondition(0, 0, 0, 0)

  /**
   * The Maple device's state: the reply queued for the transmitter, the
   * origin of the ACK reply, the settings the condition reply reports, the
   * vibration settings last received, the rumble timestamps (milliseconds,
   * one per port, 0 meaning stopped) and the Puru Puru auto-stop table.
   */
  class MapleDevice {
    var nextSend: SendState
    var ackOrigin: byte
    var condition: PuruCondition
    var reported: PuruCondition
    const lastRumbleMs: array<u32>
    const ast: array<byte>

    /** One rumble timestamp per port and a four-byte auto-stop table. */
    predicate Valid()
    {
      lastRumbleMs.Length == MAX_PLAYERS && ast.Length == 4
    }

    /** The state as the request decoder sees it. */
    function State(): DeviceState
      reads this, lastRumbleMs, ast
    {
      DeviceState(nextSend, ackOrigin, condition, reported, lastRumbleMs[..], ast[..])
    }

    /** The state after the reply packets are built, with the default 5-second auto-stop table. */
    constructor ()
      ensures Valid() && fresh(lastRumbleMs) && fresh(ast)
      ensures State() == DeviceState(SendNothing, ADDRESS_CONTROLLER, NO_CONDITION, NO_CONDITION,
                                     [0, 0, 0, 0], [5, 0, 0, 0])
    {
      nextSend := SendNothing;
      ackOrigin := ADDRESS_CONTROLLER;
      condition := NO_CONDITION;
      reported := NO_CONDITION;
      lastRumbleMs := new u32[MAX_PLAYERS](_ => 0);
      ast := new byte[4][5, 0, 0, 0];
    }

    /** `ConsumePacket(Size)` on the received bytes. */
    method ConsumePacket(packet: seq<byte>, nowUs: u32) returns (handled: bool)
      requires Valid()
      modifies this, lastRumbleMs, ast
      ensures Valid()
      ensures handled <==> Decode(packet) != Unhandled
      ensures State() == Apply(old(State()), Decode(packet), nowUs)
    {
      var size := |packet|;
      if size % 4 != 1 {
        return false;
      }
      size := size - 1;
      if size == 0 {
        return false;
      }
      if size != (packet[3] as int + 1) * 4 {
        return false;
      }
      var cmd, numWords := packet[0], packet[3];
      var dest := packet[1] % 64;
      if dest == ADDRESS_CONTROLLER {
        if cmd == CMD_RESET_DEVICE {
          ackOrigin, nextSend := ADDRESS_CONTROLLER_AND_SUBS, SendAck;
          return true;
        } else if cmd == CMD_DEVICE_REQUEST {
          nextSend := SendControllerInfo;
          return true;
        } else if cmd == CMD_ALL_STATUS_REQUEST {
          nextSend := SendControllerAllInfo;
          return true;
        } else if cmd == CMD_GET_CONDITION && numWords >= 1 {
          var func := FuncCode(packet);
          if func == FUNC_CONTROLLER {
            nextSend := SendControllerStatus;
            return true;
          }
        }
      } else if dest == ADDRESS_SUBPERIPHERAL1 {
        if cmd == CMD_RESET_DEVICE {
          ackOrigin, nextSend := ADDRESS_SUBPERIPHERAL1, SendAck;
          return true;
        } else if cmd == CMD_DEVICE_REQUEST {
          nextSend := SendPuruPuruInfo;
          return true;
        } else if cmd == CMD_ALL_STATUS_REQUEST {
          nextSend := SendPuruPuruAllInfo;
          return true;
        } else if cmd == CMD_GET_MEDIA_INFO {
          nextSend := SendPuruPuruMediaInfo;
          return true;
        } else if cmd == CMD_GET_CONDITION && numWords >= 1 {
          var func := FuncCode(packet);
          if func == FUNC_VIBRATION {
            reported := condition;
            nextSend := SendPuruPuruCondition;
            return true;
          }
        } else if cmd == CMD_SET_CONDITION && numWords >= 2 {
          var func := FuncCode(packet);
          if func == FUNC_VIBRATION {
            condition := PuruCondition(packet[8], packet[9], packet[10], packet[11]);
            if RumbleOn(condition) {
              lastRumbleMs[0] := nowUs / 1000;
            } else {
              lastRumbleMs[0] := 0;
            }
            ackOrigin, nextSend := ADDRESS_SUBPERIPHERAL1, SendAck;
            return true;
          }
        } else if cmd == CMD_BLOCK_READ {
          nextSend := SendPuruPuruBlockRead;
          return true;
        } else if cmd == CMD_BLOCK_WRITE {
          if numWords >= 2 {
            var n := AstCopyLen(numWords);
            forall i | 0 <= i < n {
              ast[i] := packet[12 + i];
            }
          }
          ackOrigin, nextSend := ADDRESS_SUBPERIPHERAL1, SendAck;
          return true;
        }
      }
      return false;
    }

    /** The auto-stop sweep of the device task: every port whose rumble is older than 300 ms stops. */
    method RumbleTimeout(nowUs: u32)
      requires Valid()
      modifies lastRumbleMs
      ensures Valid()
      ensures lastRumbleMs[..] == AfterTimeout(old(lastRumbleMs[..]), nowUs / 1000)
    {
      var nowMs: u32 := nowUs / 1000;
      for i := 0 to MAX_PLAYERS
        invariant forall j :: 0 <= j < i ==>
          lastRumbleMs[j] == if Expired(old(lastRumbleMs[j]), nowMs) then 0 else old(lastRumbleMs[j])
        invariant forall j :: i <= j < MAX_PLAYERS ==> lastRumbleMs[j] == old(lastRumbleMs[j])
      {
        if lastRumbleMs[i] != 0 {
          var elapsed := (nowMs - lastRumbleMs[i]) % 0x1_0000_0000;
          if elapsed > RUMBLE_TIMEOUT_MS {
            lastRumbleMs[i] := 0;
          }
        }
      }
    }
  }

  // ---------------------------------------------------------------------------
  // Buttons and triggers
  // ---------------------------------------------------------------------------

  const DC_BTN_C: bv32 := 0x0001
  const DC_BTN_B: bv32 := 0x0002
  const DC_BTN_A: bv32 := 0x0004
  const DC_BTN_START: bv32 := 0x0008
  const DC_BTN_UP: bv32 := 0x0010
  const DC_BTN_DOWN: bv32 := 0x0020
  const DC_BTN_LEFT: bv32 := 0x0040
  const DC_BTN_RIGHT: bv32 := 0x0080
  const DC_BTN_Z: bv32 := 0x0100
  const DC_BTN_Y: bv32 := 0x0200
  const DC_BTN_X: bv32 := 0x0400
  const DC_BTN_D: bv32 := 0x0800

  /** `map_buttons_to_dc`: the 16-bit Dreamcast button word, 0 meaning pressed. */
  function MapButtonsToDc(jp: Buttons): (w: bv32)
    ensures w <= 0xFFFF
  {
    var dc :=
      CopyBit(jp, 0, 2) | CopyBit(jp, 1, 1) | CopyBit(jp, 2, 10) | CopyBit(jp, 3, 9)  // B1-B4: A, B, X, Y
      | CopyBit(jp, 6, 11)                                                            // L2: D
      | CopyBit(jp, 10, 8) | CopyBit(jp, 11, 0)                                       // L3, R3: Z, C
      | CopyBit(jp, 8, 11) | CopyBit(jp, 9, 3)                                        // S1: D, S2: START
      | CopyBit(jp, 12, 4) | CopyBit(jp, 13, 5) | CopyBit(jp, 14, 6) | CopyBit(jp, 15, 7)  // d-pad
      | CopyBit(jp, 16, 3);                                                           // A1: START
    !dc & 0xFFFF
  }

  /** A Dreamcast button is pressed when its bit is low. */
  predicate DcPressed(w: bv32, mask: bv32)
  {
    w & mask == 0
  }

  /** Face buttons B1-B4 press A, B, X and Y, and the d-pad maps one to one. */
  lemma DcFaceAndDpad(jp: Buttons)
    ensures var w := MapButtonsToDc(jp);
      && (DcPressed(w, DC_BTN_A) <==> Pressed(jp, JP_B1))
      && (DcPressed(w, DC_BTN_B) <==> Pressed(jp, JP_B2))
      && (DcPressed(w, DC_BTN_X) <==> Pressed(jp, JP_B3))
      && (DcPressed(w, DC_BTN_Y) <==> Pressed(jp, JP_B4))
      && (DcPressed(w, DC_BTN_UP) <==> Pressed(jp, JP_DU))
      && (DcPressed(w, DC_BTN_DOWN) <==> Pressed(jp, JP_DD))
      && (DcPressed(w, DC_BTN_LEFT) <==> Pressed(jp, JP_DL))
      && (DcPressed(w, DC_BTN_RIGHT) <==> Pressed(jp, JP_DR))
  {
  }

  /** L3 and R3 press Z and C; D has two sources (L2, S1) and so has START (S2, A1). */
  lemma DcExtraButtons(jp: Buttons)
    ensures var w := MapButtonsToDc(jp);
      && (DcPressed(w, DC_BTN_Z) <==> Pressed(jp, JP_L3))
      && (DcPressed(w, DC_BTN_C) <==> Pressed(jp, JP_R3))
      && (DcPressed(w, DC_BTN_D) <==> Pressed(jp, JP_L2) || Pressed(jp, JP_S1))
      && (DcPressed(w, DC_BTN_START) <==> Pressed(jp, JP_S2) || Pressed(jp, JP_A1))
  {
  }

  /** With nothing pressed every bit is high; the four unused top bits are always high. */
  lemma DcReleased(jp: Buttons)
    ensures MapButtonsToDc(0) == 0xFFFF
    ensures MapButtonsToDc(jp) & 0xF000 == 0xF000
  {
  }

  /** The JP buttons outside the chain (L1, R1, R2, A2 and above) do not change the word. */
  lemma DcIgnoresUnmapped(a: Buttons, b: Buttons)
    requires (a ^ b) & (JP_B1 | JP_B2 | JP_B3 | JP_B4 | JP_L2 | JP_S1 | JP_S2 | JP_L3 | JP_R3
                        | JP_DU | JP_DD | JP_DL | JP_DR | JP_A1) == 0
    ensures MapButtonsToDc(a) == MapButtonsToDc(b)
  {
  }

  /** The left trigger: full when L1 is held, else the analog L2 value. */
  function LeftTrigger(buttons: Buttons, analogL2: byte): (lt: byte)
    ensures lt >= analogL2
    ensures lt == 255 <==> Pressed(buttons, JP_L1) || analogL2 == 255
  {
    if Pressed(buttons, JP_L1) then 255 else analogL2
  }

  /** The right trigger: full when R1 or R2 is held, else the analog R2 value. */
  function RightTrigger(buttons: Buttons, analogR2: byte): (rt: byte)
    ensures rt >= analogR2
    ensures rt == 255 <==> Pressed(buttons, JP_R1) || Pressed(buttons, JP_R2) || analogR2 == 255
  {
    if Pressed(buttons, JP_R1 | JP_R2) then 255 else analogR2
  }
}

=== FILE: flash.dfy ===
/**
 * The settings journal (`flash.c`). Two 4 KB flash sectors hold 32 slots of
 * 256 bytes. Every save programs the next empty slot with the next sequence
 * number, the live slot with the highest sequence number is the current
 * settings, and when both sectors are full the sector that does not hold the
 * newest entry is erased and reused. The same file holds the custom profile
 * helpers: button remapping and choosing the active profile.
 */
module Flash {
  import opened Common

  /** "GCPR". */
  const SETTINGS_MAGIC: u32 := 0x4743_5052
  /** The sequence number of an erased slot. */
  const EMPTY_SEQUENCE: u32 := 0xFFFF_FFFF

  const FLASH_SECTOR_SIZE: nat := 4096
  const JOURNAL_SLOT_SIZE: nat := 256
  const SLOTS_PER_SECTOR: nat := 16
  const TOTAL_SLOT_COUNT: nat := 32
  /** Debounce of `flash_save`, in microseconds (5000 ms). */
  const SAVE_DEBOUNCE_US: int := 5000 * 1000

  const CUSTOM_PROFILE_NAME_LEN: nat := 12
  const CUSTOM_PROFILE_BUTTON_COUNT: nat := 18
  const CUSTOM_PROFILE_MAX_COUNT: nat := 4
  const BUTTON_MAP_PASSTHROUGH: byte := 0x00
  const BUTTON_MAP_DISABLED: byte := 0xFF

  /** `char name[12]`, NUL-terminated when written by the firmware. */
  type NameBuffer = s: seq<char> | |s| == CUSTOM_PROFILE_NAME_LEN witness seq(12, _ => '\0')
  /** `uint8_t button_map[18]`: entry i says where input button i goes. */
  type ButtonMap = s: seq<byte> | |s| == CUSTOM_PROFILE_BUTTON_COUNT witness seq(18, _ => 0)

  /** `custom_profile_t` (the reserved bytes are not modelled). */
  datatype Profile = Profile(
    name: NameBuffer,
    buttonMap: ButtonMap,
    leftStickSens: byte,
    rightStickSens: byte,
    flags: byte,
    socdMode: byte)

  type ProfileTable = s: seq<Profile> | |s| == CUSTOM_PROFILE_MAX_COUNT
    witness seq(4, _ => Profile(seq(12, _ => '\0'), seq(18, _ => 0), 0, 0, 0, 0))

  /** `flash_t`, one 256-byte journal entry (the reserved bytes are not modelled). */
  datatype Settings = Settings(
    magic: u32,
    sequence: u32,
    activeProfileIndex: byte,
    usbOutputMode: byte,
    wiimoteOrientMode: byte,
    customProfileCount: byte,
    profiles: ProfileTable)

  const NUL_NAME: NameBuffer := ['\0', '\0', '\0', '\0', '\0', '\0', '\0', '\0', '\0', '\0', '\0', '\0']
  const ZERO_MAP: ButtonMap := [0, 0, 0, 0, 0, 0, 0, 0, 0, 0, 0, 0, 0, 0, 0, 0, 0, 0]
  /** A `custom_profile_t` of zero bytes. */
  const ZERO_PROFILE: Profile := Profile(NUL_NAME, ZERO_MAP, 0, 0, 0, 0)

  /** A `flash_t` of zero bytes (the value of a static before `flash_init`). */
  const ZERO_SETTINGS: Settings := Settings(0, 0, 0, 0, 0, 0, [ZERO_PROFILE, ZERO_PROFILE, ZERO_PROFILE, ZERO_PROFILE])

  /** The defaults `flash_init` falls back to: zero bytes, the magic, sequence 0. */
  const DEFAULT_SETTINGS: Settings := ZERO_SETTINGS.(magic := SETTINGS_MAGIC)

  /** A slot after a sector erase: every byte 0xFF. */
  const ERASED: Settings :=
    Settings(EMPTY_SEQUENCE, EMPTY_SEQUENCE, 0xFF, 0xFF, 0xFF, 0xFF,
      seq(4, _ => Profile(seq(12, _ => 255 as char), seq(18, _ => 0xFF), 0xFF, 0xFF, 0xFF, 0xFF)))

  // ---------------------------------------------------------------------------
  // Slot layout
  // ---------------------------------------------------------------------------

  /** `get_slot_sector`: 0 for sector A (slots 0-15), 1 for sector B. */
  function SlotSector(i: nat): nat
    requires i < TOTAL_SLOT_COUNT
  {
    if i < SLOTS_PER_SECTOR then 0 else 1
  }

  /** The flash offset of a sector; sector B lies just below sector A. */
  function SectorBase(sectorA: nat, sector: nat): nat
    requires FLASH_SECTOR_SIZE <= sectorA && sector < 2
  {
    if sector == 0 then sectorA else sectorA - FLASH_SECTOR_SIZE
  }

  /**
   * `get_slot_offset`, with the offset of sector A as a parameter (it depends
   * on the flash size of the board). Every slot is a whole page inside its
   * own sector, aligned like the sector.
   */
  function SlotOffset(sectorA: nat, i: nat): (offset: nat)
    requires FLASH_SECTOR_SIZE <= sectorA && i < TOTAL_SLOT_COUNT
    ensures SectorBase(sectorA, SlotSector(i)) <= offset
    ensures offset + JOURNAL_SLOT_SIZE <= SectorBase(sectorA, SlotSector(i)) + FLASH_SECTOR_SIZE
    ensures offset % JOURNAL_SLOT_SIZE == sectorA % JOURNAL_SLOT_SIZE
  {
    if i < SLOTS_PER_SECTOR then sectorA + i * JOURNAL_SLOT_SIZE
    else sectorA - FLASH_SECTOR_SIZE + (i - SLOTS_PER_SECTOR) * JOURNAL_SLOT_SIZE
  }

  /** Distinct slots occupy disjoint pages. */
  lemma SlotsDisjoint(sectorA: nat, i: nat, j: nat)
    requires FLASH_SECTOR_SIZE <= sectorA && i < TOTAL_SLOT_COUNT && j < TOTAL_SLOT_COUNT && i != j
    ensures SlotOffset(sectorA, i) + JOURNAL_SLOT_SIZE <= SlotOffset(sectorA, j)
         || SlotOffset(sectorA, j) + JOURNAL_SLOT_SIZE <= SlotOffset(sectorA, i)
  {
    if SlotSector(i) == SlotSector(j) {
      if i < j {
        assert SlotOffset(sectorA, j) - SlotOffset(sectorA, i) == (j - i) * JOURNAL_SLOT_SIZE;
      } else {
        assert SlotOffset(sectorA, i) - SlotOffset(sectorA, j) == (i - j) * JOURNAL_SLOT_SIZE;
      }
    }
  }

  // ---------------------------------------------------------------------------
  // The journal as a sequence of 32 entries
  // ---------------------------------------------------------------------------

  /** A slot `find_newest_slot` considers: the magic matches and the sequence is not the erased one. */
  predicate Live(e: Settings)
  {
    e.magic == SETTINGS_MAGIC && e.sequence != EMPTY_SEQUENCE
  }

  /** `is_slot_empty`: only the sequence number is looked at. */
  predicate IsEmpty(e: Settings)
  {
    e.sequence == EMPTY_SEQUENCE
  }

  /** The slot `find_newest_slot` has chosen after looking at slots 0..n-1, or -1. */
  function Newest(s: seq<Settings>, n: nat): (r: int)
    requires n <= |s|
    ensures -1 <= r < n
  {
    if n == 0 then -1
    else
      var r := Newest(s, n - 1);
      if Live(s[n - 1]) && (r == -1 || s[n - 1].sequence > s[r].sequence) then n - 1 else r
  }

  /**
   * What `find_newest_slot` finds: -1 exactly when no slot is live, otherwise
   * the first live slot holding the highest sequence number.
   */
  lemma {:induction false} NewestSpec(s: seq<Settings>, n: nat)
    requires n <= |s|
    ensures Newest(s, n) == -1 <==> forall j :: 0 <= j < n ==> !Live(s[j])
    ensures Newest(s, n) >= 0 ==> Live(s[Newest(s, n)])
    ensures Newest(s, n) >= 0 ==> forall j :: 0 <= j < n && Live(s[j]) ==> s[j].sequence <= s[Newest(s, n)].sequence
    ensures Newest(s, n) >= 0 ==> forall j :: 0 <= j < Newest(s, n) && Live(s[j]) ==> s[j].sequence < s[Newest(s, n)].sequence
  {
    if n > 0 {
      NewestSpec(s, n - 1);
    }
  }

  /** A live entry whose sequence number beats every other live entry is the newest. */
  lemma NewestIsUniqueMaximum(s: seq<Settings>, n: nat, k: nat)
    requires k < n <= |s| && Live(s[k])
    requires forall j :: 0 <= j < n && j != k && Live(s[j]) ==> s[j].sequence < s[k].sequence
    ensures Newest(s, n) == k
  {
    NewestSpec(s, n);
    var r := Newest(s, n);
    assert r >= 0 && s[k].sequence <= s[r].sequence;
  }

  /** The first empty slot in lo..hi-1, or -1 (one of the scans of `find_empty_slot`). */
  function FirstEmpty(s: seq<Settings>, lo: nat, hi: nat): (r: int)
    requires lo <= hi <= |s|
    ensures r == -1 || lo <= r < hi
    decreases hi - lo
  {
    if lo == hi then -1
    else if IsEmpty(s[lo]) then lo
    else FirstEmpty(s, lo + 1, hi)
  }

  /** The scan finds the first empty slot of the range, and -1 only when there is none. */
  lemma {:induction false} FirstEmptySpec(s: seq<Settings>, lo: nat, hi: nat)
    requires lo <= hi <= |s|
    ensures FirstEmpty(s, lo, hi) == -1 <==> forall j :: lo <= j < hi ==> !IsEmpty(s[j])
    ensures FirstEmpty(s, lo, hi) != -1 ==> IsEmpty(s[FirstEmpty(s, lo, hi)])
    ensures forall j :: lo <= j < hi && j < FirstEmpty(s, lo, hi) ==> !IsEmpty(s[j])
    decreases hi - lo
  {
    if lo < hi && !IsEmpty(s[lo]) {
      FirstEmptySpec(s, lo + 1, hi);
    }
  }

  /** The sector holding the newest entry, or sector A when there is none. */
  function HomeSector(s: seq<Settings>): (sector: nat)
    requires |s| == TOTAL_SLOT_COUNT
    ensures sector < 2
  {
    var newest := Newest(s, TOTAL_SLOT_COUNT);
    if newest < 0 then 0 else SlotSector(newest)
  }

  /** The first and last-plus-one slot of a sector. */
  function SectorStart(sector: nat): nat requires sector < 2 { sector * SLOTS_PER_SECTOR }
  function SectorEnd(sector: nat): nat requires sector < 2 { sector * SLOTS_PER_SECTOR + SLOTS_PER_SECTOR }

  /**
   * `find_empty_slot`: the first empty slot of the home sector, else the first
   * empty slot of the other sector, else -1.
   */
  function EmptySlot(s: seq<Settings>): (r: int)
    requires |s| == TOTAL_SLOT_COUNT
    ensures -1 <= r < TOTAL_SLOT_COUNT
  {
    var home := HomeSector(s);
    var first := FirstEmpty(s, SectorStart(home), SectorEnd(home));
    if first >= 0 then first else FirstEmpty(s, SectorStart(1 - home), SectorEnd(1 - home))
  }

  /**
   * What `find_empty_slot` finds: -1 only when all 32 slots are used; otherwise
   * an empty slot, the first of its sector, and in the home sector whenever
   * that sector still has one.
   */
  lemma EmptySlotSpec(s: seq<Settings>)
    requires |s| == TOTAL_SLOT_COUNT
    ensures EmptySlot(s) == -1 <==> forall j :: 0 <= j < TOTAL_SLOT_COUNT ==> !IsEmpty(s[j])
    ensures EmptySlot(s) >= 0 ==> IsEmpty(s[EmptySlot(s)])
    ensures EmptySlot(s) >= 0 && SlotSector(EmptySlot(s)) != HomeSector(s) ==>
      forall j :: SectorStart(HomeSector(s)) <= j < SectorEnd(HomeSector(s)) ==> !IsEmpty(s[j])
    ensures EmptySlot(s) >= 0 ==> forall j :: SectorStart(SlotSector(EmptySlot(s))) <= j < EmptySlot(s) ==> !IsEmpty(s[j])
  {
    var home := HomeSector(s);
    FirstEmptySpec(s, SectorStart(home), SectorEnd(home));
    FirstEmptySpec(s, SectorStart(1 - home), SectorEnd(1 - home));
  }

  /** The journal after `flash_erase_sector`. */
  function EraseSectorOf(s: seq<Settings>, sector: nat): (t: seq<Settings>)
    requires |s| == TOTAL_SLOT_COUNT && sector < 2
    ensures |t| == TOTAL_SLOT_COUNT
  {
    seq(TOTAL_SLOT_COUNT, j requires 0 <= j < TOTAL_SLOT_COUNT => if SlotSector(j) == sector then ERASED else s[j])
  }

  /** The slot `flash_save_now` programs: an empty one, or the first slot of the sector it erases. */
  function SaveSlot(s: seq<Settings>): (slot: nat)
    requires |s| == TOTAL_SLOT_COUNT
    ensures slot < TOTAL_SLOT_COUNT
  {
    var empty := EmptySlot(s);
    if empty >= 0 then empty else SectorStart(1 - HomeSector(s))
  }

  /** The journal just before `flash_save_now` programs its slot: the other sector is erased if nothing is empty. */
  function Prepared(s: seq<Settings>): (t: seq<Settings>)
    requires |s| == TOTAL_SLOT_COUNT
    ensures |t| == TOTAL_SLOT_COUNT
  {
    if EmptySlot(s) >= 0 then s else EraseSectorOf(s, 1 - HomeSector(s))
  }

  /** The journal after `flash_save_now` has written entry e. */
  function AfterSave(s: seq<Settings>, e: Settings): (t: seq<Settings>)
    requires |s| == TOTAL_SLOT_COUNT
    ensures |t| == TOTAL_SLOT_COUNT
  {
    Prepared(s)[SaveSlot(s) := e]
  }

  /** A save never overwrites or erases the newest entry: it is still there afterwards. */
  lemma SaveKeepsNewest(s: seq<Settings>, e: Settings)
    requires |s| == TOTAL_SLOT_COUNT && Newest(s, TOTAL_SLOT_COUNT) >= 0
    ensures AfterSave(s, e)[Newest(s, TOTAL_SLOT_COUNT)] == s[Newest(s, TOTAL_SLOT_COUNT)]
  {
    var newest := Newest(s, TOTAL_SLOT_COUNT);
    NewestSpec(s, TOTAL_SLOT_COUNT);
    EmptySlotSpec(s);
    assert !IsEmpty(s[newest]);
    if EmptySlot(s) < 0 {
      assert SlotSector(newest) == HomeSector(s);
      assert SlotSector(SaveSlot(s)) != HomeSector(s);
      assert EraseSectorOf(s, 1 - HomeSector(s))[newest] == s[newest];
    }
  }

  /** Only the written slot and, when both sectors are full, the erased sector change. */
  lemma SaveChangesOnly(s: seq<Settings>, e: Settings, j: nat)
    requires |s| == TOTAL_SLOT_COUNT && j < TOTAL_SLOT_COUNT && j != SaveSlot(s)
    ensures EmptySlot(s) >= 0 ==> AfterSave(s, e)[j] == s[j]
    ensures EmptySlot(s) < 0 ==> AfterSave(s, e)[j] == (if SlotSector(j) == HomeSector(s) then s[j] else ERASED)
  {
  }

  /**
   * When the written entry is live and newer than every live entry, it is the
   * newest entry afterwards, so the next `flash_load` returns it.
   */
  lemma SaveIsLoaded(s: seq<Settings>, e: Settings)
    requires |s| == TOTAL_SLOT_COUNT && Live(e)
    requires forall j :: 0 <= j < TOTAL_SLOT_COUNT && Live(s[j]) ==> s[j].sequence < e.sequence
    ensures Newest(AfterSave(s, e), TOTAL_SLOT_COUNT) == SaveSlot(s)
  {
    var t := AfterSave(s, e);
    var slot := SaveSlot(s);
    forall j | 0 <= j < TOTAL_SLOT_COUNT && j != slot && Live(t[j])
      ensures t[j].sequence < e.sequence
    {
      SaveChangesOnly(s, e, j);
      assert !Live(ERASED);
    }
    NewestIsUniqueMaximum(t, TOTAL_SLOT_COUNT, slot);
  }

  /** The entry `flash_save_now` writes: the settings with the magic and the next sequence number. */
  function Stamped(settings: Settings, previous: u32): (e: Settings)
    ensures e.magic == SETTINGS_MAGIC
    ensures e.sequence == (previous + 1) % 0x1_0000_0000
    ensures e.(magic := settings.magic, sequence := settings.sequence) == settings
  {
    settings.(magic := SETTINGS_MAGIC, sequence := (previous + 1) % 0x1_0000_0000)
  }

  /**
   * What `flash_save_now` promises the next `flash_load`: while the
   * sequence number does not reach the erased value, the written entry is
   * the newest, the previous newest entry is untouched, and the journal
   * invariant holds again.
   */
  lemma SaveNowLoads(s: seq<Settings>, previous: u32, settings: Settings)
    requires |s| == TOTAL_SLOT_COUNT && previous + 1 < EMPTY_SEQUENCE
    requires forall j :: 0 <= j < TOTAL_SLOT_COUNT && Live(s[j]) ==> s[j].sequence <= previous
    ensures var t := AfterSave(s, Stamped(settings, previous));
      && Newest(t, TOTAL_SLOT_COUNT) == SaveSlot(s)
      && t[SaveSlot(s)] == Stamped(settings, previous)
      && (forall j :: 0 <= j < TOTAL_SLOT_COUNT && Live(t[j]) ==> t[j].sequence <= previous + 1)
      && (Newest(s, TOTAL_SLOT_COUNT) >= 0 ==> t[Newest(s, TOTAL_SLOT_COUNT)] == s[Newest(s, TOTAL_SLOT_COUNT)])
  {
    var e := Stamped(settings, previous);
    SaveIsLoaded(s, e);
    var t := AfterSave(s, e);
    forall j | 0 <= j < TOTAL_SLOT_COUNT && Live(t[j])
      ensures t[j].sequence <= previous + 1
    {
      if j != SaveSlot(s) {
        SaveChangesOnly(s, e, j);
      }
    }
    if Newest(s, TOTAL_SLOT_COUNT) >= 0 {
      SaveKeepsNewest(s, e);
    }
  }

  // ---------------------------------------------------------------------------
  // Custom profiles
  // ---------------------------------------------------------------------------

  /** The name field `custom_profile_init` writes: at most 11 characters, then NULs. */
  function NameField(name: Option<seq<char>>): (buf: NameBuffer)
    ensures name.None? ==> buf == seq(12, _ => '\0')
    ensures name.Some? ==>
      var k := Min(|name.value|, CUSTOM_PROFILE_NAME_LEN - 1);
      buf[..k] == name.value[..k] && forall i :: k <= i < CUSTOM_PROFILE_NAME_LEN ==> buf[i] == '\0'
  {
    match name
    case None => seq(12, _ => '\0')
    case Some(text) =>
      var k := Min(|text|, CUSTOM_PROFILE_NAME_LEN - 1);
      text[..k] + seq(CUSTOM_PROFILE_NAME_LEN - k, _ => '\0')
  }

  /**
   * `custom_profile_init`: zero everything, copy the name, map every button
   * to itself and set both sensitivities to 1.0x.
   */
  function ProfileInit(name: Option<seq<char>>): (p: Profile)
    requires name.Some? ==> '\0' !in name.value
    ensures p.name[CUSTOM_PROFILE_NAME_LEN - 1] == '\0'
    ensures name.Some? && |name.value| < CUSTOM_PROFILE_NAME_LEN ==> p.name[..|name.value|] == name.value
    ensures forall i :: 0 <= i < CUSTOM_PROFILE_BUTTON_COUNT ==> p.buttonMap[i] == BUTTON_MAP_PASSTHROUGH
    ensures p.leftStickSens == 100 && p.rightStickSens == 100 && p.flags == 0 && p.socdMode == 0
  {
    Profile(NameField(name), seq(18, _ => BUTTON_MAP_PASSTHROUGH), 100, 100, 0, 0)
  }

  /** Where pressed input button i goes under mapping m: kept, dropped, or moved to bit m-1. */
  function Target(m: byte, i: bv8): (t: Option<bv8>)
    requires i < 18
    ensures t.Some? ==> t.value < 18
  {
    if m == BUTTON_MAP_PASSTHROUGH then Some(i)
    else if m == BUTTON_MAP_DISABLED then None
    else if 1 <= m <= 18 then Some((m - 1) as bv8)
    else None
  }

  /** What input button i adds to the output. */
  function Contribution(buttonMap: ButtonMap, buttons: Buttons, i: nat): Buttons
    requires i < 18
  {
    if !BitSet(buttons, i as bv8) then 0
    else match Target(buttonMap[i], i as bv8)
      case Some(t) => Bit(t)
      case None => 0
  }

  /** The output after input buttons 0..n-1 have been looked at. */
  function Remap(buttonMap: ButtonMap, buttons: Buttons, n: nat): Buttons
    requires n <= 18
  {
    if n == 0 then 0 else Remap(buttonMap, buttons, n - 1) | Contribution(buttonMap, buttons, n - 1)
  }

  /** Input button k is pressed and lands on output bit j. */
  predicate Hits(buttonMap: ButtonMap, buttons: Buttons, k: nat, j: bv8)
    requires k < 18
  {
    BitSet(buttons, k as bv8) && Target(buttonMap[k], k as bv8) == Some(j)
  }

  /** Some pressed input button among 0..n-1 lands on output bit j. */
  predicate Reaches(buttonMap: ButtonMap, buttons: Buttons, n: nat, j: bv8)
    requires n <= 18
  {
    exists i: nat :: i < n && Hits(buttonMap, buttons, i, j)
  }

  lemma ContributionBit(buttonMap: ButtonMap, buttons: Buttons, k: nat, j: bv8)
    requires k < 18 && j < 32
    ensures BitSet(Contribution(buttonMap, buttons, k), j) <==> Hits(buttonMap, buttons, k, j)
  {
    NoBitsOfZero(j);
    if BitSet(buttons, k as bv8) && Target(buttonMap[k], k as bv8).Some? {
      SingleBit(Target(buttonMap[k], k as bv8).value, j);
    }
  }

  lemma RemapUnfold(buttonMap: ButtonMap, buttons: Buttons, k: nat)
    requires k < 18
    ensures Remap(buttonMap, buttons, k + 1) == Remap(buttonMap, buttons, k) | Contribution(buttonMap, buttons, k)
  {
  }

  lemma RemapStep(buttonMap: ButtonMap, buttons: Buttons, k: nat, j: bv8)
    requires k < 18 && j < 32
    ensures BitSet(Remap(buttonMap, buttons, k + 1), j)
        <==> BitSet(Remap(buttonMap, buttons, k), j) || Hits(buttonMap, buttons, k, j)
  {
    BitOfOr(Remap(buttonMap, buttons, k), Contribution(buttonMap, buttons, k), j);
    ContributionBit(buttonMap, buttons, k, j);
  }

  /**
   * The meaning of the remap: output bit j is set exactly when some pressed
   * input button among the first n lands on j. Bits above 17 and released
   * buttons never contribute.
   */
  lemma {:induction false} RemapBits(buttonMap: ButtonMap, buttons: Buttons, n: nat, j: bv8)
    requires n <= 18 && j < 32
    ensures BitSet(Remap(buttonMap, buttons, n), j) <==> Reaches(buttonMap, buttons, n, j)
  {
    if n == 0 {
      NoBitsOfZero(j);
    } else {
      var k := n - 1;
      RemapBits(buttonMap, buttons, k, j);
      RemapStep(buttonMap, buttons, k, j);
      if Reaches(buttonMap, buttons, n, j) {
        var i: nat :| i < n && Hits(buttonMap, buttons, i, j);
        if i < k {
          assert Reaches(buttonMap, buttons, k, j);
        }
      }
      if Reaches(buttonMap, buttons, k, j) {
        var i: nat :| i < k && Hits(buttonMap, buttons, i, j);
        assert i < n;
      }
      if Hits(buttonMap, buttons, k, j) {
        assert Reaches(buttonMap, buttons, n, j);
      }
    }
  }

  /** Output bits 18 and up are never set, whatever the map. */
  lemma RemapBelow18(buttonMap: ButtonMap, buttons: Buttons, j: bv8)
    requires 18 <= j < 32
    ensures !BitSet(Remap(buttonMap, buttons, 18), j)
  {
    RemapBits(buttonMap, buttons, 18, j);
  }

  /**
   * `custom_profile_apply_buttons`: looks at input buttons 0-17 one by one;
   * without a profile the buttons pass through unchanged.
   */
  method ApplyButtons(profile: Option<Profile>, buttons: Buttons) returns (output: Buttons)
    ensures profile.None? ==> output == buttons
    ensures profile.Some? ==> output == Remap(profile.value.buttonMap, buttons, 18)
  {
    if profile.None? {
      return buttons;
    }
    var buttonMap := profile.value.buttonMap;
    output := 0;
    var i: nat := 0;
    while i < 18
      invariant i <= 18
      invariant output == Remap(buttonMap, buttons, i)
    {
      var added := Route(buttonMap, buttons, i);
      RemapUnfold(buttonMap, buttons, i);
      output := output | added;
      i := i + 1;
    }
  }

  /** The body of the loop in `custom_profile_apply_buttons`: the bit input button i adds. */
  method Route(buttonMap: ButtonMap, buttons: Buttons, i: nat) returns (added: Buttons)
    requires i < 18
    ensures added == Contribution(buttonMap, buttons, i)
  {
    added := 0;
    if BitSet(buttons, i as bv8) {
      var mapping := buttonMap[i];
      if mapping == BUTTON_MAP_PASSTHROUGH {
        added := Bit(i as bv8);
      } else if mapping == BUTTON_MAP_DISABLED {
      } else if 1 <= mapping <= 18 {
        added := Bit((mapping - 1) as bv8);
      }
    }
  }

  /** `flash_get_custom_profile`: the stored profile, or none past the count or the table. */
  function GetCustomProfile(settings: Settings, index: byte): (p: Option<Profile>)
    ensures p.Some? <==> index < settings.customProfileCount && index < CUSTOM_PROFILE_MAX_COUNT
    ensures p.Some? ==> p.value == settings.profiles[index]
  {
    if index >= settings.customProfileCount then None
    else if index >= CUSTOM_PROFILE_MAX_COUNT then None
    else Some(settings.profiles[index])
  }

  /** `(current + 1) % total` in `flash_cycle_profile_next`. */
  function NextIndex(current: byte, total: byte): (next: byte)
    requires total > 1
    ensures next < total
  {
    (current + 1) % total
  }

  /** `current == 0 ? total - 1 : current - 1` in `flash_cycle_profile_prev`. */
  function PrevIndex(current: byte, total: byte): (prev: byte)
    requires total > 1
  {
    if current == 0 then total - 1 else current - 1
  }

  /** Next and previous undo each other on the indices 0..total-1. */
  lemma CycleInverse(current: byte, total: byte)
    requires 1 < total && current < total
    ensures PrevIndex(NextIndex(current, total), total) == current
    ensures NextIndex(PrevIndex(current, total), total) == current
  {
    if current + 1 < total {
      ModSmall(current + 1, total);
    } else {
      ModSelf(total);
    }
    if current == 0 {
      ModSelf(total);
    } else {
      ModSmall(current, total);
    }
  }

  // ---------------------------------------------------------------------------
  // The journal and the runtime settings
  // ---------------------------------------------------------------------------

  /** The static state of `flash.c` over the two journal sectors. */
  class Store {
    /** The 32 journal slots in slot order (sector A, then sector B). */
    const slots: array<Settings>
    var currentSequence: u32
    var savePending: bool
    var pendingSettings: Settings
    /** Microseconds. */
    var lastChangeTime: int
    var runtimeSettings: Settings
    var runtimeLoaded: bool

    predicate Valid()
      reads this
    {
      slots.Length == TOTAL_SLOT_COUNT
    }

    /** No live entry is newer than `current_sequence`. */
    ghost predicate Journaled()
      requires Valid()
      reads this, slots
    {
      forall j :: 0 <= j < TOTAL_SLOT_COUNT && Live(slots[j]) ==> slots[j].sequence <= currentSequence
    }

    /** The statics before `flash_init`: all zero. */
    constructor (flash: array<Settings>)
      requires flash.Length == TOTAL_SLOT_COUNT
      ensures Valid() && slots == flash && flash[..] == old(flash[..])
      ensures currentSequence == 0 && !savePending && !runtimeLoaded
      ensures pendingSettings == ZERO_SETTINGS && runtimeSettings == ZERO_SETTINGS && lastChangeTime == 0
    {
      slots := flash;
      currentSequence := 0;
      savePending := false;
      pendingSettings := ZERO_SETTINGS;
      lastChangeTime := 0;
      runtimeSettings := ZERO_SETTINGS;
      runtimeLoaded := false;
    }

    /** `find_newest_slot`. */
    method FindNewestSlot() returns (newest: int)
      requires Valid()
      ensures newest == Newest(slots[..], TOTAL_SLOT_COUNT)
    {
      newest := -1;
      var highest: u32 := 0;
      var i: nat := 0;
      while i < TOTAL_SLOT_COUNT
        invariant i <= TOTAL_SLOT_COUNT
        invariant newest == Newest(slots[..], i)
        invariant newest >= 0 ==> highest == slots[newest].sequence
      {
        var slot := slots[i];
        if slot.magic == SETTINGS_MAGIC && slot.sequence != EMPTY_SEQUENCE {
          if newest == -1 || slot.sequence > highest {
            highest := slot.sequence;
            newest := i;
          }
        }
        i := i + 1;
      }
    }

    /** One scan of `find_empty_slot` over the slots lo..hi-1. */
    method SearchSector(lo: nat, hi: nat) returns (slot: int)
      requires Valid() && lo <= hi <= TOTAL_SLOT_COUNT
      ensures slot == FirstEmpty(slots[..], lo, hi)
    {
      var i := lo;
      while i < hi
        invariant lo <= i <= hi
        invariant FirstEmpty(slots[..], lo, hi) == FirstEmpty(slots[..], i, hi)
      {
        if slots[i].sequence == EMPTY_SEQUENCE {
          return i;
        }
        i := i + 1;
      }
      return -1;
    }

    /** `find_empty_slot`. */
    method FindEmptySlot() returns (slot: int)
      requires Valid()
      ensures slot == EmptySlot(slots[..])
    {
      var newest := FindNewestSlot();
      var startWithA := newest < 0 || newest < SLOTS_PER_SECTOR;
      var home := if startWithA then 0 else 1;
      assert home == HomeSector(slots[..]);
      slot := SearchSector(SectorStart(home), SectorEnd(home));
      if slot < 0 {
        slot := SearchSector(SectorStart(1 - home), SectorEnd(1 - home));
      }
    }

    /** `flash_load`: copies the newest entry and adopts its sequence number. */
    method Load() returns (found: bool, settings: Settings)
      requires Valid()
      modifies this
      ensures Valid()
      ensures var newest := Newest(slots[..], TOTAL_SLOT_COUNT);
        && (found <==> newest >= 0)
        && (found ==> settings == slots[newest] && currentSequence == settings.sequence)
        && (!found ==> currentSequence == old(currentSequence))
      ensures found ==> Journaled()
      ensures savePending == old(savePending) && pendingSettings == old(pendingSettings)
      ensures lastChangeTime == old(lastChangeTime)
      ensures runtimeSettings == old(runtimeSettings) && runtimeLoaded == old(runtimeLoaded)
    {
      var newest := FindNewestSlot();
      if newest < 0 {
        return false, ZERO_SETTINGS;
      }
      NewestSpec(slots[..], TOTAL_SLOT_COUNT);
      settings := slots[newest];
      currentSequence := settings.sequence;
      found := true;
    }

    /**
     * `flash_init`: adopts the newest sequence number and loads the newest
     * entry into the runtime settings, or the defaults when there is none.
     */
    method Init()
      requires Valid()
      modifies this
      ensures Valid() && Journaled()
      ensures !savePending && runtimeLoaded
      ensures var newest := Newest(slots[..], TOTAL_SLOT_COUNT);
        && (newest >= 0 ==> runtimeSettings == slots[newest] && currentSequence == slots[newest].sequence)
        && (newest < 0 ==> runtimeSettings == DEFAULT_SETTINGS && currentSequence == 0)
      ensures pendingSettings == old(pendingSettings) && lastChangeTime == old(lastChangeTime)
    {
      savePending := false;
      var newest := FindNewestSlot();
      NewestSpec(slots[..], TOTAL_SLOT_COUNT);
      if newest >= 0 {
        currentSequence := slots[newest].sequence;
      } else {
        currentSequence := 0;
      }
      var found, settings := Load();
      if found {
        runtimeSettings := settings;
      } else {
        runtimeSettings := DEFAULT_SETTINGS;
      }
      runtimeLoaded := true;
    }

    /** `flash_save`: remember the settings, stamped with the magic, and restart the debounce. */
    method Save(settings: Settings, now: int)
      modifies this
      ensures savePending && pendingSettings == settings.(magic := SETTINGS_MAGIC) && lastChangeTime == now
      ensures currentSequence == old(currentSequence)
      ensures runtimeSettings == old(runtimeSettings) && runtimeLoaded == old(runtimeLoaded)
    {
      pendingSettings := settings.(magic := SETTINGS_MAGIC);
      savePending := true;
      lastChangeTime := now;
    }

    /** `flash_erase_sector`: every slot of the sector reads as erased. */
    method EraseSector(sector: nat)
      requires Valid() && sector < 2
      modifies slots
      ensures slots[..] == EraseSectorOf(old(slots[..]), sector)
    {
      forall j | 0 <= j < TOTAL_SLOT_COUNT && SlotSector(j) == sector {
        slots[j] := ERASED;
      }
    }

    /** `flash_write_page`: the slot holds the entry afterwards. */
    method WritePage(slot: nat, e: Settings)
      requires Valid() && slot < TOTAL_SLOT_COUNT
      modifies slots
      ensures slots[..] == old(slots[..])[slot := e]
    {
      slots[slot] := e;
    }

    /**
     * `flash_save_now`: stamps the settings with the magic and the next
     * sequence number (a `uint32_t` increment), writes them to the next empty
     * slot (erasing the sector without the newest entry when none is left)
     * and clears the pending flag.
     */
    method SaveNow(settings: Settings)
      requires Valid()
      modifies this, slots
      ensures Valid()
      ensures currentSequence == (old(currentSequence) + 1) % 0x1_0000_0000
      ensures slots[..] == AfterSave(old(slots[..]), Stamped(settings, old(currentSequence)))
      ensures old(Journaled()) && old(currentSequence) + 1 < EMPTY_SEQUENCE ==>
        Journaled() && Newest(slots[..], TOTAL_SLOT_COUNT) == SaveSlot(old(slots[..]))
      ensures !savePending
      ensures pendingSettings == old(pendingSettings) && lastChangeTime == old(lastChangeTime)
      ensures runtimeSettings == old(runtimeSettings) && runtimeLoaded == old(runtimeLoaded)
    {
      ghost var before, previous := slots[..], currentSequence;
      var write := Stamped(settings, currentSequence);
      currentSequence := write.sequence;
      var slot := ChooseSlot();
      WritePage(slot, write);
      savePending := false;
      if previous + 1 < EMPTY_SEQUENCE && forall j :: 0 <= j < TOTAL_SLOT_COUNT && Live(before[j]) ==> before[j].sequence <= previous {
        SaveNowLoads(before, previous, settings);
      }
    }

    /** The slot choice of `flash_save_now`, erasing the sector without the newest entry when both are full. */
    method ChooseSlot() returns (slot: nat)
      requires Valid()
      modifies slots
      ensures slot == SaveSlot(old(slots[..]))
      ensures slots[..] == Prepared(old(slots[..]))
    {
      var empty := FindEmptySlot();
      if empty >= 0 {
        return empty;
      }
      var newest := FindNewestSlot();
      var newestSector := if newest >= 0 then SlotSector(newest) else 0;
      var eraseSector := if newestSector == 0 then 1 else 0;
      EraseSector(eraseSector);
      slot := if eraseSector == 0 then 0 else SLOTS_PER_SECTOR;
    }

    /** `flash_task`: writes the pending settings once 5 seconds have passed since the last change. */
    method Task(now: int)
      requires Valid()
      modifies this, slots
      ensures Valid()
      ensures var due := old(savePending) && now - old(lastChangeTime) >= SAVE_DEBOUNCE_US;
        && (due ==>
              slots[..] == AfterSave(old(slots[..]), Stamped(old(pendingSettings), old(currentSequence)))
              && currentSequence == (old(currentSequence) + 1) % 0x1_0000_0000
              && !savePending)
        && (!due ==>
              slots[..] == old(slots[..]) && currentSequence == old(currentSequence) && savePending == old(savePending))
      ensures pendingSettings == old(pendingSettings) && lastChangeTime == old(lastChangeTime)
      ensures runtimeSettings == old(runtimeSettings) && runtimeLoaded == old(runtimeLoaded)
    {
      if !savePending {
        return;
      }
      var timeSinceChange := now - lastChangeTime;
      if timeSinceChange >= SAVE_DEBOUNCE_US {
        SaveNow(pendingSettings);
      }
    }

    /** `flash_get_settings`: the runtime settings, or none before `flash_init`. */
    function GetSettings(): (settings: Option<Settings>)
      reads this
      ensures settings.Some? <==> runtimeLoaded
      ensures settings.Some? ==> settings.value == runtimeSettings
    {
      if runtimeLoaded then Some(runtimeSettings) else None
    }

    /** `flash_get_active_profile_index`. */
    function ActiveProfileIndex(): (index: byte)
      reads this
      ensures !runtimeLoaded ==> index == 0
    {
      if !runtimeLoaded then 0 else runtimeSettings.activeProfileIndex
    }

    /** `flash_get_total_profile_count`: the default profile plus the custom ones, as a `uint8_t`. */
    function TotalProfileCount(): (total: byte)
      reads this
      ensures !runtimeLoaded ==> total == 1
      ensures runtimeLoaded && runtimeSettings.customProfileCount < 255 ==> total == runtimeSettings.customProfileCount + 1
    {
      if !runtimeLoaded then 1 else (1 + runtimeSettings.customProfileCount) % 256
    }

    /** `flash_get_active_custom_profile`: user index i (1-4) is stored profile i-1. */
    function ActiveCustomProfile(): (p: Option<Profile>)
      reads this
      ensures p.Some? <==>
        runtimeLoaded && 1 <= runtimeSettings.activeProfileIndex
        && runtimeSettings.activeProfileIndex <= runtimeSettings.customProfileCount
        && runtimeSettings.activeProfileIndex <= CUSTOM_PROFILE_MAX_COUNT
      ensures p.Some? ==> p.value == runtimeSettings.profiles[runtimeSettings.activeProfileIndex - 1]
    {
      if !runtimeLoaded then None
      else if runtimeSettings.activeProfileIndex == 0 then None
      else GetCustomProfile(runtimeSettings, runtimeSettings.activeProfileIndex - 1)
    }

    /**
     * `flash_set_active_profile_index`: clamps to the custom profile count and
     * schedules a save only when the index changes.
     */
    method SetActiveProfileIndex(index: byte, now: int)
      modifies this
      ensures var chosen := Min(index, old(runtimeSettings.customProfileCount)) as byte;
        var changes := old(runtimeLoaded) && old(runtimeSettings.activeProfileIndex) != chosen;
        && (old(runtimeLoaded) ==> runtimeSettings == old(runtimeSettings).(activeProfileIndex := chosen))
        && (changes ==>
              savePending && pendingSettings == runtimeSettings.(magic := SETTINGS_MAGIC) && lastChangeTime == now)
        && (!changes ==>
              runtimeSettings == old(runtimeSettings) && savePending == old(savePending)
              && pendingSettings == old(pendingSettings) && lastChangeTime == old(lastChangeTime))
      ensures currentSequence == old(currentSequence) && runtimeLoaded == old(runtimeLoaded)
      ensures !old(runtimeLoaded) ==> unchanged(this)
    {
      if !runtimeLoaded {
        return;
      }
      var chosen := index;
      var maxIndex := runtimeSettings.customProfileCount;
      if chosen > maxIndex {
        chosen := maxIndex;
      }
      if runtimeSettings.activeProfileIndex != chosen {
        runtimeSettings := runtimeSettings.(activeProfileIndex := chosen);
        Save(runtimeSettings, now);
      }
    }

    /** `flash_cycle_profile_next`: one step forward, wrapping, when custom profiles exist. */
    method CycleNext(now: int)
      modifies this
      ensures var total := old(TotalProfileCount());
        && (old(runtimeLoaded) && total > 1 ==>
              runtimeSettings == old(runtimeSettings).(activeProfileIndex :=
                Min(NextIndex(old(runtimeSettings.activeProfileIndex), total), old(runtimeSettings.customProfileCount)) as byte))
        && (!(old(runtimeLoaded) && total > 1) ==>
              runtimeSettings == old(runtimeSettings) && savePending == old(savePending)
              && pendingSettings == old(pendingSettings))
      ensures currentSequence == old(currentSequence) && runtimeLoaded == old(runtimeLoaded)
    {
      if !runtimeLoaded {
        return;
      }
      var total := TotalProfileCount();
      if total <= 1 {
        return;
      }
      var next := NextIndex(runtimeSettings.activeProfileIndex, total);
      SetActiveProfileIndex(next, now);
    }

    /** `flash_cycle_profile_prev`: one step back, wrapping, when custom profiles exist. */
    method CyclePrev(now: int)
      modifies this
      ensures var total := old(TotalProfileCount());
        && (old(runtimeLoaded) && total > 1 ==>
              runtimeSettings == old(runtimeSettings).(activeProfileIndex :=
                Min(PrevIndex(old(runtimeSettings.activeProfileIndex), total), old(runtimeSettings.customProfileCount)) as byte))
        && (!(old(runtimeLoaded) && total > 1) ==>
              runtimeSettings == old(runtimeSettings) && savePending == old(savePending)
              && pendingSettings == old(pendingSettings))
      ensures currentSequence == old(currentSequence) && runtimeLoaded == old(runtimeLoaded)
    {
      if !runtimeLoaded {
        return;
      }
      var total := TotalProfileCount();
      if total <= 1 {
        return;
      }
      var prev := PrevIndex(runtimeSettings.activeProfileIndex, total);
      SetActiveProfileIndex(prev, now);
    }
  }

  /**
   * With the active index in range, cycling forward then back (or back then
   * forward) returns to the same profile.
   */
  lemma CycleRoundTrip(current: byte, count: byte)
    requires count < 255 && 0 < count && current <= count
    ensures var total := (count + 1) as byte;
      && Min(NextIndex(current, total), count) == NextIndex(current, total)
      && Min(PrevIndex(current, total), count) == PrevIndex(current, total)
      && PrevIndex(NextIndex(current, total), total) == current
      && NextIndex(PrevIndex(current, total), total) == current
  {
    CycleInverse(current, (count + 1) as byte);
  }
}

=== FILE: gc_adapter_mode.dfy ===
// The GameCube adapter output mode (the Wii U / Switch WUP-028 adapter):
// one report carries four controller ports, each player writes its own port,
// and the host switches each port's rumble on or off.

module GcAdapterMode {
  import opened Common
  import opened UsbdMode

  const GC_ADAPTER_REPORT_ID_RUMBLE: byte := 0x11
  const GC_ADAPTER_REPORT_ID_INIT: byte := 0x13
  const GC_ADAPTER_REPORT_ID_INPUT: byte := 0x21
  const GC_ADAPTER_PORT_NONE: byte := 0x00
  const GC_ADAPTER_PORT_WIRED: byte := 0x10
  const GC_ADAPTER_TYPE_NONE: byte := 0x00
  const GC_ADAPTER_TYPE_NORMAL: byte := 0x01
  const GC_PORTS: nat := 4

  /** `gc_adapter_port_t`: connection nibbles, the twelve buttons, sticks and triggers. */
  datatype GcPort = GcPort(
    connected: byte, kind: byte,
    a: bool, b: bool, x: bool, y: bool,
    dpadLeft: bool, dpadRight: bool, dpadDown: bool, dpadUp: bool,
    start: bool, z: bool, r: bool, l: bool,
    stickX: byte, stickY: byte, cstickX: byte, cstickY: byte,
    triggerL: byte, triggerR: byte)

  /** A port after `init`: nothing connected, nothing pressed, sticks centred. */
  const IDLE_PORT: GcPort := GcPort(
    GC_ADAPTER_PORT_NONE, GC_ADAPTER_TYPE_NONE,
    false, false, false, false, false, false, false, false, false, false, false, false,
    128, 128, 128, 128, 0, 0)

  /** The port `send_report` writes for one player: a wired standard controller. */
  function PortFromInput(p: ProfileOut, buttons: Buttons): (port: GcPort)
    ensures port.connected == GC_ADAPTER_PORT_WIRED / 16 && port.kind == GC_ADAPTER_TYPE_NORMAL
  {
    GcPort(
      GC_ADAPTER_PORT_WIRED / 16, GC_ADAPTER_TYPE_NORMAL,
      Pressed(buttons, JP_B2), Pressed(buttons, JP_B1), Pressed(buttons, JP_B4), Pressed(buttons, JP_B3),
      Pressed(buttons, JP_DL), Pressed(buttons, JP_DR), Pressed(buttons, JP_DD), Pressed(buttons, JP_DU),
      Pressed(buttons, JP_S2), Pressed(buttons, JP_R1), Pressed(buttons, JP_R2), Pressed(buttons, JP_L2),
      p.leftX, 255 - p.leftY, p.rightX, 255 - p.rightY,
      TriggerWithFallback(p.l2Analog, Pressed(buttons, JP_L2)),
      TriggerWithFallback(p.r2Analog, Pressed(buttons, JP_R2)))
  }

  /**
   * The GameCube's Y axes grow upwards: the flip is its own inverse, so the
   * stick positions come back unchanged, and up (0) becomes 255.
   */
  lemma SticksFlipY(p: ProfileOut, buttons: Buttons)
    ensures var port := PortFromInput(p, buttons);
      && 255 - port.stickY == p.leftY && 255 - port.cstickY == p.rightY
      && port.stickX == p.leftX && port.cstickX == p.rightX
      && (p.leftY < p.rightY <==> port.stickY > port.cstickY)
  {
  }

  /** The digital L and R and the analog triggers agree: a held button never reads 0. */
  lemma TriggersFollowButtons(p: ProfileOut, buttons: Buttons)
    ensures var port := PortFromInput(p, buttons);
      && (port.l ==> port.triggerL != 0)
      && (port.r ==> port.triggerR != 0)
      && (port.triggerL == 0 <==> p.l2Analog == 0 && !port.l)
  {
  }

  /** Which port a player's input goes to; players beyond the fourth share port 0. */
  function PortIndex(playerIndex: byte): (i: nat)
    ensures i < GC_PORTS
    ensures playerIndex < 4 ==> i == playerIndex
  {
    if playerIndex >= 4 then 0 else playerIndex
  }

  /**
   * What an output report carries, if it is a rumble command: the report id
   * is either given or, when given as 0, the first byte of the data, and a
   * rumble command needs four bytes after it.
   */
  function RumbleCommand(reportId: byte, data: seq<byte>): (r: Option<seq<byte>>)
    ensures r.Some? ==> |r.value| == 4
    ensures r.Some? <==>
      (reportId == GC_ADAPTER_REPORT_ID_RUMBLE && |data| >= 4) ||
      (reportId == 0 && |data| >= 5 && data[0] == GC_ADAPTER_REPORT_ID_RUMBLE)
    ensures r.Some? && reportId != 0 ==> r.value == data[..4]
    ensures r.Some? && reportId == 0 ==> r.value == data[1..5]
  {
    var (id, rest) := if reportId == 0 && |data| > 0 then (data[0], data[1..]) else (reportId, data);
    if id == GC_ADAPTER_REPORT_ID_RUMBLE && |rest| >= 4 then Some(rest[..4]) else None
  }

  /** Some port has its rumble on. */
  predicate AnyRumble(rumble: seq<byte>) {
    exists i :: 0 <= i < |rumble| && rumble[i] != 0
  }

  /** The mode's state: the four ports of the input report and the rumble command. */
  class GcAdapterDevice {
    const ports: array<GcPort>
    var rumble: seq<byte>
    var rumbleAvailable: bool

    predicate Valid()
      reads this
    {
      ports.Length == GC_PORTS && |rumble| == GC_PORTS
    }

    /** The report and rumble buffers, as zeroed static memory before `init`. */
    constructor ()
      ensures Valid() && fresh(ports)
      ensures rumble == [0, 0, 0, 0] && !rumbleAvailable
    {
      ports := new GcPort[GC_PORTS](_ => IDLE_PORT.(stickX := 0, stickY := 0, cstickX := 0, cstickY := 0));
      rumble := [0, 0, 0, 0];
      rumbleAvailable := false;
    }

    /** `gc_adapter_mode_init`: every port disconnected and centred, rumble off. */
    method Init()
      requires Valid()
      modifies this, ports
      ensures Valid()
      ensures forall i :: 0 <= i < GC_PORTS ==> ports[i] == IDLE_PORT
      ensures rumble == [0, 0, 0, 0] && !rumbleAvailable
    {
      for i := 0 to GC_PORTS
        invariant |rumble| == GC_PORTS
        invariant forall j :: 0 <= j < i ==> ports[j] == IDLE_PORT
      {
        ports[i] := IDLE_PORT;
      }
      rumble := [0, 0, 0, 0];
      rumbleAvailable := false;
    }

    /** `gc_adapter_mode_send_report`: writes the player's port; the other three keep their last input. */
    method SendReport(playerIndex: byte, p: ProfileOut, buttons: Buttons)
      requires Valid()
      modifies ports
      ensures Valid()
      ensures ports[PortIndex(playerIndex)] == PortFromInput(p, buttons)
      ensures forall i :: 0 <= i < GC_PORTS && i != PortIndex(playerIndex) ==> ports[i] == old(ports[i])
    {
      ports[PortIndex(playerIndex)] := PortFromInput(p, buttons);
    }

    /** `gc_adapter_mode_handle_output`: a rumble command latches four per-port bytes; anything else is ignored. */
    method HandleOutput(reportId: byte, data: seq<byte>)
      requires Valid() && |data| <= 0xFFFF
      modifies this`rumble, this`rumbleAvailable
      ensures Valid()
      ensures RumbleCommand(reportId, data).Some? ==>
        rumble == RumbleCommand(reportId, data).value && rumbleAvailable
      ensures RumbleCommand(reportId, data).None? ==>
        rumble == old(rumble) && rumbleAvailable == old(rumbleAvailable)
    {
      var id := reportId;
      var rest := data;
      if id == 0 && |rest| > 0 {
        id := rest[0];
        rest := rest[1..];
      }
      if id == GC_ADAPTER_REPORT_ID_RUMBLE && |rest| >= 4 {
        rumble := rest[..4];
        rumbleAvailable := true;
        return;
      }
    }

    /** `gc_adapter_mode_get_rumble`: full strength if any port's rumble is on, else off. */
    method GetRumble() returns (r: byte)
      requires Valid()
      ensures r == (if AnyRumble(rumble) then 0xFF else 0)
    {
      for i := 0 to GC_PORTS
        invariant forall j :: 0 <= j < i ==> rumble[j] == 0
      {
        if rumble[i] != 0 {
          return 0xFF;
        }
      }
      return 0;
    }

    /** `gc_adapter_mode_get_port_rumble`: one port's rumble as off or full strength; unknown ports are off. */
    function GetPortRumble(port: byte): (r: byte)
      requires Valid()
      reads this
      ensures r == 0xFF <==> port < 4 && rumble[port] != 0
      ensures r == 0 || r == 0xFF
    {
      if port >= 4 then 0 else if rumble[port] != 0 then 0xFF else 0
    }

    /**
     * `gc_adapter_mode_get_feedback`: both motors at the combined rumble,
     * lights off; reports (and marks dirty) whether a command has ever come,
     * without consuming it.
     */
    method GetFeedback(fb: Feedback) returns (ok: bool, fb': Feedback)
      requires Valid()
      ensures ok == rumbleAvailable && fb'.dirty == rumbleAvailable
      ensures fb'.rumbleLeft == fb'.rumbleRight == (if AnyRumble(rumble) then 0xFF else 0)
      ensures fb'.ledPlayer == fb'.ledR == fb'.ledG == fb'.ledB == 0
    {
      var strength: byte := 0;
      var i := 0;
      while i < GC_PORTS
        invariant 0 <= i <= GC_PORTS
        invariant strength == 0 ==> forall j :: 0 <= j < i ==> rumble[j] == 0
        invariant strength == 0 || (strength == 0xFF && AnyRumble(rumble))
      {
        if rumble[i] != 0 {
          strength := 0xFF;
          break;
        }
        i := i + 1;
      }
      fb' := Feedback(strength, strength, 0, 0, 0, 0, rumbleAvailable);
      ok := rumbleAvailable;
    }
  }

  /** The combined rumble is on exactly when some port's rumble is on. */
  lemma CombinedIsAnyPort(d: GcAdapterDevice)
    requires d.Valid()
    ensures AnyRumble(d.rumble) <==> exists port: byte :: port < 4 && d.GetPortRumble(port) == 0xFF
  {
    if AnyRumble(d.rumble) {
      var i :| 0 <= i < |d.rumble| && d.rumble[i] != 0;
      assert d.GetPortRumble(i as byte) == 0xFF;
    }
  }
}

=== FILE: hid_mode.dfy ===
// The generic HID gamepad (DInput/PS3-style) output mode: 18 buttons packed
// into three bytes, an eight-way hat, sticks, triggers and the PS3 pressure
// axes.

module HidMode {
  import opened Common
  import opened ButtonRemap
  import opened UsbdMode

  const HID_HAT_CENTER: byte := 8

  // USB_GAMEPAD_MASK_* bit k is the k-th button that `convert_buttons` tests.
  const HID_FACE: seq<Move> := [
    Move(0, 0),    // B1
    Move(1, 1),    // B2
    Move(2, 2),    // B3
    Move(3, 3)     // B4
  ]
  const HID_SHOULDERS: seq<Move> := [
    Move(4, 4),    // L1
    Move(5, 5),    // R1
    Move(6, 6),    // L2
    Move(7, 7)     // R2
  ]
  const HID_MIDDLE: seq<Move> := [
    Move(8, 8),    // S1
    Move(9, 9),    // S2
    Move(10, 10),  // L3
    Move(11, 11)   // R3
  ]
  const HID_AUX: seq<Move> := [
    Move(16, 12),  // A1
    Move(17, 13),  // A2
    Move(18, 14),  // A3
    Move(19, 15)   // A4
  ]
  const HID_PADDLES: seq<Move> := [
    Move(20, 16),  // L4
    Move(21, 17)   // R4
  ]
  const HID_MOVES: seq<Move> := HID_FACE + (HID_SHOULDERS + (HID_MIDDLE + (HID_AUX + HID_PADDLES)))

  /** `convert_buttons`: the 18 non-d-pad JP buttons onto HID buttons 0..17. */
  function ConvertButtons(buttons: Buttons): Buttons {
    Remap(HID_MOVES, buttons)
  }

  lemma HidMovesDistinct()
    ensures TargetsDistinct(HID_MOVES)
  {
    var tail3 := HID_AUX + HID_PADDLES;
    var tail2 := HID_MIDDLE + tail3;
    var tail1 := HID_SHOULDERS + tail2;
    assert TargetsAscending(HID_PADDLES) && TargetsAscending(HID_AUX) by {}
    AscendingAppend(HID_AUX, HID_PADDLES);
    assert TargetsAscending(HID_MIDDLE) by {}
    AscendingAppend(HID_MIDDLE, tail3);
    assert TargetsAscending(HID_SHOULDERS) by {}
    AscendingAppend(HID_SHOULDERS, tail2);
    assert TargetsAscending(HID_FACE) by {}
    AscendingAppend(HID_FACE, tail1);
    AscendingDistinct(HID_MOVES);
  }

  /** Each listed JP button sets its own HID button, and only when pressed. */
  lemma ConvertMove(buttons: Buttons, i: nat)
    requires i < |HID_MOVES|
    ensures BitSet(ConvertButtons(buttons), HID_MOVES[i].to) <==> BitSet(buttons, HID_MOVES[i].from)
  {
    HidMovesDistinct();
    MovedBit(HID_MOVES, buttons, i);
  }

  /** HID buttons 18 and up are never set. */
  lemma ConvertOnlyListed(buttons: Buttons, k: BitPos)
    requires k >= 18
    ensures !BitSet(ConvertButtons(buttons), k)
  {
    Untargeted(HID_MOVES, buttons, k);
  }

  /** The d-pad bits (and bits above R4) do not reach the button field; they go to the hat. */
  lemma ConvertIgnoresDpad(buttons: Buttons, k: BitPos)
    ensures BitSet(ConvertButtons(buttons), k) <==> BitSet(ConvertButtons(buttons & 0x003F_0FFF), k)
  {
    forall i | 0 <= i < |HID_MOVES|
      ensures BitSet(buttons, HID_MOVES[i].from) <==> BitSet(buttons & 0x003F_0FFF, HID_MOVES[i].from)
    {
      KeptBit(buttons, HID_MOVES[i].from);
    }
    OnlySourcesRead(HID_MOVES, buttons, buttons & 0x003F_0FFF, k);
  }

  /** Masking off the d-pad and the bits above R4 keeps every other button bit. */
  lemma KeptBit(x: Buttons, f: BitPos)
    requires f < 12 || 16 <= f < 22
    ensures BitSet(x, f) <==> BitSet(x & 0x003F_0FFF, f)
  {
  }

  /** The converted word fits in 18 bits. */
  lemma ConvertFits(buttons: Buttons)
    ensures ConvertButtons(buttons) & 0xFFFC_0000 == 0
  {
    ConvertOnlyListed(buttons, 18);
    ConvertOnlyListed(buttons, 19);
    ConvertOnlyListed(buttons, 20);
    ConvertOnlyListed(buttons, 21);
    ConvertOnlyListed(buttons, 22);
    ConvertOnlyListed(buttons, 23);
    ConvertOnlyListed(buttons, 24);
    ConvertOnlyListed(buttons, 25);
    ConvertOnlyListed(buttons, 26);
    ConvertOnlyListed(buttons, 27);
    ConvertOnlyListed(buttons, 28);
    ConvertOnlyListed(buttons, 29);
    ConvertOnlyListed(buttons, 30);
    ConvertOnlyListed(buttons, 31);
  }

  /** The HID input report as `send_report` fills it. */
  datatype HidReport = HidReport(
    buttonsLo: bv8, buttonsMid: bv8, buttonsHi: bv8, hat: byte,
    lx: byte, ly: byte, rx: byte, ry: byte, lt: byte, rt: byte,
    pressureDpadRight: byte, pressureDpadLeft: byte, pressureDpadUp: byte, pressureDpadDown: byte,
    pressureTriangle: byte, pressureCircle: byte, pressureCross: byte, pressureSquare: byte,
    pressureL1: byte, pressureR1: byte, pressureL2: byte, pressureR2: byte)

  /** `hid_mode_init`: zeroed, sticks at 128, hat centred. */
  function Init(): (r: HidReport)
    ensures r.lx == r.ly == r.rx == r.ry == 128 && r.hat == HID_HAT_CENTER
  {
    HidReport(0, 0, 0, HID_HAT_CENTER, 128, 128, 128, 128, 0, 0,
              0, 0, 0, 0, 0, 0, 0, 0, 0, 0, 0, 0)
  }

  /** A PS3 pressure axis for a digital button: full scale or nothing. */
  function Pressure(on: bool): byte { if on then 0xFF else 0 }

  /** `convert_dpad_to_hat` with the HID hat codes. */
  function Hat(buttons: Buttons): byte {
    HatCode(DpadDirection(buttons), HID_HAT_CENTER)
  }

  /** `hid_mode_send_report`. */
  function SendReport(p: ProfileOut, buttons: Buttons): (r: HidReport)
    ensures r.buttonsHi < 4
    ensures r.lx == p.leftX && r.ly == p.leftY && r.rx == p.rightX && r.ry == p.rightY
    ensures r.lt == p.l2Analog && r.rt == p.r2Analog
    ensures r.pressureDpadUp == 0xFF <==> Pressed(buttons, JP_DU)
    ensures r.pressureDpadDown == 0xFF <==> Pressed(buttons, JP_DD)
    ensures r.pressureDpadLeft == 0xFF <==> Pressed(buttons, JP_DL)
    ensures r.pressureDpadRight == 0xFF <==> Pressed(buttons, JP_DR)
  {
    var hid := ConvertButtons(buttons);
    HidReport(
      (hid & 0xFF) as bv8, ((hid >> 8) & 0xFF) as bv8, ((hid >> 16) & 0x03) as bv8,
      Hat(buttons),
      p.leftX, p.leftY, p.rightX, p.rightY, p.l2Analog, p.r2Analog,
      Pressure(Pressed(buttons, JP_DR)), Pressure(Pressed(buttons, JP_DL)),
      Pressure(Pressed(buttons, JP_DU)), Pressure(Pressed(buttons, JP_DD)),
      Pressure(BitSet(hid, 3)), Pressure(BitSet(hid, 1)),
      Pressure(BitSet(hid, 0)), Pressure(BitSet(hid, 2)),
      Pressure(BitSet(hid, 4)), Pressure(BitSet(hid, 5)),
      p.l2Analog, p.r2Analog)
  }

  /** The three button bytes put back together. */
  function ReportButtons(r: HidReport): Buttons {
    Join(r.buttonsLo, r.buttonsMid, r.buttonsHi)
  }

  function Join(lo: bv8, mid: bv8, hi: bv8): Buttons {
    (lo as bv32) | ((mid as bv32) << 8) | ((hi as bv32) << 16)
  }

  /** An 18-bit word survives the lo/mid/hi byte split. */
  lemma SplitJoin(hid: Buttons)
    requires hid & 0xFFFC_0000 == 0
    ensures ((hid >> 16) & 0x03) as bv8 < 4
    ensures Join((hid & 0xFF) as bv8, ((hid >> 8) & 0xFF) as bv8, ((hid >> 16) & 0x03) as bv8) == hid
  {
  }

  /** The lo/mid/hi split loses nothing: the 18 HID buttons come back from the report. */
  lemma ButtonsSplitLossless(p: ProfileOut, buttons: Buttons)
    ensures SendReport(p, buttons).buttonsHi < 4
    ensures ReportButtons(SendReport(p, buttons)) == ConvertButtons(buttons)
  {
    ConvertFits(buttons);
    SplitJoin(ConvertButtons(buttons));
  }

  /** The face and shoulder pressure axes are full scale exactly when the button is held. */
  lemma PressureFollowsButtons(p: ProfileOut, buttons: Buttons)
    ensures var r := SendReport(p, buttons);
      && r.pressureCross == (if Pressed(buttons, JP_B1) then 0xFF else 0)
      && r.pressureCircle == (if Pressed(buttons, JP_B2) then 0xFF else 0)
      && r.pressureSquare == (if Pressed(buttons, JP_B3) then 0xFF else 0)
      && r.pressureTriangle == (if Pressed(buttons, JP_B4) then 0xFF else 0)
      && r.pressureL1 == (if Pressed(buttons, JP_L1) then 0xFF else 0)
      && r.pressureR1 == (if Pressed(buttons, JP_R1) then 0xFF else 0)
      && r.pressureL2 == r.lt && r.pressureR2 == r.rt
  {
    ConvertMove(buttons, 0);
    ConvertMove(buttons, 1);
    ConvertMove(buttons, 2);
    ConvertMove(buttons, 3);
    ConvertMove(buttons, 4);
    ConvertMove(buttons, 5);
  }

  /** The hat is centred exactly when no d-pad direction is held, and otherwise a direction code. */
  lemma HatCentredIffIdle(p: ProfileOut, buttons: Buttons)
    ensures var r := SendReport(p, buttons);
      && (r.hat == HID_HAT_CENTER <==>
            !Pressed(buttons, JP_DU) && !Pressed(buttons, JP_DD) &&
            !Pressed(buttons, JP_DL) && !Pressed(buttons, JP_DR))
      && HatDirection(r.hat) == DpadDirection(buttons)
  {
    HatRoundTrip(DpadDirection(buttons), HID_HAT_CENTER);
  }

  /** The report `init` sets up is the one a neutral controller with nothing pressed sends. */
  lemma InitIsIdleReport()
    ensures Init() == SendReport(NEUTRAL, 0)
  {
    RemapOfZero(HID_MOVES);
  }
}

=== FILE: jocp_input.dfy ===
/**
 * JOCP input over WiFi (`jocp_input.c`): an INPUT packet is validated, its
 * sender is found or given one of four controller slots by IP address, packet
 * loss is counted from the sequence numbers, and the payload becomes a JP
 * gamepad event. Rumble and LED feedback go back as OUTPUT_CMD packets, rate
 * limited per controller.
 */
module JocpInput {
  import opened Common
  import opened ButtonRemap

  const JOCP_MAGIC: u16 := 0x4A50
  const JOCP_VERSION: byte := 0x01
  const JOCP_MSG_INPUT: byte := 0x01
  const JOCP_MSG_OUTPUT_CMD: byte := 0x04
  const JOCP_CMD_RUMBLE: byte := 0x01
  const JOCP_CMD_RGB_LED: byte := 0x03

  /** `sizeof(jocp_header_t)` and `sizeof(jocp_input_packet_t)`. */
  const HEADER_SIZE: nat := 12
  const INPUT_PACKET_SIZE: nat := 76

  const MAX_CONTROLLERS: nat := 4
  const CONTROLLER_TIMEOUT_MS: nat := 5000
  const TIMEOUT_CHECK_INTERVAL_MS: nat := 1000
  const FEEDBACK_INTERVAL_MS: nat := 50
  /** WiFi controllers appear as device addresses 0xE0 + slot. */
  const WIFI_DEV_ADDR_BASE: nat := 0xE0

  const JOCP_BTN_SOUTH: bv32 := 0x0000_0001
  const JOCP_BTN_EAST: bv32 := 0x0000_0002
  const JOCP_BTN_WEST: bv32 := 0x0000_0004
  const JOCP_BTN_NORTH: bv32 := 0x0000_0008
  const JOCP_BTN_DU: bv32 := 0x0000_0010
  const JOCP_BTN_DD: bv32 := 0x0000_0020
  const JOCP_BTN_DL: bv32 := 0x0000_0040
  const JOCP_BTN_DR: bv32 := 0x0000_0080
  const JOCP_BTN_L1: bv32 := 0x0000_0100
  const JOCP_BTN_R1: bv32 := 0x0000_0200
  const JOCP_BTN_L2: bv32 := 0x0000_0400
  const JOCP_BTN_R2: bv32 := 0x0000_0800
  const JOCP_BTN_L3: bv32 := 0x0000_1000
  const JOCP_BTN_R3: bv32 := 0x0000_2000
  const JOCP_BTN_L_PADDLE1: bv32 := 0x0000_4000
  const JOCP_BTN_R_PADDLE1: bv32 := 0x0000_8000
  const JOCP_BTN_START: bv32 := 0x0001_0000
  const JOCP_BTN_BACK: bv32 := 0x0002_0000
  const JOCP_BTN_GUIDE: bv32 := 0x0004_0000
  const JOCP_BTN_CAPTURE: bv32 := 0x0008_0000

  /**
   * `convert_buttons` as moves from JOCP bit positions to JP bit positions,
   * listed in the order of the JP bits they set.
   */
  const JOCP_FACE: seq<Move> := [
    Move(0, 0),    // SOUTH -> B1
    Move(1, 1),    // EAST -> B2
    Move(2, 2),    // WEST -> B3
    Move(3, 3)     // NORTH -> B4
  ]
  const JOCP_SHOULDERS: seq<Move> := [
    Move(8, 4),    // L1 -> L1
    Move(9, 5),    // R1 -> R1
    Move(10, 6),   // L2 -> L2
    Move(11, 7)    // R2 -> R2
  ]
  const JOCP_MIDDLE: seq<Move> := [
    Move(17, 8),   // BACK -> S1
    Move(16, 9),   // START -> S2
    Move(12, 10),  // L3 -> L3
    Move(13, 11)   // R3 -> R3
  ]
  const JOCP_DPAD: seq<Move> := [
    Move(4, 12),   // DU -> DU
    Move(5, 13),   // DD -> DD
    Move(6, 14),   // DL -> DL
    Move(7, 15)    // DR -> DR
  ]
  const JOCP_EXTRA: seq<Move> := [
    Move(18, 16),  // GUIDE -> A1
    Move(19, 17),  // CAPTURE -> A2
    Move(14, 20),  // L_PADDLE1 -> L4
    Move(15, 21)   // R_PADDLE1 -> R4
  ]
  const JOCP_MOVES: seq<Move> := JOCP_FACE + (JOCP_SHOULDERS + (JOCP_MIDDLE + (JOCP_DPAD + JOCP_EXTRA)))

  /** `convert_buttons`. */
  function ConvertButtons(jocp: bv32): Buttons {
    Remap(JOCP_MOVES, jocp)
  }

  lemma JocpMovesDistinct()
    ensures TargetsDistinct(JOCP_MOVES)
  {
    var tail3 := JOCP_DPAD + JOCP_EXTRA;
    var tail2 := JOCP_MIDDLE + tail3;
    var tail1 := JOCP_SHOULDERS + tail2;
    assert TargetsAscending(JOCP_EXTRA) && TargetsAscending(JOCP_DPAD) by {}
    AscendingAppend(JOCP_DPAD, JOCP_EXTRA);
    assert TargetsAscending(JOCP_MIDDLE) by {}
    AscendingAppend(JOCP_MIDDLE, tail3);
    assert TargetsAscending(JOCP_SHOULDERS) by {}
    AscendingAppend(JOCP_SHOULDERS, tail2);
    assert TargetsAscending(JOCP_FACE) by {}
    AscendingAppend(JOCP_FACE, tail1);
    AscendingDistinct(JOCP_MOVES);
  }

  /** Each listed JOCP button sets its JP button, and only when pressed. */
  lemma ConvertMove(jocp: bv32, i: nat)
    requires i < |JOCP_MOVES|
    ensures BitSet(ConvertButtons(jocp), JOCP_MOVES[i].to) <==> BitSet(jocp, JOCP_MOVES[i].from)
  {
    JocpMovesDistinct();
    MovedBit(JOCP_MOVES, jocp, i);
  }

  /** The table in the firmware's names: face buttons and the d-pad. */
  lemma ConvertFaceAndDpad(jocp: bv32)
    ensures var b := ConvertButtons(jocp);
      && (Pressed(b, JP_B1) <==> Pressed(jocp, JOCP_BTN_SOUTH))
      && (Pressed(b, JP_B2) <==> Pressed(jocp, JOCP_BTN_EAST))
      && (Pressed(b, JP_B3) <==> Pressed(jocp, JOCP_BTN_WEST))
      && (Pressed(b, JP_B4) <==> Pressed(jocp, JOCP_BTN_NORTH))
      && (Pressed(b, JP_DU) <==> Pressed(jocp, JOCP_BTN_DU))
      && (Pressed(b, JP_DD) <==> Pressed(jocp, JOCP_BTN_DD))
      && (Pressed(b, JP_DL) <==> Pressed(jocp, JOCP_BTN_DL))
      && (Pressed(b, JP_DR) <==> Pressed(jocp, JOCP_BTN_DR))
  {
    ConvertMove(jocp, 0);
    ConvertMove(jocp, 1);
    ConvertMove(jocp, 2);
    ConvertMove(jocp, 3);
    ConvertMove(jocp, 12);
    ConvertMove(jocp, 13);
    ConvertMove(jocp, 14);
    ConvertMove(jocp, 15);
  }

  /** Shoulders, triggers and stick clicks. */
  lemma ConvertShoulders(jocp: bv32)
    ensures var b := ConvertButtons(jocp);
      && (Pressed(b, JP_L1) <==> Pressed(jocp, JOCP_BTN_L1))
      && (Pressed(b, JP_R1) <==> Pressed(jocp, JOCP_BTN_R1))
      && (Pressed(b, JP_L2) <==> Pressed(jocp, JOCP_BTN_L2))
      && (Pressed(b, JP_R2) <==> Pressed(jocp, JOCP_BTN_R2))
      && (Pressed(b, JP_L3) <==> Pressed(jocp, JOCP_BTN_L3))
      && (Pressed(b, JP_R3) <==> Pressed(jocp, JOCP_BTN_R3))
  {
    ConvertMove(jocp, 4);
    ConvertMove(jocp, 5);
    ConvertMove(jocp, 6);
    ConvertMove(jocp, 7);
    ConvertMove(jocp, 10);
    ConvertMove(jocp, 11);
  }

  /** Start is S2, Back is S1, Guide is A1, Capture is A2, the first paddles are L4 and R4. */
  lemma ConvertSystem(jocp: bv32)
    ensures var b := ConvertButtons(jocp);
      && (Pressed(b, JP_S2) <==> Pressed(jocp, JOCP_BTN_START))
      && (Pressed(b, JP_S1) <==> Pressed(jocp, JOCP_BTN_BACK))
      && (Pressed(b, JP_A1) <==> Pressed(jocp, JOCP_BTN_GUIDE))
      && (Pressed(b, JP_A2) <==> Pressed(jocp, JOCP_BTN_CAPTURE))
      && (Pressed(b, JP_L4) <==> Pressed(jocp, JOCP_BTN_L_PADDLE1))
      && (Pressed(b, JP_R4) <==> Pressed(jocp, JOCP_BTN_R_PADDLE1))
  {
    ConvertMove(jocp, 9);
    ConvertMove(jocp, 8);
    ConvertMove(jocp, 16);
    ConvertMove(jocp, 17);
    ConvertMove(jocp, 18);
    ConvertMove(jocp, 19);
  }

  /** A3, A4 and the bits above R4 are never set. */
  lemma ConvertOnlyListed(jocp: bv32, k: BitPos)
    requires k == 18 || k == 19 || k >= 22
    ensures !BitSet(ConvertButtons(jocp), k)
  {
    Untargeted(JOCP_MOVES, jocp, k);
  }

  /** JOCP bits 20 and up (second paddles, touchpad clicks, power, misc) make no difference. */
  lemma ConvertIgnoresHighBits(jocp: bv32, k: BitPos)
    ensures BitSet(ConvertButtons(jocp), k) <==> BitSet(ConvertButtons(jocp & 0x000F_FFFF), k)
  {
    forall i | 0 <= i < |JOCP_MOVES|
      ensures BitSet(jocp, JOCP_MOVES[i].from) <==> BitSet(jocp & 0x000F_FFFF, JOCP_MOVES[i].from)
    {
      LowBitKept(jocp, JOCP_MOVES[i].from);
    }
    OnlySourcesRead(JOCP_MOVES, jocp, jocp & 0x000F_FFFF, k);
  }

  /** Masking with the low 20 bits keeps each of them. */
  lemma LowBitKept(x: bv32, f: BitPos)
    requires f < 20
    ensures BitSet(x, f) <==> BitSet(x & 0x000F_FFFF, f)
  {
  }

  /** `convert_axis_s16_to_u8`: `(value + 32768) >> 8`, clamped to a byte. */
  function AxisToU8(value: int): (r: byte)
    requires -0x8000 <= value < 0x8000
  {
    Clamp((value + 0x8000) / 256, 0, 255) as byte
  }

  /** Each output value stands for a run of 256 inputs, in order: the clamps never act. */
  lemma AxisBucket(value: int)
    requires -0x8000 <= value < 0x8000
    ensures AxisToU8(value) as int * 256 <= value + 0x8000 < (AxisToU8(value) as int + 1) * 256
  {
  }

  /** The map is monotone, sends the extremes to 0 and 255 and the centre 0 to 128. */
  lemma AxisShape(a: int, b: int)
    requires -0x8000 <= a <= b < 0x8000
    ensures AxisToU8(a) <= AxisToU8(b)
    ensures AxisToU8(-0x8000) == 0 && AxisToU8(0) == 128 && AxisToU8(0x7FFF) == 255
  {
    AxisBucket(a);
    AxisBucket(b);
  }

  /** `convert_trigger_u16_to_u8`: the high byte. */
  function TriggerToU8(value: u16): (r: byte)
    ensures r as int * 256 <= value < (r as int + 1) * 256
  {
    value / 256
  }

  // ---------------------------------------------------------------------------
  // Packet layout
  // ---------------------------------------------------------------------------

  /** A little-endian `uint16_t` at byte `i`. */
  function U16At(data: seq<byte>, i: nat): u16
    requires i + 2 <= |data|
  {
    U16(data[i], data[i + 1])
  }

  /** A little-endian `int16_t` at byte `i`. */
  function S16At(data: seq<byte>, i: nat): (v: int)
    requires i + 2 <= |data|
    ensures -0x8000 <= v < 0x8000
  {
    ToInt16(U16At(data, i))
  }

  /** A little-endian `uint32_t` at byte `i`. */
  function U32At(data: seq<byte>, i: nat): u32
    requires i + 4 <= |data|
  {
    U16At(data, i) + 0x10000 * U16At(data, i + 2)
  }

  /** The two bytes of a little-endian `uint16_t`. */
  function Le16(n: u16): (b: seq<byte>)
    ensures |b| == 2
  {
    [LoByte(n), HiByte(n)]
  }

  /** The four bytes of a little-endian `uint32_t`. */
  function Le32(n: u32): (b: seq<byte>)
    ensures |b| == 4
  {
    Le16(n % 0x10000) + Le16(n / 0x10000)
  }

  /** A field written with `Le16` reads back. */
  lemma U16AtLe16(data: seq<byte>, i: nat, n: u16)
    requires i + 2 <= |data| && data[i..i + 2] == Le16(n)
    ensures U16At(data, i) == n
  {
    assert data[i] == data[i..i + 2][0] && data[i + 1] == data[i..i + 2][1];
    U16OfBytes(n);
  }

  /** A field written with `Le32` reads back. */
  lemma U32AtLe32(data: seq<byte>, i: nat, n: u32)
    requires i + 4 <= |data| && data[i..i + 4] == Le32(n)
    ensures U32At(data, i) == n
  {
    assert data[i..i + 2] == data[i..i + 4][..2] && data[i + 2..i + 4] == data[i..i + 4][2..];
    U16AtLe16(data, i, n % 0x10000);
    U16AtLe16(data, i + 2, n / 0x10000);
  }

  /** `jocp_header_t`. */
  datatype Header = Header(magic: u16, version: byte, msgType: byte, seqNo: u16, flags: u16, timestampUs: u32)

  function HeaderOf(data: seq<byte>): Header
    requires |data| >= HEADER_SIZE
  {
    Header(U16At(data, 0), data[2], data[3], U16At(data, 4), U16At(data, 6), U32At(data, 8))
  }

  /** The fields of `jocp_input_t` the conversion reads (IMU, touch and status are not used). */
  datatype InputPayload = InputPayload(buttons: bv32, lx: int, ly: int, rx: int, ry: int, lt: u16, rt: u16)

  function InputOf(data: seq<byte>): InputPayload
    requires |data| >= INPUT_PACKET_SIZE
  {
    var p := HEADER_SIZE;
    InputPayload(U32At(data, p) as bv32, S16At(data, p + 4), S16At(data, p + 6), S16At(data, p + 8), S16At(data, p + 10),
      U16At(data, p + 12), U16At(data, p + 14))
  }

  /** A header written field by field reads back field by field, whatever follows it. */
  lemma HeaderFields(data: seq<byte>, msgType: byte, seqNo: u16, flags: u16, timestampUs: u32)
    requires |data| >= HEADER_SIZE
    requires data[..HEADER_SIZE] == Le16(JOCP_MAGIC) + [JOCP_VERSION, msgType] + Le16(seqNo) + Le16(flags) + Le32(timestampUs)
    ensures HeaderOf(data) == Header(JOCP_MAGIC, JOCP_VERSION, msgType, seqNo, flags, timestampUs)
  {
    var h := data[..HEADER_SIZE];
    assert U16At(data, 0) == JOCP_MAGIC by {
      assert data[0..2] == h[0..2];
      U16AtLe16(data, 0, JOCP_MAGIC);
    }
    assert data[2] == JOCP_VERSION && data[3] == msgType by {
      assert data[2] == h[2] && data[3] == h[3];
    }
    assert U16At(data, 4) == seqNo by {
      assert data[4..6] == h[4..6];
      U16AtLe16(data, 4, seqNo);
    }
    assert U16At(data, 6) == flags by {
      assert data[6..8] == h[6..8];
      U16AtLe16(data, 6, flags);
    }
    assert U32At(data, 8) == timestampUs by {
      assert data[8..12] == h[8..12];
      U32AtLe32(data, 8, timestampUs);
    }
  }

  /** Why a packet is refused, in the order of the checks. */
  datatype Refusal = TooShort | BadMagic | BadVersion | NotInput | InputTooShort | NoSlot

  datatype Check = Refused(why: Refusal) | Checked(header: Header, input: InputPayload)

  /** The validation of `jocp_process_input_packet`, before any controller is looked at. */
  function Validate(data: seq<byte>): (c: Check)
    ensures c.Checked? <==>
      && |data| >= INPUT_PACKET_SIZE && data[0] == 0x50 && data[1] == 0x4A
      && data[2] == JOCP_VERSION && data[3] == JOCP_MSG_INPUT
    ensures c.Refused? ==> c.why != NoSlot
  {
    if |data| < HEADER_SIZE then Refused(TooShort)
    else
      var h := HeaderOf(data);
      if h.magic != JOCP_MAGIC then Refused(BadMagic)
      else if h.version != JOCP_VERSION then Refused(BadVersion)
      else if h.msgType != JOCP_MSG_INPUT then Refused(NotInput)
      else if |data| < INPUT_PACKET_SIZE then Refused(InputTooShort)
      else Checked(h, InputOf(data))
  }

  /** A well-formed INPUT packet: header and payload as the controller writes them. */
  function InputPacket(seqNo: u16, flags: u16, timestampUs: u32, payload: seq<byte>): (data: seq<byte>)
    requires |payload| == INPUT_PACKET_SIZE - HEADER_SIZE
    ensures |data| == INPUT_PACKET_SIZE
  {
    Le16(JOCP_MAGIC) + [JOCP_VERSION, JOCP_MSG_INPUT] + Le16(seqNo) + Le16(flags) + Le32(timestampUs) + payload
  }

  /** Such a packet passes and reads back with its own sequence number. */
  lemma InputPacketAccepted(seqNo: u16, flags: u16, timestampUs: u32, payload: seq<byte>)
    requires |payload| == INPUT_PACKET_SIZE - HEADER_SIZE
    ensures var c := Validate(InputPacket(seqNo, flags, timestampUs, payload));
      c.Checked? && c.header.seqNo == seqNo && c.header.flags == flags && c.header.timestampUs == timestampUs
  {
    var data := InputPacket(seqNo, flags, timestampUs, payload);
    HeaderFields(data, JOCP_MSG_INPUT, seqNo, flags, timestampUs);
  }

  // ---------------------------------------------------------------------------
  // The controller table
  // ---------------------------------------------------------------------------

  /** `jocp_controller_t`. */
  datatype Controller = Controller(
    active: bool, ip: u32, port: u16, lastSeq: u16, lastSeenMs: u32, packetCount: u32, dropCount: u32)

  const IDLE: Controller := Controller(false, 0, 0, 0, 0, 0, 0)

  /** The first active slot with this IP address at or after `from`, or -1. The port is not compared. */
  function FindByIp(cs: seq<Controller>, ip: u32, from: nat): (slot: int)
    ensures slot == -1 || from <= slot < |cs|
    ensures slot >= 0 ==> cs[slot].active && cs[slot].ip == ip
    ensures slot >= 0 ==> forall i :: from <= i < slot ==> !(cs[i].active && cs[i].ip == ip)
    ensures slot == -1 ==> forall i :: from <= i < |cs| ==> !(cs[i].active && cs[i].ip == ip)
    decreases |cs| - from
  {
    if from >= |cs| then -1
    else if cs[from].active && cs[from].ip == ip then from
    else FindByIp(cs, ip, from + 1)
  }

  /** The first inactive slot at or after `from`, or -1. */
  function FirstFree(cs: seq<Controller>, from: nat): (slot: int)
    ensures slot == -1 || from <= slot < |cs|
    ensures slot >= 0 ==> !cs[slot].active && forall i :: from <= i < slot ==> cs[i].active
    ensures slot == -1 ==> forall i :: from <= i < |cs| ==> cs[i].active
    decreases |cs| - from
  {
    if from >= |cs| then -1
    else if !cs[from].active then from
    else FirstFree(cs, from + 1)
  }

  /** The number of active slots. */
  function ActiveCount(cs: seq<Controller>): (n: nat)
    ensures n <= |cs|
  {
    if |cs| == 0 then 0 else ActiveCount(cs[..|cs| - 1]) + (if cs[|cs| - 1].active then 1 else 0)
  }

  /** No active slot, no connected controller. */
  lemma {:induction false} NoneActive(cs: seq<Controller>)
    requires forall i :: 0 <= i < |cs| ==> !cs[i].active
    ensures ActiveCount(cs) == 0
  {
    if |cs| > 0 {
      NoneActive(cs[..|cs| - 1]);
    }
  }

  /** Updating one slot changes the count by the change of that slot alone. */
  lemma {:induction false} ActiveCountUpdate(cs: seq<Controller>, i: nat, c: Controller)
    requires i < |cs|
    ensures ActiveCount(cs[i := c]) + (if cs[i].active then 1 else 0) == ActiveCount(cs) + (if c.active then 1 else 0)
    decreases |cs|
  {
    var n := |cs| - 1;
    if i < n {
      assert cs[i := c][..n] == cs[..n][i := c];
      ActiveCountUpdate(cs[..n], i, c);
    } else {
      assert cs[i := c][..n] == cs[..n];
    }
  }

  /** A fresh slot for a new sender. */
  function NewController(ip: u32, port: u16, now: u32): (c: Controller)
    ensures c.active && c.ip == ip && c.port == port && c.lastSeenMs == now
    ensures c.lastSeq == 0 && c.packetCount == 0 && c.dropCount == 0
  {
    Controller(true, ip, port, 0, now, 0, 0)
  }

  /** `find_or_create_controller`: the table afterwards and the slot (-1 when the table is full). */
  function Admit(cs: seq<Controller>, ip: u32, port: u16, now: u32): (r: (seq<Controller>, int))
    ensures |r.0| == |cs| && -1 <= r.1 < |cs|
  {
    var found := FindByIp(cs, ip, 0);
    if found >= 0 then (cs, found)
    else
      var free := FirstFree(cs, 0);
      if free < 0 then (cs, -1)
      else (cs[free := NewController(ip, port, now)], free)
  }

  /** A known IP address keeps its slot, whatever its port; nothing changes. */
  lemma AdmitKnown(cs: seq<Controller>, ip: u32, port: u16, now: u32, i: nat)
    requires i < |cs| && cs[i].active && cs[i].ip == ip
    ensures Admit(cs, ip, port, now).0 == cs
    ensures var slot := Admit(cs, ip, port, now).1; 0 <= slot <= i && cs[slot].active && cs[slot].ip == ip
  {
  }

  /** A new IP address takes the first free slot, which alone changes, and one more slot is active. */
  lemma AdmitNew(cs: seq<Controller>, ip: u32, port: u16, now: u32)
    requires FindByIp(cs, ip, 0) < 0 && FirstFree(cs, 0) >= 0
    ensures var (t, slot) := Admit(cs, ip, port, now);
      && slot == FirstFree(cs, 0)
      && t == cs[slot := NewController(ip, port, now)]
      && ActiveCount(t) == ActiveCount(cs) + 1
  {
    var slot := FirstFree(cs, 0);
    ActiveCountUpdate(cs, slot, NewController(ip, port, now));
  }

  /** With every slot taken by other addresses, the packet is refused and nothing changes. */
  lemma AdmitFull(cs: seq<Controller>, ip: u32, port: u16, now: u32)
    requires forall i :: 0 <= i < |cs| ==> cs[i].active && cs[i].ip != ip
    ensures Admit(cs, ip, port, now) == (cs, -1)
  {
  }

  /** `(uint16_t)(seq - expected)`: the packets missing between the last one and this one. */
  function Dropped(lastSeq: u16, seqNo: u16): u16 {
    (seqNo - (lastSeq + 1)) % 0x10000
  }

  /** The bookkeeping of an accepted packet on its slot. */
  function Tracked(c: Controller, seqNo: u16, now: u32): (t: Controller)
    ensures t.lastSeq == seqNo && t.lastSeenMs == now && t.packetCount == (c.packetCount + 1) % 0x1_0000_0000
    ensures t.active == c.active && t.ip == c.ip && t.port == c.port
  {
    var expected := (c.lastSeq + 1) % 0x10000;
    var drops := if c.packetCount > 0 && seqNo != expected then (c.dropCount + Dropped(c.lastSeq, seqNo)) % 0x1_0000_0000 else c.dropCount;
    c.(lastSeq := seqNo, lastSeenMs := now, packetCount := (c.packetCount + 1) % 0x1_0000_0000, dropCount := drops)
  }

  /**
   * The drop count: unchanged for the first packet of a slot and for the
   * expected next number; otherwise it grows by the gap, counted modulo 2^16
   * (a repeated or older number counts as almost 65536 losses).
   */
  lemma DropCounting(c: Controller, seqNo: u16, now: u32, gap: nat)
    requires gap < 0x10000 && seqNo == (c.lastSeq + 1 + gap) % 0x10000
    ensures c.packetCount == 0 ==> Tracked(c, seqNo, now).dropCount == c.dropCount
    ensures gap == 0 ==> Tracked(c, seqNo, now).dropCount == c.dropCount
    ensures c.packetCount > 0 ==> Tracked(c, seqNo, now).dropCount == (c.dropCount + gap) % 0x1_0000_0000
  {
  }

  /** Milliseconds from `since` to `now` on the wrapping 32-bit clock. */
  function Elapsed(now: u32, since: u32): u32 {
    (now - since) % 0x1_0000_0000
  }

  /** A slot that `check_controller_timeouts` drops: active and silent for over 5000 ms. */
  predicate TimedOut(c: Controller, now: u32) {
    c.active && Elapsed(now, c.lastSeenMs) > CONTROLLER_TIMEOUT_MS
  }

  /** The table after `check_controller_timeouts`, slot by slot. */
  function AfterTimeouts(cs: seq<Controller>, now: u32): (t: seq<Controller>)
    ensures |t| == |cs|
    ensures forall i :: 0 <= i < |cs| ==> t[i] == Expire(cs[i], now)
  {
    if |cs| == 0 then [] else AfterTimeouts(cs[..|cs| - 1], now) + [Expire(cs[|cs| - 1], now)]
  }

  /** One slot after the timeout check: deactivated if it timed out, otherwise untouched. */
  function Expire(c: Controller, now: u32): (e: Controller)
    ensures e.active <==> c.active && !TimedOut(c, now)
    ensures e.(active := c.active) == c
  {
    if TimedOut(c, now) then c.(active := false) else c
  }

  /** The number of slots that time out. */
  function TimeoutCount(cs: seq<Controller>, now: u32): (n: nat)
    ensures n <= ActiveCount(cs)
  {
    if |cs| == 0 then 0
    else TimeoutCount(cs[..|cs| - 1], now) + (if TimedOut(cs[|cs| - 1], now) then 1 else 0)
  }

  /** Every slot that times out is one active slot fewer. */
  lemma {:induction false} TimeoutsCounted(cs: seq<Controller>, now: u32)
    ensures ActiveCount(AfterTimeouts(cs, now)) == ActiveCount(cs) - TimeoutCount(cs, now)
    ensures forall i :: 0 <= i < |cs| ==> !TimedOut(AfterTimeouts(cs, now)[i], now)
  {
    if |cs| > 0 {
      var n := |cs| - 1;
      TimeoutsCounted(cs[..n], now);
      assert AfterTimeouts(cs, now)[..n] == AfterTimeouts(cs[..n], now);
    }
  }

  /** The table once the packet handler's periodic check (more than 1000 ms since the last one) has run. */
  function Swept(cs: seq<Controller>, lastCheck: u32, now: u32): (t: seq<Controller>)
    ensures |t| == |cs|
  {
    if Elapsed(now, lastCheck) > TIMEOUT_CHECK_INTERVAL_MS then AfterTimeouts(cs, now) else cs
  }

  /** The event of an INPUT payload from a slot. */
  function EventOf(slot: nat, input: InputPayload): (e: GamepadEvent)
    requires slot < MAX_CONTROLLERS && -0x8000 <= input.lx < 0x8000 && -0x8000 <= input.ly < 0x8000
    requires -0x8000 <= input.rx < 0x8000 && -0x8000 <= input.ry < 0x8000
    ensures e.devAddr as int == WIFI_DEV_ADDR_BASE + slot && e.instance == 0 && |e.analog| == 6
  {
    GamepadEvent((WIFI_DEV_ADDR_BASE + slot) as byte, 0, ConvertButtons(input.buttons),
      [AxisToU8(input.lx), AxisToU8(input.ly), AxisToU8(input.rx), AxisToU8(input.ry),
       TriggerToU8(input.lt), TriggerToU8(input.rt)])
  }

  /** The payloads a validated packet can hold have axes in the `int16_t` range. */
  lemma InputInRange(data: seq<byte>)
    requires |data| >= INPUT_PACKET_SIZE
    ensures var p := InputOf(data);
      -0x8000 <= p.lx < 0x8000 && -0x8000 <= p.ly < 0x8000 && -0x8000 <= p.rx < 0x8000 && -0x8000 <= p.ry < 0x8000
  {
  }

  // ---------------------------------------------------------------------------
  // Feedback packets
  // ---------------------------------------------------------------------------

  /** `output_feedback_t`, the fields sent. */
  datatype Feedback = Feedback(rumbleLeft: byte, rumbleRight: byte, ledR: byte, ledG: byte, ledB: byte)

  /** The 12-byte header of an OUTPUT_CMD packet. */
  function OutputHeader(timestampUs: u32): (h: seq<byte>)
    ensures |h| == HEADER_SIZE
  {
    Le16(JOCP_MAGIC) + [JOCP_VERSION, JOCP_MSG_OUTPUT_CMD] + Le16(0) + Le16(0) + Le32(timestampUs)
  }

  /** The rumble command: both motors, no brakes, duration 0 (until changed). */
  function RumblePacket(fb: Feedback, timestampUs: u32): (p: seq<byte>)
    ensures |p| == HEADER_SIZE + 1 + 6
  {
    OutputHeader(timestampUs) + [JOCP_CMD_RUMBLE, fb.rumbleLeft, 0, fb.rumbleRight, 0, 0, 0]
  }

  /** The RGB LED command. */
  function RgbPacket(fb: Feedback, timestampUs: u32): (p: seq<byte>)
    ensures |p| == HEADER_SIZE + 1 + 3
  {
    OutputHeader(timestampUs) + [JOCP_CMD_RGB_LED, fb.ledR, fb.ledG, fb.ledB]
  }

  /** Both commands read back as OUTPUT_CMD packets of this protocol version, seq 0, no flags. */
  lemma FeedbackHeaders(fb: Feedback, timestampUs: u32)
    ensures var r := HeaderOf(RumblePacket(fb, timestampUs));
      r == Header(JOCP_MAGIC, JOCP_VERSION, JOCP_MSG_OUTPUT_CMD, 0, 0, timestampUs)
    ensures var g := HeaderOf(RgbPacket(fb, timestampUs));
      g == Header(JOCP_MAGIC, JOCP_VERSION, JOCP_MSG_OUTPUT_CMD, 0, 0, timestampUs)
  {
    assert RumblePacket(fb, timestampUs)[..HEADER_SIZE] == OutputHeader(timestampUs);
    assert RgbPacket(fb, timestampUs)[..HEADER_SIZE] == OutputHeader(timestampUs);
    HeaderFields(RumblePacket(fb, timestampUs), JOCP_MSG_OUTPUT_CMD, 0, 0, timestampUs);
    HeaderFields(RgbPacket(fb, timestampUs), JOCP_MSG_OUTPUT_CMD, 0, 0, timestampUs);
  }

  /**
   * What one call of `jocp_send_feedback` writes: the rumble command, always
   * (a zero amplitude stops the motors), then the LED command when a colour is
   * set. Each packet reads the microsecond clock when it is built.
   */
  function FeedbackPackets(fb: Feedback, rumbleUs: u32, ledUs: u32): (ps: seq<seq<byte>>)
    ensures 1 <= |ps| <= 2 && ps[0] == RumblePacket(fb, rumbleUs)
    ensures |ps| == 2 <==> fb.ledR > 0 || fb.ledG > 0 || fb.ledB > 0
    ensures |ps| == 2 ==> ps[1] == RgbPacket(fb, ledUs)
  {
    [RumblePacket(fb, rumbleUs)] + (if fb.ledR > 0 || fb.ledG > 0 || fb.ledB > 0 then [RgbPacket(fb, ledUs)] else [])
  }

  /** A packet written to a TCP client. */
  datatype Sent = Sent(client: nat, packet: seq<byte>)

  /** The wall clocks a feedback call reads: milliseconds, and microseconds for each packet. */
  datatype Clock = Clock(nowMs: u32, rumbleUs: u32, ledUs: u32)

  /** A slot's feedback is due: connected, and the last feedback 50 ms or more ago on the wrapping clock. */
  predicate FeedbackDue(c: Controller, lastMs: u32, nowMs: u32) {
    c.active && Elapsed(nowMs, lastMs) >= FEEDBACK_INTERVAL_MS
  }

  /** The same packets, addressed to one client. */
  function ToClient(client: nat, ps: seq<seq<byte>>): (sent: seq<Sent>)
    ensures |sent| == |ps|
    ensures forall i :: 0 <= i < |ps| ==> sent[i] == Sent(client, ps[i])
  {
    if |ps| == 0 then [] else [Sent(client, ps[0])] + ToClient(client, ps[1..])
  }

  /**
   * What `jocp_send_feedback` writes for one slot: nothing unless feedback is
   * due and the controller's address has a TCP connection (`clients` maps
   * addresses to connection indices; an address without one gets nothing).
   */
  function SlotSends(c: Controller, lastMs: u32, fb: Feedback, clock: Clock, clients: map<u32, nat>): seq<Sent> {
    if FeedbackDue(c, lastMs, clock.nowMs) && c.ip in clients
    then ToClient(clients[c.ip], FeedbackPackets(fb, clock.rumbleUs, clock.ledUs))
    else []
  }

  /** The feedback stamp of a slot after a call: moved to now exactly when feedback was due. */
  function Stamp(c: Controller, lastMs: u32, nowMs: u32): u32 {
    if FeedbackDue(c, lastMs, nowMs) then nowMs else lastMs
  }

  /**
   * The rate limit: once a slot has been served at `t`, no call less than
   * 50 ms later sends it anything, and one 50 ms or more later does when the
   * slot still has a connection.
   */
  lemma RateLimited(c: Controller, lastMs: u32, fb: Feedback, clock: Clock, later: Clock, clients: map<u32, nat>)
    requires FeedbackDue(c, lastMs, clock.nowMs)
    ensures Elapsed(later.nowMs, clock.nowMs) < FEEDBACK_INTERVAL_MS ==>
      SlotSends(c, Stamp(c, lastMs, clock.nowMs), fb, later, clients) == []
    ensures Elapsed(later.nowMs, clock.nowMs) >= FEEDBACK_INTERVAL_MS && c.ip in clients ==>
      |SlotSends(c, Stamp(c, lastMs, clock.nowMs), fb, later, clients)| >= 1
  {
  }

  /** `jocp_send_feedback_all` over the first `n` slots: the sends in slot order. */
  function AllSends(cs: seq<Controller>, lasts: seq<u32>, n: nat, fb: Feedback, clock: Clock, clients: map<u32, nat>): seq<Sent>
    requires n <= |cs| && n <= |lasts|
  {
    if n == 0 then []
    else AllSends(cs, lasts, n - 1, fb, clock, clients) + SlotSends(cs[n - 1], lasts[n - 1], fb, clock, clients)
  }

  /** A slot that is not connected is never sent feedback, even by the broadcast. */
  lemma {:induction false} AllSendsOnlyActive(cs: seq<Controller>, lasts: seq<u32>, n: nat, fb: Feedback, clock: Clock, clients: map<u32, nat>)
    requires n <= |cs| && n <= |lasts|
    ensures forall s :: s in AllSends(cs, lasts, n, fb, clock, clients) ==>
      exists i :: 0 <= i < n && cs[i].active && cs[i].ip in clients && s.client == clients[cs[i].ip]
  {
    if n > 0 {
      AllSendsOnlyActive(cs, lasts, n - 1, fb, clock, clients);
      var last := SlotSends(cs[n - 1], lasts[n - 1], fb, clock, clients);
      forall s | s in last
        ensures cs[n - 1].active && cs[n - 1].ip in clients && s.client == clients[cs[n - 1].ip]
      {
        var k :| 0 <= k < |last| && last[k] == s;
      }
    }
  }

  // ---------------------------------------------------------------------------
  // The module state
  // ---------------------------------------------------------------------------

  class Jocp {
    /** `controllers[MAX_CONTROLLERS]`. */
    const controllers: array<Controller>
    var connectedCount: byte
    /** The function-static `last_timeout_check`. */
    var lastTimeoutCheck: u32
    /** `last_feedback_ms[MAX_CONTROLLERS]`. */
    const lastFeedbackMs: array<u32>

    /** Four slots, and the connected count is the number of active ones. */
    predicate Valid()
      reads this, controllers
    {
      controllers.Length == MAX_CONTROLLERS && lastFeedbackMs.Length == MAX_CONTROLLERS
      && connectedCount as nat == ActiveCount(controllers[..])
    }

    /** The statics at boot: all zero. */
    constructor ()
      ensures Valid() && fresh(controllers) && fresh(lastFeedbackMs)
      ensures controllers[..] == [IDLE, IDLE, IDLE, IDLE] && lastFeedbackMs[..] == [0, 0, 0, 0]
      ensures connectedCount == 0 && lastTimeoutCheck == 0
    {
      controllers := new Controller[MAX_CONTROLLERS](_ => IDLE);
      lastFeedbackMs := new u32[MAX_CONTROLLERS](_ => 0);
      connectedCount := 0;
      lastTimeoutCheck := 0;
      new;
      assert controllers[..] == [IDLE, IDLE, IDLE, IDLE];
      assert lastFeedbackMs[..] == [0, 0, 0, 0];
      NoneActive(controllers[..]);
    }

    /** `jocp_init`: every slot cleared and the count zeroed. */
    method Init()
      requires controllers.Length == MAX_CONTROLLERS && lastFeedbackMs.Length == MAX_CONTROLLERS
      modifies this, controllers
      ensures Valid() && controllers[..] == [IDLE, IDLE, IDLE, IDLE] && connectedCount == 0
      ensures lastTimeoutCheck == old(lastTimeoutCheck) && lastFeedbackMs[..] == old(lastFeedbackMs[..])
    {
      var i := 0;
      while i < MAX_CONTROLLERS
        invariant i <= MAX_CONTROLLERS
        invariant forall j :: 0 <= j < i ==> controllers[j] == IDLE
        invariant lastTimeoutCheck == old(lastTimeoutCheck)
      {
        controllers[i] := IDLE;
        i := i + 1;
      }
      connectedCount := 0;
      assert controllers[..] == [IDLE, IDLE, IDLE, IDLE];
      NoneActive(controllers[..]);
    }

    /** `find_controller_by_ip`. */
    method FindControllerByIp(ip: u32) returns (slot: int)
      requires Valid()
      ensures slot == FindByIp(controllers[..], ip, 0)
    {
      var i := 0;
      while i < MAX_CONTROLLERS
        invariant i <= MAX_CONTROLLERS
        invariant FindByIp(controllers[..], ip, 0) == FindByIp(controllers[..], ip, i)
      {
        if controllers[i].active && controllers[i].ip == ip {
          return i;
        }
        i := i + 1;
      }
      return -1;
    }

    /** `find_free_controller_slot`. */
    method FindFreeSlot() returns (slot: int)
      requires Valid()
      ensures slot == FirstFree(controllers[..], 0)
    {
      var i := 0;
      while i < MAX_CONTROLLERS
        invariant i <= MAX_CONTROLLERS
        invariant FirstFree(controllers[..], 0) == FirstFree(controllers[..], i)
      {
        if !controllers[i].active {
          return i;
        }
        i := i + 1;
      }
      return -1;
    }

    /** `find_or_create_controller`, with `to_ms_since_boot` as `now`. */
    method FindOrCreate(ip: u32, port: u16, now: u32) returns (slot: int)
      requires Valid()
      modifies this, controllers
      ensures Valid()
      ensures controllers[..] == Admit(old(controllers[..]), ip, port, now).0
      ensures slot == Admit(old(controllers[..]), ip, port, now).1
      ensures lastTimeoutCheck == old(lastTimeoutCheck)
    {
      slot := FindControllerByIp(ip);
      if slot >= 0 {
        return;
      }
      slot := FindFreeSlot();
      if slot < 0 {
        return;
      }
      ActiveCountUpdate(controllers[..], slot, NewController(ip, port, now));
      controllers[slot] := NewController(ip, port, now);
      connectedCount := connectedCount + 1;
    }

    /** `check_controller_timeouts`. */
    method CheckTimeouts(now: u32)
      requires Valid()
      modifies this, controllers
      ensures Valid()
      ensures controllers[..] == AfterTimeouts(old(controllers[..]), now)
      ensures connectedCount as nat == old(connectedCount) as nat - TimeoutCount(old(controllers[..]), now)
      ensures lastTimeoutCheck == old(lastTimeoutCheck)
    {
      ghost var cs := controllers[..];
      TimeoutsCounted(cs, now);
      var i := 0;
      while i < MAX_CONTROLLERS
        invariant i <= MAX_CONTROLLERS && controllers.Length == MAX_CONTROLLERS
        invariant forall j :: 0 <= j < i ==> controllers[j] == Expire(cs[j], now)
        invariant forall j :: i <= j < MAX_CONTROLLERS ==> controllers[j] == cs[j]
        invariant connectedCount as nat == ActiveCount(controllers[..])
        invariant lastTimeoutCheck == old(lastTimeoutCheck)
      {
        var c := controllers[i];
        if c.active && Elapsed(now, c.lastSeenMs) > CONTROLLER_TIMEOUT_MS {
          ActiveCountUpdate(controllers[..], i, c.(active := false));
          controllers[i] := c.(active := false);
          connectedCount := connectedCount - 1;
        }
        i := i + 1;
      }
      assert controllers[..] == AfterTimeouts(cs, now);
    }

    /**
     * `jocp_process_input_packet` with `len` as `|data|` and the boot clock as
     * `now`: the periodic timeout check, then validation, then the slot's
     * bookkeeping. An accepted packet yields the event given to
     * `router_submit_input`.
     */
    method ProcessInputPacket(data: seq<byte>, srcIp: u32, srcPort: u16, now: u32)
      returns (accepted: bool, event: Option<GamepadEvent>)
      requires Valid()
      modifies this, controllers
      ensures Valid()
      ensures lastTimeoutCheck == if Elapsed(now, old(lastTimeoutCheck)) > TIMEOUT_CHECK_INTERVAL_MS then now else old(lastTimeoutCheck)
      ensures var swept := Swept(old(controllers[..]), old(lastTimeoutCheck), now);
        match Validate(data)
        case Refused(_) => !accepted && event == None && controllers[..] == swept
        case Checked(h, input) =>
          var (t, slot) := Admit(swept, srcIp, srcPort, now);
          if slot < 0 then !accepted && event == None && controllers[..] == t
          else accepted && event == Some(EventOf(slot, input)) && controllers[..] == t[slot := Tracked(t[slot], h.seqNo, now)]
    {
      ghost var swept := Swept(controllers[..], lastTimeoutCheck, now);
      if Elapsed(now, lastTimeoutCheck) > TIMEOUT_CHECK_INTERVAL_MS {
        CheckTimeouts(now);
        lastTimeoutCheck := now;
      }
      assert controllers[..] == swept;
      var check := Validate(data);
      if check.Refused? {
        return false, None;
      }
      ghost var admitted := Admit(swept, srcIp, srcPort, now);
      var slot := FindOrCreate(srcIp, srcPort, now);
      assert controllers[..] == admitted.0 && slot == admitted.1;
      if slot < 0 {
        return false, None;
      }
      var c := controllers[slot];
      var tracked := Tracked(c, check.header.seqNo, now);
      ActiveCountUpdate(controllers[..], slot, tracked);
      controllers[slot] := tracked;
      accepted, event := true, Some(EventOf(slot, check.input));
    }

    /** `jocp_get_connected_count`: the number of connected controllers. */
    method GetConnectedCount() returns (n: byte)
      requires Valid()
      ensures n as nat == ActiveCount(controllers[..])
    {
      return connectedCount;
    }

    /**
     * `jocp_send_feedback`: out-of-range ids, free slots and a missing feedback
     * record are ignored; otherwise the rate limit decides, and the stamp moves
     * even when the controller has no TCP connection.
     */
    method SendFeedback(id: byte, fb: Option<Feedback>, clock: Clock, clients: map<u32, nat>) returns (sent: seq<Sent>)
      requires Valid()
      modifies lastFeedbackMs
      ensures id as nat >= MAX_CONTROLLERS || fb == None ==> sent == [] && lastFeedbackMs[..] == old(lastFeedbackMs[..])
      ensures id as nat < MAX_CONTROLLERS && fb.Some? ==>
        && sent == SlotSends(controllers[id], old(lastFeedbackMs[id]), fb.value, clock, clients)
        && lastFeedbackMs[..] == old(lastFeedbackMs[..])[id := Stamp(controllers[id], old(lastFeedbackMs[id]), clock.nowMs)]
    {
      if id as nat >= MAX_CONTROLLERS || !controllers[id].active || fb == None {
        return [];
      }
      if Elapsed(clock.nowMs, lastFeedbackMs[id]) < FEEDBACK_INTERVAL_MS {
        return [];
      }
      lastFeedbackMs[id] := clock.nowMs;
      var ip := controllers[id].ip;
      if ip !in clients {
        return [];
      }
      sent := ToClient(clients[ip], FeedbackPackets(fb.value, clock.rumbleUs, clock.ledUs));
    }

    /** `jocp_send_feedback_all`: every connected slot in turn, all reading the same clocks. */
    method SendFeedbackAll(fb: Option<Feedback>, clock: Clock, clients: map<u32, nat>) returns (sent: seq<Sent>)
      requires Valid()
      modifies lastFeedbackMs
      ensures fb == None ==> sent == [] && lastFeedbackMs[..] == old(lastFeedbackMs[..])
      ensures fb.Some? ==> sent == AllSends(controllers[..], old(lastFeedbackMs[..]), MAX_CONTROLLERS, fb.value, clock, clients)
      ensures fb.Some? ==> forall i :: 0 <= i < MAX_CONTROLLERS ==>
        lastFeedbackMs[i] == Stamp(controllers[i], old(lastFeedbackMs[i]), clock.nowMs)
    {
      ghost var lasts := lastFeedbackMs[..];
      sent := [];
      var i := 0;
      while i < MAX_CONTROLLERS
        invariant i <= MAX_CONTROLLERS && lastFeedbackMs.Length == MAX_CONTROLLERS
        invariant fb == None ==> sent == [] && lastFeedbackMs[..] == lasts
        invariant fb.Some? ==> sent == AllSends(controllers[..], lasts, i, fb.value, clock, clients)
        invariant fb.Some? ==> forall j :: 0 <= j < i ==> lastFeedbackMs[j] == Stamp(controllers[j], lasts[j], clock.nowMs)
        invariant forall j :: i <= j < MAX_CONTROLLERS ==> lastFeedbackMs[j] == lasts[j]
      {
        if controllers[i].active {
          var more := SendFeedback(i as byte, fb, clock, clients);
          sent := sent + more;
        }
        i := i + 1;
      }
    }
  }
}

=== FILE: kbmouse.dfy ===
// The gamepad to keyboard/mouse converter behind the keyboard/mouse output
// mode: a table maps buttons to keys, modifiers and mouse buttons, the left
// stick types W, A, S and D, and the right stick moves the mouse.

module KbMouse {
  import opened Common
  import opened UsbdMode

  const HID_KEY_A: byte := 0x04
  const HID_KEY_D: byte := 0x07
  const HID_KEY_S: byte := 0x16
  const HID_KEY_W: byte := 0x1A
  const HID_KEY_3: byte := 0x20
  /** `HID_KEY_SPACE` as the header defines it, which is the code of the 3 key. */
  const HID_KEY_SPACE_AS_WRITTEN: byte := 0x20
  /** The space bar's code in the USB HID usage tables. */
  const HID_KEY_SPACE: byte := 0x2C

  const KBMOUSE_MOD_LCTRL: bv8 := 0x01
  const KBMOUSE_MOD_LSHIFT: bv8 := 0x02
  const KBMOUSE_BTN_LEFT: bv8 := 0x01
  const KBMOUSE_BTN_RIGHT: bv8 := 0x02

  const KBMOUSE_DEFAULT_DEADZONE: byte := 15
  const KBMOUSE_DEFAULT_SENSITIVITY: byte := 5
  const KBMOUSE_DEFAULT_SCROLL_DEADZONE: byte := 30
  const KBMOUSE_DEFAULT_SCROLL_SPEED: byte := 3

  /** How far the left stick must leave the centre before it types a WASD key. */
  const WASD_DEADZONE: int := 40
  /** Six-key rollover. */
  const MAX_KEYS: nat := 6

  /** What a mapped button does. */
  datatype Action = Key(code: byte) | Modifier(bits: bv8) | MouseButton(bits: bv8)

  /** `kbmouse_button_map_t`. */
  datatype Mapping = Mapping(button: Buttons, action: Action)

  /** The button map with the space bar bound as the source binds it. */
  const DEFAULT_MAP_AS_WRITTEN: seq<Mapping> := [
    Mapping(JP_B1, Key(HID_KEY_SPACE_AS_WRITTEN)),
    Mapping(JP_B2, Key(0x08)),              // E
    Mapping(JP_B3, Key(0x15)),              // R
    Mapping(JP_B4, Key(0x14)),              // Q
    Mapping(JP_L1, Modifier(KBMOUSE_MOD_LSHIFT)),
    Mapping(JP_R1, Modifier(KBMOUSE_MOD_LCTRL)),
    Mapping(JP_L2, MouseButton(KBMOUSE_BTN_RIGHT)),
    Mapping(JP_R2, MouseButton(KBMOUSE_BTN_LEFT)),
    Mapping(JP_S1, Key(0x2B)),              // Tab
    Mapping(JP_S2, Key(0x29)),              // Escape
    Mapping(JP_L3, Key(0x19)),              // V
    Mapping(JP_R3, Key(0x09)),              // F
    Mapping(JP_DU, Key(0x1E)),              // 1
    Mapping(JP_DD, Key(HID_KEY_3)),         // 3
    Mapping(JP_DL, Key(0x21)),              // 4
    Mapping(JP_DR, Key(0x1F)),              // 2
    Mapping(JP_A1, Key(0x10))               // M
  ]

  /** `default_button_map`, with B1 on the space bar as its comment intends. */
  const DEFAULT_MAP: seq<Mapping> := DEFAULT_MAP_AS_WRITTEN[0 := Mapping(JP_B1, Key(HID_KEY_SPACE))]

  /** The actions of the table's pressed entries, in table order. */
  function Fired(table: seq<Mapping>, buttons: Buttons): seq<Action>
  {
    if |table| == 0 then []
    else
      var last := table[|table| - 1];
      Fired(table[..|table| - 1], buttons) + (if Pressed(buttons, last.button) then [last.action] else [])
  }

  /** The key codes among some actions, in order. */
  function KeyCodes(actions: seq<Action>): seq<byte>
  {
    if |actions| == 0 then []
    else
      var last := actions[|actions| - 1];
      KeyCodes(actions[..|actions| - 1]) + (if last.Key? then [last.code] else [])
  }

  /** The modifier bits among some actions, OR-ed together. */
  function ModifierBits(actions: seq<Action>): bv8
  {
    if |actions| == 0 then 0
    else
      var last := actions[|actions| - 1];
      ModifierBits(actions[..|actions| - 1]) | (if last.Modifier? then last.bits else 0)
  }

  /** The mouse button bits among some actions, OR-ed together. */
  function MouseButtonBits(actions: seq<Action>): bv8
  {
    if |actions| == 0 then 0
    else
      var last := actions[|actions| - 1];
      MouseButtonBits(actions[..|actions| - 1]) | (if last.MouseButton? then last.bits else 0)
  }

  /** The WASD keys the left stick asks for, in the order W, S, A, D. */
  function Wasd(p: ProfileOut): (keys: seq<byte>)
    ensures HID_KEY_W in keys <==> p.leftY < 128 - WASD_DEADZONE
    ensures HID_KEY_S in keys <==> p.leftY > 128 + WASD_DEADZONE
    ensures HID_KEY_A in keys <==> p.leftX < 128 - WASD_DEADZONE
    ensures HID_KEY_D in keys <==> p.leftX > 128 + WASD_DEADZONE
    ensures |keys| <= 2
  {
    (if p.leftY < 128 - WASD_DEADZONE then [HID_KEY_W] else []) +
    (if p.leftY > 128 + WASD_DEADZONE then [HID_KEY_S] else []) +
    (if p.leftX < 128 - WASD_DEADZONE then [HID_KEY_A] else []) +
    (if p.leftX > 128 + WASD_DEADZONE then [HID_KEY_D] else [])
  }

  /** One key into the report, if there is room: `if (keycode_index < 6) keycode[keycode_index++] = key`. */
  function Push(keys: seq<byte>, code: byte): seq<byte>
  {
    if |keys| < MAX_KEYS then keys + [code] else keys
  }

  /** A run of keys pushed in order. */
  function PushAll(keys: seq<byte>, codes: seq<byte>): seq<byte>
  {
    if |codes| == 0 then keys
    else Push(PushAll(keys, codes[..|codes| - 1]), codes[|codes| - 1])
  }

  /** The first `n` elements, or all of them. */
  function Take(s: seq<byte>, n: nat): (t: seq<byte>)
    ensures |t| <= n && t <= s
  {
    if |s| <= n then s else assert s[..n] + s[n..] == s; s[..n]
  }

  /** Pushing keys into an empty report keeps exactly the first six, in order. */
  lemma {:induction false} PushAllTakes(codes: seq<byte>)
    ensures PushAll([], codes) == Take(codes, MAX_KEYS)
  {
    if |codes| > 0 {
      var init := codes[..|codes| - 1];
      PushAllTakes(init);
      if |codes| > MAX_KEYS {
        assert init[..MAX_KEYS] == codes[..MAX_KEYS];
      }
    }
  }

  lemma PushAllSnoc(codes: seq<byte>, code: byte)
    ensures PushAll([], codes + [code]) == Push(PushAll([], codes), code)
  {
    assert (codes + [code])[..|codes|] == codes;
  }

  /** Pushing two runs is pushing their concatenation. */
  lemma {:induction false} PushAllAppend(keys: seq<byte>, a: seq<byte>, b: seq<byte>)
    ensures PushAll(PushAll(keys, a), b) == PushAll(keys, a + b)
  {
    if |b| == 0 {
      assert a + b == a;
    } else {
      var init := b[..|b| - 1];
      PushAllAppend(keys, a, init);
      assert (a + b)[..|a + b| - 1] == a + init;
      assert (a + b)[|a + b| - 1] == b[|b| - 1];
    }
  }

  /** The six keycode bytes: the keys pressed, then zeros. */
  function Padded(keys: seq<byte>): (r: seq<byte>)
    requires |keys| <= MAX_KEYS
    ensures |r| == MAX_KEYS && r[..|keys|] == keys
  {
    keys + NO_KEYS[..MAX_KEYS - |keys|]
  }

  const NO_KEYS: seq<byte> := [0, 0, 0, 0, 0, 0]

  /** `kbmouse_keyboard_report_t` (the reserved byte is always 0). */
  datatype KeyboardReport = KeyboardReport(modifier: bv8, keycode: seq<byte>)

  /**
   * `kbmouse_mouse_report_t`. A mouse axis is `Some(0)` inside the deadzone;
   * outside it the floating-point curve decides, which is not modelled (`None`).
   * Wheel and pan are never set by the conversion.
   */
  datatype MouseReport = MouseReport(buttons: bv8, x: Option<int>, y: Option<int>, wheel: int, pan: int)

  const EMPTY_KEYBOARD: KeyboardReport := KeyboardReport(0, NO_KEYS)
  const EMPTY_MOUSE: MouseReport := MouseReport(0, Some(0), Some(0), 0, 0)

  /** The stick is inside the deadzone: `abs(analog - 128) < deadzone`. */
  predicate InDeadzone(analog: byte, deadzone: byte) {
    -(deadzone as int) < analog as int - 128 < deadzone as int
  }

  /** The mouse movement of one right-stick axis, where the model determines it. */
  function MouseDelta(analog: byte, deadzone: byte): (d: Option<int>)
    ensures InDeadzone(analog, deadzone) <==> d == Some(0)
  {
    if InDeadzone(analog, deadzone) then Some(0) else None
  }

  /**
   * A mouse axis's sub-pixel accumulator. The deadzone empties it (so a
   * released stick leaves no drift behind); outside the deadzone it carries
   * the fraction the floating-point curve left over, whose value is not
   * modelled.
   */
  datatype Accumulator = Empty | Carrying

  /** One more table entry adds its action when its button is pressed. */
  lemma FiredSnoc(table: seq<Mapping>, i: nat, buttons: Buttons)
    requires i < |table|
    ensures Fired(table[..i + 1], buttons) ==
      Fired(table[..i], buttons) + (if Pressed(buttons, table[i].button) then [table[i].action] else [])
  {
    assert table[..i + 1][..i] == table[..i];
  }

  /** A key action adds its code and leaves the modifiers and mouse buttons alone. */
  lemma KeySnoc(actions: seq<Action>, code: byte)
    ensures KeyCodes(actions + [Key(code)]) == KeyCodes(actions) + [code]
    ensures ModifierBits(actions + [Key(code)]) == ModifierBits(actions)
    ensures MouseButtonBits(actions + [Key(code)]) == MouseButtonBits(actions)
  {
    assert (actions + [Key(code)])[..|actions|] == actions;
  }

  /** A modifier action ORs in its bits and leaves the keys and mouse buttons alone. */
  lemma ModifierSnoc(actions: seq<Action>, bits: bv8)
    ensures KeyCodes(actions + [Modifier(bits)]) == KeyCodes(actions)
    ensures ModifierBits(actions + [Modifier(bits)]) == ModifierBits(actions) | bits
    ensures MouseButtonBits(actions + [Modifier(bits)]) == MouseButtonBits(actions)
  {
    assert (actions + [Modifier(bits)])[..|actions|] == actions;
  }

  /** A mouse-button action ORs in its bits and leaves the keys and modifiers alone. */
  lemma MouseButtonSnoc(actions: seq<Action>, bits: bv8)
    ensures KeyCodes(actions + [MouseButton(bits)]) == KeyCodes(actions)
    ensures ModifierBits(actions + [MouseButton(bits)]) == ModifierBits(actions)
    ensures MouseButtonBits(actions + [MouseButton(bits)]) == MouseButtonBits(actions) | bits
  {
    assert (actions + [MouseButton(bits)])[..|actions|] == actions;
  }

  /** The table loop of `kbmouse_convert`: pressed entries in order, keys only while there is room. */
  method ApplyMap(table: seq<Mapping>, buttons: Buttons) returns (keys: seq<byte>, modifier: bv8, mouseButtons: bv8)
    ensures keys == PushAll([], KeyCodes(Fired(table, buttons)))
    ensures modifier == ModifierBits(Fired(table, buttons))
    ensures mouseButtons == MouseButtonBits(Fired(table, buttons))
  {
    keys := [];
    modifier := 0;
    mouseButtons := 0;
    ghost var fired: seq<Action> := [];
    for i := 0 to |table|
      invariant fired == Fired(table[..i], buttons)
      invariant keys == PushAll([], KeyCodes(fired))
      invariant modifier == ModifierBits(fired)
      invariant mouseButtons == MouseButtonBits(fired)
    {
      FiredSnoc(table, i, buttons);
      var entry := table[i];
      if Pressed(buttons, entry.button) {
        match entry.action {
          case Key(code) =>
            KeySnoc(fired, code);
            PushAllSnoc(KeyCodes(fired), code);
            if |keys| < MAX_KEYS {
              keys := keys + [code];
            }
          case Modifier(bits) =>
            ModifierSnoc(fired, bits);
            modifier := modifier | bits;
          case MouseButton(bits) =>
            MouseButtonSnoc(fired, bits);
            mouseButtons := mouseButtons | bits;
        }
        fired := fired + [entry.action];
      } else {
        assert fired + [] == fired;
      }
    }
    assert table[..|table|] == table;
  }

  /** `kbmouse_analog_config_t`. */
  datatype AnalogConfig = AnalogConfig(deadzone: byte, sensitivity: byte, scrollDeadzone: byte, scrollSpeed: byte)

  /** The converter's state: the analog configuration, the mouse accumulators and the host's keyboard LEDs. */
  class Converter {
    var deadzone: byte
    var sensitivity: byte
    var scrollDeadzone: byte
    var scrollSpeed: byte
    var accumX: Accumulator
    var accumY: Accumulator
    var ledState: byte

    /** `kbmouse_init`: the default configuration, empty accumulators, LEDs off. */
    constructor ()
      ensures deadzone == KBMOUSE_DEFAULT_DEADZONE && sensitivity == KBMOUSE_DEFAULT_SENSITIVITY
      ensures scrollDeadzone == KBMOUSE_DEFAULT_SCROLL_DEADZONE && scrollSpeed == KBMOUSE_DEFAULT_SCROLL_SPEED
      ensures accumX == Empty && accumY == Empty && ledState == 0
    {
      deadzone := KBMOUSE_DEFAULT_DEADZONE;
      sensitivity := KBMOUSE_DEFAULT_SENSITIVITY;
      scrollDeadzone := KBMOUSE_DEFAULT_SCROLL_DEADZONE;
      scrollSpeed := KBMOUSE_DEFAULT_SCROLL_SPEED;
      accumX := Empty;
      accumY := Empty;
      ledState := 0;
    }

    /** `kbmouse_init` on a running converter: back to the defaults, empty accumulators, LEDs off. */
    method Reset()
      modifies this
      ensures deadzone == KBMOUSE_DEFAULT_DEADZONE && sensitivity == KBMOUSE_DEFAULT_SENSITIVITY
      ensures scrollDeadzone == KBMOUSE_DEFAULT_SCROLL_DEADZONE && scrollSpeed == KBMOUSE_DEFAULT_SCROLL_SPEED
      ensures accumX == Empty && accumY == Empty && ledState == 0
    {
      deadzone := KBMOUSE_DEFAULT_DEADZONE;
      sensitivity := KBMOUSE_DEFAULT_SENSITIVITY;
      scrollDeadzone := KBMOUSE_DEFAULT_SCROLL_DEADZONE;
      scrollSpeed := KBMOUSE_DEFAULT_SCROLL_SPEED;
      accumX := Empty;
      accumY := Empty;
      ledState := 0;
    }

    /** `kbmouse_set_config`: a given configuration replaces all four settings; none changes nothing. */
    method SetConfig(config: Option<AnalogConfig>)
      modifies this`deadzone, this`sensitivity, this`scrollDeadzone, this`scrollSpeed
      ensures config.Some? ==> Config() == config.value
      ensures config.None? ==> Config() == old(Config())
    {
      if config.Some? {
        deadzone := config.value.deadzone;
        sensitivity := config.value.sensitivity;
        scrollDeadzone := config.value.scrollDeadzone;
        scrollSpeed := config.value.scrollSpeed;
      }
    }

    /** `kbmouse_get_config`: the four analog settings. */
    function Config(): AnalogConfig
      reads this
    {
      AnalogConfig(deadzone, sensitivity, scrollDeadzone, scrollSpeed)
    }

    /** `kbmouse_set_led_state`. */
    method SetLedState(leds: byte)
      modifies this`ledState
      ensures ledState == leds
    {
      ledState := leds;
    }

    /** Each mouse axis's accumulator after a conversion: emptied inside the deadzone, carrying a fraction outside it. */
    method Accumulate(rightX: byte, rightY: byte)
      modifies this`accumX, this`accumY
      ensures accumX == Empty <==> MouseDelta(rightX, deadzone) == Some(0)
      ensures accumY == Empty <==> MouseDelta(rightY, deadzone) == Some(0)
    {
      accumX := if InDeadzone(rightX, deadzone) then Empty else Carrying;
      accumY := if InDeadzone(rightY, deadzone) then Empty else Carrying;
    }

    /**
     * `kbmouse_convert` with `default_button_map`: both reports start empty;
     * the table's pressed keys, then W, S, A, D, fill the six key slots in
     * order until they are full; modifiers and mouse buttons are OR-ed in.
     */
    method Convert(buttons: Buttons, p: ProfileOut) returns (kb: KeyboardReport, mouse: MouseReport)
      modifies this`accumX, this`accumY
      ensures kb.keycode == Padded(Take(KeyCodes(Fired(DEFAULT_MAP, buttons)) + Wasd(p), MAX_KEYS))
      ensures kb.modifier == ModifierBits(Fired(DEFAULT_MAP, buttons))
      ensures mouse.buttons == MouseButtonBits(Fired(DEFAULT_MAP, buttons))
      ensures mouse.x == MouseDelta(p.rightX, deadzone) && mouse.y == MouseDelta(p.rightY, deadzone)
      ensures mouse.wheel == 0 && mouse.pan == 0
      ensures accumX == Empty <==> mouse.x == Some(0)
      ensures accumY == Empty <==> mouse.y == Some(0)
    {
      var table := DEFAULT_MAP;
      var keys, modifier, mouseButtons := ApplyMap(table, buttons);
      var fromTable := keys;
      if p.leftY < 128 - WASD_DEADZONE && |keys| < MAX_KEYS {
        keys := keys + [HID_KEY_W];
      }
      if p.leftY > 128 + WASD_DEADZONE && |keys| < MAX_KEYS {
        keys := keys + [HID_KEY_S];
      }
      if p.leftX < 128 - WASD_DEADZONE && |keys| < MAX_KEYS {
        keys := keys + [HID_KEY_A];
      }
      if p.leftX > 128 + WASD_DEADZONE && |keys| < MAX_KEYS {
        keys := keys + [HID_KEY_D];
      }
      WasdPushed(fromTable, p);
      PushAllAppend([], KeyCodes(Fired(table, buttons)), Wasd(p));
      PushAllTakes(KeyCodes(Fired(table, buttons)) + Wasd(p));
      kb := KeyboardReport(modifier, Padded(keys));
      mouse := MouseReport(mouseButtons, MouseDelta(p.rightX, deadzone), MouseDelta(p.rightY, deadzone), 0, 0);
      Accumulate(p.rightX, p.rightY);
    }
  }

  /** The four guarded WASD appends push the `Wasd` keys. */
  lemma WasdPushed(keys: seq<byte>, p: ProfileOut)
    ensures PushAll(keys, Wasd(p)) ==
      var k1 := if p.leftY < 128 - WASD_DEADZONE then Push(keys, HID_KEY_W) else keys;
      var k2 := if p.leftY > 128 + WASD_DEADZONE then Push(k1, HID_KEY_S) else k1;
      var k3 := if p.leftX < 128 - WASD_DEADZONE then Push(k2, HID_KEY_A) else k2;
      if p.leftX > 128 + WASD_DEADZONE then Push(k3, HID_KEY_D) else k3
  {
    var w := if p.leftY < 128 - WASD_DEADZONE then [HID_KEY_W] else [];
    var s := if p.leftY > 128 + WASD_DEADZONE then [HID_KEY_S] else [];
    var a := if p.leftX < 128 - WASD_DEADZONE then [HID_KEY_A] else [];
    var d := if p.leftX > 128 + WASD_DEADZONE then [HID_KEY_D] else [];
    PushAllAppend(keys, w, s);
    PushAllAppend(keys, w + s, a);
    PushAllAppend(keys, w + s + a, d);
  }

  /** Nothing pressed and the sticks centred: an empty keyboard report, a still mouse. */
  lemma IdleIsEmpty(deadzone: byte)
    requires deadzone > 0
    ensures KeyCodes(Fired(DEFAULT_MAP, 0)) + Wasd(NEUTRAL) == []
    ensures ModifierBits(Fired(DEFAULT_MAP, 0)) == 0 && MouseButtonBits(Fired(DEFAULT_MAP, 0)) == 0
    ensures MouseDelta(NEUTRAL.rightX, deadzone) == Some(0)
  {
    NothingFires(DEFAULT_MAP);
  }

  lemma {:induction false} NothingFires(table: seq<Mapping>)
    ensures Fired(table, 0) == []
  {
    if |table| > 0 {
      NothingFires(table[..|table| - 1]);
    }
  }

  /** As written, A/Cross sends the 3 key, the same key as d-pad down, instead of the space bar. */
  lemma SpaceKeyCollides()
    ensures KeyCodes(Fired(DEFAULT_MAP_AS_WRITTEN, JP_B1)) == [HID_KEY_3]
    ensures KeyCodes(Fired(DEFAULT_MAP_AS_WRITTEN, JP_DD)) == [HID_KEY_3]
  {
    AsWrittenB1();
    AsWrittenDD();
  }

  lemma AsWrittenB1()
    ensures KeyCodes(Fired(DEFAULT_MAP_AS_WRITTEN, JP_B1)) == [HID_KEY_3]
  {
    var table := DEFAULT_MAP_AS_WRITTEN;
    forall i | 0 < i < |table| ensures !Pressed(JP_B1, table[i].button) {}
    SingleFires(table, JP_B1, 0, |table|);
    Single(table[0].action);
  }

  lemma AsWrittenDD()
    ensures KeyCodes(Fired(DEFAULT_MAP_AS_WRITTEN, JP_DD)) == [HID_KEY_3]
  {
    var table := DEFAULT_MAP_AS_WRITTEN;
    forall i | 0 <= i < |table| && i != 13 ensures !Pressed(JP_DD, table[i].button) {}
    SingleFires(table, JP_DD, 13, |table|);
    Single(table[13].action);
  }

  /** No two key bindings of a table share a key code. */
  predicate KeysDistinct(table: seq<Mapping>) {
    forall i, j :: 0 <= i < j < |table| && table[i].action.Key? && table[j].action.Key? ==>
      table[i].action.code != table[j].action.code
  }

  /** With the space bar bound, A/Cross sends space. */
  lemma B1SendsSpace()
    ensures KeyCodes(Fired(DEFAULT_MAP, JP_B1)) == [HID_KEY_SPACE]
  {
    var table := DEFAULT_MAP;
    forall i | 0 < i < |table| ensures !Pressed(JP_B1, table[i].button) {}
    SingleFires(table, JP_B1, 0, |table|);
    Single(table[0].action);
  }

  /** With the space bar bound every key binding is a different key; as written two share one. */
  lemma DefaultKeysDistinct()
    ensures KeysDistinct(DEFAULT_MAP)
    ensures !KeysDistinct(DEFAULT_MAP_AS_WRITTEN)
  {
    assert DEFAULT_MAP_AS_WRITTEN[0].action.code == DEFAULT_MAP_AS_WRITTEN[13].action.code;
  }

  lemma Single(a: Action)
    ensures KeyCodes([a]) == if a.Key? then [a.code] else []
  {
    assert [a][..0] == [];
  }

  /** A button word that matches exactly one entry fires exactly that entry's action. */
  lemma {:induction false} SingleFires(table: seq<Mapping>, buttons: Buttons, k: nat, n: nat)
    requires k < |table| && n <= |table|
    requires Pressed(buttons, table[k].button)
    requires forall i :: 0 <= i < |table| && i != k ==> !Pressed(buttons, table[i].button)
    ensures Fired(table[..n], buttons) == if k < n then [table[k].action] else []
    ensures n == |table| ==> Fired(table, buttons) == [table[k].action]
  {
    assert table[..|table|] == table;
    if n > 0 {
      assert table[..n][..n - 1] == table[..n - 1];
      SingleFires(table, buttons, k, n - 1);
    }
  }
}

=== FILE: kbmouse_mode.dfy ===
// The keyboard/mouse output mode: each send converts the controller into a
// keyboard and a mouse report and sends one of them, alternating, with an
// extra mouse report on idle turns so the pointer keeps moving.

module KbMouseMode {
  import opened Common
  import opened UsbdMode
  import opened KbMouse

  const KBMOUSE_REPORT_ID_KEYBOARD: byte := 1
  const KBMOUSE_REPORT_ID_MOUSE: byte := 2

  /** The report a send hands to the USB stack. */
  datatype Sent = KeyboardSent(kb: KeyboardReport) | MouseSent(mouse: MouseReport)

  /** The mode's state: the last reports, whose turn it is, and the converter. */
  class KbMouseDevice {
    var kb: KeyboardReport
    var mouse: MouseReport
    var sendKeyboardNext: bool
    const converter: Converter

    /** The converter and the zeroed static reports. */
    constructor ()
      ensures kb == EMPTY_KEYBOARD && mouse == EMPTY_MOUSE && sendKeyboardNext
      ensures converter.ledState == 0 && converter.deadzone == KBMOUSE_DEFAULT_DEADZONE
      ensures converter.accumX == Empty && converter.accumY == Empty
      ensures fresh(converter)
    {
      kb := EMPTY_KEYBOARD;
      mouse := EMPTY_MOUSE;
      sendKeyboardNext := true;
      converter := new Converter();
    }

    /** `kbmouse_mode_init`: default converter settings, empty reports, keyboard first. */
    method Init()
      modifies this, converter
      ensures kb == EMPTY_KEYBOARD && mouse == EMPTY_MOUSE && sendKeyboardNext
      ensures converter.ledState == 0 && converter.deadzone == KBMOUSE_DEFAULT_DEADZONE
      ensures converter.sensitivity == KBMOUSE_DEFAULT_SENSITIVITY
      ensures converter.scrollDeadzone == KBMOUSE_DEFAULT_SCROLL_DEADZONE
      ensures converter.scrollSpeed == KBMOUSE_DEFAULT_SCROLL_SPEED
      ensures converter.accumX == Empty && converter.accumY == Empty
    {
      converter.Reset();
      kb := EMPTY_KEYBOARD;
      mouse := EMPTY_MOUSE;
      sendKeyboardNext := true;
    }

    /**
     * `kbmouse_mode_send_report`: both reports are rebuilt, then the one
     * whose turn it is is sent and the turn passes to the other.
     */
    method SendReport(buttons: Buttons, p: ProfileOut) returns (sent: Sent)
      modifies this`kb, this`mouse, this`sendKeyboardNext, converter`accumX, converter`accumY
      ensures sendKeyboardNext == !old(sendKeyboardNext)
      ensures old(sendKeyboardNext) ==> sent == KeyboardSent(kb)
      ensures !old(sendKeyboardNext) ==> sent == MouseSent(mouse)
      ensures kb.keycode == Padded(Take(KeyCodes(Fired(DEFAULT_MAP, buttons)) + Wasd(p), MAX_KEYS))
      ensures kb.modifier == ModifierBits(Fired(DEFAULT_MAP, buttons))
      ensures mouse.buttons == MouseButtonBits(Fired(DEFAULT_MAP, buttons))
      ensures mouse.x == MouseDelta(p.rightX, converter.deadzone) && mouse.y == MouseDelta(p.rightY, converter.deadzone)
      ensures converter.accumX == Empty <==> mouse.x == Some(0)
      ensures converter.accumY == Empty <==> mouse.y == Some(0)
    {
      kb, mouse := converter.Convert(buttons, p);
      if sendKeyboardNext {
        sendKeyboardNext := false;
        sent := KeyboardSent(kb);
      } else {
        sendKeyboardNext := true;
        sent := MouseSent(mouse);
      }
    }

    /**
     * `kbmouse_mode_send_idle_mouse`: with the USB stack `ready`, the last
     * mouse report is sent again when it is the mouse's turn, and the turn
     * passes back to the keyboard; otherwise nothing happens.
     */
    method SendIdleMouse(ready: bool) returns (sent: Option<MouseReport>)
      modifies this`sendKeyboardNext
      ensures sent.Some? <==> ready && !old(sendKeyboardNext)
      ensures sent.Some? ==> sent.value == mouse && sendKeyboardNext
      ensures sent.None? ==> sendKeyboardNext == old(sendKeyboardNext)
    {
      if !ready {
        return None;
      }
      if !sendKeyboardNext {
        sendKeyboardNext := true;
        return Some(mouse);
      }
      return None;
    }

    /** `kbmouse_mode_handle_output`: the keyboard LED report stores its first byte. */
    method HandleOutput(reportId: byte, data: seq<byte>)
      requires |data| <= 0xFFFF
      modifies converter`ledState
      ensures reportId == KBMOUSE_REPORT_ID_KEYBOARD && |data| >= 1 ==> converter.ledState == data[0]
      ensures !(reportId == KBMOUSE_REPORT_ID_KEYBOARD && |data| >= 1) ==>
        converter.ledState == old(converter.ledState)
    {
      if reportId == KBMOUSE_REPORT_ID_KEYBOARD && |data| >= 1 {
        converter.SetLedState(data[0]);
      }
    }
  }

  /** Which report the n-th of a run of sends carries, starting with `keyboardFirst`. */
  function Turns(keyboardFirst: bool, n: nat): (turns: seq<bool>)
    ensures |turns| == n
    ensures forall i :: 0 <= i < n ==> turns[i] == (keyboardFirst == (i % 2 == 0))
  {
    if n == 0 then [] else Turns(keyboardFirst, n - 1) + [keyboardFirst == ((n - 1) % 2 == 0)]
  }

  /** After `init`, sends go keyboard, mouse, keyboard, ...: a run of sends reproduces `Turns`. */
  method SendRun(d: KbMouseDevice, inputs: seq<(Buttons, ProfileOut)>) returns (kinds: seq<bool>)
    modifies d`kb, d`mouse, d`sendKeyboardNext, d.converter`accumX, d.converter`accumY
    ensures kinds == Turns(old(d.sendKeyboardNext), |inputs|)
    ensures d.sendKeyboardNext == (old(d.sendKeyboardNext) == (|inputs| % 2 == 0))
  {
    kinds := [];
    ghost var first := d.sendKeyboardNext;
    for i := 0 to |inputs|
      invariant kinds == Turns(first, i)
      invariant d.sendKeyboardNext == (first == (i % 2 == 0))
    {
      var sent := d.SendReport(inputs[i].0, inputs[i].1);
      kinds := kinds + [sent.KeyboardSent?];
    }
  }
}

=== FILE: maple_state_machine.dfy ===
/**
 * The Maple bus receive decoder. The PIO program pushes the bus lines as
 * 2-bit transitions, four to a byte; a 40-state graph says which transition
 * each state expects next. From that graph a table is built that, for every
 * state and every pushed byte, gives the state after the four transitions,
 * the flags the software must act on and the data bits received.
 */
module MapleStateMachine {

  const MAPLE_NUM_STATES: nat := 40

  const STATUS_NONE: int := -1
  const STATUS_START: int := 0
  const STATUS_END: int := 1
  const STATUS_PUSHBIT0: int := 2
  const STATUS_PUSHBIT1: int := 3
  const STATUS_PUSHBIT7: int := 9
  const STATUS_BITSET: int := 0x80

  // ---------------------------------------------------------------------------
  // The graph
  // ---------------------------------------------------------------------------

  /** `int Next[4]`: one entry per 2-bit transition. */
  type Transitions = s: seq<int> | |s| == 4 witness [-1, -1, -1, -1]

  /** `SimpleState`: the next state for each 2-bit transition (-1 when not expected) and a status. */
  datatype SimpleState = SimpleState(next: Transitions, status: int)

  /** A status that fits a signed byte or the BITSET range, and four transitions, each to -1 or to one of the first `n` states. */
  predicate Shaped(st: SimpleState, n: int)
  {
    -0x80 <= st.status < 0x100 && forall t :: 0 <= t < 4 ==> -1 <= st.next[t] < n
  }

  /** A graph of 40 states whose transitions stay inside it. */
  predicate Graph(g: seq<SimpleState>)
  {
    |g| == MAPLE_NUM_STATES && forall s :: 0 <= s < |g| ==> Shaped(g[s], |g|)
  }

  /** A state just made by `NewState`: only its own transition is expected, and it loops. */
  function Fresh(expected: int, n: int): SimpleState
    requires 0 <= expected < 4
  {
    SimpleState([-1, -1, -1, -1][expected := n], STATUS_NONE)
  }

  /** The states after `Expect(p, q, e, status)` made state `n`: it is linked from `p` and `q` on `e`. */
  function Linked(g: seq<SimpleState>, n: int, p: int, q: int, e: int, status: int): (g': seq<SimpleState>)
    requires 0 <= p < n < |g| && 0 <= q < n && 0 <= e < 4
    ensures |g'| == |g|
  {
    var g1 := g[n := Fresh(e, n).(status := status)];
    var g2 := g1[p := g1[p].(next := g1[p].next[e := n])];
    g2[q := g2[q].(next := g2[q].next[e := n])]
  }

  /** State by state: `n` is new, its parents gain the link to it, and nothing else changes. */
  lemma LinkedStates(g: seq<SimpleState>, n: int, p: int, q: int, e: int, status: int)
    requires 0 <= p < n < |g| && 0 <= q < n && 0 <= e < 4
    ensures var g' := Linked(g, n, p, q, e, status);
      && g'[n] == Fresh(e, n).(status := status)
      && forall s :: 0 <= s < |g| && s != n ==>
           g'[s] == if s == p || s == q then g[s].(next := g[s].next[e := n]) else g[s]
  {
  }

  /** The transition state `s` of the start sequence (1-10) expects: 0b10 and 0b00 alternate, then 0b11. */
  function StartExpected(s: int): int
  {
    if s == 10 then 3 else if s % 2 == 1 then 2 else 0
  }

  /** The transition that begins data bit `h`: 0b01 for even bits, 0b10 for odd ones. */
  function BitEntry(h: int): int
  {
    if h % 2 == 0 then 1 else 2
  }

  /** The transition state `s` of the end sequence (35-39) expects: 0b01 and 0b00 alternate. */
  function EndExpected(s: int): int
  {
    if s % 2 == 1 then 1 else 0
  }

  /**
   * The transition each state loops on. States 0-10 are the start sequence,
   * 11-34 the data bits (three states per bit: the bit's first transition,
   * then a state for a 1 and one for a 0), 35-39 the end sequence.
   */
  function Expected(s: int): int
    requires 0 <= s < MAPLE_NUM_STATES
  {
    if s == 0 then 3
    else if s <= 10 then StartExpected(s)
    else if s < 35 then
      var h, o := (s - 11) / 3, (s - 11) % 3;
      if o == 0 then BitEntry(h) else if o == 1 then 3 else 0
    else EndExpected(s)
  }

  /** The status each state is given when it is made. */
  function StatusOf(s: int): int
    requires 0 <= s < MAPLE_NUM_STATES
  {
    if s == 10 then STATUS_START
    else if 11 <= s < 35 then
      var h, o := (s - 11) / 3, (s - 11) % 3;
      if o == 0 then STATUS_NONE
      else if o == 1 then (STATUS_PUSHBIT0 + h) + STATUS_BITSET
      else STATUS_PUSHBIT0 + h
    else if s == 37 then STATUS_END
    else STATUS_NONE
  }

  /** The graph `BuildBasicStates` makes: where each state goes on each transition. */
  function NextOf(s: int, t: int): int
    requires 0 <= s < MAPLE_NUM_STATES && 0 <= t < 4
  {
    if s == 0 then
      (if t == 3 then 0 else if t == 2 then 1 else -1)
    else if s < 10 then
      (if t == StartExpected(s) then s else if t == StartExpected(s + 1) then s + 1 else -1)
    else if s == 10 then
      (if t == 3 then 10 else if t == 1 then 11 else -1)
    else if s < 35 then
      var h, o := (s - 11) / 3, (s - 11) % 3;
      if o == 0 then
        (if t == BitEntry(h) then s else if t == 3 then s + 1 else if t == 0 then s + 2 else -1)
      else
        var onward := if h < 7 then (if o == 1 then s + 2 else s + 1) else 11;
        if t == (if o == 1 then 3 else 0) then s
        else if t == BitEntry((h + 1) % 8) then onward
        else if s == 12 && t == 1 then 35
        else -1
    else if s == 39 then
      (if t == 1 then 39 else if t == 3 then 0 else -1)
    else
      (if t == EndExpected(s) then s else if t == EndExpected(s + 1) then s + 1 else -1)
  }

  /** The graph is exactly the one above. */
  predicate Built(g: seq<SimpleState>)
  {
    |g| == MAPLE_NUM_STATES
    && forall s :: 0 <= s < |g| ==>
         g[s].status == StatusOf(s)
         && forall t :: 0 <= t < 4 ==> g[s].next[t] == NextOf(s, t)
  }

  /** The links that point back: the last data states to the first data state, the last state to idle. */
  predicate BackLink(s: int, t: int)
  {
    ((s == 33 || s == 34) && t == 1) || (s == 39 && t == 3)
  }

  /**
   * Transition `t` of state `s` once the first `n` states have been made: a
   * link forward to a state not made yet is still -1, and a back link is -1
   * until it is patched in (`loopBack` for the data states, `idleBack` for
   * the last state).
   */
  function Staged(s: int, t: int, n: int, loopBack: bool, idleBack: bool): int
    requires 0 <= s < MAPLE_NUM_STATES && 0 <= t < 4
  {
    var m := NextOf(s, t);
    if m < 0 || m == s then m
    else if m > s then (if m < n then m else -1)
    else if (if s == 39 then idleBack else loopBack) then m
    else -1
  }

  /** The graph after the first `n` states have been made and linked. */
  predicate BuiltUpTo(g: seq<SimpleState>, n: int, loopBack: bool, idleBack: bool)
    requires 0 <= n <= |g| <= MAPLE_NUM_STATES
  {
    forall s :: 0 <= s < n ==>
      g[s].status == StatusOf(s)
      && forall t :: 0 <= t < 4 ==> g[s].next[t] == Staged(s, t, n, loopBack, idleBack)
  }

  /** The states whose transition `Expected(n)` is linked to state `n` when it is made. */
  function Parents(n: int): (int, int)
    requires 1 <= n < MAPLE_NUM_STATES
  {
    if n <= 10 then (n - 1, n - 1)
    else if n < 35 then
      var h, o := (n - 11) / 3, (n - 11) % 3;
      if o != 0 then (11 + 3 * h, 11 + 3 * h)
      else if h == 0 then (10, 10)
      else (n - 2, n - 1)
    else if n == 35 then (12, 12)
    else (n - 1, n - 1)
  }

  /** A link from a state to a later one is one of that later state's parent links. */
  lemma Incoming(s: int, t: int)
    requires 0 <= s < MAPLE_NUM_STATES && 0 <= t < 4 && NextOf(s, t) > s
    ensures var m := NextOf(s, t);
      m < MAPLE_NUM_STATES && (s == Parents(m).0 || s == Parents(m).1) && t == Expected(m)
  {
    if 11 <= s < 35 {
      var h, o := (s - 11) / 3, (s - 11) % 3;
      assert s == 11 + 3 * h + o;
      IncomingData(h, o, t);
    }
  }

  /** The forward links out of the states of data bit h. */
  lemma IncomingData(h: int, o: int, t: int)
    requires 0 <= h < 8 && 0 <= o < 3 && 0 <= t < 4
    requires NextOf(11 + 3 * h + o, t) > 11 + 3 * h + o
    ensures var s, m := 11 + 3 * h + o, NextOf(11 + 3 * h + o, t);
      m < MAPLE_NUM_STATES && (s == Parents(m).0 || s == Parents(m).1) && t == Expected(m)
  {
    var s := 11 + 3 * h + o;
    assert (s - 11) / 3 == h && (s - 11) % 3 == o;
    assert (s + 1 - 11) / 3 == (if o == 2 then h + 1 else h) && (s + 1 - 11) % 3 == (o + 1) % 3;
    assert (s + 2 - 11) / 3 == (if o == 0 then h else h + 1) && (s + 2 - 11) % 3 == (o + 2) % 3;
  }

  /** A link that goes neither forward nor to the state itself is a back link. */
  lemma OnlyBackLinks(s: int, t: int)
    requires 0 <= s < MAPLE_NUM_STATES && 0 <= t < 4
    ensures NextOf(s, t) == s <==> t == Expected(s)
    ensures 0 <= NextOf(s, t) < s <==> BackLink(s, t)
  {
  }

  /** State `n` joins the graph through its parents and links to nothing made before it but back. */
  predicate Joins(n: int)
    requires 1 <= n < MAPLE_NUM_STATES
  {
    var (p, q) := Parents(n);
    && 0 <= p < n && 0 <= q < n
    && NextOf(p, Expected(n)) == n && NextOf(q, Expected(n)) == n
    && (forall s, t :: 0 <= s < n && 0 <= t < 4 && NextOf(s, t) == n ==> (s == p || s == q) && t == Expected(n))
  }

  /** Both parents of state `n` lead to it on the transition it expects. */
  predicate ParentsLead(n: int)
    requires 1 <= n < MAPLE_NUM_STATES
  {
    && 0 <= Parents(n).0 < n && 0 <= Parents(n).1 < n
    && NextOf(Parents(n).0, Expected(n)) == n && NextOf(Parents(n).1, Expected(n)) == n
  }

  lemma ParentsLink(n: int)
    requires 1 <= n < MAPLE_NUM_STATES
    ensures ParentsLead(n)
  {
    if n <= 11 {
      StartParentsLink(n);
    } else if n < 35 {
      var h, o := (n - 11) / 3, (n - 11) % 3;
      assert n == 11 + 3 * h + o;
      if o == 0 {
        EntryParentsLink(h);
      } else {
        BitParentLinks(h, o);
      }
    } else {
      EndParentsLink(n);
    }
  }

  /** Each state of the start sequence, and the first data state, is reached from the one before. */
  lemma StartParentsLink(n: int)
    requires 1 <= n <= 11
    ensures ParentsLead(n)
  {
  }

  /** Each state of the end sequence is reached from the one before, the first from state 12. */
  lemma EndParentsLink(n: int)
    requires 35 <= n < MAPLE_NUM_STATES
    ensures ParentsLead(n)
  {
  }

  /** The entry state of data bit h > 0 is reached from both outcome states of bit h - 1. */
  lemma EntryParentsLink(h: int)
    requires 0 < h < 8
    ensures ParentsLead(11 + 3 * h)
  {
    var n := 11 + 3 * h;
    assert (n - 11) / 3 == h && (n - 11) % 3 == 0;
    assert (n - 2 - 11) / 3 == h - 1 && (n - 2 - 11) % 3 == 1;
    assert (n - 1 - 11) / 3 == h - 1 && (n - 1 - 11) % 3 == 2;
  }

  /** The two outcome states of data bit h are reached from its entry state. */
  lemma BitParentLinks(h: int, o: int)
    requires 0 <= h < 8 && 0 < o < 3
    ensures ParentsLead(11 + 3 * h + o)
  {
    var n := 11 + 3 * h + o;
    assert (n - 11) / 3 == h && (n - 11) % 3 == o;
    assert (11 + 3 * h - 11) / 3 == h && (11 + 3 * h - 11) % 3 == 0;
  }

  lemma AllJoin(n: int)
    requires 1 <= n < MAPLE_NUM_STATES
    ensures Joins(n)
  {
    ParentsLink(n);
    assert ParentsLead(n);
    forall s, t | 0 <= s < n && 0 <= t < 4 && NextOf(s, t) == n
      ensures (s == Parents(n).0 || s == Parents(n).1) && t == Expected(n)
    {
      Incoming(s, t);
    }
  }

  /** A link that does not lead to state `n` is the same before and after `n` is made. */
  lemma StagedGrows(s: int, t: int, n: int, loopBack: bool, idleBack: bool)
    requires 0 <= s < MAPLE_NUM_STATES && 0 <= t < 4 && 0 <= n < MAPLE_NUM_STATES
    ensures NextOf(s, t) != n ==> Staged(s, t, n, loopBack, idleBack) == Staged(s, t, n + 1, loopBack, idleBack)
    ensures NextOf(s, t) == n && s < n ==> Staged(s, t, n + 1, loopBack, idleBack) == n
  {
  }

  /** The transitions of the state `n` just made, before anything links out of it. */
  lemma NewlyStaged(n: int, t: int, loopBack: bool, idleBack: bool)
    requires 0 <= n < MAPLE_NUM_STATES && 0 <= t < 4
    requires !idleBack && (n < 35 ==> !loopBack)
    ensures Staged(n, t, n + 1, loopBack, idleBack) == Fresh(Expected(n), n).next[t]
  {
    OnlyBackLinks(n, t);
    SelfLoops(n);
  }

  /**
   * `Expect(p, q, Expected(n), StatusOf(n))` with `n` the next state made and
   * `p`, `q` its parents: the graph made so far grows by state `n`.
   */
  lemma JoinStep(g: seq<SimpleState>, g': seq<SimpleState>, n: int, p: int, q: int, e: int, status: int,
                 loopBack: bool, idleBack: bool)
    requires |g| == |g'| == MAPLE_NUM_STATES && 1 <= n < MAPLE_NUM_STATES
    requires (p, q) == Parents(n) && e == Expected(n) && status == StatusOf(n)
    requires BuiltUpTo(g, n, loopBack, idleBack)
    requires !idleBack && (n < 35 ==> !loopBack)
    requires n < |g| && 0 <= p < n && 0 <= q < n
    requires g' == Linked(g, n, p, q, e, status)
    ensures BuiltUpTo(g', n + 1, loopBack, idleBack)
  {
    AllJoin(n);
    LinkedStates(g, n, p, q, e, status);
    forall s | 0 <= s < n + 1
      ensures g'[s].status == StatusOf(s)
      ensures forall t :: 0 <= t < 4 ==> g'[s].next[t] == Staged(s, t, n + 1, loopBack, idleBack)
    {
      forall t | 0 <= t < 4
        ensures g'[s].next[t] == Staged(s, t, n + 1, loopBack, idleBack)
      {
        if s == n {
          NewlyStaged(n, t, loopBack, idleBack);
        } else {
          StagedGrows(s, t, n, loopBack, idleBack);
        }
      }
    }
  }

  /** State 11 + 3h + o of data bit h: its entry transition, status and parents. */
  lemma DataState(h: int, o: int)
    requires 0 <= h < 8 && 0 <= o < 3
    ensures var n := 11 + 3 * h + o;
      && Expected(n) == (if o == 0 then BitEntry(h) else if o == 1 then 3 else 0)
      && StatusOf(n) == (if o == 0 then STATUS_NONE
                         else if o == 1 then (STATUS_PUSHBIT0 + h) + STATUS_BITSET
                         else STATUS_PUSHBIT0 + h)
      && Parents(n) == (if o != 0 then (11 + 3 * h, 11 + 3 * h)
                        else if h == 0 then (10, 10)
                        else (9 + 3 * h, 10 + 3 * h))
  {
    var n := 11 + 3 * h + o;
    assert (n - 11) / 3 == h && (n - 11) % 3 == o;
  }

  /** The first half of the start sequence: state 0, then five states each reached from the one before. */
  lemma StartHeadGrows(g0: seq<SimpleState>, g1: seq<SimpleState>, g2: seq<SimpleState>, g3: seq<SimpleState>, g4: seq<SimpleState>, g5: seq<SimpleState>)
    requires |g0| == MAPLE_NUM_STATES && g0[0] == Fresh(3, 0)
    requires g1 == Linked(g0, 1, 0, 0, 2, STATUS_NONE)
    requires g2 == Linked(g1, 2, 1, 1, 0, STATUS_NONE)
    requires g3 == Linked(g2, 3, 2, 2, 2, STATUS_NONE)
    requires g4 == Linked(g3, 4, 3, 3, 0, STATUS_NONE)
    requires g5 == Linked(g4, 5, 4, 4, 2, STATUS_NONE)
    ensures BuiltUpTo(g5, 6, false, false)
  {
    assert BuiltUpTo(g0, 1, false, false);
    JoinStep(g0, g1, 1, 0, 0, 2, STATUS_NONE, false, false);
    JoinStep(g1, g2, 2, 1, 1, 0, STATUS_NONE, false, false);
    JoinStep(g2, g3, 3, 2, 2, 2, STATUS_NONE, false, false);
    JoinStep(g3, g4, 4, 3, 3, 0, STATUS_NONE, false, false);
    JoinStep(g4, g5, 5, 4, 4, 2, STATUS_NONE, false, false);
  }

  /** The second half of the start sequence, ending in the state that signals START. */
  lemma StartTailGrows(g5: seq<SimpleState>, g6: seq<SimpleState>, g7: seq<SimpleState>, g8: seq<SimpleState>, g9: seq<SimpleState>, g10: seq<SimpleState>)
    requires |g5| == MAPLE_NUM_STATES && BuiltUpTo(g5, 6, false, false)
    requires g6 == Linked(g5, 6, 5, 5, 0, STATUS_NONE)
    requires g7 == Linked(g6, 7, 6, 6, 2, STATUS_NONE)
    requires g8 == Linked(g7, 8, 7, 7, 0, STATUS_NONE)
    requires g9 == Linked(g8, 9, 8, 8, 2, STATUS_NONE)
    requires g10 == Linked(g9, 10, 9, 9, 3, STATUS_START)
    ensures BuiltUpTo(g10, 11, false, false)
  {
    JoinStep(g5, g6, 6, 5, 5, 0, STATUS_NONE, false, false);
    JoinStep(g6, g7, 7, 6, 6, 2, STATUS_NONE, false, false);
    JoinStep(g7, g8, 8, 7, 7, 0, STATUS_NONE, false, false);
    JoinStep(g8, g9, 9, 8, 8, 2, STATUS_NONE, false, false);
    JoinStep(g9, g10, 10, 9, 9, 3, STATUS_START, false, false);
  }

  /** One data bit `h`: the entry state from `option` and `prev`, then its 1 and 0 states. */
  lemma DataBitGrows(h: int, option: int, prev: int,
                     g0: seq<SimpleState>, g1: seq<SimpleState>, g2: seq<SimpleState>, g3: seq<SimpleState>)
    requires 0 <= h < 8 && |g0| == MAPLE_NUM_STATES
    requires (option, prev) == (if h == 0 then (10, 10) else (9 + 3 * h, 10 + 3 * h))
    requires BuiltUpTo(g0, 11 + 3 * h, false, false)
    requires g1 == Linked(g0, 11 + 3 * h, option, prev, BitEntry(h), STATUS_NONE)
    requires g2 == Linked(g1, 12 + 3 * h, 11 + 3 * h, 11 + 3 * h, 3, STATUS_PUSHBIT0 + h + STATUS_BITSET)
    requires g3 == Linked(g2, 13 + 3 * h, 11 + 3 * h, 11 + 3 * h, 0, STATUS_PUSHBIT0 + h)
    ensures BuiltUpTo(g3, 14 + 3 * h, false, false)
  {
    DataState(h, 0);
    DataState(h, 1);
    DataState(h, 2);
    JoinStep(g0, g1, 11 + 3 * h, option, prev, BitEntry(h), STATUS_NONE, false, false);
    JoinStep(g1, g2, 12 + 3 * h, 11 + 3 * h, 11 + 3 * h, 3, STATUS_PUSHBIT0 + h + STATUS_BITSET, false, false);
    JoinStep(g2, g3, 13 + 3 * h, 11 + 3 * h, 11 + 3 * h, 0, STATUS_PUSHBIT0 + h, false, false);
  }

  /** The end sequence: five states in a chain from state 12, the third signalling END. */
  lemma EndGrows(g0: seq<SimpleState>, g1: seq<SimpleState>, g2: seq<SimpleState>,
                 g3: seq<SimpleState>, g4: seq<SimpleState>, g5: seq<SimpleState>)
    requires |g0| == MAPLE_NUM_STATES && BuiltUpTo(g0, 35, true, false)
    requires g1 == Linked(g0, 35, 12, 12, 1, STATUS_NONE)
    requires g2 == Linked(g1, 36, 35, 35, 0, STATUS_NONE)
    requires g3 == Linked(g2, 37, 36, 36, 1, STATUS_END)
    requires g4 == Linked(g3, 38, 37, 37, 0, STATUS_NONE)
    requires g5 == Linked(g4, 39, 38, 38, 1, STATUS_NONE)
    ensures BuiltUpTo(g5, 40, true, false)
  {
    JoinStep(g0, g1, 35, 12, 12, 1, STATUS_NONE, true, false);
    JoinStep(g1, g2, 36, 35, 35, 0, STATUS_NONE, true, false);
    JoinStep(g2, g3, 37, 36, 36, 1, STATUS_END, true, false);
    JoinStep(g3, g4, 38, 37, 37, 0, STATUS_NONE, true, false);
    JoinStep(g4, g5, 39, 38, 38, 1, STATUS_NONE, true, false);
  }

  /** `States[Option].Next[0b01] = StartByte` and the same for `Prev`: the data states loop back. */
  lemma LoopBackStep(g: seq<SimpleState>, g': seq<SimpleState>)
    requires |g| == |g'| == MAPLE_NUM_STATES && BuiltUpTo(g, 35, false, false)
    requires g' == g[33 := g[33].(next := g[33].next[1 := 11])][34 := g[34].(next := g[34].next[1 := 11])]
    ensures BuiltUpTo(g', 35, true, false)
  {
    forall s, t | 0 <= s < 35 && 0 <= t < 4
      ensures g'[s].next[t] == Staged(s, t, 35, true, false)
    {
      OnlyBackLinks(s, t);
    }
  }

  /** `States[Prev].Next[0b11] = 0`: the last state of the end sequence returns to idle. */
  lemma IdleBackStep(g: seq<SimpleState>, g': seq<SimpleState>)
    requires |g| == |g'| == MAPLE_NUM_STATES && BuiltUpTo(g, 40, true, false)
    requires g' == g[39 := g[39].(next := g[39].next[3 := 0])]
    ensures BuiltUpTo(g', 40, true, true)
  {
    forall s, t | 0 <= s < 40 && 0 <= t < 4
      ensures g'[s].next[t] == Staged(s, t, 40, true, true)
    {
      OnlyBackLinks(s, t);
    }
  }

  /** Once all states are made and both back links patched in, the graph is the built one. */
  lemma StagedComplete(g: seq<SimpleState>)
    requires |g| == MAPLE_NUM_STATES && BuiltUpTo(g, MAPLE_NUM_STATES, true, true)
    ensures Built(g)
  {
    forall s, t | 0 <= s < MAPLE_NUM_STATES && 0 <= t < 4
      ensures g[s].next[t] == NextOf(s, t)
    {
      OnlyBackLinks(s, t);
    }
  }

  /** Every state loops on the transition it expects: the link `NewState` makes is never overwritten. */
  lemma SelfLoops(s: int)
    requires 0 <= s < MAPLE_NUM_STATES
    ensures NextOf(s, Expected(s)) == s
  {
  }

  /** The built graph is a graph: every transition is -1 or a state. */
  lemma BuiltIsGraph(g: seq<SimpleState>)
    requires Built(g)
    ensures Graph(g)
  {
    forall s | 0 <= s < |g|
      ensures Shaped(g[s], |g|)
    {
      forall t | 0 <= t < 4
        ensures -1 <= g[s].next[t] < |g|
      {
        assert g[s].next[t] == NextOf(s, t);
      }
      assert g[s].status == StatusOf(s);
    }
  }

  /** The only way back to the idle state 0 is the last transition of the end sequence (or an error). */
  lemma IdleEnteredOnlyAtEnd(s: int, t: int)
    requires 0 <= s < MAPLE_NUM_STATES && 0 <= t < 4 && s != 0
    ensures NextOf(s, t) == 0 <==> s == 39 && t == 3
  {
  }

  // ---------------------------------------------------------------------------
  // Statuses
  // ---------------------------------------------------------------------------

  /** `Status & ~STATUS_BITSET` on a two's-complement `int`. */
  function Base(status: int): int
    requires -0x80 <= status < 0x100
  {
    if status < 0 || status >= STATUS_BITSET then status - STATUS_BITSET else status
  }

  /** `Status & STATUS_BITSET` as written: bit 7 of the two's-complement value, set for -1 too. */
  predicate BitsetAsWritten(status: int)
    requires -0x80 <= status < 0x100
  {
    status < 0 || status >= STATUS_BITSET
  }

  /** `7 - ((Status & ~STATUS_BITSET) - STATUS_PUSHBIT0)`: the shift the data bit is set with. */
  function ShiftAsWritten(status: int): int
    requires -0x80 <= status < 0x100
  {
    7 - (Base(status) - STATUS_PUSHBIT0)
  }

  /** A state that carries a 1 bit: a push status with the BITSET flag (and not `STATUS_NONE`). */
  predicate CarriesBit(status: int)
  {
    STATUS_BITSET + STATUS_PUSHBIT0 <= status <= STATUS_BITSET + STATUS_PUSHBIT7
  }

  /**
   * A status of -1 passes the `Status & STATUS_BITSET` test and asks for a
   * shift by 138, which the C standard leaves undefined; state 1, reached
   * from the idle state on 2, has that status.
   */
  lemma NoneStatusShift()
    ensures NextOf(0, 2) == 1 && StatusOf(1) == STATUS_NONE
    ensures BitsetAsWritten(STATUS_NONE) && ShiftAsWritten(STATUS_NONE) == 138
  {
  }

  /**
   * With the test read as intended, the bit-carrying states are exactly the
   * states the `|` test passes other than the status-less ones, and their
   * shifts are 0-7.
   */
  lemma CarriesBitIntended(s: int)
    requires 0 <= s < MAPLE_NUM_STATES
    ensures CarriesBit(StatusOf(s)) <==> BitsetAsWritten(StatusOf(s)) && StatusOf(s) != STATUS_NONE
    ensures CarriesBit(StatusOf(s)) ==> 0 <= ShiftAsWritten(StatusOf(s)) <= 7
    ensures CarriesBit(StatusOf(s)) <==> 11 <= s < 35 && (s - 11) % 3 == 1
  {
  }

  /** `1 << (7 - k)` for the push status of bit k, most significant bit first. */
  function BitOf(base: int): bv8
  {
    if base == 2 then 0x80 else if base == 3 then 0x40 else if base == 4 then 0x20
    else if base == 5 then 0x10 else if base == 6 then 0x08 else if base == 7 then 0x04
    else if base == 8 then 0x02 else if base == 9 then 0x01 else 0
  }

  /** Push status k sets bit 7 - k: the first data bit received is the most significant. */
  lemma MsbFirst(k: bv8)
    requires k < 8
    ensures BitOf(STATUS_PUSHBIT0 + k as int) == 1 << (7 - k)
  {
  }

  // ---------------------------------------------------------------------------
  // Decoding four transitions
  // ---------------------------------------------------------------------------

  /** The decoder's variables while it walks the four transitions of a byte. */
  datatype Scan = Scan(state: int, second: bool, d0: bv8, d1: bv8,
                       push: bool, error: bool, reset: bool, end: bool)

  /** The start of a walk from `start`: no flags, no data. */
  function Init(start: int): Scan
  {
    Scan(start, false, 0, 0, false, false, false, false)
  }

  /**
   * Entering a state with status `status`: a bit-carrying status sets its bit
   * in the current data byte, START sets Reset, END sets End, and push bit 7
   * sets Push and moves on to the second data byte.
   */
  function Enter(sc: Scan, status: int): Scan
    requires -0x80 <= status < 0x100
  {
    var base := Base(status);
    var pushed := base == STATUS_PUSHBIT7;
    Scan(sc.state, sc.second || pushed,
         if sc.second || !CarriesBit(status) then sc.d0 else sc.d0 | BitOf(base),
         if sc.second && CarriesBit(status) then sc.d1 | BitOf(base) else sc.d1,
         sc.push || pushed, sc.error,
         sc.reset || base == STATUS_START, sc.end || base == STATUS_END)
  }

  /** One transition of the inner loop. */
  function Step(g: seq<SimpleState>, sc: Scan, t: int): (r: Scan)
    requires Graph(g) && 0 <= sc.state < |g| && 0 <= t < 4
    ensures 0 <= r.state < |g|
    ensures g[sc.state].next[t] >= 0 ==> r.state == g[sc.state].next[t]
    ensures g[sc.state].next[t] < 0 ==> r.state == 0
    ensures r.error <==> sc.error || g[sc.state].next[t] < 0
  {
    var n := g[sc.state].next[t];
    var st := if n < 0 then 0 else n;
    var sc' := sc.(state := st, error := sc.error || n < 0);
    if st == sc.state then sc' else Enter(sc', g[st].status)
  }

  /** The remaining `k` transitions, read from the top of `transitions` and shifted out by two. */
  function Walk(g: seq<SimpleState>, sc: Scan, transitions: int, k: nat): (r: Scan)
    requires Graph(g) && 0 <= sc.state < |g| && transitions >= 0
    ensures 0 <= r.state < |g|
    decreases k
  {
    if k == 0 then sc
    else Walk(g, Step(g, sc, (transitions / 64) % 4), transitions * 4, k - 1)
  }

  /** The outcome of the byte `b` in state `start`. */
  function Run(g: seq<SimpleState>, start: int, b: int): (r: Scan)
    requires Graph(g) && 0 <= start < |g| && 0 <= b < 256
    ensures 0 <= r.state < |g|
  {
    Walk(g, Init(start), b, 4)
  }

  /** After the k-th shift by two, bits 7-6 of the shifted value are bits 7-2k and 6-2k of the byte. */
  lemma ShiftedPairs(b: int)
    requires 0 <= b < 256
    ensures (b / 64) % 4 == b / 64
    ensures (b * 4 / 64) % 4 == (b / 16) % 4
    ensures (b * 16 / 64) % 4 == (b / 4) % 4
    ensures (b * 64 / 64) % 4 == b % 4
  {
  }

  /** Every entry takes exactly four transitions, the top two bits first. */
  lemma TopBitsFirst(g: seq<SimpleState>, start: int, b: int)
    requires Graph(g) && 0 <= start < |g| && 0 <= b < 256
    ensures var s1 := Step(g, Init(start), b / 64);
      var s2 := Step(g, s1, (b / 16) % 4);
      var s3 := Step(g, s2, (b / 4) % 4);
      Run(g, start, b) == Step(g, s3, b % 4)
  {
    ShiftedPairs(b);
    var s1 := Step(g, Init(start), b / 64);
    var s2 := Step(g, s1, (b / 16) % 4);
    var s3 := Step(g, s2, (b / 4) % 4);
    assert Walk(g, s3, b * 64, 1) == Step(g, s3, b % 4);
    assert Walk(g, s2, b * 16, 2) == Walk(g, s3, b * 64, 1);
    assert Walk(g, s1, b * 4, 3) == Walk(g, s2, b * 16, 2);
  }

  /** A transition the state does not expect sets Error and restarts from state 0. */
  lemma ErrorResets(g: seq<SimpleState>, sc: Scan, t: int)
    requires Graph(g) && 0 <= sc.state < |g| && 0 <= t < 4
    ensures g[sc.state].next[t] < 0 ==> Step(g, sc, t).state == 0 && Step(g, sc, t).error
    ensures Step(g, sc, t).error <==> sc.error || g[sc.state].next[t] < 0
  {
  }

  /** Staying in the same state (the `State != LastState` test) changes nothing but the error flag. */
  lemma StayingKeeps(g: seq<SimpleState>, sc: Scan, t: int)
    requires Graph(g) && 0 <= sc.state < |g| && 0 <= t < 4
    requires (if g[sc.state].next[t] < 0 then 0 else g[sc.state].next[t]) == sc.state
    ensures Step(g, sc, t) == sc.(error := sc.error || g[sc.state].next[t] < 0)
  {
  }

  /**
   * Entering a new state acts on its status: START sets Reset, END sets End,
   * push bit 7 sets Push and moves on to the second data byte, and a state
   * carrying bit k sets bit 7 - k of the current data byte.
   */
  lemma EnteringActs(g: seq<SimpleState>, sc: Scan, t: int)
    requires Graph(g) && 0 <= sc.state < |g| && 0 <= t < 4
    requires 0 <= g[sc.state].next[t] != sc.state
    ensures var status := g[g[sc.state].next[t]].status;
      var r := Step(g, sc, t);
      && r.state == g[sc.state].next[t] && r.error == sc.error
      && (r.reset <==> sc.reset || Base(status) == STATUS_START)
      && (r.end <==> sc.end || Base(status) == STATUS_END)
      && (r.push <==> sc.push || Base(status) == STATUS_PUSHBIT7)
      && (r.second <==> sc.second || Base(status) == STATUS_PUSHBIT7)
      && (CarriesBit(status) && !sc.second ==> r.d0 == sc.d0 | BitOf(Base(status)) && r.d1 == sc.d1)
      && (CarriesBit(status) && sc.second ==> r.d1 == sc.d1 | BitOf(Base(status)) && r.d0 == sc.d0)
      && (!CarriesBit(status) ==> r.d0 == sc.d0 && r.d1 == sc.d1)
  {
  }

  // ---------------------------------------------------------------------------
  // The tables
  // ---------------------------------------------------------------------------

  /** `MapleStateMachine`: one precomputed table entry. */
  datatype MachineEntry = MachineEntry(newState: int, push: bool, error: bool, reset: bool,
                                       end: bool, setBitsIndex: int)

  /** No data-byte pair appears twice. */
  predicate Distinct(bits: seq<(bv8, bv8)>)
  {
    forall i, j :: 0 <= i < j < |bits| ==> bits[i] != bits[j]
  }

  /** Entry `e` is the outcome of byte `b` in state `s`, its index naming the data bytes. */
  predicate EntryFor(g: seq<SimpleState>, bits: seq<(bv8, bv8)>, s: int, b: int, e: MachineEntry)
    requires Graph(g) && 0 <= s < |g| && 0 <= b < 256
  {
    var r := Run(g, s, b);
    && e.newState == r.state && e.push == r.push && e.error == r.error
    && e.reset == r.reset && e.end == r.end
    && 0 <= e.setBitsIndex < |bits| && bits[e.setBitsIndex] == (r.d0, r.d1)
  }

  /** The graph, its state count, the data-byte pairs found so far and the table. */
  class Tables {
    const states: array<SimpleState>
    var numStates: int
    var setBits: seq<(bv8, bv8)>
    const machine: array2<MachineEntry>

    /** The zeroed static arrays. */
    constructor ()
      ensures states.Length == MAPLE_NUM_STATES && numStates == 0 && setBits == []
      ensures machine.Length0 == MAPLE_NUM_STATES && machine.Length1 == 256
      ensures fresh(states) && fresh(machine)
    {
      states := new SimpleState[MAPLE_NUM_STATES](_ => SimpleState([0, 0, 0, 0], 0));
      machine := new MachineEntry[MAPLE_NUM_STATES, 256]((_, _) => MachineEntry(0, false, false, false, false, 0));
      numStates := 0;
      setBits := [];
    }

    /** `NewState`: take the next state, every transition -1 but the expected one, which loops. */
    method NewState(expected: int) returns (n: int)
      requires 0 <= numStates < states.Length && 0 <= expected < 4
      modifies this, states
      ensures n == old(numStates) && numStates == n + 1 && setBits == old(setBits)
      ensures states[..] == old(states[..])[n := Fresh(expected, n)]
    {
      n := numStates;
      numStates := numStates + 1;
      states[n] := SimpleState([-1, -1, -1, -1], -1);
      states[n] := states[n].(next := states[n].next[expected := n]);
    }

    /** `ExpectState`, `ExpectStateWithStatus` and `ExpectStateTwoParents`: a new state, given a status, that both parents lead to. */
    method Expect(parent: int, other: int, expected: int, status: int) returns (n: int)
      requires 0 <= parent < numStates < states.Length && 0 <= other < numStates
      requires 0 <= expected < 4
      modifies this, states
      ensures n == old(numStates) && numStates == n + 1 && setBits == old(setBits)
      ensures states[..] == Linked(old(states[..]), n, parent, other, expected, status)
    {
      n := NewState(expected);
      states[n] := states[n].(status := status);
      states[parent] := states[parent].(next := states[parent].next[expected := n]);
      states[other] := states[other].(next := states[other].next[expected := n]);
    }

    /** `BuildBasicStates`: the start sequence, four pairs of data bits, the end sequence. */
    method BuildBasicStates()
      requires numStates == 0 && states.Length == MAPLE_NUM_STATES
      modifies this, states
      ensures numStates == MAPLE_NUM_STATES && setBits == old(setBits)
      ensures Built(states[..])
    {
      var prev := StartSequence();

      // Data bytes
      var possibleEnd := 0;
      var option := prev;
      var startByte := numStates;
      for i := 0 to 4
        invariant numStates == 11 + 6 * i && setBits == old(setBits) && startByte == 11
        invariant option == (if i == 0 then 10 else 9 + 6 * i)
        invariant prev == (if i == 0 then 10 else 10 + 6 * i)
        invariant i > 0 ==> possibleEnd == 12
        invariant BuiltUpTo(states[..], numStates, i == 4, false)
      {
        option, prev := DataBit(2 * i, option, prev, 1, STATUS_PUSHBIT0 + i * 2);
        if i == 0 {
          possibleEnd := option;
        }
        option, prev := DataBit(2 * i + 1, option, prev, 2, STATUS_PUSHBIT1 + i * 2);
        if i == 3 {
          // Loop back for the next byte
          ghost var g := states[..];
          states[option] := states[option].(next := states[option].next[1 := startByte]);
          states[prev] := states[prev].(next := states[prev].next[1 := startByte]);
          LoopBackStep(g, states[..]);
        }
      }

      EndSequence(possibleEnd);
    }

    /** The start sequence of `BuildBasicStates`: idle, then 0b10 and 0b00 alternating, then 0b11 with START. */
    method StartSequence() returns (prev: int)
      requires numStates == 0 && states.Length == MAPLE_NUM_STATES
      modifies this, states
      ensures prev == 10 && numStates == 11 && setBits == old(setBits)
      ensures BuiltUpTo(states[..], 11, false, false)
    {
      prev := NewState(3);
      ghost var g0 := states[..];
      prev := Expect(prev, prev, 2, STATUS_NONE);
      ghost var g1 := states[..];
      prev := Expect(prev, prev, 0, STATUS_NONE);
      ghost var g2 := states[..];
      prev := Expect(prev, prev, 2, STATUS_NONE);
      ghost var g3 := states[..];
      prev := Expect(prev, prev, 0, STATUS_NONE);
      ghost var g4 := states[..];
      prev := Expect(prev, prev, 2, STATUS_NONE);
      ghost var g5 := states[..];
      StartHeadGrows(g0, g1, g2, g3, g4, g5);
      prev := StartSequenceTail(prev);
    }

    /** The start sequence from state 6 on, after the first five transitions. */
    method StartSequenceTail(prev5: int) returns (prev: int)
      requires prev5 == 5 && numStates == 6 && states.Length == MAPLE_NUM_STATES
      requires BuiltUpTo(states[..], 6, false, false)
      modifies this, states
      ensures prev == 10 && numStates == 11 && setBits == old(setBits)
      ensures BuiltUpTo(states[..], 11, false, false)
    {
      prev := prev5;
      ghost var g5 := states[..];
      prev := Expect(prev, prev, 0, STATUS_NONE);
      ghost var g6 := states[..];
      prev := Expect(prev, prev, 2, STATUS_NONE);
      ghost var g7 := states[..];
      prev := Expect(prev, prev, 0, STATUS_NONE);
      ghost var g8 := states[..];
      prev := Expect(prev, prev, 2, STATUS_NONE);
      ghost var g9 := states[..];
      prev := Expect(prev, prev, 3, STATUS_START);
      StartTailGrows(g5, g6, g7, g8, g9, states[..]);
    }

    /** The end sequence of `BuildBasicStates`: 0b01 and 0b00 alternating from state 12, END on the third, then back to idle. */
    method EndSequence(possibleEnd: int)
      requires possibleEnd == 12 && numStates == 35 && states.Length == MAPLE_NUM_STATES
      requires BuiltUpTo(states[..], 35, true, false)
      modifies this, states
      ensures numStates == MAPLE_NUM_STATES && setBits == old(setBits)
      ensures Built(states[..])
    {
      ghost var g0 := states[..];
      var prev := Expect(possibleEnd, possibleEnd, 1, STATUS_NONE);
      ghost var g1 := states[..];
      prev := Expect(prev, prev, 0, STATUS_NONE);
      ghost var g2 := states[..];
      // END is signalled four transitions before the real end: the PIO pushes a byte at a time
      prev := Expect(prev, prev, 1, STATUS_END);
      ghost var g3 := states[..];
      prev := Expect(prev, prev, 0, STATUS_NONE);
      ghost var g4 := states[..];
      prev := Expect(prev, prev, 1, STATUS_NONE);
      EndGrows(g0, g1, g2, g3, g4, states[..]);
      ghost var g := states[..];
      states[prev] := states[prev].(next := states[prev].next[3 := 0]);
      IdleBackStep(g, states[..]);
      StagedComplete(states[..]);
    }

    /**
     * One data bit `h` inside the loop of `BuildBasicStates`: an entry state
     * both `option` and `prev` lead to, then a state for a 1 and one for a 0.
     */
    method DataBit(ghost h: int, option: int, prev: int, entry: int, pushBit: int)
      returns (option': int, prev': int)
      requires 0 <= h < 8 && numStates == 11 + 3 * h && states.Length == MAPLE_NUM_STATES
      requires entry == BitEntry(h) && pushBit == STATUS_PUSHBIT0 + h
      requires (option, prev) == (if h == 0 then (10, 10) else (9 + 3 * h, 10 + 3 * h))
      requires BuiltUpTo(states[..], numStates, false, false)
      modifies this, states
      ensures numStates == old(numStates) + 3 && setBits == old(setBits)
      ensures option' == 12 + 3 * h && prev' == 13 + 3 * h
      ensures BuiltUpTo(states[..], numStates, false, false)
    {
      ghost var g0 := states[..];
      var p := Expect(option, prev, entry, STATUS_NONE);
      ghost var g1 := states[..];
      option' := Expect(p, p, 3, pushBit + STATUS_BITSET);
      ghost var g2 := states[..];
      prev' := Expect(p, p, 0, pushBit);
      DataBitGrows(h, option, prev, g0, g1, g2, states[..]);
    }

    /** `FindOrAddSetBits`: the index of the pair, appended when it is new. */
    method FindOrAddSetBits(current: bv8, next: bv8) returns (idx: int)
      modifies this
      ensures numStates == old(numStates)
      ensures 0 <= idx < |setBits| && setBits[idx] == (current, next)
      ensures (current, next) in old(setBits) ==> setBits == old(setBits)
      ensures (current, next) !in old(setBits) ==> setBits == old(setBits) + [(current, next)]
      ensures Distinct(old(setBits)) ==> Distinct(setBits)
    {
      for i := 0 to |setBits|
        invariant forall j :: 0 <= j < i ==> setBits[j] != (current, next)
      {
        if setBits[i] == (current, next) {
          return i;
        }
      }
      idx := |setBits|;
      setBits := setBits + [(current, next)];
    }

    /** The inner loop of the table builder: four transitions of `byte` from `start`. */
    method ScanByte(start: int, byte: int) returns (sc: Scan)
      requires Graph(states[..]) && 0 <= start < states.Length && 0 <= byte < 256
      ensures sc == Run(states[..], start, byte)
    {
      ghost var g := states[..];
      ghost var goal := Run(g, start, byte);
      sc := Init(start);
      var transitions := byte;
      for i := 0 to 4
        invariant 0 <= sc.state < states.Length && transitions >= 0
        invariant Walk(g, sc, transitions, 4 - i) == goal
      {
        ghost var before := sc;
        sc := Transition(sc, (transitions / 64) % 4);
        assert Walk(g, before, transitions, 4 - i) == Walk(g, sc, transitions * 4, 3 - i);
        transitions := transitions * 4;
      }
    }

    /** One pass of the inner loop: follow transition `t` and act on the state entered. */
    method Transition(sc: Scan, t: int) returns (r: Scan)
      requires Graph(states[..]) && 0 <= sc.state < states.Length && 0 <= t < 4
      ensures r == Step(states[..], sc, t)
    {
      var lastState := sc.state;
      var st := states[sc.state].next[t];
      var error := sc.error;
      if st < 0 {
        error := true;
        st := 0;
      }
      r := sc.(state := st, error := error);
      if st != lastState {
        r := Accumulate(r, states[st].status);
      }
    }

    /** The body of `if (State != LastState)`: the data bit and the flags of the state entered. */
    static method Accumulate(sc: Scan, status: int) returns (r: Scan)
      requires -0x80 <= status < 0x100
      ensures r == Enter(sc, status)
    {
      var d0, d1 := sc.d0, sc.d1;
      var reset, end, push, second := sc.reset, sc.end, sc.push, sc.second;
      if CarriesBit(status) {
        if second {
          d1 := d1 | BitOf(Base(status));
        } else {
          d0 := d0 | BitOf(Base(status));
        }
      }
      var base := Base(status);
      if base == STATUS_START {
        reset := true;
      } else if base == STATUS_END {
        end := true;
      } else if base == STATUS_PUSHBIT7 {
        push, second := true, true;
      }
      r := Scan(sc.state, second, d0, d1, push, sc.error, reset, end);
    }

    /** One pass of the inner loop: the entry for `byte` in state `start`. */
    method FillEntry(ghost g: seq<SimpleState>, start: int, byte: int)
      requires states[..] == g && Graph(g) && 0 <= start < |g| && 0 <= byte < 256
      requires machine.Length0 == |g| && machine.Length1 == 256
      requires Filled(g, setBits, machine, start, byte)
      modifies this, machine
      ensures Distinct(old(setBits)) ==> Distinct(setBits)
      ensures Filled(g, setBits, machine, start, byte + 1)
    {
      var sc := ScanByte(start, byte);
      ghost var before := setBits;
      var idx := FindOrAddSetBits(sc.d0, sc.d1);
      KeptEntries(g, before, setBits, start, byte, machine);
      var entry := MachineEntry(sc.state, sc.push, sc.error, sc.reset, sc.end, idx);
      assert EntryFor(g, setBits, start, byte, entry);
      label Unset:
      machine[start, byte] := entry;
      forall s', b' | 0 <= s' < |g| && 0 <= b' < 256 && Before(s', b', start, byte + 1)
        ensures EntryFor(g, setBits, s', b', machine[s', b'])
      {
        if s' == start && b' == byte {
          assert machine[s', b'] == entry;
        } else {
          assert Before(s', b', start, byte) && machine[s', b'] == old@Unset(machine[s', b']);
        }
      }
    }

    /** `maple_build_state_machine_tables`: the graph, then an entry for every state and byte. */
    method BuildTables()
      requires numStates == 0 && setBits == [] && states.Length == MAPLE_NUM_STATES
      requires machine.Length0 == MAPLE_NUM_STATES && machine.Length1 == 256
      modifies this, states, machine
      ensures Built(states[..]) && Graph(states[..]) && Distinct(setBits)
      ensures forall s, b :: 0 <= s < MAPLE_NUM_STATES && 0 <= b < 256 ==>
        EntryFor(states[..], setBits, s, b, machine[s, b])
    {
      BuildBasicStates();
      BuiltIsGraph(states[..]);
      ghost var g := states[..];
      for s := 0 to MAPLE_NUM_STATES
        modifies this, machine
        invariant states[..] == g && Distinct(setBits)
        invariant Filled(g, setBits, machine, s, 0)
      {
        for b := 0 to 256
          modifies this, machine
          invariant states[..] == g && Distinct(setBits)
          invariant Filled(g, setBits, machine, s, b)
        {
          FillEntry(g, s, b);
        }
      }
    }
  }

  /** Cell (s', b') comes before cell (s, b) in the order the table is filled. */
  predicate Before(s': int, b': int, s: int, b: int)
  {
    s' < s || (s' == s && b' < b)
  }

  /** Every entry before cell (s, b) is filled in. */
  predicate Filled(g: seq<SimpleState>, bits: seq<(bv8, bv8)>, machine: array2<MachineEntry>, s: int, b: int)
    requires Graph(g) && machine.Length0 == |g| && machine.Length1 == 256
    reads machine
  {
    forall s', b' :: 0 <= s' < |g| && 0 <= b' < 256 && Before(s', b', s, b) ==>
      EntryFor(g, bits, s', b', machine[s', b'])
  }

  /** Entries made before a pair is looked up keep naming the same pair. */
  lemma KeptEntries(g: seq<SimpleState>, before: seq<(bv8, bv8)>, after: seq<(bv8, bv8)>,
                    s: int, b: int, machine: array2<MachineEntry>)
    requires Graph(g) && machine.Length0 == |g| && machine.Length1 == 256
    requires after == before || (|after| == |before| + 1 && after[..|before|] == before)
    requires Filled(g, before, machine, s, b)
    ensures Filled(g, after, machine, s, b)
  {
    forall s', b' | 0 <= s' < |g| && 0 <= b' < 256 && Before(s', b', s, b)
      ensures EntryFor(g, after, s', b', machine[s', b'])
    {
      assert EntryFor(g, before, s', b', machine[s', b']);
      var e := machine[s', b'];
      assert after[e.setBitsIndex] == before[e.setBitsIndex];
    }
  }
}

=== FILE: ms_sidewinder.dfy ===
// What the two SideWinder drivers share: the little-endian bit layout of
// their reports, the 10-bit and 4-bit sign extension, and the scaling of a
// signed axis to the 1..255 range the router expects.

module MsSidewinder {
  import opened Common

  /** The report bytes as one little-endian number: bit k of the report is bit k of `Word`. */
  function Word(d: seq<byte>): (w: nat)
    ensures w < Pow2(8 * |d|)
  {
    if |d| == 0 then 0
    else
      Pow2Split(8, 8 * (|d| - 1));
      d[0] + 0x100 * Word(d[1..])
  }

  /** Bits `off`..`off + width - 1` of the report, numbered from bit 0 of byte 0. */
  function Field(d: seq<byte>, off: nat, width: nat): nat {
    (Word(d) / Pow2(off)) % Pow2(width)
  }

  lemma {:induction false} Pow2Split(a: nat, b: nat)
    ensures Pow2(a + b) == Pow2(a) * Pow2(b)
  {
    if a > 0 {
      Pow2Split(a - 1, b);
    }
  }

  /**
   * `sign_extend_10`: a 10-bit field read as two's complement, so bit 9
   * makes it negative; `val | 0xFC00` is `val + 0xFC00`, the bits being
   * disjoint.
   */
  function SignExtend10(val: int): (r: int)
    requires 0 <= val < 0x400
    ensures -0x200 <= r < 0x200
    ensures r < 0 <==> (val / 0x200) % 2 == 1
    ensures (r + 0x400) % 0x400 == val
  {
    if (val / 0x200) % 2 == 1 then ToInt16(val + 0xFC00) else val
  }

  /** `sign_extend_4`: a 4-bit field read as two's complement, bit 3 being the sign. */
  function SignExtend4(val: int): (r: int)
    requires 0 <= val < 0x10
    ensures -8 <= r < 8
    ensures r < 0 <==> (val / 8) % 2 == 1
    ensures (r + 0x10) % 0x10 == val
  {
    if (val / 8) % 2 == 1 then ToInt8(val + 0xF0) else val
  }

  /** A zero output is read as "no data", so it is raised to 1. */
  function NonZero(v: byte): (r: byte)
    ensures r != 0 && (v != 0 ==> r == v)
  {
    if v == 0 then 1 else v
  }

  /** A signed 10-bit axis, moved to 0..1023 and scaled by 255/1023, never 0. */
  function Scale10(axis: int): (r: byte)
    requires -0x200 <= axis < 0x200
    ensures 1 <= r <= 255
  {
    NonZero((axis + 512) * 255 / 1023)
  }

  /** The scale keeps order, and it spans 1..255. */
  lemma Scale10Monotone(a: int, b: int)
    requires -0x200 <= a <= b < 0x200
    ensures Scale10(a) <= Scale10(b)
    ensures Scale10(-0x200) == 1 && Scale10(0x1FF) == 255
  {
    assert (a + 512) * 255 <= (b + 512) * 255;
  }

  /** The resting tilt scales to 127, one below the 128 the drivers' comments announce. */
  lemma Scale10Centre()
    ensures Scale10(0) == 127 && Scale10(2) == 128
  {
  }

  /** Bits 0-9: byte 0 and the low two bits of byte 1. */
  function RawX(d: seq<byte>): (v: nat)
    requires |d| >= 2
    ensures v < 0x400
  {
    d[0] as int + (d[1] as int % 4) * 0x100
  }

  /** Bits 10-19: the top six bits of byte 1 and the low nibble of byte 2. */
  function RawY(d: seq<byte>): (v: nat)
    requires |d| >= 3
    ensures v < 0x400
  {
    (d[1] / 4) % 0x40 + (d[2] as int % 0x10) * 0x40
  }

  /** The first three bytes' share of `Word`, with the rest a multiple of 2^24. */
  lemma {:induction false} WordSplit3(d: seq<byte>)
    requires |d| >= 3
    ensures Word(d) == d[0] + 0x100 * d[1] + 0x1_0000 * d[2] + 0x100_0000 * Word(d[3..])
  {
    assert d[1..][1..] == d[2..];
    assert d[2..][1..] == d[3..];
    assert Word(d[2..]) == d[2] + 0x100 * Word(d[3..]);
    assert Word(d[1..]) == d[1] + 0x100 * Word(d[2..]);
  }

  /** What lies above bit 10. */
  function Above10(d: seq<byte>): nat
    requires |d| >= 3
  {
    (d[1] / 4) as int + 0x40 * (d[2] as int) + 0x4000 * Word(d[3..])
  }

  lemma {:induction false} SplitAt10(d: seq<byte>)
    requires |d| >= 3
    ensures Word(d) == RawX(d) + 0x400 * Above10(d)
    ensures Above10(d) == RawY(d) + 0x400 * (d[2] / 0x10 + 0x10 * Word(d[3..]))
  {
    WordSplit3(d);
    assert d[1] == (d[1] / 4) * 4 + d[1] % 4;
    assert d[2] == (d[2] / 0x10) * 0x10 + d[2] % 0x10;
  }

  lemma Pow2Ten()
    ensures Pow2(0) == 1 && Pow2(10) == 0x400
  {
    Pow2Values();
  }

  /** The X and Y fields sit at bits 0 and 10 of the report. */
  lemma {:induction false} AxesAtOffsets(d: seq<byte>)
    requires |d| >= 3
    ensures RawX(d) == Field(d, 0, 10)
    ensures RawY(d) == Field(d, 10, 10)
  {
    Pow2Ten();
    var w, q, x, y := Word(d), Above10(d), RawX(d), RawY(d);
    var top := d[2] / 0x10 + 0x10 * Word(d[3..]);
    assert w == x + 0x400 * q && q == y + 0x400 * top by { SplitAt10(d); }
    assert 0 <= x < 0x400 && 0 <= y < 0x400;
    assert w / 0x400 == q && w % 0x400 == x;
    assert q % 0x400 == y;
    assert Field(d, 0, 10) == (w / 1) % 0x400 == x;
  }
}

=== FILE: ms_sidewinder_commander.dfy ===
// The SideWinder Strategic Commander: three 10-bit tilt/twist axes, twelve
// buttons and a three-position toggle packed into six bytes; the toggle picks
// how the axes are reported, and buttons 1-6 and 12 light their LEDs, which
// a separate task sends only when they change.

module MsSidewinderCommander {
  import opened Common
  import opened MsSidewinder

  const COMMANDER_REPORT_SIZE: nat := 6
  const COMMANDER_DPAD_THRESHOLD: int := 128
  const COMMANDER_LED_REPORT_ID: bv8 := 0x01
  const COMMANDER_BUTTON_COUNT: nat := 12

  // ---------------------------------------------------------------------------
  // Fields of the six data bytes
  // ---------------------------------------------------------------------------

  /** Bits 20-29: the top nibble of byte 2 and the low six bits of byte 3. */
  function RawRz(d: seq<byte>): (v: nat)
    requires |d| >= COMMANDER_REPORT_SIZE
    ensures v < 0x400
  {
    (d[2] / 0x10) % 0x10 + (d[3] as int % 0x40) * 0x10
  }

  /** Bits 32-43: byte 4 and the low nibble of byte 5. */
  function RawButtons(d: seq<byte>): (v: nat)
    requires |d| >= COMMANDER_REPORT_SIZE
    ensures v < 0x1000
  {
    d[4] as int + (d[5] as int % 0x10) * 0x100
  }

  /** Bits 44-45: the toggle position, 1 to 3. */
  function Toggle(d: seq<byte>): (v: nat)
    requires |d| >= COMMANDER_REPORT_SIZE
    ensures v < 4
  {
    (d[5] / 0x10) % 4
  }

  /** The six bytes' share of `Word`, the rest being a multiple of 2^48. */
  lemma {:induction false} WordSplit6(d: seq<byte>)
    requires |d| >= COMMANDER_REPORT_SIZE
    ensures Word(d) == d[0] + 0x100 * d[1] + 0x1_0000 * d[2] + 0x100_0000 * d[3] +
      0x1_0000_0000 * d[4] + 0x100_0000_0000 * d[5] + 0x1_0000_0000_0000 * Word(d[6..])
  {
    WordSplit3(d);
    WordSplit3(d[3..]);
    assert d[3..][3..] == d[6..];
  }

  lemma Pow2Offsets()
    ensures Pow2(2) == 4 && Pow2(10) == 0x400 && Pow2(12) == 0x1000
    ensures Pow2(20) == 0x10_0000 && Pow2(32) == 0x1_0000_0000 && Pow2(44) == 0x1000_0000_0000
  {
    Pow2Values();
    assert Pow2(10) == 0x400 && Pow2(12) == 0x1000;
    Pow2Split(10, 10);
    Pow2Split(16, 16);
    Pow2Split(32, 12);
  }

  /** What lies above bit 20. */
  lemma {:induction false} SplitAt20(d: seq<byte>)
    requires |d| >= COMMANDER_REPORT_SIZE
    ensures Word(d) / 0x10_0000 ==
      RawRz(d) + 0x400 * (d[3] / 0x40 + 4 * d[4] + 0x400 * d[5] + 0x4_0000 * Word(d[6..]))
  {
    WordSplit6(d);
    var w, rest := Word(d), Word(d[6..]);
    var d0: int, d1: int, d2: int, d3: int, d4: int, d5: int := d[0], d[1], d[2], d[3], d[4], d[5];
    var above := d2 / 0x10 + 0x10 * d3 + 0x1000 * d4 + 0x10_0000 * d5 + 0x1000_0000 * rest;
    assert d2 == (d2 / 0x10) * 0x10 + d2 % 0x10;
    assert d3 == (d3 / 0x40) * 0x40 + d3 % 0x40;
    assert above == RawRz(d) + 0x400 * (d3 / 0x40 + 4 * d4 + 0x400 * d5 + 0x4_0000 * rest);
    assert 0 <= d0 + 0x100 * d1 + 0x1_0000 * (d2 % 0x10) < 0x10_0000;
    assert w == (d0 + 0x100 * d1 + 0x1_0000 * (d2 % 0x10)) + 0x10_0000 * above;
  }

  /** The twist axis sits at bit 20. */
  lemma {:induction false} RzAtOffset(d: seq<byte>)
    requires |d| >= COMMANDER_REPORT_SIZE
    ensures RawRz(d) == Field(d, 20, 10)
  {
    Pow2Offsets();
    SplitAt20(d);
  }

  /** What lies above bit 32, and above bit 44. */
  lemma {:induction false} SplitAt32(d: seq<byte>)
    requires |d| >= COMMANDER_REPORT_SIZE
    ensures var top := d[5] / 0x10 + 0x10 * Word(d[6..]);
      && Word(d) / 0x1_0000_0000 == RawButtons(d) + 0x1000 * top
      && Word(d) / 0x1000_0000_0000 == top
  {
    WordSplit6(d);
    var w, rest := Word(d), Word(d[6..]);
    var d0: int, d1: int, d2: int, d3: int, d4: int, d5: int := d[0], d[1], d[2], d[3], d[4], d[5];
    var low := d0 + 0x100 * d1 + 0x1_0000 * d2 + 0x100_0000 * d3;
    assert 0 <= low < 0x1_0000_0000;
    assert d5 == (d5 / 0x10) * 0x10 + d5 % 0x10;
    var top := d5 / 0x10 + 0x10 * rest;
    assert w == low + 0x1_0000_0000 * (RawButtons(d) + 0x1000 * top);
    assert w == (low + 0x1_0000_0000 * RawButtons(d)) + 0x1000_0000_0000 * top;
  }

  /** The buttons sit at bit 32 ... */
  lemma {:induction false} ButtonsAtOffset(d: seq<byte>)
    requires |d| >= COMMANDER_REPORT_SIZE
    ensures RawButtons(d) == Field(d, 32, 12)
  {
    Pow2Offsets();
    SplitAt32(d);
  }

  /** ... and the toggle at bit 44. */
  lemma {:induction false} ToggleAtOffset(d: seq<byte>)
    requires |d| >= COMMANDER_REPORT_SIZE
    ensures Toggle(d) == Field(d, 44, 2)
  {
    Pow2Offsets();
    SplitAt32(d);
    var rest: int := Word(d[6..]);
    var t: int := d[5] / 0x10;
    assert t == (t / 4) * 4 + t % 4;
    assert t + 0x10 * rest == t % 4 + 4 * (t / 4 + 4 * rest);
  }

  // ---------------------------------------------------------------------------
  // Buttons and LEDs
  // ---------------------------------------------------------------------------

  /** Buttons 1-6 press L1, B3, B4, L2, B1, B2. */
  function LowButtons(btns: bv16): (b: Buttons)
    ensures Pressed(b, JP_L1) <==> btns & 0x001 != 0
    ensures Pressed(b, JP_B3) <==> btns & 0x002 != 0
    ensures Pressed(b, JP_B4) <==> btns & 0x004 != 0
    ensures Pressed(b, JP_L2) <==> btns & 0x008 != 0
    ensures Pressed(b, JP_B1) <==> btns & 0x010 != 0
    ensures Pressed(b, JP_B2) <==> btns & 0x020 != 0
    ensures b & !(JP_L1 | JP_B3 | JP_B4 | JP_L2 | JP_B1 | JP_B2) == 0
  {
    (if btns & 0x001 != 0 then JP_L1 else 0) |
    (if btns & 0x002 != 0 then JP_B3 else 0) |
    (if btns & 0x004 != 0 then JP_B4 else 0) |
    (if btns & 0x008 != 0 then JP_L2 else 0) |
    (if btns & 0x010 != 0 then JP_B1 else 0) |
    (if btns & 0x020 != 0 then JP_B2 else 0)
  }

  /** Buttons 7-12 press R1, R2, S1, S2, A1, A2. */
  function HighButtons(btns: bv16): (b: Buttons)
    ensures Pressed(b, JP_R1) <==> btns & 0x040 != 0
    ensures Pressed(b, JP_R2) <==> btns & 0x080 != 0
    ensures Pressed(b, JP_S1) <==> btns & 0x100 != 0
    ensures Pressed(b, JP_S2) <==> btns & 0x200 != 0
    ensures Pressed(b, JP_A1) <==> btns & 0x400 != 0
    ensures Pressed(b, JP_A2) <==> btns & 0x800 != 0
    ensures b & !(JP_R1 | JP_R2 | JP_S1 | JP_S2 | JP_A1 | JP_A2) == 0
  {
    (if btns & 0x040 != 0 then JP_R1 else 0) |
    (if btns & 0x080 != 0 then JP_R2 else 0) |
    (if btns & 0x100 != 0 then JP_S1 else 0) |
    (if btns & 0x200 != 0 then JP_S2 else 0) |
    (if btns & 0x400 != 0 then JP_A1 else 0) |
    (if btns & 0x800 != 0 then JP_A2 else 0)
  }

  const LOW_MASK: Buttons := JP_L1 | JP_B3 | JP_B4 | JP_L2 | JP_B1 | JP_B2
  const HIGH_MASK: Buttons := JP_R1 | JP_R2 | JP_S1 | JP_S2 | JP_A1 | JP_A2

  /** The twelve buttons: two groups on disjoint bits, and nothing else. */
  function MapButtons(btns: bv16): (b: Buttons)
    ensures b & LOW_MASK == LowButtons(btns)
    ensures b & HIGH_MASK == HighButtons(btns)
    ensures b & !(LOW_MASK | HIGH_MASK) == 0
  {
    LowButtons(btns) | HighButtons(btns)
  }

  /**
   * The desired LED bytes: two bits per LED, of which only the low one is
   * used; buttons 1-4 light LEDs 1-4 (byte 0), buttons 5, 6 and 12 light
   * LEDs 5-7 (byte 1).
   */
  function Leds(btns: bv16): (leds: (bv8, bv8))
    ensures leds.0 & 0x01 != 0 <==> btns & 0x001 != 0
    ensures leds.0 & 0x04 != 0 <==> btns & 0x002 != 0
    ensures leds.0 & 0x10 != 0 <==> btns & 0x004 != 0
    ensures leds.0 & 0x40 != 0 <==> btns & 0x008 != 0
    ensures leds.1 & 0x01 != 0 <==> btns & 0x010 != 0
    ensures leds.1 & 0x04 != 0 <==> btns & 0x020 != 0
    ensures leds.1 & 0x10 != 0 <==> btns & 0x800 != 0
    ensures leds.0 & 0xAA == 0 && leds.1 & 0xEA == 0
  {
    var led0: bv8 :=
      (if btns & 0x001 != 0 then 0x01 else 0) |
      (if btns & 0x002 != 0 then 0x04 else 0) |
      (if btns & 0x004 != 0 then 0x10 else 0) |
      (if btns & 0x008 != 0 then 0x40 else 0);
    var led1: bv8 :=
      (if btns & 0x010 != 0 then 0x01 else 0) |
      (if btns & 0x020 != 0 then 0x04 else 0) |
      (if btns & 0x800 != 0 then 0x10 else 0);
    (led0, led1)
  }

  /** The LED bytes a report asks for. */
  function DesiredLeds(d: seq<byte>): (bv8, bv8)
    requires |d| >= COMMANDER_REPORT_SIZE
  {
    Leds(RawButtons(d) as bv16)
  }

  /** In d-pad mode, a tilt past ±128 presses that direction. */
  function TiltDpad(x: int, y: int): (b: Buttons)
    ensures Pressed(b, JP_DL) <==> x < -COMMANDER_DPAD_THRESHOLD
    ensures Pressed(b, JP_DR) <==> x > COMMANDER_DPAD_THRESHOLD
    ensures Pressed(b, JP_DU) <==> y < -COMMANDER_DPAD_THRESHOLD
    ensures Pressed(b, JP_DD) <==> y > COMMANDER_DPAD_THRESHOLD
    ensures b & !(JP_DU | JP_DD | JP_DL | JP_DR) == 0
  {
    (if x < -COMMANDER_DPAD_THRESHOLD then JP_DL else 0) |
    (if x > COMMANDER_DPAD_THRESHOLD then JP_DR else 0) |
    (if y < -COMMANDER_DPAD_THRESHOLD then JP_DU else 0) |
    (if y > COMMANDER_DPAD_THRESHOLD then JP_DD else 0)
  }

  // ---------------------------------------------------------------------------
  // The event
  // ---------------------------------------------------------------------------

  /** The four stick bytes LX, LY, RX, RY for a toggle position. */
  function Sticks(toggle: nat, sx: byte, sy: byte, srz: byte): (a: seq<byte>)
    ensures |a| == 4
  {
    if toggle == 2 then [128, 128, 128, 128]
    else if toggle == 3 then [srz, 128, sx, sy]
    else [sx, sy, srz, 128]
  }

  /**
   * The event for six data bytes: toggle 2 reports the tilt on the d-pad,
   * toggle 3 on the right stick, any other position on the left stick.
   */
  function EventOf(devAddr: byte, instance: byte, d: seq<byte>): (e: GamepadEvent)
    requires |d| >= COMMANDER_REPORT_SIZE
    ensures e.devAddr == devAddr && e.instance == instance && |e.analog| == 6
    ensures e.analog[4] == 0 && e.analog[5] == 0
    ensures forall i :: 0 <= i < 4 ==> 1 <= e.analog[i]
  {
    var x, y, rz := SignExtend10(RawX(d)), SignExtend10(RawY(d)), SignExtend10(RawRz(d));
    GamepadEvent(devAddr, instance, EventButtonsOf(d), Sticks(Toggle(d), Scale10(x), Scale10(y), Scale10(rz)) + [0, 0])
  }

  /** The event's buttons: the twelve mapped buttons, and the tilt as a d-pad in toggle position 2. */
  function ButtonsFor(btns: bv16, toggle: nat, x: int, y: int): (b: Buttons)
    ensures b & (LOW_MASK | HIGH_MASK) == MapButtons(btns)
    ensures toggle == 2 ==> b & (JP_DU | JP_DD | JP_DL | JP_DR) == TiltDpad(x, y)
    ensures toggle != 2 ==> b & (JP_DU | JP_DD | JP_DL | JP_DR) == 0
  {
    var t := if toggle == 2 then TiltDpad(x, y) else 0;
    DisjointGroups(MapButtons(btns), t);
    MapButtons(btns) | t
  }

  function EventButtonsOf(d: seq<byte>): Buttons
    requires |d| >= COMMANDER_REPORT_SIZE
  {
    ButtonsFor(RawButtons(d) as bv16, Toggle(d), SignExtend10(RawX(d)), SignExtend10(RawY(d)))
  }

  lemma DisjointGroups(b: Buttons, t: Buttons)
    requires b & !(LOW_MASK | HIGH_MASK) == 0 && t & !(JP_DU | JP_DD | JP_DL | JP_DR) == 0
    ensures (b | t) & (LOW_MASK | HIGH_MASK) == b
    ensures (b | t) & (JP_DU | JP_DD | JP_DL | JP_DR) == t
  {
  }

  /** Toggle 2: every stick centred, and the tilt read as a d-pad. */
  lemma DpadMode(devAddr: byte, instance: byte, d: seq<byte>)
    requires |d| >= COMMANDER_REPORT_SIZE && Toggle(d) == 2
    ensures var e := EventOf(devAddr, instance, d);
      && e.analog[..4] == [128, 128, 128, 128]
      && e.buttons & (JP_DU | JP_DD | JP_DL | JP_DR) == TiltDpad(SignExtend10(RawX(d)), SignExtend10(RawY(d)))
  {
    var e := EventOf(devAddr, instance, d);
    assert e.analog[..4] == Sticks(2, 0, 0, 0);
  }

  /**
   * Toggles 1 and 3 swap the sticks: for the same tilt and twist, the left
   * stick of one is the right stick of the other, with the unused Y centred.
   */
  lemma StickModesSwap(devAddr: byte, instance: byte, d1: seq<byte>, d3: seq<byte>)
    requires |d1| >= COMMANDER_REPORT_SIZE && |d3| >= COMMANDER_REPORT_SIZE
    requires RawX(d1) == RawX(d3) && RawY(d1) == RawY(d3) && RawRz(d1) == RawRz(d3)
    requires Toggle(d1) == 1 && Toggle(d3) == 3
    ensures var e1, e3 := EventOf(devAddr, instance, d1), EventOf(devAddr, instance, d3);
      && e3.analog[2] == e1.analog[0] && e3.analog[3] == e1.analog[1]
      && e3.analog[0] == e1.analog[2]
      && e1.analog[3] == 128 && e3.analog[1] == 128
  {
  }

  // ---------------------------------------------------------------------------
  // Per-device state
  // ---------------------------------------------------------------------------

  /** `prev_report`, `desired_leds` and `sent_leds` of one (address, instance). */
  datatype Slot = Slot(prev: seq<byte>, desired: (bv8, bv8), sent: (bv8, bv8))

  /** The zero-initialised statics. */
  const ZERO_SLOT := Slot([0, 0, 0, 0, 0, 0], (0, 0), (0, 0))

  /** The driver's tables, indexed by device address and HID instance. */
  class CommanderHost {
    var slots: map<(byte, byte), Slot>

    function SlotAt(devAddr: byte, instance: byte): Slot
      reads this
    {
      if (devAddr, instance) in slots then slots[(devAddr, instance)] else ZERO_SLOT
    }

    constructor ()
      ensures slots == map[]
    {
      slots := map[];
    }

    /**
     * `init_ms_sidewinder_commander`: the stored report and desired LEDs
     * are zeroed and the sent LEDs set to 0xFF, so the first task sends.
     */
    method Init(devAddr: byte, instance: byte) returns (ok: bool)
      modifies this
      ensures ok
      ensures slots == old(slots)[(devAddr, instance) := Slot([0, 0, 0, 0, 0, 0], (0, 0), (0xFF, 0xFF))]
    {
      slots := slots[(devAddr, instance) := Slot([0, 0, 0, 0, 0, 0], (0, 0), (0xFF, 0xFF))];
      return true;
    }

    /** `unmount_ms_sidewinder_commander`: the LEDs are reset; the stored report stays. */
    method Unmount(devAddr: byte, instance: byte)
      modifies this
      ensures slots == old(slots)[(devAddr, instance) :=
        old(SlotAt(devAddr, instance)).(desired := (0, 0), sent := (0xFF, 0xFF))]
    {
      var s := SlotAt(devAddr, instance);
      slots := slots[(devAddr, instance) := s.(desired := (0, 0), sent := (0xFF, 0xFF))];
    }

    /**
     * `task_ms_sidewinder_commander`: the LED feature report (id 1, then
     * the two desired bytes) goes out only when the desired bytes differ
     * from the ones last sent, which they then become.
     */
    method Task(devAddr: byte, instance: byte) returns (ledReport: Option<seq<bv8>>)
      modifies this
      ensures var s := old(SlotAt(devAddr, instance));
        && (ledReport.Some? <==> s.desired != s.sent)
        && (ledReport.Some? ==> ledReport.value == [COMMANDER_LED_REPORT_ID, s.desired.0, s.desired.1])
        && (ledReport.Some? ==> slots == old(slots)[(devAddr, instance) := s.(sent := s.desired)])
        && (ledReport.None? ==> slots == old(slots))
      ensures SlotAt(devAddr, instance).sent == SlotAt(devAddr, instance).desired
    {
      var s := SlotAt(devAddr, instance);
      if s.desired == s.sent {
        return None;
      }
      ledReport := Some([COMMANDER_LED_REPORT_ID, s.desired.0, s.desired.1]);
      slots := slots[(devAddr, instance) := s.(sent := s.desired)];
    }

    /**
     * `process_ms_sidewinder_commander`: the report id byte is skipped; a
     * report shorter than seven bytes, or whose six data bytes equal the
     * stored ones, is ignored. Otherwise the desired LEDs follow the
     * buttons, the event is built and the data bytes are stored.
     */
    method Process(devAddr: byte, instance: byte, report: seq<byte>) returns (ev: Option<GamepadEvent>)
      modifies this
      ensures |report| < COMMANDER_REPORT_SIZE + 1 ==> ev.None? && slots == old(slots)
      ensures |report| >= COMMANDER_REPORT_SIZE + 1 ==>
        var d := report[1..COMMANDER_REPORT_SIZE + 1];
        var s := old(SlotAt(devAddr, instance));
        && (ev.None? <==> d == s.prev)
        && (ev.None? ==> slots == old(slots))
        && (ev.Some? ==> ev.value == EventOf(devAddr, instance, d))
        && (ev.Some? ==>
            slots == old(slots)[(devAddr, instance) := s.(prev := d, desired := DesiredLeds(d))])
    {
      if |report| < COMMANDER_REPORT_SIZE + 1 {
        return None;
      }
      var d := report[1..COMMANDER_REPORT_SIZE + 1];
      var s := SlotAt(devAddr, instance);
      if d == s.prev {
        return None;
      }
      var leds := DesiredLeds(d);
      ev := Some(EventOf(devAddr, instance, d));
      slots := slots[(devAddr, instance) := s.(prev := d, desired := leds)];
    }
  }

  /** Two task passes in a row send the LEDs at most once. */
  method TaskTwice(h: CommanderHost, devAddr: byte, instance: byte)
      returns (first: Option<seq<bv8>>, second: Option<seq<bv8>>)
    modifies h
    ensures first.Some? <==> old(h.SlotAt(devAddr, instance)).desired != old(h.SlotAt(devAddr, instance)).sent
    ensures second.None?
  {
    first := h.Task(devAddr, instance);
    second := h.Task(devAddr, instance);
  }
}

=== FILE: ms_sidewinder_dualstrike.dfy ===
// The SideWinder Dual Strike: two 10-bit tilt axes, a 4-bit twist sharing
// the top nibble of Y, nine buttons and an eight-way hat packed into five
// bytes. Start with the hat pushed left or right switches the hat between
// the left stick and the d-pad, and that report is swallowed.

module MsSidewinderDualstrike {
  import opened Common
  import opened MsSidewinder

  const DUALSTRIKE_REPORT_SIZE: nat := 5
  const DUALSTRIKE_BUTTON_COUNT: nat := 9

  // ---------------------------------------------------------------------------
  // Fields of the five bytes
  // ---------------------------------------------------------------------------

  /** Bits 16-19: the twist, the low nibble of byte 2. */
  function RawTwist(d: seq<byte>): (v: nat)
    requires |d| >= DUALSTRIKE_REPORT_SIZE
    ensures v < 0x10
  {
    d[2] as int % 0x10
  }

  /** Bits 24-32: byte 3 and bit 0 of byte 4. */
  function RawButtons(d: seq<byte>): (v: nat)
    requires |d| >= DUALSTRIKE_REPORT_SIZE
    ensures v < 0x200
  {
    d[3] as int + (d[4] as int % 2) * 0x100
  }

  /** Bits 36-39: the hat, the top nibble of byte 4. */
  function Hat(d: seq<byte>): (v: nat)
    requires |d| >= DUALSTRIKE_REPORT_SIZE
    ensures v < 0x10
  {
    (d[4] as int / 0x10) % 0x10
  }

  /** The twist is the top four bits of the Y field, which both read. */
  lemma TwistOverlapsY(d: seq<byte>)
    requires |d| >= DUALSTRIKE_REPORT_SIZE
    ensures RawTwist(d) == RawY(d) / 0x40
  {
  }

  /** The five bytes' share of `Word`. */
  lemma {:induction false} WordSplit5(d: seq<byte>)
    requires |d| >= DUALSTRIKE_REPORT_SIZE
    ensures Word(d) == d[0] + 0x100 * d[1] + 0x1_0000 * d[2] +
      0x100_0000 * (d[3] + 0x100 * d[4] + 0x1_0000 * Word(d[5..]))
  {
    WordSplit3(d);
    assert d[3..][1..] == d[4..];
    assert d[4..][1..] == d[5..];
    assert Word(d[4..]) == d[4] + 0x100 * Word(d[5..]);
    assert Word(d[3..]) == d[3] + 0x100 * Word(d[4..]);
  }

  lemma Pow2Offsets()
    ensures Pow2(4) == 0x10 && Pow2(9) == 0x200 && Pow2(16) == 0x1_0000
    ensures Pow2(24) == 0x100_0000 && Pow2(36) == 0x10_0000_0000
  {
    Pow2Values();
    Pow2Split(16, 8);
    Pow2Split(24, 12);
    assert Pow2(12) == 0x1000 by { Pow2Split(8, 4); }
  }

  /** What lies above bit 24. */
  lemma {:induction false} SplitAt24(d: seq<byte>)
    requires |d| >= DUALSTRIKE_REPORT_SIZE
    ensures Word(d) / 0x100_0000 == RawButtons(d) + 0x200 * (d[4] / 2 + 0x80 * Word(d[5..]))
    ensures Word(d) / 0x1_0000 == d[2] + 0x100 * (Word(d) / 0x100_0000)
  {
    WordSplit5(d);
    var d0: int, d1: int, d2: int, d4: int := d[0], d[1], d[2], d[4];
    var high := d[3] + 0x100 * d[4] + 0x1_0000 * Word(d[5..]);
    assert 0 <= d0 + 0x100 * d1 + 0x1_0000 * d2 < 0x100_0000;
    assert d4 == (d4 / 2) * 2 + d4 % 2;
    assert high == RawButtons(d) + 0x200 * (d[4] / 2 + 0x80 * Word(d[5..]));
    assert Word(d) == (d0 + 0x100 * d1) + 0x1_0000 * (d2 + 0x100 * high);
  }

  /** The twist sits at bit 16 ... */
  lemma {:induction false} TwistAtOffset(d: seq<byte>)
    requires |d| >= DUALSTRIKE_REPORT_SIZE
    ensures RawTwist(d) == Field(d, 16, 4)
  {
    Pow2Offsets();
    SplitAt24(d);
    var d2: int := d[2];
    var above := Word(d) / 0x100_0000;
    assert d2 + 0x100 * above == d2 % 0x10 + 0x10 * (d2 / 0x10 + 0x10 * above);
  }

  /** ... the buttons at bit 24 ... */
  lemma {:induction false} ButtonsAtOffset(d: seq<byte>)
    requires |d| >= DUALSTRIKE_REPORT_SIZE
    ensures RawButtons(d) == Field(d, 24, 9)
  {
    Pow2Offsets();
    SplitAt24(d);
  }

  /** ... and the hat at bit 36. */
  lemma {:induction false} HatAtOffset(d: seq<byte>)
    requires |d| >= DUALSTRIKE_REPORT_SIZE
    ensures Hat(d) == Field(d, 36, 4)
  {
    Pow2Offsets();
    WordSplit5(d);
    var d0: int, d1: int, d2: int, d3: int, d4: int := d[0], d[1], d[2], d[3], d[4];
    var rest := Word(d[5..]);
    var low := d0 + 0x100 * d1 + 0x1_0000 * d2 + 0x100_0000 * d3;
    assert 0 <= low < 0x1_0000_0000;
    assert d4 == (d4 / 0x10) * 0x10 + d4 % 0x10;
    var top := d4 / 0x10 + 0x10 * rest;
    assert Word(d) == (low + 0x1_0000_0000 * (d4 % 0x10)) + 0x10_0000_0000 * top;
    assert 0 <= low + 0x1_0000_0000 * (d4 % 0x10) < 0x10_0000_0000;
    assert Word(d) / 0x10_0000_0000 == top;
    assert top % 0x10 == d4 / 0x10;
  }

  // ---------------------------------------------------------------------------
  // The hat
  // ---------------------------------------------------------------------------

  /** Hat values count clockwise from up; 8 and above mean no direction. */
  predicate HatUp(hat: nat) { hat == 0 || hat == 1 || hat == 7 }
  predicate HatRight(hat: nat) { 1 <= hat <= 3 }
  predicate HatDown(hat: nat) { 3 <= hat <= 5 }
  predicate HatLeft(hat: nat) { 5 <= hat <= 7 }

  /** No direction for 8 and above, never two opposite ones, and two exactly at the odd diagonals. */
  lemma HatDirections(hat: nat)
    ensures hat >= 8 ==> !HatUp(hat) && !HatRight(hat) && !HatDown(hat) && !HatLeft(hat)
    ensures !(HatUp(hat) && HatDown(hat)) && !(HatLeft(hat) && HatRight(hat))
    ensures hat < 8 ==> ((HatUp(hat) || HatDown(hat)) != (HatLeft(hat) || HatRight(hat)) <==> hat % 2 == 0)
  {
  }

  /** In d-pad mode the hat presses the d-pad. */
  function HatDpad(hat: nat): (b: Buttons)
    ensures Pressed(b, JP_DU) <==> HatUp(hat)
    ensures Pressed(b, JP_DD) <==> HatDown(hat)
    ensures Pressed(b, JP_DL) <==> HatLeft(hat)
    ensures Pressed(b, JP_DR) <==> HatRight(hat)
    ensures b & !(JP_DU | JP_DD | JP_DL | JP_DR) == 0
  {
    (if HatUp(hat) then JP_DU else 0) |
    (if HatDown(hat) then JP_DD else 0) |
    (if HatLeft(hat) then JP_DL else 0) |
    (if HatRight(hat) then JP_DR else 0)
  }

  /**
   * The left-stick bytes the hat gives: centred in d-pad mode; in analog
   * mode left/right push X to 0/255 and up/down push Y to 0/255.
   */
  function HatStick(analogMode: bool, hat: nat): (xy: (byte, byte))
    ensures !analogMode ==> xy == (128, 128)
    ensures analogMode ==> (xy.0 == 0 <==> HatLeft(hat)) && (xy.0 == 255 <==> HatRight(hat))
    ensures analogMode ==> (xy.1 == 0 <==> HatUp(hat)) && (xy.1 == 255 <==> HatDown(hat))
    ensures xy.0 in {0, 128, 255} && xy.1 in {0, 128, 255}
  {
    if !analogMode then (128, 128)
    else
      var lx := if HatRight(hat) then 255 else if HatLeft(hat) then 0 else 128;
      var ly := if HatDown(hat) then 255 else if HatUp(hat) then 0 else 128;
      (lx, ly)
  }

  // ---------------------------------------------------------------------------
  // Buttons and scaling
  // ---------------------------------------------------------------------------

  /** Buttons 1-4 press B4, B3, B2, B1. */
  function FaceButtons(btns: bv16): (b: Buttons)
    ensures Pressed(b, JP_B4) <==> btns & 0x01 != 0
    ensures Pressed(b, JP_B3) <==> btns & 0x02 != 0
    ensures Pressed(b, JP_B2) <==> btns & 0x04 != 0
    ensures Pressed(b, JP_B1) <==> btns & 0x08 != 0
    ensures b & !(JP_B1 | JP_B2 | JP_B3 | JP_B4) == 0
  {
    (if btns & 0x01 != 0 then JP_B4 else 0) |
    (if btns & 0x02 != 0 then JP_B3 else 0) |
    (if btns & 0x04 != 0 then JP_B2 else 0) |
    (if btns & 0x08 != 0 then JP_B1 else 0)
  }

  /** Buttons 5-8 press L1, R1, L2, R2; button 9 is Start (S2). */
  function ShoulderButtons(btns: bv16): (b: Buttons)
    ensures Pressed(b, JP_L1) <==> btns & 0x10 != 0
    ensures Pressed(b, JP_R1) <==> btns & 0x20 != 0
    ensures Pressed(b, JP_L2) <==> btns & 0x40 != 0
    ensures Pressed(b, JP_R2) <==> btns & 0x80 != 0
    ensures Pressed(b, JP_S2) <==> btns & 0x100 != 0
    ensures b & !(JP_L1 | JP_R1 | JP_L2 | JP_R2 | JP_S2) == 0
  {
    (if btns & 0x10 != 0 then JP_L1 else 0) |
    (if btns & 0x20 != 0 then JP_R1 else 0) |
    (if btns & 0x40 != 0 then JP_L2 else 0) |
    (if btns & 0x80 != 0 then JP_R2 else 0) |
    (if btns & 0x100 != 0 then JP_S2 else 0)
  }

  const FACE_MASK: Buttons := JP_B1 | JP_B2 | JP_B3 | JP_B4
  const SHOULDER_MASK: Buttons := JP_L1 | JP_R1 | JP_L2 | JP_R2 | JP_S2
  const DPAD_MASK: Buttons := JP_DU | JP_DD | JP_DL | JP_DR

  /**
   * The event's buttons: the nine buttons, and the hat as a d-pad unless it
   * drives the left stick; the three groups use disjoint bits and no others.
   */
  function ButtonsFor(btns: bv16, analogMode: bool, hat: nat): (b: Buttons)
    ensures b & FACE_MASK == FaceButtons(btns)
    ensures b & SHOULDER_MASK == ShoulderButtons(btns)
    ensures !analogMode ==> b & DPAD_MASK == HatDpad(hat)
    ensures analogMode ==> b & DPAD_MASK == 0
    ensures b & !(FACE_MASK | SHOULDER_MASK | DPAD_MASK) == 0
  {
    var h := if analogMode then 0 else HatDpad(hat);
    FaceButtons(btns) | ShoulderButtons(btns) | h
  }

  /** The twist, moved to 0..15 and scaled by 255/15, never 0. */
  function Scale4(twist: int): (r: byte)
    requires -8 <= twist < 8
    ensures 1 <= r <= 255
  {
    NonZero((twist + 8) * 255 / 15)
  }

  /** The twist scale keeps order and spans 1..255, with 136 at rest. */
  lemma Scale4Shape(a: int, b: int)
    requires -8 <= a <= b < 8
    ensures Scale4(a) <= Scale4(b)
    ensures Scale4(-8) == 1 && Scale4(0) == 136 && Scale4(7) == 255
  {
    assert (a + 8) * 255 <= (b + 8) * 255;
  }

  // ---------------------------------------------------------------------------
  // Mode commands and the event
  // ---------------------------------------------------------------------------

  predicate StartHeld(d: seq<byte>)
    requires |d| >= DUALSTRIKE_REPORT_SIZE
  {
    RawButtons(d) as bv16 & 0x100 != 0
  }

  /** Start with the hat left asks for analog mode, Start with the hat right for d-pad mode. */
  function ModeCommand(d: seq<byte>): (m: Option<bool>)
    requires |d| >= DUALSTRIKE_REPORT_SIZE
    ensures m == Some(true) <==> StartHeld(d) && HatLeft(Hat(d))
    ensures m == Some(false) <==> StartHeld(d) && HatRight(Hat(d))
  {
    if StartHeld(d) && HatLeft(Hat(d)) then Some(true)
    else if StartHeld(d) && HatRight(Hat(d)) then Some(false)
    else None
  }

  /**
   * The event for five data bytes: the hat stick, the tilt as the right
   * stick, both triggers 0 and the twist as the seventh entry.
   */
  function EventOf(devAddr: byte, instance: byte, d: seq<byte>, analogMode: bool): (e: GamepadEvent)
    requires |d| >= DUALSTRIKE_REPORT_SIZE
    ensures e.devAddr == devAddr && e.instance == instance && |e.analog| == 7
    ensures (e.analog[0], e.analog[1]) == HatStick(analogMode, Hat(d))
    ensures e.analog[2] == Scale10(SignExtend10(RawX(d))) && e.analog[3] == Scale10(SignExtend10(RawY(d)))
    ensures e.analog[4] == 0 && e.analog[5] == 0
    ensures e.analog[6] == Scale4(SignExtend4(RawTwist(d)))
    ensures e.buttons == ButtonsFor(RawButtons(d) as bv16, analogMode, Hat(d))
  {
    var hs := HatStick(analogMode, Hat(d));
    var x, y := SignExtend10(RawX(d)), SignExtend10(RawY(d));
    GamepadEvent(devAddr, instance, ButtonsFor(RawButtons(d) as bv16, analogMode, Hat(d)),
      [hs.0, hs.1, Scale10(x), Scale10(y), 0, 0, Scale4(SignExtend4(RawTwist(d)))])
  }

  /** The scaled axes are never 0, whatever the report. */
  lemma AxesNeverZero(devAddr: byte, instance: byte, d: seq<byte>, analogMode: bool)
    requires |d| >= DUALSTRIKE_REPORT_SIZE
    ensures var e := EventOf(devAddr, instance, d, analogMode);
      e.analog[2] != 0 && e.analog[3] != 0 && e.analog[6] != 0
  {
  }

  // ---------------------------------------------------------------------------
  // Per-device state
  // ---------------------------------------------------------------------------

  /** `prev_report` and `hat_analog_mode` of one (address, instance). */
  datatype Slot = Slot(prev: seq<byte>, analogMode: bool)

  /** The zero-initialised statics: no report seen, d-pad mode. */
  const ZERO_SLOT := Slot([0, 0, 0, 0, 0], false)

  /** The driver's tables, indexed by device address and HID instance. */
  class DualStrikeHost {
    var slots: map<(byte, byte), Slot>

    function SlotAt(devAddr: byte, instance: byte): Slot
      reads this
    {
      if (devAddr, instance) in slots then slots[(devAddr, instance)] else ZERO_SLOT
    }

    constructor ()
      ensures slots == map[]
    {
      slots := map[];
    }

    /** `init_ms_sidewinder_dualstrike`: the stored report is zeroed and the hat is a d-pad again. */
    method Init(devAddr: byte, instance: byte) returns (ok: bool)
      modifies this
      ensures ok
      ensures slots == old(slots)[(devAddr, instance) := ZERO_SLOT]
    {
      slots := slots[(devAddr, instance) := ZERO_SLOT];
      return true;
    }

    /** `unmount_ms_sidewinder_dualstrike` only logs: the state is kept. */
    method Unmount(devAddr: byte, instance: byte)
      ensures unchanged(this)
    {
    }

    /**
     * `process_ms_sidewinder_dualstrike`: a report shorter than five bytes
     * or equal to the stored one is ignored. A mode command switching to the
     * mode already set is ignored too, without storing the report; one that
     * changes the mode stores it and produces no event. Any other report
     * produces its event in the current mode and is stored.
     */
    method Process(devAddr: byte, instance: byte, report: seq<byte>) returns (ev: Option<GamepadEvent>)
      modifies this
      ensures |report| < DUALSTRIKE_REPORT_SIZE ==> ev.None? && slots == old(slots)
      ensures |report| >= DUALSTRIKE_REPORT_SIZE ==>
        var d := report[..DUALSTRIKE_REPORT_SIZE];
        var s := old(SlotAt(devAddr, instance));
        var k := (devAddr, instance);
        && (d == s.prev ==> ev.None? && slots == old(slots))
        && (d != s.prev && ModeCommand(d).Some? ==>
            && ev.None?
            && slots == (if ModeCommand(d).value == s.analogMode then old(slots)
                         else old(slots)[k := Slot(d, ModeCommand(d).value)]))
        && (d != s.prev && ModeCommand(d).None? ==>
            && ev == Some(EventOf(devAddr, instance, d, s.analogMode))
            && slots == old(slots)[k := Slot(d, s.analogMode)])
    {
      if |report| < DUALSTRIKE_REPORT_SIZE {
        return None;
      }
      var d := report[..DUALSTRIKE_REPORT_SIZE];
      var s := SlotAt(devAddr, instance);
      if d == s.prev {
        return None;
      }
      var hat := Hat(d);
      var startHeld := StartHeld(d);
      if startHeld && HatLeft(hat) {
        if s.analogMode {
          return None;
        }
        slots := slots[(devAddr, instance) := Slot(d, true)];
        return None;
      }
      if startHeld && HatRight(hat) {
        if !s.analogMode {
          return None;
        }
        slots := slots[(devAddr, instance) := Slot(d, false)];
        return None;
      }
      ev := Some(EventOf(devAddr, instance, d, s.analogMode));
      slots := slots[(devAddr, instance) := Slot(d, s.analogMode)];
    }
  }

  /**
   * Start and left from d-pad mode: the report is swallowed, later reports
   * drive the left stick from the hat, and the same report again is silent.
   */
  method EnterAnalogMode(h: DualStrikeHost, devAddr: byte, instance: byte, report: seq<byte>)
      returns (first: Option<GamepadEvent>, again: Option<GamepadEvent>)
    modifies h
    requires |report| >= DUALSTRIKE_REPORT_SIZE && ModeCommand(report) == Some(true)
    requires !h.SlotAt(devAddr, instance).analogMode
    requires report[..DUALSTRIKE_REPORT_SIZE] != h.SlotAt(devAddr, instance).prev
    ensures first.None? && again.None?
    ensures h.SlotAt(devAddr, instance).analogMode
  {
    first := h.Process(devAddr, instance, report);
    assert h.SlotAt(devAddr, instance).prev == report[..DUALSTRIKE_REPORT_SIZE];
    again := h.Process(devAddr, instance, report);
  }

  /** A report the driver turned into an event is silent when it comes again. */
  method RepeatIgnored(h: DualStrikeHost, devAddr: byte, instance: byte, report: seq<byte>)
      returns (first: Option<GamepadEvent>, again: Option<GamepadEvent>)
    modifies h
    requires |report| >= DUALSTRIKE_REPORT_SIZE
    ensures again.None?
  {
    first := h.Process(devAddr, instance, report);
    if first.Some? {
      assert h.SlotAt(devAddr, instance).prev == report[..DUALSTRIKE_REPORT_SIZE];
    }
    again := h.Process(devAddr, instance, report);
  }
}

=== FILE: n64_host.dfy ===
// The native N64 controller host: the button map, the stick scaling, the
// C-buttons read as a digital right stick, and the per-port copy of the last
// state that keeps an unchanged poll from producing an event.

module N64Host {
  import opened Common

  const N64_STICK_MAX: int := 80
  /** `dev_addr` of port 0; port n reports as 0xE0 + n. */
  const N64_DEV_ADDR_BASE: nat := 0xE0
  /** The most ports whose addresses stay within one byte. */
  const N64_PORT_LIMIT: nat := 0x100 - N64_DEV_ADDR_BASE

  /** `n64_report_t`: the buttons and the signed stick of one poll. */
  datatype N64Report = N64Report(
    a: bool, b: bool, z: bool, start: bool,
    dpadUp: bool, dpadDown: bool, dpadLeft: bool, dpadRight: bool,
    l: bool, r: bool,
    cUp: bool, cDown: bool, cLeft: bool, cRight: bool,
    stickX: i8, stickY: i8)

  /** A, C-Down, B and C-Left press B1-B4; C-Up and C-Right press L3 and R3. */
  function FaceButtons(rep: N64Report): (b: Buttons)
    ensures Pressed(b, JP_B1) <==> rep.a
    ensures Pressed(b, JP_B2) <==> rep.cDown
    ensures Pressed(b, JP_B3) <==> rep.b
    ensures Pressed(b, JP_B4) <==> rep.cLeft
    ensures Pressed(b, JP_L3) <==> rep.cUp
    ensures Pressed(b, JP_R3) <==> rep.cRight
    ensures b & !(JP_B1 | JP_B2 | JP_B3 | JP_B4 | JP_L3 | JP_R3) == 0
  {
    (if rep.a then JP_B1 else 0) |
    (if rep.cDown then JP_B2 else 0) |
    (if rep.b then JP_B3 else 0) |
    (if rep.cLeft then JP_B4 else 0) |
    (if rep.cUp then JP_L3 else 0) |
    (if rep.cRight then JP_R3 else 0)
  }

  /** L and R press L1 and R1, Z presses L2 and Start presses S2. */
  function ShoulderButtons(rep: N64Report): (b: Buttons)
    ensures Pressed(b, JP_L1) <==> rep.l
    ensures Pressed(b, JP_R1) <==> rep.r
    ensures Pressed(b, JP_L2) <==> rep.z
    ensures Pressed(b, JP_S2) <==> rep.start
    ensures b & !(JP_L1 | JP_R1 | JP_L2 | JP_S2) == 0
  {
    (if rep.l then JP_L1 else 0) |
    (if rep.r then JP_R1 else 0) |
    (if rep.z then JP_L2 else 0) |
    (if rep.start then JP_S2 else 0)
  }

  /** The d-pad presses the matching directions. */
  function DpadButtons(rep: N64Report): (b: Buttons)
    ensures Pressed(b, JP_DU) <==> rep.dpadUp
    ensures Pressed(b, JP_DD) <==> rep.dpadDown
    ensures Pressed(b, JP_DL) <==> rep.dpadLeft
    ensures Pressed(b, JP_DR) <==> rep.dpadRight
    ensures b & !(JP_DU | JP_DD | JP_DL | JP_DR) == 0
  {
    (if rep.dpadUp then JP_DU else 0) |
    (if rep.dpadDown then JP_DD else 0) |
    (if rep.dpadLeft then JP_DL else 0) |
    (if rep.dpadRight then JP_DR else 0)
  }

  const FACE_MASK: Buttons := JP_B1 | JP_B2 | JP_B3 | JP_B4 | JP_L3 | JP_R3
  const SHOULDER_MASK: Buttons := JP_L1 | JP_R1 | JP_L2 | JP_S2
  const DPAD_MASK: Buttons := JP_DU | JP_DD | JP_DL | JP_DR

  /** `map_n64_to_jp`: the three groups, which use disjoint bits and nothing else. */
  function MapButtons(rep: N64Report): (b: Buttons)
    ensures b & FACE_MASK == FaceButtons(rep)
    ensures b & SHOULDER_MASK == ShoulderButtons(rep)
    ensures b & DPAD_MASK == DpadButtons(rep)
    ensures b & !(FACE_MASK | SHOULDER_MASK | DPAD_MASK) == 0
  {
    FaceButtons(rep) | ShoulderButtons(rep) | DpadButtons(rep)
  }

  /** The top bit, which no poll sets: `init` stores it so port 0's first poll always reports. */
  lemma MapNeverAllOnes(rep: N64Report)
    ensures MapButtons(rep) != 0xFFFF_FFFF
  {
    var b := MapButtons(rep);
    assert b & !(FACE_MASK | SHOULDER_MASK | DPAD_MASK) == 0;
    assert 0xFFFF_FFFF & !(FACE_MASK | SHOULDER_MASK | DPAD_MASK) != 0;
  }

  /**
   * `convert_stick_axis`: the signed value times 127/80, truncated toward
   * zero, clamped to -128..127 and moved up by 128. The argument is an
   * `int` so that the inverted Y (which can be 128) can be passed.
   */
  function ConvertStickAxis(v: int): (r: byte)
    requires -0x80 <= v <= 0x80
    ensures r == 128 <==> v == 0
    ensures r > 128 <==> v > 0
    ensures v > N64_STICK_MAX ==> r == 255
    ensures v < -N64_STICK_MAX ==> r == 0
  {
    Clamp(CDiv(v * 127, N64_STICK_MAX), -128, 127) + 128
  }

  /** A full deflection of 80 reaches the end of the output range. */
  lemma ConvertFullScale()
    ensures ConvertStickAxis(N64_STICK_MAX) == 255 && ConvertStickAxis(-N64_STICK_MAX) == 1
  {
  }

  /** Within ±80 the scaling is symmetric about the centre. */
  lemma ConvertSymmetric(v: int)
    requires -N64_STICK_MAX <= v <= N64_STICK_MAX
    ensures ConvertStickAxis(-v) == 256 - ConvertStickAxis(v)
  {
    if v >= 0 {
      assert CDiv(-v * 127, N64_STICK_MAX) == -CDiv(v * 127, N64_STICK_MAX);
    } else {
      assert CDiv(v * 127, N64_STICK_MAX) == -CDiv(-v * 127, N64_STICK_MAX);
    }
    assert 0 <= (if v >= 0 then v else -v) * 127 <= 80 * 127;
  }

  /** A further deflection never gives a lower output. */
  lemma ConvertMonotone(a: int, b: int)
    requires -0x80 <= a <= b <= 0x80
    ensures ConvertStickAxis(a) <= ConvertStickAxis(b)
  {
    assert a * 127 <= b * 127;
  }

  /**
   * The left-stick Y the task computes, as written: `-stick_y` is passed
   * through an `int8_t` parameter, so -128 becomes 128 and wraps to -128.
   */
  function StickYAsWritten(y: i8): byte {
    ConvertStickAxis(ToInt8(-(y as int)))
  }

  /** The inverted Y, with the negation done before any narrowing. */
  function StickY(y: i8): (r: byte)
    ensures r == 128 <==> y == 0
    ensures r < 128 <==> y > 0
  {
    ConvertStickAxis(-(y as int))
  }

  /** A stick held fully down (-128) reads as fully up as written, fully down once inverted first. */
  lemma StickYWraps()
    ensures StickYAsWritten(-128) == 0
    ensures StickY(-128) == 255
  {
    assert ToInt8(128) == -128;
  }

  /** Every other position reads the same either way. */
  lemma StickYAgreesElsewhere(y: i8)
    requires y != -128
    ensures StickYAsWritten(y) == StickY(y)
  {
    var v := -(y as int);
    if y > 0 {
      assert v % 0x100 == 0x100 + v;
    } else {
      assert v % 0x100 == v;
    }
  }

  /**
   * `map_c_buttons_to_analog`: centred by default; C-Left/C-Right push X
   * to 0/255 and C-Up/C-Down push Y to 0/255, with right and down winning.
   */
  function CStick(rep: N64Report): (xy: (byte, byte))
    ensures xy.0 == 255 <==> rep.cRight
    ensures xy.0 == 0 <==> rep.cLeft && !rep.cRight
    ensures xy.0 == 128 <==> !rep.cLeft && !rep.cRight
    ensures xy.1 == 255 <==> rep.cDown
    ensures xy.1 == 0 <==> rep.cUp && !rep.cDown
    ensures xy.1 == 128 <==> !rep.cUp && !rep.cDown
  {
    var rx := if rep.cRight then 255 else if rep.cLeft then 0 else 128;
    var ry := if rep.cDown then 255 else if rep.cUp then 0 else 128;
    (rx, ry)
  }

  /** L and R as analog triggers: all or nothing. */
  function Trigger(pressed: bool): byte {
    if pressed then 255 else 0
  }

  /** The event for a poll of `port`: sticks, C-stick and triggers in the analog order LX, LY, RX, RY, L2, R2; LY is the corrected `StickY`. */
  function EventOf(port: nat, rep: N64Report): (e: GamepadEvent)
    requires port < N64_PORT_LIMIT
    ensures e.devAddr == N64_DEV_ADDR_BASE + port && e.instance == 0
    ensures e.buttons == MapButtons(rep) && |e.analog| == 6
    ensures e.analog[4] == 255 <==> rep.l
    ensures e.analog[5] == 255 <==> rep.r
    ensures e.analog[0] == 128 <==> rep.stickX == 0
  {
    GamepadEvent(N64_DEV_ADDR_BASE + port, 0, MapButtons(rep),
      [ConvertStickAxis(rep.stickX), StickY(rep.stickY), CStick(rep).0, CStick(rep).1,
       Trigger(rep.l), Trigger(rep.r)])
  }

  /** `prev_buttons`, `prev_stick_x/y`, `prev_l/r` of one port. */
  datatype PortState = PortState(buttons: Buttons, stickX: i8, stickY: i8, l: bool, r: bool)

  const ZERO_PORT := PortState(0, 0, 0, false, false)

  /** What a poll leaves in the port's copy. */
  function StateOf(rep: N64Report): PortState {
    PortState(MapButtons(rep), rep.stickX, rep.stickY, rep.l, rep.r)
  }

  /**
   * One port of `n64_host_task`: a failed poll is skipped, as is one whose
   * buttons, stick and L/R match the stored copy; otherwise the copy is
   * replaced and the event built.
   */
  function PortStep(port: nat, prev: PortState, polled: Option<N64Report>): (res: (PortState, Option<GamepadEvent>))
    requires port < N64_PORT_LIMIT
    ensures res.1.Some? <==>
      polled.Some? &&
      (MapButtons(polled.value) != prev.buttons || polled.value.stickX != prev.stickX ||
       polled.value.stickY != prev.stickY || polled.value.l != prev.l || polled.value.r != prev.r)
    ensures res.1.Some? ==> res.0 == StateOf(polled.value) && res.1.value == EventOf(port, polled.value)
    ensures res.1.None? ==> res.0 == prev
  {
    match polled
    case None => (prev, None)
    case Some(rep) =>
      if StateOf(rep) == prev then (prev, None) else (StateOf(rep), Some(EventOf(port, rep)))
  }

  /** Polling the same report twice reports at most once. */
  lemma {:induction false} RepeatIsSilent(port: nat, prev: PortState, rep: N64Report)
    requires port < N64_PORT_LIMIT
    ensures PortStep(port, PortStep(port, prev, Some(rep)).0, Some(rep)).1.None?
  {
    var next := PortStep(port, prev, Some(rep)).0;
    assert next == StateOf(rep) || next == prev;
    if next == prev {
      assert StateOf(rep) == prev;
    }
  }

  /** The events of the first `n` ports of a task pass, in port order. */
  function TaskEvents(prevs: seq<PortState>, polls: seq<Option<N64Report>>, n: nat): (es: seq<GamepadEvent>)
    requires n <= |prevs| == |polls| <= N64_PORT_LIMIT
    ensures |es| <= n
    ensures forall k :: 0 <= k < |es| ==> N64_DEV_ADDR_BASE <= es[k].devAddr < N64_DEV_ADDR_BASE + n
  {
    if n == 0 then []
    else
      var ev := PortStep(n - 1, prevs[n - 1], polls[n - 1]).1;
      TaskEvents(prevs, polls, n - 1) + (if ev.Some? then [ev.value] else [])
  }

  /** The count of `true` entries. */
  function CountTrue(s: seq<bool>): (c: nat)
    ensures c <= |s|
    ensures c == 0 <==> forall i :: 0 <= i < |s| ==> !s[i]
  {
    if |s| == 0 then 0 else CountTrue(s[..|s| - 1]) + (if s[|s| - 1] then 1 else 0)
  }

  /** The driver's static state: the port copies, the rumble requests, `initialized`. */
  class N64HostDriver {
    const ports: nat
    const prev: array<PortState>
    const rumble: array<bool>
    var initialized: bool

    predicate Valid()
      reads this
    {
      0 < ports <= N64_PORT_LIMIT && prev.Length == ports && rumble.Length == ports
    }

    /** The zeroed statics of a build with `n` ports. */
    constructor (n: nat)
      requires 0 < n <= N64_PORT_LIMIT
      ensures Valid() && ports == n && fresh(prev) && fresh(rumble) && !initialized
      ensures forall i :: 0 <= i < n ==> prev[i] == ZERO_PORT && !rumble[i]
    {
      ports := n;
      prev := new PortState[n](_ => ZERO_PORT);
      rumble := new bool[n](_ => false);
      initialized := false;
    }

    /**
     * `n64_host_init_pin`: port 0's copy is set so its first poll always
     * reports (buttons all ones, stick centred), its rumble is off, and the
     * driver is initialised. `prev_l`/`prev_r` are left as they were.
     */
    method InitPin()
      requires Valid()
      modifies this`initialized, prev, rumble
      ensures Valid() && initialized
      ensures prev[..] == old(prev[..])[0 := old(prev[0]).(buttons := 0xFFFF_FFFF, stickX := 0, stickY := 0)]
      ensures rumble[..] == old(rumble[..])[0 := false]
    {
      prev[0] := prev[0].(buttons := 0xFFFF_FFFF, stickX := 0, stickY := 0);
      rumble[0] := false;
      initialized := true;
    }

    /** `n64_host_init`: a second call does nothing. */
    method Init()
      requires Valid()
      modifies this`initialized, prev, rumble
      ensures Valid() && initialized
      ensures old(initialized) ==> prev[..] == old(prev[..]) && rumble[..] == old(rumble[..])
      ensures !old(initialized) ==>
        prev[..] == old(prev[..])[0 := old(prev[0]).(buttons := 0xFFFF_FFFF, stickX := 0, stickY := 0)] &&
        rumble[..] == old(rumble[..])[0 := false]
    {
      if initialized {
        return;
      }
      InitPin();
    }

    /** `n64_host_init_pins_generic`: the first pin if one is given, else the default. */
    method InitPins(pinCount: nat)
      requires Valid()
      modifies this`initialized, prev, rumble
      ensures Valid() && initialized
      ensures pinCount >= 1 || !old(initialized) ==>
        prev[..] == old(prev[..])[0 := old(prev[0]).(buttons := 0xFFFF_FFFF, stickX := 0, stickY := 0)]
      ensures pinCount == 0 && old(initialized) ==> prev[..] == old(prev[..])
    {
      if pinCount >= 1 {
        InitPin();
      } else {
        Init();
      }
    }

    /**
     * `n64_host_task`: nothing before `init`; then every port is polled in
     * turn (`polls[port]`, `None` when the controller does not answer) and
     * each port's copy and event follow `PortStep`.
     */
    method Task(polls: seq<Option<N64Report>>) returns (events: seq<GamepadEvent>)
      requires Valid() && |polls| == ports
      modifies prev
      ensures !initialized ==> events == [] && prev[..] == old(prev[..])
      ensures initialized ==> events == TaskEvents(old(prev[..]), polls, ports)
      ensures initialized ==> forall i :: 0 <= i < ports ==> prev[i] == PortStep(i, old(prev[i]), polls[i]).0
    {
      events := [];
      if !initialized {
        return;
      }
      ghost var before := prev[..];
      for port := 0 to ports
        invariant forall j :: port <= j < ports ==> prev[j] == before[j]
        invariant forall j :: 0 <= j < port ==> prev[j] == PortStep(j, before[j], polls[j]).0
        invariant events == TaskEvents(before, polls, port)
      {
        var step := PortStep(port, prev[port], polls[port]);
        assert step.1 == PortStep(port, before[port], polls[port]).1;
        prev[port] := step.0;
        if step.1.Some? {
          events := events + [step.1.value];
        }
      }
    }

    /** `n64_host_set_rumble`: ports past the last are ignored. */
    method SetRumble(port: byte, enabled: bool)
      requires Valid()
      modifies rumble
      ensures port < ports ==> rumble[..] == old(rumble[..])[port := enabled]
      ensures port >= ports ==> rumble[..] == old(rumble[..])
    {
      if port < ports {
        rumble[port] := enabled;
      }
    }

    /**
     * `n64_host_get_device_type`: -1 before `init`, for a port past the
     * last or one with no controller (`status` is `None`); otherwise the
     * low two bits of the status byte (0 none, 1 controller pak, 2 rumble pak).
     */
    method GetDeviceType(port: byte, status: Option<byte>) returns (t: int)
      requires Valid()
      ensures t == -1 <==> !initialized || port >= ports || status.None?
      ensures t != -1 ==> 0 <= t < 4 && t == status.value % 4
    {
      if !initialized || port >= ports {
        return -1;
      }
      if status.None? {
        return -1;
      }
      // `status & 0x03` of a byte
      t := status.value % 4;
    }

    /** `n64_get_device_count`: the ports whose controller answered `init`. */
    method DeviceCount(connected: seq<bool>) returns (count: nat)
      requires Valid() && |connected| == ports
      ensures count == CountTrue(connected)
    {
      count := 0;
      for i := 0 to ports
        invariant count == CountTrue(connected[..i])
      {
        assert connected[..i + 1][..i] == connected[..i];
        if connected[i] {
          count := count + 1;
        }
      }
      assert connected[..ports] == connected;
    }

    /** `n64_host_is_connected`: initialised and some port has a controller. */
    method IsConnected(connected: seq<bool>) returns (c: bool)
      requires Valid() && |connected| == ports
      ensures c <==> initialized && CountTrue(connected) > 0
    {
      if !initialized {
        return false;
      }
      for i := 0 to ports
        invariant forall j :: 0 <= j < i ==> !connected[j]
      {
        if connected[i] {
          return true;
        }
      }
      return false;
    }
  }
}

=== FILE: ps4_mode.dfy ===
// The PlayStation 4 (DualShock 4) output mode: a raw 64-byte input report,
// a 6-bit report counter, the rumble/lightbar output latch and the feature
// reports the console reads during authentication.

module Ps4Mode {
  import opened Common
  import opened UsbdMode

  const PS4_HAT_NOTHING: byte := 0x0F
  const PS4_REPORT_ID_OUTPUT: byte := 0x05
  const PS4_REPORT_ID_FEATURE_03: byte := 0x03
  const PS4_REPORT_ID_AUTH_PAYLOAD: byte := 0xF0
  const PS4_REPORT_ID_AUTH_RESPONSE: byte := 0xF1
  const PS4_REPORT_ID_AUTH_STATUS: byte := 0xF2
  const PS4_REPORT_ID_AUTH_RESET: byte := 0xF3

  /** The fields of `ps4_out_report_t` the mode reads back. */
  datatype Ps4Output = Ps4Output(motorLeft: byte, motorRight: byte, red: byte, green: byte, blue: byte)

  const NO_OUTPUT: Ps4Output := Ps4Output(0, 0, 0, 0, 0)

  /** Byte 5, low nibble: the d-pad as a PS4 hat (0..7 clockwise from up, 0x0F for none). */
  function HatNibble(buttons: Buttons): (h: bv8)
    ensures h < 16
  {
    HatCode(DpadDirection(buttons), PS4_HAT_NOTHING) as bv8
  }

  /** Byte 5, high nibble: Square, Cross, Circle, Triangle. */
  function FaceBits(buttons: Buttons): bv8 {
    Flag(Pressed(buttons, JP_B3), 0x10) | Flag(Pressed(buttons, JP_B1), 0x20) |
    Flag(Pressed(buttons, JP_B2), 0x40) | Flag(Pressed(buttons, JP_B4), 0x80)
  }

  /** Byte 6: L1, R1, L2, R2, Share, Options, L3, R3 in bits 0..7. */
  function ShoulderByte(buttons: Buttons): bv8 {
    Flag(Pressed(buttons, JP_L1), 0x01) | Flag(Pressed(buttons, JP_R1), 0x02) |
    Flag(Pressed(buttons, JP_L2), 0x04) | Flag(Pressed(buttons, JP_R2), 0x08) |
    Flag(Pressed(buttons, JP_S1), 0x10) | Flag(Pressed(buttons, JP_S2), 0x20) |
    Flag(Pressed(buttons, JP_L3), 0x40) | Flag(Pressed(buttons, JP_R3), 0x80)
  }

  /** Byte 7: PS in bit 0, touchpad click in bit 1, the report counter in bits 2..7. */
  function CounterByte(buttons: Buttons, counter: bv8): bv8 {
    Flag(Pressed(buttons, JP_A1), 0x01) | Flag(Pressed(buttons, JP_A2), 0x02) | ((counter & 0x3F) << 2)
  }

  /** Bytes 0..9 of the report as `send_report` writes them. */
  function ReportHead(p: ProfileOut, buttons: Buttons, counter: bv8): (head: seq<bv8>)
    ensures |head| == 10
  {
    [0x01, p.leftX as bv8, p.leftY as bv8, p.rightX as bv8, p.rightY as bv8,
     HatNibble(buttons) | FaceBits(buttons), ShoulderByte(buttons), CounterByte(buttons, counter),
     p.l2Analog as bv8, p.r2Analog as bv8]
  }

  /** The 64-byte buffer `init` sets up. */
  function InitReport(): (r: seq<bv8>)
    ensures |r| == 64
  {
    [0x01, 0x80, 0x80, 0x80, 0x80, 0x0F] + seq(29, _ => 0) + [0x80, 0, 0, 0, 0x80] + seq(24, _ => 0)
  }

  /** Byte 5 splits back into the hat and the four face buttons. */
  lemma Byte5Fields(buttons: Buttons)
    ensures var b := HatNibble(buttons) | FaceBits(buttons);
      && b & 0x0F == HatNibble(buttons)
      && HatDirection((b & 0x0F) as int) == DpadDirection(buttons)
      && (b & 0x10 != 0 <==> Pressed(buttons, JP_B3))
      && (b & 0x20 != 0 <==> Pressed(buttons, JP_B1))
      && (b & 0x40 != 0 <==> Pressed(buttons, JP_B2))
      && (b & 0x80 != 0 <==> Pressed(buttons, JP_B4))
  {
    HatRoundTrip(DpadDirection(buttons), PS4_HAT_NOTHING);
  }

  /** Byte 6 holds exactly the eight listed buttons, one bit each. */
  lemma Byte6Fields(buttons: Buttons)
    ensures var b := ShoulderByte(buttons);
      && (b & 0x01 != 0 <==> Pressed(buttons, JP_L1))
      && (b & 0x02 != 0 <==> Pressed(buttons, JP_R1))
      && (b & 0x04 != 0 <==> Pressed(buttons, JP_L2))
      && (b & 0x08 != 0 <==> Pressed(buttons, JP_R2))
      && (b & 0x10 != 0 <==> Pressed(buttons, JP_S1))
      && (b & 0x20 != 0 <==> Pressed(buttons, JP_S2))
      && (b & 0x40 != 0 <==> Pressed(buttons, JP_L3))
      && (b & 0x80 != 0 <==> Pressed(buttons, JP_R3))
  {
  }

  /**
   * Byte 7: the two buttons in bits 0 and 1, and bits 2..7 read back as the
   * counter modulo 64; one send later they read one more, modulo 64, also
   * across the wrap of the 8-bit counter.
   */
  lemma Byte7Fields(buttons: Buttons, counter: bv8)
    ensures var b := CounterByte(buttons, counter);
      && (b & 0x01 != 0 <==> Pressed(buttons, JP_A1))
      && (b & 0x02 != 0 <==> Pressed(buttons, JP_A2))
      && b >> 2 == counter & 0x3F
      && CounterByte(buttons, counter + 1) >> 2 == ((b >> 2) + 1) & 0x3F
  {
  }

  /** The buffer `init` leaves is the report a neutral, idle controller gives with counter 0. */
  lemma InitIsIdleReport()
    ensures InitReport()[..10] == ReportHead(NEUTRAL, 0, 0)
  {
    assert HatNibble(0) == 0x0F;
  }

  /** The feature reports `get_report` answers. */
  predicate KnownFeature(reportId: byte) {
    reportId in {PS4_REPORT_ID_FEATURE_03, PS4_REPORT_ID_AUTH_PAYLOAD, PS4_REPORT_ID_AUTH_RESPONSE,
                 PS4_REPORT_ID_AUTH_STATUS, PS4_REPORT_ID_AUTH_RESET}
  }

  /**
   * `ps4_mode_get_report` without a DualShock 4 on the host side: the reply
   * to a GET_REPORT, its length being the value returned. `feature03` and
   * `featureF3` are the two constant feature tables.
   */
  function GetReport(reportId: byte, isFeature: bool, reqlen: u16,
                     feature03: seq<byte>, featureF3: seq<byte>): (reply: seq<byte>)
    ensures |reply| <= reqlen
    ensures !isFeature ==> reply == []
    ensures isFeature && reportId == PS4_REPORT_ID_FEATURE_03 ==>
      |reply| == Min(reqlen, |feature03|) && reply <= feature03
    ensures isFeature && reportId == PS4_REPORT_ID_AUTH_RESET ==>
      |reply| == Min(reqlen, |featureF3|) && reply <= featureF3
    ensures isFeature && (reportId == PS4_REPORT_ID_AUTH_RESPONSE || reportId == PS4_REPORT_ID_AUTH_PAYLOAD) ==>
      |reply| == Min(reqlen, 64) && forall i :: 0 <= i < |reply| ==> reply[i] == 0
    ensures isFeature && reportId == PS4_REPORT_ID_AUTH_STATUS ==>
      |reply| == Min(reqlen, 16) && forall i :: 0 <= i < |reply| ==> reply[i] == (if i == 1 then 0x10 else 0)
    ensures !KnownFeature(reportId) ==> reply == []
  {
    if !isFeature then []
    else if reportId == PS4_REPORT_ID_FEATURE_03 then feature03[..Min(reqlen, |feature03|)]
    else if reportId == PS4_REPORT_ID_AUTH_RESPONSE || reportId == PS4_REPORT_ID_AUTH_PAYLOAD then
      seq(Min(reqlen, 64), _ => 0)
    else if reportId == PS4_REPORT_ID_AUTH_STATUS then
      var len := Min(reqlen, 16);
      if len >= 2 then seq(len, _ => 0)[1 := 0x10] else seq(len, _ => 0)
    else if reportId == PS4_REPORT_ID_AUTH_RESET then featureF3[..Min(reqlen, |featureF3|)]
    else []
  }

  /** The mode's state: the raw input report, the counter and the output latch. */
  class Ps4Device {
    var report: array<bv8>
    var output: Ps4Output
    var outputAvailable: bool
    var counter: bv8
    /** `sizeof(ps4_out_report_t)`. */
    const outReportSize: nat

    predicate Valid()
      reads this
    {
      report.Length == 64
    }

    /** Power-on state followed by `ps4_mode_init`. */
    constructor (outReportSize: nat)
      ensures Valid() && fresh(report)
      ensures report[..] == InitReport()
      ensures output == NO_OUTPUT && !outputAvailable && counter == 0
      ensures this.outReportSize == outReportSize
    {
      this.outReportSize := outReportSize;
      report := new bv8[64](_ => 0);
      output := NO_OUTPUT;
      outputAvailable := false;
      counter := 0;
      new;
      Init();
    }

    /** `ps4_mode_init`; the output latch is left as it was. */
    method Init()
      requires Valid()
      modifies this`output, this`counter, report
      ensures report[..] == InitReport()
      ensures output == NO_OUTPUT && counter == 0
    {
      ghost var goal := InitReport();
      var i := 0;
      while i < 64
        invariant 0 <= i <= 64
        invariant forall j :: 0 <= j < i ==> report[j] == goal[j]
        invariant output == old(output) && counter == old(counter)
      {
        report[i] := if i == 0 then 0x01
          else if 1 <= i <= 4 || i == 35 || i == 39 then 0x80
          else if i == 5 then PS4_HAT_NOTHING as bv8
          else 0;
        i := i + 1;
      }
      output := NO_OUTPUT;
      counter := 0;
    }

    /** `ps4_mode_send_report`: bytes 0..9 rewritten, the rest kept, the counter stepped. */
    method SendReport(p: ProfileOut, buttons: Buttons)
      requires Valid()
      modifies this`counter, report
      ensures report[..10] == ReportHead(p, buttons, old(counter))
      ensures report[10..] == old(report[10..])
      ensures counter == old(counter) + 1
    {
      var head := ReportHead(p, buttons, counter);
      var i := 0;
      while i < 10
        invariant 0 <= i <= 10
        invariant forall j :: 0 <= j < i ==> report[j] == head[j]
        invariant forall j :: 10 <= j < 64 ==> report[j] == old(report[j])
        invariant counter == old(counter)
      {
        report[i] := head[i];
        i := i + 1;
      }
      counter := counter + 1;
    }

    /** `ps4_mode_handle_output`: latch an output report of id 5 that is long enough. */
    method HandleOutput(reportId: byte, data: Ps4Output, len: u16)
      modifies this`output, this`outputAvailable
      ensures reportId == PS4_REPORT_ID_OUTPUT && len >= outReportSize ==>
        output == data && outputAvailable
      ensures !(reportId == PS4_REPORT_ID_OUTPUT && len >= outReportSize) ==>
        output == old(output) && outputAvailable == old(outputAvailable)
    {
      if reportId == PS4_REPORT_ID_OUTPUT && len >= outReportSize {
        output := data;
        outputAvailable := true;
      }
    }

    /** `ps4_mode_get_rumble`: the stronger of the two motors. */
    function GetRumble(): (r: byte)
      reads this
      ensures r >= output.motorLeft && r >= output.motorRight
      ensures r == output.motorLeft || r == output.motorRight
    {
      if output.motorLeft > output.motorRight then output.motorLeft else output.motorRight
    }

    /**
     * `ps4_mode_get_feedback`: hands over the latched output once; a second
     * call before the next output report returns false.
     */
    method GetFeedback(fb: Feedback) returns (ok: bool, fb': Feedback)
      modifies this`outputAvailable
      ensures ok == old(outputAvailable) && !outputAvailable
      ensures ok ==> fb' == fb.(rumbleLeft := output.motorLeft, rumbleRight := output.motorRight,
                                ledR := output.red, ledG := output.green, ledB := output.blue,
                                dirty := true)
      ensures !ok ==> fb' == fb
    {
      if !outputAvailable {
        return false, fb;
      }
      fb' := fb.(rumbleLeft := output.motorLeft, rumbleRight := output.motorRight,
                 ledR := output.red, ledG := output.green, ledB := output.blue,
                 dirty := true);
      outputAvailable := false;
      ok := true;
    }
  }
}

=== FILE: raphnet_pce.dfy ===
// The Raphnet PC Engine / TurboGrafx-16 USB adapter: its 9-byte report,
// the d-pad read from two axes, the eight button bits, and the per-address
// copy of the last report that suppresses repeats.

module RaphnetPce {
  import opened Common

  const RAPHNET_PCE_REPORT_LEN: nat := 9
  const RAPHNET_PCE_SLOTS: nat := 5
  const AXIS_CENTER: int := 16000
  const AXIS_THRESHOLD: int := 8000
  const PCE_BUTTON_COUNT: nat := 8

  /** `raphnet_pce_report_t`: report id, three little-endian axes, the button word. */
  datatype PceReport = PceReport(reportId: byte, x: u16, y: u16, z: u16, buttons: u16)

  /** The zeroed report the static table starts with and unmount restores. */
  const ZERO_REPORT := PceReport(0, 0, 0, 0, 0)

  /** The packed, little-endian decoding of the first nine bytes. */
  function Parse(data: seq<byte>): PceReport
    requires |data| >= RAPHNET_PCE_REPORT_LEN
  {
    PceReport(data[0], U16(data[1], data[2]), U16(data[3], data[4]), U16(data[5], data[6]), U16(data[7], data[8]))
  }

  /** The nine bytes of a report, as laid out in memory. */
  function Encode(r: PceReport): (data: seq<byte>)
    ensures |data| == RAPHNET_PCE_REPORT_LEN
  {
    [r.reportId, LoByte(r.x), HiByte(r.x), LoByte(r.y), HiByte(r.y),
     LoByte(r.z), HiByte(r.z), LoByte(r.buttons), HiByte(r.buttons)]
  }

  /** Decoding is exact: the report gives back the nine bytes it was read from ... */
  lemma EncodeParse(data: seq<byte>)
    requires |data| >= RAPHNET_PCE_REPORT_LEN
    ensures Encode(Parse(data)) == data[..RAPHNET_PCE_REPORT_LEN]
  {
    var r := Parse(data);
    assert HiByte(r.x) == data[2] && LoByte(r.x) == data[1];
    assert HiByte(r.y) == data[4] && LoByte(r.y) == data[3];
    assert HiByte(r.z) == data[6] && LoByte(r.z) == data[5];
    assert HiByte(r.buttons) == data[8] && LoByte(r.buttons) == data[7];
  }

  /** ... and every report is read back from its own bytes. */
  lemma ParseEncode(r: PceReport)
    ensures Parse(Encode(r)) == r
  {
    U16OfBytes(r.x);
    U16OfBytes(r.y);
    U16OfBytes(r.z);
    U16OfBytes(r.buttons);
  }

  /** So two reports compare equal byte for byte exactly when their fields do. */
  lemma SameBytesSameReport(a: seq<byte>, b: seq<byte>)
    requires |a| >= RAPHNET_PCE_REPORT_LEN && |b| >= RAPHNET_PCE_REPORT_LEN
    ensures Parse(a) == Parse(b) <==> a[..RAPHNET_PCE_REPORT_LEN] == b[..RAPHNET_PCE_REPORT_LEN]
  {
    EncodeParse(a);
    EncodeParse(b);
  }

  /** The d-pad directions: an axis far enough from its centre presses that way. */
  function DpadButtons(x: u16, y: u16): (b: Buttons)
    ensures Pressed(b, JP_DL) <==> x < AXIS_CENTER - AXIS_THRESHOLD
    ensures Pressed(b, JP_DR) <==> x > AXIS_CENTER + AXIS_THRESHOLD
    ensures Pressed(b, JP_DU) <==> y < AXIS_CENTER - AXIS_THRESHOLD
    ensures Pressed(b, JP_DD) <==> y > AXIS_CENTER + AXIS_THRESHOLD
    ensures b & !(JP_DU | JP_DD | JP_DL | JP_DR) == 0
  {
    (if y < AXIS_CENTER - AXIS_THRESHOLD then JP_DU else 0) |
    (if y > AXIS_CENTER + AXIS_THRESHOLD then JP_DD else 0) |
    (if x < AXIS_CENTER - AXIS_THRESHOLD then JP_DL else 0) |
    (if x > AXIS_CENTER + AXIS_THRESHOLD then JP_DR else 0)
  }

  /** Opposite directions are never pressed together. */
  lemma DpadNeverOpposite(x: u16, y: u16)
    ensures !(Pressed(DpadButtons(x, y), JP_DL) && Pressed(DpadButtons(x, y), JP_DR))
    ensures !(Pressed(DpadButtons(x, y), JP_DU) && Pressed(DpadButtons(x, y), JP_DD))
    ensures x == AXIS_CENTER && y == AXIS_CENTER ==> DpadButtons(x, y) == 0
  {
  }

  /** The button bits the adapter uses: the low byte of the button word. */
  function RawButtons(r: PceReport): bv8 {
    LoByte(r.buttons) as bv8
  }

  /** Buttons I, II, Select and Run, in bits 0-3, press B2, B1, S1 and S2. */
  function BaseButtons(raw: bv8): (b: Buttons)
    ensures Pressed(b, JP_B2) <==> raw & 0x01 != 0
    ensures Pressed(b, JP_B1) <==> raw & 0x02 != 0
    ensures Pressed(b, JP_S1) <==> raw & 0x04 != 0
    ensures Pressed(b, JP_S2) <==> raw & 0x08 != 0
    ensures b & !(JP_B1 | JP_B2 | JP_S1 | JP_S2) == 0
  {
    (if raw & 0x01 != 0 then JP_B2 else 0) |
    (if raw & 0x02 != 0 then JP_B1 else 0) |
    (if raw & 0x04 != 0 then JP_S1 else 0) |
    (if raw & 0x08 != 0 then JP_S2 else 0)
  }

  /** The six-button pad's III, IV, V and VI, in bits 4-7, press B3, B4, L1 and R1. */
  function ExtraButtons(raw: bv8): (b: Buttons)
    ensures Pressed(b, JP_B3) <==> raw & 0x10 != 0
    ensures Pressed(b, JP_B4) <==> raw & 0x20 != 0
    ensures Pressed(b, JP_L1) <==> raw & 0x40 != 0
    ensures Pressed(b, JP_R1) <==> raw & 0x80 != 0
    ensures b & !(JP_B3 | JP_B4 | JP_L1 | JP_R1) == 0
  {
    (if raw & 0x10 != 0 then JP_B3 else 0) |
    (if raw & 0x20 != 0 then JP_B4 else 0) |
    (if raw & 0x40 != 0 then JP_L1 else 0) |
    (if raw & 0x80 != 0 then JP_R1 else 0)
  }

  /**
   * The face and system buttons: I, II, Select, Run, III, IV, V, VI in
   * bits 0-7 press B2, B1, S1, S2, B3, B4, L1, R1.
   */
  function FaceButtons(raw: bv8): (b: Buttons)
    ensures b & (JP_B1 | JP_B2 | JP_S1 | JP_S2) == BaseButtons(raw)
    ensures b & (JP_B3 | JP_B4 | JP_L1 | JP_R1) == ExtraButtons(raw)
    ensures b & !(JP_B1 | JP_B2 | JP_B3 | JP_B4 | JP_L1 | JP_R1 | JP_S1 | JP_S2) == 0
  {
    BaseButtons(raw) | ExtraButtons(raw)
  }

  /** The button byte read back from the buttons it pressed. */
  function RawOf(b: Buttons): bv8 {
    (if Pressed(b, JP_B2) then 0x01 else 0) |
    (if Pressed(b, JP_B1) then 0x02 else 0) |
    (if Pressed(b, JP_S1) then 0x04 else 0) |
    (if Pressed(b, JP_S2) then 0x08 else 0) |
    (if Pressed(b, JP_B3) then 0x10 else 0) |
    (if Pressed(b, JP_B4) then 0x20 else 0) |
    (if Pressed(b, JP_L1) then 0x40 else 0) |
    (if Pressed(b, JP_R1) then 0x80 else 0)
  }

  /** No two button bits land on the same output: the byte is recovered. */
  lemma {:induction false} FaceButtonsInvertible(raw: bv8)
    ensures RawOf(FaceButtons(raw)) == raw
  {
    var b := FaceButtons(raw);
    var lo, hi := BaseButtons(raw), ExtraButtons(raw);
    assert Pressed(b, JP_B2) == Pressed(lo, JP_B2) == (raw & 0x01 != 0);
    assert Pressed(b, JP_B1) == Pressed(lo, JP_B1) == (raw & 0x02 != 0);
    assert Pressed(b, JP_S1) == Pressed(lo, JP_S1) == (raw & 0x04 != 0);
    assert Pressed(b, JP_S2) == Pressed(lo, JP_S2) == (raw & 0x08 != 0);
    assert Pressed(b, JP_B3) == Pressed(hi, JP_B3) == (raw & 0x10 != 0);
    assert Pressed(b, JP_B4) == Pressed(hi, JP_B4) == (raw & 0x20 != 0);
    assert Pressed(b, JP_L1) == Pressed(hi, JP_L1) == (raw & 0x40 != 0);
    assert Pressed(b, JP_R1) == Pressed(hi, JP_R1) == (raw & 0x80 != 0);
  }

  /** The report's buttons: the d-pad from the axes and the face buttons. */
  function MapReport(r: PceReport): (b: Buttons)
    ensures b & (JP_DU | JP_DD | JP_DL | JP_DR) == DpadButtons(r.x, r.y)
    ensures b & (JP_B1 | JP_B2 | JP_B3 | JP_B4 | JP_L1 | JP_R1 | JP_S1 | JP_S2) == FaceButtons(RawButtons(r))
  {
    DpadButtons(r.x, r.y) | FaceButtons(RawButtons(r))
  }

  /** The event submitted for a report: no analog sticks or triggers. */
  function EventOf(devAddr: byte, instance: byte, r: PceReport): (e: GamepadEvent)
    ensures e.analog == [128, 128, 128, 128, 0, 0]
    ensures e.devAddr == devAddr && e.instance == instance
  {
    GamepadEvent(devAddr, instance, MapReport(r), [128, 128, 128, 128, 0, 0])
  }

  /**
   * The slot `process` indexes, as written: `dev_addr - 1` with no bound,
   * though the table holds five reports.
   */
  function SlotAsWritten(devAddr: byte): int {
    devAddr as int - 1
  }

  /** Address 0, and any address past 5, index outside the five-entry table. */
  lemma SlotOutOfRange(devAddr: byte)
    ensures !(0 <= SlotAsWritten(devAddr) < RAPHNET_PCE_SLOTS) <==> devAddr == 0 || devAddr > 5
    ensures SlotAsWritten(6) == RAPHNET_PCE_SLOTS
  {
  }

  /** Addresses that own a slot, the range `unmount` already checks. */
  predicate HasSlot(devAddr: byte) {
    0 < devAddr <= 5
  }

  /** The driver's static table of last reports, one per device address 1..5. */
  class PceHost {
    const prev: array<PceReport>

    predicate Valid()
      reads this
    {
      prev.Length == RAPHNET_PCE_SLOTS
    }

    /** The zero-initialised static table. */
    constructor ()
      ensures Valid() && fresh(prev)
      ensures forall i :: 0 <= i < RAPHNET_PCE_SLOTS ==> prev[i] == ZERO_REPORT
    {
      prev := new PceReport[RAPHNET_PCE_SLOTS](_ => ZERO_REPORT);
    }

    /**
     * `process_raphnet_pce`: a short report, and one equal to the stored
     * copy, is ignored; otherwise the copy is replaced and the event built.
     * An address without a slot is ignored as well.
     */
    method Process(devAddr: byte, instance: byte, data: seq<byte>) returns (ev: Option<GamepadEvent>)
      requires Valid()
      modifies prev
      ensures |data| < RAPHNET_PCE_REPORT_LEN || !HasSlot(devAddr) ==>
        ev.None? && prev[..] == old(prev[..])
      ensures |data| >= RAPHNET_PCE_REPORT_LEN && HasSlot(devAddr) ==>
        var r := Parse(data);
        && (ev.None? <==> old(prev[devAddr - 1]) == r)
        && (ev.Some? ==> ev.value == EventOf(devAddr, instance, r))
        && prev[..] == old(prev[..])[devAddr - 1 := r]
    {
      if |data| < RAPHNET_PCE_REPORT_LEN || !HasSlot(devAddr) {
        return None;
      }
      var current := Parse(data);
      if prev[devAddr - 1] == current {
        return None;
      }
      prev[devAddr - 1] := current;
      var buttons := DpadButtons(current.x, current.y) | FaceButtons(RawButtons(current));
      ev := Some(GamepadEvent(devAddr, instance, buttons, [128, 128, 128, 128, 0, 0]));
    }

    /** `unmount_raphnet_pce`: the stored copy is zeroed, for addresses 1..5 only. */
    method Unmount(devAddr: byte, instance: byte)
      requires Valid()
      modifies prev
      ensures HasSlot(devAddr) ==> prev[..] == old(prev[..])[devAddr - 1 := ZERO_REPORT]
      ensures !HasSlot(devAddr) ==> prev[..] == old(prev[..])
    {
      if 0 < devAddr && devAddr <= 5 {
        prev[devAddr - 1] := ZERO_REPORT;
      }
    }
  }

  /**
   * A report repeated is ignored the second time, and a device unmounted
   * and plugged back in reports again.
   */
  method RepeatIgnored(h: PceHost, devAddr: byte, instance: byte, data: seq<byte>)
      returns (first: Option<GamepadEvent>, second: Option<GamepadEvent>)
    requires h.Valid() && HasSlot(devAddr) && |data| >= RAPHNET_PCE_REPORT_LEN
    modifies h.prev
    ensures first.Some? <==> old(h.prev[devAddr - 1]) != Parse(data)
    ensures second.None?
    ensures h.prev[devAddr - 1] == Parse(data)
  {
    first := h.Process(devAddr, instance, data);
    assert h.prev[devAddr - 1] == Parse(data);
    second := h.Process(devAddr, instance, data);
  }
}

=== FILE: sinput_mode.dfy ===
// The SInput output mode: a 32-bit button word sent as four little-endian
// bytes, unclamped signed 16-bit sticks, 15-bit triggers, a microsecond IMU
// timestamp, and a two-motor haptic command.

module SinputMode {
  import opened Common
  import opened ButtonRemap
  import opened UsbdMode

  const SINPUT_REPORT_ID_INPUT: byte := 0x01
  const SINPUT_REPORT_ID_OUTPUT: byte := 0x03
  const SINPUT_CMD_HAPTIC: byte := 0x01
  /** The haptic command's type byte for the two-motor (ERM) format. */
  const SINPUT_HAPTIC_ERM: byte := 2

  // Ordered by SInput button bit; SInput's face buttons are East, South, North, West.
  const SINPUT_FACE: seq<Move> := [
    Move(1, 0),    // B2 -> East
    Move(0, 1),    // B1 -> South
    Move(3, 2),    // B4 -> North
    Move(2, 3)     // B3 -> West
  ]
  const SINPUT_DPAD: seq<Move> := [
    Move(12, 4),   // DU
    Move(13, 5),   // DD
    Move(14, 6),   // DL
    Move(15, 7)    // DR
  ]
  const SINPUT_STICKS_BUMPERS: seq<Move> := [
    Move(10, 8),   // L3
    Move(11, 9),   // R3
    Move(4, 10),   // L1
    Move(5, 11)    // R1
  ]
  const SINPUT_TRIGGERS_PADDLES: seq<Move> := [
    Move(6, 12),   // L2
    Move(7, 13),   // R2
    Move(20, 14),  // L4 -> left paddle 1
    Move(21, 15)   // R4 -> right paddle 1
  ]
  const SINPUT_SYSTEM: seq<Move> := [
    Move(9, 16),   // S2 -> Start
    Move(8, 17),   // S1 -> Back
    Move(16, 18),  // A1 -> Guide
    Move(17, 19)   // A2 -> Capture
  ]
  const SINPUT_MOVES: seq<Move> :=
    SINPUT_FACE + (SINPUT_DPAD + (SINPUT_STICKS_BUMPERS + (SINPUT_TRIGGERS_PADDLES + SINPUT_SYSTEM)))

  /** `convert_buttons`: twenty JP buttons onto SInput buttons 0..19. */
  function ConvertButtons(buttons: Buttons): Buttons {
    Remap(SINPUT_MOVES, buttons)
  }

  lemma SinputUpperAscending()
    ensures TargetsAscending(SINPUT_STICKS_BUMPERS + (SINPUT_TRIGGERS_PADDLES + SINPUT_SYSTEM))
  {
    assert TargetsAscending(SINPUT_SYSTEM) && TargetsAscending(SINPUT_TRIGGERS_PADDLES) by {}
    AscendingAppend(SINPUT_TRIGGERS_PADDLES, SINPUT_SYSTEM);
    assert TargetsAscending(SINPUT_STICKS_BUMPERS) by {}
    AscendingAppend(SINPUT_STICKS_BUMPERS, SINPUT_TRIGGERS_PADDLES + SINPUT_SYSTEM);
  }

  lemma SinputMovesDistinct()
    ensures TargetsDistinct(SINPUT_MOVES)
  {
    var tail2 := SINPUT_STICKS_BUMPERS + (SINPUT_TRIGGERS_PADDLES + SINPUT_SYSTEM);
    var tail1 := SINPUT_DPAD + tail2;
    SinputUpperAscending();
    assert TargetsAscending(SINPUT_DPAD) by {}
    AscendingAppend(SINPUT_DPAD, tail2);
    assert TargetsAscending(SINPUT_FACE) by {}
    AscendingAppend(SINPUT_FACE, tail1);
    AscendingDistinct(SINPUT_MOVES);
  }

  /** Each listed JP button sets its own SInput button, and only when pressed. */
  lemma ConvertMove(buttons: Buttons, i: nat)
    requires i < |SINPUT_MOVES|
    ensures BitSet(ConvertButtons(buttons), SINPUT_MOVES[i].to) <==> BitSet(buttons, SINPUT_MOVES[i].from)
  {
    SinputMovesDistinct();
    MovedBit(SINPUT_MOVES, buttons, i);
  }

  /** SInput buttons 20 and up (second paddles, touchpads, power, misc) are never set. */
  lemma ConvertOnlyListed(buttons: Buttons, k: BitPos)
    requires k >= 20
    ensures !BitSet(ConvertButtons(buttons), k)
  {
    Untargeted(SINPUT_MOVES, buttons, k);
  }

  /** A3, A4 and the JP bits above R4 do not reach the report. */
  lemma ConvertIgnoresUnlisted(buttons: Buttons, k: BitPos)
    ensures BitSet(ConvertButtons(buttons), k) <==> BitSet(ConvertButtons(buttons & 0x0033_FFFF), k)
  {
    forall i | 0 <= i < |SINPUT_MOVES|
      ensures BitSet(buttons, SINPUT_MOVES[i].from) <==> BitSet(buttons & 0x0033_FFFF, SINPUT_MOVES[i].from)
    {
      KeptBit(buttons, SINPUT_MOVES[i].from);
    }
    OnlySourcesRead(SINPUT_MOVES, buttons, buttons & 0x0033_FFFF, k);
  }

  /** Masking off A3, A4 and the bits above R4 keeps every listed source bit. */
  lemma KeptBit(x: Buttons, f: BitPos)
    requires f < 18 || f == 20 || f == 21
    ensures BitSet(x, f) <==> BitSet(x & 0x0033_FFFF, f)
  {
  }

  /** The converted word fits in 20 bits. */
  lemma ConvertFits(buttons: Buttons)
    ensures ConvertButtons(buttons) & 0xFFF0_0000 == 0
  {
    ConvertOnlyListed(buttons, 20);
    ConvertOnlyListed(buttons, 21);
    ConvertOnlyListed(buttons, 22);
    ConvertOnlyListed(buttons, 23);
    ConvertOnlyListed(buttons, 24);
    ConvertOnlyListed(buttons, 25);
    ConvertOnlyListed(buttons, 26);
    ConvertOnlyListed(buttons, 27);
    ConvertOnlyListed(buttons, 28);
    ConvertOnlyListed(buttons, 29);
    ConvertOnlyListed(buttons, 30);
    ConvertOnlyListed(buttons, 31);
  }

  /** `convert_trigger_to_s16`: 0..255 scaled onto 0..32767. */
  function TriggerToS16(v: byte): (t: int)
    ensures 0 <= t <= 0x7FFF
    ensures t == 0 <==> v == 0
    ensures t == 0x7FFF <==> v == 255
  {
    v * 32767 / 255
  }

  /** A further-pulled trigger always reads strictly higher: no two positions collapse. */
  lemma TriggerStrictlyMonotone(v: byte, w: byte)
    requires v < w
    ensures TriggerToS16(v) + 128 <= TriggerToS16(w)
  {
    var a := v * 32767;
    var b := w * 32767;
    assert b >= a + 32767;
    var q := a / 255;
    assert a < (q + 1) * 255;
    assert b >= (q + 1) * 255 + 127 * 255;
    assert b / 255 >= q + 128;
  }

  /** The fields of `sinput_report_t` that the mode writes; the IMU readings stay 0. */
  datatype SinputReport = SinputReport(
    reportId: byte, buttons0: bv8, buttons1: bv8, buttons2: bv8, buttons3: bv8,
    lx: int, ly: int, rx: int, ry: int, lt: int, rt: int, imuTimestamp: u32)

  /** The report after `init`: the input report id, everything else 0. */
  const INIT_REPORT: SinputReport := SinputReport(SINPUT_REPORT_ID_INPUT, 0, 0, 0, 0, 0, 0, 0, 0, 0, 0, 0)

  /**
   * The report after `send_report`; `now` is the microsecond clock it reads.
   * The sticks use the unclamped (v - 128) * 256, which never leaves the int16 range.
   */
  function Report(prev: SinputReport, p: ProfileOut, buttons: Buttons, now: u32): (r: SinputReport)
    ensures r.reportId == prev.reportId && r.imuTimestamp == now
  {
    var word := ConvertButtons(buttons);
    prev.(buttons0 := (word & 0xFF) as bv8, buttons1 := ((word >> 8) & 0xFF) as bv8,
          buttons2 := ((word >> 16) & 0xFF) as bv8, buttons3 := ((word >> 24) & 0xFF) as bv8,
          lx := (p.leftX - 128) * 256, ly := (p.leftY - 128) * 256,
          rx := (p.rightX - 128) * 256, ry := (p.rightY - 128) * 256,
          lt := TriggerToS16(p.l2Analog), rt := TriggerToS16(p.r2Analog),
          imuTimestamp := now)
  }

  /** The four button bytes put back together, least significant first. */
  function Join(b0: bv8, b1: bv8, b2: bv8, b3: bv8): Buttons {
    (b0 as bv32) | ((b1 as bv32) << 8) | ((b2 as bv32) << 16) | ((b3 as bv32) << 24)
  }

  /** Any 32-bit word survives the little-endian byte split. */
  lemma SplitJoin(word: Buttons)
    ensures Join((word & 0xFF) as bv8, ((word >> 8) & 0xFF) as bv8,
                 ((word >> 16) & 0xFF) as bv8, ((word >> 24) & 0xFF) as bv8) == word
  {
  }

  /** The report carries the whole button word: it comes back from the four bytes, and the top byte is 0. */
  lemma ButtonsSplitLossless(prev: SinputReport, p: ProfileOut, buttons: Buttons, now: u32)
    ensures var r := Report(prev, p, buttons, now);
      && Join(r.buttons0, r.buttons1, r.buttons2, r.buttons3) == ConvertButtons(buttons)
      && r.buttons3 == 0 && r.buttons2 < 0x10
  {
    ConvertFits(buttons);
    SplitJoin(ConvertButtons(buttons));
  }

  /** The sticks are the clamped conversion of the other modes, unclamped here because it never overflows. */
  lemma SticksInRange(prev: SinputReport, p: ProfileOut, buttons: Buttons, now: u32)
    ensures var r := Report(prev, p, buttons, now);
      && r.lx == AxisToS16(p.leftX) && r.ly == AxisToS16(p.leftY)
      && r.rx == AxisToS16(p.rightX) && r.ry == AxisToS16(p.rightY)
      && AxisFromS16(r.lx) == p.leftX && AxisFromS16(r.ly) == p.leftY
  {
    AxisRoundTrip(p.leftX);
    AxisRoundTrip(p.leftY);
  }

  /** A haptic command in the two-motor format, the only output the mode acts on. */
  predicate IsErmHaptic(reportId: byte, data: seq<byte>) {
    reportId == SINPUT_REPORT_ID_OUTPUT && |data| >= 6 &&
    data[0] == SINPUT_CMD_HAPTIC && data[1] == SINPUT_HAPTIC_ERM
  }

  /** The mode's state: the input report and the two motor amplitudes. */
  class SinputDevice {
    var report: SinputReport
    var rumbleLeft: byte
    var rumbleRight: byte

    /** `sinput_mode_init`. */
    constructor ()
      ensures report == INIT_REPORT && rumbleLeft == 0 && rumbleRight == 0
    {
      report := INIT_REPORT;
      rumbleLeft := 0;
      rumbleRight := 0;
    }

    /** `sinput_mode_send_report`; `now` is the value of the microsecond clock. */
    method SendReport(p: ProfileOut, buttons: Buttons, now: u32)
      modifies this`report
      ensures report == Report(old(report), p, buttons, now)
    {
      report := Report(report, p, buttons, now);
    }

    /**
     * `sinput_mode_handle_output`: `data` is the report after its id. Only a
     * two-motor haptic command sets the motors (left and right amplitude in
     * bytes 2 and 4); LED commands, short reports and other ids change nothing.
     */
    method HandleOutput(reportId: byte, data: seq<byte>)
      requires |data| <= 0xFFFF
      modifies this`rumbleLeft, this`rumbleRight
      ensures IsErmHaptic(reportId, data) ==> rumbleLeft == data[2] && rumbleRight == data[4]
      ensures !IsErmHaptic(reportId, data) ==>
        rumbleLeft == old(rumbleLeft) && rumbleRight == old(rumbleRight)
    {
      if reportId != SINPUT_REPORT_ID_OUTPUT || |data| < 2 {
        return;
      }
      var command := data[0];
      if command == SINPUT_CMD_HAPTIC {
        if |data| >= 6 && data[1] == SINPUT_HAPTIC_ERM {
          rumbleLeft := data[2];
          rumbleRight := data[4];
        }
      }
    }

    /** `sinput_mode_get_rumble`: the stronger motor. */
    function GetRumble(): (r: byte)
      reads this
      ensures r >= rumbleLeft && r >= rumbleRight
      ensures r == rumbleLeft || r == rumbleRight
    {
      if rumbleLeft > rumbleRight then rumbleLeft else rumbleRight
    }

    /**
     * `sinput_mode_get_feedback`: reports the motors (and the RGB LED off)
     * whenever either runs; it consumes nothing, so it repeats until the
     * host stops the motors.
     */
    function GetFeedback(fb: Feedback): (r: (bool, Feedback))
      reads this
      ensures r.0 <==> GetRumble() > 0
      ensures !r.0 ==> r.1 == fb
      ensures r.0 ==> r.1.rumbleLeft == rumbleLeft && r.1.rumbleRight == rumbleRight && r.1.dirty
      ensures r.0 ==> r.1.ledR == r.1.ledG == r.1.ledB == 0 && r.1.ledPlayer == fb.ledPlayer
    {
      if rumbleLeft == 0 && rumbleRight == 0 then (false, fb)
      else (true, fb.(rumbleLeft := rumbleLeft, rumbleRight := rumbleRight, ledR := 0, ledG := 0, ledB := 0, dirty := true))
    }
  }
}

=== FILE: switch2_pro.dfy ===
// The Switch 2 Pro (and Switch 2 GameCube) controller host driver: the 12-bit
// stick unpacking and calibrated scaling, the button map, the four reports
// spent on centre calibration, the HD-haptic rumble report, and the bulk
// initialisation sequence of eighteen commands that the task sends one at a
// time, each after the previous transfer completed.

module Switch2Pro {
  import opened Common

  const SWITCH2_INIT_CMD_COUNT: nat := 18
  const STICK_RANGE_PRO: nat := 1610
  const STICK_RANGE_GC: nat := 1225
  const STICK_RANGE_GC_CSTICK: nat := 1120
  const CAL_SAMPLES_NEEDED: nat := 4
  const HAPTIC_INTERVAL_MS: nat := 50
  const FIND_ENDPOINT_DELAY_MS: nat := 100
  const MIN_INTENSITY: nat := 64
  const REPORT_MIN_LEN: nat := 12
  const CMD_BUF_SIZE: nat := 32

  function Zeros(n: nat): (z: seq<byte>)
    ensures |z| == n && forall i :: 0 <= i < n ==> z[i] == 0
  {
    seq(n, _ => 0)
  }

  // ---------------------------------------------------------------------------
  // The bulk commands
  // ---------------------------------------------------------------------------

  const CMD_INIT_HID: seq<byte> := [0x03, 0x91, 0x00, 0x0d, 0x00, 0x08, 0x00, 0x00, 0x01, 0x00,
    0xFF, 0xFF, 0xFF, 0xFF, 0xFF, 0xFF]
  const CMD_07: seq<byte> := [0x07, 0x91, 0x00, 0x01, 0x00, 0x00, 0x00, 0x00]
  const CMD_16: seq<byte> := [0x16, 0x91, 0x00, 0x01, 0x00, 0x00, 0x00, 0x00]
  const CMD_REQUEST_MAC: seq<byte> := [0x15, 0x91, 0x00, 0x01, 0x00, 0x0e, 0x00, 0x00, 0x00, 0x02,
    0xFF, 0xFF, 0xFF, 0xFF, 0xFF, 0xFF, 0xFF, 0xFF, 0xFF, 0xFF, 0xFF]
  const CMD_LTK: seq<byte> := [0x15, 0x91, 0x00, 0x02, 0x00, 0x11, 0x00, 0x00, 0x00,
    0xFF, 0xFF, 0xFF, 0xFF, 0xFF, 0xFF, 0xFF, 0xFF,
    0xFF, 0xFF, 0xFF, 0xFF, 0xFF, 0xFF, 0xFF, 0xFF]
  const CMD_15_03: seq<byte> := [0x15, 0x91, 0x00, 0x03, 0x00, 0x01, 0x00, 0x00, 0x00]
  const CMD_LED_INIT: seq<byte> := [0x09, 0x91, 0x00, 0x07, 0x00, 0x08, 0x00, 0x00, 0x00, 0x00,
    0x00, 0x00, 0x00, 0x00, 0x00, 0x00]
  const CMD_IMU_02: seq<byte> := [0x0c, 0x91, 0x00, 0x02, 0x00, 0x04, 0x00, 0x00, 0x27, 0x00, 0x00, 0x00]
  const CMD_ENABLE_HAPTICS: seq<byte> := [0x03, 0x91, 0x00, 0x0a, 0x00, 0x04, 0x00, 0x00, 0x09, 0x00, 0x00, 0x00]
  const CMD_11: seq<byte> := [0x11, 0x91, 0x00, 0x03, 0x00, 0x00, 0x00, 0x00]
  const CMD_0A_08: seq<byte> := [0x0a, 0x91, 0x00, 0x08, 0x00, 0x14, 0x00, 0x00, 0x01,
    0xff, 0xff, 0xff, 0xff, 0xff, 0xff, 0xff, 0xff,
    0x35, 0x00, 0x46, 0x00, 0x00, 0x00, 0x00, 0x00, 0x00, 0x00, 0x00]
  const CMD_IMU_04: seq<byte> := [0x0c, 0x91, 0x00, 0x04, 0x00, 0x04, 0x00, 0x00, 0x27, 0x00, 0x00, 0x00]
  const CMD_10: seq<byte> := [0x10, 0x91, 0x00, 0x01, 0x00, 0x00, 0x00, 0x00]
  const CMD_01: seq<byte> := [0x01, 0x91, 0x00, 0x0c, 0x00, 0x00, 0x00, 0x00]
  const CMD_03_ALT: seq<byte> := [0x03, 0x91, 0x00, 0x01, 0x00, 0x00, 0x00]
  const CMD_0A_02: seq<byte> := [0x0a, 0x91, 0x00, 0x02, 0x00, 0x04, 0x00, 0x00, 0x03, 0x00, 0x00]

  /** The player LED pattern: players 0-3 light the first one to four LEDs; any other index lights the first. */
  function LedPattern(player: byte): (p: byte)
    ensures player < 4 ==> p + 1 == Pow2(player + 1)
    ensures player >= 4 ==> p == 1
  {
    assert Pow2(1) == 2 && Pow2(2) == 4 && Pow2(3) == 8 && Pow2(4) == 16;
    if player < 4 then [0x01, 0x03, 0x07, 0x0F][player] else 0x01
  }

  /** The 16-byte player LED command. */
  function PlayerLedCommand(pattern: byte): (c: seq<byte>)
    ensures |c| == 16 && c[0] == 0x09 && c[1] == 0x91 && c[2] == 0x00 && c[3] == 0x07
    ensures c[8] == pattern && c[9..] == Zeros(7)
  {
    [0x09, 0x91, 0x00, 0x07, 0x00, 0x08, 0x00, 0x00, pattern] + Zeros(7)
  }

  /**
   * `get_init_cmd`: commands 0-17 (the haptics enable twice, at 8 and 17,
   * and the player LED at 16); any other index gives none. Every command
   * has the `[cmd, 0x91, 0x00, arg, ...]` form and fits the 32-byte
   * transfer buffer.
   */
  function InitCommand(index: nat, playerLed: byte): (c: Option<seq<byte>>)
    ensures c.Some? <==> index < SWITCH2_INIT_CMD_COUNT
    ensures c.Some? ==> 7 <= |c.value| <= CMD_BUF_SIZE && c.value[1] == 0x91 && c.value[2] == 0x00
    ensures index == 8 || index == 17 ==> c == Some(CMD_ENABLE_HAPTICS)
    ensures index == 16 ==> c == Some(PlayerLedCommand(LedPattern(playerLed)))
  {
    match index
    case 0 => Some(CMD_INIT_HID)
    case 1 => Some(CMD_07)
    case 2 => Some(CMD_16)
    case 3 => Some(CMD_REQUEST_MAC)
    case 4 => Some(CMD_LTK)
    case 5 => Some(CMD_15_03)
    case 6 => Some(CMD_LED_INIT)
    case 7 => Some(CMD_IMU_02)
    case 8 => Some(CMD_ENABLE_HAPTICS)
    case 9 => Some(CMD_11)
    case 10 => Some(CMD_0A_08)
    case 11 => Some(CMD_IMU_04)
    case 12 => Some(CMD_10)
    case 13 => Some(CMD_01)
    case 14 => Some(CMD_03_ALT)
    case 15 => Some(CMD_0A_02)
    case 16 => Some(PlayerLedCommand(LedPattern(playerLed)))
    case 17 => Some(CMD_ENABLE_HAPTICS)
    case _ => None
  }

  // ---------------------------------------------------------------------------
  // Sticks
  // ---------------------------------------------------------------------------

  /** Three stick bytes holding two 12-bit values. */
  type Stick = s: seq<byte> | |s| == 3 witness [0, 0, 0]

  /** X is byte 0 and the low nibble of byte 1; Y the high nibble of byte 1 and byte 2. */
  function Unpack(s: Stick): (xy: (nat, nat))
    ensures xy.0 < 0x1000 && xy.1 < 0x1000
  {
    (s[0] as int + (s[1] as int % 0x10) * 0x100, s[1] as int / 0x10 + s[2] as int * 0x10)
  }

  /** The packing the controller uses. */
  function Pack(x: nat, y: nat): Stick
    requires x < 0x1000 && y < 0x1000
  {
    [x % 0x100, x / 0x100 + (y % 0x10) * 0x10, y / 0x10]
  }

  /** Unpacking reads back what was packed ... */
  lemma UnpackPack(x: nat, y: nat)
    requires x < 0x1000 && y < 0x1000
    ensures Unpack(Pack(x, y)) == (x, y)
  {
  }

  /** ... and loses no bit of the three bytes. */
  lemma PackUnpack(s: Stick)
    ensures Pack(Unpack(s).0, Unpack(s).1) == s
  {
    var b1: int := s[1];
    assert b1 == (b1 / 0x10) * 0x10 + b1 % 0x10;
  }

  /**
   * `scale_analog_calibrated`: the offset from the centre times 127 over
   * the stick range, truncated toward zero, clamped to -128..127 and moved
   * up by 128.
   */
  function ScaleCalibrated(val: u16, center: u16, range: nat): (r: byte)
    requires range > 0
    ensures val == center ==> r == 128
    ensures val > center ==> r >= 128
    ensures val < center ==> r <= 128
  {
    Clamp(CDiv((val - center) * 127, range), -128, 127) + 128
  }

  /** A further deflection never reads lower. */
  lemma ScaleMonotone(a: u16, b: u16, center: u16, range: nat)
    requires range > 0 && a <= b
    ensures ScaleCalibrated(a, center, range) <= ScaleCalibrated(b, center, range)
  {
    var x, y := (a - center) * 127, (b - center) * 127;
    assert x <= y;
    if x >= 0 {
      DivMonotone(x, y, range);
    } else if y >= 0 {
    } else {
      DivMonotone(-y, -x, range);
    }
  }

  lemma DivMonotone(x: nat, y: nat, d: nat)
    requires x <= y && d > 0
    ensures x / d <= y / d
  {
    var qx, qy := x / d, y / d;
    assert qx * d <= x;
    assert y < (qy + 1) * d;
    if qx > qy {
      MulMonotone(qy + 1, qx, d);
    }
  }

  lemma MulMonotone(a: int, b: int, d: nat)
    requires a <= b
    ensures a * d <= b * d
  {
  }

  /** A deflection by the full range reaches the end of the output. */
  lemma ScaleFull(val: u16, center: u16, range: nat)
    requires range > 0
    ensures val >= center + range ==> ScaleCalibrated(val, center, range) == 255
    ensures val + range <= center ==> ScaleCalibrated(val, center, range) <= 1
  {
    if val >= center + range {
      DivMonotone(range * 127, (val - center) * 127, range);
      assert range * 127 / range == 127;
    }
    if val + range <= center {
      DivMonotone(range * 127, (center - val) * 127, range);
      assert range * 127 / range == 127;
    }
  }

  /** The vertical axes are inverted, so up reads low. */
  function InvertY(v: byte): (r: byte)
    ensures r + v == 255
  {
    255 - v
  }

  /** `cal_lx` .. `cal_ry`: the calibrated centres. */
  datatype Centers = Centers(lx: u16, ly: u16, rx: u16, ry: u16)

  /** The running average of the calibration samples. */
  function Average(center: u16, sample: u16): (r: u16)
    ensures Min(center, sample) <= r <= Max(center, sample)
  {
    (center + sample) / 2
  }

  /** One calibration sample: the first sets the centres, the next ones average into them. */
  function Calibrate(c: Centers, first: bool, l: (nat, nat), r: (nat, nat)): (n: Centers)
    requires l.0 < 0x1000 && l.1 < 0x1000 && r.0 < 0x1000 && r.1 < 0x1000
    ensures first ==> n == Centers(l.0, l.1, r.0, r.1)
    ensures !first ==> Min(c.lx, l.0) <= n.lx <= Max(c.lx, l.0) && Min(c.ly, l.1) <= n.ly <= Max(c.ly, l.1)
    ensures !first ==> Min(c.rx, r.0) <= n.rx <= Max(c.rx, r.0) && Min(c.ry, r.1) <= n.ry <= Max(c.ry, r.1)
  {
    if first then Centers(l.0, l.1, r.0, r.1)
    else Centers(Average(c.lx, l.0), Average(c.ly, l.1), Average(c.rx, r.0), Average(c.ry, r.1))
  }

  // ---------------------------------------------------------------------------
  // Buttons and the event
  // ---------------------------------------------------------------------------

  /** `switch2_pro_report_t`: the report id, the button bits and the two packed sticks. */
  datatype Switch2Report = Switch2Report(
    reportId: byte,
    b1: bool, b2: bool, b3: bool, b4: bool,
    l1: bool, r1: bool, l2: bool, r2: bool,
    s1: bool, s2: bool, l3: bool, r3: bool,
    du: bool, dd: bool, dl: bool, dr: bool,
    a1: bool, a2: bool, a3: bool, l4: bool, r4: bool,
    leftStick: Stick, rightStick: Stick)

  /** B, A, Y, X press B1-B4. */
  function FaceBits(b1: bool, b2: bool, b3: bool, b4: bool): (b: Buttons)
    ensures Pressed(b, JP_B1) <==> b1
    ensures Pressed(b, JP_B2) <==> b2
    ensures Pressed(b, JP_B3) <==> b3
    ensures Pressed(b, JP_B4) <==> b4
    ensures b & !FACE_MASK == 0
  {
    (if b1 then JP_B1 else 0) | (if b2 then JP_B2 else 0) |
    (if b3 then JP_B3 else 0) | (if b4 then JP_B4 else 0)
  }

  /** The four shoulder bits, in the order L1, R1, L2, R2. */
  function ShoulderBits(l1: bool, r1: bool, l2: bool, r2: bool): (b: Buttons)
    ensures Pressed(b, JP_L1) <==> l1
    ensures Pressed(b, JP_R1) <==> r1
    ensures Pressed(b, JP_L2) <==> l2
    ensures Pressed(b, JP_R2) <==> r2
    ensures b & !SHOULDER_MASK == 0
  {
    (if l1 then JP_L1 else 0) | (if r1 then JP_R1 else 0) |
    (if l2 then JP_L2 else 0) | (if r2 then JP_R2 else 0)
  }

  /** Minus, Plus, the stick clicks and Home. */
  function SystemBits(s1: bool, s2: bool, l3: bool, r3: bool, a1: bool): (b: Buttons)
    ensures Pressed(b, JP_S1) <==> s1
    ensures Pressed(b, JP_S2) <==> s2
    ensures Pressed(b, JP_L3) <==> l3
    ensures Pressed(b, JP_R3) <==> r3
    ensures Pressed(b, JP_A1) <==> a1
    ensures b & !SYSTEM_MASK == 0
  {
    (if s1 then JP_S1 else 0) | (if s2 then JP_S2 else 0) |
    (if l3 then JP_L3 else 0) | (if r3 then JP_R3 else 0) |
    (if a1 then JP_A1 else 0)
  }

  /** Capture, the square button and the rear paddles. */
  function ExtraBits(a2: bool, a3: bool, l4: bool, r4: bool): (b: Buttons)
    ensures Pressed(b, JP_A2) <==> a2
    ensures Pressed(b, JP_A3) <==> a3
    ensures Pressed(b, JP_L4) <==> l4
    ensures Pressed(b, JP_R4) <==> r4
    ensures b & !EXTRA_MASK == 0
  {
    (if a2 then JP_A2 else 0) | (if a3 then JP_A3 else 0) |
    (if l4 then JP_L4 else 0) | (if r4 then JP_R4 else 0)
  }

  function DpadBits(du: bool, dd: bool, dl: bool, dr: bool): (b: Buttons)
    ensures Pressed(b, JP_DU) <==> du
    ensures Pressed(b, JP_DD) <==> dd
    ensures Pressed(b, JP_DL) <==> dl
    ensures Pressed(b, JP_DR) <==> dr
    ensures b & !DPAD_MASK == 0
  {
    (if du then JP_DU else 0) | (if dd then JP_DD else 0) |
    (if dl then JP_DL else 0) | (if dr then JP_DR else 0)
  }

  /**
   * L, R, ZL, ZR press L1, R1, L2, R2 on the Pro controller; on the
   * GameCube controller L and R are the main triggers and press L2 and R2,
   * and ZL and ZR press L1 and R1.
   */
  function ShoulderButtons(r: Switch2Report, isGc: bool): (b: Buttons)
    ensures Pressed(b, JP_L1) <==> (if isGc then r.l2 else r.l1)
    ensures Pressed(b, JP_R1) <==> (if isGc then r.r2 else r.r1)
    ensures Pressed(b, JP_L2) <==> (if isGc then r.l1 else r.l2)
    ensures Pressed(b, JP_R2) <==> (if isGc then r.r1 else r.r2)
    ensures b & !SHOULDER_MASK == 0
  {
    if isGc then ShoulderBits(r.l2, r.r2, r.l1, r.r1) else ShoulderBits(r.l1, r.r1, r.l2, r.r2)
  }

  const FACE_MASK: Buttons := JP_B1 | JP_B2 | JP_B3 | JP_B4
  const SHOULDER_MASK: Buttons := JP_L1 | JP_R1 | JP_L2 | JP_R2
  const SYSTEM_MASK: Buttons := JP_S1 | JP_S2 | JP_L3 | JP_R3 | JP_A1
  const EXTRA_MASK: Buttons := JP_A2 | JP_A3 | JP_L4 | JP_R4
  const DPAD_MASK: Buttons := JP_DU | JP_DD | JP_DL | JP_DR

  const FRONT_MASK: Buttons := FACE_MASK | SHOULDER_MASK
  const BACK_MASK: Buttons := SYSTEM_MASK | EXTRA_MASK | DPAD_MASK

  /** The face and shoulder buttons. */
  function FrontButtons(r: Switch2Report, isGc: bool): (b: Buttons)
    ensures b & FACE_MASK == FaceBits(r.b1, r.b2, r.b3, r.b4)
    ensures b & SHOULDER_MASK == ShoulderButtons(r, isGc)
    ensures b & !FRONT_MASK == 0
  {
    FaceBits(r.b1, r.b2, r.b3, r.b4) | ShoulderButtons(r, isGc)
  }

  /** The system buttons, the extra buttons and the d-pad. */
  function BackButtons(r: Switch2Report): (b: Buttons)
    ensures b & SYSTEM_MASK == SystemBits(r.s1, r.s2, r.l3, r.r3, r.a1)
    ensures b & EXTRA_MASK == ExtraBits(r.a2, r.a3, r.l4, r.r4)
    ensures b & DPAD_MASK == DpadBits(r.du, r.dd, r.dl, r.dr)
    ensures b & !BACK_MASK == 0
  {
    SystemBits(r.s1, r.s2, r.l3, r.r3, r.a1) | ExtraBits(r.a2, r.a3, r.l4, r.r4) | DpadBits(r.du, r.dd, r.dl, r.dr)
  }

  /** The button word: five groups on disjoint bits, and A4 and the bits above R4 clear. */
  function MapButtons(r: Switch2Report, isGc: bool): (b: Buttons)
    ensures b & FACE_MASK == FaceBits(r.b1, r.b2, r.b3, r.b4)
    ensures b & SHOULDER_MASK == ShoulderButtons(r, isGc)
    ensures b & SYSTEM_MASK == SystemBits(r.s1, r.s2, r.l3, r.r3, r.a1)
    ensures b & EXTRA_MASK == ExtraBits(r.a2, r.a3, r.l4, r.r4)
    ensures b & DPAD_MASK == DpadBits(r.du, r.dd, r.dl, r.dr)
    ensures b & !(FRONT_MASK | BACK_MASK) == 0
  {
    FrontButtons(r, isGc) | BackButtons(r)
  }

  /** The GameCube map is the Pro map with L/ZL and R/ZR exchanged. */
  lemma GameCubeSwapsShoulders(r: Switch2Report)
    ensures MapButtons(r, true) == MapButtons(r.(l1 := r.l2, l2 := r.l1, r1 := r.r2, r2 := r.r1), false)
  {
  }

  /** The stick ranges: the GameCube main stick and C-stick travel less than the Pro sticks. */
  function LeftRange(isGc: bool): nat { if isGc then STICK_RANGE_GC else STICK_RANGE_PRO }
  function RightRange(isGc: bool): nat { if isGc then STICK_RANGE_GC_CSTICK else STICK_RANGE_PRO }

  /** The event for a report once calibrated: both sticks scaled about their centres, Y inverted, no triggers. */
  function EventOf(devAddr: byte, instance: byte, r: Switch2Report, isGc: bool, c: Centers): (e: GamepadEvent)
    ensures e.devAddr == devAddr && e.instance == instance
    ensures e.buttons == MapButtons(r, isGc) && |e.analog| == 6
    ensures e.analog[4] == 0 && e.analog[5] == 0
    ensures Unpack(r.leftStick) == (c.lx, c.ly) ==> e.analog[0] == 128 && e.analog[1] == 127
    ensures Unpack(r.rightStick) == (c.rx, c.ry) ==> e.analog[2] == 128 && e.analog[3] == 127
  {
    var (lx, ly) := Unpack(r.leftStick);
    var (rx, ry) := Unpack(r.rightStick);
    GamepadEvent(devAddr, instance, MapButtons(r, isGc),
      [ScaleCalibrated(lx, c.lx, LeftRange(isGc)), InvertY(ScaleCalibrated(ly, c.ly, LeftRange(isGc))),
       ScaleCalibrated(rx, c.rx, RightRange(isGc)), InvertY(ScaleCalibrated(ry, c.ry, RightRange(isGc))),
       0, 0])
  }

  // ---------------------------------------------------------------------------
  // Rumble
  // ---------------------------------------------------------------------------

  /** A non-zero intensity below 64 is raised to 64, the least the motors render. */
  function MinIntensity(v: byte): (r: byte)
    ensures r == 0 <==> v == 0
    ensures r != 0 ==> r >= MIN_INTENSITY
    ensures v >= MIN_INTENSITY ==> r == v
  {
    if v > 0 && v < MIN_INTENSITY then MIN_INTENSITY else v
  }

  /**
   * `encode_haptic`: off is five zero bytes; otherwise both bands get the
   * amplitude 0x40 + intensity * 0xBF / 255 at frequency 0x60, flags 0.
   */
  function EncodeHaptic(intensity: byte): (out: seq<byte>)
    ensures |out| == 5
    ensures intensity == 0 ==> out == Zeros(5)
    ensures intensity != 0 ==>
      && 0x40 <= out[0] <= 0xFF && out[2] == out[0]
      && out[1] == 0x60 && out[3] == 0x60 && out[4] == 0
  {
    if intensity == 0 then [0, 0, 0, 0, 0]
    else
      var amp := 0x40 + intensity * 0xBF / 255;
      [amp, 0x60, amp, 0x60, 0]
  }

  /** The amplitude grows with the intensity and reaches 0xFF at 255. */
  lemma HapticMonotone(a: byte, b: byte)
    requires 0 < a <= b
    ensures EncodeHaptic(a)[0] <= EncodeHaptic(b)[0]
    ensures EncodeHaptic(1)[0] == 0x40 && EncodeHaptic(255)[0] == 0xFF
  {
    DivMonotone(a * 0xBF, b * 0xBF, 255);
  }

  /** A HID output report: its id and the bytes after the id. */
  datatype HidReport = HidReport(id: byte, data: seq<byte>)

  /**
   * The rumble report for a haptic counter and two intensities: the 64-byte
   * buffer after its id byte. The counter byte is 0x50 plus the counter
   * once advanced, because the buffer is first built once with the counter
   * and advanced before the controller-specific part is written.
   */
  function HapticReport(isGc: bool, counter: nat, left: byte, right: byte): (r: HidReport)
    requires counter < 16
    ensures |r.data| == 63
    ensures r.id == (if isGc then 0x03 else 0x02)
    ensures r.data[0] == 0x50 + (counter + 1) % 16
    ensures isGc ==> r.data[1] == (if left != 0 || right != 0 then 1 else 0) && r.data[2..] == Zeros(61)
    ensures !isGc ==>
      && r.data[16] == r.data[0]
      && r.data[1..6] == EncodeHaptic(left) && r.data[17..22] == EncodeHaptic(right)
      && r.data[6..16] == Zeros(10) && r.data[22..] == Zeros(41)
  {
    var c: byte := 0x50 + (counter + 1) % 16;
    if isGc then HidReport(0x03, [c, if left != 0 || right != 0 then 1 else 0] + Zeros(61))
    else HidReport(0x02, [c] + EncodeHaptic(left) + Zeros(10) + [c] + EncodeHaptic(right) + Zeros(41))
  }

  // ---------------------------------------------------------------------------
  // Per-instance state
  // ---------------------------------------------------------------------------

  /** `switch2_init_state_t`; `SWITCH2_STATE_IDLE` is taken to be the zero value. */
  datatype InitState = Idle | FindEndpoint | InitSequence | Ready

  /** `switch2_instance_t`: the product id is kept as whether it is the GameCube controller. */
  datatype Inst = Inst(
    state: InitState, cmdIndex: nat, epOut: byte, itfNum: byte,
    xferPending: bool, cmdSent: bool,
    rumbleLeft: byte, rumbleRight: byte, playerLed: byte,
    lastHapticMs: u32, initDelayMs: u32, isGc: bool, hapticsEnabled: bool,
    centers: Centers, calSamples: nat)

  /** The zeroed instance. */
  const ZERO_INST := Inst(Idle, 0, 0, 0, false, false, 0, 0, 0, 0, 0, false, false, Centers(0, 0, 0, 0), 0)

  /** Milliseconds from `since` to `now` on the wrapping 32-bit clock. */
  function Elapsed(since: u32, now: u32): (d: u32)
    ensures since <= now ==> d == now - since
  {
    (now - since) % 0x1_0000_0000
  }

  /**
   * One rumble pass: a report goes out when an intensity changed, or every
   * 50 ms while either motor runs; it stores the intensities and the time
   * and advances the 4-bit haptic counter by two.
   */
  function RumbleStep(s: Inst, counter: nat, left: byte, right: byte, now: u32): (r: (Inst, nat, Option<HidReport>))
    requires counter < 16
    ensures r.1 < 16
    ensures r.2.None? <==>
      s.rumbleLeft == left && s.rumbleRight == right &&
      !((left != 0 || right != 0) && Elapsed(s.lastHapticMs, now) >= HAPTIC_INTERVAL_MS)
    ensures r.2.None? ==> r.0 == s && r.1 == counter
    ensures r.2.Some? ==>
      && r.0 == s.(rumbleLeft := left, rumbleRight := right, lastHapticMs := now)
      && r.1 == (counter + 2) % 16
      && r.2.value == HapticReport(s.isGc, counter, MinIntensity(left), MinIntensity(right))
  {
    var changed := s.rumbleLeft != left || s.rumbleRight != right;
    var periodic := (left != 0 || right != 0) && Elapsed(s.lastHapticMs, now) >= HAPTIC_INTERVAL_MS;
    if !changed && !periodic then (s, counter, None)
    else
      (s.(rumbleLeft := left, rumbleRight := right, lastHapticMs := now), (counter + 2) % 16,
       Some(HapticReport(s.isGc, counter, MinIntensity(left), MinIntensity(right))))
  }

  /**
   * One player LED pass. The first assignment of a player 0-3 restarts the
   * initialisation sequence (when the bulk endpoint is open) instead;
   * afterwards the LED command is submitted only for a new player index,
   * with an open endpoint and no transfer pending. The index is stored
   * whether or not the stack accepts the transfer.
   */
  function LedStep(s: Inst, player: byte, accepted: bool): (r: (Inst, Option<seq<byte>>))
    ensures !s.hapticsEnabled && player < 4 ==> r.1.None?
    ensures !s.hapticsEnabled && player < 4 && s.epOut != 0 ==>
      r.0 == s.(state := InitSequence, cmdIndex := 0, cmdSent := false, xferPending := false, hapticsEnabled := true)
    ensures r.1.Some? <==>
      (s.hapticsEnabled || player >= 4) && s.playerLed != player && s.epOut != 0 && !s.xferPending
    ensures r.1.Some? ==>
      && r.1.value == PlayerLedCommand(LedPattern(player))
      && r.0 == s.(playerLed := player, xferPending := accepted)
    ensures r.1.None? && (s.hapticsEnabled || player >= 4 || s.epOut == 0) ==> r.0 == s
  {
    if !s.hapticsEnabled && player < 4 then
      if s.epOut == 0 then (s, None)
      else (s.(state := InitSequence, cmdIndex := 0, cmdSent := false, xferPending := false, hapticsEnabled := true), None)
    else if s.playerLed == player || s.epOut == 0 || s.xferPending then (s, None)
    else (s.(playerLed := player, xferPending := accepted), Some(PlayerLedCommand(LedPattern(player))))
  }

  /**
   * The deferred endpoint search, 100 ms after mount: without a bulk OUT
   * endpoint on interface 1, or when it cannot be opened, the controller
   * runs without rumble and LEDs; otherwise the sequence starts.
   */
  function EndpointStep(s: Inst, now: u32, endpoint: Option<byte>, openOk: bool): (n: Inst)
    ensures Elapsed(s.initDelayMs, now) < FIND_ENDPOINT_DELAY_MS ==> n == s
    ensures Elapsed(s.initDelayMs, now) >= FIND_ENDPOINT_DELAY_MS ==>
      n.state == (if endpoint.Some? && openOk then InitSequence else Ready)
    ensures Elapsed(s.initDelayMs, now) >= FIND_ENDPOINT_DELAY_MS && endpoint.Some? && openOk ==>
      n == s.(epOut := endpoint.value, itfNum := 1, state := InitSequence)
    ensures n.state != InitSequence ==> n == s || n == s.(state := Ready)
  {
    if Elapsed(s.initDelayMs, now) < FIND_ENDPOINT_DELAY_MS then s
    else if endpoint.None? || !openOk then s.(state := Ready)
    else s.(epOut := endpoint.value, itfNum := 1, state := InitSequence)
  }

  /** The index of the next command to send: the current one is done once sent and completed. */
  function NextIndex(s: Inst): nat {
    if s.cmdSent then s.cmdIndex + 1 else s.cmdIndex
  }

  /**
   * One step of the initialisation sequence: nothing while a transfer is
   * pending; then the index advances past a sent command, and the sequence
   * ends (asking for HID reports again) after 18 commands; otherwise the
   * next command is submitted, and only an accepted transfer marks it sent.
   */
  function InitStep(s: Inst, playerLed: byte, accepted: bool): (r: (Inst, Option<seq<byte>>, bool))
    ensures s.xferPending ==> r == (s, None, false)
    ensures !s.xferPending ==> r.0.cmdIndex == NextIndex(s)
    ensures !s.xferPending && NextIndex(s) >= SWITCH2_INIT_CMD_COUNT ==>
      r == (s.(cmdSent := false, cmdIndex := NextIndex(s), state := Ready), None, true)
    ensures !s.xferPending && NextIndex(s) < SWITCH2_INIT_CMD_COUNT ==>
      && r.1 == InitCommand(NextIndex(s), playerLed)
      && r.0 == s.(cmdIndex := NextIndex(s), cmdSent := accepted, xferPending := accepted)
      && !r.2
    ensures r.0.cmdIndex == s.cmdIndex || (s.cmdSent && !s.xferPending && r.0.cmdIndex == s.cmdIndex + 1)
  {
    if s.xferPending then (s, None, false)
    else
      var t := s.(cmdSent := false, cmdIndex := NextIndex(s));
      if t.cmdIndex >= SWITCH2_INIT_CMD_COUNT then (t.(state := Ready), None, true)
      else (t.(cmdSent := accepted, xferPending := accepted), InitCommand(t.cmdIndex, playerLed), false)
  }

  /** The output configuration the router hands the task. */
  datatype OutputConfig = OutputConfig(rumbleLeft: byte, rumbleRight: byte, playerIndex: i8)

  /** What one task pass hands to the USB stack. */
  datatype TaskOutput = TaskOutput(hid: Option<HidReport>, bulk: Option<seq<byte>>, rerequest: bool)

  const NO_OUTPUT := TaskOutput(None, None, false)

  /** The player index as the `uint8_t` parameter of the LED pass. */
  function PlayerByte(p: i8): (b: byte)
    ensures p >= 0 ==> b == p
  {
    if p >= 0 then p else p + 0x100
  }

  /** The player LED during the sequence: 0-3, anything else counting as 0. */
  function InitPlayerLed(p: i8): (b: byte)
    ensures b < 4 && (0 <= p < 4 ==> b == p)
  {
    if 0 <= p < 4 then p else 0
  }

  /** The driver's tables, indexed by device address and HID instance, and the shared haptic counter. */
  class Switch2Host {
    var insts: map<(byte, byte), Inst>
    var hapticCounter: nat

    predicate Valid()
      reads this
    {
      hapticCounter < 16
    }

    function InstAt(devAddr: byte, instance: byte): Inst
      reads this
    {
      if (devAddr, instance) in insts then insts[(devAddr, instance)] else ZERO_INST
    }

    constructor ()
      ensures Valid() && insts == map[] && hapticCounter == 0
    {
      insts := map[];
      hapticCounter := 0;
    }

    /**
     * `init_switch2_pro`: the instance is zeroed, the rumble and LED values
     * set to 0xFF so the first output sends, and the endpoint search
     * deferred from the mount time `now`.
     */
    method Init(devAddr: byte, instance: byte, isGc: bool, now: u32) returns (ok: bool)
      modifies this
      ensures ok && hapticCounter == old(hapticCounter)
      ensures insts == old(insts)[(devAddr, instance) :=
        ZERO_INST.(isGc := isGc, rumbleLeft := 0xFF, rumbleRight := 0xFF, playerLed := 0xFF,
                   state := FindEndpoint, initDelayMs := now)]
    {
      var s := ZERO_INST.(isGc := isGc, rumbleLeft := 0xFF, rumbleRight := 0xFF, playerLed := 0xFF);
      insts := insts[(devAddr, instance) := s.(state := FindEndpoint, initDelayMs := now)];
      return true;
    }

    /** `unmount_switch2_pro`: the instance is zeroed, which closes the endpoint and stops the sequence. */
    method Unmount(devAddr: byte, instance: byte)
      modifies this
      ensures insts == old(insts)[(devAddr, instance) := ZERO_INST] && hapticCounter == old(hapticCounter)
      ensures InstAt(devAddr, instance).epOut == 0 && InstAt(devAddr, instance).state == Idle
    {
      insts := insts[(devAddr, instance) := ZERO_INST];
    }

    /** `bulk_xfer_complete_cb`: a successful transfer to a live instance is no longer pending. */
    method BulkComplete(devAddr: byte, instance: byte, success: bool)
      modifies this
      ensures hapticCounter == old(hapticCounter)
      ensures success && old(InstAt(devAddr, instance)).epOut != 0 ==>
        insts == old(insts)[(devAddr, instance) := old(InstAt(devAddr, instance)).(xferPending := false)]
      ensures !(success && old(InstAt(devAddr, instance)).epOut != 0) ==> insts == old(insts)
    {
      var s := InstAt(devAddr, instance);
      if success && s.epOut != 0 {
        insts := insts[(devAddr, instance) := s.(xferPending := false)];
      }
    }

    /**
     * `input_switch2_pro`: reports shorter than 12 bytes or with an id
     * other than 0x09 (Pro) and 0x0A (GameCube) are dropped; the first four
     * calibrate the stick centres and produce no event; later ones produce
     * the event.
     */
    method Input(devAddr: byte, instance: byte, len: nat, r: Switch2Report) returns (ev: Option<GamepadEvent>)
      modifies this
      ensures hapticCounter == old(hapticCounter)
      ensures len < REPORT_MIN_LEN || (r.reportId != 0x09 && r.reportId != 0x0A) ==>
        ev.None? && insts == old(insts)
      ensures len >= REPORT_MIN_LEN && (r.reportId == 0x09 || r.reportId == 0x0A) ==>
        var s := old(InstAt(devAddr, instance));
        && (s.calSamples < CAL_SAMPLES_NEEDED ==>
            && ev.None?
            && insts == old(insts)[(devAddr, instance) := s.(
                 centers := Calibrate(s.centers, s.calSamples == 0, Unpack(r.leftStick), Unpack(r.rightStick)),
                 calSamples := s.calSamples + 1)])
        && (s.calSamples >= CAL_SAMPLES_NEEDED ==>
            ev == Some(EventOf(devAddr, instance, r, s.isGc, s.centers)) && insts == old(insts))
    {
      if len < REPORT_MIN_LEN || (r.reportId != 0x09 && r.reportId != 0x0A) {
        return None;
      }
      var s := InstAt(devAddr, instance);
      if s.calSamples < CAL_SAMPLES_NEEDED {
        var c := Calibrate(s.centers, s.calSamples == 0, Unpack(r.leftStick), Unpack(r.rightStick));
        insts := insts[(devAddr, instance) := s.(centers := c, calSamples := s.calSamples + 1)];
        return None;
      }
      ev := Some(EventOf(devAddr, instance, r, s.isGc, s.centers));
    }

    /** `output_rumble`: one `RumbleStep` on the instance and the shared counter. */
    method OutputRumble(devAddr: byte, instance: byte, left: byte, right: byte, now: u32)
        returns (report: Option<HidReport>)
      requires Valid()
      modifies this
      ensures Valid()
      ensures var r := RumbleStep(old(InstAt(devAddr, instance)), old(hapticCounter), left, right, now);
        && report == r.2 && hapticCounter == r.1
        && insts == (if r.2.None? then old(insts) else old(insts)[(devAddr, instance) := r.0])
    {
      var s := InstAt(devAddr, instance);
      var changed := s.rumbleLeft != left || s.rumbleRight != right;
      var active := left != 0 || right != 0;
      var periodic := active && Elapsed(s.lastHapticMs, now) >= HAPTIC_INTERVAL_MS;
      if !changed && !periodic {
        return None;
      }
      insts := insts[(devAddr, instance) := s.(rumbleLeft := left, rumbleRight := right, lastHapticMs := now)];
      var leftIntensity := MinIntensity(left);
      var rightIntensity := MinIntensity(right);
      report := Some(HapticReport(s.isGc, hapticCounter, leftIntensity, rightIntensity));
      hapticCounter := (hapticCounter + 2) % 16;
    }

    /** `output_player_led`: one `LedStep`; `accepted` is what the stack answers the transfer. */
    method OutputPlayerLed(devAddr: byte, instance: byte, player: byte, accepted: bool)
        returns (bulk: Option<seq<byte>>)
      modifies this
      ensures hapticCounter == old(hapticCounter)
      ensures var r := LedStep(old(InstAt(devAddr, instance)), player, accepted);
        && bulk == r.1
        && insts == (if r.0 == old(InstAt(devAddr, instance)) then old(insts)
                     else old(insts)[(devAddr, instance) := r.0])
    {
      var s := InstAt(devAddr, instance);
      if !s.hapticsEnabled && player < 4 {
        if s.epOut == 0 {
          return None;
        }
        insts := insts[(devAddr, instance) :=
          s.(state := InitSequence, cmdIndex := 0, cmdSent := false, xferPending := false, hapticsEnabled := true)];
        return None;
      }
      if s.playerLed == player || s.epOut == 0 || s.xferPending {
        return None;
      }
      bulk := Some(PlayerLedCommand(LedPattern(player)));
      insts := insts[(devAddr, instance) := s.(playerLed := player, xferPending := accepted)];
    }

    /**
     * `task_switch2_pro`: rumble and LEDs once ready, the deferred endpoint
     * search, or one step of the initialisation sequence. The clock, the
     * endpoint search, the endpoint open and the stack's acceptance of a
     * bulk transfer are parameters.
     */
    method Task(devAddr: byte, instance: byte, config: OutputConfig, now: u32,
                endpoint: Option<byte>, openOk: bool, accepted: bool) returns (out: TaskOutput)
      requires Valid()
      modifies this
      ensures Valid()
      ensures var s := old(InstAt(devAddr, instance));
        var k := (devAddr, instance);
        && (s.state == Ready ==>
            var rs := RumbleStep(s, old(hapticCounter), config.rumbleLeft, config.rumbleRight, now);
            var ls := LedStep(rs.0, PlayerByte(config.playerIndex), accepted);
            && out == TaskOutput(rs.2, ls.1, false) && hapticCounter == rs.1
            && InstAt(devAddr, instance) == ls.0)
        && (s.state == FindEndpoint ==>
            out == NO_OUTPUT && hapticCounter == old(hapticCounter)
            && InstAt(devAddr, instance) == EndpointStep(s, now, endpoint, openOk))
        && (s.state == InitSequence ==>
            var st := InitStep(s, InitPlayerLed(config.playerIndex), accepted);
            && out == TaskOutput(None, st.1, st.2) && hapticCounter == old(hapticCounter)
            && InstAt(devAddr, instance) == st.0)
        && (s.state == Idle ==> out == NO_OUTPUT && insts == old(insts) && hapticCounter == old(hapticCounter))
      ensures forall k' :: k' != (devAddr, instance) ==> (k' in insts <==> k' in old(insts))
      ensures forall k' :: k' != (devAddr, instance) && k' in insts ==> insts[k'] == old(insts)[k']
    {
      var s := InstAt(devAddr, instance);
      if s.state == Ready {
        var hid := OutputRumble(devAddr, instance, config.rumbleLeft, config.rumbleRight, now);
        var bulk := OutputPlayerLed(devAddr, instance, PlayerByte(config.playerIndex), accepted);
        return TaskOutput(hid, bulk, false);
      }
      if s.state == FindEndpoint {
        if Elapsed(s.initDelayMs, now) < FIND_ENDPOINT_DELAY_MS {
          return NO_OUTPUT;
        }
        if endpoint.None? || !openOk {
          insts := insts[(devAddr, instance) := s.(state := Ready)];
          return NO_OUTPUT;
        }
        insts := insts[(devAddr, instance) := s.(epOut := endpoint.value, itfNum := 1, state := InitSequence)];
        return NO_OUTPUT;
      }
      if s.state != InitSequence {
        return NO_OUTPUT;
      }
      if s.xferPending {
        return NO_OUTPUT;
      }
      var t := s;
      if t.cmdSent {
        t := t.(cmdSent := false, cmdIndex := t.cmdIndex + 1);
      }
      if t.cmdIndex >= SWITCH2_INIT_CMD_COUNT {
        insts := insts[(devAddr, instance) := t.(state := Ready)];
        return TaskOutput(None, None, true);
      }
      var cmd := InitCommand(t.cmdIndex, InitPlayerLed(config.playerIndex));
      insts := insts[(devAddr, instance) := t.(cmdSent := accepted, xferPending := accepted)];
      return TaskOutput(None, cmd, false);
    }
  }

  // ---------------------------------------------------------------------------
  // The initialisation sequence as a whole
  // ---------------------------------------------------------------------------

  /** One task step of the sequence whose transfer the stack accepts and then completes. */
  function Cycle(s: Inst, playerLed: byte): (Inst, Option<seq<byte>>)
  {
    var r := InitStep(s, playerLed, true);
    (r.0.(xferPending := false), r.1)
  }

  /** The commands sent by `n` such cycles. */
  function Sent(s: Inst, playerLed: byte, n: nat): seq<seq<byte>>
    decreases n
  {
    if n == 0 then []
    else
      var c := Cycle(s, playerLed);
      (if c.1.Some? then [c.1.value] else []) + Sent(c.0, playerLed, n - 1)
  }

  /** The state after `n` cycles. */
  function After(s: Inst, playerLed: byte, n: nat): Inst
    decreases n
  {
    if n == 0 then s else After(Cycle(s, playerLed).0, playerLed, n - 1)
  }

  /** One accepted and completed step sends the next command and moves past it. */
  lemma CycleSendsNext(s: Inst, playerLed: byte)
    requires !s.xferPending && NextIndex(s) < SWITCH2_INIT_CMD_COUNT
    ensures Cycle(s, playerLed).1 == InitCommand(NextIndex(s), playerLed)
    ensures NextIndex(Cycle(s, playerLed).0) == NextIndex(s) + 1
    ensures !Cycle(s, playerLed).0.xferPending && Cycle(s, playerLed).0.state == s.state
  {
  }

  /**
   * With every transfer accepted and completed, the sequence sends its
   * commands once each and in index order, from the next one on.
   */
  lemma {:induction false} SentInOrder(s: Inst, playerLed: byte, n: nat)
    requires !s.xferPending && NextIndex(s) + n <= SWITCH2_INIT_CMD_COUNT
    ensures |Sent(s, playerLed, n)| == n
    ensures forall i :: 0 <= i < n ==> Sent(s, playerLed, n)[i] == InitCommand(NextIndex(s) + i, playerLed).value
    ensures NextIndex(After(s, playerLed, n)) == NextIndex(s) + n && !After(s, playerLed, n).xferPending
    ensures After(s, playerLed, n).state == s.state
    decreases n
  {
    if n > 0 {
      var c := Cycle(s, playerLed);
      CycleSendsNext(s, playerLed);
      SentInOrder(c.0, playerLed, n - 1);
      var rest := Sent(c.0, playerLed, n - 1);
      assert Sent(s, playerLed, n) == [c.1.value] + rest;
      assert After(s, playerLed, n) == After(c.0, playerLed, n - 1);
      forall i | 0 <= i < n
        ensures Sent(s, playerLed, n)[i] == InitCommand(NextIndex(s) + i, playerLed).value
      {
        if i > 0 {
          assert Sent(s, playerLed, n)[i] == rest[i - 1];
        }
      }
    }
  }

  /** From the start, all eighteen commands go out in order, and the next step makes the controller ready. */
  lemma FullSequence(s: Inst, playerLed: byte)
    requires s.state == InitSequence && s.cmdIndex == 0 && !s.cmdSent && !s.xferPending
    ensures Sent(s, playerLed, SWITCH2_INIT_CMD_COUNT) ==
      seq(SWITCH2_INIT_CMD_COUNT, i requires 0 <= i < SWITCH2_INIT_CMD_COUNT => InitCommand(i, playerLed).value)
    ensures Cycle(After(s, playerLed, SWITCH2_INIT_CMD_COUNT), playerLed).0.state == Ready
  {
    SentInOrder(s, playerLed, SWITCH2_INIT_CMD_COUNT);
  }

  /** Every rumble report carries a counter byte 0x50-0x5F, and Pro reports carry it twice. */
  lemma CounterByte(isGc: bool, counter: nat, left: byte, right: byte)
    requires counter < 16
    ensures 0x50 <= HapticReport(isGc, counter, left, right).data[0] <= 0x5F
    ensures !isGc ==> HapticReport(isGc, counter, left, right).data[16] == HapticReport(isGc, counter, left, right).data[0]
  {
  }
}

=== FILE: tud_gc_adapter.dfy ===
// The GameCube adapter USB class driver: the four-port input report it
// starts from, the interface it claims, and the latch for the host's
// 5-byte rumble command.

module TudGcAdapter {
  import opened Common
  import opened UsbDescriptor
  import GcAdapterMode

  const GC_ADAPTER_OUT_REPORT_LEN: nat := 5
  const CFG_TUD_GC_ADAPTER_EP_BUFSIZE: nat := 37
  const VENDOR_CLASS: byte := 0xFF

  /** The bytes `open` claims: the interface and its announced endpoints. */
  function ClaimLength(itf: Interface): nat {
    INTERFACE_DESC_LEN + ENDPOINT_DESC_LEN * itf.numEndpoints
  }

  /**
   * What `gc_adapter_open` returns: 0 for a non-vendor interface, one that
   * does not fit in `max_len`, or one whose endpoints are not all there.
   */
  function OpenResult(itf: Interface, rest: seq<Descriptor>, maxLen: u16): (r: nat)
    ensures r != 0 ==> r == ClaimLength(itf) <= maxLen && itf.itfClass == VENDOR_CLASS
    ensures r != 0 <==>
      itf.itfClass == VENDOR_CLASS && ClaimLength(itf) <= maxLen &&
      LeadingEndpoints(rest, 0, itf.numEndpoints) == itf.numEndpoints
  {
    LeadingAll(rest, 0, itf.numEndpoints);
    if itf.itfClass == VENDOR_CLASS && ClaimLength(itf) <= maxLen && AllEndpoints(rest, 0, itf.numEndpoints)
    then ClaimLength(itf) else 0
  }

  /** `_gc_adapter_itf`: the interface and endpoints, the input report, the rumble latch. */
  class GcAdapterDriver {
    var itfNum: byte
    var epIn: byte
    var epOut: byte
    var reportId: byte
    const ports: array<GcAdapterMode.GcPort>
    var outReport: seq<byte>
    var rumbleAvailable: bool

    predicate Valid()
      reads this
    {
      ports.Length == GcAdapterMode.GC_PORTS && |outReport| == GC_ADAPTER_OUT_REPORT_LEN
    }

    /** The driver's static state, zeroed before `init`. */
    constructor ()
      ensures Valid() && fresh(ports)
      ensures !rumbleAvailable
    {
      itfNum, epIn, epOut, reportId := 0, 0, 0, 0;
      ports := new GcAdapterMode.GcPort[GcAdapterMode.GC_PORTS](_ => GcAdapterMode.IDLE_PORT.(stickX := 0, stickY := 0, cstickX := 0, cstickY := 0));
      outReport := [0, 0, 0, 0, 0];
      rumbleAvailable := false;
    }

    /**
     * `gc_adapter_init` (also `reset`): nothing opened, input report id
     * 0x21, every port disconnected with sticks at 128 and triggers at 0,
     * no rumble latched.
     */
    method Init()
      requires Valid()
      modifies this, ports
      ensures Valid()
      ensures itfNum == NO_ENDPOINT && epIn == NO_ENDPOINT && epOut == NO_ENDPOINT
      ensures reportId == GcAdapterMode.GC_ADAPTER_REPORT_ID_INPUT
      ensures forall i :: 0 <= i < GcAdapterMode.GC_PORTS ==> ports[i] == GcAdapterMode.IDLE_PORT
      ensures outReport == [0, 0, 0, 0, 0] && !rumbleAvailable
    {
      itfNum, epIn, epOut := NO_ENDPOINT, NO_ENDPOINT, NO_ENDPOINT;
      reportId := GcAdapterMode.GC_ADAPTER_REPORT_ID_INPUT;
      outReport := [0, 0, 0, 0, 0];
      rumbleAvailable := false;
      for i := 0 to GcAdapterMode.GC_PORTS
        invariant Valid()
        invariant itfNum == NO_ENDPOINT && epIn == NO_ENDPOINT && epOut == NO_ENDPOINT
        invariant reportId == GcAdapterMode.GC_ADAPTER_REPORT_ID_INPUT
        invariant outReport == [0, 0, 0, 0, 0] && !rumbleAvailable
        invariant forall j :: 0 <= j < i ==> ports[j] == GcAdapterMode.IDLE_PORT
      {
        ports[i] := GcAdapterMode.IDLE_PORT;
      }
    }

    /**
     * `gc_adapter_open`: the length is checked against `max_len` first; the
     * interface number is then recorded and the endpoints taken in order
     * until one is missing.
     */
    method Open(itf: Interface, rest: seq<Descriptor>, maxLen: u16) returns (drvLen: nat)
      modifies this`itfNum, this`epIn, this`epOut
      ensures drvLen == OpenResult(itf, rest, maxLen)
      ensures itf.itfClass == VENDOR_CLASS && ClaimLength(itf) <= maxLen ==>
        var count := LeadingEndpoints(rest, 0, itf.numEndpoints);
        && itfNum == itf.number
        && epIn == LastEndpoint(rest, 0, count, true, old(epIn))
        && epOut == LastEndpoint(rest, 0, count, false, old(epOut))
      ensures !(itf.itfClass == VENDOR_CLASS && ClaimLength(itf) <= maxLen) ==>
        itfNum == old(itfNum) && epIn == old(epIn) && epOut == old(epOut)
    {
      if itf.itfClass != VENDOR_CLASS {
        return 0;
      }
      var len := INTERFACE_DESC_LEN + ENDPOINT_DESC_LEN * itf.numEndpoints;
      if maxLen < len {
        return 0;
      }
      itfNum := itf.number;
      ghost var count := LeadingEndpoints(rest, 0, itf.numEndpoints);
      LeadingAll(rest, 0, itf.numEndpoints);
      for i := 0 to itf.numEndpoints
        invariant i <= count && AllEndpoints(rest, 0, i)
        invariant epIn == LastEndpoint(rest, 0, i, true, old(epIn))
        invariant epOut == LastEndpoint(rest, 0, i, false, old(epOut))
        invariant itfNum == itf.number
      {
        var d := DescAt(rest, i);
        if d.kind != TUSB_DESC_ENDPOINT {
          return 0;
        }
        if IsIn(d.address) {
          epIn := d.address;
        } else {
          epOut := d.address;
        }
      }
      return len;
    }

    /** `gc_adapter_control_xfer_cb`: the adapter takes no control requests. */
    method ControlTransfer(recipientInterface: bool, wIndex: u16) returns (accepted: bool)
      ensures !accepted
    {
      return false;
    }

    /**
     * `gc_adapter_xfer_cb`: an OUT transfer latches the rumble command when
     * it holds at least five bytes and starts with 0x11.
     */
    method TransferDone(epAddr: byte, data: seq<byte>)
      requires Valid() && |data| <= CFG_TUD_GC_ADAPTER_EP_BUFSIZE
      modifies this`outReport, this`rumbleAvailable
      ensures Valid()
      ensures epAddr == epOut && |data| >= GC_ADAPTER_OUT_REPORT_LEN &&
              data[0] == GcAdapterMode.GC_ADAPTER_REPORT_ID_RUMBLE ==>
        outReport == data[..GC_ADAPTER_OUT_REPORT_LEN] && rumbleAvailable
      ensures !(epAddr == epOut && |data| >= GC_ADAPTER_OUT_REPORT_LEN &&
                data[0] == GcAdapterMode.GC_ADAPTER_REPORT_ID_RUMBLE) ==>
        outReport == old(outReport) && rumbleAvailable == old(rumbleAvailable)
    {
      if epAddr == epOut && |data| >= GC_ADAPTER_OUT_REPORT_LEN &&
         data[0] == GcAdapterMode.GC_ADAPTER_REPORT_ID_RUMBLE {
        outReport := data[..GC_ADAPTER_OUT_REPORT_LEN];
        rumbleAvailable := true;
      }
    }

    /** `tud_gc_adapter_get_rumble`: the latched command, once. */
    method GetRumble() returns (out: Option<seq<byte>>)
      requires Valid()
      modifies this`rumbleAvailable
      ensures out.Some? <==> old(rumbleAvailable)
      ensures out.Some? ==> out.value == outReport
      ensures !rumbleAvailable
    {
      if rumbleAvailable {
        rumbleAvailable := false;
        return Some(outReport);
      }
      return None;
    }

    /**
     * `tud_gc_adapter_send_report`: the four ports are taken only when the
     * stack is ready, the IN endpoint is open and not busy.
     */
    method SendReport(id: byte, report: seq<GcAdapterMode.GcPort>, usbReady: bool, busy: bool) returns (ok: bool)
      requires Valid() && |report| == GcAdapterMode.GC_PORTS
      modifies this`reportId, ports
      ensures Valid()
      ensures ok <==> usbReady && epIn != NO_ENDPOINT && !busy
      ensures ok ==> reportId == id && ports[..] == report
      ensures !ok ==> reportId == old(reportId) && ports[..] == old(ports[..])
    {
      if !(usbReady && epIn != NO_ENDPOINT && !busy) {
        return false;
      }
      reportId := id;
      forall i | 0 <= i < GcAdapterMode.GC_PORTS {
        ports[i] := report[i];
      }
      return true;
    }
  }

  /**
   * Every command the driver latches is a rumble command of the output mode
   * when handed over with report id 0, and the four port bytes come through.
   */
  lemma LatchedIsRumbleCommand(report: seq<byte>)
    requires |report| == GC_ADAPTER_OUT_REPORT_LEN && report[0] == GcAdapterMode.GC_ADAPTER_REPORT_ID_RUMBLE
    ensures GcAdapterMode.RumbleCommand(0, report) == Some(report[1..])
    ensures GcAdapterMode.RumbleCommand(GcAdapterMode.GC_ADAPTER_REPORT_ID_RUMBLE, report[1..]) == Some(report[1..])
  {
    assert report[1..][..4] == report[1..];
  }
}

=== FILE: tud_xinput.dfy ===
// The Xbox 360 XInput USB class driver: which interfaces it claims, the
// output-report latch, and the XSM3 console-authentication handshake
// (request handling and the state machine; the XSM3 cryptography itself is
// a library call whose result is a parameter here).

module TudXinput {
  import opened Common
  import opened UsbDescriptor

  const XINPUT_INTERFACE_CLASS: byte := 0xFF
  const XINPUT_INTERFACE_SUBCLASS: byte := 0x5D
  const XINPUT_INTERFACE_PROTOCOL: byte := 0x01
  const XINPUT_AUDIO_PROTOCOL: byte := 0x03
  const XINPUT_PLUGIN_PROTOCOL: byte := 0x02
  const XINPUT_SEC_INTERFACE_SUBCLASS: byte := 0xFD
  const XINPUT_SEC_INTERFACE_PROTOCOL: byte := 0x13
  const XINPUT_DESC_TYPE_VENDOR: byte := 0x21
  const XINPUT_DESC_TYPE_SEC: byte := 0x41

  const XSM3_REQ_GET_SERIAL: byte := 0x81
  const XSM3_REQ_INIT_AUTH: byte := 0x82
  const XSM3_REQ_RESPOND: byte := 0x83
  const XSM3_REQ_KEEPALIVE: byte := 0x84
  const XSM3_REQ_STATE: byte := 0x86
  const XSM3_REQ_VERIFY: byte := 0x87
  const XSM3_RESPONSE_INIT_LEN: nat := 46
  const XSM3_RESPONSE_VERIFY_LEN: nat := 22
  const AUTH_BUFFER_LEN: nat := 48

  const XINPUT_OUT_REPORT_LEN: nat := 8
  const CFG_TUD_XINPUT_EP_BUFSIZE: nat := 32

  // ---------------------------------------------------------------------
  // Interface claiming (`xinput_open`)
  // ---------------------------------------------------------------------

  datatype InterfaceKind = Gamepad | Audio | Plugin | Security | Unknown

  /** Which of the four interfaces of the XInput configuration a descriptor is. */
  function KindOf(itf: Interface): InterfaceKind {
    if itf.subclass == XINPUT_INTERFACE_SUBCLASS && itf.protocol == XINPUT_INTERFACE_PROTOCOL then Gamepad
    else if itf.subclass == XINPUT_INTERFACE_SUBCLASS && itf.protocol == XINPUT_AUDIO_PROTOCOL then Audio
    else if itf.subclass == XINPUT_INTERFACE_SUBCLASS && itf.protocol == XINPUT_PLUGIN_PROTOCOL then Plugin
    else if itf.subclass == XINPUT_SEC_INTERFACE_SUBCLASS && itf.protocol == XINPUT_SEC_INTERFACE_PROTOCOL then Security
    else Unknown
  }

  /** The length of the class-specific descriptor skipped right after the interface (0 if there is none). */
  function SkippedLen(rest: seq<Descriptor>, kind: byte): nat {
    if DescAt(rest, 0).kind == kind then DescAt(rest, 0).length else 0
  }

  /** Where the endpoint descriptors start. */
  function FirstEndpoint(rest: seq<Descriptor>, kind: byte): (i: nat)
    ensures i <= 1
  {
    if DescAt(rest, 0).kind == kind then 1 else 0
  }

  /**
   * The number of descriptor bytes `open` claims for an interface, before
   * the check against `max_len`; None when it does not claim it.
   */
  function ClaimLength(itf: Interface, rest: seq<Descriptor>): Option<nat> {
    if itf.itfClass != XINPUT_INTERFACE_CLASS then None
    else match KindOf(itf) {
      case Unknown => None
      case Security => Some(INTERFACE_DESC_LEN + SkippedLen(rest, XINPUT_DESC_TYPE_SEC))
      case Audio => Some(INTERFACE_DESC_LEN + SkippedLen(rest, XINPUT_DESC_TYPE_VENDOR) + ENDPOINT_DESC_LEN * itf.numEndpoints)
      case Plugin => Some(INTERFACE_DESC_LEN + SkippedLen(rest, XINPUT_DESC_TYPE_VENDOR) + ENDPOINT_DESC_LEN * itf.numEndpoints)
      case Gamepad =>
        if AllEndpoints(rest, FirstEndpoint(rest, XINPUT_DESC_TYPE_VENDOR), itf.numEndpoints)
        then Some(INTERFACE_DESC_LEN + SkippedLen(rest, XINPUT_DESC_TYPE_VENDOR) + ENDPOINT_DESC_LEN * itf.numEndpoints)
        else None
    }
  }

  /** What `open` returns: the claimed length if it fits in `max_len`, else 0. */
  function OpenResult(itf: Interface, rest: seq<Descriptor>, maxLen: u16): nat {
    match ClaimLength(itf, rest) {
      case None => 0
      case Some(len) => if len <= maxLen then len else 0
    }
  }

  /** Only the four XInput interfaces of the vendor class are claimed, always whole and within `max_len`. */
  lemma ClaimOnlyKnown(itf: Interface, rest: seq<Descriptor>, maxLen: u16)
    ensures OpenResult(itf, rest, maxLen) != 0 ==>
      itf.itfClass == XINPUT_INTERFACE_CLASS && KindOf(itf) != Unknown &&
      INTERFACE_DESC_LEN <= OpenResult(itf, rest, maxLen) <= maxLen
    ensures KindOf(itf) == Unknown ==> OpenResult(itf, rest, maxLen) == 0
    ensures itf.subclass !in {XINPUT_INTERFACE_SUBCLASS, XINPUT_SEC_INTERFACE_SUBCLASS} ==>
      OpenResult(itf, rest, maxLen) == 0
  {
  }

  /**
   * The gamepad interface is claimed with its endpoints only when every
   * endpoint it announces is there; the stub interfaces only count theirs.
   */
  lemma GamepadNeedsEndpoints(itf: Interface, rest: seq<Descriptor>)
    requires itf.itfClass == XINPUT_INTERFACE_CLASS
    ensures KindOf(itf) == Gamepad ==>
      (ClaimLength(itf, rest).Some? <==>
        LeadingEndpoints(rest, FirstEndpoint(rest, XINPUT_DESC_TYPE_VENDOR), itf.numEndpoints) == itf.numEndpoints)
    ensures KindOf(itf) in {Audio, Plugin} ==> ClaimLength(itf, rest).Some?
  {
    LeadingAll(rest, FirstEndpoint(rest, XINPUT_DESC_TYPE_VENDOR), itf.numEndpoints);
  }

  // ---------------------------------------------------------------------
  // XSM3 authentication
  // ---------------------------------------------------------------------

  /** `xsm3_auth_state_t`. */
  datatype AuthState = Idle | InitReceived | Responded | VerifyReceived | Authenticated

  datatype Stage = Setup | Data | StatusStage

  /** What a vendor control request does on the bus. */
  datatype ControlResult =
    | Stall                    // the request is refused
    | Ack                      // accepted, nothing to transfer
    | SendSerial               // the XSM3 library's 29-byte identification data
    | Send(data: seq<byte>)    // these bytes go to the host
    | Receive(len: nat)        // a data stage of `len` bytes into the auth buffer

  /** A response is ready for the console. */
  predicate ResponseReady(state: AuthState) {
    state == Responded || state == Authenticated
  }

  /** The answer to a device-to-host request at the SETUP stage. */
  function InReply(state: AuthState, response: seq<byte>, responseLen: nat, request: byte): (r: ControlResult)
    requires responseLen <= |response|
    ensures request == XSM3_REQ_RESPOND ==>
      (r == Stall <==> !ResponseReady(state)) && (r != Stall ==> r == Send(response[..responseLen]))
    ensures request == XSM3_REQ_STATE ==>
      r == Send(if ResponseReady(state) then [2, 0] else [1, 0])
    ensures request !in {XSM3_REQ_GET_SERIAL, XSM3_REQ_RESPOND, XSM3_REQ_KEEPALIVE, XSM3_REQ_STATE} ==> r == Stall
  {
    if request == XSM3_REQ_GET_SERIAL then SendSerial
    else if request == XSM3_REQ_RESPOND then
      (if ResponseReady(state) then Send(response[..responseLen]) else Stall)
    else if request == XSM3_REQ_KEEPALIVE then Send([])
    else if request == XSM3_REQ_STATE then
      Send(if ResponseReady(state) then [2, 0] else [1, 0])
    else Stall
  }

  /** STATE says 2 exactly when RESPOND would answer: the console never polls into a stall. */
  lemma StateAgreesWithRespond(state: AuthState, response: seq<byte>, responseLen: nat)
    requires responseLen <= |response|
    ensures InReply(state, response, responseLen, XSM3_REQ_STATE) == Send([2, 0]) <==>
      InReply(state, response, responseLen, XSM3_REQ_RESPOND) != Stall
  {
  }

  /** How many bytes the host-to-device SETUP stage accepts, as written: the host's `wLength`. */
  function SetupReceiveLenAsWritten(wLength: u16): nat {
    wLength
  }

  /** The as-written data stage can be longer than the 48-byte auth buffer it is received into. */
  lemma SetupReceiveOverflows()
    ensures SetupReceiveLenAsWritten(49) > AUTH_BUFFER_LEN
    ensures exists w: u16 :: SetupReceiveLenAsWritten(w) > AUTH_BUFFER_LEN
  {
    assert SetupReceiveLenAsWritten(49) > AUTH_BUFFER_LEN;
  }

  /** The data stage bounded by the auth buffer: the challenges (34 and 22 bytes) still fit whole. */
  function SetupReceiveLen(wLength: u16): (n: nat)
    ensures n <= AUTH_BUFFER_LEN
    ensures n <= SetupReceiveLenAsWritten(wLength)
    ensures n == SetupReceiveLenAsWritten(wLength) || n == AUTH_BUFFER_LEN
    ensures wLength <= AUTH_BUFFER_LEN ==> n == wLength
  {
    Min(wLength, AUTH_BUFFER_LEN)
  }

  // ---------------------------------------------------------------------
  // The driver state
  // ---------------------------------------------------------------------

  /** `_xinput_itf` and the XSM3 state variables of the driver. */
  class XinputDriver {
    var itfNum: byte
    var epIn: byte
    var epOut: byte
    var secItfNum: byte
    var inReport: seq<byte>
    var outReport: seq<byte>
    var outputAvailable: bool
    var authState: AuthState
    var authRequestId: byte
    var authResponse: seq<byte>
    var authResponseLen: nat

    /**
     * What the handshake keeps: a pending challenge remembers its request,
     * and a ready response has the length its step produces.
     */
    predicate AuthConsistent()
      reads this
    {
      && |authResponse| == AUTH_BUFFER_LEN
      && authResponseLen <= AUTH_BUFFER_LEN
      && (authState == InitReceived ==> authRequestId == XSM3_REQ_INIT_AUTH)
      && (authState == VerifyReceived ==> authRequestId == XSM3_REQ_VERIFY)
      && (authState == Responded ==> authResponseLen == XSM3_RESPONSE_INIT_LEN)
      && (authState == Authenticated ==> authResponseLen == XSM3_RESPONSE_VERIFY_LEN)
    }

    /** `xinput_init` (also `xinput_reset`): no interface opened, neutral report, handshake idle. */
    constructor ()
      ensures itfNum == NO_ENDPOINT && epIn == NO_ENDPOINT && epOut == NO_ENDPOINT && secItfNum == NO_ENDPOINT
      ensures !outputAvailable && authState == Idle && authRequestId == 0 && authResponseLen == 0
      ensures AuthConsistent()
    {
      itfNum, epIn, epOut, secItfNum := NO_ENDPOINT, NO_ENDPOINT, NO_ENDPOINT, NO_ENDPOINT;
      inReport := [0, 20] + seq(18, _ => 0);
      outReport := seq(8, _ => 0);
      outputAvailable := false;
      authState := Idle;
      authRequestId := 0;
      authResponse := seq(48, _ => 0);
      authResponseLen := 0;
    }

    /**
     * `xinput_open`: claims one interface of the configuration and returns
     * the descriptor bytes it covers, 0 when it does not claim it. The
     * gamepad records its interface number and endpoints as it goes (also
     * on a failed claim), the security interface its number.
     */
    method Open(itf: Interface, rest: seq<Descriptor>, maxLen: u16) returns (drvLen: nat)
      modifies this`itfNum, this`epIn, this`epOut, this`secItfNum
      ensures drvLen == OpenResult(itf, rest, maxLen)
      ensures itf.itfClass == XINPUT_INTERFACE_CLASS && KindOf(itf) == Gamepad ==>
        var start := FirstEndpoint(rest, XINPUT_DESC_TYPE_VENDOR);
        var count := LeadingEndpoints(rest, start, itf.numEndpoints);
        && itfNum == itf.number
        && epIn == LastEndpoint(rest, start, count, true, old(epIn))
        && epOut == LastEndpoint(rest, start, count, false, old(epOut))
        && secItfNum == old(secItfNum)
      ensures itf.itfClass == XINPUT_INTERFACE_CLASS && KindOf(itf) == Security ==>
        secItfNum == itf.number && itfNum == old(itfNum) && epIn == old(epIn) && epOut == old(epOut)
      ensures !(itf.itfClass == XINPUT_INTERFACE_CLASS && KindOf(itf) in {Gamepad, Security}) ==>
        itfNum == old(itfNum) && epIn == old(epIn) && epOut == old(epOut) && secItfNum == old(secItfNum)
    {
      if itf.itfClass != XINPUT_INTERFACE_CLASS {
        return 0;
      }
      var len := INTERFACE_DESC_LEN;
      var kind := KindOf(itf);
      if kind == Gamepad {
        itfNum := itf.number;
        var p := 0;
        if DescAt(rest, 0).kind == XINPUT_DESC_TYPE_VENDOR {
          len := len + DescAt(rest, 0).length;
          p := 1;
        }
        ghost var count := LeadingEndpoints(rest, p, itf.numEndpoints);
        for i := 0 to itf.numEndpoints
          invariant i <= count && AllEndpoints(rest, p, i)
          invariant epIn == LastEndpoint(rest, p, i, true, old(epIn))
          invariant epOut == LastEndpoint(rest, p, i, false, old(epOut))
          invariant len == INTERFACE_DESC_LEN + SkippedLen(rest, XINPUT_DESC_TYPE_VENDOR) + ENDPOINT_DESC_LEN * i
          invariant itfNum == itf.number && secItfNum == old(secItfNum)
        {
          var d := DescAt(rest, p + i);
          if d.kind != TUSB_DESC_ENDPOINT {
            return 0;
          }
          if IsIn(d.address) {
            epIn := d.address;
          } else {
            epOut := d.address;
          }
          len := len + ENDPOINT_DESC_LEN;
        }
      } else if kind == Audio || kind == Plugin {
        if DescAt(rest, 0).kind == XINPUT_DESC_TYPE_VENDOR {
          len := len + DescAt(rest, 0).length;
        }
        len := len + ENDPOINT_DESC_LEN * itf.numEndpoints;
      } else if kind == Security {
        secItfNum := itf.number;
        if DescAt(rest, 0).kind == XINPUT_DESC_TYPE_SEC {
          len := len + DescAt(rest, 0).length;
        }
      } else {
        return 0;
      }
      if len > maxLen {
        return 0;
      }
      return len;
    }

    /**
     * `tud_xinput_vendor_control_xfer_cb`: device-to-host requests are
     * answered at SETUP from the handshake state; a host-to-device request
     * opens a data stage into the auth buffer at SETUP and, at DATA, records
     * the challenge it carried. Nothing but a received challenge changes
     * the state.
     */
    method VendorControl(stage: Stage, toHost: bool, request: byte, wLength: u16) returns (r: ControlResult)
      requires AuthConsistent()
      modifies this`authState, this`authRequestId
      ensures AuthConsistent()
      ensures toHost && stage == Setup ==> r == InReply(authState, authResponse, authResponseLen, request)
      ensures toHost && stage != Setup ==> r == Ack
      ensures !toHost && stage == Setup ==> r == Receive(SetupReceiveLen(wLength))
      ensures !toHost && stage == Data && request == XSM3_REQ_INIT_AUTH ==>
        r == Ack && authState == InitReceived && authRequestId == XSM3_REQ_INIT_AUTH
      ensures !toHost && stage == Data && request == XSM3_REQ_VERIFY ==>
        r == Ack && authState == VerifyReceived && authRequestId == XSM3_REQ_VERIFY
      ensures !toHost && stage == Data && request !in {XSM3_REQ_INIT_AUTH, XSM3_REQ_VERIFY} ==> r == Stall
      ensures !toHost && stage == StatusStage ==> r == Ack
      ensures !(!toHost && stage == Data && request in {XSM3_REQ_INIT_AUTH, XSM3_REQ_VERIFY}) ==>
        authState == old(authState) && authRequestId == old(authRequestId)
    {
      if toHost {
        if stage != Setup {
          return Ack;
        }
        return InReply(authState, authResponse, authResponseLen, request);
      }
      if stage == Setup {
        return Receive(SetupReceiveLen(wLength));
      } else if stage == Data {
        if request == XSM3_REQ_INIT_AUTH {
          authRequestId := XSM3_REQ_INIT_AUTH;
          authState := InitReceived;
          return Ack;
        } else if request == XSM3_REQ_VERIFY {
          authRequestId := XSM3_REQ_VERIFY;
          authState := VerifyReceived;
          return Ack;
        }
        return Stall;
      }
      return Ack;
    }

    /** `tud_xinput_xsm3_init`: the handshake starts over. */
    method Xsm3Init()
      requires AuthConsistent()
      modifies this`authState, this`authRequestId, this`authResponseLen
      ensures AuthConsistent()
      ensures authState == Idle && authRequestId == 0 && authResponseLen == 0
    {
      authState := Idle;
      authResponseLen := 0;
      authRequestId := 0;
    }

    /**
     * `tud_xinput_xsm3_process`: a received init challenge becomes a
     * 46-byte response, a received verify challenge a 22-byte one (the
     * bytes come from the XSM3 library, `challengeResponse`); in any other
     * state nothing happens.
     */
    method Xsm3Process(challengeResponse: seq<byte>)
      requires AuthConsistent() && |challengeResponse| == AUTH_BUFFER_LEN
      modifies this`authState, this`authRequestId, this`authResponse, this`authResponseLen
      ensures AuthConsistent()
      ensures old(authState) == InitReceived ==>
        authState == Responded && authRequestId == 0 &&
        authResponseLen == XSM3_RESPONSE_INIT_LEN &&
        authResponse[..authResponseLen] == challengeResponse[..XSM3_RESPONSE_INIT_LEN]
      ensures old(authState) == VerifyReceived ==>
        authState == Authenticated && authRequestId == 0 &&
        authResponseLen == XSM3_RESPONSE_VERIFY_LEN &&
        authResponse[..authResponseLen] == challengeResponse[..XSM3_RESPONSE_VERIFY_LEN]
      ensures old(authState) !in {InitReceived, VerifyReceived} ==>
        authState == old(authState) && authRequestId == old(authRequestId) &&
        authResponse == old(authResponse) && authResponseLen == old(authResponseLen)
    {
      if authState == InitReceived && authRequestId == XSM3_REQ_INIT_AUTH {
        authResponseLen := XSM3_RESPONSE_INIT_LEN;
        authResponse := challengeResponse[..XSM3_RESPONSE_INIT_LEN] + authResponse[XSM3_RESPONSE_INIT_LEN..];
        authState := Responded;
        authRequestId := 0;
      } else if authState == VerifyReceived && authRequestId == XSM3_REQ_VERIFY {
        authResponseLen := XSM3_RESPONSE_VERIFY_LEN;
        authResponse := challengeResponse[..XSM3_RESPONSE_VERIFY_LEN] + authResponse[XSM3_RESPONSE_VERIFY_LEN..];
        authState := Authenticated;
        authRequestId := 0;
      }
    }

    /** `xinput_xfer_cb`: an OUT transfer of at least 8 bytes latches the rumble/LED report. */
    method TransferDone(epAddr: byte, data: seq<byte>)
      requires |data| <= CFG_TUD_XINPUT_EP_BUFSIZE
      modifies this`outReport, this`outputAvailable
      ensures epAddr == epOut && |data| >= XINPUT_OUT_REPORT_LEN ==>
        outReport == data[..XINPUT_OUT_REPORT_LEN] && outputAvailable
      ensures !(epAddr == epOut && |data| >= XINPUT_OUT_REPORT_LEN) ==>
        outReport == old(outReport) && outputAvailable == old(outputAvailable)
    {
      if epAddr == epOut && |data| >= XINPUT_OUT_REPORT_LEN {
        outReport := data[..XINPUT_OUT_REPORT_LEN];
        outputAvailable := true;
      }
    }

    /** `tud_xinput_get_output`: the latched report, once. */
    method GetOutput() returns (out: Option<seq<byte>>)
      modifies this`outputAvailable
      ensures out.Some? <==> old(outputAvailable)
      ensures out.Some? ==> out.value == outReport
      ensures !outputAvailable
    {
      if outputAvailable {
        outputAvailable := false;
        return Some(outReport);
      }
      return None;
    }

    /**
     * `tud_xinput_send_report`: the report is taken only when the stack is
     * ready, the IN endpoint is open and not busy.
     */
    method SendReport(report: seq<byte>, usbReady: bool, busy: bool) returns (ok: bool)
      requires |report| == 20
      modifies this`inReport
      ensures ok <==> usbReady && epIn != NO_ENDPOINT && !busy
      ensures ok ==> inReport == report
      ensures !ok ==> inReport == old(inReport)
    {
      if !(usbReady && epIn != NO_ENDPOINT && !busy) {
        return false;
      }
      inReport := report;
      return true;
    }
  }

  /**
   * The console's whole handshake: INIT data, processing, VERIFY data,
   * processing — after which RESPOND hands out the 22-byte verify response
   * and STATE reports 2.
   */
  method Handshake(d: XinputDriver, initResponse: seq<byte>, verifyResponse: seq<byte>)
    requires d.AuthConsistent() && |initResponse| == |verifyResponse| == AUTH_BUFFER_LEN
    modifies d
    ensures d.AuthConsistent() && d.authState == Authenticated
    ensures InReply(d.authState, d.authResponse, d.authResponseLen, XSM3_REQ_RESPOND) ==
      Send(verifyResponse[..XSM3_RESPONSE_VERIFY_LEN])
    ensures InReply(d.authState, d.authResponse, d.authResponseLen, XSM3_REQ_STATE) == Send([2, 0])
  {
    var r := d.VendorControl(Data, false, XSM3_REQ_INIT_AUTH, 34);
    d.Xsm3Process(initResponse);
    assert d.authState == Responded;
    r := d.VendorControl(Data, false, XSM3_REQ_VERIFY, 22);
    d.Xsm3Process(verifyResponse);
  }
}

=== FILE: usb_descriptor.dfy ===
// The parts of a USB configuration descriptor that the class drivers'
// `open` callbacks walk: an interface descriptor and the descriptors that
// follow it.

module UsbDescriptor {
  import opened Common

  const TUSB_DESC_ENDPOINT: byte := 0x05
  const INTERFACE_DESC_LEN: nat := 9
  const ENDPOINT_DESC_LEN: nat := 7
  /** An endpoint or interface number not yet assigned. */
  const NO_ENDPOINT: byte := 0xFF

  /** The fields of an interface descriptor `open` reads. */
  datatype Interface = Interface(number: byte, itfClass: byte, subclass: byte, protocol: byte, numEndpoints: byte)

  /** A descriptor that follows the interface descriptor: its length, type and (for endpoints) address. */
  datatype Descriptor = Descriptor(length: byte, kind: byte, address: byte)

  /** The i-th descriptor after the interface; past the end, a blank one (no type). */
  function DescAt(rest: seq<Descriptor>, i: nat): (d: Descriptor)
    ensures i >= |rest| ==> d.kind == 0
  {
    if i < |rest| then rest[i] else Descriptor(0, 0, 0)
  }

  /** The first `n` descriptors from `start` are all endpoint descriptors. */
  predicate AllEndpoints(rest: seq<Descriptor>, start: nat, n: nat) {
    forall i :: start <= i < start + n ==> DescAt(rest, i).kind == TUSB_DESC_ENDPOINT
  }

  /** How many of the `n` descriptors from `start` are endpoints before the first that is not. */
  function LeadingEndpoints(rest: seq<Descriptor>, start: nat, n: nat): (k: nat)
    ensures k <= n && AllEndpoints(rest, start, k)
    ensures k < n ==> DescAt(rest, start + k).kind != TUSB_DESC_ENDPOINT
    decreases n
  {
    if n == 0 || DescAt(rest, start).kind != TUSB_DESC_ENDPOINT then 0
    else
      1 + LeadingEndpoints(rest, start + 1, n - 1)
  }

  /** An endpoint address with the direction bit set is an IN endpoint. */
  predicate IsIn(address: byte) { address >= 0x80 }

  /** The address of the last of the first `i` endpoints from `start` with direction `dirIn`, else `none`. */
  function LastEndpoint(rest: seq<Descriptor>, start: nat, i: nat, dirIn: bool, none: byte): byte {
    if i == 0 then none
    else if IsIn(DescAt(rest, start + i - 1).address) == dirIn then DescAt(rest, start + i - 1).address
    else LastEndpoint(rest, start, i - 1, dirIn, none)
  }

  /** The endpoints are all there exactly when none is missing before the n-th. */
  lemma LeadingAll(rest: seq<Descriptor>, start: nat, n: nat)
    ensures LeadingEndpoints(rest, start, n) == n <==> AllEndpoints(rest, start, n)
  {
    var k := LeadingEndpoints(rest, start, n);
    if k < n {
      assert DescAt(rest, start + k).kind != TUSB_DESC_ENDPOINT;
    }
  }
}

=== FILE: usbd_mode.dfy ===
// What every USB device output mode shares: the analog half of a profile's
// output, the feedback record a mode hands back, and the d-pad to hat-switch
// priority that the HID, PS4 and Adaptive Controller modes each write out.

module UsbdMode {
  import opened Common

  /** `profile_output_t`, analog part: sticks centred at 128 (0 = up/left), triggers from 0. */
  datatype ProfileOut = ProfileOut(
    leftX: byte, leftY: byte, rightX: byte, rightY: byte,
    l2Analog: byte, r2Analog: byte)

  /** A controller at rest: both sticks centred, both triggers released. */
  const NEUTRAL: ProfileOut := ProfileOut(128, 128, 128, 128, 0, 0)

  /** `output_feedback_t`: rumble and lights a mode reports back to the input side. */
  datatype Feedback = Feedback(
    rumbleLeft: byte, rumbleRight: byte, ledPlayer: byte,
    ledR: byte, ledG: byte, ledB: byte, dirty: bool)

  /** The nine positions of an eight-way hat switch. */
  datatype Direction = Up | UpRight | Right | DownRight | Down | DownLeft | Left | UpLeft | Center

  predicate PointsUp(d: Direction) { d == Up || d == UpRight || d == UpLeft }
  predicate PointsDown(d: Direction) { d == Down || d == DownRight || d == DownLeft }
  predicate PointsLeft(d: Direction) { d == Left || d == UpLeft || d == DownLeft }
  predicate PointsRight(d: Direction) { d == Right || d == UpRight || d == DownRight }

  /**
   * `convert_dpad_to_hat`: the four diagonals are tried first (up-right,
   * up-left, down-right, down-left), then the four cardinals (up, down, left,
   * right); with nothing pressed the hat is centred.
   */
  function DpadDirection(buttons: Buttons): (d: Direction)
    ensures d == Center <==>
      !Pressed(buttons, JP_DU) && !Pressed(buttons, JP_DD) &&
      !Pressed(buttons, JP_DL) && !Pressed(buttons, JP_DR)
    ensures PointsUp(d) ==> Pressed(buttons, JP_DU)
    ensures PointsDown(d) ==> Pressed(buttons, JP_DD)
    ensures PointsLeft(d) ==> Pressed(buttons, JP_DL)
    ensures PointsRight(d) ==> Pressed(buttons, JP_DR)
  {
    var up := Pressed(buttons, JP_DU);
    var down := Pressed(buttons, JP_DD);
    var left := Pressed(buttons, JP_DL);
    var right := Pressed(buttons, JP_DR);
    if up && right then UpRight
    else if up && left then UpLeft
    else if down && right then DownRight
    else if down && left then DownLeft
    else if up then Up
    else if down then Down
    else if left then Left
    else if right then Right
    else Center
  }

  /** Without an opposing pair held, the hat shows exactly the pressed directions. */
  lemma DirectionExact(buttons: Buttons)
    requires !(Pressed(buttons, JP_DU) && Pressed(buttons, JP_DD))
    requires !(Pressed(buttons, JP_DL) && Pressed(buttons, JP_DR))
    ensures var d := DpadDirection(buttons);
      && (PointsUp(d) <==> Pressed(buttons, JP_DU))
      && (PointsDown(d) <==> Pressed(buttons, JP_DD))
      && (PointsLeft(d) <==> Pressed(buttons, JP_DL))
      && (PointsRight(d) <==> Pressed(buttons, JP_DR))
  {
  }

  /**
   * Opposing pairs: up wins over down; right wins over left on a diagonal,
   * but left wins when no vertical direction is held.
   */
  lemma DirectionOpposing(buttons: Buttons)
    ensures var d := DpadDirection(buttons);
      && (Pressed(buttons, JP_DU) ==> PointsUp(d))
      && (Pressed(buttons, JP_DL) && Pressed(buttons, JP_DR) ==>
            if Pressed(buttons, JP_DU) || Pressed(buttons, JP_DD) then PointsRight(d) else d == Left)
  {
  }

  /** A hat code: the eight directions clockwise from up as 0..7, the centre as `center`. */
  function HatCode(d: Direction, center: byte): (h: byte)
    ensures d == Center ==> h == center
    ensures d != Center ==> h < 8
  {
    match d
    case Up => 0
    case UpRight => 1
    case Right => 2
    case DownRight => 3
    case Down => 4
    case DownLeft => 5
    case Left => 6
    case UpLeft => 7
    case Center => center
  }

  /** Reading a hat code back; any code outside 0..7 means centred. */
  function HatDirection(h: byte): (d: Direction)
    ensures h >= 8 <==> d == Center
  {
    if h == 0 then Up
    else if h == 1 then UpRight
    else if h == 2 then Right
    else if h == 3 then DownRight
    else if h == 4 then Down
    else if h == 5 then DownLeft
    else if h == 6 then Left
    else if h == 7 then UpLeft
    else Center
  }

  /** With a centre code of 8 or more, the hat code loses nothing. */
  lemma HatRoundTrip(d: Direction, center: byte)
    requires center >= 8
    ensures HatDirection(HatCode(d, center)) == d
  {
  }

  /** One flag of a packed button byte: `if (pressed) byte |= mask`. */
  function Flag(on: bool, mask: bv8): bv8 { if on then mask else 0 }

  /**
   * `convert_axis_to_s16` (XInput, Xbox OG, Xbox One): (v - 128) * 256,
   * clamped to the int16 range; the clamp never takes effect.
   */
  function AxisToS16(v: byte): (r: int)
    ensures -0x8000 <= r < 0x8000
    ensures r == (v - 128) * 256
  {
    Clamp((v - 128) * 256, -0x8000, 0x7FFF)
  }

  /** The way back: the high byte of the offset value, re-centred at 128. */
  function AxisFromS16(r: int): int
  {
    r / 256 + 128
  }

  /** The 16-bit axis keeps every 8-bit position: centre to 0, and back unchanged. */
  lemma AxisRoundTrip(v: byte)
    ensures AxisFromS16(AxisToS16(v)) == v
    ensures v == 128 <==> AxisToS16(v) == 0
  {
  }

  /** The conversion keeps the order of positions. */
  lemma AxisMonotone(v: byte, w: byte)
    requires v <= w
    ensures AxisToS16(v) <= AxisToS16(w)
  {
  }

  /**
   * `convert_axis_to_s16_inverted` (XInput Y axes): the negated offset,
   * clamped, so that 0 (full up) gives +32767.
   */
  function AxisToS16Inverted(v: byte): (r: int)
    ensures -0x8000 <= r < 0x8000
    ensures v > 0 ==> r == -AxisToS16(v)
    ensures v == 0 ==> r == 0x7FFF
  {
    Clamp(-(v - 128) * 256, -0x8000, 0x7FFF)
  }

  /** The inverted conversion reverses the order of positions and keeps 128 at 0. */
  lemma InvertedAntitone(v: byte, w: byte)
    requires v <= w
    ensures AxisToS16Inverted(v) >= AxisToS16Inverted(w)
    ensures AxisToS16Inverted(128) == 0
  {
  }

  /**
   * A trigger byte with the digital fallback: the analog value, or full
   * scale when the analog value is 0 but the digital button is held.
   */
  function TriggerWithFallback(analog: byte, pressed: bool): (t: byte)
    ensures t == 0 <==> analog == 0 && !pressed
    ensures analog != 0 ==> t == analog
    ensures analog == 0 && pressed ==> t == 0xFF
  {
    if analog == 0 && pressed then 0xFF else analog
  }
}

=== FILE: wiimote_bt.dfy ===
// The Wiimote Bluetooth HID driver: the core button bits, the Nunchuk and
// Classic Controller extension data, the status, acknowledgement and
// read-data reports that drive the initialisation state machine, and the
// task that sends the requests, retries the status request and keeps the
// connection alive.

module WiimoteBt {
  import opened Common

  const WIIMOTE_INIT_DELAY_MS: nat := 100
  const WIIMOTE_INIT_MAX_RETRIES: nat := 5
  const WIIMOTE_KEEPALIVE_MS: nat := 30000
  /** Every request waits one second for its answer. */
  const REPLY_TIMEOUT_US: nat := 1000000

  const WII_REPORT_STATUS: byte := 0x20
  const WII_REPORT_READ_DATA: byte := 0x21
  const WII_REPORT_ACK: byte := 0x22
  const WII_REPORT_BUTTONS_EXT8: byte := 0x32

  const WII_CMD_LED: byte := 0x11
  const WII_CMD_REPORT_MODE: byte := 0x12
  const WII_CMD_STATUS_REQ: byte := 0x15
  const WII_CMD_WRITE_DATA: byte := 0x16
  const WII_CMD_READ_DATA: byte := 0x17

  /** Extension registers written to start an extension without encryption, and the identifier read back. */
  const EXT_INIT1_ADDR: nat := 0xA400F0
  const EXT_INIT2_ADDR: nat := 0xA400FB
  const EXT_TYPE_ADDR: nat := 0xA400FA

  function Zeros(n: nat): (z: seq<byte>)
    ensures |z| == n && forall i :: 0 <= i < n ==> z[i] == 0
  {
    seq(n, _ => 0)
  }

  // ---------------------------------------------------------------------------
  // Buttons
  // ---------------------------------------------------------------------------

  /** The raw core button word: the used bits of bytes 1 and 2. */
  function CoreRaw(b1: byte, b2: byte): (raw: bv16)
    ensures raw & !0x9F1F == 0
    ensures raw & 0xFF == (b1 as bv16) & 0x1F
    ensures raw >> 8 == (b2 as bv16) & 0x9F
  {
    ((b1 as bv16) & 0x1F) | (((b2 as bv16) & 0x9F) << 8)
  }

  predicate Held(raw: bv16, mask: bv16) { raw & mask != 0 }

  const WII_BTN_LEFT: bv16 := 0x0001
  const WII_BTN_RIGHT: bv16 := 0x0002
  const WII_BTN_DOWN: bv16 := 0x0004
  const WII_BTN_UP: bv16 := 0x0008
  const WII_BTN_PLUS: bv16 := 0x0010
  const WII_BTN_TWO: bv16 := 0x0100
  const WII_BTN_ONE: bv16 := 0x0200
  const WII_BTN_B: bv16 := 0x0400
  const WII_BTN_A: bv16 := 0x0800
  const WII_BTN_MINUS: bv16 := 0x1000
  const WII_BTN_HOME: bv16 := 0x8000

  const FACE_MASK: Buttons := JP_B1 | JP_B2 | JP_B3 | JP_B4
  const SHOULDER_MASK: Buttons := JP_L1 | JP_R1 | JP_L2 | JP_R2
  const SYSTEM_MASK: Buttons := JP_S1 | JP_S2 | JP_A1
  const DPAD_MASK: Buttons := JP_DU | JP_DD | JP_DL | JP_DR

  function DpadBits(up: bool, down: bool, left: bool, right: bool): (b: Buttons)
    ensures Pressed(b, JP_DU) <==> up
    ensures Pressed(b, JP_DD) <==> down
    ensures Pressed(b, JP_DL) <==> left
    ensures Pressed(b, JP_DR) <==> right
    ensures b & !DPAD_MASK == 0
  {
    (if up then JP_DU else 0) | (if down then JP_DD else 0) |
    (if left then JP_DL else 0) | (if right then JP_DR else 0)
  }

  function FaceBits(b1: bool, b2: bool, b3: bool, b4: bool): (b: Buttons)
    ensures Pressed(b, JP_B1) <==> b1
    ensures Pressed(b, JP_B2) <==> b2
    ensures Pressed(b, JP_B3) <==> b3
    ensures Pressed(b, JP_B4) <==> b4
    ensures b & !FACE_MASK == 0
  {
    (if b1 then JP_B1 else 0) | (if b2 then JP_B2 else 0) |
    (if b3 then JP_B3 else 0) | (if b4 then JP_B4 else 0)
  }

  function SystemBits(s1: bool, s2: bool, a1: bool): (b: Buttons)
    ensures Pressed(b, JP_S1) <==> s1
    ensures Pressed(b, JP_S2) <==> s2
    ensures Pressed(b, JP_A1) <==> a1
    ensures b & !SYSTEM_MASK == 0
  {
    (if s1 then JP_S1 else 0) | (if s2 then JP_S2 else 0) | (if a1 then JP_A1 else 0)
  }

  function ShoulderBits(l1: bool, r1: bool, l2: bool, r2: bool): (b: Buttons)
    ensures Pressed(b, JP_L1) <==> l1
    ensures Pressed(b, JP_R1) <==> r1
    ensures Pressed(b, JP_L2) <==> l2
    ensures Pressed(b, JP_R2) <==> r2
    ensures b & !SHOULDER_MASK == 0
  {
    (if l1 then JP_L1 else 0) | (if r1 then JP_R1 else 0) |
    (if l2 then JP_L2 else 0) | (if r2 then JP_R2 else 0)
  }

  /**
   * The core buttons with the Wiimote held sideways: B (the trigger) is
   * B1, A is B2, 1 is B3 and 2 is B4; Minus, Plus and Home are S1, S2
   * and A1.
   */
  function CoreButtons(raw: bv16): (b: Buttons)
    ensures b & DPAD_MASK ==
      DpadBits(Held(raw, WII_BTN_UP), Held(raw, WII_BTN_DOWN), Held(raw, WII_BTN_LEFT), Held(raw, WII_BTN_RIGHT))
    ensures b & FACE_MASK ==
      FaceBits(Held(raw, WII_BTN_B), Held(raw, WII_BTN_A), Held(raw, WII_BTN_ONE), Held(raw, WII_BTN_TWO))
    ensures b & SYSTEM_MASK == SystemBits(Held(raw, WII_BTN_MINUS), Held(raw, WII_BTN_PLUS), Held(raw, WII_BTN_HOME))
    ensures b & !(DPAD_MASK | FACE_MASK | SYSTEM_MASK) == 0
  {
    DpadBits(Held(raw, WII_BTN_UP), Held(raw, WII_BTN_DOWN), Held(raw, WII_BTN_LEFT), Held(raw, WII_BTN_RIGHT)) |
    FaceBits(Held(raw, WII_BTN_B), Held(raw, WII_BTN_A), Held(raw, WII_BTN_ONE), Held(raw, WII_BTN_TWO)) |
    SystemBits(Held(raw, WII_BTN_MINUS), Held(raw, WII_BTN_PLUS), Held(raw, WII_BTN_HOME))
  }

  /** The Nunchuk's Z and C, active low in extension byte 5, press L2 and L1. */
  function NunchukButtons(e5: byte): (b: Buttons)
    ensures Pressed(b, JP_L2) <==> e5 % 2 == 0
    ensures Pressed(b, JP_L1) <==> (e5 / 2) % 2 == 0
    ensures b & !(JP_L1 | JP_L2) == 0
  {
    (if e5 % 2 == 0 then JP_L2 else 0) | (if (e5 / 2) % 2 == 0 then JP_L1 else 0)
  }

  const WII_CC_BTN_RT: bv16 := 0x0002
  const WII_CC_BTN_PLUS: bv16 := 0x0004
  const WII_CC_BTN_HOME: bv16 := 0x0008
  const WII_CC_BTN_MINUS: bv16 := 0x0010
  const WII_CC_BTN_LT: bv16 := 0x0020
  const WII_CC_BTN_DOWN: bv16 := 0x0040
  const WII_CC_BTN_RIGHT: bv16 := 0x0080
  const WII_CC_BTN_UP: bv16 := 0x0100
  const WII_CC_BTN_LEFT: bv16 := 0x0200
  const WII_CC_BTN_ZR: bv16 := 0x0400
  const WII_CC_BTN_X: bv16 := 0x0800
  const WII_CC_BTN_A: bv16 := 0x1000
  const WII_CC_BTN_Y: bv16 := 0x2000
  const WII_CC_BTN_B: bv16 := 0x4000
  const WII_CC_BTN_ZL: bv16 := 0x8000

  /** The Classic Controller button word: bytes 4 and 5, active low, so a held button reads 1. */
  function ClassicRaw(e4: byte, e5: byte): (cc: bv16)
    ensures cc & 0xFF == !(e4 as bv16) & 0xFF
    ensures cc >> 8 == !(e5 as bv16) & 0xFF
  {
    !((e4 as bv16) | ((e5 as bv16) << 8))
  }

  function ClassicFrontButtons(cc: bv16): (b: Buttons)
    ensures b & FACE_MASK ==
      FaceBits(Held(cc, WII_CC_BTN_B), Held(cc, WII_CC_BTN_A), Held(cc, WII_CC_BTN_Y), Held(cc, WII_CC_BTN_X))
    ensures b & SHOULDER_MASK ==
      ShoulderBits(Held(cc, WII_CC_BTN_LT), Held(cc, WII_CC_BTN_RT), Held(cc, WII_CC_BTN_ZL), Held(cc, WII_CC_BTN_ZR))
    ensures b & !(FACE_MASK | SHOULDER_MASK) == 0
  {
    FaceBits(Held(cc, WII_CC_BTN_B), Held(cc, WII_CC_BTN_A), Held(cc, WII_CC_BTN_Y), Held(cc, WII_CC_BTN_X)) |
    ShoulderBits(Held(cc, WII_CC_BTN_LT), Held(cc, WII_CC_BTN_RT), Held(cc, WII_CC_BTN_ZL), Held(cc, WII_CC_BTN_ZR))
  }

  function ClassicBackButtons(cc: bv16): (b: Buttons)
    ensures b & SYSTEM_MASK == SystemBits(Held(cc, WII_CC_BTN_MINUS), Held(cc, WII_CC_BTN_PLUS), Held(cc, WII_CC_BTN_HOME))
    ensures b & DPAD_MASK ==
      DpadBits(Held(cc, WII_CC_BTN_UP), Held(cc, WII_CC_BTN_DOWN), Held(cc, WII_CC_BTN_LEFT), Held(cc, WII_CC_BTN_RIGHT))
    ensures b & !(SYSTEM_MASK | DPAD_MASK) == 0
  {
    SystemBits(Held(cc, WII_CC_BTN_MINUS), Held(cc, WII_CC_BTN_PLUS), Held(cc, WII_CC_BTN_HOME)) |
    DpadBits(Held(cc, WII_CC_BTN_UP), Held(cc, WII_CC_BTN_DOWN), Held(cc, WII_CC_BTN_LEFT), Held(cc, WII_CC_BTN_RIGHT))
  }

  /**
   * The Classic Controller (and NES/SNES Classic) buttons in the Nintendo
   * layout: B bottom, A right, Y left, X top; L and R press L1 and R1, ZL
   * and ZR press L2 and R2.
   */
  function ClassicButtons(cc: bv16): (b: Buttons)
    ensures b & (FACE_MASK | SHOULDER_MASK) == ClassicFrontButtons(cc)
    ensures b & (SYSTEM_MASK | DPAD_MASK) == ClassicBackButtons(cc)
    ensures b & !(FACE_MASK | SHOULDER_MASK | SYSTEM_MASK | DPAD_MASK) == 0
  {
    ClassicFrontButtons(cc) | ClassicBackButtons(cc)
  }

  // ---------------------------------------------------------------------------
  // Extension sticks and triggers
  // ---------------------------------------------------------------------------

  /** A 6-bit value widened to 8 bits by repeating its top bits below it. */
  function Widen6(v: nat): (r: byte)
    requires v < 0x40
    ensures r / 4 == v
    ensures v == 0 ==> r == 0
    ensures v == 0x3F ==> r == 0xFF
  {
    v * 4 + v / 0x10
  }

  /** A 5-bit value widened to 8 bits the same way. */
  function Widen5(v: nat): (r: byte)
    requires v < 0x20
    ensures r / 8 == v
    ensures v == 0 ==> r == 0
    ensures v == 0x1F ==> r == 0xFF
  {
    v * 8 + v / 4
  }

  /** Widening keeps order, since the top bits are the value itself. */
  lemma WidenMonotone(a: nat, b: nat)
    requires a <= b
    ensures b < 0x40 ==> Widen6(a) <= Widen6(b)
    ensures b < 0x20 ==> Widen5(a) <= Widen5(b)
  {
  }

  /** The analog slots the driver fills: ANALOG_X, _Y, _Z, _RX, _RZ and _SLIDER. */
  datatype WiiAnalog = WiiAnalog(x: byte, y: byte, z: byte, rx: byte, rz: byte, slider: byte)

  /** Sticks centred and triggers released. */
  const CENTRED := WiiAnalog(128, 128, 128, 128, 0, 0)

  /** The stick and trigger fields of the first four Classic Controller extension bytes. */
  datatype ClassicAxes = ClassicAxes(lx: nat, ly: nat, rx: nat, ry: nat, lt: nat, rt: nat)

  predicate AxesInRange(a: ClassicAxes) {
    a.lx < 0x40 && a.ly < 0x40 && a.rx < 0x20 && a.ry < 0x20 && a.lt < 0x20 && a.rt < 0x20
  }

  /**
   * The controller's layout: byte 0 is RX<4:3> and LX, byte 1 RX<2:1> and
   * LY, byte 2 RX<0>, LT<4:3> and RY, byte 3 LT<2:0> and RT.
   */
  function EncodeClassic(a: ClassicAxes): (e: seq<byte>)
    requires AxesInRange(a)
    ensures |e| == 4
  {
    [(a.rx / 8) * 0x40 + a.lx,
     ((a.rx / 2) % 4) * 0x40 + a.ly,
     (a.rx % 2) * 0x80 + (a.lt / 8) * 0x20 + a.ry,
     (a.lt % 8) * 0x20 + a.rt]
  }

  /** RX, five bits spread over bytes 0-2. */
  function ClassicRx(e: seq<byte>): (v: nat)
    requires |e| >= 3
    ensures v < 0x20
  {
    (e[0] / 0x40) * 8 + (e[1] / 0x40) * 2 + e[2] / 0x80
  }

  /** LT as the driver assembles it: byte 2 bits 6:5 as bits 1:0, and byte 3 bits 6:4 as bits 4:2. */
  function ClassicLtAsWritten(e: seq<byte>): (v: nat)
    requires |e| >= 4
    ensures v < 0x20
  {
    (e[2] / 0x20) % 4 + ((e[3] / 0x10) % 8) * 4
  }

  /** LT as the layout places it: byte 2 bits 6:5 as bits 4:3, and byte 3 bits 7:5 as bits 2:0. */
  function ClassicLt(e: seq<byte>): (v: nat)
    requires |e| >= 4
    ensures v < 0x20
  {
    ((e[2] / 0x20) % 4) * 8 + e[3] / 0x20
  }

  /** The six fields of the extension bytes, with the left trigger assembled as the layout places it. */
  function DecodeClassic(e: seq<byte>): (a: ClassicAxes)
    requires |e| >= 4
    ensures AxesInRange(a)
  {
    ClassicAxes(e[0] % 0x40, e[1] % 0x40, ClassicRx(e), e[2] % 0x20, ClassicLt(e), e[3] % 0x20)
  }

  lemma DivMod32(q: nat, r: nat)
    requires r < 0x20
    ensures (q * 0x20 + r) / 0x20 == q && (q * 0x20 + r) % 0x20 == r
  {
  }

  lemma DivMod64(q: nat, r: nat)
    requires r < 0x40
    ensures (q * 0x40 + r) / 0x40 == q && (q * 0x40 + r) % 0x40 == r
  {
  }

  lemma DivMod128(q: nat, r: nat)
    requires r < 0x80
    ensures (q * 0x80 + r) / 0x80 == q && (q * 0x80 + r) % 0x80 == r
  {
  }

  /** Decoding recovers every field the controller encoded ... */
  lemma DecodeEncodeClassic(a: ClassicAxes)
    requires AxesInRange(a)
    ensures DecodeClassic(EncodeClassic(a)) == a
  {
    var e := EncodeClassic(a);
    EncodedLow(a, e);
    EncodedRx(a, e);
    EncodedLt(a, e);
  }

  lemma EncodedLow(a: ClassicAxes, e: seq<byte>)
    requires AxesInRange(a) && e == EncodeClassic(a)
    ensures e[0] % 0x40 == a.lx && e[1] % 0x40 == a.ly && e[2] % 0x20 == a.ry && e[3] % 0x20 == a.rt
  {
    DivMod64(a.rx / 8, a.lx);
    DivMod64((a.rx / 2) % 4, a.ly);
    DivMod32((a.rx % 2) * 4 + a.lt / 8, a.ry);
    assert e[2] == ((a.rx % 2) * 4 + a.lt / 8) * 0x20 + a.ry;
    DivMod32(a.lt % 8, a.rt);
  }

  lemma EncodedRx(a: ClassicAxes, e: seq<byte>)
    requires AxesInRange(a) && e == EncodeClassic(a)
    ensures ClassicRx(e) == a.rx
  {
    DivMod64(a.rx / 8, a.lx);
    DivMod64((a.rx / 2) % 4, a.ly);
    DivMod128(a.rx % 2, (a.lt / 8) * 0x20 + a.ry);
    assert a.rx == (a.rx / 8) * 8 + ((a.rx / 2) % 4) * 2 + a.rx % 2;
  }

  lemma EncodedLt(a: ClassicAxes, e: seq<byte>)
    requires AxesInRange(a) && e == EncodeClassic(a)
    ensures ClassicLt(e) == a.lt
  {
    Byte2Bits(a, e);
    DivMod32(a.lt % 8, a.rt);
  }

  /** ... and the four bytes hold nothing else. */
  lemma EncodeDecodeClassic(e: seq<byte>)
    requires |e| == 4
    ensures EncodeClassic(DecodeClassic(e)) == e
  {
    var a := DecodeClassic(e);
    var f := EncodeClassic(a);
    RxParts(e);
    LtParts(e);
    SplitByte(e[0], 0x40);
    SplitByte(e[1], 0x40);
    SplitByte(e[3], 0x20);
    SplitByte2(e[2]);
    assert f[0] == e[0] && f[1] == e[1] && f[2] == e[2] && f[3] == e[3];
  }

  lemma DivMod2(q: nat, r: nat)
    requires r < 2
    ensures (q * 2 + r) / 2 == q && (q * 2 + r) % 2 == r
  {
  }

  lemma DivMod4(q: nat, r: nat)
    requires r < 4
    ensures (q * 4 + r) / 4 == q && (q * 4 + r) % 4 == r
  {
  }

  lemma DivMod8(q: nat, r: nat)
    requires r < 8
    ensures (q * 8 + r) / 8 == q && (q * 8 + r) % 8 == r
  {
  }

  /** Where RX's bits come from. */
  lemma RxParts(e: seq<byte>)
    requires |e| >= 3
    ensures ClassicRx(e) / 8 == e[0] / 0x40
    ensures (ClassicRx(e) / 2) % 4 == e[1] / 0x40
    ensures ClassicRx(e) % 2 == e[2] / 0x80
  {
    var q0, q1, q2 := e[0] / 0x40, e[1] / 0x40, e[2] / 0x80;
    assert q1 < 4 && q2 < 2;
    DivMod8(q0, q1 * 2 + q2);
    DivMod2(q0 * 4 + q1, q2);
    assert ClassicRx(e) == (q0 * 4 + q1) * 2 + q2;
    DivMod4(q0, q1);
  }

  /** Where LT's bits come from. */
  lemma LtParts(e: seq<byte>)
    requires |e| >= 4
    ensures ClassicLt(e) / 8 == (e[2] / 0x20) % 4
    ensures ClassicLt(e) % 8 == e[3] / 0x20
  {
    DivMod8((e[2] / 0x20) % 4, e[3] / 0x20);
  }

  lemma SplitByte(b: byte, m: nat)
    requires m == 0x20 || m == 0x40
    ensures b == (b / m) * m + b % m
  {
  }

  lemma SplitByte2(b: byte)
    ensures b == (b / 0x80) * 0x80 + ((b / 0x20) % 4) * 0x20 + b % 0x20
  {
  }

  lemma DivMod16(q: nat, r: nat)
    requires r < 0x10
    ensures (q * 0x10 + r) / 0x10 == q && (q * 0x10 + r) % 0x10 == r
  {
  }

  /**
   * What the driver's left trigger reads from an encoded report: LT<4:3>
   * land in bits 1:0, LT<1:0> in bits 4:3 and RT<4> in bit 2.
   */
  lemma {:induction false} ClassicLtAsWrittenOfEncoded(a: ClassicAxes)
    requires AxesInRange(a)
    ensures ClassicLtAsWritten(EncodeClassic(a)) == a.lt / 8 + (a.rt / 0x10) * 4 + (a.lt % 4) * 8
  {
    var e := EncodeClassic(a);
    Byte2Bits(a, e);
    Byte3Bits(a, e);
  }

  lemma Byte2Bits(a: ClassicAxes, e: seq<byte>)
    requires AxesInRange(a) && e == EncodeClassic(a)
    ensures (e[2] / 0x20) % 4 == a.lt / 8
  {
    DivMod32((a.rx % 2) * 4 + a.lt / 8, a.ry);
    assert e[2] == ((a.rx % 2) * 4 + a.lt / 8) * 0x20 + a.ry;
    DivMod4(a.rx % 2, a.lt / 8);
  }

  lemma Byte3Bits(a: ClassicAxes, e: seq<byte>)
    requires AxesInRange(a) && e == EncodeClassic(a)
    ensures (e[3] / 0x10) % 8 == a.rt / 0x10 + (a.lt % 4) * 2
  {
    var hi := (a.lt % 8) * 2 + a.rt / 0x10;
    DivMod16(hi, a.rt % 0x10);
    assert e[3] == hi * 0x10 + a.rt % 0x10;
    assert (a.lt % 8) * 2 == ((a.lt / 4) % 2) * 8 + (a.lt % 4) * 2;
    DivMod8((a.lt / 4) % 2, (a.lt % 4) * 2 + a.rt / 0x10);
  }

  /** The driver's left trigger misreads the encoded one: a released LT with RT full on reads 4, a full LT with RT released 27. */
  lemma ClassicLtAsWrittenMisreads(a: ClassicAxes)
    requires AxesInRange(a)
    ensures a.lt == 0 && a.rt == 0x1F ==> ClassicLtAsWritten(EncodeClassic(a)) == 4 && Widen5(4) == 33
    ensures a.lt == 0x1F && a.rt == 0 ==> ClassicLtAsWritten(EncodeClassic(a)) == 27 && Widen5(27) == 222
  {
    ClassicLtAsWrittenOfEncoded(a);
  }

  /** The driver's RX reassembly agrees with the layout. */
  lemma ClassicRxRoundTrip(a: ClassicAxes)
    requires AxesInRange(a)
    ensures ClassicRx(EncodeClassic(a)) == a.rx
  {
    DecodeEncodeClassic(a);
  }

  /** The Classic Controller analogs: sticks and triggers widened to 8 bits, both Y axes inverted. */
  function ClassicAnalog(e: seq<byte>): (r: WiiAnalog)
    requires |e| >= 4
    ensures var a := DecodeClassic(e);
      && r.x / 4 == a.lx && (255 - r.y) / 4 == a.ly
      && r.z / 8 == a.rx && (255 - r.rx) / 8 == a.ry
      && r.rz / 8 == a.lt && r.slider / 8 == a.rt
  {
    var a := DecodeClassic(e);
    WiiAnalog(Widen6(a.lx), 255 - Widen6(a.ly), Widen5(a.rx), 255 - Widen5(a.ry), Widen5(a.lt), Widen5(a.rt))
  }

  /** The same with the driver's left trigger. */
  function ClassicAnalogAsWritten(e: seq<byte>): (r: WiiAnalog)
    requires |e| >= 4
    ensures r == ClassicAnalog(e).(rz := Widen5(ClassicLtAsWritten(e)))
  {
    var a := DecodeClassic(e);
    WiiAnalog(Widen6(a.lx), 255 - Widen6(a.ly), Widen5(a.rx), 255 - Widen5(a.ry),
      Widen5(ClassicLtAsWritten(e)), Widen5(a.rt))
  }

  /** With the right trigger fully pressed and the left released, the driver reports the left trigger at 33. */
  lemma ClassicAnalogAsWrittenMisreads()
    ensures ClassicAnalogAsWritten([0, 0, 0, 0x1F]).rz == 33
    ensures ClassicAnalog([0, 0, 0, 0x1F]).rz == 0
  {
    assert ClassicLtAsWritten([0, 0, 0, 0x1F]) == 4;
  }

  // ---------------------------------------------------------------------------
  // Extension identification and the outgoing requests
  // ---------------------------------------------------------------------------

  datatype ExtType = ExtNone | Nunchuk | Classic | ClassicMini

  /**
   * The extension behind the identifier bytes 0, 4 and 5 (bytes 2-3 being
   * A4 20): 00 00 is the Nunchuk, 01 01 a Classic Controller whose byte 0
   * tells the Classic (0, 1) from the NES/SNES Classic (2 and above); 01 20
   * is the Wii U Pro, left to its own driver; anything else is taken for a
   * Nunchuk.
   */
  function IdentifyExt(id0: byte, id4: byte, id5: byte): (t: Option<ExtType>)
    ensures t.None? <==> id4 == 0x01 && id5 == 0x20
    ensures t == Some(Classic) || t == Some(ClassicMini) <==> id4 == 0x01 && id5 == 0x01
    ensures t == Some(ClassicMini) <==> id4 == 0x01 && id5 == 0x01 && id0 >= 0x02
    ensures t != Some(ExtNone)
  {
    if id4 == 0x00 && id5 == 0x00 then Some(Nunchuk)
    else if id4 == 0x01 && id5 == 0x01 then (if id0 >= 0x02 then Some(ClassicMini) else Some(Classic))
    else if id4 == 0x01 && id5 == 0x20 then None
    else Some(Nunchuk)
  }

  /** The LED output report; the LEDs are bits 4-7. */
  function LedRequest(pattern: byte): (p: seq<byte>)
    ensures p == [0xA2, WII_CMD_LED, pattern]
  {
    [0xA2, WII_CMD_LED, pattern]
  }

  /** `wiimote_set_leds`: player 1-4 lights LED 1-4; any other player none. */
  function PlayerLedPattern(player: byte): (pattern: byte)
    ensures 1 <= player <= 4 ==> pattern == Pow2(player + 3)
    ensures !(1 <= player <= 4) ==> pattern == 0
  {
    Pow2Values();
    if 1 <= player <= 4 then [0x10, 0x20, 0x40, 0x80][player - 1] else 0
  }

  const STATUS_REQUEST: seq<byte> := [0xA2, WII_CMD_STATUS_REQ, 0x00]

  /** `wiimote_write_data`: one byte to the extension register space, in a 23-byte report. */
  function WriteRequest(address: nat, data: byte): (p: seq<byte>)
    requires address < 0x100_0000
    ensures |p| == 23 && p[..3] == [0xA2, WII_CMD_WRITE_DATA, 0x04]
    ensures p[3] as int * 0x1_0000 + p[4] as int * 0x100 + p[5] as int == address
    ensures p[6] == 1 && p[7] == data && p[8..] == Zeros(15)
  {
    [0xA2, WII_CMD_WRITE_DATA, 0x04, address / 0x1_0000, (address / 0x100) % 0x100, address % 0x100, 0x01, data]
      + Zeros(15)
  }

  /** `wiimote_read_data`: `size` bytes from the extension register space. */
  function ReadRequest(address: nat, size: u16): (p: seq<byte>)
    requires address < 0x100_0000
    ensures |p| == 8 && p[..3] == [0xA2, WII_CMD_READ_DATA, 0x04]
    ensures p[3] as int * 0x1_0000 + p[4] as int * 0x100 + p[5] as int == address
    ensures p[6] as int * 0x100 + p[7] as int == size
  {
    [0xA2, WII_CMD_READ_DATA, 0x04, address / 0x1_0000, (address / 0x100) % 0x100, address % 0x100,
     size / 0x100, size % 0x100]
  }

  /** `wiimote_set_report_mode`: buttons and 8 extension bytes with an extension, buttons only without. */
  function ReportModeRequest(hasExtension: bool): (p: seq<byte>)
    ensures |p| == 4 && p[..3] == [0xA2, WII_CMD_REPORT_MODE, 0x00]
    ensures p[3] == (if hasExtension then WII_REPORT_BUTTONS_EXT8 else 0x30)
  {
    [0xA2, WII_CMD_REPORT_MODE, 0x00, if hasExtension then 0x32 else 0x30]
  }

  function RumbleRequest(on: bool): (p: seq<byte>)
    ensures p == [0xA2, 0x10, if on then 1 else 0]
  {
    [0xA2, 0x10, if on then 0x01 else 0x00]
  }

  // ---------------------------------------------------------------------------
  // The 32-bit microsecond clock
  // ---------------------------------------------------------------------------

  function Wrap32(x: int): u32 { x % 0x1_0000_0000 }

  /** `(int32_t)(now - t)`. */
  function SignedDiff(now: u32, t: u32): (d: int)
    ensures -0x8000_0000 <= d < 0x8000_0000
    ensures (d - (now - t)) % 0x1_0000_0000 == 0
  {
    var u := Wrap32(now - t);
    if u < 0x8000_0000 then u else u - 0x1_0000_0000
  }

  /** `now` has reached the deadline `t`, across a wrap of the clock too. */
  predicate Reached(now: u32, t: u32) { SignedDiff(now, t) >= 0 }

  /** A deadline is reached from the moment itself until 2^31 microseconds after it ... */
  lemma ReachedAfter(t: u32, k: nat)
    requires k < 0x8000_0000
    ensures Reached(Wrap32(t + k), t)
  {
    var u := Wrap32(t + k);
    assert Wrap32(u - t) == k;
  }

  /** ... and not in the 2^31 microseconds before it. */
  lemma NotReachedBefore(t: u32, k: nat)
    requires 0 < k <= 0x8000_0000
    ensures !Reached(Wrap32(t - k), t)
  {
    var u := Wrap32(t - k);
    assert Wrap32(u - t) == 0x1_0000_0000 - k;
  }

  // ---------------------------------------------------------------------------
  // Per-device state
  // ---------------------------------------------------------------------------

  datatype WiiState =
    | Idle | WaitInit | SendStatusReq | WaitStatus
    | SendExtInit1 | WaitExtInit1Ack | SendExtInit2 | WaitExtInit2Ack
    | ReadExtType | WaitExtType | SendReportMode | WaitReportAck
    | SendLed | WaitLedAck | Ready

  /** `wiimote_data_t`: the event's device, buttons and analogs, and the driver's own fields. */
  datatype WiiData = WiiData(
    initialized: bool, connIndex: byte, state: WiiState,
    initTime: u32, initRetries: nat, lastKeepalive: u32,
    extType: ExtType, extensionConnected: bool,
    playerLed: byte, rumbleOn: bool,
    buttons: Buttons, analog: WiiAnalog)

  /** The zeroed static slot. */
  const ZERO_DATA := WiiData(false, 0, Idle, 0, 0, 0, ExtNone, false, 0, false, 0, WiiAnalog(0, 0, 0, 0, 0, 0))

  /** What the router receives: the connection index as the device address (instance 0), the buttons and the analogs. */
  datatype WiiEvent = WiiEvent(devAddr: byte, buttons: Buttons, analog: WiiAnalog)

  function EventOf(d: WiiData): WiiEvent {
    WiiEvent(d.connIndex, d.buttons, d.analog)
  }

  predicate IsButtonReport(id: byte) {
    (0x30 <= id <= 0x37) || id == 0x3E || id == 0x3F
  }

  /**
   * The extension bytes of report 0x32 applied on top of the core buttons:
   * the Nunchuk adds Z and C and sets only the X and Y analogs, the Classic
   * Controller adds its buttons and sets all six analogs, the NES/SNES
   * Classic adds its buttons only.
   */
  function WithExtension(d: WiiData, core: Buttons, ext: seq<byte>): (n: WiiData)
    requires |ext| >= 6
    ensures d.extType == ExtNone ==> n == d.(buttons := core)
    ensures d.extType == Nunchuk ==>
      n == d.(buttons := core | NunchukButtons(ext[5]), analog := d.analog.(x := ext[0], y := 255 - ext[1]))
    ensures d.extType == Classic ==>
      n == d.(buttons := core | ClassicButtons(ClassicRaw(ext[4], ext[5])), analog := ClassicAnalog(ext))
    ensures d.extType == ClassicMini ==> n == d.(buttons := core | ClassicButtons(ClassicRaw(ext[4], ext[5])))
  {
    match d.extType
    case Nunchuk => d.(buttons := core | NunchukButtons(ext[5]), analog := d.analog.(x := ext[0], y := 255 - ext[1]))
    case Classic => d.(buttons := core | ClassicButtons(ClassicRaw(ext[4], ext[5])), analog := ClassicAnalog(ext))
    case ClassicMini => d.(buttons := core | ClassicButtons(ClassicRaw(ext[4], ext[5])))
    case ExtNone => d.(buttons := core)
  }

  /**
   * A report carrying the core buttons: the buttons are rebuilt from the
   * core bits and, for report 0x32 with its extension bytes, from the
   * extension. The event goes to the router only once the device is ready.
   */
  function ButtonReport(d: WiiData, data: seq<byte>): (r: (WiiData, Option<WiiEvent>))
    requires |data| >= 3
    ensures data[0] == WII_REPORT_BUTTONS_EXT8 && |data| >= 9 ==>
      r.0 == WithExtension(d, CoreButtons(CoreRaw(data[1], data[2])), data[3..])
    ensures !(data[0] == WII_REPORT_BUTTONS_EXT8 && |data| >= 9) ==>
      r.0 == d.(buttons := CoreButtons(CoreRaw(data[1], data[2])))
    ensures r.1.Some? <==> d.state == Ready
    ensures r.1.Some? ==> r.1.value == EventOf(r.0)
  {
    var core := CoreButtons(CoreRaw(data[1], data[2]));
    var n := if data[0] == WII_REPORT_BUTTONS_EXT8 && |data| >= 9 then WithExtension(d, core, data[3..]) else d.(buttons := core);
    (n, if d.state == Ready then Some(EventOf(n)) else None)
  }

  /**
   * A status report, with the extension flag of byte 3: while waiting for
   * it, the flag decides between starting the extension and setting the
   * report mode; once ready, a change of the flag re-initialises, and a
   * removed extension recentres the analogs and tells the router at once.
   */
  function StatusReport(d: WiiData, extNow: bool): (r: (WiiData, Option<WiiEvent>))
    ensures d.state == WaitStatus ==>
      r == (d.(extensionConnected := extNow, state := if extNow then SendExtInit1 else SendReportMode), None)
    ensures d.state == Ready && extNow && !d.extensionConnected ==>
      r == (d.(extensionConnected := true, extType := ExtNone, state := SendExtInit1), None)
    ensures d.state == Ready && !extNow && d.extensionConnected ==>
      && r.0 == d.(extensionConnected := false, extType := ExtNone, analog := CENTRED, state := SendReportMode)
      && r.1 == Some(EventOf(r.0))
    ensures d.state != WaitStatus && (d.state != Ready || extNow == d.extensionConnected) ==> r == (d, None)
  {
    if d.state == WaitStatus then
      (d.(extensionConnected := extNow, state := if extNow then SendExtInit1 else SendReportMode), None)
    else if d.state == Ready && extNow != d.extensionConnected then
      if extNow then (d.(extensionConnected := true, extType := ExtNone, state := SendExtInit1), None)
      else
        var n := d.(extensionConnected := false, extType := ExtNone, analog := CENTRED, state := SendReportMode);
        (n, Some(EventOf(n)))
    else (d, None)
  }

  /** An acknowledgement moves a waiting state on only when it has no error and names that state's request. */
  function AckNext(state: WiiState, acked: byte, error: byte): (n: WiiState)
    ensures n != state <==>
      error == 0 &&
      ((state == WaitExtInit1Ack && acked == WII_CMD_WRITE_DATA) ||
       (state == WaitExtInit2Ack && acked == WII_CMD_WRITE_DATA) ||
       (state == WaitReportAck && acked == WII_CMD_REPORT_MODE) ||
       (state == WaitLedAck && acked == WII_CMD_LED))
    ensures n != state ==>
      n == match state
           case WaitExtInit1Ack => SendExtInit2
           case WaitExtInit2Ack => ReadExtType
           case WaitReportAck => SendLed
           case _ => Ready
  {
    if error != 0 then state
    else if state == WaitExtInit1Ack && acked == WII_CMD_WRITE_DATA then SendExtInit2
    else if state == WaitExtInit2Ack && acked == WII_CMD_WRITE_DATA then ReadExtType
    else if state == WaitReportAck && acked == WII_CMD_REPORT_MODE then SendLed
    else if state == WaitLedAck && acked == WII_CMD_LED then Ready
    else state
  }

  /** A read answer without error, long enough to hold the identifier, and carrying the A4 20 signature. */
  predicate SignedAnswer(data: seq<byte>) {
    |data| >= 12 && data[3] % 0x10 == 0 && data[8] == 0xA4 && data[9] == 0x20
  }

  /**
   * The answer to the extension identifier read: a good answer carrying
   * the A4 20 signature sets the extension type; whatever the answer, the
   * wait ends with setting the report mode.
   */
  function ReadDataReport(d: WiiData, data: seq<byte>): (n: WiiData)
    requires |data| >= 7
    ensures d.state != WaitExtType ==> n == d
    ensures d.state == WaitExtType ==> n.state == SendReportMode
    ensures d.state == WaitExtType && SignedAnswer(data) && IdentifyExt(data[6], data[10], data[11]).Some? ==>
      n == d.(extType := IdentifyExt(data[6], data[10], data[11]).value, state := SendReportMode)
    ensures n.extType != d.extType ==> d.state == WaitExtType && SignedAnswer(data)
    ensures d.state == WaitExtType && (!SignedAnswer(data) || IdentifyExt(data[6], data[10], data[11]).None?) ==>
      n == d.(state := SendReportMode)
  {
    if d.state != WaitExtType then d
    else
      var e :=
        if SignedAnswer(data) then
          IdentifyExt(data[6], data[10], data[11])
        else None;
      if e.Some? then d.(extType := e.value, state := SendReportMode) else d.(state := SendReportMode)
  }

  /** What the feedback service holds for the device's player, when it has one. */
  datatype Feedback = Feedback(
    rumbleDirty: bool, rumbleLeft: byte, rumbleRight: byte,
    ledPattern: byte, ledDirty: bool,
    /** `PLAYER_LEDS[player + 1]`, the default pattern of the player's slot. */
    defaultPattern: byte)

  /** The feedback LED pattern (bits 0-3) moved to the Wiimote's LED bits 4-7; the shift drops bits 4-7 of the pattern. */
  function FeedbackLed(fb: Feedback): (led: byte)
    ensures led % 0x10 == 0
    ensures fb.ledPattern != 0 ==> led / 0x10 == fb.ledPattern % 0x10
    ensures fb.ledPattern == 0 ==> led / 0x10 == fb.defaultPattern % 0x10
  {
    ((if fb.ledPattern != 0 then fb.ledPattern else fb.defaultPattern) % 0x10) * 0x10
  }

  /** The feedback asks for rumble when either motor is on; the Wiimote has one motor. */
  predicate RumbleWanted(fb: Feedback) {
    fb.rumbleLeft > 0 || fb.rumbleRight > 0
  }

  /** The rumble part of the ready pass: a changed wish is sent when the feedback marked it and the link is free. */
  function RumbleOut(d: WiiData, canSend: bool, fb: Option<Feedback>): (r: (WiiData, seq<seq<byte>>))
    ensures canSend && fb.Some? && fb.value.rumbleDirty ==> r.0 == d.(rumbleOn := RumbleWanted(fb.value))
    ensures r.1 != [] <==> canSend && fb.Some? && fb.value.rumbleDirty && RumbleWanted(fb.value) != d.rumbleOn
    ensures r.1 != [] ==> r.1 == [RumbleRequest(RumbleWanted(fb.value))]
    ensures r.1 == [] ==> r.0 == d
  {
    if fb.Some? && fb.value.rumbleDirty && RumbleWanted(fb.value) != d.rumbleOn && canSend then
      (d.(rumbleOn := RumbleWanted(fb.value)), [RumbleRequest(RumbleWanted(fb.value))])
    else (d, [])
  }

  /** The LED part: the pattern is sent when it changed or the feedback marked it, and the link is free. */
  function LedOut(d: WiiData, canSend: bool, fb: Option<Feedback>): (r: (WiiData, seq<seq<byte>>))
    ensures r.1 != [] <==> canSend && fb.Some? && (fb.value.ledDirty || FeedbackLed(fb.value) != d.playerLed)
    ensures r.1 != [] ==>
      r.0 == d.(playerLed := FeedbackLed(fb.value)) && r.1 == [LedRequest(FeedbackLed(fb.value))]
    ensures r.1 == [] ==> r.0 == d
  {
    if fb.Some? && (fb.value.ledDirty || FeedbackLed(fb.value) != d.playerLed) && canSend then
      (d.(playerLed := FeedbackLed(fb.value)), [LedRequest(FeedbackLed(fb.value))])
    else (d, [])
  }

  /** The keep-alive: a status request once 30 s have passed since the last one, when the link is free. */
  function KeepaliveOut(d: WiiData, now: u32, canSend: bool): (r: (WiiData, seq<seq<byte>>))
    ensures r.1 != [] <==> canSend && SignedDiff(now, d.lastKeepalive) >= WIIMOTE_KEEPALIVE_MS * 1000
    ensures r.1 != [] ==> r.0 == d.(lastKeepalive := now) && r.1 == [STATUS_REQUEST]
    ensures r.1 == [] ==> r.0 == d
  {
    if SignedDiff(now, d.lastKeepalive) >= WIIMOTE_KEEPALIVE_MS * 1000 && canSend then
      (d.(lastKeepalive := now), [STATUS_REQUEST])
    else (d, [])
  }

  /**
   * What `btstack_wiimote_can_send` answers at each of its call sites in one
   * task pass: the request of an initialisation state, and the rumble, LED
   * and keep-alive sends of the ready state, each of which asks on its own.
   */
  datatype LinkFree = LinkFree(request: bool, rumble: bool, led: bool, keepalive: bool)

  /** What one task pass sends, and whether it consumed the feedback's dirty flags. */
  datatype TaskOutput = TaskOutput(sent: seq<seq<byte>>, clearDirty: bool)

  /**
   * The ready state's pass: rumble, LEDs and keep-alive in that order;
   * the feedback's dirty flags are cleared whenever either was set.
   */
  function ReadyStep(d: WiiData, now: u32, link: LinkFree, fb: Option<Feedback>): (r: (WiiData, TaskOutput))
    requires d.state == Ready
    ensures r.0.state == Ready
    ensures !link.rumble && !link.led && !link.keepalive ==> r.0 == d && r.1.sent == []
    ensures r.1.clearDirty <==> fb.Some? && (fb.value.rumbleDirty || fb.value.ledDirty)
    ensures |r.1.sent| <= 3
    ensures var r1 := RumbleOut(d, link.rumble, fb);
      var r2 := LedOut(r1.0, link.led, fb);
      var r3 := KeepaliveOut(r2.0, now, link.keepalive);
      r.0 == r3.0 && r.1.sent == r1.1 + r2.1 + r3.1
  {
    var r1 := RumbleOut(d, link.rumble, fb);
    var r2 := LedOut(r1.0, link.led, fb);
    var r3 := KeepaliveOut(r2.0, now, link.keepalive);
    (r3.0, TaskOutput(r1.1 + r2.1 + r3.1, fb.Some? && (fb.value.rumbleDirty || fb.value.ledDirty)))
  }

  /**
   * The three sends of a ready pass ask for the link separately: a pass may
   * send the rumble and find the link busy for the LEDs. The LED pattern is
   * then not recorded, so it still differs, and the next pass that finds the
   * link free for the LEDs sends it, dirty flag or not.
   */
  lemma LedRetried(d: WiiData, now: u32, link: LinkFree, fb: Feedback, later: u32, link2: LinkFree, fb2: Feedback)
    requires d.state == Ready && !link.led && FeedbackLed(fb) != d.playerLed
    requires link2.led && FeedbackLed(fb2) == FeedbackLed(fb)
    ensures ReadyStep(d, now, link, Some(fb)).0.playerLed == d.playerLed
    ensures LedRequest(FeedbackLed(fb)) in ReadyStep(ReadyStep(d, now, link, Some(fb)).0, later, link2, Some(fb2)).1.sent
  {
    var d1 := ReadyStep(d, now, link, Some(fb)).0;
    var r1 := RumbleOut(d1, link2.rumble, Some(fb2));
    assert r1.0.playerLed == d1.playerLed;
    var r2 := LedOut(r1.0, link2.led, Some(fb2));
    assert r2.1 == [LedRequest(FeedbackLed(fb))];
  }

  /** A request state: with the link free, send the request and wait a second for its answer. */
  function SendStep(d: WiiData, now: u32, canSend: bool, request: seq<byte>, waitIn: WiiState): (r: (WiiData, seq<seq<byte>>))
    ensures canSend ==> r == (d.(state := waitIn, initTime := Wrap32(now + REPLY_TIMEOUT_US)), [request])
    ensures !canSend ==> r == (d, [])
  {
    if canSend then (d.(state := waitIn, initTime := Wrap32(now + REPLY_TIMEOUT_US)), [request]) else (d, [])
  }

  /** A waiting state: once its deadline passes without an answer, move on regardless. */
  function TimeoutStep(d: WiiData, now: u32, next: WiiState): (n: WiiData)
    ensures Reached(now, d.initTime) ==> n == d.(state := next)
    ensures !Reached(now, d.initTime) ==> n == d
  {
    if Reached(now, d.initTime) then d.(state := next) else d
  }

  /** One status timeout: a new request while fewer than five have failed, else on without the extension check. */
  function StatusTimeout(d: WiiData, now: u32): (n: WiiData)
    ensures !Reached(now, d.initTime) ==> n == d
    ensures Reached(now, d.initTime) && d.initRetries + 1 < WIIMOTE_INIT_MAX_RETRIES ==>
      n == d.(initRetries := d.initRetries + 1, state := SendStatusReq)
    ensures Reached(now, d.initTime) && d.initRetries + 1 >= WIIMOTE_INIT_MAX_RETRIES ==>
      n == d.(initRetries := 0, state := SendReportMode)
  {
    if !Reached(now, d.initTime) then d
    else if d.initRetries + 1 < WIIMOTE_INIT_MAX_RETRIES then d.(initRetries := d.initRetries + 1, state := SendStatusReq)
    else d.(initRetries := 0, state := SendReportMode)
  }

  /** `wiimote_task` on one device's data. */
  function TaskStep(d: WiiData, now: u32, link: LinkFree, fb: Option<Feedback>): (r: (WiiData, TaskOutput))
    ensures d.state == Idle ==> r == (d, TaskOutput([], false))
    ensures d.state == WaitStatus ==> r == (StatusTimeout(d, now), TaskOutput([], false))
    ensures d.state != Ready ==> !r.1.clearDirty && |r.1.sent| <= 1
    ensures d.state != Ready && !link.request ==> r.1.sent == []
    ensures d.state == Ready ==> r == ReadyStep(d, now, link, fb)
    ensures r.0.state == d.state || r.0.state == Next(d.state) || (d.state == WaitStatus && r.0.state == SendReportMode)
  {
    var canSend := link.request;
    match d.state
    case Idle => (d, TaskOutput([], false))
    case WaitInit => (TimeoutStep(d, now, SendStatusReq), TaskOutput([], false))
    case SendStatusReq =>
      var (n, s) := SendStep(d, now, canSend, STATUS_REQUEST, WaitStatus); (n, TaskOutput(s, false))
    case WaitStatus => (StatusTimeout(d, now), TaskOutput([], false))
    case SendExtInit1 =>
      var (n, s) := SendStep(d, now, canSend, WriteRequest(EXT_INIT1_ADDR, 0x55), WaitExtInit1Ack); (n, TaskOutput(s, false))
    case WaitExtInit1Ack => (TimeoutStep(d, now, SendExtInit2), TaskOutput([], false))
    case SendExtInit2 =>
      var (n, s) := SendStep(d, now, canSend, WriteRequest(EXT_INIT2_ADDR, 0x00), WaitExtInit2Ack); (n, TaskOutput(s, false))
    case WaitExtInit2Ack => (TimeoutStep(d, now, ReadExtType), TaskOutput([], false))
    case ReadExtType =>
      var (n, s) := SendStep(d, now, canSend, ReadRequest(EXT_TYPE_ADDR, 6), WaitExtType); (n, TaskOutput(s, false))
    case WaitExtType => (TimeoutStep(d, now, SendReportMode), TaskOutput([], false))
    case SendReportMode =>
      var (n, s) := SendStep(d, now, canSend, ReportModeRequest(d.extensionConnected), WaitReportAck); (n, TaskOutput(s, false))
    case WaitReportAck => (TimeoutStep(d, now, SendLed), TaskOutput([], false))
    case SendLed =>
      var (n, s) := SendStep(d.(playerLed := 0x10), now, canSend, LedRequest(PlayerLedPattern(1)), WaitLedAck);
      (if canSend then n else d, TaskOutput(s, false))
    case WaitLedAck =>
      (if Reached(now, d.initTime) then d.(state := Ready, lastKeepalive := now) else d, TaskOutput([], false))
    case Ready => ReadyStep(d, now, link, fb)
  }

  /** The state the initialisation moves to from each state, answered or not; the ready state stays. */
  function Next(s: WiiState): WiiState {
    match s
    case Idle => Idle
    case WaitInit => SendStatusReq
    case SendStatusReq => WaitStatus
    case WaitStatus => SendStatusReq
    case SendExtInit1 => WaitExtInit1Ack
    case WaitExtInit1Ack => SendExtInit2
    case SendExtInit2 => WaitExtInit2Ack
    case WaitExtInit2Ack => ReadExtType
    case ReadExtType => WaitExtType
    case WaitExtType => SendReportMode
    case SendReportMode => WaitReportAck
    case WaitReportAck => SendLed
    case SendLed => WaitLedAck
    case WaitLedAck => Ready
    case Ready => Ready
  }

  /**
   * A status request that is never answered: the request is sent, and the
   * task runs again one reply timeout later.
   */
  function UnansweredStatus(d: WiiData, now: u32): (r: (WiiData, seq<seq<byte>>))
    requires d.state == SendStatusReq
  {
    var (sent, out) := SendStep(d, now, true, STATUS_REQUEST, WaitStatus);
    (StatusTimeout(sent, Wrap32(now + REPLY_TIMEOUT_US)), out)
  }

  /** The status requests sent over `n` unanswered rounds, and the data after them. */
  function UnansweredRounds(d: WiiData, now: u32, n: nat): (WiiData, seq<seq<byte>>)
    decreases n
  {
    if n == 0 || d.state != SendStatusReq then (d, [])
    else
      var (d1, s1) := UnansweredStatus(d, now);
      var (d2, s2) := UnansweredRounds(d1, Wrap32(now + REPLY_TIMEOUT_US), n - 1);
      (d2, s1 + s2)
  }

  lemma TimeoutReached(now: u32)
    ensures Reached(Wrap32(now + REPLY_TIMEOUT_US), Wrap32(now + REPLY_TIMEOUT_US))
  {
  }

  /**
   * With no status answer at all, the device sends the status request five
   * times in all (counting from no failed attempt) and then goes on to set
   * the report mode with the retry count reset.
   */
  lemma {:induction false} FiveStatusAttempts(d: WiiData, now: u32, n: nat)
    requires d.state == SendStatusReq && n > 0 && d.initRetries + n == WIIMOTE_INIT_MAX_RETRIES
    ensures UnansweredRounds(d, now, n).1 == seq(n, _ => STATUS_REQUEST)
    ensures UnansweredRounds(d, now, n).0.state == SendReportMode
    ensures UnansweredRounds(d, now, n).0.initRetries == 0
    decreases n
  {
    var later := Wrap32(now + REPLY_TIMEOUT_US);
    var sent := d.(state := WaitStatus, initTime := later);
    assert SendStep(d, now, true, STATUS_REQUEST, WaitStatus) == (sent, [STATUS_REQUEST]);
    TimeoutReached(now);
    assert Reached(later, sent.initTime);
    var d1 := StatusTimeout(sent, later);
    assert UnansweredStatus(d, now) == (d1, [STATUS_REQUEST]);
    if n == 1 {
      assert d1.state == SendReportMode;
      assert UnansweredRounds(d1, Wrap32(now + REPLY_TIMEOUT_US), 0) == (d1, []);
    } else {
      assert d1.state == SendStatusReq && d1.initRetries == d.initRetries + 1;
      FiveStatusAttempts(d1, later, n - 1);
      assert [STATUS_REQUEST] + seq(n - 1, _ => STATUS_REQUEST) == seq(n, _ => STATUS_REQUEST);
    }
  }

  /** `wiimote_match`: the Nintendo Wiimote ids, or the Wiimote's name without the Wii U Pro's "-UC". */
  predicate Contains(s: string, t: string)
    decreases |s|
  {
    |s| >= |t| && (s[..|t|] == t || Contains(s[1..], t))
  }

  const WIIMOTE_NAME: string := "Nintendo RVL-CNT-01"
  const WII_U_PRO_SUFFIX: string := "-UC"

  function Matches(name: Option<string>, vendorId: u16, productId: u16): (m: bool)
    ensures vendorId == 0x057E && productId == 0x0306 ==> m
    ensures name.Some? && Contains(name.value, WIIMOTE_NAME) && !Contains(name.value, WII_U_PRO_SUFFIX) ==> m
    ensures m ==>
      (vendorId == 0x057E && productId == 0x0306) ||
      (name.Some? && Contains(name.value, WIIMOTE_NAME) && !Contains(name.value, WII_U_PRO_SUFFIX))
  {
    (vendorId == 0x057E && productId == 0x0306) ||
    (name.Some? && Contains(name.value, WIIMOTE_NAME) && !Contains(name.value, WII_U_PRO_SUFFIX))
  }

  /** An occurrence at any position counts. */
  lemma {:induction false} ContainsAt(s: string, t: string, i: nat)
    requires i + |t| <= |s| && s[i..i + |t|] == t
    ensures Contains(s, t)
    decreases i
  {
    if i > 0 {
      assert s[1..][i - 1..i - 1 + |t|] == s[i..i + |t|];
      ContainsAt(s[1..], t, i - 1);
    } else {
      assert s[..|t|] == s[i..i + |t|];
    }
  }

  /** Without the second character of `t` anywhere in `s`, `s` cannot contain `t`. */
  lemma {:induction false} MissingCharNotContained(s: string, t: string)
    requires |t| >= 2 && t[1] !in s
    ensures !Contains(s, t)
    decreases |s|
  {
    if |s| >= |t| {
      assert s[..|t|][1] == s[1] && s[1] in s;
      assert t[1] !in s[1..] by {
        forall i | 0 <= i < |s[1..]|
          ensures s[1..][i] != t[1]
        {
          assert s[1..][i] == s[i + 1] && s[i + 1] in s;
        }
      }
      MissingCharNotContained(s[1..], t);
    }
  }

  /** The Wiimote's name matches; the Wii U Pro's, the same with "-UC" appended, does not, being left to its own driver. */
  lemma MatchesByName()
    ensures Matches(Some(WIIMOTE_NAME), 0, 0)
    ensures !Matches(Some(WIIMOTE_NAME + WII_U_PRO_SUFFIX), 0, 0)
  {
    ContainsAt(WIIMOTE_NAME, WIIMOTE_NAME, 0);
    assert 'U' !in WIIMOTE_NAME;
    MissingCharNotContained(WIIMOTE_NAME, WII_U_PRO_SUFFIX);
    SuffixContained(WIIMOTE_NAME, WII_U_PRO_SUFFIX);
  }

  lemma SuffixContained(s: string, t: string)
    ensures Contains(s + t, t)
  {
    assert (s + t)[|s|..|s| + |t|] == t;
    ContainsAt(s + t, t, |s|);
  }

  // ---------------------------------------------------------------------------
  // The driver's static table
  // ---------------------------------------------------------------------------

  /** `wiimote_data[BTHID_MAX_DEVICES]`; a device holds the index of its slot. */
  class WiimoteDriver {
    var slots: seq<WiiData>

    /** The table starts zeroed; its size is the Bluetooth HID device limit. */
    constructor (maxDevices: nat)
      ensures slots == seq(maxDevices, _ => ZERO_DATA)
    {
      slots := seq(maxDevices, _ => ZERO_DATA);
    }

    /**
     * `wiimote_init`: the first free slot is taken for the device, its
     * event cleared, and the first status request deferred by 100 ms; with
     * every slot taken the device is refused.
     */
    method Init(connIndex: byte, now: u32) returns (slot: Option<nat>)
      modifies this
      ensures slot.None? <==> forall i :: 0 <= i < |old(slots)| ==> old(slots)[i].initialized
      ensures slot.None? ==> slots == old(slots)
      ensures slot.Some? ==>
        && slot.value < |old(slots)| && !old(slots)[slot.value].initialized
        && (forall i :: 0 <= i < slot.value ==> old(slots)[i].initialized)
        && slots == old(slots)[slot.value := old(slots)[slot.value].(
             initialized := true, connIndex := connIndex, buttons := 0, analog := CENTRED,
             extType := ExtNone, extensionConnected := false,
             state := WaitInit, initTime := Wrap32(now + WIIMOTE_INIT_DELAY_MS * 1000), initRetries := 0)]
    {
      var i := 0;
      while i < |slots|
        invariant 0 <= i <= |slots| && slots == old(slots)
        invariant forall j :: 0 <= j < i ==> slots[j].initialized
      {
        if !slots[i].initialized {
          slots := slots[i := slots[i].(
            initialized := true, connIndex := connIndex, buttons := 0, analog := CENTRED,
            extType := ExtNone, extensionConnected := false,
            state := WaitInit, initTime := Wrap32(now + WIIMOTE_INIT_DELAY_MS * 1000), initRetries := 0)];
          return Some(i);
        }
        i := i + 1;
      }
      return None;
    }

    /**
     * `wiimote_process_report`: one report from the device, by report id;
     * an empty report does nothing. `now` is the clock read when the LED
     * acknowledgement completes the initialisation.
     */
    method ProcessReport(slot: nat, data: seq<byte>, now: u32) returns (ev: Option<WiiEvent>)
      requires slot < |slots|
      modifies this
      ensures |slots| == |old(slots)|
      ensures forall i :: 0 <= i < |slots| && i != slot ==> slots[i] == old(slots)[i]
      ensures var d := old(slots)[slot];
        && (|data| == 0 ==> ev.None? && slots[slot] == d)
        && (|data| >= 3 && IsButtonReport(data[0]) ==> (slots[slot], ev) == ButtonReport(d, data))
        && (|data| >= 4 && data[0] == WII_REPORT_STATUS ==> (slots[slot], ev) == StatusReport(d, (data[3] / 2) % 2 == 1))
        && (|data| >= 5 && data[0] == WII_REPORT_ACK ==>
            var n := AckNext(d.state, data[3], data[4]);
            ev.None? && slots[slot] == (if n == Ready && d.state != Ready then d.(state := n, lastKeepalive := now) else d.(state := n)))
        && (|data| >= 7 && data[0] == WII_REPORT_READ_DATA ==> ev.None? && slots[slot] == ReadDataReport(d, data))
        && (|data| > 0 && !(|data| >= 3 && IsButtonReport(data[0])) && !(|data| >= 4 && data[0] == WII_REPORT_STATUS)
            && !(|data| >= 5 && data[0] == WII_REPORT_ACK) && !(|data| >= 7 && data[0] == WII_REPORT_READ_DATA) ==>
            ev.None? && slots[slot] == d)
    {
      var d := slots[slot];
      ev := None;
      if |data| == 0 {
        return;
      }
      var id := data[0];
      if IsButtonReport(id) && |data| >= 3 {
        var r := ButtonReport(d, data);
        slots := slots[slot := r.0];
        ev := r.1;
      } else if id == WII_REPORT_STATUS && |data| >= 4 {
        var r := StatusReport(d, (data[3] / 2) % 2 == 1);
        slots := slots[slot := r.0];
        ev := r.1;
      } else if id == WII_REPORT_ACK && |data| >= 5 {
        var n := AckNext(d.state, data[3], data[4]);
        if n == Ready && d.state != Ready {
          slots := slots[slot := d.(state := n, lastKeepalive := now)];
        } else {
          slots := slots[slot := d.(state := n)];
        }
      } else if id == WII_REPORT_READ_DATA && |data| >= 7 {
        slots := slots[slot := ReadDataReport(d, data)];
      }
    }

    /** `wiimote_task` on a device's slot; the clock, the link's readiness and the feedback service are parameters. */
    method Task(slot: nat, now: u32, link: LinkFree, fb: Option<Feedback>) returns (out: TaskOutput)
      requires slot < |slots|
      modifies this
      ensures var r := TaskStep(old(slots)[slot], now, link, fb);
        slots == old(slots)[slot := r.0] && out == r.1
    {
      var r := TaskStep(slots[slot], now, link, fb);
      slots := slots[slot := r.0];
      out := r.1;
    }

    /** `wiimote_disconnect`: the event is cleared and the slot freed for the next device. */
    method Disconnect(slot: nat)
      requires slot < |slots|
      modifies this
      ensures slots == old(slots)[slot := old(slots)[slot].(initialized := false, state := Idle, buttons := 0, analog := CENTRED)]
      ensures !slots[slot].initialized
    {
      slots := slots[slot := slots[slot].(initialized := false, state := Idle, buttons := 0, analog := CENTRED)];
    }
  }
}

=== FILE: xac_mode.dfy ===
// The Xbox Adaptive Controller output mode: 8-bit sticks passed through, an
// eight-way hat, and twelve buttons split into a low nibble and a high byte.

module XacMode {
  import opened Common
  import opened ButtonRemap
  import opened UsbdMode

  /** The hat's centre code; the directions use the usual clockwise 0..7. */
  const XAC_HAT_CENTER: byte := 8

  // XAC button k is the k-th button `send_report` tests.
  const XAC_FACE: seq<Move> := [
    Move(0, 0),    // B1 -> A
    Move(1, 1),    // B2 -> B
    Move(2, 2),    // B3 -> X
    Move(3, 3)     // B4 -> Y
  ]
  const XAC_SHOULDERS: seq<Move> := [
    Move(4, 4),    // L1 -> LB
    Move(5, 5),    // R1 -> RB
    Move(6, 6),    // L2 -> LT
    Move(7, 7)     // R2 -> RT
  ]
  const XAC_MIDDLE: seq<Move> := [
    Move(8, 8),    // S1 -> Back
    Move(9, 9),    // S2 -> Start
    Move(10, 10),  // L3 -> LS
    Move(11, 11)   // R3 -> RS
  ]
  const XAC_MOVES: seq<Move> := XAC_FACE + (XAC_SHOULDERS + XAC_MIDDLE)

  /** The `xac_buttons` word `send_report` builds. */
  function ConvertButtons(buttons: Buttons): Buttons {
    Remap(XAC_MOVES, buttons)
  }

  lemma XacMovesDistinct()
    ensures TargetsDistinct(XAC_MOVES)
  {
    assert TargetsAscending(XAC_SHOULDERS) && TargetsAscending(XAC_MIDDLE) by {}
    AscendingAppend(XAC_SHOULDERS, XAC_MIDDLE);
    assert TargetsAscending(XAC_FACE) by {}
    AscendingAppend(XAC_FACE, XAC_SHOULDERS + XAC_MIDDLE);
    AscendingDistinct(XAC_MOVES);
  }

  /** Each of the twelve JP buttons sets its own XAC button, and only when pressed. */
  lemma ConvertMove(buttons: Buttons, i: nat)
    requires i < |XAC_MOVES|
    ensures BitSet(ConvertButtons(buttons), XAC_MOVES[i].to) <==> BitSet(buttons, XAC_MOVES[i].from)
  {
    XacMovesDistinct();
    MovedBit(XAC_MOVES, buttons, i);
  }

  /** No other JP button (d-pad, A1..A4, L4, R4) sets anything; bits 12 and up stay clear. */
  lemma ConvertOnlyListed(buttons: Buttons, k: BitPos)
    requires k >= 12
    ensures !BitSet(ConvertButtons(buttons), k)
  {
    Untargeted(XAC_MOVES, buttons, k);
  }

  /** The button word fits in twelve bits. */
  lemma ConvertFits(buttons: Buttons)
    ensures ConvertButtons(buttons) & 0xFFFF_F000 == 0
  {
    ConvertOnlyListed(buttons, 12);
    ConvertOnlyListed(buttons, 13);
    ConvertOnlyListed(buttons, 14);
    ConvertOnlyListed(buttons, 15);
    ConvertOnlyListed(buttons, 16);
    ConvertOnlyListed(buttons, 17);
    ConvertOnlyListed(buttons, 18);
    ConvertOnlyListed(buttons, 19);
    ConvertOnlyListed(buttons, 20);
    ConvertOnlyListed(buttons, 21);
    ConvertOnlyListed(buttons, 22);
    ConvertOnlyListed(buttons, 23);
    ConvertOnlyListed(buttons, 24);
    ConvertOnlyListed(buttons, 25);
    ConvertOnlyListed(buttons, 26);
    ConvertOnlyListed(buttons, 27);
    ConvertOnlyListed(buttons, 28);
    ConvertOnlyListed(buttons, 29);
    ConvertOnlyListed(buttons, 30);
    ConvertOnlyListed(buttons, 31);
  }

  /** The fields of `xac_in_report_t` that `send_report` writes. */
  datatype XacReport = XacReport(lx: byte, ly: byte, rx: byte, ry: byte, hat: byte, buttonsLo: bv8, buttonsHi: bv8)

  /** `xac_mode_send_report`. */
  function SendReport(p: ProfileOut, buttons: Buttons): (r: XacReport)
    ensures r.lx == p.leftX && r.ly == p.leftY && r.rx == p.rightX && r.ry == p.rightY
  {
    var word := ConvertButtons(buttons);
    XacReport(p.leftX, p.leftY, p.rightX, p.rightY,
              HatCode(DpadDirection(buttons), XAC_HAT_CENTER),
              (word & 0x0F) as bv8, ((word >> 4) & 0xFF) as bv8)
  }

  /** The nibble and the byte put back together. */
  function Join(lo: bv8, hi: bv8): Buttons {
    (lo as bv32) | ((hi as bv32) << 4)
  }

  /** A twelve-bit word survives the nibble/byte split. */
  lemma SplitJoin(word: Buttons)
    requires word & 0xFFFF_F000 == 0
    ensures (word & 0x0F) as bv8 < 0x10
    ensures Join((word & 0x0F) as bv8, ((word >> 4) & 0xFF) as bv8) == word
  {
  }

  /** The split loses nothing: the twelve buttons come back from the report, and the nibble stays a nibble. */
  lemma ButtonsSplitLossless(p: ProfileOut, buttons: Buttons)
    ensures SendReport(p, buttons).buttonsLo < 0x10
    ensures Join(SendReport(p, buttons).buttonsLo, SendReport(p, buttons).buttonsHi) == ConvertButtons(buttons)
  {
    ConvertFits(buttons);
    SplitJoin(ConvertButtons(buttons));
  }

  /** The hat is centred exactly when no d-pad direction is held, and otherwise reads back the direction. */
  lemma HatFollowsDpad(p: ProfileOut, buttons: Buttons)
    ensures var r := SendReport(p, buttons);
      && (r.hat == XAC_HAT_CENTER <==>
            !Pressed(buttons, JP_DU) && !Pressed(buttons, JP_DD) &&
            !Pressed(buttons, JP_DL) && !Pressed(buttons, JP_DR))
      && HatDirection(r.hat) == DpadDirection(buttons)
  {
    HatRoundTrip(DpadDirection(buttons), XAC_HAT_CENTER);
  }
}

=== FILE: xbone_mode.dfy ===
// The Xbox One (GIP) output mode: the input report is cleared and refilled
// on every send, with 10-bit triggers and signed 16-bit sticks whose Y axes
// point up.

module XboneMode {
  import opened Common
  import opened UsbdMode

  /** The fields of `gip_input_report_t` that `send_report` writes; everything else stays 0. */
  datatype XboneReport = XboneReport(
    a: bool, b: bool, x: bool, y: bool,
    leftShoulder: bool, rightShoulder: bool, back: bool, start: bool,
    guide: bool, sync: bool, leftThumb: bool, rightThumb: bool,
    dpadUp: bool, dpadDown: bool, dpadLeft: bool, dpadRight: bool,
    leftTrigger: int, rightTrigger: int,
    leftStickX: int, leftStickY: int, rightStickX: int, rightStickY: int)

  /** A 10-bit trigger: the 8-bit value times 4, or 1023 for a digital press with no analog value. */
  function Trigger(analog: byte, pressed: bool): (t: int)
    ensures 0 <= t <= 1023
    ensures t == 1023 <==> analog == 0 && pressed
    ensures t != 1023 ==> t == analog * 4 && t <= 1020
  {
    var scaled := analog * 4;
    if scaled == 0 && pressed then 1023 else scaled
  }

  /**
   * A Y axis as `send_report` writes it: the standard conversion negated
   * and stored in an `int16_t`, where +32768 wraps to -32768.
   */
  function StickYAsWritten(v: byte): (r: int)
    ensures -0x8000 <= r < 0x8000
  {
    ToInt16(-AxisToS16(v))
  }

  /** Full deflection up (0) comes out as full deflection down. */
  lemma StickYAsWrittenFlips()
    ensures StickYAsWritten(0) == -0x8000
    ensures StickYAsWritten(1) == 0x7F00
    ensures StickYAsWritten(255) == -0x7F00
  {
  }

  /** Apart from 0, the as-written Y axis agrees with the clamped inversion. */
  lemma StickYAsWrittenElsewhere(v: byte)
    requires v > 0
    ensures StickYAsWritten(v) == AxisToS16Inverted(v)
  {
  }

  lemma AsWrittenAgrees(v: byte)
    ensures v > 0 ==> StickYAsWritten(v) == StickY(v)
  {
    if v > 0 { StickYAsWrittenElsewhere(v); }
  }

  /**
   * A Y axis as intended: the negation clamped to the int16 range (the
   * XInput mode's inverted conversion), so that up is positive throughout.
   */
  function StickY(v: byte): (r: int)
    ensures -0x8000 <= r < 0x8000
    ensures v == 0 ==> r == 0x7FFF
  {
    AxisToS16Inverted(v)
  }

  /** The intended Y axis never reverses: a stick further down never reads higher. */
  lemma StickYAntitone(v: byte, w: byte)
    requires v <= w
    ensures StickY(v) >= StickY(w)
  {
    InvertedAntitone(v, w);
  }

  /** `xbone_mode_send_report`, with the Y axes corrected. */
  function SendReport(p: ProfileOut, buttons: Buttons): (r: XboneReport)
    ensures 0 <= r.leftTrigger <= 1023 && 0 <= r.rightTrigger <= 1023
    ensures -0x8000 <= r.leftStickX < 0x8000 && -0x8000 <= r.leftStickY < 0x8000
    ensures -0x8000 <= r.rightStickX < 0x8000 && -0x8000 <= r.rightStickY < 0x8000
    ensures p.leftY < 128 ==> r.leftStickY > 0
    ensures p.rightY < 128 ==> r.rightStickY > 0
    ensures p.leftY > 128 ==> r.leftStickY < 0
    ensures p.rightY > 128 ==> r.rightStickY < 0
  {
    XboneReport(
      Pressed(buttons, JP_B1), Pressed(buttons, JP_B2), Pressed(buttons, JP_B3), Pressed(buttons, JP_B4),
      Pressed(buttons, JP_L1), Pressed(buttons, JP_R1), Pressed(buttons, JP_S1), Pressed(buttons, JP_S2),
      Pressed(buttons, JP_A1), Pressed(buttons, JP_A2), Pressed(buttons, JP_L3), Pressed(buttons, JP_R3),
      Pressed(buttons, JP_DU), Pressed(buttons, JP_DD), Pressed(buttons, JP_DL), Pressed(buttons, JP_DR),
      Trigger(p.l2Analog, Pressed(buttons, JP_L2)), Trigger(p.r2Analog, Pressed(buttons, JP_R2)),
      AxisToS16(p.leftX), StickY(p.leftY), AxisToS16(p.rightX), StickY(p.rightY))
  }

  /** The report as the source writes it, which differs only in the Y axes. */
  function SendReportAsWritten(p: ProfileOut, buttons: Buttons): (r: XboneReport)
    ensures p.leftY > 0 && p.rightY > 0 ==> r == SendReport(p, buttons)
    ensures p.leftY == 0 ==> r.leftStickY == -0x8000 != SendReport(p, buttons).leftStickY
  {
    StickYAsWrittenFlips();
    AsWrittenAgrees(p.leftY);
    AsWrittenAgrees(p.rightY);
    SendReport(p, buttons).(leftStickY := StickYAsWritten(p.leftY), rightStickY := StickYAsWritten(p.rightY))
  }

  /**
   * Every send starts from a cleared report: the result depends on the
   * current input only, and an idle, centred controller gives all zeros.
   */
  lemma IdleReportIsZero()
    ensures SendReport(NEUTRAL, 0) ==
      XboneReport(false, false, false, false, false, false, false, false,
                  false, false, false, false, false, false, false, false,
                  0, 0, 0, 0, 0, 0)
  {
  }

  /** Up on the stick reads positive, down negative, centre zero; X keeps its direction. */
  lemma SticksPointUp(p: ProfileOut, buttons: Buttons)
    ensures var r := SendReport(p, buttons);
      && (p.leftY < 128 <==> r.leftStickY > 0)
      && (p.leftY == 128 <==> r.leftStickY == 0)
      && (p.leftX < 128 <==> r.leftStickX < 0)
      && AxisFromS16(r.leftStickX) == p.leftX
  {
    AxisRoundTrip(p.leftX);
  }
}

=== FILE: xid_mode.dfy ===
// The original Xbox (XID) output mode: a digital button byte, analog face
// buttons that are either released or fully pressed, triggers with a
// digital fallback, signed 16-bit sticks, and 16-bit rumble motors.

module XidMode {
  import opened Common
  import opened UsbdMode
  import XinputMode

  /**
   * `convert_xid_digital_buttons`: d-pad, Start, Back, L3 and R3; the Xbox
   * controller's digital byte has the same bit layout as XInput's `buttons0`.
   */
  function DigitalButtons(buttons: Buttons): bv8 {
    XinputMode.Buttons0(buttons)
  }

  /** Only the eight listed buttons reach the digital byte; face and shoulder buttons do not. */
  lemma DigitalOnlyListed(buttons: Buttons)
    ensures DigitalButtons(buttons) == DigitalButtons(buttons & 0x0000_FF00)
    ensures DigitalButtons(buttons) == 0 <==>
      !Pressed(buttons, JP_DU) && !Pressed(buttons, JP_DD) && !Pressed(buttons, JP_DL) &&
      !Pressed(buttons, JP_DR) && !Pressed(buttons, JP_S2) && !Pressed(buttons, JP_S1) &&
      !Pressed(buttons, JP_L3) && !Pressed(buttons, JP_R3)
  {
    XinputMode.Buttons0Fields(buttons);
    XinputMode.Buttons0Fields(buttons & 0x0000_FF00);
  }

  /** An analog face button driven by a digital one. */
  function AnalogButton(on: bool): byte { if on then 0xFF else 0 }

  /** The fields of `xbox_og_in_report_t` that `send_report` writes. */
  datatype XidReport = XidReport(
    buttons: bv8, a: byte, b: byte, x: byte, y: byte, black: byte, white: byte,
    triggerL: byte, triggerR: byte, stickLx: int, stickLy: int, stickRx: int, stickRy: int)

  /** `xid_mode_send_report`. */
  function SendReport(p: ProfileOut, buttons: Buttons): (r: XidReport)
    ensures r.a == 0xFF <==> Pressed(buttons, JP_B1)
    ensures r.b == 0xFF <==> Pressed(buttons, JP_B2)
    ensures r.x == 0xFF <==> Pressed(buttons, JP_B3)
    ensures r.y == 0xFF <==> Pressed(buttons, JP_B4)
    ensures r.black == 0xFF <==> Pressed(buttons, JP_L1)
    ensures r.white == 0xFF <==> Pressed(buttons, JP_R1)
    ensures r.a in {0, 0xFF} && r.b in {0, 0xFF} && r.x in {0, 0xFF} && r.y in {0, 0xFF}
    ensures r.black in {0, 0xFF} && r.white in {0, 0xFF}
    ensures r.triggerL == 0 <==> p.l2Analog == 0 && !Pressed(buttons, JP_L2)
    ensures r.triggerR == 0 <==> p.r2Analog == 0 && !Pressed(buttons, JP_R2)
    ensures -0x8000 <= r.stickLx < 0x8000 && -0x8000 <= r.stickLy < 0x8000
    ensures -0x8000 <= r.stickRx < 0x8000 && -0x8000 <= r.stickRy < 0x8000
  {
    XidReport(
      DigitalButtons(buttons),
      AnalogButton(Pressed(buttons, JP_B1)), AnalogButton(Pressed(buttons, JP_B2)),
      AnalogButton(Pressed(buttons, JP_B3)), AnalogButton(Pressed(buttons, JP_B4)),
      AnalogButton(Pressed(buttons, JP_L1)), AnalogButton(Pressed(buttons, JP_R1)),
      TriggerWithFallback(p.l2Analog, Pressed(buttons, JP_L2)),
      TriggerWithFallback(p.r2Analog, Pressed(buttons, JP_R2)),
      AxisToS16(p.leftX), AxisToS16(p.leftY), AxisToS16(p.rightX), AxisToS16(p.rightY))
  }

  /**
   * The sticks keep their 8-bit positions and are not inverted: the Y axes
   * grow downwards like the input, unlike XInput's.
   */
  lemma SticksNotInverted(p: ProfileOut, buttons: Buttons)
    ensures var r := SendReport(p, buttons);
      && AxisFromS16(r.stickLx) == p.leftX && AxisFromS16(r.stickLy) == p.leftY
      && AxisFromS16(r.stickRx) == p.rightX && AxisFromS16(r.stickRy) == p.rightY
      && (p.leftY < 128 <==> r.stickLy < 0)
  {
    AxisRoundTrip(p.leftX);
    AxisRoundTrip(p.leftY);
    AxisRoundTrip(p.rightX);
    AxisRoundTrip(p.rightY);
  }

  /** `xbox_og_out_report_t`: two 16-bit motors. */
  datatype XidRumble = XidRumble(rumbleL: u16, rumbleR: u16)

  /** `xid_mode_get_rumble`: the high byte of the stronger motor. */
  function GetRumble(rumble: XidRumble): (r: byte)
    ensures r == HiByte(rumble.rumbleL) || r == HiByte(rumble.rumbleR)
    ensures r >= HiByte(rumble.rumbleL) && r >= HiByte(rumble.rumbleR)
  {
    var strongest := if rumble.rumbleL > rumble.rumbleR then rumble.rumbleL else rumble.rumbleR;
    strongest / 256
  }

  /** `xid_mode_get_feedback`: always hands over the high bytes of both motors. */
  function GetFeedback(rumble: XidRumble, fb: Feedback): (fb': Feedback)
    ensures fb'.rumbleLeft == HiByte(rumble.rumbleL) && fb'.rumbleRight == HiByte(rumble.rumbleR)
    ensures fb'.dirty
    ensures fb'.ledPlayer == fb.ledPlayer && fb'.ledR == fb.ledR && fb'.ledG == fb.ledG && fb'.ledB == fb.ledB
  {
    fb.(rumbleLeft := rumble.rumbleL / 256, rumbleRight := rumble.rumbleR / 256, dirty := true)
  }

  /** The 8-bit rumble is the larger of the two feedback bytes. */
  lemma RumbleIsStrongerFeedback(rumble: XidRumble, fb: Feedback)
    ensures var f := GetFeedback(rumble, fb);
      GetRumble(rumble) == Max(f.rumbleLeft, f.rumbleRight)
  {
  }

  /** The mode's rumble state; the report itself is rewritten in full by every send. */
  class XidDevice {
    var rumble: XidRumble
    var rumbleAvailable: bool

    /** `xid_mode_init`: motors off, nothing latched. */
    constructor ()
      ensures rumble == XidRumble(0, 0) && !rumbleAvailable
    {
      rumble := XidRumble(0, 0);
      rumbleAvailable := false;
    }

    /** `xid_mode_task`: `fromDriver` is what `tud_xid_get_rumble` hands over, if anything. */
    method Task(fromDriver: Option<XidRumble>)
      modifies this
      ensures fromDriver.Some? ==> rumble == fromDriver.value && rumbleAvailable
      ensures fromDriver.None? ==> rumble == old(rumble) && rumbleAvailable == old(rumbleAvailable)
    {
      if fromDriver.Some? {
        rumble := fromDriver.value;
        rumbleAvailable := true;
      }
    }
  }
}

=== FILE: xinput_mode.dfy ===
// The XInput (Xbox 360) output mode: two packed button bytes, triggers with
// a digital fallback, signed 16-bit sticks with the Y axes inverted, and the
// rumble output latch.

module XinputMode {
  import opened Common
  import opened UsbdMode

  /** `buttons0`: d-pad up/down/left/right, Start, Back, L3, R3 in bits 0..7. */
  function Buttons0(buttons: Buttons): bv8 {
    Flag(Pressed(buttons, JP_DU), 0x01) | Flag(Pressed(buttons, JP_DD), 0x02) |
    Flag(Pressed(buttons, JP_DL), 0x04) | Flag(Pressed(buttons, JP_DR), 0x08) |
    Flag(Pressed(buttons, JP_S2), 0x10) | Flag(Pressed(buttons, JP_S1), 0x20) |
    Flag(Pressed(buttons, JP_L3), 0x40) | Flag(Pressed(buttons, JP_R3), 0x80)
  }

  /** `buttons1`: LB, RB, Guide in bits 0..2, bit 3 unused, A, B, X, Y in bits 4..7. */
  function Buttons1(buttons: Buttons): bv8 {
    Flag(Pressed(buttons, JP_L1), 0x01) | Flag(Pressed(buttons, JP_R1), 0x02) |
    Flag(Pressed(buttons, JP_A1), 0x04) |
    Flag(Pressed(buttons, JP_B1), 0x10) | Flag(Pressed(buttons, JP_B2), 0x20) |
    Flag(Pressed(buttons, JP_B3), 0x40) | Flag(Pressed(buttons, JP_B4), 0x80)
  }

  /** Each bit of `buttons0` is its listed button. */
  lemma Buttons0Fields(buttons: Buttons)
    ensures var b := Buttons0(buttons);
      && (b & 0x01 != 0 <==> Pressed(buttons, JP_DU))
      && (b & 0x02 != 0 <==> Pressed(buttons, JP_DD))
      && (b & 0x04 != 0 <==> Pressed(buttons, JP_DL))
      && (b & 0x08 != 0 <==> Pressed(buttons, JP_DR))
      && (b & 0x10 != 0 <==> Pressed(buttons, JP_S2))
      && (b & 0x20 != 0 <==> Pressed(buttons, JP_S1))
      && (b & 0x40 != 0 <==> Pressed(buttons, JP_L3))
      && (b & 0x80 != 0 <==> Pressed(buttons, JP_R3))
  {
  }

  /** Each used bit of `buttons1` is its listed button; bit 3 is never set. */
  lemma Buttons1Fields(buttons: Buttons)
    ensures var b := Buttons1(buttons);
      && (b & 0x01 != 0 <==> Pressed(buttons, JP_L1))
      && (b & 0x02 != 0 <==> Pressed(buttons, JP_R1))
      && (b & 0x04 != 0 <==> Pressed(buttons, JP_A1))
      && b & 0x08 == 0
      && (b & 0x10 != 0 <==> Pressed(buttons, JP_B1))
      && (b & 0x20 != 0 <==> Pressed(buttons, JP_B2))
      && (b & 0x40 != 0 <==> Pressed(buttons, JP_B3))
      && (b & 0x80 != 0 <==> Pressed(buttons, JP_B4))
  {
  }

  /** The fields of `xinput_in_report_t` the mode writes. */
  datatype XinputReport = XinputReport(
    reportId: byte, reportSize: byte, buttons0: bv8, buttons1: bv8,
    triggerL: byte, triggerR: byte, stickLx: int, stickLy: int, stickRx: int, stickRy: int)

  /** `sizeof(xinput_in_report_t)`: 6 bytes of header, buttons and triggers, 4 sticks, 6 reserved. */
  const XINPUT_REPORT_SIZE: byte := 20

  /** The report after `init`. */
  const INIT_REPORT: XinputReport := XinputReport(0, XINPUT_REPORT_SIZE, 0, 0, 0, 0, 0, 0, 0, 0)

  /** The report after `send_report`; the id and size bytes are kept. */
  function Report(prev: XinputReport, p: ProfileOut, buttons: Buttons): (r: XinputReport)
    ensures r.reportId == prev.reportId && r.reportSize == prev.reportSize
  {
    prev.(buttons0 := Buttons0(buttons), buttons1 := Buttons1(buttons),
          triggerL := TriggerWithFallback(p.l2Analog, Pressed(buttons, JP_L2)),
          triggerR := TriggerWithFallback(p.r2Analog, Pressed(buttons, JP_R2)),
          stickLx := AxisToS16(p.leftX), stickLy := AxisToS16Inverted(p.leftY),
          stickRx := AxisToS16(p.rightX), stickRy := AxisToS16Inverted(p.rightY))
  }

  /**
   * The sticks as the host reads them: X grows to the right, Y grows upwards,
   * both centred at 0; full up (0) reads +32767.
   */
  lemma ReportSticks(prev: XinputReport, p: ProfileOut, buttons: Buttons)
    ensures var r := Report(prev, p, buttons);
      && AxisFromS16(r.stickLx) == p.leftX && AxisFromS16(r.stickRx) == p.rightX
      && (p.leftY == 128 <==> r.stickLy == 0)
      && (p.leftY == 0 ==> r.stickLy == 0x7FFF)
      && (p.leftY > 0 ==> AxisFromS16(-r.stickLy) == p.leftY)
  {
    AxisRoundTrip(p.leftX);
    AxisRoundTrip(p.rightX);
    AxisRoundTrip(p.leftY);
  }

  /** `xinput_out_report_t`: the LED pattern and the two motors. */
  datatype XinputOutput = XinputOutput(led: byte, rumbleL: byte, rumbleR: byte)

  const NO_OUTPUT: XinputOutput := XinputOutput(0, 0, 0)

  /** The mode's state: the input report and the rumble latch. */
  class XinputDevice {
    var report: XinputReport
    var output: XinputOutput
    var outputAvailable: bool

    /** `xinput_mode_init` (the console authentication it also starts is not part of this class). */
    constructor ()
      ensures report == INIT_REPORT && output == NO_OUTPUT && !outputAvailable
    {
      report := INIT_REPORT;
      output := NO_OUTPUT;
      outputAvailable := false;
    }

    /** `xinput_mode_send_report`. */
    method SendReport(p: ProfileOut, buttons: Buttons)
      modifies this`report
      ensures report == Report(old(report), p, buttons)
    {
      report := Report(report, p, buttons);
    }

    /**
     * `xinput_mode_task`: `fromDriver` is what `tud_xinput_get_output` hands
     * over, if anything; a new output report raises the latch.
     */
    method Task(fromDriver: Option<XinputOutput>)
      modifies this`output, this`outputAvailable
      ensures fromDriver.Some? ==> output == fromDriver.value && outputAvailable
      ensures fromDriver.None? ==> output == old(output) && outputAvailable == old(outputAvailable)
    {
      if fromDriver.Some? {
        output := fromDriver.value;
        outputAvailable := true;
      }
    }

    /** `xinput_mode_get_rumble`: the stronger of the two motors. */
    function GetRumble(): (r: byte)
      reads this
      ensures r >= output.rumbleL && r >= output.rumbleR
      ensures r == output.rumbleL || r == output.rumbleR
    {
      if output.rumbleL > output.rumbleR then output.rumbleL else output.rumbleR
    }

    /** `xinput_mode_get_feedback`: hands the motors over once per output report. */
    method GetFeedback(fb: Feedback) returns (ok: bool, fb': Feedback)
      modifies this`outputAvailable
      ensures ok == old(outputAvailable) && !outputAvailable
      ensures ok ==> fb' == fb.(rumbleLeft := output.rumbleL, rumbleRight := output.rumbleR, dirty := true)
      ensures !ok ==> fb' == fb
    {
      if !outputAvailable {
        return false, fb;
      }
      fb' := fb.(rumbleLeft := output.rumbleL, rumbleRight := output.rumbleR, dirty := true);
      outputAvailable := false;
      ok := true;
    }
  }
}
